=== FILE: README.md ===
# FastFrames configuration model

A Dafny model of the deterministic core of FastFrames. FastFrames is a
histogram and ntuple production framework built on ROOT's RDataFrame.
The model covers the part of the framework that decides *what* is run:

- **The Python configuration reader.** It covers:
  - the option ledgers (`BlockOptionsGetter`, `VariationsOptionsGetter`) that report options nobody read;
  - the numbering-sequence expander (`AutomaticRangeGenerator`);
  - the readers of the general, region, variable, sample, truth, systematic, ntuple and cutflow blocks;
  - the unique-sample resolution (dataset number × campaign, composed samples);
  - the document reader (`ConfigReader`) that resolves every cross-reference between blocks.
- **The TRExFitter export** (`TrexSettingsGetter`). It covers:
  - the names of configured and automatic systematics;
  - trimming of comma lists;
  - the choice between a sample list and its complement;
  - the merge of automatic, configured and TRExFitter-only systematics;
  - the split between inclusive and unfolding samples.
- **The pure helpers of the native engine:**
  - the `StringOperations` namespace;
  - the `SystematicReplacer` maps and substitution;
  - file splitting and regex branch selection (`Utils`);
  - `Sample`, `ConfigSetting` and `Metadata` bookkeeping;
  - `UniqueSampleID` ordering;
  - cross-section file validation and the PMG e-tag policy (`XSectionManager`);
  - the index-sorting selection helpers (`DefineHelpers`);
  - `Binning` and the python-facing `VariableWrapper`;
  - the sum-of-weights histogram naming rule (`SumWeightsGetter`).
- **The job-merging script** (`merge_jobs.py`). Only the bookkeeping of which job outputs belong to a sample, and whether they are complete.

Every fatal exit of the program is an error value of a `Result`/`Outcome`
datatype (`wrappers.dfy`). A parsed YAML document is a tagged `Value`
(`values.dfy`) whose mappings keep document order. Regular expressions are
abstract (`regex.dfy`). An `Engine` gives which pattern matches which whole
string, and the two matching operations the program mixes are defined from it:

- `FullMatch` is `re.fullmatch` / `std::regex_match`;
- `PrefixMatch` is `re.match`.

Command-line options are explicit parameters (`cli.dfy`), not a process-wide singleton.

Where the prose description of the program and its code disagree, the model
follows the code:

- A `get` of an absent option marks nothing as used. Only a present option is recorded (`BlockOptionsGetter.py:30-32`). So a defaulted option that is never given cannot appear among the unused ones either way.
- The native `Sample::isData` holds when ANY unique sample is data. The Python `is_data_sample` requires ALL of them. Both are modelled as written. They differ only on a sample that mixes data and simulation (`SampleReader.MixedSampleIsDataOnlyNatively`), and they agree on every sample whose identities are all of one kind (`SampleReader.DataChecksAgreeOnUniformSamples`).

## Model

| member | source | states |
|---|---|---|
| VariableModel.DefaultBinning | FastFrames/Root/Binning.cc:21-27 | The default axis has no bins, no edges, a zero range, and is flagged regular. |
| VariableModel.RangeBinning | FastFrames/Root/Binning.cc:3-9 | A range axis keeps its minimum, maximum and bin count, has no edges, and is regular. |
| VariableModel.EdgesBinningAsWritten | FastFrames/Root/Binning.cc:12-18 | The edges constructor as written keeps the edges, zeroes the range, and raises the regular flag. |
| VariableModel.EdgesBinning | FastFrames/Root/Binning.cc:12-18 | The corrected edges constructor keeps the edges and the zero range, and is not regular. |
| VariableModel.SetRange | install/include/FastFrames/Binning.h:54-59 | The range setter replaces the range and count, marks the axis regular, and leaves the edges alone. |
| VariableModel.SetEdges | install/include/FastFrames/Binning.h:66 | The edges setter replaces the edges, clears the regular flag, and leaves the range alone. |
| VariableModel.AxisNbins | FastFrames/python_wrapper/headers/VariableWrapper.h:190-195 | A regular axis reports its stored count; any other axis reports one bin fewer than it has edges. |
| VariableModel.LastSetterWins | install/include/FastFrames/Binning.h:54-66 | Whichever setter ran last decides the reported bin count, and neither setter loses the other kind of data. |
| VariableModel.EdgesConstructorReportsNoBins | FastFrames/Root/Binning.cc:12-18 | Built from three edges, the as-written axis reports zero bins; the corrected axis reports two. |
| VariableModel.EdgesBinningAgreesWithSetter | install/include/FastFrames/Binning.h:66 | The corrected edges constructor equals the edges setter applied to the default axis, so it reports one bin fewer than edges. |
| VariableModel.BinEdgesString | FastFrames/python_wrapper/headers/VariableWrapper.h:155-165 | Appending "edge," for each edge and then dropping the last comma gives the edges joined by commas. |
| VariableModel.FindByName | FastFrames/python_wrapper/headers/VariableWrapper.h:244-251 | The name lookup fails exactly when no row has that name, and otherwise returns the type of a row with that name. |
| VariableModel.FindByType | FastFrames/python_wrapper/headers/VariableWrapper.h:235-242 | The type lookup fails exactly when no row has that type. |
| VariableModel.FindRow | FastFrames/python_wrapper/headers/VariableWrapper.h:235-251 | In a table without repeats, every row is found both by its name and by its type. |
| VariableModel.TypeNamed | FastFrames/python_wrapper/headers/VariableWrapper.h:244-251 | An unlisted type name is a runtime error carrying "Unknown variable type: " and the name; a listed name converts. |
| VariableModel.NameOfType | FastFrames/python_wrapper/headers/VariableWrapper.h:235-242 | A type that is not in the table prints as "undefined". |
| VariableModel.TypeTableDistinct | FastFrames/python_wrapper/headers/VariableWrapper.h:254-284 | The wrapper's type table lists no name twice and no type twice. |
| VariableModel.TypeNamesRoundTrip | FastFrames/python_wrapper/headers/VariableWrapper.h:235-284 | Each listed name converts to its type, and that type prints back as the same name. |
| VariableModel.TypeRoundTrip | FastFrames/python_wrapper/headers/VariableWrapper.h:235-284 | Every variable type prints as a name that converts back to that type. |
| VariableModel.TypeNamedPrintsBack | FastFrames/python_wrapper/headers/VariableWrapper.h:235-251 | A name that the conversion accepts prints back as itself. |
| VariableModel.TypeRow | FastFrames/python_wrapper/headers/VariableWrapper.h:254-284 | Every type has a row in the table. |
| VariableModel.NewVariable | FastFrames/FastFrames/Variable.h:64 | A new variable has the given name, an empty definition, the default binning, is not nominal-only, and has an undefined type. |
| CommandLine.KeepSelected | FastFrames/python/ConfigReaderModules/BlockReaderSample.py:37-50 | The kept items are exactly those also on the command-line list, in their original order; with no list, all items are kept. |
| CommandLine.KeepSelectedIdempotent | FastFrames/python/ConfigReaderModules/BlockReaderSample.py:37-50 | Filtering a second time with the same command-line list changes nothing. |
| CommandLine.KeepSelectedSamples | FastFrames/python/ConfigReaderModules/CommandLineOptions.py:213-226 | An absent sample list stays absent; otherwise a sample survives exactly when the command line names it or gives no list. |
| CommandLine.CheckSamplesExist | FastFrames/python/ConfigReaderModules/CommandLineOptions.py:199-211 | The check passes exactly when there is no command-line list or every sample it names is configured. |
| ConfigReader.DropHidden | FastFrames/python/ConfigReaderModules/ConfigReader.py:32 | The reader's document keeps the non-dotted keys, in document order and with their values, and no dotted key. |
| ConfigReader.DropHiddenKeepsVisible | FastFrames/python/ConfigReaderModules/ConfigReader.py:32 | A document without dotted keys reaches the reader unchanged. |
| ConfigReader.DropHiddenIdempotent | FastFrames/python/ConfigReaderModules/ConfigReader.py:32 | Dropping the dotted keys a second time changes nothing. |
| ConfigReader.HiddenBlocksAreIgnored | FastFrames/python/ConfigReaderModules/ConfigReader.py:32 | A dotted block added to the document, such as a YAML anchor holder, changes nothing the reader sees. |
| ConfigReader.RequiredBlocks | FastFrames/python/ConfigReaderModules/ConfigReader.py:38 | A required list block fails when it is absent; when read, it holds the document's list of mappings and only that option is marked read. |
| ConfigReader.OptionalBlocks | FastFrames/python/ConfigReaderModules/ConfigReader.py:64 | An absent optional list block reads as empty and marks nothing; a present one reads as its mappings. |
| ConfigReader.OptionalBlock | FastFrames/python/ConfigReaderModules/ConfigReader.py:143-145 | An absent mapping block reads as none; a present one must be a mapping and reads as itself. |
| ConfigReader.ReadRequired | FastFrames/python/ConfigReaderModules/ConfigReader.py:35-48 | Reading fails without a general, regions or samples block; otherwise each is the document's value and nothing else is marked read. |
| ConfigReader.ReadOptional | FastFrames/python/ConfigReaderModules/ConfigReader.py:64-97 | The cutflows, systematics, ntuples and inference blocks are read only when given; absent lists are empty and the ntuple block is present exactly when the document has one. |
| ConfigReader.ReadVisible | FastFrames/python/ConfigReaderModules/ConfigReader.py:33-165 | A document that reads has only known top-level keys. It fails without a general, regions or samples block, and every block read is the one the document gives. |
| ConfigReader.VisibleBlocks | FastFrames/python/ConfigReaderModules/ConfigReader.py:32-33 | Dropping dotted keys never changes the value of a known top-level block. |
| ConfigReader.ReadDocument | FastFrames/python/ConfigReaderModules/ConfigReader.py:31-165 | After dotted keys are dropped, every other top-level key must be a known block, the three required blocks must be present, and each block is read as the document gives it. |
| ConfigReader.CheckAllRead | FastFrames/python/ConfigReaderModules/ConfigReader.py:162-165 | The unused-blocks check passes exactly when every key of the document was read. |
| ConfigReader.VisibleKey | FastFrames/python/ConfigReaderModules/ConfigReader.py:32 | A key without a leading dot is in the reader's document exactly when it is in the file. |
| ConfigReader.FirstRepeat | FastFrames/python/ConfigReaderModules/ConfigReader.py:37-45 | The first repeated name is reported exactly when the names are not distinct, and it does occur earlier in the list. |
| ConfigReader.CheckUnique | FastFrames/python/ConfigReaderModules/ConfigReader.py:41-43 | The duplicate-name check passes exactly when no name is given twice. |
| ConfigReader.ReadRegions | FastFrames/python/ConfigReaderModules/ConfigReader.py:37-45 | The regions are read in order, with no region name twice; if every block reads and the names are distinct, the whole block reads. |
| ConfigReader.RepeatedRegionNameFails | FastFrames/python/ConfigReaderModules/ConfigReader.py:41-43 | Two region blocks with the same name make reading fail. |
| ConfigReader.AllVariableNames | FastFrames/python/ConfigReaderModules/BlockReaderSampleTruth.py:70-77 | The reco variables a truth block may pair with are exactly the variables of some region. |
| ConfigReader.Selections | FastFrames/python/ConfigReaderModules/BlockReaderCutflow.py:158-170 | The name-to-selection map has exactly the region names as keys, and with distinct names each region maps to its own selection. |
| ConfigReader.VariablesOf | FastFrames/python/ConfigReaderModules/BlockReaderSample.py:220-247 | The variables of a named region are those of the first region with that name, or none when no region has it. |
| ConfigReader.SampleNames | FastFrames/python/ConfigReaderModules/CommandLineOptions.py:253-259 | Sample names can be listed exactly when every block has a name, and the string names listed are exactly those of the blocks. |
| ConfigReader.SelectSampleBlocks | FastFrames/python/ConfigReaderModules/ConfigReader.py:50-51 | Without a command-line list, every block is kept. Otherwise every listed sample must exist, and the kept blocks are exactly the selected ones, in order. |
| ConfigReader.PrepareSampleBlocks | FastFrames/python/ConfigReaderModules/ConfigReader.py:48-52 | The sample blocks are unrolled first, then filtered by the command line, and then have their unique samples resolved, in that order. |
| ConfigReader.PlaceSample | FastFrames/python/ConfigReaderModules/ConfigReader.py:53-56 | Each sample block is read by the sample reader, its regions come from adjust_regions, and every attached region exists. |
| ConfigReader.ReadSamples | FastFrames/python/ConfigReaderModules/ConfigReader.py:47-60 | Every sample is read and attached to existing regions, and no sample name appears twice. |
| ConfigReader.FirstTaken | FastFrames/python/ConfigReaderModules/ConfigReader.py:82 | A name is reported exactly when one of the names is already taken, and the reported name is both new and taken. |
| ConfigReader.CheckCutflowRegionNamesAsWritten | FastFrames/python/ConfigReaderModules/ConfigReader.py:78-84 | The check as written passes exactly when no new region name belongs to the regions block; earlier cutflow regions and repeats are not checked. |
| ConfigReader.CheckCutflowRegionNames | FastFrames/python/ConfigReaderModules/ConfigReader.py:78-91 | The corrected check passes exactly when the new names are distinct and none is already taken, including by earlier cutflow regions. |
| ConfigReader.RepeatedCutflowRegionPassesAsWritten | FastFrames/python/ConfigReaderModules/ConfigReader.py:78-91 | A cutflow region named like one an earlier cutflow added passes the as-written check; the corrected check rejects it. |
| ConfigReader.ReadMiniRegions | FastFrames/python/ConfigReaderModules/ConfigReader.py:76-80 | The mini-analysis regions are read one to one, each keeping its name and selection. |
| ConfigReader.CutflowRegions | FastFrames/python/ConfigReaderModules/ConfigReader.py:70-91 | Without tracked variables no region is made. The new regions have distinct, untaken names, and there is one per cut plus one per cut that has an associated variable. |
| ConfigReader.AddCutflow | FastFrames/python/ConfigReaderModules/ConfigReader.py:65-95 | Each cutflow is read and attached to its samples. Its new regions are fresh and appended only to samples the cutflow runs on, and a cutflow without tracked variables changes no sample. |
| ConfigReader.AttachCutflowRegions | FastFrames/python/ConfigReaderModules/BlockReaderSample.py:178-195 | adjust_cutflow_regions appends cutflow regions only to the samples the cutflow names; every other sample keeps its regions. |
| ConfigReader.ExtendsTransitive | FastFrames/python/ConfigReaderModules/ConfigReader.py:65-95 | Two cutflows that each append regions together append the regions of both, and each sample's earlier regions stay a prefix. |
| ConfigReader.ReadCutflows | FastFrames/python/ConfigReaderModules/ConfigReader.py:62-95 | Every cutflow block is read in order. All added regions are fresh and pairwise distinct, and the samples are only extended by them. |
| ConfigReader.AttachRegions | FastFrames/python/ConfigReaderModules/BlockReaderSystematic.py:81-97 | adjust_regions succeeds exactly when every listed region exists. A systematic without a list gets every region not excluded, and nothing but the region list changes. |
| ConfigReader.AttachedRegionCheck | FastFrames/python/ConfigReaderModules/BlockReaderSystematic.py:114-127 | Once regions are attached, check_regions_existence can fail only because an excluded region does not exist. |
| ConfigReader.NominalVariationReads | FastFrames/python/ConfigReaderModules/ConfigReader.py:102-104 | The nominal variation block reads as NOSYS, carrying the sample's nominal sums of weights. |
| ConfigReader.SampleListOnly | FastFrames/python/ConfigReaderModules/BlockReaderSystematic.py:18-60 | A sample list with no exclusions or campaigns reads as that list, narrowed to the command line. |
| ConfigReader.SampleListSystematic | FastFrames/python/ConfigReaderModules/BlockReaderSystematic.py:18-60 | A block holding only a variation and a sample list reads as that variation, for those samples. |
| ConfigReader.NominalReads | FastFrames/python/ConfigReaderModules/ConfigReader.py:101-106 | The nominal block always reads: as NOSYS for the sample, with the sample's sums of weights, no weight suffix, and no other restriction. |
| ConfigReader.FillSumWeights | FastFrames/python/ConfigReaderModules/ConfigReader.py:111-116 | A variation without its own sums of weights gets the sample's; a missing variation or one with its own sums is left unchanged, and so is every other key. |
| ConfigReader.FillBoth | FastFrames/python/ConfigReaderModules/ConfigReader.py:117-118 | Both the up and down variations get the default sums of weights where needed, and every other key keeps its value. |
| ConfigReader.WithDefaultSumWeights | FastFrames/python/ConfigReaderModules/ConfigReader.py:110-118 | Filling works exactly when the variation is a mapping; only the variation block changes. |
| ConfigReader.FillBothIdempotent | FastFrames/python/ConfigReaderModules/ConfigReader.py:111-118 | Filling twice is filling once, whatever the second default is. |
| ConfigReader.WithDefaultSumWeightsIdempotent | FastFrames/python/ConfigReaderModules/ConfigReader.py:110-118 | Filling a filled systematic block again changes nothing. |
| ConfigReader.FilledSumWeightsRead | FastFrames/python/ConfigReaderModules/ConfigReader.py:110-120 | After filling, each variation reads with its own sums of weights or else the sample's, never the general block's default. |
| ConfigReader.BlockSystematics | FastFrames/python/ConfigReaderModules/ConfigReader.py:109-122 | A systematic block gives one or two systematics, each attached to regions that exist. |
| ConfigReader.BlockSystematicsRead | FastFrames/python/ConfigReaderModules/BlockReaderSystematic.py:146-167 | Each systematic a block gives is the filled block read for one of its variations, up before down, and then attached to regions. |
| ConfigReader.BlockSystematicsSumWeights | FastFrames/python/ConfigReaderModules/ConfigReader.py:110-120 | Each systematic a block gives has the sums of weights its variation sets, or else the sample's. |
| ConfigReader.DefinedSystematics | FastFrames/python/ConfigReaderModules/ConfigReader.py:109-127 | The systematic blocks read for a sample exactly when each block does, giving between one and two systematics per block, each attached to regions that exist. |
| ConfigReader.CheckSystematics | FastFrames/python/ConfigReaderModules/ConfigReader.py:129-134 | The check passes exactly when each systematic's samples exist. Its regions must exist too, with cutflow regions allowed only for the nominal one. |
| ConfigReader.SampleSystematics | FastFrames/python/ConfigReaderModules/ConfigReader.py:99-135 | A sample's systematics are its nominal first, then those the blocks define; no name appears twice and every check passes, and it fails exactly when one of those fails. |
| ConfigReader.SystematicNamedNominalFails | FastFrames/python/ConfigReaderModules/ConfigReader.py:124-126 | A systematic block that defines a systematic named NOSYS makes reading fail. |
| ConfigReader.RegionVariables | FastFrames/python/ConfigReaderModules/BlockReaderSample.py:220-247 | There is one variable list per attached region: the variables of the region with that name. |
| ConfigReader.ResolveSample | FastFrames/python/ConfigReaderModules/ConfigReader.py:99-140 | Resolving a sample keeps its regions and keeps exactly the systematics that apply to it. Its variables are distinct: those of its regions, narrowed by its lists. |
| ConfigReader.SelectedSampleKeepsNominal | FastFrames/python/ConfigReaderModules/ConfigReader.py:101-106 | A sample the command line selects always keeps its nominal systematic. |
| ConfigReader.SampleSystematicsShape | FastFrames/python/ConfigReaderModules/ConfigReader.py:105-134 | Only the nominal systematic has cutflow regions; every other systematic is attached to regions of the regions block. |
| ConfigReader.ResolveSamples | FastFrames/python/ConfigReaderModules/ConfigReader.py:99-140 | Every sample is resolved in order, and this succeeds exactly when every sample's systematics read. |
| ConfigReader.ReadNtupleOutput | FastFrames/python/ConfigReaderModules/ConfigReader.py:142-148 | The ntuple block reads with only its own options. It may name regions of the regions block but never a cutflow region, and its samples exist. |
| ConfigReader.NtupleUnknownRegionFails | FastFrames/python/ConfigReaderModules/BlockReaderNtuple.py:71-86 | An ntuple that names a region outside the regions block, such as a cutflow region, makes reading fail. |
| ConfigReader.ReadOptionalNtuple | FastFrames/python/ConfigReaderModules/ConfigReader.py:142-148 | Without an ntuple block the ntuple is empty; with one, it is the read block, and its samples are samples that were read. |
| ConfigReader.ResolvedKeepsNames | FastFrames/python/ConfigReaderModules/ConfigReader.py:99-140 | Resolving keeps every sample's name, in order. |
| ConfigReader.ReadHead | FastFrames/python/ConfigReaderModules/ConfigReader.py:29-45 | The head fails without a general, regions or samples block. Otherwise the general block is the document's and the regions have distinct names. |
| ConfigReader.PlaceSamples | FastFrames/python/ConfigReaderModules/ConfigReader.py:47-60 | Placed samples have distinct names and are attached only to regions of the regions block. |
| ConfigReader.ResolveConfig | FastFrames/python/ConfigReaderModules/ConfigReader.py:62-140 | Cutflows are read one per block and their regions are fresh. Resolved samples have distinct names and are attached only to known regions or cutflow regions. |
| ConfigReader.ReadConfig | FastFrames/python/ConfigReaderModules/ConfigReader.py:29-165 | A read configuration has distinct region and cutflow-region names and distinct sample names, with every region reference resolved. It has an ntuple exactly when the file has an ntuple block, and that ntuple names only read samples. |
| ConfigReader.NominalBlockShape | FastFrames/python/ConfigReaderModules/ConfigReader.py:103 | the nominal block built for a sample holds exactly a variation (up "NOSYS", with the sample's nominal sum of weights) and the one-sample list naming that sample |
| Settings.DefaultLuminosity | FastFrames/Root/ConfigSetting.cc:16-28 | A new configuration knows exactly the campaigns mc20a, mc20d and mc20e, with the luminosities the constructor inserts. |
| Settings.AddLuminosity | FastFrames/Root/ConfigSetting.cc:61-67 | Adding fails exactly when the campaign already has a luminosity and the call is not forced. Otherwise the campaign gets the new value and every other campaign keeps its own. |
| Settings.GetLuminosity | FastFrames/Root/ConfigSetting.cc:70-77 | Reading succeeds exactly when the campaign is defined, and then returns its luminosity. |
| Settings.ForcedAddThenGet | FastFrames/Root/ConfigSetting.cc:61-77 | A forced add always succeeds; reading that campaign back gives the value just set, and other campaigns read as before. |
| Settings.AddUniqueKeepsNamesDistinct | FastFrames/Root/ConfigSetting.cc:85-91 | Adding systematics one by one never gives two with the same name, and the added name is present afterwards. |
| Settings.HasAutomaticSystematics | FastFrames/Root/ConfigSetting.cc:93-100 | The answer is true exactly when some sample asks for automatic systematics or for nominal only. |
| Settings.UniqueDsids | FastFrames/Root/ConfigSetting.cc:102-115 | The result is every dataset number of every sample's identities, each once, in first-occurrence order. |
| CutflowReader.ReadStep | FastFrames/python/ConfigReaderModules/BlockReaderCutflow.py:213-225 | A selection reaches the native cutflow exactly when its selection and title are both strings, and it carries both. |
| CutflowReader.ReadCut | FastFrames/python/ConfigReaderModules/BlockReaderCutflow.py:52-69 | A cut reads exactly when its title and selection are strings. A missing associated variable reads as empty, a missing exclusion list as none, and the expression is the selection in parentheses. |
| CutflowReader.CutMatchesStep | FastFrames/python/ConfigReaderModules/BlockReaderCutflow.py:52-69 | A selection read as a cut is also a valid native step, with the same title, and the cut's expression is the step's selection in parentheses. |
| CutflowReader.ReadHeader | FastFrames/python/ConfigReaderModules/BlockReaderCutflow.py:34-46 | The header fails without a name or selections. Otherwise it returns them, and tracked variables are present exactly when the block gives them. |
| CutflowReader.ReadCutsAndSamples | FastFrames/python/ConfigReaderModules/BlockReaderCutflow.py:49-72 | Cuts are read only when variables are tracked, one per selection. The sample list is narrowed to the command line. |
| CutflowReader.ReadCutflow | FastFrames/python/ConfigReaderModules/BlockReaderCutflow.py:28-81 | A cutflow needs a name and selections, and every option must be a known one. Tracked variables appear exactly when given, with one cut per selection, and the samples are narrowed to the command line. |
| CutflowReader.CutsFollowSteps | FastFrames/python/ConfigReaderModules/BlockReaderCutflow.py:49-69 | With tracked variables, cut k and native step k come from the same selection: the same title, and the cut's expression is the step's selection in parentheses. |
| CutflowReader.AdjustSamples | FastFrames/python/ConfigReaderModules/BlockReaderCutflow.py:227-239 | adjust_samples succeeds exactly when every listed sample exists. It attaches the listed samples, or every sample when there is no list, and a failure names a missing sample. |
| CutflowReader.AssociatedNames | FastFrames/python/ConfigReaderModules/BlockReaderCutflow.py:164 | The associated names to look up are exactly the non-empty associated variables that are not tracked already. |
| CutflowReader.NamesToFind | FastFrames/python/ConfigReaderModules/BlockReaderCutflow.py:164 | The names to find are the tracked variables first, followed by the associated ones that are not tracked. |
| CutflowReader.RegionVariablesAsWritten | FastFrames/python/ConfigReaderModules/BlockReaderCutflow.py:171 | The as-written lookup succeeds exactly when the region is a mapping with a variables entry. |
| CutflowReader.RegionVariables | FastFrames/python/ConfigReaderModules/BlockReaderCutflow.py:171 | The corrected lookup also accepts a region without variables, giving none, and otherwise agrees with the as-written lookup. |
| CutflowReader.ScanVariables | FastFrames/python/ConfigReaderModules/BlockReaderCutflow.py:172-178 | The search in one region returns a new definition with the name, or reports that the region has none new to the found list. |
| CutflowReader.Definitions | FastFrames/python/ConfigReaderModules/BlockReaderCutflow.py:168-178 | Each region adds at most one definition, which has the name and differs from those found, and previous finds stay in front. |
| CutflowReader.NothingFoundMeansNothingNew | FastFrames/python/ConfigReaderModules/BlockReaderCutflow.py:168-181 | The search finds nothing exactly when no region has a definition of the name that is new. |
| CutflowReader.Resolve | FastFrames/python/ConfigReaderModules/BlockReaderCutflow.py:180-200 | A name resolves exactly when the definition search succeeds and agrees on one definition, which has that name and comes from some region. |
| CutflowReader.UndefinedNameFails | FastFrames/python/ConfigReaderModules/BlockReaderCutflow.py:181-183 | A name that no region defines makes reading fail. |
| CutflowReader.ConflictingDefinitionsFail | FastFrames/python/ConfigReaderModules/BlockReaderCutflow.py:189-200 | Two different definitions of the name in different regions make reading fail. |
| CutflowReader.RelevantVariables | FastFrames/python/ConfigReaderModules/BlockReaderCutflow.py:167-187 | There is one resolved definition per name to find, in order, and this succeeds exactly when every name resolves. |
| CutflowReader.TrackedVariables | FastFrames/python/ConfigReaderModules/BlockReaderCutflow.py:96-103 | A region's variables are exactly the relevant definitions of the tracked names that the cut does not exclude. |
| CutflowReader.SelectionStep | FastFrames/python/ConfigReaderModules/BlockReaderCutflow.py:90-115 | Adding an expression and closing the bracket gives the conjunction so far; adding " && " gives the next accumulated selection. |
| CutflowReader.SequentialRegions | FastFrames/python/ConfigReaderModules/BlockReaderCutflow.py:86-117 | There is one sequential region per cut. Region k applies cuts 0 to k together, is named after their titles, and holds only relevant definitions. |
| CutflowReader.FirstNamed | FastFrames/python/ConfigReaderModules/BlockReaderCutflow.py:137-141 | The first relevant definition with the name is found exactly when some definition has that name. |
| CutflowReader.AllBut | FastFrames/python/ConfigReaderModules/BlockReaderCutflow.py:133 | The other cuts are exactly the expressions that differ from this cut's, in order. |
| CutflowReader.AgnosticRegion | FastFrames/python/ConfigReaderModules/BlockReaderCutflow.py:128-154 | A cut-agnostic region exists exactly when a relevant definition of the cut's associated variable exists, and it is named after the cut. |
| CutflowReader.WithAssociated | FastFrames/python/ConfigReaderModules/BlockReaderCutflow.py:128-129 | The cuts that get agnostic regions are exactly those with an associated variable. |
| CutflowReader.AgnosticRegions | FastFrames/python/ConfigReaderModules/BlockReaderCutflow.py:119-156 | There is one agnostic region per cut with an associated variable, and building them succeeds exactly when each finds its variable. |
| CutflowReader.AgnosticKeepsOtherCuts | FastFrames/python/ConfigReaderModules/BlockReaderCutflow.py:133-134 | An agnostic region selects on exactly the cuts whose expression differs from its own cut's. |
| CutflowReader.AgnosticDrawnFrom | FastFrames/python/ConfigReaderModules/BlockReaderCutflow.py:137-151 | The agnostic regions hold only relevant definitions. |
| CutflowReader.BuildRegions | FastFrames/python/ConfigReaderModules/BlockReaderCutflow.py:158-208 | Without regions or tracked variables, building fails. Otherwise the sequential regions come first, then the agnostic ones, with the names and selections the construction gives, and every variable is declared in some region. |
| CutflowReader.AssociatedVariablesAreRelevant | FastFrames/python/ConfigReaderModules/BlockReaderCutflow.py:164 | Every associated variable is also looked up, so once the lookup succeeds every agnostic region finds its variable. |
| CutflowReader.RegionWithoutVariablesStopsTracking | FastFrames/python/ConfigReaderModules/BlockReaderCutflow.py:171 | When one region has no variables and another defines the tracked one, the as-written lookup fails and the corrected one finds the definition. |
| SelectionHelpers.Kept | FastFrames/Root/DefineHelpers.cc:140-143 | The kept indices are exactly those whose selection flag is set, in ascending order. |
| SelectionHelpers.InsertByPt | FastFrames/Root/DefineHelpers.cc:144 | Inserting one index keeps the list ordered by decreasing pt, adds exactly that index, and keeps the list free of repeats. |
| SelectionHelpers.SortKept | FastFrames/Root/DefineHelpers.cc:170-194 | The result holds each selected index exactly once, ordered by decreasing pt. |
| SelectionHelpers.PassBoth | FastFrames/Root/DefineHelpers.cc:249-275 | An object is kept exactly when it passes both selections. |
| SelectionHelpers.Fails | FastFrames/Root/DefineHelpers.cc:534-558 | An object is kept exactly when it fails the selection. |
| SelectionHelpers.FailsBoth | FastFrames/Root/DefineHelpers.cc:616-642 | An object is kept exactly when it fails both selections. |
| SelectionHelpers.PassOneFailOne | FastFrames/Root/DefineHelpers.cc:644-670 | An object is kept exactly when it passes the first selection and fails the second. |
| SelectionHelpers.SortedPassedIndices | FastFrames/Root/DefineHelpers.cc:170-194 | Vectors of different sizes are rejected. Otherwise the result is the passing indices, each once, by decreasing pt. |
| SelectionHelpers.SortedPassedIndicesBoth | FastFrames/Root/DefineHelpers.cc:249-275 | Vectors of different sizes are rejected. Otherwise the result is the indices passing both selections, each once, by decreasing pt. |
| SelectionHelpers.SortedIndicesFailSel | FastFrames/Root/DefineHelpers.cc:534-558 | Vectors of different sizes are rejected. Otherwise the result is the failing indices, each once, by decreasing pt. |
| SelectionHelpers.SortedIndicesFailSelBoth | FastFrames/Root/DefineHelpers.cc:616-642 | Vectors of different sizes are rejected. Otherwise the result is the indices failing both selections, each once, by decreasing pt. |
| SelectionHelpers.SortedIndicesPassOneFailOne | FastFrames/Root/DefineHelpers.cc:644-670 | Vectors of different sizes are rejected. Otherwise the result is the indices passing the first and failing the second, each once, by decreasing pt. |
| SelectionHelpers.SortedSelectionsAgree | FastFrames/Root/DefineHelpers.cc:187 | Any two results that meet the promise are permutations of each other, so only the order among equal pt is left open. |
| SelectionHelpers.NumberOfObjects | FastFrames/Root/DefineHelpers.cc:344-356 | A selection shorter than the objects is fatal. Otherwise the count is the number of selected objects whose pt is at least the threshold. |
| SelectionHelpers.AtLeast | FastFrames/Root/DefineHelpers.cc:349-351 | An object counts exactly when it is selected and its pt is at least the threshold. |
| GeneralReader.ReadOutputPaths | FastFrames/python/ConfigReaderModules/BlockReaderGeneral.py:37-43 | Each output path is the command-line value when given, else the configured string, else empty. Only the two path options are marked read. |
| GeneralReader.ReadInputPaths | FastFrames/python/ConfigReaderModules/BlockReaderGeneral.py:45-46 | An input path on the command line gives its filelist.txt and sum_of_weights.txt. Otherwise both configured paths are required, because the native setters take no None. |
| GeneralReader.ToFloat | FastFrames/python/ConfigReaderModules/BlockReaderGeneral.py:111-112 | float() succeeds on an integer, a float, a boolean, or a string it can parse; a list, tuple, mapping or None raises. An integer or float keeps its number, a string gives its parsed number, and a boolean gives 1.0 exactly when true. |
| GeneralReader.SetLuminosities | FastFrames/python/ConfigReaderModules/BlockReaderGeneral.py:103-112 | Setting succeeds exactly when every configured value converts with float(). The map then covers exactly the default campaigns plus the configured ones, keeps the value of each unconfigured campaign, and holds the converted value of the last configured one. |
| GeneralReader.LuminosityOfCampaign | FastFrames/python/ConfigReaderModules/BlockReaderGeneral.py:111-112 | Every configured campaign gets the float of its value, and every default campaign not configured keeps its default. |
| GeneralReader.EventBound | FastFrames/python/ConfigReaderModules/BlockReaderGeneral.py:150-162 | A non-zero command-line bound wins, then a non-zero configured one. Zero counts as not given, and no bound is set when neither is non-zero. |
| GeneralReader.ReadFrame | FastFrames/python/ConfigReaderModules/BlockReaderGeneral.py:47-49 | The custom frame name defaults to empty, and only the frame options are marked read. |
| GeneralReader.ReadJob | FastFrames/python/ConfigReaderModules/BlockReaderGeneral.py:50-51 | The CPU count defaults to 1 and the cross-section files to the MC16 file. |
| GeneralReader.ReadRange | FastFrames/python/ConfigReaderModules/BlockReaderGeneral.py:53-55 | Default campaigns are always present, and without a luminosity block the map is the default one. A non-zero command-line event bound wins. |
| GeneralReader.ReadLayout | FastFrames/python/ConfigReaderModules/BlockReaderGeneral.py:56-58 | Region subfolders are off unless configured. |
| GeneralReader.ReadSwitches | FastFrames/python/ConfigReaderModules/BlockReaderGeneral.py:59-63 | Defining configured columns after the custom class is off unless configured. |
| GeneralReader.ReadNameDefaults | FastFrames/python/ConfigReaderModules/BlockReaderGeneral.py:65-72 | The default sum of weights is NOSYS. The default event weights and reco tree name are present exactly when configured, as their strings. |
| GeneralReader.ReadSystematicDefaults | FastFrames/python/ConfigReaderModules/BlockReaderGeneral.py:80-90 | Pairing indices default to runNumber and eventNumber, and automatic systematics and nominal-only default to off. |
| GeneralReader.ReadSettings | FastFrames/python/ConfigReaderModules/BlockReaderGeneral.py:37-55 | The paths and run settings follow the command line and the configuration, and the default campaigns always have a luminosity. |
| GeneralReader.ReadOutputAndDefaults | FastFrames/python/ConfigReaderModules/BlockReaderGeneral.py:56-96 | The layout, ntuple switches and sample defaults take their configured values, or else the documented defaults. |
| GeneralReader.ReadGeneral | FastFrames/python/ConfigReaderModules/BlockReaderGeneral.py:28-101 | A general block that reads has only known options. Its paths, defaults and job split follow the command line and configuration as described above. |
| GeneralReader.ReadDefaultNames | FastFrames/python/ConfigReaderModules/BlockReaderGeneral.py:65-72 | Reads only the three name defaults. The sum of weights defaults to NOSYS, and the event weights and reco tree name are present exactly when configured. |
| GeneralReader.ReadCustomColumns | FastFrames/python/ConfigReaderModules/BlockReaderGeneral.py:74-78 | Reads only the reco and truth custom-column lists. |
| GeneralReader.ReadSystematicLists | FastFrames/python/ConfigReaderModules/BlockReaderGeneral.py:80-84 | Reads only the pairing indices and the excluded systematics. The pairing defaults to runNumber and eventNumber. |
| GeneralReader.ReadSystematicSwitches | FastFrames/python/ConfigReaderModules/BlockReaderGeneral.py:86-90 | Reads only the two switches. Automatic systematics and nominal-only are off unless configured. |
| OptionLedger.Unused | FastFrames/python/ConfigReaderModules/BlockOptionsGetter.py:44-51 | The unused options are exactly the block's keys that were never read, in block order. |
| OptionLedger.Get | FastFrames/python/ConfigReaderModules/BlockOptionsGetter.py:23-42 | An absent option gives the default and marks nothing. A present option is marked as read and returned when its type and element types are allowed; otherwise it is a type error naming the option. |
| OptionLedger.GetStr | FastFrames/python/ConfigReaderModules/BlockOptionsGetter.py:23-42 | Reading a string option fails exactly when it is present and not a string. It gives the string when present and none when absent, and marks only that option. |
| OptionLedger.GetStrOr | FastFrames/python/ConfigReaderModules/BlockOptionsGetter.py:23-42 | Reading a string with a default fails exactly when the option is present and not a string, and otherwise gives the string or the default. |
| OptionLedger.GetBool | FastFrames/python/ConfigReaderModules/BlockOptionsGetter.py:23-42 | Reading a boolean with a default fails exactly when the option is present and not a boolean, and otherwise gives the value or the default. |
| OptionLedger.GetInt | FastFrames/python/ConfigReaderModules/BlockOptionsGetter.py:23-42 | Reading an integer with a default fails exactly when the option is present and not an integer, and otherwise gives the value or the default. |
| OptionLedger.GetOptInt | FastFrames/python/ConfigReaderModules/BlockOptionsGetter.py:23-42 | Reading an optional integer fails exactly when the option is present and not an integer, and gives the value exactly when it is present. |
| OptionLedger.GetNumber | FastFrames/python/ConfigReaderModules/BlockOptionsGetter.py:23-42 | Reading a number fails exactly when the option is present and neither an integer nor a float, and otherwise gives its value or the default. |
| OptionLedger.GetStrList | FastFrames/python/ConfigReaderModules/BlockOptionsGetter.py:23-42 | An absent list reads as none. A present list must be a list, every element must be a string, and it reads as those strings. |
| OptionLedger.StringsAt | FastFrames/python/ConfigReaderModules/BlockOptionsGetter.py:37-41 | A value read as a list of strings is the list display of those strings. |
| OptionLedger.GetStrListOr | FastFrames/python/ConfigReaderModules/BlockOptionsGetter.py:23-42 | An absent list reads as the default; a present one reads as its strings. |
| OptionLedger.GetList | FastFrames/python/ConfigReaderModules/BlockOptionsGetter.py:23-42 | Reading a list fails exactly when the option is present and not a list, and gives the list exactly when it is present. |
| OptionLedger.GetBlockList | FastFrames/python/ConfigReaderModules/BlockOptionsGetter.py:23-42 | An absent list of mappings reads as none; a present one reads as its mappings. |
| OptionLedger.GetBlock | FastFrames/python/ConfigReaderModules/BlockOptionsGetter.py:23-42 | Reading a mapping fails exactly when the option is present and not a mapping, and gives the mapping exactly when it is present. |
| OptionLedger.GetAny | FastFrames/python/ConfigReaderModules/BlockOptionsGetter.py:23-42 | An untyped read never fails. It marks a present option, and gives the value unless it is absent or null. |
| OptionLedger.NothingUnused | FastFrames/python/ConfigReaderModules/BlockOptionsGetter.py:44-51 | The unused list is empty exactly when every key of the block was read. |
| OptionLedger.FreshReportsEverything | FastFrames/python/ConfigReaderModules/BlockOptionsGetter.py:12-20 | Before any read, every key of the block is reported unused, in block order. |
| OptionLedger.GetIdempotent | FastFrames/python/ConfigReaderModules/BlockOptionsGetter.py:23-42 | Reading the same option twice gives the same value and the same ledger as reading it once. |
| OptionLedger.UsedAfterReading | FastFrames/python/ConfigReaderModules/BlockOptionsGetter.py:30-32 | Reading a list of options marks exactly those of them the block has, and the block itself never changes. |
| OptionLedger.UnusedAfterReading | FastFrames/python/ConfigReaderModules/BlockOptionsGetter.py:44-51 | After reading some options, the unused ones are exactly the keys neither read before nor among those options. |
| OptionLedger.TrackedName | FastFrames/python/ConfigReaderModules/BlockOptionsGetter.py:83-94 | A key names an option exactly when it ends with "_up" or "_down" or is bare "up" or "down"; the key is then that option followed by "_up" or "_down", or the option is empty and the key bare. |
| OptionLedger.TrackedNameIff | FastFrames/python/ConfigReaderModules/BlockOptionsGetter.py:83-94 | A key belongs to an option exactly when it is the option with "_up" or "_down" appended, or the option is empty and the key is "up" or "down". |
| OptionLedger.TrackedNamesMembership | FastFrames/python/ConfigReaderModules/BlockOptionsGetter.py:83-94 | An option is tracked exactly when some key of the block belongs to it. |
| OptionLedger.FreshVariations | FastFrames/python/ConfigReaderModules/BlockOptionsGetter.py:77-94 | A new variation ledger tracks each option once and has nothing marked read. |
| OptionLedger.GetVariation | FastFrames/python/ConfigReaderModules/BlockOptionsGetter.py:96-111 | The variation key is option_variation, or the bare variation for the empty option. An absent key gives the default and marks nothing; a present key marks the option and must have an allowed type. |
| OptionLedger.GetVariationStr | FastFrames/python/ConfigReaderModules/BlockOptionsGetter.py:96-111 | An absent variation string reads as none; a present one must be a string and marks its option. |
| OptionLedger.UnusedVariations | FastFrames/python/ConfigReaderModules/BlockOptionsGetter.py:113-119 | The unused variation options are exactly the tracked options never read. |
| OptionLedger.NothingUnusedVariations | FastFrames/python/ConfigReaderModules/BlockOptionsGetter.py:113-119 | The unused variation list is empty exactly when every tracked option was read. |
| OptionLedger.UseOption | FastFrames/python/ConfigReaderModules/BlockOptionsGetter.py:121-123 | use_option marks the option read; the block and the tracked options are unchanged |
| OptionLedger.UseOptionMarksRead | FastFrames/python/ConfigReaderModules/BlockOptionsGetter.py:113-123 | after use_option the option is not reported unused, and every other option is reported unused exactly as before |
| OptionLedger.VariationKeyTracksOption | FastFrames/python/ConfigReaderModules/BlockOptionsGetter.py:85-106 | The key get reads for an up or down variation belongs to exactly the option it marks. |
| OptionLedger.FreshVariationsReportsTracked | FastFrames/python/ConfigReaderModules/BlockOptionsGetter.py:77-94 | A new variation ledger reports as unused exactly the options that some key belongs to. |
| MergeJobs.PyIntOfDecimal | FastFrames/python/merge_jobs.py:30-31 | The decimal text of a number reads back through int() as that number. |
| MergeJobs.JobNamePieces | FastFrames/python/merge_jobs.py:28-31 | A job name without underscores in its tag splits after the prefix into the job count, the tag, and the index followed by ".root". |
| MergeJobs.JobFieldsRoundTrip | FastFrames/python/merge_jobs.py:21-35 | The name a job writes, sample_Njobs_N_tag_I.root, parses back as N jobs and index I. |
| MergeJobs.ParsedFieldsAt | FastFrames/python/merge_jobs.py:52-53 | Each file name is parsed on its own, in input order. |
| MergeJobs.CheckJobs | FastFrames/python/merge_jobs.py:50-66 | The consistency loops pass exactly when there is at least one file, every name parses, all agree on the job count, and every index below it is present. |
| MergeJobs.SubjobOutputs | FastFrames/python/merge_jobs.py:44-68 | A sample's job files are returned exactly when that set is complete, and then they are all the sample's files, in input order. |
| MergeJobs.SampleOutputs | FastFrames/python/merge_jobs.py:37-69 | Collecting succeeds exactly when every sample's job set is complete. The result then maps exactly the given samples, each to its own job files. |
| MetadataModel.NewMetadata | FastFrames/Root/Metadata.cc:14-19 | A new record has cross-section -1, flagged as not set, and no sums of weights or file paths. |
| MetadataModel.AddSumWeights | FastFrames/Root/Metadata.cc:21-28 | Adding a sum of weights stores the value only for a new name; an existing name keeps its value, and nothing else changes. |
| MetadataModel.SumWeight | FastFrames/Root/Metadata.cc:30-43 | Reading a sum of weights succeeds exactly when the name exists, and gives the stored value. |
| MetadataModel.FirstSumWeightWins | FastFrames/Root/Metadata.cc:21-38 | The first value added for a name is the one read back, whatever is added after it. |
| MetadataModel.AddFilePath | FastFrames/Root/Metadata.cc:45-52 | A path is appended only when it is new, and the sums of weights do not change. |
| MetadataModel.AddFilePathsIsDedup | FastFrames/Root/Metadata.cc:45-52 | Starting from a new record, the stored paths are the given ones without repeats, in first-occurrence order. |
| NativeSample.NewSample | FastFrames/Root/Sample.cc:18-24 | A new sample has reco tree "reco", pairs on eventNumber alone, uses NOSYS sums of weights, and has nothing attached. |
| NativeSample.SkipSystematicRegionCombination | FastFrames/Root/Sample.cc:26-33 | A systematic is skipped in a region exactly when none of its regions has that region's name. |
| NativeSample.UniqueTruthTreeNames | FastFrames/Root/Sample.cc:35-48 | The result is the truth tree names without repeats, in first-occurrence order. |
| NativeSample.MatchTruthTree | FastFrames/Root/Sample.cc:90-100 | The answer is true exactly when some truth block on that tree matches reco to truth. |
| NativeSample.UniqueTruthTreeNamesForMatching | FastFrames/Root/Sample.cc:50-59 | The result is the unique tree names used by some matching truth block, in first-occurrence order. |
| NativeSample.NominalSystematic | FastFrames/Root/Sample.cc:61-69 | The first nominal systematic is returned; a sample without one is a runtime error. |
| NativeSample.HasSystematic | FastFrames/Root/Sample.cc:71-75 | The answer is true exactly when some systematic has the name. |
| NativeSample.SkipExcludedSystematic | FastFrames/Root/Sample.cc:77-88 | A systematic is skipped exactly when some exclusion pattern matches its whole name. |
| NativeSample.HasUnfolding | FastFrames/Root/Sample.cc:102-108 | The answer is true exactly when some truth block produces an unfolding. |
| NativeSample.IsData | FastFrames/Root/Sample.cc:110-116 | A sample is data exactly when some identity of it is data. |
| NativeUtils.SelectedFileList | FastFrames/Root/Utils.cc:102-122 | A negative index is fatal. Otherwise a file is kept when the running counter modulo split equals the index, and the counter grows by one per file across calls. |
| NativeUtils.KeptFilesAppend | FastFrames/Root/Utils.cc:102-122 | Two calls on consecutive lists keep the same files as one call on their concatenation, because the counter carries over. |
| NativeUtils.KeptFilesMembership | FastFrames/Root/Utils.cc:112-118 | A file is kept exactly when it sits at a position whose counter value leaves the job index as remainder. |
| NativeUtils.AnyFullMatch | FastFrames/Root/Utils.cc:174-182 | The answer is true exactly when some pattern matches the whole element. |
| NativeUtils.SelectedNotExcludedElements | FastFrames/Root/Utils.cc:164-203 | With no patterns everything is returned. Otherwise the result is the elements some selection matches and no exclusion matches, in order, which is nothing when only exclusions are given. |
| NtupleReader.ReadSampleChoice | FastFrames/python/ConfigReaderModules/BlockReaderNtuple.py:26-33 | only the two sample options are read; the sample list is narrowed by the command-line sample filter; giving both samples and exclude_samples stops the program |
| NtupleReader.ReadSelectionChoice | FastFrames/python/ConfigReaderModules/BlockReaderNtuple.py:35-43 | exactly one of selection and regions ends up set; neither given means the selection "true"; giving both stops the program |
| NtupleReader.ReadOutputs | FastFrames/python/ConfigReaderModules/BlockReaderNtuple.py:45-47 | branches, excluded branches and copied trees default to empty lists and are taken as written otherwise |
| NtupleReader.ReadNtuple | FastFrames/python/ConfigReaderModules/BlockReaderNtuple.py:20-49 | a read ntuple block uses only supported options, never has both sample options, has exactly one of selection and regions, and defaults to the selection "true" |
| NtupleReader.RegionSelections | FastFrames/python/ConfigReaderModules/BlockReaderNtuple.py:78-84 | succeeds exactly when every listed region exists; the result holds the parenthesised non-empty selections of those regions and nothing else; the error names a missing region |
| NtupleReader.AdjustRegions | FastFrames/python/ConfigReaderModules/BlockReaderNtuple.py:71-86 | with a non-empty region list the selection is the OR of the regions' parenthesised selections, in parentheses, and fails exactly on an unknown region; otherwise it is the block's own selection |
| NtupleReader.SelectionWithoutRegions | FastFrames/python/ConfigReaderModules/BlockReaderNtuple.py:41-43 | a block read without regions always yields a selection, and "true" when it had no selection either |
| NtupleReader.SingleRegionSelection | FastFrames/python/ConfigReaderModules/BlockReaderNtuple.py:83-85 | one region with a non-empty selection s gives the ntuple selection "((s))" |
| NtupleReader.AdjustSamples | FastFrames/python/ConfigReaderModules/BlockReaderNtuple.py:88-107 | succeeds exactly when every excluded and every listed sample exists; the chosen samples are the listed ones as given, or else every existing sample not excluded, in sample order |
| NtupleReader.CheckKnown | FastFrames/python/ConfigReaderModules/BlockReaderNtuple.py:93-96 | passes exactly when every name is known; otherwise it reports a name that is not |
| NtupleReader.ExcludedAndKeptSplitSamples | FastFrames/python/ConfigReaderModules/BlockReaderNtuple.py:98-101 | without a sample list, an existing sample gets an ntuple exactly when it is not excluded |
| Numbering.ToPath | FastFrames/python/ConfigReaderModules/AutomaticRangeGenerator.py:30-35 | a single key becomes a one-key path; a nested key list is kept as the path |
| Numbering.Range | FastFrames/python/ConfigReaderModules/AutomaticRangeGenerator.py:66-67 | min..max inclusive as decimal strings, one per integer, empty when min exceeds max |
| Numbering.PyReplace | FastFrames/python/ConfigReaderModules/AutomaticRangeGenerator.py:86 | Python str.replace: a non-empty token cuts the string at each non-overlapping occurrence from the left and the value goes between the pieces; an empty token puts the value before, between and after the characters |
| Numbering.Interleave | FastFrames/python/ConfigReaderModules/AutomaticRangeGenerator.py:86 | the result is the characters of the string, one piece each, joined by the value with an empty piece at each end, so the value appears once before, between and after them |
| Numbering.ReadAxis | FastFrames/python/ConfigReaderModules/AutomaticRangeGenerator.py:49-54 | the replacement string, min, max and values are read with their declared types and only those options are marked used |
| Numbering.CheckAxis | FastFrames/python/ConfigReaderModules/AutomaticRangeGenerator.py:54-69 | succeeds exactly when a replacement string is given and exactly one of min/max or values; the values are the given list or the inclusive integer range |
| Numbering.ParseAxis | FastFrames/python/ConfigReaderModules/AutomaticRangeGenerator.py:48-69 | a numbering sequence must be a mapping with a replacement string, only known options, and exactly one of min/max or values |
| Numbering.ReplaceAt | FastFrames/python/ConfigReaderModules/AutomaticRangeGenerator.py:38-46 | rewrites the string at a key path with the token replaced and keeps the mapping's keys; a missing key leaves the value unchanged; a successful step into a non-mapping changes nothing |
| Numbering.ReplaceAtString | FastFrames/python/ConfigReaderModules/AutomaticRangeGenerator.py:38-46 | when the key path leads through mappings to a string, the rewrite succeeds, the string at that path becomes the string with the token replaced, and every path that parts from it keeps its value |
| Numbering.ReplaceAtNonString | FastFrames/python/ConfigReaderModules/AutomaticRangeGenerator.py:86 | when the key path leads to a value that is not a string, str.replace is not defined on it and the rewrite fails |
| Numbering.ReplaceAtMissing | FastFrames/python/ConfigReaderModules/AutomaticRangeGenerator.py:80-85 | when a mapping on the way lacks the next key, the path is skipped and the value is unchanged |
| Numbering.ApplyPaths | FastFrames/python/ConfigReaderModules/AutomaticRangeGenerator.py:79-86 | substituting along all key paths keeps the block's set of top-level keys |
| Numbering.ApplyPathsEffect | FastFrames/python/ConfigReaderModules/AutomaticRangeGenerator.py:79-86 | for distinct paths to strings, substitution succeeds, each of those strings has the token replaced by the value, and every path that parts from all of them keeps its value |
| Numbering.GenerateRange | FastFrames/python/ConfigReaderModules/AutomaticRangeGenerator.py:71-88 | no numbering sequences give the block itself; every generated block has the original's keys |
| Numbering.GenerateRangeOrder | FastFrames/python/ConfigReaderModules/AutomaticRangeGenerator.py:75-87 | the blocks come in nested order: the block at offset i times the later sequences' product plus j is the j-th block generated from the block with the first sequence's i-th value substituted |
| Numbering.ExpandValues | FastFrames/python/ConfigReaderModules/AutomaticRangeGenerator.py:77-87 | every block generated for the values of one sequence has the original's keys |
| Numbering.ExpandValuesOrder | FastFrames/python/ConfigReaderModules/AutomaticRangeGenerator.py:77-87 | for each value of one sequence the later sequences' blocks follow as one run, in the order of the values |
| Numbering.ExpandValuesSingle | FastFrames/python/ConfigReaderModules/AutomaticRangeGenerator.py:77-87 | with one sequence left, the i-th generated block is the block with the i-th value substituted |
| Numbering.ExpandValuesSingleCount | FastFrames/python/ConfigReaderModules/AutomaticRangeGenerator.py:77-87 | with one sequence left there is one block per value |
| Numbering.OffsetIsProduct | FastFrames/python/ConfigReaderModules/AutomaticRangeGenerator.py:87 | the offset of a run, i runs of length p, is i times p |
| Numbering.LeafPaths | FastFrames/python/ConfigReaderModules/AutomaticRangeGenerator.py:125-135 | every collected key path extends the current address by at least one key |
| Numbering.EntryPaths | FastFrames/python/ConfigReaderModules/AutomaticRangeGenerator.py:127-133 | the paths collected from the remaining entries of a mapping all extend the address |
| Numbering.TokenPaths | FastFrames/python/ConfigReaderModules/AutomaticRangeGenerator.py:129-131 | a string value contributes its own path once per replacement string it contains, and contributes some path exactly when it contains one of them |
| Numbering.LeafPathsSound | FastFrames/python/ConfigReaderModules/AutomaticRangeGenerator.py:125-135 | in a value whose mappings repeat no key, every collected path, past the address, leads through mappings to a string containing a replacement string |
| Numbering.LeafPathsComplete | FastFrames/python/ConfigReaderModules/AutomaticRangeGenerator.py:125-135 | every non-empty path leading through mappings to a string containing a replacement string is collected under the address |
| Numbering.AutoPaths | FastFrames/python/ConfigReaderModules/AutomaticRangeGenerator.py:115-137 | a numbering_sequence that is not a list stops the program, and so does a sequence entry without a replacement_string |
| Numbering.AutoPathsLeaves | FastFrames/python/ConfigReaderModules/AutomaticRangeGenerator.py:115-137 | with string tokens and a block without repeated keys, the keys to update are computed, and they are exactly the non-empty paths through mappings to a string value that contains some token |
| Numbering.AutoPathsAreLeafPaths | FastFrames/python/ConfigReaderModules/AutomaticRangeGenerator.py:115-137 | with string tokens and a block without repeated keys, the keys to update are the recursive search of the whole block from the empty address, with one path per token a string contains, in key order |
| Numbering.UnrollOne | FastFrames/python/ConfigReaderModules/AutomaticRangeGenerator.py:100-111 | a numbering sequence that is not a list stops the program; otherwise the unrolled blocks no longer carry one |
| Numbering.Unroll | FastFrames/python/ConfigReaderModules/AutomaticRangeGenerator.py:90-112 | no unrolled block carries a numbering sequence; a list without numbering sequences is returned unchanged |
| Numbering.GenerateRangeCount | FastFrames/python/ConfigReaderModules/AutomaticRangeGenerator.py:71-88 | the number of generated blocks is the product of the sequences' value counts |
| Numbering.ExpandValuesCount | FastFrames/python/ConfigReaderModules/AutomaticRangeGenerator.py:77-87 | one sequence with n values multiplies the number of blocks of the remaining sequences by n |
| Regex.FullMatchIsPrefixMatch | FastFrames/python/ConfigReaderModules/BlockReaderSample.py:18-28 | a pattern that matches the whole string (re.fullmatch) also matches at its start (re.match) |
| Regex.PrefixMatchIsNotFullMatch | FastFrames/python/ConfigReaderModules/BlockReaderSample.py:18-28 | the two tests differ: with literal patterns "a" matches the start of "ab" but not the whole of it |
| Regex.FullMatchesAnyCons | FastFrames/python/ConfigReaderModules/BlockReaderSample.py:18-22 | a list of patterns matches a whole string exactly when its first pattern does or one of the rest does |
| RegionReader.FlattenAppend | FastFrames/python/ConfigReaderModules/BlockReaderRegion.py:15-26 | flattening a concatenation flattens each part and concatenates the results |
| RegionReader.FlattenOfBlocks | FastFrames/python/ConfigReaderModules/BlockReaderRegion.py:15-26 | a list made only of mappings flattens to itself |
| RegionReader.FlattenNested | FastFrames/python/ConfigReaderModules/BlockReaderRegion.py:15-26 | nesting a list one level deeper changes nothing, and a value that is neither a mapping nor a list is dropped |
| RegionReader.FlattenContainer | FastFrames/python/ConfigReaderModules/BlockReaderRegion.py:28-45 | a container with no nested list is returned unchanged; otherwise the result is a list of mappings |
| RegionReader.FlattenContainerWithList | FastFrames/python/ConfigReaderModules/BlockReaderRegion.py:34-43 | a container with a nested list becomes exactly its flattened mappings |
| RegionReader.VariableNames | FastFrames/python/ConfigReaderModules/BlockReaderRegion.py:87-91 | the names of the region's variables, one per variable, in order |
| RegionReader.ReadCombination2D | FastFrames/python/ConfigReaderModules/BlockReaderRegion.py:93-106 | a 2D histogram needs x and y, both names of the region's variables; either missing stops the program |
| RegionReader.ReadAxes3D | FastFrames/python/ConfigReaderModules/BlockReaderRegion.py:109-113 | x, y and z are read as given, and an empty list of unread keys means the histogram uses no other key |
| RegionReader.ReadCombination3D | FastFrames/python/ConfigReaderModules/BlockReaderRegion.py:108-130 | a 3D histogram needs x, y and z, all variables of the region, and no other key; any of them missing stops the program |
| RegionReader.ReadCombinations2D | FastFrames/python/ConfigReaderModules/BlockReaderRegion.py:93-106 | every 2D histogram of the region yields one combination of two region variables |
| RegionReader.ReadCombinations3D | FastFrames/python/ConfigReaderModules/BlockReaderRegion.py:108-130 | every 3D histogram of the region yields one combination of three region variables |
| RegionReader.ReadRawRegion | FastFrames/python/ConfigReaderModules/BlockReaderRegion.py:56-79 | name and selection are read as given strings and only region options are marked used |
| RegionReader.ReadRegionVariables | FastFrames/python/ConfigReaderModules/BlockReaderRegion.py:64-72 | a plain list of variable mappings without numbering sequences yields one variable per mapping, each the reading of that mapping |
| RegionReader.ReadRegion | FastFrames/python/ConfigReaderModules/BlockReaderRegion.py:51-142 | a region needs a name and a selection, uses only region options, and every 2D and 3D histogram combines variables of the region |
| SampleIds.LessIsStrictTotalOrder | FastFrames/FastFrames/UniqueSampleID.h:54-62 | the ordering by DSID, then campaign, then simulation type is irreflexive, total, asymmetric and transitive, so it is a valid std::map key order |
| SampleIds.SameId | FastFrames/FastFrames/UniqueSampleID.h:43-45 | equality of identifiers is agreement of all three fields, and equal identifiers are not ordered either way |
| SampleIds.IsDataSpellings | FastFrames/FastFrames/UniqueSampleID.h:103 | a sample is data exactly when its simulation type is "data" in any mix of upper and lower case |
| SampleIds.PrintInjective | FastFrames/FastFrames/UniqueSampleID.h:71-74 | the printed form "dsid campaign simulation" identifies the sample when its campaign has no space |
| SampleReader.OptStr | FastFrames/python/ConfigReaderModules/BlockReaderSample.py:89 | an optional string option is present exactly when the block holds a string under that key, and it is that string |
| SampleReader.ToIdRoundTrip | FastFrames/python/ConfigReaderModules/BlockReaderSample.py:67 | an identity stored as a (dsid, campaign, simulation) tuple reads back as the same identity |
| SampleReader.ToIds | FastFrames/python/ConfigReaderModules/BlockReaderSample.py:67 | the identity list reads back exactly when every entry is an identity tuple, one identity per entry, and storing the result gives the list back |
| SampleReader.ToIdsOfIdList | FastFrames/python/ConfigReaderModules/BlockReaderSample.py:67 | the identity list the unique-sample resolution stores reads back unchanged |
| SampleReader.ReadIdentity | FastFrames/python/ConfigReaderModules/BlockReaderSample.py:59-67 | name and the identity list are required, _is_data defaults to false, and only identity options are marked used |
| SampleReader.UnknownCampaign | FastFrames/python/ConfigReaderModules/BlockReaderSample.py:70-76 | no campaign is reported exactly when every identity's campaign has a luminosity; a reported campaign has none |
| SampleReader.CheckCampaigns | FastFrames/python/ConfigReaderModules/BlockReaderSample.py:69-76 | a sample passes exactly when it is data or every campaign of its identities has a luminosity |
| SampleReader.ReadRegionChoice | FastFrames/python/ConfigReaderModules/BlockReaderSample.py:80-84 | regions and exclude_regions are read as given, and giving both stops the program |
| SampleReader.TotalWeightKeepsWeights | FastFrames/python/ConfigReaderModules/BlockReaderSample.py:253-256 | with the same weight suffix, equal total weights come from equal event weights |
| SampleReader.Given | FastFrames/python/ConfigReaderModules/BlockReaderSample.py:88-111 | an option's value is the one given, else the default; with neither the program stops |
| SampleReader.ReadEventWeight | FastFrames/python/ConfigReaderModules/BlockReaderSample.py:88-89 | the total weight is the given event weight, else "1." for data and the general default for simulation, multiplied by the weight suffix when there is one; no weight at all stops the program |
| SampleReader.ReadTrees | FastFrames/python/ConfigReaderModules/BlockReaderSample.py:91-111 | the reco tree defaults to the general block's (none at all stops the program), the selection suffix to "" and the sum-of-weights name to the general block's |
| SampleReader.ReadPairing | FastFrames/python/ConfigReaderModules/BlockReaderSample.py:95-101 | the pairing indices and excluded systematics default to the general block's values |
| SampleReader.ReadColumnBlocks | FastFrames/python/ConfigReaderModules/BlockReaderSample.py:97-99 | the custom column lists default to the general block's |
| SampleReader.ReadSwitches | FastFrames/python/ConfigReaderModules/BlockReaderSample.py:103-109 | automatic_systematics and nominal_only default to the general block's, and they are never both true |
| SampleReader.ReadTruthAndVariables | FastFrames/python/ConfigReaderModules/BlockReaderSample.py:116-131 | variables and exclude_variables are read as given, and giving both stops the program |
| SampleReader.ReadCustomColumn | FastFrames/python/ConfigReaderModules/BlockReaderSample.py:269-280 | a custom column needs a name and a definition and no other key |
| SampleReader.ReadTruthColumn | FastFrames/python/ConfigReaderModules/BlockReaderSample.py:282-295 | a truth custom column needs a name, a definition and a truth tree and no other key |
| SampleReader.ReadTruthColumns | FastFrames/python/ConfigReaderModules/BlockReaderSample.py:282-295 | truth columns are ignored for a sample without truth blocks; otherwise every one must be well formed and is read in order |
| SampleReader.CheckTruths | FastFrames/python/ConfigReaderModules/BlockReaderSample.py:118-124 | passes exactly when every truth block's reco match variables are variables of the regions |
| SampleReader.ReadHead | FastFrames/python/ConfigReaderModules/BlockReaderSample.py:59-111 | the identity, region, weight and tree options with their defaults, name and identity list required, not both region lists |
| SampleReader.ReadTail | FastFrames/python/ConfigReaderModules/BlockReaderSample.py:95-131 | the pairing, column, switch, truth and variable options with their defaults, not both switches and not both variable lists |
| SampleReader.ReadOptions | FastFrames/python/ConfigReaderModules/BlockReaderSample.py:54-138 | every option of a read sample block is supported; name and identity list are required; region lists and variable lists are not both given; the two switches are not both on |
| SampleReader.Assemble | FastFrames/python/ConfigReaderModules/BlockReaderSample.py:67-138 | the built sample keeps its name and data flag, reads its identities back, has a luminosity for each campaign when simulated, reads and checks its truth blocks, uses only the supported pairing and reads every custom column |
| SampleReader.ReadSample | FastFrames/python/ConfigReaderModules/BlockReaderSample.py:54-138 | a read sample uses only supported options, its name and identities are the block's, a simulated sample's campaigns all have a luminosity, the pairing is runNumber/eventNumber and the two switches are not both on |
| SampleReader.MatchedRegions | FastFrames/python/ConfigReaderModules/BlockReaderSample.py:30-35 | the regions the pattern matches whole, and it is empty exactly when the pattern matches none |
| SampleReader.CheckExcludedRegions | FastFrames/python/ConfigReaderModules/BlockReaderSample.py:151-155 | passes exactly when every exclude pattern matches some region whole |
| SampleReader.SelectRegions | FastFrames/python/ConfigReaderModules/BlockReaderSample.py:163-171 | succeeds exactly when every pattern matches some region; the selected regions are those some pattern matches whole |
| SampleReader.AdjustRegions | FastFrames/python/ConfigReaderModules/BlockReaderSample.py:147-171 | succeeds exactly when every exclude and include pattern matches a region; without a list the sample keeps, in order, every region no exclude pattern matches at its start; with one, the regions some pattern matches whole |
| SampleReader.ExcludeRemovesByPrefix | FastFrames/python/ConfigReaderModules/BlockReaderSample.py:157-162 | excluding "a" from the regions "a" and "ab" removes both, since the exclusion tests a match at the start |
| SampleReader.IncludedRegionsMayRepeat | FastFrames/python/ConfigReaderModules/BlockReaderSample.py:163-171 | a region two include patterns match is listed twice |
| SampleReader.UnknownExcludedRegionFails | FastFrames/python/ConfigReaderModules/BlockReaderSample.py:151-155 | an exclude pattern that names no region stops the program even without a region list |
| SampleReader.AdjustCutflowRegions | FastFrames/python/ConfigReaderModules/BlockReaderSample.py:178-195 | the sample's regions are kept as a prefix; every cutflow region is appended when the cutflow names no samples or names this one; otherwise nothing changes |
| SampleReader.AdjustSystematics | FastFrames/python/ConfigReaderModules/BlockReaderSample.py:197-218 | a systematic reaches the sample exactly when its sample list (if any) names it, its exclude list does not, and a data or nominal-only sample gets from unlisted systematics only the nominal; definition order is kept |
| SampleReader.DataSamplesSkipUnlistedVariations | FastFrames/python/ConfigReaderModules/BlockReaderSample.py:213-215 | a data or nominal-only sample gets no variation from a systematic without a sample list |
| SampleReader.ListedSystematicReachesSample | FastFrames/python/ConfigReaderModules/BlockReaderSample.py:204-217 | a systematic naming the sample in its samples list reaches it, data or not, unless it also excludes it |
| SampleReader.Candidates | FastFrames/python/ConfigReaderModules/BlockReaderSample.py:221-229 | the variables of the sample's regions, each exactly once |
| SampleReader.ResolveVariables | FastFrames/python/ConfigReaderModules/BlockReaderSample.py:220-247 | the kept variables are distinct and are exactly the region variables that the variables list names or matches at the start, or that the exclude list neither names nor matches; candidate order is kept |
| SampleReader.IncludeAndExcludeSplitCandidates | FastFrames/python/ConfigReaderModules/BlockReaderSample.py:233-244 | the same list given as variables and as exclude_variables splits the candidates: each is kept by exactly one of the two |
| SampleReader.IdString | FastFrames/python_wrapper/headers/SampleWrapper.h:108-112 | the identity string is wrapped in parentheses |
| SampleReader.Inner | FastFrames/python_wrapper/headers/SampleWrapper.h:108-112 | without its parentheses the identity string is the dsid, campaign and simulation joined by commas |
| SampleReader.Fields | FastFrames/python/ConfigReaderModules/BlockReaderSample.py:327-328 | splitting the inner identity string on commas gives at least three fields, so the third always exists |
| SampleReader.FieldsOfId | FastFrames/python/ConfigReaderModules/BlockReaderSample.py:327-328 | with no comma in the campaign, the fields are the dsid, the campaign and the pieces of the simulation type |
| SampleReader.IsDataSample | FastFrames/python/ConfigReaderModules/BlockReaderSample.py:322-331 | a sample reads as data exactly when every identity string's third field, stripped and lower-cased, is "data" |
| SampleReader.LowerIsData | FastFrames/python/ConfigReaderModules/BlockReaderSample.py:329 | lower-casing gives "data" exactly for the spellings of data in any case |
| SampleReader.IdStringSaysDataIsData | FastFrames/python/ConfigReaderModules/BlockReaderSample.py:322-331 | for plainly written identities the Python reading of the identity string agrees with the native data test |
| SampleReader.MixedSampleIsDataOnlyNatively | FastFrames/Root/Sample.cc:110-116 | a sample mixing data and simulation identities is data to the native side (some identity is data) but not to the Python side (all must be) |
| SampleReader.CommaInCampaignShiftsFields | FastFrames/python/ConfigReaderModules/BlockReaderSample.py:328 | a comma inside the campaign shifts the fields, so its second part is read as the simulation type |
| SampleReader.ShiftedCampaignReadsAsData | FastFrames/python/ConfigReaderModules/BlockReaderSample.py:322-331 | a simulated sample whose campaign ends in ",data" reads as data |
| SampleReader.IsDataByFields | FastFrames/python/ConfigReaderModules/BlockReaderSample.py:322-331 | the data test as intended: a sample is data exactly when every identity's own simulation type is data, whatever its campaign contains |
| SampleReader.PlainIdsReadTheSameData | FastFrames/python/ConfigReaderModules/BlockReaderSample.py:322-331 | on plainly written identities, reading the third field of each identity string agrees with reading the simulation type itself, in both directions |
| SampleReader.ShiftedCampaignIsNotDataByFields | FastFrames/python/ConfigReaderModules/BlockReaderSample.py:327-329 | a simulated identity whose campaign ends in ",data" passes the string-reading test but not the intended one |
| SampleReader.DataChecksAgreeOnUniformSamples | FastFrames/Root/Sample.cc:110-116 | for a non-empty sample whose plainly written identities are all data or all simulation, the Python test (every identity) and the native one (some identity) agree |
| StringOps.StartsWithMeansConcatenation | FastFrames/Root/StringOperations.cc:41-46 | a string starts with a prefix exactly when it is that prefix followed by some rest, and the rest is what follows the prefix |
| StringOps.EndsWithMeansConcatenation | FastFrames/Root/StringOperations.cc:48-53 | a string ends with a suffix exactly when it is some front followed by that suffix |
| StringOps.FindFrom | FastFrames/Root/StringOperations.cc:20 | the position found is the first occurrence at or after the start; no position means no occurrence there |
| StringOps.Find | FastFrames/Root/StringOperations.cc:93 | nothing is found exactly when the text does not occur, and otherwise the position of its first occurrence |
| StringOps.ReplaceAll | FastFrames/Root/StringOperations.cc:14-26 | the result is the input cut at every non-overlapping occurrence of the searched text, scanned left to right, with the replacement put between the pieces; so without an occurrence the string is unchanged, and a same-length replacement keeps the length |
| StringOps.PySplitOn | FastFrames/Root/StringOperations.cc:14-26 | cutting at every non-overlapping occurrence from the left gives at least one piece, and no piece contains the separator |
| StringOps.PySplitOnJoin | FastFrames/Root/StringOperations.cc:14-26 | putting the separator back between the pieces gives the input back |
| StringOps.ReplaceCharwise | FastFrames/python/TRExFitterConfigPreparation/TrexSettingsGetter.py:837 | replacing one character by another keeps the length and changes exactly the positions holding that character |
| StringOps.ReplaceEach | FastFrames/Root/StringOperations.cc:28-39 | every element replaced on its own, same number of elements |
| StringOps.ReplaceAllSelf | FastFrames/Root/StringOperations.cc:14-26 | replacing a text by itself changes nothing |
| StringOps.ReplaceAllIsSinglePass | FastFrames/Root/StringOperations.cc:19-23 | the search never goes back, so removing "ab" from "aabb" leaves "ab" behind |
| StringOps.NatToString | FastFrames/Root/StringOperations.cc:56-58 | a rendered natural number is an integer string by stringIsInt and has no leading zero |
| StringOps.IntToString | FastFrames/Root/StringOperations.cc:56-58 | a rendered integer is non-empty and starts with '-' exactly when the number is negative |
| StringOps.NatToStringRoundTrip | FastFrames/Root/StringOperations.cc:56-58 | reading back a rendered number gives the number |
| StringOps.NatToStringInjective | FastFrames/Root/StringOperations.cc:56-58 | different numbers render differently |
| StringOps.Split | FastFrames/Root/StringOperations.cc:90-99 | no piece contains the separator, and there are pieces exactly when the input is non-empty |
| StringOps.SplitCons | FastFrames/Root/StringOperations.cc:93-96 | a separator-free piece, the separator and a rest split into that piece and the pieces of the rest |
| StringOps.PySplit | FastFrames/python/ConfigReaderModules/BlockReaderSample.py:328 | Python's split always gives at least one piece |
| StringOps.PySplitCount | FastFrames/python/ConfigReaderModules/BlockReaderSample.py:328 | Python's split gives one piece more than there are separators |
| StringOps.PySplitPiecesFree | FastFrames/python/ConfigReaderModules/BlockReaderSample.py:328 | no piece of Python's split contains the separator |
| StringOps.PySplitAppend | FastFrames/python/ConfigReaderModules/BlockReaderSample.py:328 | splitting two strings joined by the separator splits each of them |
| StringOps.PySplitIntercalate | FastFrames/python/ConfigReaderModules/BlockReaderSample.py:328 | joining separator-free pieces and splitting again gives the pieces back |
| StringOps.WithSeparators | FastFrames/Root/StringOperations.cc:144-146 | every piece followed by the separator ends with the separator |
| StringOps.JoinIsIntercalate | FastFrames/Root/StringOperations.cc:142-149 | joinStrings equals the conventional join with one separator between neighbours, also for a single empty piece |
| StringOps.SplitJoinRoundTrip | FastFrames/Root/StringOperations.cc:90-99 | splitting a string that does not end with the separator and joining the pieces back gives the string |
| StringOps.StripLeft | FastFrames/Root/StringOperations.cc:121 | the result is a suffix of the input, everything cut off is a stripped character, and it does not start with one |
| StringOps.StripRight | FastFrames/Root/StringOperations.cc:122 | the result is a prefix of the input, everything cut off is a stripped character, and it does not end with one |
| StringOps.Strip | FastFrames/Root/StringOperations.cc:120-123 | the result is the infix of the input that starts at its first kept character; it neither starts nor ends with a stripped character, and everything after it is stripped characters |
| StringOps.StripKeeps | FastFrames/Root/StringOperations.cc:120-123 | every character of the input that is not stripped survives in the result |
| StringOps.StripNothing | FastFrames/Root/StringOperations.cc:120-123 | a string that neither starts nor ends with a stripped character is left as it is |
| StringOps.SplitAndStrip | FastFrames/Root/StringOperations.cc:82-88 | one piece per piece of the split, each piece of the split with white space stripped from both ends |
| StringOps.FirstWhitespace | FastFrames/Root/StringOperations.cc:106 | the position found holds white space and no earlier one does; nothing found means no white space at all |
| StringOps.SplitByWhitespace | FastFrames/Root/StringOperations.cc:101-118 | the pieces are the words of the line in order: each a non-empty run without white space, separated from the next by white space, with only white space around them |
| StringOps.SpacedUnique | FastFrames/Root/StringOperations.cc:101-118 | a line has only one division into white-space separated words, so the split is determined by the line |
| StringOps.ToUpper | FastFrames/Root/StringOperations.cc:125-133 | upper-casing keeps the length and maps each character on its own |
| StringOps.ToLower | FastFrames/python/ConfigReaderModules/BlockReaderSample.py:329 | lower-casing keeps the length and maps each character on its own |
| StringOps.EqualsIgnoreCaseCharwise | FastFrames/Root/StringOperations.cc:135-139 | case-insensitive equality compares character by character and includes plain equality and symmetry |
| StringOps.DataSpellings | FastFrames/Root/StringOperations.cc:135-139 | "data", "Data" and "DATA" compare equal and "mc" does not |
| StringOps.StringLessTotal | FastFrames/FastFrames/UniqueSampleID.h:54-62 | two different strings are ordered one way and never both ways |
| StringOps.StringLessTransitive | FastFrames/FastFrames/UniqueSampleID.h:54-62 | the string order is transitive |
| StdMap.Get | FastFrames/Root/SystematicReplacer.cc:94 | a lookup finds nothing exactly when the key is absent, and otherwise a value stored with that key |
| StdMap.GetFindsEntry | FastFrames/Root/SystematicReplacer.cc:94 | in a key-ordered map every entry is the one a lookup of its key finds |
| StdMap.Insert | FastFrames/Root/SystematicReplacer.cc:73-81 | an insert keeps the keys ordered and adds exactly the given key |
| StdMap.GetAfterInsert | FastFrames/Root/SystematicReplacer.cc:81 | after an insert the key keeps its old value if it had one and has the new one otherwise |
| StdMap.GetAfterInsertOther | FastFrames/Root/SystematicReplacer.cc:81 | an insert leaves every other key as it was |
| StdMap.Assign | FastFrames/Root/SystematicReplacer.cc:274 | an assignment keeps the keys ordered and adds exactly the given key |
| StdMap.GetAfterAssign | FastFrames/Root/SystematicReplacer.cc:274 | after an assignment the key holds the new value and every other key is unaffected |
| StdMap.PushBack | FastFrames/Root/SystematicReplacer.cc:267 | appending to a key's list keeps the keys ordered |
| StdMap.HoldsAfterAssign | FastFrames/Root/SystematicReplacer.cc:274 | after an assignment a key's list holds exactly the assigned values, other keys unchanged |
| StdMap.HoldsAfterInsert | FastFrames/Root/SystematicReplacer.cc:81 | after an insert a present key's list is unchanged and a new key's list is the inserted one |
| StdMap.HoldsAfterPushBack | FastFrames/Root/SystematicReplacer.cc:267 | after appending, the key's list gains exactly the appended element and nothing else changes |
| StdMap.HoldsIffEntry | FastFrames/Root/SystematicReplacer.cc:94 | an element is in a key's list exactly when some entry with that key lists it |
| SumWeightNames.DefaultVariationName | FastFrames/python_wrapper/headers/SumWeightsGetter.h:120-134 | a histogram not named "CutBookkeeper_..." has the empty variation name |
| SumWeightNames.CustomVariationName | FastFrames/python_wrapper/headers/SumWeightsGetter.h:136-143 | with the configured prefix the histogram is the prefix, "_" and the variation name; otherwise the name is empty |
| SumWeightNames.VariationName | FastFrames/python_wrapper/headers/SumWeightsGetter.h:113-118 | the default rule applies exactly when no histogram name is configured, the custom rule otherwise |
| SumWeightNames.BookkeeperPieces | FastFrames/python_wrapper/headers/SumWeightsGetter.h:124 | a bookkeeping histogram name splits into the marker, the two integers and the pieces of the variation |
| SumWeightNames.DefaultVariationNameRoundTrip | FastFrames/python_wrapper/headers/SumWeightsGetter.h:120-134 | the default rule reads back the variation a "CutBookkeeper_<int>_<int>_" histogram was named after, unless the variation ends in "_" |
| SumWeightNames.CustomVariationNameRoundTrip | FastFrames/python_wrapper/headers/SumWeightsGetter.h:136-143 | the custom rule reads back whatever follows the configured name and "_" |
| SystematicReader.ReadVariationName | FastFrames/python/ConfigReaderModules/BlockReaderSystematic.py:37-40 | the variation's name must be given under the variation's own key and is read as given, marking only options given for that variation |
| SystematicReader.ReadVariationWeights | FastFrames/python/ConfigReaderModules/BlockReaderSystematic.py:42-46 | the weight suffix defaults to ""; the sums of weights are read when given for the variation |
| SystematicReader.ReadVariation | FastFrames/python/ConfigReaderModules/BlockReaderSystematic.py:32-54 | the variation type, lower-cased, must be up or down and must name a variation; the weight suffix defaults to "" and the sums of weights to the general default; every option of the variation block must be given for this variation |
| SystematicReader.UsedOptionsGiven | FastFrames/python/ConfigReaderModules/BlockReaderSystematic.py:54 | once nothing of the variation block is left unused, every option it defines was given for the variation read |
| SystematicReader.OneSidedOptionFails | FastFrames/python/ConfigReaderModules/BlockReaderSystematic.py:42-54 | an option given for one variation only makes reading the other variation stop the program |
| SystematicReader.ReadSampleLists | FastFrames/python/ConfigReaderModules/BlockReaderSystematic.py:56-62 | both sample lists are narrowed by the command-line sample filter, and giving both stops the program |
| SystematicReader.ReadRegionLists | FastFrames/python/ConfigReaderModules/BlockReaderSystematic.py:67-71 | regions and exclude_regions are read as given and are never both present |
| SystematicReader.ReadSystematic | FastFrames/python/ConfigReaderModules/BlockReaderSystematic.py:18-73 | a systematic needs a variation mapping, uses only supported options, never has both sample lists or both region lists, and reads its lists as given |
| SystematicReader.Variations | FastFrames/python/ConfigReaderModules/BlockReaderSystematic.py:150-158 | the variations a block defines, up before down, never none; the reading fails exactly when the variation value is missing, not a mapping, or names neither |
| SystematicReader.ReadSystematicsVariations | FastFrames/python/ConfigReaderModules/BlockReaderSystematic.py:146-167 | one systematic per variation the block defines, in the order up then down, and the up/down pair holds exactly those present |
| SystematicReader.AdjustRegions | FastFrames/python/ConfigReaderModules/BlockReaderSystematic.py:81-97 | without a region list, every region not excluded, in region order; with one, the list itself, which succeeds exactly when every listed region exists |
| SystematicReader.AllKnown | FastFrames/python/ConfigReaderModules/BlockReaderSystematic.py:103-112 | an optional list passes exactly when it is absent or every name in it is known |
| SystematicReader.CheckSamplesExist | FastFrames/python/ConfigReaderModules/BlockReaderSystematic.py:99-112 | passes exactly when every listed and every excluded sample exists |
| SystematicReader.CheckRegionsExist | FastFrames/python/ConfigReaderModules/BlockReaderSystematic.py:114-127 | passes exactly when every listed and every excluded region exists |
| SystematicReader.AdjustedRegionsExist | FastFrames/python/ConfigReaderModules/BlockReaderSystematic.py:81-97 | the regions a systematic is attached to all exist, and none of them is excluded |
| SystReplacer.NewReplacer | FastFrames/Root/SystematicReplacer.cc:19-21 | a new replacer is valid, its two maps are inverse to each other, and it relates no systematic to any branch |
| SystReplacer.AffectedBranches | FastFrames/Root/SystematicReplacer.cc:64-71 | the affected branches are exactly the variables ending in the systematic's name with that name replaced by NOSYS, and each contains NOSYS |
| SystReplacer.InsertSystematicsGet | FastFrames/Root/SystematicReplacer.cc:61-74 | after the first pass a new systematic maps to its affected branches and every systematic already present keeps its list |
| SystReplacer.AddInverseHolds | FastFrames/Root/SystematicReplacer.cc:78-85 | the inner loop of the second pass adds exactly the pairs of the systematic with each of its branches |
| SystReplacer.InvertHolds | FastFrames/Root/SystematicReplacer.cc:77-86 | the second pass adds to the branch map exactly the inverted pairs of the systematic map |
| SystReplacer.MatchSystematicVariables | FastFrames/Root/SystematicReplacer.cc:58-87 | matching keeps both maps in key order and leaves the branch list and the systematic names alone |
| SystReplacer.MatchSystematicVariablesSpec | FastFrames/Root/SystematicReplacer.cc:58-87 | after matching, a new systematic lists exactly its affected branches, old entries are unchanged, every listed branch is nominal and the two maps stay inverse to each other |
| SystReplacer.SwapBranches | FastFrames/Root/SystematicReplacer.cc:103-106 | the nominal "systematic" changes nothing, and neither does a string containing none of the affected branches |
| SystReplacer.SwapBranchesStep | FastFrames/Root/SystematicReplacer.cc:103-106 | one turn of the loop cuts the string at every non-overlapping occurrence of the first branch, from the left, puts the branch with NOSYS replaced by the systematic between the pieces, and goes on with the remaining branches in list order |
| SystReplacer.SwapBranchesSingle | FastFrames/Root/SystematicReplacer.cc:103-106 | with one branch, the result is the string cut at the branch with its variant between the pieces, so a string holding the branch then holds its variant |
| SystReplacer.ReplaceString | FastFrames/Root/SystematicReplacer.cc:93-109 | replacing fails exactly for an unknown systematic; NOSYS and a systematic whose branches do not occur in the string leave it unchanged |
| SystReplacer.ReplaceStringFirstBranch | FastFrames/Root/SystematicReplacer.cc:93-109 | for a known systematic, replaceString swaps every occurrence of its first listed branch for that branch's variant and then runs the loop over the other branches in list order |
| SystReplacer.ReplaceStringSingle | FastFrames/Root/SystematicReplacer.cc:93-109 | a systematic that affects one branch replaces exactly the occurrences of that branch by its variant |
| SystReplacer.ReplaceVector | FastFrames/Root/SystematicReplacer.cc:111-118 | fails exactly when there is an element and the systematic is unknown; otherwise every element is replaced on its own |
| SystReplacer.AddColumn | FastFrames/Root/SystematicReplacer.cc:130-146 | a column is known exactly when it is not an unknown nominal column, and then the result gains its systematics not seen yet |
| SystReplacer.EffectiveSystematics | FastFrames/Root/SystematicReplacer.cc:126-150 | fails exactly when some nominal column is missing from the branch map; otherwise the systematics of the nominal columns, each once, in the order first met |
| SystReplacer.AffectingAllMembership | FastFrames/Root/SystematicReplacer.cc:126-150 | with inverse maps, a systematic is effective for the columns exactly when it lists one of the nominal columns among its branches |
| SystReplacer.AttachSystematics | FastFrames/Root/SystematicReplacer.cc:169-180 | fails exactly when some given systematic is unknown; otherwise the maps stay valid, the systematic names are unchanged and no branch is lost |
| SystReplacer.PushBackKeepsNominal | FastFrames/Root/SystematicReplacer.cc:175 | appending a nominal name keeps every listed branch nominal |
| SystReplacer.AttachSystematicsHolds | FastFrames/Root/SystematicReplacer.cc:169-180 | the systematic map gains exactly the pairs of the variable with each given systematic |
| SystReplacer.AddVariable | FastFrames/Root/SystematicReplacer.cc:152-181 | a known branch changes nothing; otherwise adding fails exactly when the variable lacks NOSYS or a systematic is unknown; a new variable ends up a branch, listed with the given systematics |
| SystReplacer.AddVariableKeepsConsistent | FastFrames/Root/SystematicReplacer.cc:152-181 | adding a variable keeps the two maps inverse to each other and makes every given systematic list it |
| SystReplacer.AddOnceGetOr | FastFrames/Root/SystematicReplacer.cc:190-208 | the list under the key gains the value when it lacks it, and every other list is unchanged |
| SystReplacer.AddOnceKeepsNoRepeats | FastFrames/Root/SystematicReplacer.cc:194-197 | the update never puts a value twice in a list |
| SystReplacer.AddSingleSystematic | FastFrames/Root/SystematicReplacer.cc:183-213 | fails exactly when the variable lacks NOSYS; otherwise the variable is a branch, each map relates it to the systematic, and no branch is lost |
| SystReplacer.AddSingleSystematicSpec | FastFrames/Root/SystematicReplacer.cc:183-213 | addSingleSystematic never repeats a value within a list and keeps the two maps inverse to each other |
| SystReplacer.DetachHolds | FastFrames/Root/SystematicReplacer.cc:258-263 | the first update loop removes the variable exactly from the systematics no longer given |
| SystReplacer.AttachNewHolds | FastFrames/Root/SystematicReplacer.cc:266-271 | the second update loop adds the variable exactly to the given systematics that did not list it |
| SystReplacer.ReattachHolds | FastFrames/Root/SystematicReplacer.cc:257-271 | after both loops a systematic lists the variable when it did and was not dropped, or when it is newly given; other pairs are unchanged |
| SystReplacer.ReattachKeepsNominal | FastFrames/Root/SystematicReplacer.cc:257-271 | the update keeps every listed branch nominal |
| SystReplacer.UpdateVariable | FastFrames/Root/SystematicReplacer.cc:245-275 | an unknown variable is added as addVariableAndEffectiveSystematics does; a known one fails exactly when it lacks NOSYS; the variable stays a branch |
| SystReplacer.UpdateVariableKeepsConsistent | FastFrames/Root/SystematicReplacer.cc:245-275 | the update keeps the two maps inverse to each other, and afterwards exactly the given systematics list the variable |
| SystReplacer.IsSystematicVariation | FastFrames/Root/SystematicReplacer.cc:331-335 | true exactly when some systematic name occurs in the branch |
| SystReplacer.IsNominalBranch | FastFrames/Root/SystematicReplacer.cc:322-329 | true exactly when the branch carries NOSYS or contains no systematic name |
| SystReplacer.NominalBranches | FastFrames/Root/SystematicReplacer.cc:310-320 | the nominal branches among those given, in order |
| SystReplacer.VariablesAffected | FastFrames/Root/SystematicReplacer.cc:297-308 | the branches of the branch map that occur in the input, in key order |
| TrexNames.CommonPart | FastFrames/python/TRExFitterConfigPreparation/TrexSettingsGetter.py:29-35 | a found common part is a prefix of both strings, and the strings differ at the next position |
| TrexNames.CommonPartNone | FastFrames/python/TRExFitterConfigPreparation/TrexSettingsGetter.py:29-35 | no common part is returned exactly when one string is a prefix of the other, equal strings included |
| TrexNames.CommonPartIsLongest | FastFrames/python/TRExFitterConfigPreparation/TrexSettingsGetter.py:29-35 | every common prefix of the two strings is at most as long as the common part |
| TrexNames.CommonPartOfStem | FastFrames/python/TRExFitterConfigPreparation/TrexSettingsGetter.py:29-35 | two names sharing a stem and then differing have the stem as their common part |
| TrexNames.ConfigSystematicName | FastFrames/python/TRExFitterConfigPreparation/TrexSettingsGetter.py:820-830 | the exported name of a configured systematic never starts or ends with an underscore |
| TrexNames.UpDownName | FastFrames/python/TRExFitterConfigPreparation/TrexSettingsGetter.py:820-830 | the variations "X_up" and "X_down" give the systematic the name X |
| TrexNames.NamedAfterCommonPart | FastFrames/python/TRExFitterConfigPreparation/TrexSettingsGetter.py:826-830 | two variations with a non-empty common part are named after it, underscores stripped |
| TrexNames.StripOneUnderscore | FastFrames/python/TRExFitterConfigPreparation/TrexSettingsGetter.py:830 | stripping underscores off a stem followed by one underscore gives the stem |
| TrexNames.OneSidedName | FastFrames/python/TRExFitterConfigPreparation/TrexSettingsGetter.py:822-825 | a one-sided systematic is named after its only variation |
| TrexNames.ChooseNames | FastFrames/python/TRExFitterConfigPreparation/TrexSettingsGetter.py:857-866 | everything is selected exactly when all names are; a list of at most half the names is kept as given; more than half becomes the complement, in the order of all names |
| TrexNames.Title | FastFrames/python/TRExFitterConfigPreparation/TrexSettingsGetter.py:837 | the title has the name's length, holds a space at each position where the name has an underscore, and the name's character everywhere else |
| TrexNames.VariationSamples | FastFrames/python/TRExFitterConfigPreparation/TrexSettingsGetter.py:869-879 | the samples written for a systematic are exactly those without automatic systematics that know its variation |
| TrexNames.RegionOptions | FastFrames/python/TRExFitterConfigPreparation/TrexSettingsGetter.py:857-866 | a region list is written exactly when at most half of the regions, but not all, are selected; an exclusion lists exactly the unselected regions and only when more than half are selected; no other key |
| TrexNames.ConfigSystematicBlockContents | FastFrames/python/TRExFitterConfigPreparation/TrexSettingsGetter.py:815-879 | a configured systematic's block has a folder for each non-empty variation, is a HISTO systematic titled after its name, two-sided exactly when both variations are given, and carries the region options and the samples that know its variation |
| TrexNames.AssembledFolders | FastFrames/python/TRExFitterConfigPreparation/TrexSettingsGetter.py:832-836 | the assembled block keeps the folders |
| TrexNames.AssembledSettings | FastFrames/python/TRExFitterConfigPreparation/TrexSettingsGetter.py:837-840 | the assembled block keeps the title, type and symmetrisation |
| TrexNames.AssembledRegions | FastFrames/python/TRExFitterConfigPreparation/TrexSettingsGetter.py:857-866 | the assembled block takes the region options over |
| TrexNames.PutAllLookup | FastFrames/python/TRExFitterConfigPreparation/TrexSettingsGetter.py:832-866 | when the added entries have no key twice, they win over the block's own |
| TrexNames.Folders | FastFrames/python/TRExFitterConfigPreparation/TrexSettingsGetter.py:833-836 | a folder key is present exactly for each non-empty variation, holding its name, and no other key |
| TrexNames.Settings | FastFrames/python/TRExFitterConfigPreparation/TrexSettingsGetter.py:837-840 | title, type HISTO, the symmetrisation and smoothing 40 are set and the rest comes from the folders |
| TrexNames.PutAll | FastFrames/python/TRExFitterConfigPreparation/TrexSettingsGetter.py:832-866 | keys the added entries lack keep their values |
| TrexNames.Classify | FastFrames/python/TRExFitterConfigPreparation/TrexSettingsGetter.py:586-618 | a histogram folder is a generator systematic exactly when it starts with GEN_; a variation folder is its systematic's name followed by that folder's ending |
| TrexNames.BaseOf | FastFrames/python/TRExFitterConfigPreparation/TrexSettingsGetter.py:586-618 | a histogram folder belongs to no systematic exactly when it is a generator one |
| TrexNames.ClassifySuffixed | FastFrames/python/TRExFitterConfigPreparation/TrexSettingsGetter.py:586-618 | classifying a systematic's folder name recovers the systematic and the folder |
| TrexNames.FolderKeys | FastFrames/python/TRExFitterConfigPreparation/TrexSettingsGetter.py:595-618 | the folder keys differ from "Samples" and from each other |
| TrexNames.AddHistoSound | FastFrames/python/TRExFitterConfigPreparation/TrexSettingsGetter.py:586-618 | adding one more histogram folder keeps every block accounted for by the histograms |
| TrexNames.AddHistoKeys | FastFrames/python/TRExFitterConfigPreparation/TrexSettingsGetter.py:586-618 | adding a histogram folder adds its systematic, if any, to the names |
| TrexNames.NewBlockAccounted | FastFrames/python/TRExFitterConfigPreparation/TrexSettingsGetter.py:594-618 | after adding a histogram its systematic's block is a mapping that the histograms account for |
| TrexNames.AutomaticSystematicsSound | FastFrames/python/TRExFitterConfigPreparation/TrexSettingsGetter.py:575-623 | there is a block for exactly the systematics some histogram folder belongs to, and each folder and sample list in it comes from a histogram of that systematic |
| TrexNames.LastHistoRecorded | FastFrames/python/TRExFitterConfigPreparation/TrexSettingsGetter.py:586-618 | the last folder of a systematic is the one recorded for its kind in the systematic's block |
| TrexNames.Decorate | FastFrames/python/TRExFitterConfigPreparation/TrexSettingsGetter.py:695-700 | an automatic systematic gets its title, type HISTO, smoothing 40 and TWOSIDED exactly when both its up and down folders are known; other keys are kept |
| TrexNames.DecorateEntry | FastFrames/python/TRExFitterConfigPreparation/TrexSettingsGetter.py:695-700 | decoration keeps the systematic's name |
| TrexNames.AutomaticBlocks | FastFrames/python/TRExFitterConfigPreparation/TrexSettingsGetter.py:690-701 | every automatic systematic is decorated, one entry per systematic, in order |
| TrexNames.AutomaticBlocksKeys | FastFrames/python/TRExFitterConfigPreparation/TrexSettingsGetter.py:690-701 | decoration keeps the systematics' names and order |
| TrexNames.AutomaticBlocksLookup | FastFrames/python/TRExFitterConfigPreparation/TrexSettingsGetter.py:690-701 | each automatic systematic's block is its decorated block |
| TrexSettings.RemoveFirst | FastFrames/python/TRExFitterConfigPreparation/TrexSettingsGetter.py:47-48 | list.remove guarded by a membership test takes out one occurrence of the item (as multisets, the list minus that item) and leaves a list without it untouched |
| TrexSettings.RemoveEach | FastFrames/python/TRExFitterConfigPreparation/TrexSettingsGetter.py:46-48 | removing the items in turn leaves the multiset difference of the list and the items |
| TrexSettings.RemoveEachDistinct | FastFrames/python/TRExFitterConfigPreparation/TrexSettingsGetter.py:46-48 | from a list without repetitions, exactly the elements not among the removed items are left |
| TrexSettings.RemoveItems | FastFrames/python/TRExFitterConfigPreparation/TrexSettingsGetter.py:37-52 | an absent key, a null value or no items leave the block as it was; the call fails exactly when the value is some other non-string (which has no strip); no other key changes |
| TrexSettings.RemoveItemsLeaves | FastFrames/python/TRExFitterConfigPreparation/TrexSettingsGetter.py:44-52 | what is left under the key, split again, is the listed items minus the removed ones counted with multiplicity, and the key is deleted exactly when the removed items cover the list |
| TrexSettings.RemoveItemsDistinct | FastFrames/python/TRExFitterConfigPreparation/TrexSettingsGetter.py:44-52 | for a comma list without repetitions the key is deleted exactly when every listed item is removed, and otherwise the new list names exactly the items not removed |
| TrexSettings.SampleList | FastFrames/python/TRExFitterConfigPreparation/TrexSettingsGetter.py:641-643 | the sample list is read exactly when Samples holds a list of strings; a missing Samples stops the program |
| TrexSettings.ResolveSamples | FastFrames/python/TRExFitterConfigPreparation/TrexSettingsGetter.py:883-899 | Samples survives, joined by commas, exactly when its list is not the full MC list and at most half as long; every option other than Samples and Exclude is unchanged |
| TrexSettings.AppendExcludes | FastFrames/python/TRExFitterConfigPreparation/TrexSettingsGetter.py:890-894 | the left-out samples are appended to Exclude (after a comma when there is one); it fails only when an existing Exclude is not a string; nothing else changes |
| TrexSettings.CommaItems | FastFrames/python/TRExFitterConfigPreparation/TrexSettingsGetter.py:917-927 | an absent or false value reads as the default; a true value that is not a string cannot be split and stops the program |
| TrexSettings.EffectiveSamples | FastFrames/python/TRExFitterConfigPreparation/TrexSettingsGetter.py:917-927 | the samples a block applies to as the split reads it: the Samples list or every MC sample, minus each Exclude item once; read exactly when both values can be split |
| TrexSettings.ResolveKeepsSamples | FastFrames/python/TRExFitterConfigPreparation/TrexSettingsGetter.py:883-899 | round trip: a distinct, non-empty list of MC samples, resolved and then read back the way the split reads a block, applies to exactly the listed samples, in each of the three forms the resolution may take |
| TrexSettings.DroppedListKeepsSamples | FastFrames/python/TRExFitterConfigPreparation/TrexSettingsGetter.py:896-899 | dropping a list that names every MC sample leaves a block that applies to exactly those samples |
| TrexSettings.JoinedListKeepsSamples | FastFrames/python/TRExFitterConfigPreparation/TrexSettingsGetter.py:896-897 | a list joined by commas reads back as exactly the listed samples |
| TrexSettings.ComplementKeepsSamples | FastFrames/python/TRExFitterConfigPreparation/TrexSettingsGetter.py:885-895 | the MC samples left out, added to Exclude with Samples dropped, exclude exactly the samples not listed |
| TrexSettings.ComplementItems | FastFrames/python/TRExFitterConfigPreparation/TrexSettingsGetter.py:890-894 | the extended Exclude list names, among the MC samples, exactly the ones added |
| TrexSettings.AnyFullMatch | FastFrames/python/TRExFitterConfigPreparation/TrexSettingsGetter.py:903-909 | the loop over patterns answers whether some pattern matches the whole name |
| TrexSettings.IsExcludedSyst | FastFrames/python/TRExFitterConfigPreparation/TrexSettingsGetter.py:901-910 | with a selection, a systematic is excluded exactly when no selected pattern matches its whole name; without one, exactly when some exclusion pattern does |
| TrexSettings.SelectionWins | FastFrames/python/TRExFitterConfigPreparation/TrexSettingsGetter.py:902-906 | a systematic matched by a selected pattern is kept whatever the exclusion patterns say |
| TrexSettings.InsertByName | FastFrames/python/TRExFitterConfigPreparation/TrexSettingsGetter.py:659 | inserting a block keeps every block and adds it once (multisets) |
| TrexSettings.InsertByNameSorted | FastFrames/python/TRExFitterConfigPreparation/TrexSettingsGetter.py:659 | inserting into a list sorted by name keeps it sorted |
| TrexSettings.SortByName | FastFrames/python/TRExFitterConfigPreparation/TrexSettingsGetter.py:659 | the sort is a permutation of its input |
| TrexSettings.SortByNameSorted | FastFrames/python/TRExFitterConfigPreparation/TrexSettingsGetter.py:659 | the sorted list has no block after one with a greater name |
| TrexSettings.OfNameAppend | FastFrames/python/TRExFitterConfigPreparation/TrexSettingsGetter.py:659 | the blocks of one name in two lists joined are those of the first list followed by those of the second |
| TrexSettings.InsertByNameStable | FastFrames/python/TRExFitterConfigPreparation/TrexSettingsGetter.py:659 | an inserted block goes after the blocks of its own name |
| TrexSettings.SortByNameStable | FastFrames/python/TRExFitterConfigPreparation/TrexSettingsGetter.py:659 | the sort is stable: the blocks of any one name keep their relative order |
| TrexSettings.ConfiguredSamples | FastFrames/python/TRExFitterConfigPreparation/TrexSettingsGetter.py:637-641 | a configured systematic's samples are its own list followed by those of the automatic systematic of the same name, when one exists; read exactly when its own list can be read |
| TrexSettings.ConfiguredBlock | FastFrames/python/TRExFitterConfigPreparation/TrexSettingsGetter.py:641-646 | a configured systematic contributes one block exactly when it has samples and the selection keeps it, and that block is its resolved settings |
| TrexSettings.MergeConfigured | FastFrames/python/TRExFitterConfigPreparation/TrexSettingsGetter.py:634-646 | the first loop succeeds exactly when every configured systematic's contribution does; each block comes from a surviving configured systematic, and each surviving name has a block |
| TrexSettings.AutomaticBlock | FastFrames/python/TRExFitterConfigPreparation/TrexSettingsGetter.py:648-657 | an automatic systematic contributes one block exactly when it is selected, not configured and has samples; an excluded or configured name contributes nothing |
| TrexSettings.MergeAutomatic | FastFrames/python/TRExFitterConfigPreparation/TrexSettingsGetter.py:648-657 | the second loop succeeds exactly when every automatic contribution does; each block comes from a surviving automatic systematic, and each surviving name has a block |
| TrexSettings.MergeSystematics | FastFrames/python/TRExFitterConfigPreparation/TrexSettingsGetter.py:625-661 | the merge succeeds exactly when both loops do; the result is sorted by name and holds only configured or automatic contributions, and a name appears exactly when a configured or automatic systematic of that name survives |
| TrexSettings.MergedBlocks | FastFrames/python/TRExFitterConfigPreparation/TrexSettingsGetter.py:659 | sorting the two loops' blocks together keeps every block's origin |
| TrexSettings.MergedNames | FastFrames/python/TRExFitterConfigPreparation/TrexSettingsGetter.py:625-661 | a name appears in the merged, sorted result exactly when a systematic of that name survives one of the loops |
| TrexSettings.ConfiguredNamesSurvive | FastFrames/python/TRExFitterConfigPreparation/TrexSettingsGetter.py:634-646 | every name the first loop emits belongs to a surviving configured systematic |
| TrexSettings.AutomaticNamesSurvive | FastFrames/python/TRExFitterConfigPreparation/TrexSettingsGetter.py:648-657 | every name the second loop emits belongs to a surviving automatic systematic |
| TrexSettings.SameNames | FastFrames/python/TRExFitterConfigPreparation/TrexSettingsGetter.py:659 | reordering blocks keeps their set of names |
| TrexSettings.NamesAppend | FastFrames/python/TRExFitterConfigPreparation/TrexSettingsGetter.py:646 | the names of two lists joined are the names of either |
| TrexSettings.ConfiguredNamesWin | FastFrames/python/TRExFitterConfigPreparation/TrexSettingsGetter.py:651-652 | a merged block with a configured name comes from the configuration, never from the automatic systematic of that name |
| TrexSettings.MergedSamples | FastFrames/python/TRExFitterConfigPreparation/TrexSettingsGetter.py:639-645 | when the configured and automatic lists share no sample, the resolved block applies to exactly the samples of both |
| TrexSettings.OverlappingSamplesWiden | FastFrames/python/TRExFitterConfigPreparation/TrexSettingsGetter.py:639-645 | with MC samples a and b, a configured list [a] merged with an automatic list [a] has as many entries as there are MC samples, so Samples is dropped and the systematic applies to b as well |
| TrexSettings.MergeFlag | FastFrames/python/TRExFitterConfigPreparation/TrexSettingsGetter.py:674-676 | the opt-out option is read (true when absent) and deleted; every other option, the name and the kind are kept |
| TrexSettings.MergeFlagOnce | FastFrames/python/TRExFitterConfigPreparation/TrexSettingsGetter.py:674-676 | after the option is consumed, a second look finds the block merging and changes nothing |
| TrexSettings.MergedLookup | FastFrames/python/TRExFitterConfigPreparation/TrexSettingsGetter.py:678 | in a merged block the TRExFitter settings win and the FastFrames ones fill in the rest; the opt-out option itself is not carried over |
| TrexSettings.MatchTrex | FastFrames/python/TRExFitterConfigPreparation/TrexSettingsGetter.py:669-683 | the inner loop consumes the option of exactly the TRExFitter-only blocks of the FastFrames block's name, leaves the others alone, and emits blocks of that name, at least one exactly when such a block exists |
| TrexSettings.Matched | FastFrames/python/TRExFitterConfigPreparation/TrexSettingsGetter.py:669-683 | the blocks the inner loop emits carry the FastFrames block's name, and there are some exactly when a TRExFitter-only block has that name |
| TrexSettings.Consumed | FastFrames/python/TRExFitterConfigPreparation/TrexSettingsGetter.py:669-676 | the inner loop hands back as many TRExFitter-only blocks as it received |
| TrexSettings.Outcome | FastFrames/python/TRExFitterConfigPreparation/TrexSettingsGetter.py:676-683 | a merging block gives the one merged block; an opting-out one gives the FastFrames block and the TRExFitter block side by side |
| TrexSettings.MatchTrexOutcome | FastFrames/python/TRExFitterConfigPreparation/TrexSettingsGetter.py:669-683 | every TRExFitter-only block of the name leaves its outcome in the inner loop's output |
| TrexSettings.MeetTrex | FastFrames/python/TRExFitterConfigPreparation/TrexSettingsGetter.py:667-683 | a FastFrames block with no TRExFitter-only block of its name passes through as a systematic; otherwise the inner loop runs |
| TrexSettings.MergeFfLoop | FastFrames/python/TRExFitterConfigPreparation/TrexSettingsGetter.py:666-683 | the outer loop emits systematics whose names are exactly the FastFrames names, and consumes the option of exactly the TRExFitter-only blocks that a FastFrames block is named after |
| TrexSettings.MergeFfLoopOutcome | FastFrames/python/TRExFitterConfigPreparation/TrexSettingsGetter.py:666-683 | the first FastFrames block of a name gets the outcome the option asks for; a later one of that name finds the option consumed and always merges |
| TrexSettings.SameNameAgain | FastFrames/python/TRExFitterConfigPreparation/TrexSettingsGetter.py:674-678 | a second FastFrames block of a name merges, since the first one consumed the option |
| TrexSettings.MergeFfLoopPassThrough | FastFrames/python/TRExFitterConfigPreparation/TrexSettingsGetter.py:667-668 | a FastFrames block with no TRExFitter-only block of its name is in the output unchanged |
| TrexSettings.Unmatched | FastFrames/python/TRExFitterConfigPreparation/TrexSettingsGetter.py:685-687 | the last loop emits exactly the TRExFitter-only blocks no FastFrames block is named after, each as a systematic |
| TrexSettings.MergeFf | FastFrames/python/TRExFitterConfigPreparation/TrexSettingsGetter.py:663-688 | every emitted block is a systematic; the names are exactly those of either side; a TRExFitter-only block of no FastFrames name is emitted as it is |
| TrexSettings.MergeFfBlocks | FastFrames/python/TRExFitterConfigPreparation/TrexSettingsGetter.py:663-688 | block by block: a FastFrames block without a counterpart passes through, the first of a name gets each counterpart's outcome, and a later one is merged with each counterpart |
| TrexSettings.SplitSamples | FastFrames/python/TRExFitterConfigPreparation/TrexSettingsGetter.py:930-936 | the two sides partition the samples (multisets): inclusive holds those not among the unfolding samples, unfolding those among them |
| TrexSettings.PutEach | FastFrames/python/TRExFitterConfigPreparation/TrexSettingsGetter.py:958-965 | every key of the list is set to the value and every other key keeps its value |
| TrexSettings.TrueValue | FastFrames/python/TRExFitterConfigPreparation/TrexSettingsGetter.py:949-954 | a folder is taken exactly when its key is present with a true value |
| TrexSettings.RemoveIfTrue | FastFrames/python/TRExFitterConfigPreparation/TrexSettingsGetter.py:951-954 | a true folder is deleted, a missing or false one leaves the block unchanged, and no other key changes |
| TrexSettings.Cleared | FastFrames/python/TRExFitterConfigPreparation/TrexSettingsGetter.py:949-956 | Type is deleted, and each histogram folder exactly when it is true; every other key keeps its value |
| TrexSettings.FoldersRenamed | FastFrames/python/TRExFitterConfigPreparation/TrexSettingsGetter.py:958-965 | the three unfolding folder keys of a direction get that direction's folder when it is true; every other key keeps its value |
| TrexSettings.UnfoldingFoldersLookup | FastFrames/python/TRExFitterConfigPreparation/TrexSettingsGetter.py:949-965 | key by key: Type is gone, a true histogram folder is gone and reappears under the three unfolding keys of its direction, and every other key is kept |
| TrexSettings.Trimmed | FastFrames/python/TRExFitterConfigPreparation/TrexSettingsGetter.py:938-948 | a side's copy differs from the systematic only in its Exclude and Samples lists |
| TrexSettings.UnfoldingBlock | FastFrames/python/TRExFitterConfigPreparation/TrexSettingsGetter.py:944-965 | the unfolding copy exists exactly when its lists can be trimmed |
| TrexSettings.Written | FastFrames/python/TRExFitterConfigPreparation/TrexSettingsGetter.py:967-973 | a side is written exactly when its settings are non-empty, as a block of the given kind and name |
| TrexSettings.SplitSystematic | FastFrames/python/TRExFitterConfigPreparation/TrexSettingsGetter.py:912-975 | without unfolding samples the systematic is kept whole; otherwise a side is written only when some of the systematic's samples fall on it, as a Systematic (inclusive) or UnfoldingSystematic copy of the same name trimmed of the other side's samples, the unfolding copy with its folders renamed |
| TrexSettings.TrimmedSamples | FastFrames/python/TRExFitterConfigPreparation/TrexSettingsGetter.py:938-948 | when the Samples list names each sample once, a side's copy keeps exactly the listed samples not on the other side, and drops Samples when none is left |
| TrexSettings.UnfoldingBlockFolders | FastFrames/python/TRExFitterConfigPreparation/TrexSettingsGetter.py:944-965 | the unfolding copy has no Type, and its unfolding folder keys hold the systematic's true histogram folders |
| TrexSettings.UnfoldingBlockHistoFolders | FastFrames/python/TRExFitterConfigPreparation/TrexSettingsGetter.py:949-954 | the unfolding copy keeps a histogram folder only when it is false |
| TrexSettings.UnfoldingBlockKeeps | FastFrames/python/TRExFitterConfigPreparation/TrexSettingsGetter.py:944-965 | every setting outside the folders, Type, Samples and Exclude is shared with the systematic |
| TruthReader.ReadNames | FastFrames/python/ConfigReaderModules/BlockReaderSampleTruth.py:27-42 | a block missing name, truth_tree_name or event_weight is rejected; the values read are the block's strings, the selection defaults to "true", and only those four options are marked used |
| TruthReader.ReadMatch | FastFrames/python/ConfigReaderModules/BlockReaderSampleTruth.py:100-106 | a match entry is read exactly when both reco and truth are strings, and the pair read is those two strings |
| TruthReader.ReadRest | FastFrames/python/ConfigReaderModules/BlockReaderSampleTruth.py:44-59 | pairing defaults to whether any match variable is given, the branches default to every branch, and only truth options are marked used |
| TruthReader.ReadTruth | FastFrames/python/ConfigReaderModules/BlockReaderSampleTruth.py:21-68 | a block missing a required name is rejected; an accepted block has only supported options, gives its name, tree and weight strings and a selection defaulting to "true", and pairs the trees whenever it has match variables |
| TruthReader.MissingReco | FastFrames/python/ConfigReaderModules/BlockReaderSampleTruth.py:73-77 | nothing is missing exactly when every reco variable is known; what is reported is an unknown reco variable of some match |
| TruthReader.CheckRecoVariables | FastFrames/python/ConfigReaderModules/BlockReaderSampleTruth.py:70-77 | the check passes exactly when every reco side of the match variables is a variable of some region |
| UniqueSamples.IdList | FastFrames/python/ConfigReaderModules/BlockReaderSample.py:419-420 | the stored list holds one (dsid, campaign, simulation_type) tuple per identity, in order |
| UniqueSamples.IdValueInjective | FastFrames/python/ConfigReaderModules/BlockReaderSample.py:419 | storing an identity as a tuple loses nothing: different identities give different tuples |
| UniqueSamples.Row | FastFrames/python/ConfigReaderModules/BlockReaderSample.py:418-419 | one campaign gives one identity per dataset number, in order, with that campaign and simulation type |
| UniqueSamples.CrossProduct | FastFrames/python/ConfigReaderModules/BlockReaderSample.py:417-419 | there are campaigns times dsids identities, and an identity appears exactly when its campaign and dsid are listed and its simulation type is the sample's |
| UniqueSamples.CrossProductAppend | FastFrames/python/ConfigReaderModules/BlockReaderSample.py:417-419 | campaign-major order: the identities of two campaign lists joined are those of the first followed by those of the second |
| UniqueSamples.CrossProductSingle | FastFrames/python/ConfigReaderModules/BlockReaderSample.py:418-419 | a single campaign contributes exactly its row |
| UniqueSamples.CrossProductDistinct | FastFrames/python/ConfigReaderModules/BlockReaderSample.py:417-419 | with no campaign and no dsid twice, no identity occurs twice |
| UniqueSamples.AsStr | FastFrames/python/ConfigReaderModules/BlockReaderSample.py:404 | a value is read as a string exactly when it is one |
| UniqueSamples.AsStrList | FastFrames/python/ConfigReaderModules/BlockReaderSample.py:416 | a value is read as a list of strings exactly when it is one |
| UniqueSamples.AsIntList | FastFrames/python/ConfigReaderModules/BlockReaderSample.py:406 | a value is read as a list of integers exactly when it is one, element for element |
| UniqueSamples.LeafDsids | FastFrames/python/ConfigReaderModules/BlockReaderSample.py:404-414 | a data sample has the single dsid 0 and the data flag; any other needs its dsids, is rejected without them, and is accepted exactly when no dsid repeats |
| UniqueSamples.ReadLeaf | FastFrames/python/ConfigReaderModules/BlockReaderSample.py:399-414 | a plain sample without simulation_type or campaigns is rejected; what is read is the block's own strings, and the sample is data exactly when its type reads DATA |
| UniqueSamples.Marked | FastFrames/python/ConfigReaderModules/BlockReaderSample.py:411-420 | the identities and data flag are stored and no other key changes |
| UniqueSamples.LeafBlock | FastFrames/python/ConfigReaderModules/BlockReaderSample.py:415-424 | a resolved plain sample has its identities and data flag, has lost simulation_type, campaigns and dsids, and keeps every other option |
| UniqueSamples.Stripped | FastFrames/python/ConfigReaderModules/BlockReaderSample.py:421-424 | the three options of a plain sample are gone and every other key keeps its value |
| UniqueSamples.ResolveLeaf | FastFrames/python/ConfigReaderModules/BlockReaderSample.py:399-424 | a plain sample resolves exactly when its options can be read, into its resolved block |
| UniqueSamples.LeafIdsDistinct | FastFrames/python/ConfigReaderModules/BlockReaderSample.py:407-419 | with distinct campaigns, the identities of a resolved plain sample never repeat |
| UniqueSamples.Named | FastFrames/python/ConfigReaderModules/BlockReaderSample.py:376-381 | a name refers to some sample carrying that name, and to none exactly when no sample carries it |
| UniqueSamples.MemberPart | FastFrames/python/ConfigReaderModules/BlockReaderSample.py:431-438 | an unknown member name stops the program; a known member contributes its stored identities and data flag |
| UniqueSamples.Concat | FastFrames/python/ConfigReaderModules/BlockReaderSample.py:439-440 | an identity is merged exactly when some member contributes it |
| UniqueSamples.DataCount | FastFrames/python/ConfigReaderModules/BlockReaderSample.py:437-438 | the count of data members is zero exactly when none is data and the number of members exactly when all are |
| UniqueSamples.MemberNames | FastFrames/python/ConfigReaderModules/BlockReaderSample.py:431 | a composed sample's members are its included_samples list |
| UniqueSamples.Parts | FastFrames/python/ConfigReaderModules/BlockReaderSample.py:429-440 | one part per member name, in order, each the member's contribution; fails exactly when some member cannot contribute |
| UniqueSamples.Composed | FastFrames/python/ConfigReaderModules/BlockReaderSample.py:441-446 | the composed block has lost its member list, holds the merged identities and data flag, and keeps every other option |
| UniqueSamples.MergeAsWritten | FastFrames/python/ConfigReaderModules/BlockReaderSample.py:441-444 | as written, a merge can succeed only when no member is data |
| UniqueSamples.Merge | FastFrames/python/ConfigReaderModules/BlockReaderSample.py:441-454 | the intended merge succeeds exactly when the members are all data or all simulation and no identity repeats; the sample is data when a member is, holds the concatenated identities and keeps its other options |
| UniqueSamples.ComposeAsWritten | FastFrames/python/ConfigReaderModules/BlockReaderSample.py:426-454 | a composed sample resolves as written exactly when its parts can be read and the as-written merge accepts them |
| UniqueSamples.Compose | FastFrames/python/ConfigReaderModules/BlockReaderSample.py:426-454 | a composed sample resolves exactly when its parts can be read and the intended merge accepts them |
| UniqueSamples.AsWrittenRejectsDataMembers | FastFrames/python/ConfigReaderModules/BlockReaderSample.py:441-442 | whenever the intended step accepts a composed sample with a data member, the step as written rejects it |
| UniqueSamples.AsWrittenAgreesWithoutData | FastFrames/python/ConfigReaderModules/BlockReaderSample.py:441-442 | without data members the written and intended steps agree |
| UniqueSamples.AllDataComposedSample | FastFrames/python/ConfigReaderModules/BlockReaderSample.py:441-442 | a concrete case: the composed sample made of one data sample becomes a data sample in the intended step, and is rejected as written |
| UniqueSamples.CheckNames | FastFrames/python/ConfigReaderModules/BlockReaderSample.py:377-392 | the first pass passes exactly when every sample has a name and no composed sample gives an option of a plain one |
| UniqueSamples.ResolvePlain | FastFrames/python/ConfigReaderModules/BlockReaderSample.py:399-401 | the second pass resolves plain samples and leaves composed ones for the third |
| UniqueSamples.StateAtStep | FastFrames/python/ConfigReaderModules/BlockReaderSample.py:426-446 | merging a composed sample in place changes none of the states seen by the composed samples after it |
| UniqueSamples.ComposeFrom | FastFrames/python/ConfigReaderModules/BlockReaderSample.py:426-454 | the third pass keeps every plain sample and every sample before its start, and each composed sample from the start on is the merge of its members as they stand when it is reached |
| UniqueSamples.ResolvedAt | FastFrames/python/ConfigReaderModules/BlockReaderSample.py:372-454 | after the passes every sample has its identities and data flag, no member list and its name; a plain sample is its own resolution |
| UniqueSamples.ResolveUniqueSamples | FastFrames/python/ConfigReaderModules/BlockReaderSample.py:372-454 | every sample accepted is well named, the list keeps its length, plain samples are resolved on their own, and every sample ends with identities, a data flag, no member list and its name |
| VariableReader.ReadBinningSpec | FastFrames/python/ConfigReaderModules/BlockReaderVariable.py:54-62 | min and max default to 0, the bin count to 0 and the edges to none; each read value is the block's own; edges that are not a list stop the program |
| VariableReader.ApplyBinning | FastFrames/python/ConfigReaderModules/BlockReaderVariable.py:64-84 | the binning is applied exactly when it is accepted (edges or a usable range, not both, at least two edges); edges give edges minus one bins, a range its bin count |
| VariableReader.ReadRawHeader | FastFrames/python/ConfigReaderModules/BlockReaderVariable.py:20-26 | name and definition are present exactly when the block has them, and hold its strings; title, nominal-only flag and type take their defaults when absent |
| VariableReader.CheckHeader | FastFrames/python/ConfigReaderModules/BlockReaderVariable.py:26-35 | a missing name or definition, or a name containing NOSYS, is rejected; the type kept is the lower-cased type name |
| VariableReader.ReadHeader | FastFrames/python/ConfigReaderModules/BlockReaderVariable.py:20-44 | a block without name or definition is rejected; the header read holds the block's name (free of NOSYS), definition, title and lower-cased type |
| VariableReader.ReadVariable | FastFrames/python/ConfigReaderModules/BlockReaderVariable.py:16-90 | a block without name, definition or binning is rejected; an accepted one uses only supported options, and its binning reads to an accepted binning that is the variable's axis |
| VariableReader.EdgesWithBinCountAccepted | FastFrames/python/ConfigReaderModules/BlockReaderVariable.py:64-76 | bin edges with a bin count and the range at its default are accepted as an edges binning (the count is ignored), while edges with a usable range, or a single edge, are not |
| XSections.ValidLineMeansFirstNonBlank | FastFrames/Root/XSectionManager.cc:139-148 | a line is valid exactly when it has a character other than white space and the first such character is not '#' |
| XSections.FileTypeOf | FastFrames/Root/XSectionManager.cc:108-137 | a file with no valid line is of unknown type |
| XSections.FileTypeSkipsInvalidLines | FastFrames/Root/XSectionManager.cc:112-115 | comment and blank lines in front of the first valid line do not change the file type |
| XSections.MergeTop | FastFrames/Root/XSectionManager.cc:88-105 | a TopDataPreparation line fails exactly when its dataset is used, already stored and the values are incompatible; an unused or stored dataset leaves the map as it was; a new used one is stored with e-tag 0 |
| XSections.MergePmg | FastFrames/Root/XSectionManager.cc:176-206 | a PMG line fails exactly when its used, stored dataset has a non-positive or equal e-tag and an incompatible value; a new dataset or a newer e-tag replaces the entry; anything else leaves the map as it was |
| XSections.LatestETagWins | FastFrames/Root/XSectionManager.cc:183-206 | two PMG lines for one dataset with different positive e-tags leave the entry of the newer e-tag, in either order |
| XSections.TopKeepsPmgValue | FastFrames/Root/XSectionManager.cc:95-105 | a compatible TopDataPreparation line never changes a stored value |
| XSections.ProcessTopLine | FastFrames/Root/XSectionManager.cc:70-82 | an invalid line changes nothing, and a valid line with bad columns is fatal; a good line is merged with its dataset and the product of its second and third columns, so a used dataset is then stored and stored values are kept |
| XSections.ProcessPmgLine | FastFrames/Root/XSectionManager.cc:150-168 | an invalid line or the header changes nothing, and any other line with bad columns is fatal; a good line is merged with its dataset, the product of cross-section, k-factor and filter efficiency, and the e-tag number, so a used dataset is then stored and no stored e-tag is lowered |
| XSections.ReadTopLines | FastFrames/Root/XSectionManager.cc:56-62 | reading a TopDataPreparation file only adds used datasets and keeps every stored value |
| XSections.ReadTopLinesStores | FastFrames/Root/XSectionManager.cc:56-82 | after a TopDataPreparation file is read, every used dataset of a well-formed line in it is stored |
| XSections.ReadPmgLines | FastFrames/Root/XSectionManager.cc:56-62 | reading a PMG file only adds used datasets and never lowers a stored e-tag |
| XSections.ReadPmgLinesStores | FastFrames/Root/XSectionManager.cc:56-62 | after a PMG file is read, every used dataset of a well-formed line in it is stored |
| XSections.ReadFile | FastFrames/Root/XSectionManager.cc:40-67 | a file of unknown type is fatal; reading a file only adds used datasets and keeps the ones stored |
| XSections.ReadFileStores | FastFrames/Root/XSectionManager.cc:40-67 | after a file is read, every used dataset of a well-formed line of its type is stored |
| XSections.ReadFiles | FastFrames/Root/XSectionManager.cc:27-29 | reading the files in turn only adds used datasets and keeps the ones stored |
| XSections.ReadFilesStores | FastFrames/Root/XSectionManager.cc:27-29 | after the files are read, every used dataset of a well-formed line of any file is stored, because later files never remove an entry |
| XSections.PmgFirstOrder | FastFrames/Root/XSectionManager.cc:22-26 | the reading order holds the same files, and no PMG file comes after a file of another type |
| XSections.NewManager | FastFrames/Root/XSectionManager.cc:18-30 | the constructor stores only datasets from the used list (every one when the list is empty) |
| XSections.NewManagerStores | FastFrames/Root/XSectionManager.cc:18-30 | the constructor stores every used dataset that a well-formed line of one of the files names, whatever the reading order |
| XSections.XSection | FastFrames/Root/XSectionManager.cc:32-38 | an unknown dataset is fatal; a known one gives its stored cross-section |


## Left out

- Inference blocks (`simple_onnx_inference`, ONNXWrapper, SimpleONNXInference). The block is marked as read, but its contents and the duplicate-ONNX-name check are not modelled: they only feed a foreign runtime.
- The event loop (MainFrame, HistoContainer, CutflowContainer, ObjectCopier, MetadataManager). It runs RDataFrame, reads and writes ROOT files, and does floating-point histogram arithmetic.
- Reading files. Instead:
  - the YAML parse is the parsed document (`Values.Value`);
  - a cross-section file is its list of lines;
  - the automatic-systematic name→samples map of the TRExFitter export is an input, not a scan of ROOT files;
  - the sum-of-weights histograms contribute only their names;
  - merge_jobs takes a directory listing, and the external merge program it calls is not part of this model.
- SystReplacer (I/O functions): addTruthBranchesNominal, readSystematicMapFromFile, getBranchesFromFile and printMaps. They read ROOT trees or files, or only print.
- Regex semantics. Which strings a pattern matches is the uninterpreted `Regex.Engine`. Only the difference between whole-string and prefix matching is modelled.
- Regex.Engine: a pattern that does not compile never fails. In the source `re.compile` or `std::regex` raises on an invalid pattern, and the model has no such error path.
- Floating point. Instead:
  - `std::stod`, `stringIsDouble` and `compareDoubles` are the parameters in `XSections.Numerics`;
  - Python's `float()` on a string is the `parseFloat` parameter of `GeneralReader.ToFloat` and the readers above it (None where it raises ValueError);
  - luminosities and transverse momenta are exact reals;
  - the 32-bit float of the luminosity map is not modelled.
- Logging and warnings. An unknown binning key only warns in the source, and the model accepts it without recording the warning.
- Command-line parsing (CommandLineOptions.py). The parsed values are explicit `CommandLine.Options` parameters.
- The ROOT/boost glue, the batch and grid scripts, and the Utils functions on ROOT objects (chainFromFiles, histoModel2D/3D, capHisto0And1, getColumnsFromString). None of these have a pure core.
- SelectionHelpers.SortKept: the tie order of equal transverse momenta is unspecified in the source (`std::sort`). The contract pins down which indices appear and that they are non-increasing by pt, and nothing about ties.
- NativeUtils.SelectedFileList: the function-local static counter is an explicit parameter and result. Sharing it across threads is not modelled.
- SystReplacer.AffectedBranches: requires a non-empty systematic name. The native replacement with an empty pattern never terminates.
- StringOps: the replacement helpers require a non-empty `from`, which the source demands because it loops otherwise.
- ConfigReader.CutflowRegions, ConfigReader.ReadCutflows and ConfigReader.ReadConfig use the corrected cutflow-region name check (`ConfigReader.CheckCutflowRegionNames`). They reject a cutflow region named like a region that an earlier cutflow added, which the source (ConfigReader.py:81-84) accepts. So they do not model the as-written acceptance of such a document; `ConfigReader.CheckCutflowRegionNamesAsWritten` does (see Findings).
- UniqueSamples.ResolveUniqueSamples uses the corrected composed-sample merge (`UniqueSamples.Merge`). It accepts a composed sample whose included samples are all data. The source raises KeyError there (BlockReaderSample.py:441-442), so it does not model that stop; `UniqueSamples.MergeAsWritten` does (see Findings).
- CutflowReader.Resolve uses the corrected variable search (`CutflowReader.RegionVariables`). A region without a variables entry contributes nothing. The source raises KeyError there (BlockReaderCutflow.py:171), so it does not model that stop; `CutflowReader.RegionVariablesAsWritten` does (see Findings).
- SelectionHelpers.NumberOfObjects: transverse momenta are exact reals, so there is no NaN. The source drops an object when `pts.at(i) < minPt`, and keeps a NaN momentum, which the model's `>= minPt` cannot express.
- Numbering.LeafPathsSound, Numbering.AutoPathsLeaves and Numbering.AutoPathsAreLeafPaths require that no mapping in the block repeats a key (`Numbering.DistinctKeys`). A parsed YAML mapping is a Python dict and cannot repeat a key; the model's entry lists could.
- Numbering.ApplyPathsEffect covers paths that lead to strings and part from each other. A path listed twice, or one that is a prefix of another, is not described; `Numbering.ReplaceAtNonString` and `Numbering.ReplaceAtMissing` cover the other single paths.
- Numbering.GenerateRangeOrder and Numbering.ExpandValuesOrder state the position as `Offset(i, p)`, repeated addition; `Numbering.OffsetIsProduct` shows it equals i·p.
- GeneralReader.ToFloat: a string that float() reads as an infinity or NaN ("inf", "nan") has no `real`. The parser parameter must give None or a finite stand-in for it.
- Settings.AddLuminosity: luminosities are exact reals. The native map stores 32-bit floats, and the rounding is not modelled.
- StringOps.DigitsValue: the value of a digit string is an unbounded natural. `std::stoi` into a 32-bit `int` throws `out_of_range` for larger numbers (XSectionManager.cc:84,170,174), and that error path is not modelled.
- XSections.PmgFirst is a stable partition (PMG files first, each group in its given order). The source's `std::sort` (XSectionManager.cc:23-25) is not stable, so it may order files of the same kind differently. Only the multiset and the PMG-first order are promised by the source, and `XSections.PmgFirstOrder` states just those.
- StringOps.ToLower and StringOps.ToUpper change only the ASCII letters. Python's `lower()`/`upper()` also map other Unicode letters.
- Wrappers.Error: error messages are shortened, and several log lines before an exit become one error value. Where a block has several errors, the model reports one of them, which may not be the one the source reports first.

## Findings

| source | as written | input that shows it | evidently intended | confidence | as-written member | corrected member |
|---|---|---|---|---|---|---|
| FastFrames/Root/Binning.cc:12-18 | the constructor from bin edges sets the regular-binning flag to true | `Binning({0,1,2})` is flagged regular with zero bins, so the wrapper's axisNbins reports 0 bins | an axis built from edges is irregular, as the edges setter makes it, and reports one bin fewer than edges | not executed | VariableModel.EdgesBinningAsWritten, VariableModel.EdgesConstructorReportsNoBins | VariableModel.EdgesBinning, VariableModel.EdgesBinningAgreesWithSetter |
| FastFrames/python/ConfigReaderModules/BlockReaderSample.py:441-442 | `del sample["included_samples"]` runs before the data/MC mix check reads `len(sample["included_samples"])` | a composed sample whose included samples include a data sample: the read raises KeyError | the mix check counts the included samples before the key is deleted | not executed | UniqueSamples.MergeAsWritten, UniqueSamples.AsWrittenRejectsDataMembers, UniqueSamples.AllDataComposedSample | UniqueSamples.Merge, UniqueSamples.AsWrittenAgreesWithoutData |
| FastFrames/python/ConfigReaderModules/BlockReaderCutflow.py:171 | the variable search reads `region["variables"]` | a region without a variables entry, which the region reader accepts with an empty default, stops the search with KeyError even when another region defines the tracked variable | a region without variables contributes no variables | not executed | CutflowReader.RegionVariablesAsWritten, CutflowReader.RegionWithoutVariablesStopsTracking | CutflowReader.RegionVariables |
| FastFrames/python/ConfigReaderModules/ConfigReader.py:81-84 | a cutflow region's name is checked only against the regions block | two cutflows that add a region of the same name (or one cutflow adding a name twice) pass, and the native configuration gets two regions of that name | the name is also checked against the regions earlier cutflows added | not executed | ConfigReader.CheckCutflowRegionNamesAsWritten, ConfigReader.RepeatedCutflowRegionPassesAsWritten | ConfigReader.CheckCutflowRegionNames |
| FastFrames/python/ConfigReaderModules/BlockReaderSample.py:327-329 | the data test splits the printed identity string `(dsid, campaign, simulation)` on commas and reads the third field | a simulated identity with campaign "mc20a,data" and simulation "mc": the third field is "data", so the sample reads as data | the test reads each identity's own simulation type | low, not executed | SampleReader.IsDataSample, SampleReader.ShiftedCampaignReadsAsData | SampleReader.IsDataByFields, SampleReader.PlainIdsReadTheSameData, SampleReader.ShiftedCampaignIsNotDataByFields |

=== FILE: binning.dfy ===
/** The native binning and variable records (Binning, Variable and the
    python-facing VariableWrapper): how a histogram axis is stored, how the
    wrapper reports it, and the table that converts type names. */
module VariableModel {
  import opened Wrappers
  import StringOps

  // ---------------------------------------------------------------------
  // Binning

  /** An axis: either a regular range or explicit edges, chosen by the flag.
      Both kinds of data are kept, whichever is in use. */
  datatype Binning = Binning(min: real, max: real, nbins: int, edges: seq<real>, regular: bool)

  /** Binning(): no bins, no edges, flagged regular. */
  function DefaultBinning(): (b: Binning)
    ensures b.regular && b.nbins == 0 && b.min == 0.0 && b.max == 0.0 && b.edges == []
  {
    Binning(0.0, 0.0, 0, [], true)
  }

  /** Binning(min, max, nbins). */
  function RangeBinning(min: real, max: real, nbins: int): (b: Binning)
    ensures b.regular && b.min == min && b.max == max && b.nbins == nbins && b.edges == []
  {
    Binning(min, max, nbins, [], true)
  }

  /** Binning(edges) as written: it keeps the edges, zeroes the range, and
      still raises the regular flag. */
  function EdgesBinningAsWritten(edges: seq<real>): (b: Binning)
    ensures b.edges == edges && b.min == 0.0 && b.max == 0.0 && b.nbins == 0
    ensures b.regular
  {
    Binning(0.0, 0.0, 0, edges, true)
  }

  /** Binning(edges) as intended: an edges axis is not regular, exactly as
      the edges setter leaves it. */
  function EdgesBinning(edges: seq<real>): (b: Binning)
    ensures b.edges == edges && b.min == 0.0 && b.max == 0.0 && b.nbins == 0
    ensures !b.regular
  {
    Binning(0.0, 0.0, 0, edges, false)
  }

  /** setBinning(min, max, nbins): the range is replaced, the edges stay. */
  function SetRange(b: Binning, min: real, max: real, nbins: int): (r: Binning)
    ensures r.regular && r.min == min && r.max == max && r.nbins == nbins
    ensures r.edges == b.edges
  {
    b.(min := min, max := max, nbins := nbins, regular := true)
  }

  /** setBinning(edges): the edges are replaced, the range stays. */
  function SetEdges(b: Binning, edges: seq<real>): (r: Binning)
    ensures !r.regular && r.edges == edges
    ensures r.min == b.min && r.max == b.max && r.nbins == b.nbins
  {
    b.(edges := edges, regular := false)
  }

  /** axisNbins of the wrapper: the stored count for a regular axis, one
      less than the number of edges otherwise. */
  function AxisNbins(b: Binning): (n: int)
    ensures b.regular ==> n == b.nbins
    ensures !b.regular ==> n + 1 == |b.edges|
  {
    if b.regular then b.nbins else |b.edges| - 1
  }

  /** Whichever setter ran last decides what the wrapper reports: after the
      edges setter the axis has one bin fewer than edges, after the range
      setter it has the requested count, and neither setter loses the other
      kind of data. */
  lemma LastSetterWins(b: Binning, min: real, max: real, nbins: int, edges: seq<real>)
    ensures AxisNbins(SetEdges(SetRange(b, min, max, nbins), edges)) == |edges| - 1
    ensures AxisNbins(SetRange(SetEdges(b, edges), min, max, nbins)) == nbins
    ensures SetRange(SetEdges(b, edges), min, max, nbins).edges == edges
    ensures SetEdges(SetRange(b, min, max, nbins), edges).nbins == nbins
  {
  }

  /** As written, an axis built from edges reports itself regular, so the
      wrapper counts its bins as zero: three edges give no bins. */
  lemma EdgesConstructorReportsNoBins()
    ensures AxisNbins(EdgesBinningAsWritten([0.0, 1.0, 2.0])) == 0
    ensures AxisNbins(EdgesBinning([0.0, 1.0, 2.0])) == 2
  {
  }

  /** With the intended flag, an edges axis has one bin fewer than edges,
      the same as an axis given its edges through the setter. */
  lemma EdgesBinningAgreesWithSetter(edges: seq<real>)
    ensures AxisNbins(EdgesBinning(edges)) == |edges| - 1
    ensures EdgesBinning(edges) == SetEdges(DefaultBinning(), edges)
  {
  }

  /** binEdgesString: every edge printed with `show` (std::to_string) and
      followed by a comma, then the final comma dropped. */
  method BinEdgesString(edges: seq<real>, show: real -> string) returns (r: string)
    ensures r == StringOps.Intercalate(",", seq(|edges|, k requires 0 <= k < |edges| => show(edges[k])))
  {
    ghost var shown := seq(|edges|, k requires 0 <= k < |edges| => show(edges[k]));
    r := "";
    var i := 0;
    while i < |edges|
      invariant 0 <= i <= |edges|
      invariant r == StringOps.WithSeparators(",", shown[..i])
    {
      StringOps.WithSeparatorsSnoc(",", shown[..i], shown[i]);
      assert shown[..i + 1] == shown[..i] + [shown[i]];
      r := r + show(edges[i]) + ",";
      i := i + 1;
    }
    assert shown[..i] == shown;
    if |r| > 0 {
      StringOps.WithSeparatorsIsIntercalate(",", shown);
      var joined := StringOps.Intercalate(",", shown);
      assert r[..|r| - 1] == joined;
      r := r[..|r| - 1];
    }
  }

  // ---------------------------------------------------------------------
  // Variable types

  /** VariableType; the vector of bool is deliberately absent. */
  datatype VariableType =
    | Undefined | Char | UnsignedChar | Bool | Int | UnsignedInt | LongInt | Unsigned | LongUnsigned
    | Float | Double
    | VectorChar | VectorUnsignedChar | VectorInt | VectorUnsignedInt | VectorLongInt
    | VectorUnsigned | VectorLongUnsigned | VectorFloat | VectorDouble
    | RvecChar | RvecUnsignedChar | RvecInt | RvecUnsignedInt | RvecLongInt
    | RvecUnsigned | RvecLongUnsigned | RvecFloat | RvecDouble

  /** The wrapper's name table, in its order. */
  const TypeTable: seq<(string, VariableType)> := [
    ("undefined", Undefined), ("char", Char), ("unsigned char", UnsignedChar), ("bool", Bool),
    ("int", Int), ("unsigned int", UnsignedInt), ("long long int", LongInt),
    ("unsigned long", Unsigned), ("unsigned long long int", LongUnsigned),
    ("float", Float), ("double", Double),
    ("vector<char>", VectorChar), ("vector<unsigned char>", VectorUnsignedChar),
    ("vector<int>", VectorInt), ("vector<unsigned int>", VectorUnsignedInt),
    ("vector<long long int>", VectorLongInt), ("vector<unsigned long>", VectorUnsigned),
    ("vector<unsigned long long int>", VectorLongUnsigned),
    ("vector<float>", VectorFloat), ("vector<double>", VectorDouble),
    ("rvec<char>", RvecChar), ("rvec<unsigned char>", RvecUnsignedChar),
    ("rvec<int>", RvecInt), ("rvec<unsigned int>", RvecUnsignedInt),
    ("rvec<long long int>", RvecLongInt), ("rvec<unsigned long>", RvecUnsigned),
    ("rvec<unsigned long long int>", RvecLongUnsigned),
    ("rvec<float>", RvecFloat), ("rvec<double>", RvecDouble)]

  /** No name and no type appears twice in a table. */
  predicate TableDistinct(t: seq<(string, VariableType)>) {
    forall i, j :: 0 <= i < j < |t| ==> t[i].0 != t[j].0 && t[i].1 != t[j].1
  }

  /** The first type listed under `name`. */
  function FindByName(t: seq<(string, VariableType)>, name: string): (r: Option<VariableType>)
    ensures r.None? <==> forall k :: 0 <= k < |t| ==> t[k].0 != name
    ensures r.Some? ==> exists k :: 0 <= k < |t| && t[k] == (name, r.value)
    decreases |t|
  {
    if |t| == 0 then None
    else if t[0].0 == name then Some(t[0].1)
    else
      var r := FindByName(t[1..], name);
      assert forall k :: 1 <= k < |t| ==> t[k] == t[1..][k - 1];
      r
  }

  /** The first name listed for `v`. */
  function FindByType(t: seq<(string, VariableType)>, v: VariableType): (r: Option<string>)
    ensures r.None? <==> forall k :: 0 <= k < |t| ==> t[k].1 != v
    decreases |t|
  {
    if |t| == 0 then None
    else if t[0].1 == v then Some(t[0].0)
    else
      var r := FindByType(t[1..], v);
      assert r.None? ==> forall k :: 1 <= k < |t| ==> t[k] == t[1..][k - 1];
      r
  }

  /** In a table without repeats, each row is found by its name and by its type. */
  lemma {:induction false} FindRow(t: seq<(string, VariableType)>, k: int)
    requires TableDistinct(t) && 0 <= k < |t|
    ensures FindByName(t, t[k].0) == Some(t[k].1)
    ensures FindByType(t, t[k].1) == Some(t[k].0)
    decreases |t|
  {
    if k > 0 {
      assert TableDistinct(t[1..]) by {
        forall i, j | 0 <= i < j < |t[1..]|
          ensures t[1..][i].0 != t[1..][j].0 && t[1..][i].1 != t[1..][j].1
        {
          assert t[1..][i] == t[i + 1] && t[1..][j] == t[j + 1];
        }
      }
      FindRow(t[1..], k - 1);
      assert t[1..][k - 1] == t[k];
    }
  }

  /** stringToVariableType: the listed type, or a runtime error. */
  function TypeNamed(name: string): (r: Result<VariableType>)
    ensures r.Fail? <==> forall k :: 0 <= k < |TypeTable| ==> TypeTable[k].0 != name
    ensures r.Fail? ==> r.error == Runtime("Unknown variable type: " + name)
  {
    match FindByName(TypeTable, name)
    case Some(v) => Ok(v)
    case None => Fail(Runtime("Unknown variable type: " + name))
  }

  /** variableTypeToString: the listed name, "undefined" for a type not in
      the table. */
  function NameOfType(v: VariableType): (r: string)
    ensures (forall k :: 0 <= k < |TypeTable| ==> TypeTable[k].1 != v) ==> r == "undefined"
  {
    FindByType(TypeTable, v).GetOr("undefined")
  }

  /** The wrapper's table lists no name and no type twice. */
  lemma TypeTableDistinct()
    ensures TableDistinct(TypeTable)
  {
    TypeTableNamesDistinct();
    TypeTableTypesDistinct();
  }

  lemma TypeTableNamesDistinct()
    ensures forall i, j :: 0 <= i < j < |TypeTable| ==> TypeTable[i].0 != TypeTable[j].0
  {
    forall i, j | 0 <= i < j < |TypeTable| ensures TypeTable[i].0 != TypeTable[j].0 {
    }
  }

  lemma TypeTableTypesDistinct()
    ensures forall i, j :: 0 <= i < j < |TypeTable| ==> TypeTable[i].1 != TypeTable[j].1
  {
    forall i, j | 0 <= i < j < |TypeTable| ensures TypeTable[i].1 != TypeTable[j].1 {
    }
  }

  /** Converting a listed name to its type and back gives the name. */
  lemma TypeNamesRoundTrip(k: int)
    requires 0 <= k < |TypeTable|
    ensures TypeNamed(TypeTable[k].0) == Ok(TypeTable[k].1)
    ensures NameOfType(TypeTable[k].1) == TypeTable[k].0
  {
    TypeTableDistinct();
    FindRow(TypeTable, k);
  }

  /** Every type is listed, so every type prints as a name that converts
      back to it. */
  lemma TypeRoundTrip(v: VariableType)
    ensures TypeNamed(NameOfType(v)) == Ok(v)
  {
    TypeNamesRoundTrip(TypeRow(v));
  }

  /** A name the conversion accepts prints back as itself. */
  lemma TypeNamedPrintsBack(name: string)
    requires TypeNamed(name).Ok?
    ensures NameOfType(TypeNamed(name).value) == name
  {
    var k :| 0 <= k < |TypeTable| && TypeTable[k] == (name, FindByName(TypeTable, name).value);
    TypeNamesRoundTrip(k);
  }

  /** The row listing a type. */
  function TypeRow(v: VariableType): (k: int)
    ensures 0 <= k < |TypeTable| && TypeTable[k].1 == v
  {
    match v
    case Undefined => 0 case Char => 1 case UnsignedChar => 2 case Bool => 3 case Int => 4
    case UnsignedInt => 5 case LongInt => 6 case Unsigned => 7 case LongUnsigned => 8
    case Float => 9 case Double => 10 case VectorChar => 11 case VectorUnsignedChar => 12
    case VectorInt => 13 case VectorUnsignedInt => 14 case VectorLongInt => 15
    case VectorUnsigned => 16 case VectorLongUnsigned => 17 case VectorFloat => 18
    case VectorDouble => 19 case RvecChar => 20 case RvecUnsignedChar => 21 case RvecInt => 22
    case RvecUnsignedInt => 23 case RvecLongInt => 24 case RvecUnsigned => 25
    case RvecLongUnsigned => 26 case RvecFloat => 27 case RvecDouble => 28
  }

  // ---------------------------------------------------------------------
  // Variable

  /** A variable as the native side stores it. */
  datatype Variable = Variable(name: string, definition: string, title: string, binning: Binning,
                               nominalOnly: bool, vtype: VariableType)

  /** Variable(name): empty definition, title "title", the default binning,
      not nominal-only, undefined type. */
  function NewVariable(name: string): (v: Variable)
    ensures v.name == name && v.definition == "" && v.title == "title"
    ensures v.binning == DefaultBinning() && !v.nominalOnly && v.vtype == Undefined
  {
    Variable(name, "", "title", DefaultBinning(), false, Undefined)
  }
}

=== FILE: cli.dfy ===
/** The command-line choices the readers consult (CommandLineOptions). The
    argument parsing itself is not modelled: the parsed values are handed to
    the readers explicitly instead of through a process-wide singleton. */
module CommandLine {
  import opened Wrappers
  import Seqs

  /** The parsed options the configuration readers read. `None` means the
      option was not given (for the sample list: "all"). */
  datatype Options = Options(samples: Option<seq<string>>, campaigns: Option<seq<string>>,
                             outputPathHistograms: Option<string>, outputPathNtuples: Option<string>,
                             inputPath: Option<string>, minEvent: Option<int>, maxEvent: Option<int>,
                             splitNJobs: Option<int>, jobIndex: Option<int>)

  /** No option given at all. */
  function NoOptions(): (o: Options)
    ensures o.samples.None? && o.campaigns.None? && o.inputPath.None?
  {
    Options(None, None, None, None, None, None, None, None, None)
  }

  /** The items a command-line list keeps, in their own order: all of them
      when the list was not given. This is both keep_only_selected_samples
      on a list of names and filter_only_selected_campaigns. */
  function KeepSelected(items: seq<string>, selection: Option<seq<string>>): (r: seq<string>)
    ensures forall x :: x in r <==> x in items && (selection.None? || x in selection.value)
    ensures Seqs.IsSubsequence(r, items)
    ensures selection.None? ==> r == items
  {
    if selection.None? then
      Seqs.FilterAll(items, x => true);
      items
    else Seqs.Filter(items, x => x in selection.value)
  }

  /** Keeping twice with the same selection is keeping once. */
  lemma KeepSelectedIdempotent(items: seq<string>, selection: Option<seq<string>>)
    ensures KeepSelected(KeepSelected(items, selection), selection) == KeepSelected(items, selection)
  {
    var once := KeepSelected(items, selection);
    if selection.Some? {
      Seqs.FilterAll(once, x => x in selection.value);
    }
  }

  /** `keep_only_selected_samples` on a list that may be absent. */
  function KeepSelectedSamples(names: Option<seq<string>>, cli: Options): (r: Option<seq<string>>)
    ensures r.Some? <==> names.Some?
    ensures r.Some? ==> forall x :: x in r.value <==> x in names.value && (cli.samples.None? || x in cli.samples.value)
  {
    if names.None? then None else Some(KeepSelected(names.value, cli.samples))
  }

  /** check_samples_existence: every sample named on the command line is
      one of `names`. */
  function CheckSamplesExist(selection: Option<seq<string>>, names: seq<string>): (r: Outcome)
    ensures r.Pass? <==> selection.None? || forall k :: 0 <= k < |selection.value| ==> selection.value[k] in names
  {
    if selection.None? then Pass
    else
      match Seqs.FirstMissing(selection.value, names)
      case None => Pass
      case Some(name) => Stop(UnknownReference(name))
  }
}

=== FILE: config_reader.dfy ===
/** The document reader (ConfigReader): the whole configuration read block
    by block, and every cross-reference between the blocks resolved. The
    YAML parse is not modelled: the reader starts from the parsed
    top-level mapping. */
module ConfigReader {
  import opened Wrappers
  import opened Values
  import opened OptionLedger
  import Seqs
  import Regex
  import CommandLine
  import GeneralReader
  import RegionReader
  import Numbering
  import UniqueSamples
  import SampleReader
  import CutflowReader
  import SystematicReader
  import NtupleReader

  type Region = RegionReader.Region
  type Sample = SampleReader.Sample
  type Systematic = SystematicReader.Systematic

  /** The top-level blocks the reader knows. */
  const TopLevelBlocks: set<string> :=
    {"general", "regions", "samples", "cutflows", "systematics", "ntuples", "simple_onnx_inference"}

  // ---------------------------------------------------------------------
  // The top-level mapping

  /** A top-level key the reader never sees: one starting with a dot, the
      place for YAML anchors. */
  predicate Hidden(key: string) {
    |key| > 0 && key[0] == '.'
  }

  /** The document without its hidden keys, the rest in document order. */
  function DropHidden(data: Block): (r: Block)
    ensures forall j :: 0 <= j < |r| ==> !Hidden(r[j].key)
    ensures forall k :: Hidden(k) ==> Lookup(r, k).None?
    ensures forall k :: !Hidden(k) ==> Lookup(r, k) == Lookup(data, k)
    ensures Seqs.IsSubsequence(r, data)
    decreases |data|
  {
    if |data| == 0 then []
    else
      var rest := DropHidden(data[1..]);
      assert data == [data[0]] + data[1..];
      if Hidden(data[0].key) then
        Seqs.SubsequenceOfTail(rest, data[1..], data[0]);
        rest
      else
        assert ([data[0]] + rest)[1..] == rest;
        [data[0]] + rest
  }

  /** A document without hidden keys is left as it is. */
  lemma {:induction false} DropHiddenKeepsVisible(data: Block)
    requires forall j :: 0 <= j < |data| ==> !Hidden(data[j].key)
    ensures DropHidden(data) == data
    decreases |data|
  {
    if |data| > 0 {
      assert forall j :: 0 <= j < |data[1..]| ==> !Hidden(data[1..][j].key) by {
        forall j | 0 <= j < |data[1..]| ensures !Hidden(data[1..][j].key) {
          assert data[1..][j] == data[j + 1];
        }
      }
      DropHiddenKeepsVisible(data[1..]);
      assert !Hidden(data[0].key);
      assert data == [data[0]] + data[1..];
    }
  }

  /** Dropping the hidden keys twice is dropping them once. */
  lemma DropHiddenIdempotent(data: Block)
    ensures DropHidden(DropHidden(data)) == DropHidden(data)
  {
    DropHiddenKeepsVisible(DropHidden(data));
  }

  /** A list of mappings, the only form of the list-valued top-level blocks. */
  function ListOfBlocks(v: Value, option: string): (r: Result<seq<Block>>)
    ensures r.Ok? <==> v.List? && Blocks(v.items).Some?
    ensures r.Ok? ==> Some(r.value) == Blocks(v.items)
  {
    if v.List? && Blocks(v.items).Some? then Ok(Blocks(v.items).value) else Fail(WrongType(option))
  }

  /** A list-valued block that must be given. */
  function RequiredBlocks(l: Ledger, option: string): (r: Result<(seq<Block>, seq<Value>, Ledger)>)
    ensures !HasKey(l.block, option) ==> r.Fail?
    ensures r.Ok? ==> ReadsAtMost(l, r.value.2, option)
    ensures r.Ok? ==> Lookup(l.block, option) == Some(List(r.value.1)) && Blocks(r.value.1) == Some(r.value.0)
  {
    match Lookup(l.block, option)
    case None => Fail(MissingOption(option))
    case Some(v) =>
      var blocks :- ListOfBlocks(v, option);
      Ok((blocks, v.items, Ledger(l.block, l.used + {option})))
  }

  /** A list-valued block that may be left out: then it is empty. */
  function OptionalBlocks(l: Ledger, option: string): (r: Result<(seq<Block>, Ledger)>)
    ensures !HasKey(l.block, option) ==> r == Ok(([], l))
    ensures r.Ok? ==> ReadsAtMost(l, r.value.1, option)
    ensures r.Ok? && HasKey(l.block, option) ==>
      Lookup(l.block, option).value.List? && Blocks(Lookup(l.block, option).value.items) == Some(r.value.0)
  {
    match Lookup(l.block, option)
    case None => Ok(([], l))
    case Some(v) =>
      var blocks :- ListOfBlocks(v, option);
      Ok((blocks, Ledger(l.block, l.used + {option})))
  }

  /** A mapping-valued block that may be left out. */
  function OptionalBlock(l: Ledger, option: string): (r: Result<(Option<Block>, Ledger)>)
    ensures !HasKey(l.block, option) ==> r == Ok((None, l))
    ensures HasKey(l.block, option) ==> (r.Ok? <==> Lookup(l.block, option).value.Dict?)
    ensures r.Ok? ==> ReadsAtMost(l, r.value.1, option)
    ensures r.Ok? && HasKey(l.block, option) ==>
      r.value.0.Some? && Lookup(l.block, option) == Some(Dict(r.value.0.value))
  {
    match Lookup(l.block, option)
    case None => Ok((None, l))
    case Some(Dict(b)) => Ok((Some(b), Ledger(l.block, l.used + {option})))
    case Some(_) => Fail(WrongType(option))
  }

  /** The top-level blocks, unread: the general mapping, the regions (also
      as the raw list the cutflows search), the samples, the cutflows, the
      systematics and the ntuple mapping. */
  datatype Document = Document(general: Block, regionItems: seq<Value>, regions: seq<Block>, samples: seq<Block>,
                               cutflows: seq<Block>, systematics: seq<Block>, ntuples: Option<Block>)

  /** The blocks every configuration gives. */
  function ReadRequired(l: Ledger): (r: Result<(Block, seq<Value>, seq<Block>, seq<Block>, Ledger)>)
    ensures !HasKey(l.block, "general") || !HasKey(l.block, "regions") || !HasKey(l.block, "samples") ==> r.Fail?
    ensures r.Ok? ==> ReadsWithin(l, r.value.4, {"general", "regions", "samples"})
    ensures r.Ok? ==> Lookup(l.block, "general") == Some(Dict(r.value.0))
    ensures r.Ok? ==> Lookup(l.block, "regions") == Some(List(r.value.1)) && Blocks(r.value.1) == Some(r.value.2)
    ensures r.Ok? ==> Lookup(l.block, "samples").value.List?
                      && Blocks(Lookup(l.block, "samples").value.items) == Some(r.value.3)
  {
    var (general, l1) :- OptionalBlock(l, "general");
    :- Need(general.Some?, MissingOption("general"));
    var (regions, items, l2) :- RequiredBlocks(l1, "regions");
    var (samples, _, l3) :- RequiredBlocks(l2, "samples");
    Ok((general.value, items, regions, samples, l3))
  }

  /** The blocks a configuration may leave out. The inference block is
      taken as read; its contents are not modelled. */
  function ReadOptional(l: Ledger): (r: Result<(seq<Block>, seq<Block>, Option<Block>, Ledger)>)
    ensures r.Ok? ==> ReadsWithin(l, r.value.3, {"cutflows", "systematics", "ntuples", "simple_onnx_inference"})
    ensures r.Ok? ==> (r.value.2.Some? <==> HasKey(l.block, "ntuples"))
    ensures r.Ok? && r.value.2.Some? ==> Lookup(l.block, "ntuples") == Some(Dict(r.value.2.value))
    ensures r.Ok? && !HasKey(l.block, "cutflows") ==> r.value.0 == []
    ensures r.Ok? && !HasKey(l.block, "systematics") ==> r.value.1 == []
  {
    var (cutflows, l1) :- OptionalBlocks(l, "cutflows");
    var (systematics, l2) :- OptionalBlocks(l1, "systematics");
    var (ntuples, l3) :- OptionalBlock(l2, "ntuples");
    var (_, l4) := GetAny(l3, "simple_onnx_inference");
    Ok((cutflows, systematics, ntuples, l4))
  }

  /** The visible top-level mapping split into its blocks: general,
      regions and samples required, and no other block than the known
      ones. */
  function ReadVisible(data: Block): (r: Result<Document>)
    ensures r.Ok? ==> forall k :: k in Keys(data) ==> k in TopLevelBlocks
    ensures !HasKey(data, "general") || !HasKey(data, "regions") || !HasKey(data, "samples") ==> r.Fail?
    ensures r.Ok? ==> Lookup(data, "general") == Some(Dict(r.value.general))
    ensures r.Ok? ==> Lookup(data, "regions") == Some(List(r.value.regionItems))
                      && Blocks(r.value.regionItems) == Some(r.value.regions)
    ensures r.Ok? ==> (r.value.ntuples.Some? <==> HasKey(data, "ntuples"))
    ensures r.Ok? && !HasKey(data, "cutflows") ==> r.value.cutflows == []
    ensures r.Ok? && !HasKey(data, "systematics") ==> r.value.systematics == []
  {
    var (general, regionItems, regions, samples, l1) :- ReadRequired(Fresh(data));
    var (cutflows, systematics, ntuples, l2) :- ReadOptional(l1);
    :- CheckAllRead(l2);
    Ok(Document(general, regionItems, regions, samples, cutflows, systematics, ntuples))
  }

  /** The reader sees the known blocks as the document gives them. */
  lemma VisibleBlocks(document: Block)
    ensures forall k :: k in TopLevelBlocks ==> Lookup(DropHidden(document), k) == Lookup(document, k)
  {
    forall k | k in TopLevelBlocks ensures Lookup(DropHidden(document), k) == Lookup(document, k) {
      assert !Hidden(k);
    }
  }

  /** The top-level mapping split into its blocks, its hidden keys
      dropped first. */
  function ReadDocument(document: Block): (r: Result<Document>)
    ensures r.Ok? ==> forall k :: k in Keys(document) && !Hidden(k) ==> k in TopLevelBlocks
    ensures !HasKey(document, "general") || !HasKey(document, "regions") || !HasKey(document, "samples") ==> r.Fail?
    ensures r.Ok? ==> Lookup(document, "general") == Some(Dict(r.value.general))
    ensures r.Ok? ==> Lookup(document, "regions") == Some(List(r.value.regionItems))
                      && Blocks(r.value.regionItems) == Some(r.value.regions)
    ensures r.Ok? ==> (r.value.ntuples.Some? <==> HasKey(document, "ntuples"))
    ensures r.Ok? && !HasKey(document, "cutflows") ==> r.value.cutflows == []
    ensures r.Ok? && !HasKey(document, "systematics") ==> r.value.systematics == []
  {
    var data := DropHidden(document);
    VisibleBlocks(document);
    var doc :- ReadVisible(data);
    assert forall k :: k in Keys(document) && !Hidden(k) ==> k in TopLevelBlocks by {
      forall k | k in Keys(document) && !Hidden(k) ensures k in TopLevelBlocks {
        VisibleKey(document, k);
      }
    }
    Ok(doc)
  }

  /** The unused-blocks check: every key of the ledger's block was read. */
  function CheckAllRead(l: Ledger): (r: Outcome)
    ensures r.Pass? <==> forall k :: k in Keys(l.block) ==> k in l.used
  {
    var unused := Unused(l);
    NothingUnused(l);
    if |unused| == 0 then Pass else Stop(UnusedOptions(unused))
  }

  /** A visible key is a key of the document exactly when the reader sees it. */
  lemma VisibleKey(document: Block, k: string)
    requires !Hidden(k)
    ensures k in Keys(DropHidden(document)) <==> k in Keys(document)
  {
    HasKeyIffInKeys(document, k);
    HasKeyIffInKeys(DropHidden(document), k);
  }

  /** A hidden block is never reported as unused, whatever it holds. */
  lemma HiddenBlocksAreIgnored(document: Block, key: string, v: Value)
    requires Hidden(key)
    ensures DropHidden(document + [Entry(key, v)]) == DropHidden(document)
  {
    DropHiddenAppendHidden(document, key, v);
  }

  lemma {:induction false} DropHiddenAppendHidden(document: Block, key: string, v: Value)
    requires Hidden(key)
    ensures DropHidden(document + [Entry(key, v)]) == DropHidden(document)
    decreases |document|
  {
    var longer := document + [Entry(key, v)];
    if |document| == 0 {
      assert longer[1..] == [];
    } else {
      assert longer[0] == document[0] && longer[1..] == document[1..] + [Entry(key, v)];
      DropHiddenAppendHidden(document[1..], key, v);
    }
  }

  // ---------------------------------------------------------------------
  // Names

  /** The first name that repeats an earlier one, if any. */
  function FirstRepeat(names: seq<string>): (r: Option<string>)
    ensures r.None? <==> Seqs.Distinct(names)
    ensures r.Some? ==> exists j :: 0 <= j < |names| && names[j] == r.value && r.value in names[..j]
                                    && Seqs.Distinct(names[..j])
    decreases |names|
  {
    if |names| == 0 then None
    else
      var init := names[..|names| - 1];
      var last := names[|names| - 1];
      var earlier := FirstRepeat(init);
      assert forall j :: 0 <= j <= |init| ==> init[..j] == names[..j];
      if earlier.Some? then
        assert !Seqs.Distinct(names) by {
          var j :| 0 <= j < |init| && init[j] == earlier.value && earlier.value in init[..j];
          var i :| 0 <= i < j && init[i] == earlier.value;
          assert names[i] == names[j];
        }
        earlier
      else if last in init then
        assert names[..|names| - 1] == init;
        assert !Seqs.Distinct(names) by {
          var i :| 0 <= i < |init| && init[i] == last;
          assert names[i] == names[|names| - 1];
        }
        Some(last)
      else
        None
  }

  /** A check that no name is given twice; a repeat stops the program
      with that name. */
  function CheckUnique(names: seq<string>): (r: Outcome)
    ensures r.Pass? <==> Seqs.Distinct(names)
    ensures r.Stop? ==>
      (r.error.DuplicateName? &&
       exists i, j :: 0 <= i < j < |names| && names[i] == r.error.name && names[j] == r.error.name)
  {
    match FirstRepeat(names)
    case None => Pass
    case Some(name) =>
      assert exists i, j :: 0 <= i < j < |names| && names[i] == name && names[j] == name by {
        var j :| 0 <= j < |names| && names[j] == name && name in names[..j];
        var i :| 0 <= i < j && names[..j][i] == name;
      }
      Stop(DuplicateName(name))
  }

  // ---------------------------------------------------------------------
  // Regions

  /** The names of some regions, in order. */
  function RegionNames(rs: seq<Region>): (r: seq<string>)
    ensures |r| == |rs| && forall k :: 0 <= k < |rs| ==> r[k] == rs[k].name
  {
    seq(|rs|, k requires 0 <= k < |rs| => rs[k].name)
  }

  /** The regions block: every entry read as a region, no name twice. */
  function ReadRegions(blocks: seq<Block>): (r: Result<seq<Region>>)
    ensures r.Ok? ==>
      (|r.value| == |blocks| &&
       forall k :: 0 <= k < |blocks| ==> RegionReader.ReadRegion(blocks[k]) == Ok(r.value[k]))
    ensures r.Ok? ==> Seqs.Distinct(RegionNames(r.value))
    ensures (forall k :: 0 <= k < |blocks| ==> RegionReader.ReadRegion(blocks[k]).Ok?) ==>
      (r.Ok? <==> Seqs.Distinct(RegionNames(MapAll(blocks, RegionReader.ReadRegion).value)))
  {
    var regions :- MapAll(blocks, RegionReader.ReadRegion);
    :- CheckUnique(RegionNames(regions));
    Ok(regions)
  }

  /** Two region blocks with the same name stop the program. */
  lemma RepeatedRegionNameFails(blocks: seq<Block>, i: nat, j: nat)
    requires i < j < |blocks|
    requires Lookup(blocks[i], "name") == Lookup(blocks[j], "name")
    ensures ReadRegions(blocks).Fail?
  {
  }

  /** The variable names of every region, in region order: the reco
      variables a truth block may pair with. */
  function AllVariableNames(rs: seq<Region>): (r: seq<string>)
    ensures forall v :: v in r <==> exists k :: 0 <= k < |rs| && v in RegionReader.VariableNames(rs[k].variables)
  {
    var each := seq(|rs|, k requires 0 <= k < |rs| => RegionReader.VariableNames(rs[k].variables));
    assert forall k :: 0 <= k < |rs| ==> each[k] == RegionReader.VariableNames(rs[k].variables);
    Seqs.Flatten(each)
  }

  /** The name to selection map of the regions; with distinct names, each
      region's own selection. */
  function Selections(rs: seq<Region>): (m: map<string, string>)
    ensures forall name :: name in m <==> name in RegionNames(rs)
    ensures Seqs.Distinct(RegionNames(rs)) ==> forall k :: 0 <= k < |rs| ==> m[rs[k].name] == rs[k].selection
    decreases |rs|
  {
    if |rs| == 0 then map[]
    else
      var init := rs[..|rs| - 1];
      assert forall k :: 0 <= k < |init| ==> init[k] == rs[k];
      assert RegionNames(rs) == RegionNames(init) + [rs[|rs| - 1].name];
      Selections(init)[rs[|rs| - 1].name := rs[|rs| - 1].selection]
  }

  /** The variable names of the region called `name`, the first such one;
      none when there is no such region. */
  function VariablesOf(rs: seq<Region>, name: string): (r: seq<string>)
    ensures forall k :: 0 <= k < |rs| && rs[k].name == name && (forall j :: 0 <= j < k ==> rs[j].name != name) ==>
      r == RegionReader.VariableNames(rs[k].variables)
    ensures (forall k :: 0 <= k < |rs| ==> rs[k].name != name) ==> r == []
    decreases |rs|
  {
    if |rs| == 0 then []
    else if rs[0].name == name then RegionReader.VariableNames(rs[0].variables)
    else
      assert forall k :: 1 <= k < |rs| ==> rs[k] == rs[1..][k - 1];
      VariablesOf(rs[1..], name)
  }

  // ---------------------------------------------------------------------
  // Samples

  /** The string names of some sample blocks, for comparing with the
      command line. Every block must have a name; a name that is not a
      string matches no command-line sample. */
  function SampleNames(blocks: seq<Block>): (r: Result<seq<string>>)
    ensures r.Ok? <==> forall k :: 0 <= k < |blocks| ==> HasKey(blocks[k], "name")
    ensures r.Ok? ==> forall s :: s in r.value <==>
      exists k :: 0 <= k < |blocks| && Lookup(blocks[k], "name") == Some(Str(s))
    decreases |blocks|
  {
    if |blocks| == 0 then Ok([])
    else
      assert forall k :: 1 <= k < |blocks| ==> blocks[k] == blocks[1..][k - 1];
      match Lookup(blocks[0], "name")
      case None => Fail(MissingOption("name"))
      case Some(v) =>
        var rest :- SampleNames(blocks[1..]);
        Ok(if v.Str? then [v.s] + rest else rest)
  }

  /** Whether the command-line selection names the sample block. */
  predicate Selected(b: Block, selection: seq<string>) {
    match Lookup(b, "name")
    case Some(Str(s)) => s in selection
    case _ => false
  }

  /** check_samples_existence then keep_only_selected_samples on the sample
      blocks: every sample named on the command line must exist, and only
      those samples are kept, in block order. Without a command-line list
      nothing is checked and every block kept. */
  function SelectSampleBlocks(blocks: seq<Block>, selection: Option<seq<string>>): (r: Result<seq<Block>>)
    ensures selection.None? ==> r == Ok(blocks)
    ensures selection.Some? ==> (r.Ok? <==>
      (forall k :: 0 <= k < |blocks| ==> HasKey(blocks[k], "name")) &&
      forall s :: s in selection.value ==> exists k :: 0 <= k < |blocks| && Lookup(blocks[k], "name") == Some(Str(s)))
    ensures r.Ok? && selection.Some? ==> forall b :: b in r.value <==> b in blocks && Selected(b, selection.value)
    ensures r.Ok? ==> Seqs.IsSubsequence(r.value, blocks)
  {
    if selection.None? then
      Seqs.FilterAll(blocks, (b: Block) => true);
      Ok(blocks)
    else
      var names :- SampleNames(blocks);
      :- CommandLine.CheckSamplesExist(selection, names);
      Ok(Seqs.Filter(blocks, (b: Block) => Selected(b, selection.value)))
  }

  /** The sample blocks as the sample reader receives them: numbering
      sequences unrolled, the command-line selection applied, and the
      unique samples resolved. */
  function PrepareSampleBlocks(blocks: seq<Block>, cli: CommandLine.Options): (r: Result<seq<Block>>)
    ensures r.Ok? ==> Numbering.Unroll(blocks, None).Ok?
    ensures r.Ok? ==> SelectSampleBlocks(Numbering.Unroll(blocks, None).value, cli.samples).Ok?
    ensures r.Ok? ==> var selected := SelectSampleBlocks(Numbering.Unroll(blocks, None).value, cli.samples).value;
      |r.value| == |selected| && forall k :: 0 <= k < |selected| ==> UniqueSamples.Finished(selected[k], r.value[k])
  {
    var unrolled :- Numbering.Unroll(blocks, None);
    var selected :- SelectSampleBlocks(unrolled, cli.samples);
    UniqueSamples.ResolveUniqueSamples(selected, cli.campaigns)
  }

  /** A sample and the regions it is attached to. */
  datatype PlacedSample = PlacedSample(sample: Sample, regions: seq<string>)

  /** The names of some samples, in order. */
  function SampleNamesOf(ps: seq<PlacedSample>): (r: seq<string>)
    ensures |r| == |ps| && forall k :: 0 <= k < |ps| ==> r[k] == ps[k].sample.name
  {
    seq(|ps|, k requires 0 <= k < |ps| => ps[k].sample.name)
  }

  /** One sample block read and attached to regions. The regions a sample
      is attached to always exist. */
  function PlaceSample(b: Block, general: GeneralReader.General, recoVariables: seq<string>,
                       e: Regex.Engine, regionNames: seq<string>): (r: Result<PlacedSample>)
    ensures r.Ok? ==> SampleReader.ReadSample(b, general, recoVariables) == Ok(r.value.sample)
    ensures r.Ok? ==> SampleReader.AdjustRegions(e, r.value.sample.regions, r.value.sample.excludeRegions, regionNames)
                      == Ok(r.value.regions)
    ensures r.Ok? ==> forall x :: x in r.value.regions ==> x in regionNames
  {
    var sample :- SampleReader.ReadSample(b, general, recoVariables);
    var regions :- SampleReader.AdjustRegions(e, sample.regions, sample.excludeRegions, regionNames);
    Ok(PlacedSample(sample, regions))
  }

  /** The samples: every prepared block read and attached to the regions,
      the truth blocks checked against the variables of all regions, and
      no sample name twice. */
  function ReadSamples(blocks: seq<Block>, general: GeneralReader.General, regions: seq<Region>, e: Regex.Engine)
    : (r: Result<seq<PlacedSample>>)
    ensures r.Ok? ==>
      (|r.value| == |blocks| &&
       forall k :: 0 <= k < |blocks| ==>
         PlaceSample(blocks[k], general, AllVariableNames(regions), e, RegionNames(regions)) == Ok(r.value[k]))
    ensures r.Ok? ==> Seqs.Distinct(SampleNamesOf(r.value))
    ensures r.Ok? ==> forall k, x :: 0 <= k < |r.value| && x in r.value[k].regions ==> x in RegionNames(regions)
  {
    var placed :- MapAll(blocks, b => PlaceSample(b, general, AllVariableNames(regions), e, RegionNames(regions)));
    :- CheckUnique(SampleNamesOf(placed));
    Ok(placed)
  }

  // ---------------------------------------------------------------------
  // Cutflows

  /** A cutflow and the samples it is attached to. */
  datatype PlacedCutflow = PlacedCutflow(cutflow: CutflowReader.Cutflow, samples: seq<string>)

  /** The first name that is already taken, if any. */
  function FirstTaken(names: seq<string>, taken: seq<string>): (r: Option<string>)
    ensures r.None? <==> forall x :: x in names ==> x !in taken
    ensures r.Some? ==> r.value in names && r.value in taken
    decreases |names|
  {
    if |names| == 0 then None
    else if names[0] in taken then Some(names[0])
    else
      assert forall x :: x in names ==> x == names[0] || x in names[1..];
      FirstTaken(names[1..], taken)
  }

  /** The name check of the added regions as the reader makes it: only the
      regions of the regions block count as taken. */
  function CheckCutflowRegionNamesAsWritten(configNames: seq<string>, names: seq<string>): (r: Outcome)
    ensures r.Pass? <==> forall x :: x in names ==> x !in configNames
  {
    match FirstTaken(names, configNames)
    case None => Pass
    case Some(name) => Stop(DuplicateName(name))
  }

  /** The name check of the added regions: no name twice, and none taken
      by a region of the regions block or one added before. */
  function CheckCutflowRegionNames(taken: seq<string>, names: seq<string>): (r: Outcome)
    ensures r.Pass? <==> Seqs.Distinct(names) && forall x :: x in names ==> x !in taken
  {
    match FirstTaken(names, taken)
    case Some(name) => Stop(DuplicateName(name))
    case None => CheckUnique(names)
  }

  /** The regions block gives "SR" and an earlier cutflow added "cf_a"; a
      second cutflow adding "cf_a" again passes the check as written, and
      the native configuration receives two regions of that name. The
      corrected check stops there. */
  lemma RepeatedCutflowRegionPassesAsWritten()
    ensures CheckCutflowRegionNamesAsWritten(["SR"], ["cf_a"]).Pass?
    ensures CheckCutflowRegionNames(["SR", "cf_a"], ["cf_a"]).Stop?
  {
    assert "cf_a" in ["SR", "cf_a"];
    assert "cf_a" != "SR";
  }

  /** Two lists without repeats and without a common name make one. */
  lemma DistinctConcat(a: seq<string>, b: seq<string>)
    requires Seqs.Distinct(a) && Seqs.Distinct(b)
    requires forall x :: x in b ==> x !in a
    ensures Seqs.Distinct(a + b)
  {
    forall i, j | 0 <= i < j < |a + b| ensures (a + b)[i] != (a + b)[j] {
      if j < |a| {
        assert (a + b)[i] == a[i] && (a + b)[j] == a[j];
      } else if i < |a| {
        assert (a + b)[i] == a[i] && (a + b)[j] == b[j - |a|];
        assert b[j - |a|] in b;
      } else {
        assert (a + b)[i] == b[i - |a|] && (a + b)[j] == b[j - |a|];
      }
    }
  }

  /** The mini-analysis regions read as regions; each keeps its name and
      selection. */
  function ReadMiniRegions(minis: seq<CutflowReader.MiniRegion>): (r: Result<seq<Region>>)
    ensures r.Ok? ==> |r.value| == |minis|
    ensures r.Ok? ==> forall k :: 0 <= k < |minis| ==>
      r.value[k].name == minis[k].name && r.value[k].selection == minis[k].selection
  {
    var rs :- MapAll(minis, (m: CutflowReader.MiniRegion) => RegionReader.ReadRegion(CutflowReader.AsBlock(m)));
    assert forall k :: 0 <= k < |minis| ==> rs[k].name == minis[k].name && rs[k].selection == minis[k].selection by {
      forall k | 0 <= k < |minis| ensures rs[k].name == minis[k].name && rs[k].selection == minis[k].selection {
        assert RegionReader.ReadRegion(CutflowReader.AsBlock(minis[k])) == Ok(rs[k]);
      }
    }
    Ok(rs)
  }

  /** The regions a cutflow with tracked variables adds: the mini-analysis
      regions read as regions, none with a taken name. Their names are
      those the sequential and agnostic construction gives. */
  method CutflowRegions(cf: CutflowReader.Cutflow, regionItems: seq<Value>, taken: seq<string>)
    returns (r: Result<seq<Region>>)
    ensures cf.tracked.None? ==> r.Fail?
    ensures r.Ok? ==> Seqs.Distinct(RegionNames(r.value)) && forall x :: x in RegionNames(r.value) ==> x !in taken
    ensures r.Ok? ==> |r.value| == |cf.cuts| + |CutflowReader.WithAssociated(cf.cuts)|
  {
    var minis := CutflowReader.BuildRegions(cf, Some(regionItems));
    if minis.Fail? {
      return Fail(minis.error);
    }
    var regions := ReadMiniRegions(minis.value);
    if regions.Fail? {
      return Fail(regions.error);
    }
    var check := CheckCutflowRegionNames(taken, RegionNames(regions.value));
    if check.Stop? {
      return Fail(check.error);
    }
    r := regions;
  }

  /** The cutflow block `b` reads as `p.cutflow`, which is attached to the
      samples `p.samples`. */
  predicate ReadFrom(b: Block, cli: CommandLine.Options, sampleNames: seq<string>, p: PlacedCutflow) {
    CutflowReader.ReadCutflow(b, cli) == Ok(p.cutflow) && CutflowReader.AdjustSamples(p.cutflow, sampleNames) == Ok(p.samples)
  }

  /** One cutflow: read, attached to its samples and, with tracked
      variables, its regions added and given to the samples it runs on. */
  method AddCutflow(b: Block, regionItems: seq<Value>, taken: seq<string>, current: seq<PlacedSample>,
                    sampleNames: seq<string>, cli: CommandLine.Options)
    returns (r: Result<(PlacedCutflow, seq<Region>, seq<PlacedSample>)>)
    ensures r.Ok? ==> ReadFrom(b, cli, sampleNames, r.value.0)
    ensures r.Ok? ==> Seqs.Distinct(RegionNames(r.value.1)) && forall x :: x in RegionNames(r.value.1) ==> x !in taken
    ensures r.Ok? ==> Extends(current, r.value.2, RegionNames(r.value.1))
    ensures r.Ok? && r.value.0.cutflow.tracked.None? ==> r.value.1 == [] && r.value.2 == current
  {
    var cutflow := CutflowReader.ReadCutflow(b, cli);
    if cutflow.Fail? {
      return Fail(cutflow.error);
    }
    var cf := cutflow.value;
    var attached := CutflowReader.AdjustSamples(cf, sampleNames);
    if attached.Fail? {
      return Fail(attached.error);
    }
    if cf.tracked.None? {
      ExtendsItself(current);
      return Ok((PlacedCutflow(cf, attached.value), [], current));
    }
    var more := CutflowRegions(cf, regionItems, taken);
    if more.Fail? {
      return Fail(more.error);
    }
    r := Ok((PlacedCutflow(cf, attached.value), more.value, AttachCutflowRegions(current, RegionNames(more.value), cf.samples)));
  }

  /** `after` is `before` with regions appended to some samples, each one
      of `added`. */
  predicate Extends(before: seq<PlacedSample>, after: seq<PlacedSample>, added: seq<string>) {
    |after| == |before| &&
    forall k :: 0 <= k < |before| ==>
      after[k].sample == before[k].sample &&
      |after[k].regions| >= |before[k].regions| &&
      after[k].regions[..|before[k].regions|] == before[k].regions &&
      forall x :: x in after[k].regions[|before[k].regions|..] ==> x in added
  }

  /** adjust_cutflow_regions for every sample. */
  function AttachCutflowRegions(samples: seq<PlacedSample>, names: seq<string>, cutflowSamples: Option<seq<string>>)
    : (r: seq<PlacedSample>)
    ensures Extends(samples, r, names)
    ensures forall k :: 0 <= k < |samples| ==>
      (cutflowSamples.None? || samples[k].sample.name in cutflowSamples.value
       ==> r[k].regions == samples[k].regions + names)
    ensures forall k :: 0 <= k < |samples| ==>
      (cutflowSamples.Some? && samples[k].sample.name !in cutflowSamples.value ==> r[k] == samples[k])
  {
    seq(|samples|, k requires 0 <= k < |samples| =>
      samples[k].(regions := SampleReader.AdjustCutflowRegions(samples[k].sample.name, samples[k].regions, names,
                                                                 cutflowSamples)))
  }

  /** Extending twice is extending by both lists. */
  lemma ExtendsTransitive(a: seq<PlacedSample>, b: seq<PlacedSample>, c: seq<PlacedSample>,
                          first: seq<string>, second: seq<string>)
    requires Extends(a, b, first) && Extends(b, c, second)
    ensures Extends(a, c, first + second)
  {
    forall k | 0 <= k < |a|
      ensures |c[k].regions| >= |a[k].regions| && c[k].regions[..|a[k].regions|] == a[k].regions
      ensures forall x :: x in c[k].regions[|a[k].regions|..] ==> x in first + second
    {
      var n := |a[k].regions|;
      var m := |b[k].regions|;
      assert c[k].regions[..m] == b[k].regions;
      assert c[k].regions[..n] == b[k].regions[..n];
      forall x | x in c[k].regions[n..] ensures x in first + second {
        var i :| n <= i < |c[k].regions| && c[k].regions[i] == x;
        if i < m {
          assert x == b[k].regions[i];
          assert x in b[k].regions[n..];
        } else {
          assert x == c[k].regions[m..][i - m];
        }
      }
    }
  }

  lemma RegionNamesAppend(a: seq<Region>, b: seq<Region>)
    ensures RegionNames(a + b) == RegionNames(a) + RegionNames(b)
  {
  }

  /** Nothing appended is an extension by anything. */
  lemma ExtendsItself(samples: seq<PlacedSample>)
    ensures Extends(samples, samples, [])
  {
    forall k | 0 <= k < |samples| ensures samples[k].regions[..|samples[k].regions|] == samples[k].regions { }
  }

  /** The first cutflow blocks read as `placed`. */
  predicate CutflowsRead(blocks: seq<Block>, cli: CommandLine.Options, sampleNames: seq<string>,
                         placed: seq<PlacedCutflow>) {
    |placed| <= |blocks| && forall k :: 0 <= k < |placed| ==> ReadFrom(blocks[k], cli, sampleNames, placed[k])
  }

  /** The regions the cutflows added: no name twice, none a name of the
      regions block. */
  predicate FreshRegions(regions: seq<Region>, added: seq<Region>) {
    Seqs.Distinct(RegionNames(added)) && forall x :: x in RegionNames(added) ==> x !in RegionNames(regions)
  }

  /** One more cutflow read. */
  lemma CutflowsReadSnoc(blocks: seq<Block>, cli: CommandLine.Options, sampleNames: seq<string>,
                         placed: seq<PlacedCutflow>, p: PlacedCutflow)
    requires |placed| < |blocks| && CutflowsRead(blocks, cli, sampleNames, placed)
    requires ReadFrom(blocks[|placed|], cli, sampleNames, p)
    ensures CutflowsRead(blocks, cli, sampleNames, placed + [p])
  {
    var longer := placed + [p];
    forall k | 0 <= k < |longer| ensures ReadFrom(blocks[k], cli, sampleNames, longer[k]) {
      if k < |placed| {
        assert longer[k] == placed[k];
      }
    }
  }

  /** More regions whose names are fresh keep the added regions fresh. */
  lemma FreshRegionsAppend(regions: seq<Region>, added: seq<Region>, more: seq<Region>)
    requires FreshRegions(regions, added)
    requires Seqs.Distinct(RegionNames(more))
    requires forall x :: x in RegionNames(more) ==> x !in RegionNames(regions) + RegionNames(added)
    ensures FreshRegions(regions, added + more)
    ensures RegionNames(added + more) == RegionNames(added) + RegionNames(more)
  {
    DistinctConcat(RegionNames(added), RegionNames(more));
    RegionNamesAppend(added, more);
  }

  /** The cutflows: each read and attached to its samples; those with
      tracked variables add their regions, which must not repeat a name,
      and give them to the samples they are run on. */
  method ReadCutflows(blocks: seq<Block>, regionItems: seq<Value>, regions: seq<Region>,
                      samples: seq<PlacedSample>, cli: CommandLine.Options)
    returns (r: Result<(seq<PlacedCutflow>, seq<Region>, seq<PlacedSample>)>)
    ensures r.Ok? ==> |r.value.0| == |blocks| && CutflowsRead(blocks, cli, SampleNamesOf(samples), r.value.0)
    ensures r.Ok? ==> FreshRegions(regions, r.value.1)
    ensures r.Ok? ==> Extends(samples, r.value.2, RegionNames(r.value.1))
  {
    var sampleNames := SampleNamesOf(samples);
    var placed: seq<PlacedCutflow> := [];
    var added: seq<Region> := [];
    var current := samples;
    ExtendsItself(samples);
    for i := 0 to |blocks|
      invariant |placed| == i && CutflowsRead(blocks, cli, sampleNames, placed)
      invariant FreshRegions(regions, added)
      invariant Extends(samples, current, RegionNames(added))
    {
      var step := AddCutflow(blocks[i], regionItems, RegionNames(regions) + RegionNames(added), current, sampleNames, cli);
      if step.Fail? {
        return Fail(step.error);
      }
      var (cutflow, more, next) := step.value;
      CutflowsReadSnoc(blocks, cli, sampleNames, placed, cutflow);
      FreshRegionsAppend(regions, added, more);
      ExtendsTransitive(samples, current, next, RegionNames(added), RegionNames(more));
      current := next;
      added := added + more;
      placed := placed + [cutflow];
    }
    r := Ok((placed, added, current));
  }

  // ---------------------------------------------------------------------
  // Systematics

  /** adjust_regions on a systematic: it keeps the regions it resolves to
      as its region list, and nothing else changes. */
  function AttachRegions(s: Systematic, regionNames: seq<string>): (r: Result<Systematic>)
    ensures r.Ok? <==> s.regions.None? || forall k :: 0 <= k < |s.regions.value| ==> s.regions.value[k] in regionNames
    ensures r.Ok? ==> r.value.regions.Some? && r.value.(regions := s.regions) == s
    ensures r.Ok? ==> forall x :: x in r.value.regions.value ==> x in regionNames
    ensures r.Ok? && s.regions.None? ==> forall x :: x in r.value.regions.value <==>
      x in regionNames && (s.excludeRegions.None? || x !in s.excludeRegions.value)
  {
    var adjusted :- SystematicReader.AdjustRegions(s, regionNames);
    Ok(s.(regions := Some(adjusted)))
  }

  /** Once its regions are attached, the region check of a systematic can
      only fail on an excluded region that does not exist. */
  lemma AttachedRegionCheck(s: Systematic, regionNames: seq<string>)
    requires AttachRegions(s, regionNames).Ok?
    ensures SystematicReader.CheckRegionsExist(AttachRegions(s, regionNames).value, regionNames).Pass? <==>
      s.excludeRegions.None? || forall x :: x in s.excludeRegions.value ==> x in regionNames
  {
  }

  /** The block the nominal systematic of a sample is read from: the
      variation "up" named NOSYS, with the sample's sums of weights, for
      that sample only. */
  function NominalBlock(name: string, sumWeights: string): Block {
    [Entry("variation", Dict([Entry("up", Str("NOSYS")), Entry("sum_weights_up", Str(sumWeights))])),
     Entry("samples", StrList([name]))]
  }

  /** The variation block of the nominal systematic reads as NOSYS with
      the sample's sums of weights. */
  lemma NominalVariationReads(sumWeights: string, defaultSumWeights: string)
    ensures SystematicReader.ReadVariation([Entry("up", Str("NOSYS")), Entry("sum_weights_up", Str(sumWeights))],
                                           "up", defaultSumWeights) == Ok(("NOSYS", "", sumWeights))
  {
    var v := [Entry("up", Str("NOSYS")), Entry("sum_weights_up", Str(sumWeights))];
    StringOps.LowerVariationTypes();
    NominalVariationName(v, sumWeights);
    NominalVariationWeights(v, sumWeights);
    NominalVariationAllUsed(v, sumWeights);
  }

  /** The nominal variation's name is read first, marking the name option. */
  lemma NominalVariationName(v: Block, sumWeights: string)
    requires v == [Entry("up", Str("NOSYS")), Entry("sum_weights_up", Str(sumWeights))]
    ensures SystematicReader.ReadVariationName(v, "up") == Ok(("NOSYS", FreshVariations(v).(used := {""})))
  {
    assert VariationKey("", "up") == "up";
    assert Lookup(v, "up") == Some(Str("NOSYS"));
    assert FreshVariations(v).used + {""} == {""};
  }

  /** Then its weights: no suffix, and the sample's sum of weights. */
  lemma NominalVariationWeights(v: Block, sumWeights: string)
    requires v == [Entry("up", Str("NOSYS")), Entry("sum_weights_up", Str(sumWeights))]
    ensures SystematicReader.ReadGiven(FreshVariations(v).(used := {""}), v, "up")
         && SystematicReader.ReadVariationWeights(FreshVariations(v).(used := {""}), v, "up")
            == Ok(("", Some(sumWeights), FreshVariations(v).(used := {"", "sum_weights"})))
  {
    NominalVariationName(v, sumWeights);
    var l1 := FreshVariations(v).(used := {""});
    assert VariationKey("sum_weights", "up") == "sum_weights_up";
    assert VariationKey("weight_suffix", "up") == "weight_suffix_up";
    assert Lookup(v, "sum_weights_up") == Some(Str(sumWeights));
    assert !HasKey(v, "weight_suffix_up");
    assert l1.used + {"sum_weights"} == {"", "sum_weights"};
  }

  /** After the name and the sum of weights nothing is left unused. */
  lemma NominalVariationAllUsed(v: Block, sumWeights: string)
    requires v == [Entry("up", Str("NOSYS")), Entry("sum_weights_up", Str(sumWeights))]
    ensures |UnusedVariations(FreshVariations(v).(used := {"", "sum_weights"}))| == 0
  {
    var l2 := FreshVariations(v).(used := {"", "sum_weights"});
    VariationKeyTracksOption("sum_weights", "up");
    VariationKeyTracksOption("", "up");
    assert VariationKey("", "up") == "up" && VariationKey("sum_weights", "up") == "sum_weights_up";
    assert Keys(v) == [VariationKey("", "up"), VariationKey("sum_weights", "up")];
    forall o | o in l2.tracked ensures o in l2.used {
      TrackedNamesMembership(Keys(v), o);
    }
    NothingUnusedVariations(l2);
  }

  /** A present mapping option reads as itself and is marked. */
  lemma PresentBlock(l: Ledger, option: string, v: Block)
    requires Lookup(l.block, option) == Some(Dict(v))
    ensures GetBlock(l, option) == Ok((Some(v), Ledger(l.block, l.used + {option})))
  {
    assert TypeAllowed(Dict(v), Some({DictTag}));
  }

  /** An absent list option reads as None and marks nothing. */
  lemma AbsentStrList(l: Ledger, option: string)
    requires !HasKey(l.block, option)
    ensures GetStrList(l, option) == Ok((None, l))
  {
    assert Get(l, option, Null, Some({ListTag}), Some({StrTag})) == Ok((Null, l));
  }

  /** A present list of strings reads as itself and is marked. */
  lemma PresentStrList(l: Ledger, option: string, names: seq<string>)
    requires Lookup(l.block, option) == Some(StrList(names))
    ensures GetStrList(l, option) == Ok((Some(names), Ledger(l.block, l.used + {option})))
  {
    var v := StrList(names);
    var tags := ElementTags(v).value;
    forall k | 0 <= k < |tags| ensures tags[k] in {StrTag} {
      assert tags[k] == TagOf(v.items[k]);
      assert v.items[k].Str?;
    }
    assert Get(l, option, Null, Some({ListTag}), Some({StrTag})) == Ok((v, Ledger(l.block, l.used + {option})));
  }

  /** Sample lists that give only the samples read as those samples
      narrowed to the command line. */
  lemma SampleListOnly(l: Ledger, l2: Ledger, names: seq<string>, cli: CommandLine.Options)
    requires GetStrList(l, "samples") == Ok((Some(names), l2))
    requires GetStrList(l2, "exclude_samples") == Ok((None, l2))
    requires GetStrList(l2, "campaigns") == Ok((None, l2))
    ensures SystematicReader.ReadSampleLists(l, cli) == Ok((CommandLine.KeepSelectedSamples(Some(names), cli), None, None, l2))
  {
  }

  /** The ledger steps of reading a systematic block that holds a
      variation block and a sample list and nothing else. */
  lemma SampleListSteps(b: Block, v: Block, names: seq<string>, cli: CommandLine.Options)
    requires Lookup(b, "variation") == Some(Dict(v)) && Lookup(b, "samples") == Some(StrList(names))
    requires forall k :: k in Keys(b) ==> k == "variation" || k == "samples"
    ensures var l1 := Ledger(b, Fresh(b).used + {"variation"});
            var l2 := Ledger(b, l1.used + {"samples"});
      && GetBlock(Fresh(b), "variation") == Ok((Some(v), l1))
      && SystematicReader.ReadSampleLists(l1, cli) == Ok((CommandLine.KeepSelectedSamples(Some(names), cli), None, None, l2))
      && SystematicReader.ReadRegionLists(l2) == Ok((None, None, l2))
      && |Unused(l2)| == 0
  {
    var l0 := Fresh(b);
    var l1 := Ledger(b, l0.used + {"variation"});
    var l2 := Ledger(b, l1.used + {"samples"});
    PresentBlock(l0, "variation", v);
    PresentStrList(l1, "samples", names);
    forall k | k in {"exclude_samples", "campaigns", "regions", "exclude_regions"} ensures !HasKey(b, k) {
      HasKeyIffInKeys(b, k);
    }
    AbsentStrList(l2, "exclude_samples");
    AbsentStrList(l2, "campaigns");
    AbsentStrList(l2, "regions");
    AbsentStrList(l2, "exclude_regions");
    SampleListOnly(l1, l2, names, cli);
    NothingUnused(l2);
  }

  /** A systematic block that holds a variation block and a sample list
      and nothing else reads as that variation, for those samples narrowed
      to the command line. */
  lemma SampleListSystematic(b: Block, v: Block, names: seq<string>, variationType: string,
                             defaultSumWeights: string, cli: CommandLine.Options, read: (string, string, string))
    requires Lookup(b, "variation") == Some(Dict(v)) && Lookup(b, "samples") == Some(StrList(names))
    requires forall k :: k in Keys(b) ==> k == "variation" || k == "samples"
    requires SystematicReader.ReadVariation(v, variationType, defaultSumWeights) == Ok(read)
    ensures SystematicReader.ReadSystematic(b, variationType, defaultSumWeights, cli)
         == Ok(SystematicReader.Systematic(read.0, read.1, read.2, CommandLine.KeepSelectedSamples(Some(names), cli),
                                           None, None, None, None))
  {
    SampleListSteps(b, v, names, cli);
  }

  /** The nominal block always reads: as the nominal systematic with the
      sample's sums of weights and no weight suffix, for the sample if the
      command line selects it, and with no other restriction. */
  lemma NominalReads(name: string, sumWeights: string, defaultSumWeights: string, cli: CommandLine.Options)
    ensures SystematicReader.ReadSystematic(NominalBlock(name, sumWeights), "up", defaultSumWeights, cli)
         == Ok(SystematicReader.Systematic("NOSYS", "", sumWeights, CommandLine.KeepSelectedSamples(Some([name]), cli),
                                           None, None, None, None))
  {
    var v := [Entry("up", Str("NOSYS")), Entry("sum_weights_up", Str(sumWeights))];
    NominalVariationReads(sumWeights, defaultSumWeights);
    NominalBlockShape(name, sumWeights);
    SampleListSystematic(NominalBlock(name, sumWeights), v, [name], "up", defaultSumWeights, cli, ("NOSYS", "", sumWeights));
  }

  /** The nominal block holds its variation block and its one-sample list
      and nothing else. */
  lemma NominalBlockShape(name: string, sumWeights: string)
    ensures Lookup(NominalBlock(name, sumWeights), "variation")
         == Some(Dict([Entry("up", Str("NOSYS")), Entry("sum_weights_up", Str(sumWeights))]))
    ensures Lookup(NominalBlock(name, sumWeights), "samples") == Some(StrList([name]))
    ensures forall k :: k in Keys(NominalBlock(name, sumWeights)) ==> k == "variation" || k == "samples"
  {
    assert Keys(NominalBlock(name, sumWeights)) == ["variation", "samples"];
  }

  /** modify_sum_weights_for_variation: a variation the block defines
      without sums of weights of its own gets `sumWeights`; nothing else
      changes. */
  function FillSumWeights(v: Block, variation: string, sumWeights: string): (r: Block)
    requires variation == "up" || variation == "down"
    ensures forall k :: k != VariationKey("sum_weights", variation) ==> Lookup(r, k) == Lookup(v, k)
    ensures HasKey(v, variation) && !HasKey(v, VariationKey("sum_weights", variation)) ==>
      Lookup(r, VariationKey("sum_weights", variation)) == Some(Str(sumWeights))
    ensures !HasKey(v, variation) || HasKey(v, VariationKey("sum_weights", variation)) ==> r == v
  {
    var key := VariationKey("sum_weights", variation);
    if HasKey(v, variation) && !HasKey(v, key) then Put(v, key, Str(sumWeights)) else v
  }

  /** The variation block with the sample's sums of weights filled in for
      "up" and "down". */
  function FillBoth(v: Block, sumWeights: string): (r: Block)
    ensures forall k :: k != "sum_weights_up" && k != "sum_weights_down" ==> Lookup(r, k) == Lookup(v, k)
    ensures forall variation :: variation in {"up", "down"} && HasKey(v, variation) ==>
      Lookup(r, VariationKey("sum_weights", variation))
        == if HasKey(v, VariationKey("sum_weights", variation)) then Lookup(v, VariationKey("sum_weights", variation))
           else Some(Str(sumWeights))
  {
    assert VariationKey("sum_weights", "up") == "sum_weights_up";
    assert VariationKey("sum_weights", "down") == "sum_weights_down";
    FillSumWeights(FillSumWeights(v, "up", sumWeights), "down", sumWeights)
  }

  /** A systematic block with the sample's sums of weights as the default
      of its variations. The variation block must be a mapping. */
  function WithDefaultSumWeights(b: Block, sumWeights: string): (r: Result<Block>)
    ensures r.Ok? <==> Lookup(b, "variation").Some? && Lookup(b, "variation").value.Dict?
    ensures r.Ok? ==> Lookup(r.value, "variation") == Some(Dict(FillBoth(Lookup(b, "variation").value.entries, sumWeights)))
    ensures r.Ok? ==> forall k :: k != "variation" ==> Lookup(r.value, k) == Lookup(b, k)
  {
    match Lookup(b, "variation")
    case None => Fail(MissingOption("variation"))
    case Some(Dict(v)) => Ok(Put(b, "variation", Dict(FillBoth(v, sumWeights))))
    case Some(_) => Fail(WrongType("variation"))
  }

  /** Filling is idempotent, and a second default has no effect. */
  lemma FillBothIdempotent(v: Block, w: string, w': string)
    ensures FillBoth(FillBoth(v, w), w') == FillBoth(v, w)
  {
    var up := FillSumWeights(v, "up", w);
    var x := FillSumWeights(up, "down", w);
    assert FillSumWeights(x, "up", w') == x;
    assert FillSumWeights(x, "down", w') == x;
  }

  /** Filling a filled systematic block again changes nothing. */
  lemma WithDefaultSumWeightsIdempotent(b: Block, w: string, w': string)
    requires WithDefaultSumWeights(b, w).Ok?
    ensures WithDefaultSumWeights(WithDefaultSumWeights(b, w).value, w') == WithDefaultSumWeights(b, w)
  {
    var v := Lookup(b, "variation").value.entries;
    var filled := WithDefaultSumWeights(b, w).value;
    FillBothIdempotent(v, w, w');
    PutExisting(filled, "variation", Dict(FillBoth(v, w)));
  }

  /** After filling, each variation a systematic block defines reads with
      the sums of weights it gives, or else the sample's: the general
      default is never used. */
  lemma FilledSumWeightsRead(b: Block, w: string, variationType: string, defaultSumWeights: string,
                             cli: CommandLine.Options)
    requires WithDefaultSumWeights(b, w).Ok?
    requires SystematicReader.ReadSystematic(WithDefaultSumWeights(b, w).value, variationType, defaultSumWeights, cli).Ok?
    ensures Lookup(b, "variation").Some? && Lookup(b, "variation").value.Dict?
    ensures SystematicReader.ReadSystematic(WithDefaultSumWeights(b, w).value, variationType, defaultSumWeights, cli).value.sumWeights
         == StrOr(Lookup(b, "variation").value.entries, VariationKey("sum_weights", StringOps.ToLower(variationType)), w)
  {
    var v := Lookup(b, "variation").value.entries;
    var filled := WithDefaultSumWeights(b, w).value;
    var s := SystematicReader.ReadSystematic(filled, variationType, defaultSumWeights, cli).value;
    assert SystematicReader.ReadVariation(FillBoth(v, w), variationType, defaultSumWeights)
        == Ok((s.name, s.weightSuffix, s.sumWeights));
    FilledVariationSumWeights(v, w, variationType, defaultSumWeights, (s.name, s.weightSuffix, s.sumWeights));
  }

  /** A filled variation block reads with the sums of weights the
      variation gives, or else the filled-in default. */
  lemma FilledVariationSumWeights(v: Block, w: string, variationType: string, defaultSumWeights: string,
                                  read: (string, string, string))
    requires SystematicReader.ReadVariation(FillBoth(v, w), variationType, defaultSumWeights) == Ok(read)
    ensures read.2 == StrOr(v, VariationKey("sum_weights", StringOps.ToLower(variationType)), w)
  {
    var variation := StringOps.ToLower(variationType);
    var key := VariationKey("sum_weights", variation);
    var v' := FillBoth(v, w);
    assert variation in {"up", "down"} && HasKey(v', variation);
    FilledLookup(v, w, variation);
    assert Lookup(v', key) == Some(Str(read.2));
  }

  /** For a variation the block defines, the filled block's sums of
      weights are the block's own, or else the filled-in default. */
  lemma FilledLookup(v: Block, w: string, variation: string)
    requires variation in {"up", "down"} && HasKey(FillBoth(v, w), variation)
    ensures Lookup(FillBoth(v, w), VariationKey("sum_weights", variation))
         == if HasKey(v, VariationKey("sum_weights", variation)) then Lookup(v, VariationKey("sum_weights", variation))
            else Some(Str(w))
  {
    assert Lookup(FillBoth(v, w), variation) == Lookup(v, variation);
  }

  /** A systematic attached to regions that all exist. */
  predicate Attached(s: Systematic, regionNames: seq<string>) {
    s.regions.Some? && forall x :: x in s.regions.value ==> x in regionNames
  }

  /** The systematics one block defines for a sample: its variations read
      with the sample's sums of weights as their default, each attached to
      the regions. */
  function BlockSystematics(b: Block, sumWeights: string, defaultSumWeights: string, cli: CommandLine.Options,
                            regionNames: seq<string>): (r: Result<seq<Systematic>>)
    ensures r.Ok? ==> WithDefaultSumWeights(b, sumWeights).Ok?
    ensures r.Ok? ==> 1 <= |r.value| <= 2
    ensures r.Ok? ==> forall k :: 0 <= k < |r.value| ==> Attached(r.value[k], regionNames)
  {
    var filled :- WithDefaultSumWeights(b, sumWeights);
    var (systs, _) :- SystematicReader.ReadSystematicsVariations(filled, defaultSumWeights, cli);
    MapAll(systs, s => AttachRegions(s, regionNames))
  }

  /** Each systematic a block defines for a sample is the block, filled,
      read for one of its variations, in the order "up", "down", and then
      attached to the regions. */
  lemma BlockSystematicsRead(b: Block, sumWeights: string, defaultSumWeights: string, cli: CommandLine.Options,
                             regionNames: seq<string>)
    requires BlockSystematics(b, sumWeights, defaultSumWeights, cli, regionNames).Ok?
    ensures var r := BlockSystematics(b, sumWeights, defaultSumWeights, cli, regionNames).value;
            var filled := WithDefaultSumWeights(b, sumWeights).value;
      SystematicReader.Variations(filled).Ok? && |r| == |SystematicReader.Variations(filled).value| &&
      forall k :: 0 <= k < |r| ==>
        var read := SystematicReader.ReadSystematic(filled, SystematicReader.Variations(filled).value[k], defaultSumWeights, cli);
        read.Ok? && AttachRegions(read.value, regionNames) == Ok(r[k])
  {
  }

  /** Each systematic a block defines for a sample has the sums of weights
      its variation gives, or else the sample's. */
  lemma BlockSystematicsSumWeights(b: Block, sumWeights: string, defaultSumWeights: string, cli: CommandLine.Options,
                                   regionNames: seq<string>, k: nat)
    requires BlockSystematics(b, sumWeights, defaultSumWeights, cli, regionNames).Ok?
    requires k < |BlockSystematics(b, sumWeights, defaultSumWeights, cli, regionNames).value|
    ensures Lookup(b, "variation").Some? && Lookup(b, "variation").value.Dict?
    ensures var filled := WithDefaultSumWeights(b, sumWeights).value;
      BlockSystematics(b, sumWeights, defaultSumWeights, cli, regionNames).value[k].sumWeights
        == StrOr(Lookup(b, "variation").value.entries,
                 VariationKey("sum_weights", StringOps.ToLower(SystematicReader.Variations(filled).value[k])), sumWeights)
  {
    var filled := WithDefaultSumWeights(b, sumWeights).value;
    BlockSystematicsRead(b, sumWeights, defaultSumWeights, cli, regionNames);
    FilledSumWeightsRead(b, sumWeights, SystematicReader.Variations(filled).value[k], defaultSumWeights, cli);
  }

  /** The systematics the blocks define for a sample, block after block;
      they are defined exactly when each block defines its own. */
  function DefinedSystematics(blocks: seq<Block>, sumWeights: string, defaultSumWeights: string,
                              cli: CommandLine.Options, regionNames: seq<string>): (r: Result<seq<Systematic>>)
    ensures r.Ok? <==>
      forall k :: 0 <= k < |blocks| ==> BlockSystematics(blocks[k], sumWeights, defaultSumWeights, cli, regionNames).Ok?
    ensures r.Ok? ==> |blocks| <= |r.value| <= 2 * |blocks|
    ensures r.Ok? ==> forall k :: 0 <= k < |r.value| ==> Attached(r.value[k], regionNames)
  {
    var f := b => BlockSystematics(b, sumWeights, defaultSumWeights, cli, regionNames);
    var r := ConcatAll(blocks, f);
    if r.Ok? then
      ConcatAllLength(blocks, f, 1, 2);
      r
    else r
  }

  /** The names of some systematics, in order. */
  function SystematicNames(systs: seq<Systematic>): (r: seq<string>)
    ensures |r| == |systs| && forall k :: 0 <= k < |systs| ==> r[k] == systs[k].name
  {
    seq(|systs|, k requires 0 <= k < |systs| => systs[k].name)
  }

  /** The regions a systematic must find: the nominal one also the cutflow
      regions. */
  function KnownRegions(s: Systematic, regionNames: seq<string>, cutflowRegionNames: seq<string>): seq<string> {
    if s.IsNominal() then regionNames + cutflowRegionNames else regionNames
  }

  /** check_samples_existence and check_regions_existence on every
      systematic of a sample. */
  function CheckSystematics(systs: seq<Systematic>, sampleNames: seq<string>, regionNames: seq<string>,
                            cutflowRegionNames: seq<string>): (r: Outcome)
    ensures r.Pass? <==> forall k :: 0 <= k < |systs| ==>
      SystematicReader.CheckSamplesExist(systs[k], sampleNames).Pass? &&
      SystematicReader.CheckRegionsExist(systs[k], KnownRegions(systs[k], regionNames, cutflowRegionNames)).Pass?
    decreases |systs|
  {
    if |systs| == 0 then Pass
    else
      assert forall k :: 1 <= k < |systs| ==> systs[k] == systs[1..][k - 1];
      var s := systs[0];
      var samples := SystematicReader.CheckSamplesExist(s, sampleNames);
      var regions := SystematicReader.CheckRegionsExist(s, KnownRegions(s, regionNames, cutflowRegionNames));
      if samples.Stop? then samples
      else if regions.Stop? then regions
      else CheckSystematics(systs[1..], sampleNames, regionNames, cutflowRegionNames)
  }

  /** The nominal systematic of a sample: for that sample, with its sums of
      weights, attached to every region and every cutflow region. */
  function NominalOf(s: Sample, regionNames: seq<string>, cli: CommandLine.Options): (r: Systematic) {
    SystematicReader.Systematic("NOSYS", "", s.sumWeights, CommandLine.KeepSelectedSamples(Some([s.name]), cli),
                                None, None, Some(regionNames), None)
  }

  /** The systematics of one sample: its nominal first, then every
      variation the systematic blocks define, no name twice, each checked
      against the samples and the regions. */
  function SampleSystematics(s: Sample, blocks: seq<Block>, regionNames: seq<string>, cutflowRegionNames: seq<string>,
                             sampleNames: seq<string>, defaultSumWeights: string, cli: CommandLine.Options)
    : (r: Result<seq<Systematic>>)
    ensures r.Ok? ==> |r.value| >= 1 && r.value[0] == NominalOf(s, regionNames + cutflowRegionNames, cli)
    ensures r.Ok? ==> DefinedSystematics(blocks, s.sumWeights, defaultSumWeights, cli, regionNames) == Ok(r.value[1..])
    ensures r.Ok? ==> Seqs.Distinct(SystematicNames(r.value))
    ensures r.Ok? ==> CheckSystematics(r.value, sampleNames, regionNames, cutflowRegionNames).Pass?
    ensures r.Ok? <==>
      (DefinedSystematics(blocks, s.sumWeights, defaultSumWeights, cli, regionNames).Ok? &&
       var all := [NominalOf(s, regionNames + cutflowRegionNames, cli)]
                  + DefinedSystematics(blocks, s.sumWeights, defaultSumWeights, cli, regionNames).value;
       Seqs.Distinct(SystematicNames(all)) && CheckSystematics(all, sampleNames, regionNames, cutflowRegionNames).Pass?)
  {
    var allRegions := regionNames + cutflowRegionNames;
    NominalReads(s.name, s.sumWeights, defaultSumWeights, cli);
    var nominal := SystematicReader.ReadSystematic(NominalBlock(s.name, s.sumWeights), "up", defaultSumWeights, cli).value;
    Seqs.FilterAll(allRegions, (x: string) => nominal.excludeRegions.None? || x !in nominal.excludeRegions.value);
    var attached := AttachRegions(nominal, allRegions).value;
    var defined :- DefinedSystematics(blocks, s.sumWeights, defaultSumWeights, cli, regionNames);
    var all := [attached] + defined;
    assert all[1..] == defined;
    :- CheckUnique(SystematicNames(all));
    :- CheckSystematics(all, sampleNames, regionNames, cutflowRegionNames);
    Ok(all)
  }

  /** A sample defining a systematic named NOSYS stops the program: the
      nominal already has that name. */
  lemma SystematicNamedNominalFails(s: Sample, blocks: seq<Block>, regionNames: seq<string>,
                                    cutflowRegionNames: seq<string>, sampleNames: seq<string>,
                                    defaultSumWeights: string, cli: CommandLine.Options, k: nat)
    requires DefinedSystematics(blocks, s.sumWeights, defaultSumWeights, cli, regionNames).Ok?
    requires k < |DefinedSystematics(blocks, s.sumWeights, defaultSumWeights, cli, regionNames).value|
    requires DefinedSystematics(blocks, s.sumWeights, defaultSumWeights, cli, regionNames).value[k].IsNominal()
    ensures SampleSystematics(s, blocks, regionNames, cutflowRegionNames, sampleNames, defaultSumWeights, cli).Fail?
  {
    var defined := DefinedSystematics(blocks, s.sumWeights, defaultSumWeights, cli, regionNames).value;
    NominalRepeated(NominalOf(s, regionNames + cutflowRegionNames, cli), defined, k);
  }

  /** A nominal in front of systematics holding another nominal repeats a
      name. */
  lemma NominalRepeated(nominal: Systematic, defined: seq<Systematic>, k: nat)
    requires nominal.IsNominal() && k < |defined| && defined[k].IsNominal()
    ensures !Seqs.Distinct(SystematicNames([nominal] + defined))
  {
    var all := [nominal] + defined;
    assert SystematicNames(all)[0] == SystematicNames(all)[k + 1];
  }

  // ---------------------------------------------------------------------
  // Resolving a sample

  /** A sample as it is handed to the native side: its regions, the
      systematics run on it and the variables it keeps. */
  datatype ResolvedSample = ResolvedSample(sample: Sample, regions: seq<string>, systematics: seq<Systematic>,
                                           variables: seq<string>)

  /** The variable names of each region a sample is attached to. */
  function RegionVariables(allRegions: seq<Region>, names: seq<string>): (r: seq<seq<string>>)
    ensures |r| == |names| && forall k :: 0 <= k < |names| ==> r[k] == VariablesOf(allRegions, names[k])
  {
    seq(|names|, k requires 0 <= k < |names| => VariablesOf(allRegions, names[k]))
  }

  /** One sample resolved: its systematics assembled and checked, those
      that apply to it kept, and the variables of its regions narrowed by
      its variable lists. */
  method ResolveSample(p: PlacedSample, blocks: seq<Block>, allRegions: seq<Region>, regionNames: seq<string>,
                       cutflowRegionNames: seq<string>, sampleNames: seq<string>, defaultSumWeights: string,
                       cli: CommandLine.Options, e: Regex.Engine)
    returns (r: Result<ResolvedSample>)
    ensures r.Ok? <==>
      SampleSystematics(p.sample, blocks, regionNames, cutflowRegionNames, sampleNames, defaultSumWeights, cli).Ok?
    ensures r.Ok? ==> r.value.sample == p.sample && r.value.regions == p.regions
    ensures r.Ok? ==> forall syst :: syst in r.value.systematics <==>
      syst in SampleSystematics(p.sample, blocks, regionNames, cutflowRegionNames, sampleNames, defaultSumWeights, cli).value
      && SampleReader.Applies(p.sample, syst)
    ensures r.Ok? ==> Seqs.Distinct(r.value.variables)
    ensures r.Ok? ==> forall v :: v in r.value.variables <==>
      (exists k :: 0 <= k < |p.regions| && v in VariablesOf(allRegions, p.regions[k]))
      && SampleReader.KeepsVariable(e, p.sample.variables, p.sample.excludeVariables, v)
    ensures r.Ok? ==> Resolved(p, r.value, regionNames, cutflowRegionNames)
  {
    var systematics := SampleSystematics(p.sample, blocks, regionNames, cutflowRegionNames, sampleNames,
                                         defaultSumWeights, cli);
    if systematics.Fail? {
      return Fail(systematics.error);
    }
    SampleSystematicsShape(p.sample, blocks, regionNames, cutflowRegionNames, sampleNames, defaultSumWeights, cli);
    var kept := SampleReader.AdjustSystematics(p.sample, systematics.value);
    var perRegion := RegionVariables(allRegions, p.regions);
    var variables := SampleReader.ResolveVariables(e, perRegion, p.sample.variables, p.sample.excludeVariables);
    return Ok(ResolvedSample(p.sample, p.regions, kept, variables));
  }

  /** A sample the command line selects keeps its nominal systematic. */
  lemma SelectedSampleKeepsNominal(s: Sample, regionNames: seq<string>, cli: CommandLine.Options)
    requires cli.samples.None? || s.name in cli.samples.value
    ensures SampleReader.Applies(s, NominalOf(s, regionNames, cli))
  {
  }

  /** What a resolved sample holds: the sample and its regions as placed,
      and only systematics that apply to it, the nominal one attached to
      every region and cutflow region and the others to regions that
      exist. */
  predicate Resolved(p: PlacedSample, rs: ResolvedSample, regionNames: seq<string>, cutflowRegionNames: seq<string>) {
    rs.sample == p.sample && rs.regions == p.regions &&
    forall syst :: syst in rs.systematics ==>
      SampleReader.Applies(p.sample, syst) &&
      (syst.IsNominal() ==> syst.regions == Some(regionNames + cutflowRegionNames)) &&
      (!syst.IsNominal() ==> Attached(syst, regionNames))
  }

  /** The systematics of a sample: one nominal, attached to every region
      and cutflow region; every other one attached to regions that
      exist. */
  lemma SampleSystematicsShape(s: Sample, blocks: seq<Block>, regionNames: seq<string>, cutflowRegionNames: seq<string>,
                               sampleNames: seq<string>, defaultSumWeights: string, cli: CommandLine.Options)
    requires SampleSystematics(s, blocks, regionNames, cutflowRegionNames, sampleNames, defaultSumWeights, cli).Ok?
    ensures var all := SampleSystematics(s, blocks, regionNames, cutflowRegionNames, sampleNames, defaultSumWeights, cli).value;
      forall syst :: syst in all ==>
        (syst.IsNominal() ==> syst == NominalOf(s, regionNames + cutflowRegionNames, cli)) &&
        (!syst.IsNominal() ==> Attached(syst, regionNames))
  {
    var all := SampleSystematics(s, blocks, regionNames, cutflowRegionNames, sampleNames, defaultSumWeights, cli).value;
    var defined := DefinedSystematics(blocks, s.sumWeights, defaultSumWeights, cli, regionNames).value;
    NominalFirst(all, defined, NominalOf(s, regionNames + cutflowRegionNames, cli), regionNames);
  }

  /** A list made of a nominal and the attached systematics after it, with
      no name twice, holds that nominal once and attached systematics
      otherwise. */
  lemma NominalFirst(all: seq<Systematic>, defined: seq<Systematic>, nominal: Systematic, regionNames: seq<string>)
    requires |all| >= 1 && all[0] == nominal && nominal.IsNominal() && defined == all[1..]
    requires Seqs.Distinct(SystematicNames(all))
    requires forall k :: 0 <= k < |defined| ==> Attached(defined[k], regionNames)
    ensures forall syst :: syst in all ==>
      (syst.IsNominal() ==> syst == nominal) && (!syst.IsNominal() ==> Attached(syst, regionNames))
  {
    assert all == [nominal] + defined;
    OneNominal(nominal, defined, regionNames);
  }

  /** With no name twice, a nominal in front is the only nominal, and the
      systematics after it keep their regions. */
  lemma OneNominal(nominal: Systematic, defined: seq<Systematic>, regionNames: seq<string>)
    requires nominal.IsNominal() && Seqs.Distinct(SystematicNames([nominal] + defined))
    requires forall k :: 0 <= k < |defined| ==> Attached(defined[k], regionNames)
    ensures forall syst :: syst in [nominal] + defined ==>
      (syst.IsNominal() ==> syst == nominal) && (!syst.IsNominal() ==> Attached(syst, regionNames))
  {
    var all := [nominal] + defined;
    forall syst | syst in all
      ensures syst.IsNominal() ==> syst == nominal
      ensures !syst.IsNominal() ==> Attached(syst, regionNames)
    {
      var k :| 0 <= k < |all| && all[k] == syst;
      if k > 0 {
        assert syst == defined[k - 1];
        assert SystematicNames(all)[k] != SystematicNames(all)[0];
      }
    }
  }

  /** The systematics of the first `n` samples read. */
  predicate SystematicsRead(placed: seq<PlacedSample>, n: nat, blocks: seq<Block>, regionNames: seq<string>,
                            cutflowRegionNames: seq<string>, defaultSumWeights: string, cli: CommandLine.Options) {
    n <= |placed| &&
    forall k :: 0 <= k < n ==>
      SampleSystematics(placed[k].sample, blocks, regionNames, cutflowRegionNames, SampleNamesOf(placed),
                        defaultSumWeights, cli).Ok?
  }

  /** The first samples resolved. */
  predicate AllResolved(placed: seq<PlacedSample>, resolved: seq<ResolvedSample>, regionNames: seq<string>,
                        cutflowRegionNames: seq<string>) {
    |resolved| <= |placed| &&
    forall k :: 0 <= k < |resolved| ==> Resolved(placed[k], resolved[k], regionNames, cutflowRegionNames)
  }

  /** One more sample's systematics read. */
  lemma SystematicsReadSnoc(placed: seq<PlacedSample>, n: nat, blocks: seq<Block>, regionNames: seq<string>,
                            cutflowRegionNames: seq<string>, defaultSumWeights: string, cli: CommandLine.Options)
    requires n < |placed|
    requires SystematicsRead(placed, n, blocks, regionNames, cutflowRegionNames, defaultSumWeights, cli)
    requires SampleSystematics(placed[n].sample, blocks, regionNames, cutflowRegionNames, SampleNamesOf(placed),
                               defaultSumWeights, cli).Ok?
    ensures SystematicsRead(placed, n + 1, blocks, regionNames, cutflowRegionNames, defaultSumWeights, cli)
  {
    var sampleNames := SampleNamesOf(placed);
    forall k | 0 <= k < n + 1
      ensures SampleSystematics(placed[k].sample, blocks, regionNames, cutflowRegionNames, sampleNames,
                                defaultSumWeights, cli).Ok?
    {
      if k == n {
      }
    }
  }

  /** A sample whose systematics fail keeps the samples from being read. */
  lemma SystematicsReadStops(placed: seq<PlacedSample>, n: nat, blocks: seq<Block>, regionNames: seq<string>,
                             cutflowRegionNames: seq<string>, defaultSumWeights: string, cli: CommandLine.Options)
    requires n < |placed|
    requires SampleSystematics(placed[n].sample, blocks, regionNames, cutflowRegionNames, SampleNamesOf(placed),
                               defaultSumWeights, cli).Fail?
    ensures !SystematicsRead(placed, |placed|, blocks, regionNames, cutflowRegionNames, defaultSumWeights, cli)
  {
  }

  /** One more sample resolved. */
  lemma ResolvedSnoc(placed: seq<PlacedSample>, resolved: seq<ResolvedSample>, rs: ResolvedSample,
                     regionNames: seq<string>, cutflowRegionNames: seq<string>)
    requires |resolved| < |placed|
    requires AllResolved(placed, resolved, regionNames, cutflowRegionNames)
    requires Resolved(placed[|resolved|], rs, regionNames, cutflowRegionNames)
    ensures AllResolved(placed, resolved + [rs], regionNames, cutflowRegionNames)
  {
    var longer := resolved + [rs];
    forall k | 0 <= k < |longer| ensures Resolved(placed[k], longer[k], regionNames, cutflowRegionNames) {
      if k < |resolved| {
        assert longer[k] == resolved[k];
      }
    }
  }

  /** Every sample resolved, in order. */
  method ResolveSamples(placed: seq<PlacedSample>, blocks: seq<Block>, allRegions: seq<Region>,
                        regionNames: seq<string>, cutflowRegionNames: seq<string>, defaultSumWeights: string,
                        cli: CommandLine.Options, e: Regex.Engine)
    returns (r: Result<seq<ResolvedSample>>)
    ensures r.Ok? <==> SystematicsRead(placed, |placed|, blocks, regionNames, cutflowRegionNames, defaultSumWeights, cli)
    ensures r.Ok? ==> |r.value| == |placed| && AllResolved(placed, r.value, regionNames, cutflowRegionNames)
  {
    var sampleNames := SampleNamesOf(placed);
    var resolved: seq<ResolvedSample> := [];
    for i := 0 to |placed|
      invariant |resolved| == i
      invariant SystematicsRead(placed, i, blocks, regionNames, cutflowRegionNames, defaultSumWeights, cli)
      invariant AllResolved(placed, resolved, regionNames, cutflowRegionNames)
    {
      var one := ResolveSample(placed[i], blocks, allRegions, regionNames, cutflowRegionNames, sampleNames,
                               defaultSumWeights, cli, e);
      if one.Fail? {
        SystematicsReadStops(placed, i, blocks, regionNames, cutflowRegionNames, defaultSumWeights, cli);
        return Fail(one.error);
      }
      SystematicsReadSnoc(placed, i, blocks, regionNames, cutflowRegionNames, defaultSumWeights, cli);
      ResolvedSnoc(placed, resolved, one.value, regionNames, cutflowRegionNames);
      resolved := resolved + [one.value];
    }
    return Ok(resolved);
  }

  // ---------------------------------------------------------------------
  // Ntuples

  /** The ntuple block resolved against the configuration: the block as
      read, the selection its events pass and the samples it is written
      for. */
  datatype NtupleOutput = NtupleOutput(ntuple: NtupleReader.Ntuple, selection: string, samples: seq<string>)

  /** BlockReaderNtuple, then adjust_regions against the regions of the
      regions block (never a cutflow region) and adjust_samples against
      the samples read. */
  function ReadNtupleOutput(b: Block, regions: seq<Region>, sampleNames: seq<string>, cli: CommandLine.Options)
    : (r: Result<NtupleOutput>)
    ensures r.Ok? ==> NtupleReader.ReadNtuple(b, cli) == Ok(r.value.ntuple)
    ensures r.Ok? ==> forall x :: x in r.value.samples ==> x in sampleNames
    ensures r.Ok? && r.value.ntuple.regions.Some? ==>
      forall x :: x in r.value.ntuple.regions.value ==> x in RegionNames(regions)
  {
    var n :- NtupleReader.ReadNtuple(b, cli);
    var selection :- NtupleReader.AdjustRegions(n, Selections(regions));
    assert n.regions.Some? ==> forall x :: x in n.regions.value ==> x in Selections(regions);
    var samples :- NtupleReader.AdjustSamples(n, sampleNames);
    Ok(NtupleOutput(n, selection, samples))
  }

  /** An ntuple that names a region outside the regions block (a cutflow
      region, say) stops the program. */
  lemma NtupleUnknownRegionFails(b: Block, regions: seq<Region>, sampleNames: seq<string>, cli: CommandLine.Options,
                                 name: string)
    requires NtupleReader.ReadNtuple(b, cli).Ok?
    requires StringsAt(b, "regions").Some? && name in StringsAt(b, "regions").value
    requires name !in RegionNames(regions)
    ensures ReadNtupleOutput(b, regions, sampleNames, cli).Fail?
  {
    var n := NtupleReader.ReadNtuple(b, cli).value;
    var k :| 0 <= k < |n.regions.value| && n.regions.value[k] == name;
    assert name !in Selections(regions);
  }

  /** The ntuple output when the configuration has an ntuple block; an
      empty ntuple otherwise. */
  method ReadOptionalNtuple(b: Option<Block>, regions: seq<Region>, sampleNames: seq<string>, cli: CommandLine.Options)
    returns (r: Result<Option<NtupleOutput>>)
    ensures b.None? ==> r == Ok(None)
    ensures b.Some? ==> (r.Ok? <==> ReadNtupleOutput(b.value, regions, sampleNames, cli).Ok?)
    ensures r.Ok? && b.Some? ==> r.value == Some(ReadNtupleOutput(b.value, regions, sampleNames, cli).value)
    ensures r.Ok? && r.value.Some? ==> forall x :: x in r.value.value.samples ==> x in sampleNames
  {
    if b.None? {
      return Ok(None);
    }
    var output := ReadNtupleOutput(b.value, regions, sampleNames, cli);
    if output.Fail? {
      return Fail(output.error);
    }
    r := Ok(Some(output.value));
  }

  // ---------------------------------------------------------------------
  // The whole configuration

  /** The configuration read: the general block, the regions, the
      cutflows and the regions they add, every sample with its regions,
      systematics and variables, and the ntuple output when there is one. */
  datatype Config = Config(general: GeneralReader.General, regions: seq<Region>, cutflows: seq<PlacedCutflow>,
                           cutflowRegions: seq<Region>, samples: seq<ResolvedSample>, ntuple: Option<NtupleOutput>)

  /** The names of some resolved samples, in order. */
  function ResolvedNames(rs: seq<ResolvedSample>): (r: seq<string>)
    ensures |r| == |rs| && forall k :: 0 <= k < |rs| ==> r[k] == rs[k].sample.name
  {
    seq(|rs|, k requires 0 <= k < |rs| => rs[k].sample.name)
  }

  /** Extending keeps the samples and so their names. */
  lemma ExtendsKeepsNames(before: seq<PlacedSample>, after: seq<PlacedSample>, added: seq<string>)
    requires Extends(before, after, added)
    ensures SampleNamesOf(after) == SampleNamesOf(before)
  {
  }

  /** Regions appended from `added` to samples whose regions were in
      `known` leave them in `known + added`. */
  lemma ExtendsWithin(before: seq<PlacedSample>, after: seq<PlacedSample>, added: seq<string>, known: seq<string>)
    requires Extends(before, after, added)
    requires forall k, x :: 0 <= k < |before| && x in before[k].regions ==> x in known
    ensures forall k, x :: 0 <= k < |after| && x in after[k].regions ==> x in known + added
  {
    forall k, x | 0 <= k < |after| && x in after[k].regions ensures x in known + added {
      var n := |before[k].regions|;
      assert after[k].regions == after[k].regions[..n] + after[k].regions[n..];
      if x in after[k].regions[..n] {
        assert x in before[k].regions;
      } else {
        assert x in after[k].regions[n..];
      }
    }
  }

  /** Resolved samples keep the names of the samples they came from. */
  lemma ResolvedKeepsNames(placed: seq<PlacedSample>, resolved: seq<ResolvedSample>, regionNames: seq<string>,
                           cutflowRegionNames: seq<string>)
    requires |resolved| == |placed| && AllResolved(placed, resolved, regionNames, cutflowRegionNames)
    ensures ResolvedNames(resolved) == SampleNamesOf(placed)
  {
    forall k | 0 <= k < |placed| ensures ResolvedNames(resolved)[k] == SampleNamesOf(placed)[k] {
      assert Resolved(placed[k], resolved[k], regionNames, cutflowRegionNames);
    }
  }

  /** The document split, the general block read and the regions read. */
  method ReadHead(document: Block, cli: CommandLine.Options, parseFloat: string -> Option<real>)
    returns (r: Result<(Document, GeneralReader.General, seq<Region>)>)
    ensures !HasKey(document, "general") || !HasKey(document, "regions") || !HasKey(document, "samples") ==> r.Fail?
    ensures r.Ok? ==> ReadDocument(document) == Ok(r.value.0)
    ensures r.Ok? ==> Lookup(document, "general") == Some(Dict(r.value.0.general))
                      && GeneralReader.ReadGeneral(r.value.0.general, cli, parseFloat) == Ok(r.value.1)
    ensures r.Ok? ==> ReadRegions(r.value.0.regions) == Ok(r.value.2) && Seqs.Distinct(RegionNames(r.value.2))
  {
    var doc := ReadDocument(document);
    if doc.Fail? {
      return Fail(doc.error);
    }
    var general := GeneralReader.ReadGeneral(doc.value.general, cli, parseFloat);
    if general.Fail? {
      return Fail(general.error);
    }
    var regions := ReadRegions(doc.value.regions);
    if regions.Fail? {
      return Fail(regions.error);
    }
    r := Ok((doc.value, general.value, regions.value));
  }

  /** The sample blocks prepared, read and attached to the regions. */
  method PlaceSamples(blocks: seq<Block>, general: GeneralReader.General, regions: seq<Region>,
                      cli: CommandLine.Options, e: Regex.Engine)
    returns (r: Result<seq<PlacedSample>>)
    ensures r.Ok? ==> Seqs.Distinct(SampleNamesOf(r.value))
    ensures r.Ok? ==> forall k, x :: 0 <= k < |r.value| && x in r.value[k].regions ==> x in RegionNames(regions)
  {
    var prepared := PrepareSampleBlocks(blocks, cli);
    if prepared.Fail? {
      return Fail(prepared.error);
    }
    r := ReadSamples(prepared.value, general, regions, e);
  }

  /** The stages after the samples: the cutflows read and their regions
      added, the systematic blocks unrolled, and every sample resolved. */
  method ResolveConfig(d: Document, general: GeneralReader.General, regions: seq<Region>, placed: seq<PlacedSample>,
                       cli: CommandLine.Options, e: Regex.Engine)
    returns (r: Result<(seq<PlacedCutflow>, seq<Region>, seq<ResolvedSample>)>)
    requires Seqs.Distinct(SampleNamesOf(placed))
    requires forall k, x :: 0 <= k < |placed| && x in placed[k].regions ==> x in RegionNames(regions)
    ensures r.Ok? ==> CutflowsRead(d.cutflows, cli, SampleNamesOf(placed), r.value.0) && |r.value.0| == |d.cutflows|
    ensures r.Ok? ==> FreshRegions(regions, r.value.1)
    ensures r.Ok? ==> Seqs.Distinct(ResolvedNames(r.value.2))
    ensures r.Ok? ==> forall k, x :: 0 <= k < |r.value.2| && x in r.value.2[k].regions ==>
      x in RegionNames(regions) + RegionNames(r.value.1)
    ensures r.Ok? ==> forall k :: 0 <= k < |r.value.2| ==>
      Resolved(PlacedSample(r.value.2[k].sample, r.value.2[k].regions), r.value.2[k],
               RegionNames(regions), RegionNames(r.value.1))
  {
    var cutflows := ReadCutflows(d.cutflows, d.regionItems, regions, placed, cli);
    if cutflows.Fail? {
      return Fail(cutflows.error);
    }
    var (placedCutflows, cutflowRegions, withCutflows) := cutflows.value;
    var systematicBlocks := Numbering.Unroll(d.systematics, None);
    if systematicBlocks.Fail? {
      return Fail(systematicBlocks.error);
    }
    var regionNames := RegionNames(regions);
    var cutflowRegionNames := RegionNames(cutflowRegions);
    var resolved := ResolveSamples(withCutflows, systematicBlocks.value, regions + cutflowRegions, regionNames,
                                   cutflowRegionNames, general.defaults.sumWeights, cli, e);
    if resolved.Fail? {
      return Fail(resolved.error);
    }
    var rs := resolved.value;
    ExtendsKeepsNames(placed, withCutflows, cutflowRegionNames);
    ResolvedKeepsNames(withCutflows, rs, regionNames, cutflowRegionNames);
    ExtendsWithin(placed, withCutflows, cutflowRegionNames, regionNames);
    forall k | 0 <= k < |rs|
      ensures Resolved(PlacedSample(rs[k].sample, rs[k].regions), rs[k], regionNames, cutflowRegionNames)
      ensures forall x :: x in rs[k].regions ==> x in regionNames + cutflowRegionNames
    {
      assert Resolved(withCutflows[k], rs[k], regionNames, cutflowRegionNames);
    }
    r := Ok((placedCutflows, cutflowRegions, rs));
  }

  /** The reader's constructor: every block read in order and every
      cross-reference resolved. Each stage's error stops the program. */
  method ReadConfig(document: Block, cli: CommandLine.Options, e: Regex.Engine,
                    parseFloat: string -> Option<real>) returns (r: Result<Config>)
    ensures !HasKey(document, "general") || !HasKey(document, "regions") || !HasKey(document, "samples") ==> r.Fail?
    ensures r.Ok? ==> ReadDocument(document).Ok?
    ensures r.Ok? ==> Lookup(document, "general") == Some(Dict(ReadDocument(document).value.general))
                      && GeneralReader.ReadGeneral(ReadDocument(document).value.general, cli, parseFloat) == Ok(r.value.general)
    ensures r.Ok? ==> Seqs.Distinct(RegionNames(r.value.regions + r.value.cutflowRegions))
    ensures r.Ok? ==> Seqs.Distinct(ResolvedNames(r.value.samples))
    ensures r.Ok? ==> forall k, x :: 0 <= k < |r.value.samples| && x in r.value.samples[k].regions ==>
      x in RegionNames(r.value.regions + r.value.cutflowRegions)
    ensures r.Ok? ==> forall k :: 0 <= k < |r.value.samples| ==>
      Resolved(PlacedSample(r.value.samples[k].sample, r.value.samples[k].regions), r.value.samples[k],
               RegionNames(r.value.regions), RegionNames(r.value.cutflowRegions))
    ensures r.Ok? ==> (r.value.ntuple.Some? <==> HasKey(document, "ntuples"))
    ensures r.Ok? && r.value.ntuple.Some? ==> forall x :: x in r.value.ntuple.value.samples ==> x in ResolvedNames(r.value.samples)
  {
    var head := ReadHead(document, cli, parseFloat);
    if head.Fail? {
      return Fail(head.error);
    }
    var (d, general, regions) := head.value;
    var samples := PlaceSamples(d.samples, general, regions, cli, e);
    if samples.Fail? {
      return Fail(samples.error);
    }
    var placed := samples.value;
    var rest := ResolveConfig(d, general, regions, placed, cli, e);
    if rest.Fail? {
      return Fail(rest.error);
    }
    var (placedCutflows, cutflowRegions, resolved) := rest.value;
    RegionNamesAppend(regions, cutflowRegions);
    DistinctConcat(RegionNames(regions), RegionNames(cutflowRegions));
    var ntuple := ReadOptionalNtuple(d.ntuples, regions, ResolvedNames(resolved), cli);
    if ntuple.Fail? {
      return Fail(ntuple.error);
    }
    r := Ok(Config(general, regions, placedCutflows, cutflowRegions, resolved, ntuple.value));
  }
}

=== FILE: config_setting.dfy ===
/** The global settings object (ConfigSetting): the luminosity of each
    campaign, the list of systematics without repeated names, and the
    questions asked across all samples. */
module Settings {
  import opened Wrappers
  import Seqs
  import NativeSample
  import SampleIds

  /** Campaign name to integrated luminosity. The native map stores a
      32-bit float; the model keeps the exact value. */
  type LuminosityMap = map<string, real>

  /** The map a new ConfigSetting starts with. */
  function DefaultLuminosity(): (m: LuminosityMap)
    ensures m.Keys == {"mc20a", "mc20d", "mc20e"}
    ensures m["mc20a"] == 3244.54 + 33402.2 && m["mc20d"] == 44630.6 && m["mc20e"] == 58791.6
  {
    map["mc20a" := 3244.54 + 33402.2, "mc20d" := 44630.6, "mc20e" := 58791.6]
  }

  /** addLuminosityInformation: a campaign already present may only be
      overwritten when forced. */
  function AddLuminosity(m: LuminosityMap, campaign: string, lumi: real, force: bool): (r: Result<LuminosityMap>)
    ensures r.Fail? <==> campaign in m && !force
    ensures r.Ok? ==> campaign in r.value && r.value[campaign] == lumi
    ensures r.Ok? ==> r.value.Keys == m.Keys + {campaign}
    ensures r.Ok? ==> forall c :: c in m && c != campaign ==> r.value[c] == m[c]
  {
    if campaign in m && !force then Fail(InvalidValue("Campaign " + campaign + " already exists in the luminosity map"))
    else Ok(m[campaign := lumi])
  }

  /** campaignIsDefined. */
  predicate CampaignIsDefined(m: LuminosityMap, campaign: string) {
    campaign in m
  }

  /** getLuminosity: a campaign without a luminosity is fatal. */
  function GetLuminosity(m: LuminosityMap, campaign: string): (r: Result<real>)
    ensures r.Ok? <==> CampaignIsDefined(m, campaign)
    ensures r.Ok? ==> r.value == m[campaign]
  {
    if campaign in m then Ok(m[campaign])
    else Fail(UnknownReference("Campaign " + campaign + " does not exist in the luminosity map"))
  }

  /** Forcing always succeeds, and the luminosity just set is the one read
      back. */
  lemma ForcedAddThenGet(m: LuminosityMap, campaign: string, lumi: real, other: string)
    ensures AddLuminosity(m, campaign, lumi, true).Ok?
    ensures GetLuminosity(AddLuminosity(m, campaign, lumi, true).value, campaign) == Ok(lumi)
    ensures other != campaign ==>
      GetLuminosity(AddLuminosity(m, campaign, lumi, true).value, other) == GetLuminosity(m, other)
  {
  }

  // ---------------------------------------------------------------------
  // Systematics

  function SystematicNames(systs: seq<NativeSample.Systematic>): (r: seq<string>)
    ensures |r| == |systs| && forall k :: 0 <= k < |systs| ==> r[k] == systs[k].name
  {
    seq(|systs|, k requires 0 <= k < |systs| => systs[k].name)
  }

  /** addUniqueSystematic: appended only when no systematic of that name is
      there yet. */
  function AddUniqueSystematic(systs: seq<NativeSample.Systematic>, syst: NativeSample.Systematic): (r: seq<NativeSample.Systematic>)
    ensures syst.name in SystematicNames(systs) ==> r == systs
    ensures syst.name !in SystematicNames(systs) ==> r == systs + [syst]
  {
    if syst.name in SystematicNames(systs) then systs else systs + [syst]
  }

  /** Adding systematics one by one never gives two with the same name, and
      the systematic's name is there afterwards. */
  lemma AddUniqueKeepsNamesDistinct(systs: seq<NativeSample.Systematic>, syst: NativeSample.Systematic)
    requires Seqs.Distinct(SystematicNames(systs))
    ensures Seqs.Distinct(SystematicNames(AddUniqueSystematic(systs, syst)))
    ensures syst.name in SystematicNames(AddUniqueSystematic(systs, syst))
  {
    var r := AddUniqueSystematic(systs, syst);
    if syst.name !in SystematicNames(systs) {
      assert SystematicNames(r) == SystematicNames(systs) + [syst.name];
    }
  }

  // ---------------------------------------------------------------------
  // Questions across samples

  /** hasAutomaticSystematics: some sample asks for automatic systematics
      or for nominal only. */
  method HasAutomaticSystematics(samples: seq<NativeSample.Sample>) returns (r: bool)
    ensures r <==> exists k :: 0 <= k < |samples| && (samples[k].automaticSystematics || samples[k].nominalOnly)
  {
    var i := 0;
    while i < |samples|
      invariant 0 <= i <= |samples|
      invariant forall j :: 0 <= j < i ==> !samples[j].automaticSystematics && !samples[j].nominalOnly
    {
      if samples[i].automaticSystematics {
        return true;
      }
      if samples[i].nominalOnly {
        return true;
      }
      i := i + 1;
    }
    return false;
  }

  function Dsids(ids: seq<SampleIds.UniqueSampleId>): (r: seq<int>)
    ensures |r| == |ids| && forall k :: 0 <= k < |ids| ==> r[k] == ids[k].dsid
  {
    seq(|ids|, k requires 0 <= k < |ids| => ids[k].dsid)
  }

  /** The dataset numbers of all samples' identities, sample by sample. */
  function AllDsids(samples: seq<NativeSample.Sample>): seq<int>
    decreases |samples|
  {
    if |samples| == 0 then [] else AllDsids(samples[..|samples| - 1]) + Dsids(samples[|samples| - 1].ids)
  }

  /** uniqueDSIDs: every dataset number once, in first-occurrence order. */
  method UniqueDsids(samples: seq<NativeSample.Sample>) returns (r: seq<int>)
    ensures r == Seqs.Dedup(AllDsids(samples))
  {
    r := [];
    var i := 0;
    while i < |samples|
      invariant 0 <= i <= |samples|
      invariant r == Seqs.Dedup(AllDsids(samples[..i]))
    {
      r := Seqs.AppendUnseen(r, AllDsids(samples[..i]), Dsids(samples[i].ids));
      assert samples[..i + 1][..i] == samples[..i];
      i := i + 1;
    }
    assert samples[..i] == samples;
  }
}

=== FILE: cutflow_reader.dfy ===
/** The cutflow block (BlockReaderCutflow): the ordered selections of a
    cutflow histogram and, when variables are tracked, the extra regions a
    cutflow adds to the analysis: one per cut with the cuts so far applied
    in sequence, and one per cut with an associated variable that applies
    every other cut. */
module CutflowReader {
  import opened Wrappers
  import opened Values
  import opened OptionLedger
  import Seqs
  import StringOps
  import CommandLine

  /** One selection as the native cutflow stores it. */
  datatype Step = Step(selection: string, title: string)

  /** CutInCutflow: a selection prepared for the added regions; the
      expression is the selection in parentheses, so that it survives
      being joined with `&&`. */
  datatype Cut = Cut(associatedVariable: string, variablesToExclude: seq<Value>,
                     title: string, expression: string)

  /** A read cutflow block. `cuts` is filled only when variables are
      tracked; `samples` is already narrowed to the command line. */
  datatype Cutflow = Cutflow(name: string, steps: seq<Step>, tracked: Option<seq<Value>>,
                             cuts: seq<Cut>, samples: Option<seq<string>>)

  /** A region a cutflow adds, before it is read as a region block. */
  datatype MiniRegion = MiniRegion(name: string, selection: string, variables: seq<Block>)

  const CutflowOptions: set<string> := {"name", "selections", "variables_to_track", "samples"}

  /** `b[key]` is present and a string. */
  predicate IsStrAt(b: Block, key: string) {
    Lookup(b, key).Some? && Lookup(b, key).value.Str?
  }

  // ---------------------------------------------------------------------
  // Reading the block

  /** One selection as the native cutflow receives it: both the
      expression and the title are required strings. */
  function ReadStep(b: Block): (r: Result<Step>)
    ensures r.Ok? <==> IsStrAt(b, "selection") && IsStrAt(b, "title")
    ensures r.Ok? ==> Lookup(b, "selection") == Some(Str(r.value.selection))
                      && Lookup(b, "title") == Some(Str(r.value.title))
  {
    var (selection, l) :- GetStr(Fresh(b), "selection");
    :- Need(selection.Some?, MissingOption("selection"));
    var (title, _) :- GetStr(l, "title");
    :- Need(title.Some?, MissingOption("title"));
    Ok(Step(selection.value, title.value))
  }

  /** One selection read as a cut of a cutflow that tracks variables. A
      missing title or selection stops the program (the source fails on
      concatenating None); no associated variable reads as "" and no
      exclusion list as the empty one. Unknown keys of a selection are not
      reported. */
  function ReadCut(b: Block): (r: Result<Cut>)
    ensures r.Ok? <==> IsStrAt(b, "title") && IsStrAt(b, "selection")
                       && (!HasKey(b, "associated_var") || IsStrAt(b, "associated_var"))
                       && (!HasKey(b, "variables_to_exclude") || Lookup(b, "variables_to_exclude").value.List?)
    ensures r.Ok? ==> Lookup(b, "title") == Some(Str(r.value.title))
                      && r.value.expression == "(" + Lookup(b, "selection").value.s + ")"
                      && r.value.associatedVariable == StrOr(b, "associated_var", "")
    ensures r.Ok? && !HasKey(b, "variables_to_exclude") ==> r.value.variablesToExclude == []
    ensures r.Ok? && HasKey(b, "variables_to_exclude") ==>
      Lookup(b, "variables_to_exclude") == Some(List(r.value.variablesToExclude))
  {
    var (title, l1) :- GetStr(Fresh(b), "title");
    var (selection, l2) :- GetStr(l1, "selection");
    :- Need(title.Some?, MissingOption("title"));
    :- Need(selection.Some?, MissingOption("selection"));
    var (associated, l3) :- GetStrOr(l2, "associated_var", "");
    var (exclude, _) :- GetList(l3, "variables_to_exclude");
    Ok(Cut(associated, exclude.GetOr([]), title.value, "(" + selection.value + ")"))
  }

  /** The same selection read both ways gives the same title, and the cut's
      expression is the step's selection in parentheses. */
  lemma CutMatchesStep(b: Block)
    requires ReadCut(b).Ok?
    ensures ReadStep(b).Ok?
    ensures ReadCut(b).value.title == ReadStep(b).value.title
    ensures ReadCut(b).value.expression == "(" + ReadStep(b).value.selection + ")"
  {
  }

  /** The name, the selections and the tracked variables. The name may
      have any type in the getter, but the native cutflow takes a string. */
  function ReadHeader(l: Ledger): (r: Result<(string, seq<Block>, Option<seq<Value>>, Ledger)>)
    ensures !HasKey(l.block, "name") || !HasKey(l.block, "selections") ==> r.Fail?
    ensures r.Ok? ==> ReadsWithin(l, r.value.3, {"name", "selections", "variables_to_track"})
    ensures r.Ok? ==> Lookup(l.block, "name") == Some(Str(r.value.0))
    ensures r.Ok? ==> Lookup(l.block, "selections").value.List?
                      && Blocks(Lookup(l.block, "selections").value.items) == Some(r.value.1)
    ensures r.Ok? ==> (r.value.2.Some? <==> HasKey(l.block, "variables_to_track"))
    ensures r.Ok? && r.value.2.Some? ==> Lookup(l.block, "variables_to_track") == Some(List(r.value.2.value))
  {
    var (name, l1) := GetAny(l, "name");
    :- Need(name.Some?, MissingOption("name"));
    :- Need(name.value.Str?, WrongType("name"));
    var (selections, l2) :- GetBlockList(l1, "selections");
    :- Need(selections.Some?, MissingOption("selections"));
    var (tracked, l3) :- GetList(l2, "variables_to_track");
    Ok((name.value.s, selections.value, tracked, l3))
  }

  /** The selection blocks of a cutflow block, when they are a list of
      dicts. */
  function SelectionsOf(b: Block): Option<seq<Block>> {
    match Lookup(b, "selections")
    case Some(List(items)) => Blocks(items)
    case _ => None
  }

  /** The cuts (only when variables are tracked) and the sample list,
      narrowed to the command line. */
  function ReadCutsAndSamples(l: Ledger, selections: seq<Block>, tracked: bool, cli: CommandLine.Options)
    : (r: Result<(seq<Cut>, Option<seq<string>>, Ledger)>)
    ensures r.Ok? ==> ReadsWithin(l, r.value.2, {"samples"})
    ensures r.Ok? && !tracked ==> r.value.0 == []
    ensures r.Ok? && tracked ==>
      |r.value.0| == |selections| && forall k :: 0 <= k < |selections| ==> ReadCut(selections[k]) == Ok(r.value.0[k])
    ensures r.Ok? ==> r.value.1 == CommandLine.KeepSelectedSamples(StringsAt(l.block, "samples"), cli)
  {
    var cuts :- if tracked then MapAll(selections, ReadCut) else Ok([]);
    var (samples, l') :- GetStrList(l, "samples");
    Ok((cuts, CommandLine.KeepSelectedSamples(samples, cli), l'))
  }

  /** BlockReaderCutflow's constructor and the selections handed to the
      native cutflow. */
  function ReadCutflow(b: Block, cli: CommandLine.Options): (r: Result<Cutflow>)
    ensures !HasKey(b, "name") || !HasKey(b, "selections") ==> r.Fail?
    ensures r.Ok? ==> forall k :: k in Keys(b) ==> k in CutflowOptions
    ensures r.Ok? ==> Lookup(b, "name") == Some(Str(r.value.name))
    ensures r.Ok? ==> (r.value.tracked.Some? <==> HasKey(b, "variables_to_track"))
    ensures r.Ok? ==>
      SelectionsOf(b).Some? && |r.value.steps| == |SelectionsOf(b).value| && forall k :: 0 <= k < |r.value.steps| ==> ReadStep(SelectionsOf(b).value[k]) == Ok(r.value.steps[k])
    ensures r.Ok? && r.value.tracked.Some? ==>
      |r.value.cuts| == |SelectionsOf(b).value| && forall k :: 0 <= k < |r.value.cuts| ==> ReadCut(SelectionsOf(b).value[k]) == Ok(r.value.cuts[k])
    ensures r.Ok? ==> r.value.samples == CommandLine.KeepSelectedSamples(StringsAt(b, "samples"), cli)
  {
    var (name, selections, tracked, l1) :- ReadHeader(Fresh(b));
    var (cuts, samples, l2) :- ReadCutsAndSamples(l1, selections, tracked.Some?, cli);
    var unused := Unused(l2);
    :- Need(|unused| == 0, UnusedOptions(unused));
    NothingUnused(l2);
    var steps :- MapAll(selections, ReadStep);
    Ok(Cutflow(name, steps, tracked, cuts, samples))
  }

  /** When variables are tracked, cut k and step k come from the same
      selection: same title, and the cut's expression is the step's
      selection in parentheses. */
  lemma CutsFollowSteps(b: Block, cli: CommandLine.Options)
    requires ReadCutflow(b, cli).Ok? && ReadCutflow(b, cli).value.tracked.Some?
    ensures var cf := ReadCutflow(b, cli).value;
      |cf.cuts| == |cf.steps|
      && forall k :: 0 <= k < |cf.cuts| ==>
           cf.cuts[k].title == cf.steps[k].title
           && cf.cuts[k].expression == "(" + cf.steps[k].selection + ")"
  {
    var cf := ReadCutflow(b, cli).value;
    var selections := SelectionsOf(b).value;
    forall k | 0 <= k < |cf.cuts|
      ensures cf.cuts[k].title == cf.steps[k].title
      ensures cf.cuts[k].expression == "(" + cf.steps[k].selection + ")"
    {
      CutMatchesStep(selections[k]);
    }
  }

  /** adjust_samples: the samples the cutflow is attached to, in order. No
      list means every sample; a listed sample that does not exist stops
      the program. */
  function AdjustSamples(cf: Cutflow, sampleNames: seq<string>): (r: Result<seq<string>>)
    ensures r.Ok? <==> cf.samples.None?
                       || forall k :: 0 <= k < |cf.samples.value| ==> cf.samples.value[k] in sampleNames
    ensures r.Ok? ==> forall x :: x in r.value <==> x in sampleNames && (cf.samples.None? || x in cf.samples.value)
    ensures r.Ok? && cf.samples.Some? ==> r.value == cf.samples.value
    ensures r.Fail? ==> r.error.UnknownReference? && r.error.name in cf.samples.value
                        && r.error.name !in sampleNames
  {
    match cf.samples
    case None => Ok(sampleNames)
    case Some(names) =>
      match Seqs.FirstMissing(names, sampleNames)
      case Some(missing) => Fail(UnknownReference(missing))
      case None => Ok(names)
  }

  // ---------------------------------------------------------------------
  // Finding the definitions of the tracked variables

  /** The text of a name that is a string, for messages. */
  function NameText(v: Value): string {
    if v.Str? then v.s else ""
  }

  /** The associated variables of the cuts that are not tracked already, in
      cut order; a name may repeat. */
  function AssociatedNames(tracked: seq<Value>, cuts: seq<Cut>): (r: seq<Value>)
    ensures forall v :: v in r <==>
      v !in tracked
      && exists k :: 0 <= k < |cuts| && cuts[k].associatedVariable != "" && v == Str(cuts[k].associatedVariable)
    decreases |cuts|
  {
    if |cuts| == 0 then []
    else
      var rest := AssociatedNames(tracked, cuts[1..]);
      assert forall k :: 1 <= k < |cuts| ==> cuts[k] == cuts[1..][k - 1];
      var name := Str(cuts[0].associatedVariable);
      if cuts[0].associatedVariable != "" && name !in tracked then [name] + rest else rest
  }

  /** The names to look up: the tracked ones first, then the associated
      variables not among them. */
  function NamesToFind(tracked: seq<Value>, cuts: seq<Cut>): (r: seq<Value>)
    ensures |r| >= |tracked| && r[..|tracked|] == tracked
    ensures forall v :: v in r <==>
      v in tracked
      || exists k :: 0 <= k < |cuts| && cuts[k].associatedVariable != "" && v == Str(cuts[k].associatedVariable)
  {
    tracked + AssociatedNames(tracked, cuts)
  }

  /** `a == b` for two Python dicts: the same keys with equal values, in
      any order. */
  predicate SameDict(a: Block, b: Block) {
    (forall k :: k in Keys(b) ==> k in Keys(a))
    && forall k :: k in Keys(a) ==> k in Keys(b) && Lookup(a, k) == Lookup(b, k)
  }

  /** `var in vars_found`. */
  predicate AlreadyFound(v: Block, found: seq<Block>) {
    exists j :: 0 <= j < |found| && SameDict(v, found[j])
  }

  /** No two of the definitions are equal dicts. */
  predicate AllDifferent(found: seq<Block>) {
    forall i, j :: 0 <= i < j < |found| ==> !SameDict(found[i], found[j])
  }

  /** The variable definition is called `name`. */
  predicate Named(v: Block, name: Value) {
    Lookup(v, "name") == Some(name)
  }

  /** No dict among `vars` is a definition of `name` that is new to `found`. */
  predicate NothingNew(vars: seq<Value>, name: Value, found: seq<Block>) {
    forall k :: 0 <= k < |vars| && vars[k].Dict? && Named(vars[k].entries, name) ==>
      AlreadyFound(vars[k].entries, found)
  }

  /** The variables of one region as the cutflow reads them, AS WRITTEN:
      `region["variables"]`, which stops the program for a region that
      defines no variables. */
  function RegionVariablesAsWritten(region: Value): (r: Result<seq<Value>>)
    ensures r.Ok? <==> region.Dict? && Lookup(region.entries, "variables").Some?
                       && Lookup(region.entries, "variables").value.List?
  {
    match region
    case Dict(entries) =>
      (match Lookup(entries, "variables")
       case None => Fail(MissingOption("variables"))
       case Some(List(items)) => Ok(items)
       case Some(_) => Fail(WrongType("variables")))
    case _ => Fail(WrongType("regions"))
  }

  /** The variables of one region, corrected: a region without variables,
      which the region reader accepts with an empty default, contributes
      none. */
  function RegionVariables(region: Value): (r: Result<seq<Value>>)
    ensures r.Ok? <==> region.Dict? && (Lookup(region.entries, "variables").None?
                                         || Lookup(region.entries, "variables").value.List?)
    ensures region.Dict? && Lookup(region.entries, "variables").None? ==> r == Ok([])
    ensures r.Ok? && RegionVariablesAsWritten(region).Ok? ==> r == RegionVariablesAsWritten(region)
  {
    match region
    case Dict(entries) => if Lookup(entries, "variables").None? then Ok([]) else RegionVariablesAsWritten(region)
    case _ => Fail(WrongType("regions"))
  }

  /** The inner search over one region's variables: the first variable
      called `name` that is not already among `found`, skipping anchored
      lists. A variable that is neither a list nor a dict with a name stops
      the program, but only if the search reaches it. */
  function ScanVariables(vars: seq<Value>, name: Value, found: seq<Block>): (r: Result<Option<Block>>)
    ensures r.Ok? && r.value.Some? ==> Dict(r.value.value) in vars && Named(r.value.value, name)
                                       && !AlreadyFound(r.value.value, found)
    ensures r.Ok? && r.value.None? ==> NothingNew(vars, name, found)
    ensures (forall k :: 0 <= k < |vars| ==>
               vars[k].List? || (vars[k].Dict? && HasKey(vars[k].entries, "name"))) ==> r.Ok?
    decreases |vars|
  {
    if |vars| == 0 then Ok(None)
    else
      assert forall k :: 1 <= k < |vars| ==> vars[k] == vars[1..][k - 1];
      match vars[0]
      case List(_) => ScanVariables(vars[1..], name, found)
      case Dict(entries) =>
        (match Lookup(entries, "name")
         case None => Fail(MissingOption("name"))
         case Some(n) =>
           if n == name && !AlreadyFound(entries, found) then Ok(Some(entries))
           else ScanVariables(vars[1..], name, found))
      case _ => Fail(WrongType("variables"))
  }

  /** `v` is a variable of one of the regions. */
  predicate Declared(regions: seq<Value>, v: Block, variablesOf: Value -> Result<seq<Value>>) {
    exists k :: 0 <= k < |regions| && variablesOf(regions[k]).Ok? && Dict(v) in variablesOf(regions[k]).value
  }

  /** The outer search (lines 169-178): every region contributes at most
      one definition of `name` not equal to one found before. */
  function Definitions(regions: seq<Value>, name: Value, found: seq<Block>,
                       variablesOf: Value -> Result<seq<Value>>): (r: Result<seq<Block>>)
    ensures r.Ok? ==> |found| <= |r.value| <= |found| + |regions| && r.value[..|found|] == found
    ensures r.Ok? ==> forall j :: |found| <= j < |r.value| ==>
      Named(r.value[j], name) && Declared(regions, r.value[j], variablesOf)
    ensures r.Ok? && AllDifferent(found) ==> AllDifferent(r.value)
    ensures r.Ok? ==> forall k :: 0 <= k < |regions| ==> variablesOf(regions[k]).Ok?
    decreases |regions|
  {
    if |regions| == 0 then Ok(found)
    else
      var vars :- variablesOf(regions[0]);
      var hit :- ScanVariables(vars, name, found);
      var found' := if hit.Some? then found + [hit.value] else found;
      var r := Definitions(regions[1..], name, found', variablesOf);
      if r.Ok? then
        DefinitionsStep(regions, name, found, found', variablesOf, r.value);
        r
      else r
  }

  /** The outer search's step: what one region adds and what the rest
      adds after it together meet the search's contract. */
  lemma DefinitionsStep(regions: seq<Value>, name: Value, found: seq<Block>, found': seq<Block>,
                        variablesOf: Value -> Result<seq<Value>>, rest: seq<Block>)
    requires |regions| > 0 && variablesOf(regions[0]).Ok?
    requires found' == found || (|found'| == |found| + 1 && found'[..|found|] == found &&
                                 Dict(found'[|found|]) in variablesOf(regions[0]).value &&
                                 Named(found'[|found|], name) && !AlreadyFound(found'[|found|], found))
    requires |found'| <= |rest| <= |found'| + |regions| - 1 && rest[..|found'|] == found'
    requires forall j :: |found'| <= j < |rest| ==> Named(rest[j], name) && Declared(regions[1..], rest[j], variablesOf)
    requires AllDifferent(found') ==> AllDifferent(rest)
    requires forall k :: 0 <= k < |regions| - 1 ==> variablesOf(regions[1..][k]).Ok?
    ensures |found| <= |rest| <= |found| + |regions| && rest[..|found|] == found
    ensures forall j :: |found| <= j < |rest| ==> Named(rest[j], name) && Declared(regions, rest[j], variablesOf)
    ensures AllDifferent(found) ==> AllDifferent(rest)
    ensures forall k :: 0 <= k < |regions| ==> variablesOf(regions[k]).Ok?
  {
    assert forall k :: 1 <= k < |regions| ==> regions[k] == regions[1..][k - 1];
    assert rest[..|found|] == found'[..|found|];
    forall j | |found| <= j < |rest|
      ensures Named(rest[j], name) && Declared(regions, rest[j], variablesOf)
    {
      if j < |found'| {
        assert rest[j] == found'[j] == found'[|found|];
        assert Declared(regions, rest[j], variablesOf) by {
          assert 0 < |regions| && variablesOf(regions[0]).Ok? && Dict(rest[j]) in variablesOf(regions[0]).value;
        }
      } else {
        var k :| 0 <= k < |regions[1..]| && variablesOf(regions[1..][k]).Ok? && Dict(rest[j]) in variablesOf(regions[1..][k]).value;
        assert regions[1..][k] == regions[k + 1];
      }
    }
    if AllDifferent(found) && found' != found {
      forall i, j | 0 <= i < j < |found'| ensures !SameDict(found'[i], found'[j]) {
        if j == |found| {
          assert found'[i] == found[i];
        } else {
          assert found'[i] == found[i] && found'[j] == found[j];
        }
      }
    }
  }

  /** The search adds nothing exactly when no region has a definition of
      `name` new to `found`. */
  lemma {:induction false} NothingFoundMeansNothingNew(regions: seq<Value>, name: Value, found: seq<Block>,
                                                       variablesOf: Value -> Result<seq<Value>>)
    requires Definitions(regions, name, found, variablesOf).Ok?
    ensures |Definitions(regions, name, found, variablesOf).value| == |found| <==>
      forall k :: 0 <= k < |regions| ==> NothingNew(variablesOf(regions[k]).value, name, found)
    decreases |regions|
  {
    if |regions| > 0 {
      var vars := variablesOf(regions[0]).value;
      var hit := ScanVariables(vars, name, found).value;
      assert forall k :: 1 <= k < |regions| ==> regions[k] == regions[1..][k - 1];
      if hit.Some? {
        var found' := found + [hit.value];
        assert Definitions(regions, name, found, variablesOf) == Definitions(regions[1..], name, found', variablesOf);
        var k :| 0 <= k < |vars| && vars[k] == Dict(hit.value);
        assert !NothingNew(vars, name, found);
      } else {
        NothingFoundMeansNothingNew(regions[1..], name, found, variablesOf);
      }
    }
  }

  /** The one definition of `name` the regions agree on. None stops the
      program, and so do two different ones. */
  function Resolve(regions: seq<Value>, name: Value): (r: Result<Block>)
    ensures r.Ok? ==> Named(r.value, name) && Declared(regions, r.value, RegionVariables)
    ensures r.Ok? <==> Definitions(regions, name, [], RegionVariables).Ok?
                       && |Definitions(regions, name, [], RegionVariables).value| == 1
  {
    var defs :- Definitions(regions, name, [], RegionVariables);
    if |defs| == 0 then Fail(UnknownReference(NameText(name)))
    else if |defs| == 1 then Ok(defs[0])
    else Fail(DuplicateName(NameText(name)))
  }

  /** A name that no region defines stops the program. */
  lemma UndefinedNameFails(regions: seq<Value>, name: Value)
    requires forall k :: 0 <= k < |regions| ==> RegionVariables(regions[k]).Ok?
    requires forall k, j :: 0 <= k < |regions| && 0 <= j < |RegionVariables(regions[k]).value| ==>
      !(RegionVariables(regions[k]).value[j].Dict? && Named(RegionVariables(regions[k]).value[j].entries, name))
    ensures Resolve(regions, name).Fail?
  {
    var defs := Definitions(regions, name, [], RegionVariables);
    if defs.Ok? {
      NothingFoundMeansNothingNew(regions, name, [], RegionVariables);
    }
  }

  /** Two regions defining `name` differently stop the program. */
  lemma ConflictingDefinitionsFail(regions: seq<Value>, name: Value)
    requires Definitions(regions, name, [], RegionVariables).Ok?
    requires |Definitions(regions, name, [], RegionVariables).value| >= 2
    ensures Resolve(regions, name).Fail?
    ensures var defs := Definitions(regions, name, [], RegionVariables).value;
      Named(defs[0], name) && Named(defs[1], name) && !SameDict(defs[0], defs[1])
  {
  }

  /** The definitions of all names to find, one per name in order. */
  function RelevantVariables(regions: seq<Value>, names: seq<Value>): (r: Result<seq<Block>>)
    ensures r.Ok? <==> forall k :: 0 <= k < |names| ==> Resolve(regions, names[k]).Ok?
    ensures r.Ok? ==> |r.value| == |names| && forall k :: 0 <= k < |names| ==>
      Named(r.value[k], names[k]) && Declared(regions, r.value[k], RegionVariables)
  {
    MapAll(names, name => Resolve(regions, name))
  }

  // ---------------------------------------------------------------------
  // The added regions

  /** The parenthesised conjunction the added regions select on. */
  function Conjunction(exprs: seq<string>): string {
    "( " + StringOps.Intercalate(" && ", exprs) + " )"
  }

  /** The expressions of the cuts, in order. */
  function Expressions(cuts: seq<Cut>): (r: seq<string>)
    ensures |r| == |cuts| && forall k :: 0 <= k < |cuts| ==> r[k] == cuts[k].expression
  {
    seq(|cuts|, k requires 0 <= k < |cuts| => cuts[k].expression)
  }

  /** "_" and the title of every cut, in order. */
  function TitlePath(cuts: seq<Cut>): string
    decreases |cuts|
  {
    if |cuts| == 0 then "" else TitlePath(cuts[..|cuts| - 1]) + "_" + cuts[|cuts| - 1].title
  }

  /** The relevant definitions of every tracked name the cut does not
      exclude, grouped by tracked name. */
  function TrackedVariables(tracked: seq<Value>, exclude: seq<Value>, relevant: seq<Block>): (r: seq<Block>)
    ensures forall v :: v in r <==> v in relevant && Lookup(v, "name").Some?
                                    && Lookup(v, "name").value in tracked
                                    && Lookup(v, "name").value !in exclude
    decreases |tracked|
  {
    if |tracked| == 0 then []
    else
      var here := if tracked[0] in exclude then [] else Seqs.Filter(relevant, v => Named(v, tracked[0]));
      here + TrackedVariables(tracked[1..], exclude, relevant)
  }

  /** Sequential region k: cuts 0..k applied together, named after their
      titles, with the tracked variables cut k does not exclude. */
  function SequentialRegion(base: string, cuts: seq<Cut>, k: nat, tracked: seq<Value>, relevant: seq<Block>)
    : MiniRegion
    requires k < |cuts|
  {
    MiniRegion(base + TitlePath(cuts[..k + 1]), Conjunction(Expressions(cuts)[..k + 1]),
               TrackedVariables(tracked, cuts[k].variablesToExclude, relevant))
  }

  /** The regions hold only relevant definitions. */
  predicate DrawnFrom(ms: seq<MiniRegion>, relevant: seq<Block>) {
    forall k, j :: 0 <= k < |ms| && 0 <= j < |ms[k].variables| ==> ms[k].variables[j] in relevant
  }

  /** One step of the accumulated selection: adding an expression and
      closing gives the conjunction so far; adding it and " && " gives the
      next accumulator. */
  lemma SelectionStep(exprs: seq<string>, i: nat)
    requires i < |exprs|
    ensures "( " + StringOps.WithSeparators(" && ", exprs[..i]) + exprs[i] + " )" == Conjunction(exprs[..i + 1])
    ensures "( " + StringOps.WithSeparators(" && ", exprs[..i]) + exprs[i] + " && "
            == "( " + StringOps.WithSeparators(" && ", exprs[..i + 1])
  {
    assert exprs[..i + 1] == exprs[..i] + [exprs[i]];
    SelectionClosed(exprs[..i], exprs[i]);
    SelectionExtended(exprs[..i], exprs[i]);
  }

  /** The accumulator plus one more expression, closed, is the conjunction. */
  lemma SelectionClosed(done: seq<string>, e: string)
    ensures "( " + StringOps.WithSeparators(" && ", done) + e + " )" == Conjunction(done + [e])
  {
    StringOps.WithSeparatorsThenLast(" && ", done, e);
    var w := StringOps.WithSeparators(" && ", done);
    assert "( " + w + e + " )" == "( " + (w + e) + " )";
  }

  /** The accumulator plus one more expression and " && " is the next
      accumulator. */
  lemma SelectionExtended(done: seq<string>, e: string)
    ensures "( " + StringOps.WithSeparators(" && ", done) + e + " && "
            == "( " + StringOps.WithSeparators(" && ", done + [e])
  {
    StringOps.WithSeparatorsSnoc(" && ", done, e);
    var w := StringOps.WithSeparators(" && ", done);
    assert "( " + w + e + " && " == "( " + (w + e + " && ");
  }

  /** build_MiniAnalysis_sequential_regions: region k applies cuts 0..k in
      sequence, is named after their titles, and holds the tracked
      variables cut k does not exclude. */
  method SequentialRegions(base: string, cuts: seq<Cut>, tracked: seq<Value>, relevant: seq<Block>)
    returns (regions: seq<MiniRegion>)
    ensures |regions| == |cuts|
    ensures forall k :: 0 <= k < |cuts| ==> regions[k] == SequentialRegion(base, cuts, k, tracked, relevant)
    ensures DrawnFrom(regions, relevant)
  {
    var exprs := Expressions(cuts);
    regions := [];
    var name := base;
    var selection := "( ";
    for i := 0 to |cuts|
      invariant |regions| == i
      invariant name == base + TitlePath(cuts[..i])
      invariant selection == "( " + StringOps.WithSeparators(" && ", exprs[..i])
      invariant forall k :: 0 <= k < i ==> regions[k] == SequentialRegion(base, cuts, k, tracked, relevant)
      invariant DrawnFrom(regions, relevant)
    {
      assert cuts[..i + 1][..i] == cuts[..i];
      name := name + "_" + cuts[i].title;
      SelectionStep(exprs, i);
      selection := selection + cuts[i].expression;
      var variables := TrackedVariables(tracked, cuts[i].variablesToExclude, relevant);
      var region := MiniRegion(name, selection + " )", variables);
      assert region == SequentialRegion(base, cuts, i, tracked, relevant);
      regions := regions + [region];
      selection := selection + " && ";
    }
  }

  /** The first relevant definition called `name`. */
  function FirstNamed(relevant: seq<Block>, name: Value): (r: Option<Block>)
    ensures r.None? <==> forall j :: 0 <= j < |relevant| ==> !Named(relevant[j], name)
    ensures r.Some? ==> exists j :: 0 <= j < |relevant| && relevant[j] == r.value && Named(r.value, name)
                                    && forall i :: 0 <= i < j ==> !Named(relevant[i], name)
    decreases |relevant|
  {
    if |relevant| == 0 then None
    else if Named(relevant[0], name) then Some(relevant[0])
    else
      var rest := FirstNamed(relevant[1..], name);
      assert forall j :: 1 <= j < |relevant| ==> relevant[j] == relevant[1..][j - 1];
      if rest.Some? then
        var j :| 0 <= j < |relevant[1..]| && relevant[1..][j] == rest.value && Named(rest.value, name)
                 && forall i :: 0 <= i < j ==> !Named(relevant[1..][i], name);
        assert relevant[j + 1] == rest.value;
        rest
      else rest
  }

  /** Every expression except `e` (an identical cut elsewhere goes too). */
  function AllBut(exprs: seq<string>, e: string): (r: seq<string>)
    ensures forall x :: x in r <==> x in exprs && x != e
    ensures Seqs.IsSubsequence(r, exprs)
  {
    Seqs.Filter(exprs, x => x != e)
  }

  /** The cut-agnostic region of one cut: every other cut applied, and the
      first relevant definition of the cut's associated variable. */
  function AgnosticRegion(base: string, exprs: seq<string>, cut: Cut, relevant: seq<Block>): (r: Result<MiniRegion>)
    ensures r.Ok? <==> exists j :: 0 <= j < |relevant| && Named(relevant[j], Str(cut.associatedVariable))
    ensures r.Ok? ==> r.value.name == base + "_Agnostic_" + cut.title
                      && r.value.selection == Conjunction(AllBut(exprs, cut.expression))
                      && r.value.variables == [FirstNamed(relevant, Str(cut.associatedVariable)).value]
  {
    match FirstNamed(relevant, Str(cut.associatedVariable))
    case None => Fail(UnknownReference(cut.associatedVariable))
    case Some(v) => Ok(MiniRegion(base + "_Agnostic_" + cut.title, Conjunction(AllBut(exprs, cut.expression)), [v]))
  }

  /** The cuts that have an associated variable. */
  function WithAssociated(cuts: seq<Cut>): (r: seq<Cut>)
    ensures forall c :: c in r <==> c in cuts && c.associatedVariable != ""
  {
    Seqs.Filter(cuts, (c: Cut) => c.associatedVariable != "")
  }

  /** build_MiniAnalysis_cut_agnostic_regions: one region per cut with an
      associated variable, in cut order. */
  function AgnosticRegions(base: string, cuts: seq<Cut>, relevant: seq<Block>): (r: Result<seq<MiniRegion>>)
    ensures r.Ok? <==> forall c :: c in WithAssociated(cuts) ==>
      exists j :: 0 <= j < |relevant| && Named(relevant[j], Str(c.associatedVariable))
    ensures r.Ok? ==> |r.value| == |WithAssociated(cuts)|
    ensures r.Ok? ==> forall k :: 0 <= k < |r.value| ==>
      r.value[k] == AgnosticRegion(base, Expressions(cuts), WithAssociated(cuts)[k], relevant).value
    ensures r.Ok? ==> forall k :: 0 <= k < |r.value| ==>
      r.value[k].name == base + "_Agnostic_" + WithAssociated(cuts)[k].title
  {
    var exprs := Expressions(cuts);
    MapAll(WithAssociated(cuts), c => AgnosticRegion(base, exprs, c, relevant))
  }

  /** The agnostic region of a cut keeps exactly the cuts with a different
      expression. */
  lemma AgnosticKeepsOtherCuts(base: string, cuts: seq<Cut>, relevant: seq<Block>, k: nat)
    requires AgnosticRegions(base, cuts, relevant).Ok? && k < |AgnosticRegions(base, cuts, relevant).value|
    ensures exists kept: seq<string> ::
      AgnosticRegions(base, cuts, relevant).value[k].selection == Conjunction(kept)
      && forall x :: x in kept <==>
           (exists j :: 0 <= j < |cuts| && cuts[j].expression == x) && x != WithAssociated(cuts)[k].expression
  {
    var kept := AllBut(Expressions(cuts), WithAssociated(cuts)[k].expression);
    assert AgnosticRegions(base, cuts, relevant).value[k].selection == Conjunction(kept);
  }

  /** The agnostic regions hold only relevant definitions. */
  lemma AgnosticDrawnFrom(base: string, cuts: seq<Cut>, relevant: seq<Block>)
    requires AgnosticRegions(base, cuts, relevant).Ok?
    ensures DrawnFrom(AgnosticRegions(base, cuts, relevant).value, relevant)
  {
    var ms := AgnosticRegions(base, cuts, relevant).value;
    forall k | 0 <= k < |ms|
      ensures forall j :: 0 <= j < |ms[k].variables| ==> ms[k].variables[j] in relevant
    {
      var c := WithAssociated(cuts)[k];
      var first := FirstNamed(relevant, Str(c.associatedVariable));
      assert ms[k].variables == [first.value];
      var j :| 0 <= j < |relevant| && relevant[j] == first.value && Named(first.value, Str(c.associatedVariable))
               && forall i :: 0 <= i < j ==> !Named(relevant[i], Str(c.associatedVariable));
    }
  }

  /** Regions drawn from declared definitions hold declared definitions. */
  lemma DeclaredThroughRelevant(ms: seq<MiniRegion>, relevant: seq<Block>, regions: seq<Value>)
    requires DrawnFrom(ms, relevant)
    requires forall i :: 0 <= i < |relevant| ==> Declared(regions, relevant[i], RegionVariables)
    ensures forall k, j :: 0 <= k < |ms| && 0 <= j < |ms[k].variables| ==>
      Declared(regions, ms[k].variables[j], RegionVariables)
  {
    forall k, j | 0 <= k < |ms| && 0 <= j < |ms[k].variables|
      ensures Declared(regions, ms[k].variables[j], RegionVariables)
    {
      var i :| 0 <= i < |relevant| && relevant[i] == ms[k].variables[j];
    }
  }

  /** The sequential regions followed by the agnostic ones, over the
      definitions found: named and selecting after the cuts, and holding
      only definitions the regions declare. */
  method AssembleRegions(base: string, cuts: seq<Cut>, tracked: seq<Value>, relevant: seq<Block>,
                         regions: seq<Value>) returns (r: Result<seq<MiniRegion>>)
    requires forall i :: 0 <= i < |relevant| ==> Declared(regions, relevant[i], RegionVariables)
    ensures r.Ok? ==> |r.value| == |cuts| + |WithAssociated(cuts)|
    ensures r.Ok? ==> forall k :: 0 <= k < |cuts| ==>
      r.value[k].name == base + TitlePath(cuts[..k + 1])
      && r.value[k].selection == Conjunction(Expressions(cuts)[..k + 1])
    ensures r.Ok? ==> forall k :: |cuts| <= k < |r.value| ==>
      r.value[k].name == base + "_Agnostic_" + WithAssociated(cuts)[k - |cuts|].title
    ensures r.Ok? ==> forall k, j :: 0 <= k < |r.value| && 0 <= j < |r.value[k].variables| ==>
      Declared(regions, r.value[k].variables[j], RegionVariables)
  {
    var sequential := SequentialRegions(base, cuts, tracked, relevant);
    var agnostic := AgnosticRegions(base, cuts, relevant);
    if agnostic.Fail? {
      return Fail(agnostic.error);
    }
    SequentialNamed(base, cuts, tracked, relevant, sequential);
    AgnosticDrawnFrom(base, cuts, relevant);
    AppendedRegions(base, cuts, WithAssociated(cuts), relevant, regions, sequential, agnostic.value);
    r := Ok(sequential + agnostic.value);
  }

  /** build_MiniAnalysis_regions: look up the definitions of the tracked
      and associated variables among the existing regions, then the
      sequential regions followed by the agnostic ones. A cutflow without
      tracked variables, or a configuration without regions, stops the
      program. */
  method BuildRegions(cf: Cutflow, regions: Option<seq<Value>>) returns (r: Result<seq<MiniRegion>>)
    ensures regions.None? || cf.tracked.None? ==> r.Fail?
    ensures r.Ok? ==> |r.value| == |cf.cuts| + |WithAssociated(cf.cuts)|
    ensures r.Ok? ==> forall k :: 0 <= k < |cf.cuts| ==>
      r.value[k].name == cf.name + TitlePath(cf.cuts[..k + 1])
      && r.value[k].selection == Conjunction(Expressions(cf.cuts)[..k + 1])
    ensures r.Ok? ==> forall k :: |cf.cuts| <= k < |r.value| ==>
      r.value[k].name == cf.name + "_Agnostic_" + WithAssociated(cf.cuts)[k - |cf.cuts|].title
    ensures r.Ok? ==> forall k, j :: 0 <= k < |r.value| && 0 <= j < |r.value[k].variables| ==>
      Declared(regions.value, r.value[k].variables[j], RegionVariables)
  {
    if regions.None? {
      return Fail(MissingOption("regions"));
    }
    if cf.tracked.None? {
      return Fail(MissingOption("variables_to_track"));
    }
    var names := NamesToFind(cf.tracked.value, cf.cuts);
    var found := RelevantVariables(regions.value, names);
    if found.Fail? {
      return Fail(found.error);
    }
    r := AssembleRegions(cf.name, cf.cuts, cf.tracked.value, found.value, regions.value);
  }

  /** The sequential regions are named after the titles of the cuts so far
      and select on their expressions together. */
  lemma SequentialNamed(base: string, cuts: seq<Cut>, tracked: seq<Value>, relevant: seq<Block>,
                        sequential: seq<MiniRegion>)
    requires |sequential| == |cuts|
    requires forall k :: 0 <= k < |cuts| ==> sequential[k] == SequentialRegion(base, cuts, k, tracked, relevant)
    ensures forall k :: 0 <= k < |cuts| ==>
      sequential[k].name == base + TitlePath(cuts[..k + 1])
      && sequential[k].selection == Conjunction(Expressions(cuts)[..k + 1])
  {
  }

  /** Sequential regions followed by agnostic ones keep the names and
      selections of both, and hold declared definitions when both do. */
  lemma AppendedRegions(base: string, cuts: seq<Cut>, associated: seq<Cut>, relevant: seq<Block>,
                        regions: seq<Value>, sequential: seq<MiniRegion>, agnostic: seq<MiniRegion>)
    requires |sequential| == |cuts| && |agnostic| == |associated|
    requires forall k :: 0 <= k < |cuts| ==>
      sequential[k].name == base + TitlePath(cuts[..k + 1])
      && sequential[k].selection == Conjunction(Expressions(cuts)[..k + 1])
    requires forall k :: 0 <= k < |agnostic| ==> agnostic[k].name == base + "_Agnostic_" + associated[k].title
    requires DrawnFrom(sequential, relevant) && DrawnFrom(agnostic, relevant)
    requires forall i :: 0 <= i < |relevant| ==> Declared(regions, relevant[i], RegionVariables)
    ensures |sequential + agnostic| == |cuts| + |associated|
    ensures forall k :: 0 <= k < |cuts| ==>
      (sequential + agnostic)[k].name == base + TitlePath(cuts[..k + 1])
      && (sequential + agnostic)[k].selection == Conjunction(Expressions(cuts)[..k + 1])
    ensures forall k :: |cuts| <= k < |sequential + agnostic| ==>
      (sequential + agnostic)[k].name == base + "_Agnostic_" + associated[k - |cuts|].title
    ensures forall k, j :: 0 <= k < |sequential + agnostic| && 0 <= j < |(sequential + agnostic)[k].variables| ==>
      Declared(regions, (sequential + agnostic)[k].variables[j], RegionVariables)
  {
    var all := sequential + agnostic;
    forall k | 0 <= k < |cuts| ensures all[k] == sequential[k] { }
    forall k | |cuts| <= k < |all| ensures all[k] == agnostic[k - |cuts|] { }
    DrawnFromAppend(sequential, agnostic, relevant);
    DeclaredThroughRelevant(all, relevant, regions);
  }

  /** Regions drawn from the same definitions, put together. */
  lemma DrawnFromAppend(a: seq<MiniRegion>, b: seq<MiniRegion>, relevant: seq<Block>)
    requires DrawnFrom(a, relevant) && DrawnFrom(b, relevant)
    ensures DrawnFrom(a + b, relevant)
  {
    forall k | 0 <= k < |a + b|
      ensures forall j :: 0 <= j < |(a + b)[k].variables| ==> (a + b)[k].variables[j] in relevant
    {
      if k >= |a| {
        assert (a + b)[k] == b[k - |a|];
      }
    }
  }

  /** Every associated variable is also looked up, so an agnostic region
      always finds its variable once the lookup succeeded. */
  lemma AssociatedVariablesAreRelevant(regions: seq<Value>, tracked: seq<Value>, cuts: seq<Cut>)
    requires RelevantVariables(regions, NamesToFind(tracked, cuts)).Ok?
    ensures AgnosticRegions("", cuts, RelevantVariables(regions, NamesToFind(tracked, cuts)).value).Ok?
  {
    var names := NamesToFind(tracked, cuts);
    var relevant := RelevantVariables(regions, names).value;
    forall c | c in WithAssociated(cuts)
      ensures exists j :: 0 <= j < |relevant| && Named(relevant[j], Str(c.associatedVariable))
    {
      var k :| 0 <= k < |cuts| && cuts[k] == c;
      assert Str(c.associatedVariable) in names;
      var j :| 0 <= j < |names| && names[j] == Str(c.associatedVariable);
      assert Named(relevant[j], names[j]);
    }
  }

  /** The added region as a region block: name, selection and variables. */
  function AsBlock(m: MiniRegion): (b: Block)
    ensures Lookup(b, "name") == Some(Str(m.name)) && Lookup(b, "selection") == Some(Str(m.selection))
    ensures Keys(b) == ["name", "selection", "variables"]
  {
    [Entry("name", Str(m.name)), Entry("selection", Str(m.selection)),
     Entry("variables", List(seq(|m.variables|, k requires 0 <= k < |m.variables| => Dict(m.variables[k]))))]
  }

  // ---------------------------------------------------------------------
  // A region without variables

  /** The as-written lookup stops on a region without variables even
      though the variable the cutflow tracks is defined once, in another
      region; the corrected lookup finds that definition. */
  lemma RegionWithoutVariablesStopsTracking()
    ensures var plain := Dict([Entry("name", Str("A")), Entry("selection", Str("x > 0"))]);
      var pt: Block := [Entry("name", Str("pt"))];
      var defining := Dict([Entry("name", Str("B")), Entry("variables", List([Dict(pt)]))]);
      Definitions([plain, defining], Str("pt"), [], RegionVariablesAsWritten).Fail?
      && Definitions([plain, defining], Str("pt"), [], RegionVariables) == Ok([pt])
  {
    var plain := Dict([Entry("name", Str("A")), Entry("selection", Str("x > 0"))]);
    var pt: Block := [Entry("name", Str("pt"))];
    var defining := Dict([Entry("name", Str("B")), Entry("variables", List([Dict(pt)]))]);
    var regions := [plain, defining];
    assert Lookup(plain.entries, "variables") == None;
    assert regions[1..] == [defining];
    assert RegionVariablesAsWritten(plain).Fail?;
    assert RegionVariables(plain) == Ok([]);
    assert ScanVariables([], Str("pt"), []) == Ok(None);
    assert Definitions(regions, Str("pt"), [], RegionVariables) == Definitions([defining], Str("pt"), [], RegionVariables);
    assert Lookup(defining.entries, "variables") == Some(List([Dict(pt)]));
    assert RegionVariables(defining) == Ok([Dict(pt)]);
    assert Lookup(pt, "name") == Some(Str("pt"));
    assert !AlreadyFound(pt, []);
    assert ScanVariables([Dict(pt)], Str("pt"), []) == Ok(Some(pt));
    assert [defining][1..] == [];
    assert Definitions([defining], Str("pt"), [], RegionVariables) == Definitions([], Str("pt"), [] + [pt], RegionVariables);
  }
}

=== FILE: define_helpers.dfy ===
/** The index-sorting selection helpers (DefineHelpers): the indices of the
    objects that pass (or fail) per-object selection flags, ordered by
    decreasing transverse momentum, and the count of selected objects above
    a threshold. Transverse momenta are exact numbers here; a four-vector
    enters only through its pt. */
module SelectionHelpers {
  import opened Wrappers

  /** The indices whose mask entry is set, ascending. */
  function Kept(mask: seq<bool>): (r: seq<nat>)
    ensures forall i: nat :: i in r <==> i < |mask| && mask[i]
    ensures forall a, b :: 0 <= a < b < |r| ==> r[a] < r[b]
    decreases |mask|
  {
    if |mask| == 0 then []
    else
      var init := mask[..|mask| - 1];
      var front := Kept(init);
      assert forall k :: 0 <= k < |front| ==> front[k] < |init| by {
        forall k | 0 <= k < |front| ensures front[k] < |init| {
          assert front[k] in front;
        }
      }
      assert forall i: nat :: i < |init| ==> init[i] == mask[i];
      if mask[|mask| - 1] then front + [|mask| - 1] else front
  }

  /** Ordered by decreasing pt. */
  predicate ByDecreasingPt(pt: seq<real>, r: seq<nat>)
    requires forall k :: 0 <= k < |r| ==> r[k] < |pt|
  {
    forall a, b :: 0 <= a < b < |r| ==> pt[r[a]] >= pt[r[b]]
  }

  predicate NoRepeats(r: seq<nat>) {
    forall a, b :: 0 <= a < b < |r| ==> r[a] != r[b]
  }

  /** Index `i` placed after every index of at least its pt: the result
      stays ordered. */
  method InsertByPt(pt: seq<real>, r: seq<nat>, i: nat) returns (r2: seq<nat>)
    requires i < |pt| && forall k :: 0 <= k < |r| ==> r[k] < |pt|
    requires ByDecreasingPt(pt, r)
    ensures forall k :: 0 <= k < |r2| ==> r2[k] < |pt|
    ensures ByDecreasingPt(pt, r2)
    ensures forall x :: x in r2 <==> x in r || x == i
    ensures |r2| == |r| + 1
    ensures NoRepeats(r) && i !in r ==> NoRepeats(r2)
  {
    var p := 0;
    while p < |r| && pt[r[p]] >= pt[i]
      invariant 0 <= p <= |r|
      invariant forall k :: 0 <= k < p ==> pt[r[k]] >= pt[i]
    {
      p := p + 1;
    }
    r2 := r[..p] + [i] + r[p..];
    SpliceOrdered(pt, r, i, p);
    SpliceMembers(r, i, p);
  }

  /** Splicing `i` in at `p`: before it only pt at least its own, after it
      only pt below it, so the order holds. */
  lemma SpliceOrdered(pt: seq<real>, r: seq<nat>, i: nat, p: nat)
    requires p <= |r| && i < |pt| && forall k :: 0 <= k < |r| ==> r[k] < |pt|
    requires ByDecreasingPt(pt, r)
    requires forall k :: 0 <= k < p ==> pt[r[k]] >= pt[i]
    requires p < |r| ==> pt[r[p]] < pt[i]
    ensures forall k :: 0 <= k < |r[..p] + [i] + r[p..]| ==> (r[..p] + [i] + r[p..])[k] < |pt|
    ensures ByDecreasingPt(pt, r[..p] + [i] + r[p..])
  {
    var s := r[..p] + [i] + r[p..];
    assert forall k :: 0 <= k < p ==> s[k] == r[k];
    assert s[p] == i;
    assert forall k :: p < k < |s| ==> s[k] == r[k - 1];
    forall a, b | 0 <= a < b < |s| ensures pt[s[a]] >= pt[s[b]] {
      if b < p {
      } else if b == p {
      } else if a < p {
        assert pt[r[a]] >= pt[r[b - 1]];
      } else if a == p {
        assert pt[r[p]] >= pt[r[b - 1]] || p == b - 1;
      } else {
        assert pt[r[a - 1]] >= pt[r[b - 1]];
      }
    }
  }

  /** Splicing `i` in adds exactly `i`, and no repetition when it was not
      there. */
  lemma SpliceMembers(r: seq<nat>, i: nat, p: nat)
    requires p <= |r|
    ensures forall x :: x in r[..p] + [i] + r[p..] <==> x in r || x == i
    ensures NoRepeats(r) && i !in r ==> NoRepeats(r[..p] + [i] + r[p..])
  {
    var s := r[..p] + [i] + r[p..];
    assert r == r[..p] + r[p..];
    if NoRepeats(r) && i !in r {
      forall a, b | 0 <= a < b < |s| ensures s[a] != s[b] {
        var a' := if a < p then a else a - 1;
        var b' := if b <= p then b else b - 1;
        if a != p && b != p {
          assert s[a] == r[a'] && s[b] == r[b'];
        } else if a == p {
          assert s[b] == r[b - 1];
        } else {
          assert s[a] == r[a];
        }
      }
    }
  }

  /** The indices the mask keeps, each once, ordered by decreasing pt (among
      equal pt, in index order; std::sort leaves that order open). */
  method SortKept(pt: seq<real>, mask: seq<bool>) returns (r: seq<nat>)
    requires |pt| == |mask|
    ensures forall k :: 0 <= k < |r| ==> r[k] < |pt|
    ensures forall i: nat :: i in r <==> i < |mask| && mask[i]
    ensures NoRepeats(r)
    ensures ByDecreasingPt(pt, r)
    ensures |r| == |Kept(mask)|
  {
    r := [];
    for i := 0 to |mask|
      invariant forall k :: 0 <= k < |r| ==> r[k] < |pt|
      invariant forall x: nat :: x in r <==> x < i && mask[x]
      invariant NoRepeats(r)
      invariant ByDecreasingPt(pt, r)
      invariant |r| == |Kept(mask[..i])|
    {
      assert mask[..i + 1][..i] == mask[..i];
      if mask[i] {
        r := InsertByPt(pt, r, i);
      }
    }
    assert mask[..|mask|] == mask;
  }

  /** Entry i set when the object passes both selections. */
  function PassBoth(sel1: seq<bool>, sel2: seq<bool>): (m: seq<bool>)
    requires |sel1| == |sel2|
    ensures |m| == |sel1| && forall i :: 0 <= i < |m| ==> (m[i] <==> sel1[i] && sel2[i])
  {
    seq(|sel1|, i requires 0 <= i < |sel1| => sel1[i] && sel2[i])
  }

  /** Entry i set when the object fails the selection. */
  function Fails(sel: seq<bool>): (m: seq<bool>)
    ensures |m| == |sel| && forall i :: 0 <= i < |m| ==> (m[i] <==> !sel[i])
  {
    seq(|sel|, i requires 0 <= i < |sel| => !sel[i])
  }

  /** Entry i set when the object fails both selections. */
  function FailsBoth(sel1: seq<bool>, sel2: seq<bool>): (m: seq<bool>)
    requires |sel1| == |sel2|
    ensures |m| == |sel1| && forall i :: 0 <= i < |m| ==> (m[i] <==> !sel1[i] && !sel2[i])
  {
    seq(|sel1|, i requires 0 <= i < |sel1| => !sel1[i] && !sel2[i])
  }

  /** Entry i set when the object passes the first selection and fails the
      second. */
  function PassOneFailOne(sel1: seq<bool>, sel2: seq<bool>): (m: seq<bool>)
    requires |sel1| == |sel2|
    ensures |m| == |sel1| && forall i :: 0 <= i < |m| ==> (m[i] <==> sel1[i] && !sel2[i])
  {
    seq(|sel1|, i requires 0 <= i < |sel1| => sel1[i] && !sel2[i])
  }

  /** The result every variant promises: exactly the indices of the mask,
      each once, by decreasing pt. */
  ghost predicate SortedSelection(pt: seq<real>, mask: seq<bool>, r: seq<nat>)
    requires |pt| == |mask|
  {
    (forall k :: 0 <= k < |r| ==> r[k] < |pt|) &&
    (forall i: nat :: i in r <==> i < |mask| && mask[i]) &&
    NoRepeats(r) && ByDecreasingPt(pt, r)
  }

  /** sortedPassedIndices(pt, selection): mismatched sizes are fatal. */
  method SortedPassedIndices(pt: seq<real>, sel: seq<bool>) returns (r: Result<seq<nat>>)
    ensures r.Fail? <==> |pt| != |sel|
    ensures r.Ok? ==> |pt| == |sel| && SortedSelection(pt, sel, r.value)
  {
    if |pt| != |sel| {
      return Fail(InvalidValue("Sizes of the vectors do not match!"));
    }
    var indices := SortKept(pt, sel);
    return Ok(indices);
  }

  /** sortedPassedIndices(pt, selection1, selection2): both selections must
      pass. */
  method SortedPassedIndicesBoth(pt: seq<real>, sel1: seq<bool>, sel2: seq<bool>) returns (r: Result<seq<nat>>)
    ensures r.Fail? <==> |pt| != |sel1| || |pt| != |sel2|
    ensures r.Ok? ==> |pt| == |sel1| == |sel2| && SortedSelection(pt, PassBoth(sel1, sel2), r.value)
  {
    if |pt| != |sel1| || |pt| != |sel2| {
      return Fail(InvalidValue("Sizes of the vectors do not match!"));
    }
    var indices := SortKept(pt, PassBoth(sel1, sel2));
    return Ok(indices);
  }

  /** sortedIndicesFailSel(pt, selection): the objects failing it. */
  method SortedIndicesFailSel(pt: seq<real>, sel: seq<bool>) returns (r: Result<seq<nat>>)
    ensures r.Fail? <==> |pt| != |sel|
    ensures r.Ok? ==> |pt| == |sel| && SortedSelection(pt, Fails(sel), r.value)
  {
    if |pt| != |sel| {
      return Fail(InvalidValue("Sizes of the vectors do not match!"));
    }
    var indices := SortKept(pt, Fails(sel));
    return Ok(indices);
  }

  /** sortedIndicesFailSel(pt, selection1, selection2): the objects failing
      both. */
  method SortedIndicesFailSelBoth(pt: seq<real>, sel1: seq<bool>, sel2: seq<bool>) returns (r: Result<seq<nat>>)
    ensures r.Fail? <==> |pt| != |sel1| || |pt| != |sel2|
    ensures r.Ok? ==> |pt| == |sel1| == |sel2| && SortedSelection(pt, FailsBoth(sel1, sel2), r.value)
  {
    if |pt| != |sel1| || |pt| != |sel2| {
      return Fail(InvalidValue("Sizes of the vectors do not match!"));
    }
    var indices := SortKept(pt, FailsBoth(sel1, sel2));
    return Ok(indices);
  }

  /** sortedIndicesPassOneFailOneSel: passing the first selection and
      failing the second. */
  method SortedIndicesPassOneFailOne(pt: seq<real>, sel1: seq<bool>, sel2: seq<bool>) returns (r: Result<seq<nat>>)
    ensures r.Fail? <==> |pt| != |sel1| || |pt| != |sel2|
    ensures r.Ok? ==> |pt| == |sel1| == |sel2| && SortedSelection(pt, PassOneFailOne(sel1, sel2), r.value)
  {
    if |pt| != |sel1| || |pt| != |sel2| {
      return Fail(InvalidValue("Sizes of the vectors do not match!"));
    }
    var indices := SortKept(pt, PassOneFailOne(sel1, sel2));
    return Ok(indices);
  }

  /** Any two orderings that keep the promise are permutations of each
      other, so the unspecified order among equal pt is the only freedom. */
  lemma SortedSelectionsAgree(pt: seq<real>, mask: seq<bool>, r1: seq<nat>, r2: seq<nat>)
    requires |pt| == |mask|
    requires SortedSelection(pt, mask, r1) && SortedSelection(pt, mask, r2)
    ensures multiset(r1) == multiset(r2)
  {
    DistinctMultiset(r1, r2);
  }

  /** Two duplicate-free sequences with the same elements are permutations
      of each other. */
  lemma DistinctMultiset(r1: seq<nat>, r2: seq<nat>)
    requires NoRepeats(r1) && NoRepeats(r2)
    requires forall x :: x in r1 <==> x in r2
    ensures multiset(r1) == multiset(r2)
  {
    forall x ensures multiset(r1)[x] == multiset(r2)[x] {
      OnceEach(r1, x);
      OnceEach(r2, x);
    }
  }

  /** In a duplicate-free sequence an element occurs once. */
  lemma {:induction false} OnceEach(r: seq<nat>, x: nat)
    requires NoRepeats(r)
    ensures multiset(r)[x] == if x in r then 1 else 0
    decreases |r|
  {
    if |r| > 0 {
      assert r == [r[0]] + r[1..];
      assert NoRepeats(r[1..]) by {
        forall a, b | 0 <= a < b < |r[1..]| ensures r[1..][a] != r[1..][b] {
          assert r[1..][a] == r[a + 1] && r[1..][b] == r[b + 1];
        }
      }
      assert r[0] !in r[1..] by {
        forall k | 0 <= k < |r[1..]| ensures r[1..][k] != r[0] {
          assert r[1..][k] == r[k + 1];
        }
      }
      OnceEach(r[1..], x);
      assert multiset(r) == multiset([r[0]]) + multiset(r[1..]);
    }
  }

  /** numberOfObjects: the selected objects with pt at least the threshold.
      The selection is read by index for every object, so a shorter
      selection is fatal (std::vector::at throws). */
  method NumberOfObjects(pts: seq<real>, minPt: real, sel: seq<bool>) returns (r: Result<nat>)
    ensures r.Fail? <==> |sel| < |pts|
    ensures r.Ok? ==> r.value == |Kept(AtLeast(pts, minPt, sel[..|pts|]))|
  {
    if |sel| < |pts| {
      return Fail(InvalidValue("selection index out of range"));
    }
    var mask := AtLeast(pts, minPt, sel[..|pts|]);
    var count := 0;
    for i := 0 to |pts|
      invariant count == |Kept(mask[..i])|
    {
      assert mask[..i + 1][..i] == mask[..i];
      if sel[i] && pts[i] >= minPt {
        count := count + 1;
      }
    }
    assert mask[..|pts|] == mask;
    return Ok(count);
  }

  /** Entry i set when object i is selected and has pt at least the
      threshold. */
  function AtLeast(pts: seq<real>, minPt: real, sel: seq<bool>): (m: seq<bool>)
    requires |sel| == |pts|
    ensures |m| == |pts| && forall i :: 0 <= i < |m| ==> (m[i] <==> sel[i] && pts[i] >= minPt)
  {
    seq(|pts|, i requires 0 <= i < |pts| => sel[i] && pts[i] >= minPt)
  }
}

=== FILE: general_reader.dfy ===
/** The reader of the general block (BlockReaderGeneral): the output and
    input paths with their command-line overrides, the run settings, the
    luminosity of each campaign, and the defaults the sample and systematic
    blocks fall back on. Every option is optional; an option nobody reads
    is fatal. */
module GeneralReader {
  import opened Wrappers
  import opened Values
  import opened OptionLedger
  import Settings
  import CommandLine

  const OutputPathOptions: set<string> := {"debug_level", "output_path_histograms", "output_path_ntuples"}
  const InputPathOptions: set<string> := {"input_filelist_path", "input_sumweights_path"}
  const FrameOptions: set<string> := {"custom_frame_name", "create_tlorentz_vectors_for", "use_rvec"}
  const JobOptions: set<string> := {"number_of_cpus", "xsection_files"}
  const RangeOptions: set<string> := {"luminosity", "min_event", "max_event", "cap_acceptance_selection"}
  const LayoutOptions: set<string> := {"custom_options", "use_region_subfolders", "list_of_systematics_name",
                                       "ntuple_compression_level"}
  const NtupleOptions: set<string> := {"ntuple_auto_flush", "split_processing_per_unique_samples",
                                       "convert_vector_to_rvec", "config_define_after_custom_class"}
  const NameDefaultOptions: set<string> := {"default_sumweights", "default_event_weights", "default_reco_tree_name",
                                            "define_custom_columns", "define_custom_columns_truth"}
  const SystematicDefaultOptions: set<string> := {"reco_to_truth_pairing_indices", "exclude_systematics",
                                                  "automatic_systematics", "nominal_only"}

  /** Every option the general block may hold. */
  const GeneralOptions: set<string> := OutputPathOptions + InputPathOptions + FrameOptions + JobOptions + RangeOptions
                                       + LayoutOptions + NtupleOptions + NameDefaultOptions + SystematicDefaultOptions

  /** Where the histograms and ntuples go and where the file lists and sums
      of weights come from. */
  datatype Paths = Paths(outputHistograms: string, outputNtuples: string,
                         inputFilelist: string, inputSumWeights: string)

  /** What the event loop is told about the run. */
  datatype Run = Run(customFrameName: string, tLorentzVectors: seq<string>, useRVec: bool, numCpus: int,
                     xsectionFiles: seq<string>, luminosity: Settings.LuminosityMap,
                     minEvent: Option<int>, maxEvent: Option<int>, capAcceptanceSelection: bool)

  /** How the output is organised. */
  datatype Output = Output(customOptions: Block, useRegionSubfolders: bool, listOfSystematicsName: Option<string>,
                           compressionLevel: Option<int>, autoFlush: Option<int>, splitPerUniqueSample: bool,
                           convertVectorToRVec: bool, defineAfterCustomClass: bool)

  /** What the sample and systematic blocks take from the general block
      when they do not say otherwise. */
  datatype Defaults = Defaults(sumWeights: string, eventWeights: Option<string>, recoTreeName: Option<string>,
                               customColumns: seq<Block>, customColumnsTruth: seq<Block>,
                               pairingIndices: seq<string>, excludeSystematics: seq<string>,
                               automaticSystematics: bool, nominalOnly: bool)

  datatype General = General(paths: Paths, run: Run, output: Output, defaults: Defaults,
                             totalJobSplits: Option<int>, currentJobIndex: Option<int>)

  // ---------------------------------------------------------------------
  // Paths

  /** The output paths: one given on the command line replaces the
      configured one. */
  function ReadOutputPaths(l: Ledger, cli: CommandLine.Options): (r: Result<(string, string, Ledger)>)
    ensures r.Ok? ==> ReadsWithin(l, r.value.2, OutputPathOptions)
    ensures r.Ok? ==> r.value.0 == cli.outputPathHistograms.GetOr(StrOr(l.block, "output_path_histograms", ""))
    ensures r.Ok? ==> r.value.1 == cli.outputPathNtuples.GetOr(StrOr(l.block, "output_path_ntuples", ""))
  {
    var (_, l1) :- Get(l, "debug_level", Str("WARNING"), None, None);
    var (histograms, l2) :- GetStrOr(l1, "output_path_histograms", "");
    var (ntuples, l3) :- GetStrOr(l2, "output_path_ntuples", "");
    Ok((cli.outputPathHistograms.GetOr(histograms), cli.outputPathNtuples.GetOr(ntuples), l3))
  }

  /** The input paths: an input directory given on the command line
      replaces both. The native setters take strings, so an input path
      neither configured nor implied by the command line is fatal. */
  function ReadInputPaths(l: Ledger, cli: CommandLine.Options): (r: Result<(string, string, Ledger)>)
    ensures r.Ok? ==> ReadsWithin(l, r.value.2, InputPathOptions)
    ensures r.Ok? && cli.inputPath.Some? ==>
      r.value.0 == cli.inputPath.value + "/filelist.txt" && r.value.1 == cli.inputPath.value + "/sum_of_weights.txt"
    ensures r.Ok? && cli.inputPath.None? ==>
      Lookup(l.block, "input_filelist_path") == Some(Str(r.value.0)) &&
      Lookup(l.block, "input_sumweights_path") == Some(Str(r.value.1))
    ensures cli.inputPath.None? && (!HasKey(l.block, "input_filelist_path") || !HasKey(l.block, "input_sumweights_path")) ==> r.Fail?
  {
    var (filelist, l1) :- GetStr(l, "input_filelist_path");
    var (sumWeights, l2) :- GetStr(l1, "input_sumweights_path");
    if cli.inputPath.Some? then
      Ok((cli.inputPath.value + "/filelist.txt", cli.inputPath.value + "/sum_of_weights.txt", l2))
    else
      :- Need(filelist.Some?, MissingOption("input_filelist_path"));
      :- Need(sumWeights.Some?, MissingOption("input_sumweights_path"));
      Ok((filelist.value, sumWeights.value, l2))
  }

  // ---------------------------------------------------------------------
  // Luminosity

  /** Python's float() of a configured luminosity. A string goes through
      `parseFloat`, float()'s reading of a str (None where it raises
      ValueError); a list, tuple, mapping or None raises TypeError. */
  function ToFloat(v: Value, parseFloat: string -> Option<real>): (r: Result<real>)
    ensures r.Ok? <==> v.Int? || v.Float? || v.Bool? || (v.Str? && parseFloat(v.s).Some?)
    ensures (v.Int? || v.Float?) ==> r == Ok(AsReal(v))
    ensures v.Str? && parseFloat(v.s).Some? ==> r == Ok(parseFloat(v.s).value)
    ensures v.Bool? ==> r.Ok? && (r.value == 1.0 <==> v.b) && (r.value == 0.0 <==> !v.b)
  {
    match v
    case Int(i) => Ok(i as real)
    case Float(f) => Ok(f)
    case Bool(b) => Ok(if b then 1.0 else 0.0)
    case Str(s) => if parseFloat(s).Some? then Ok(parseFloat(s).value) else Fail(WrongType("luminosity"))
    case _ => Fail(WrongType("luminosity"))
  }

  /** Every configured campaign set with force, in block order, on top of
      the map a new ConfigSetting starts with. */
  function SetLuminosities(m: Settings.LuminosityMap, entries: Block, parseFloat: string -> Option<real>): (r: Result<Settings.LuminosityMap>)
    ensures r.Ok? <==> forall k :: 0 <= k < |entries| ==> ToFloat(entries[k].val, parseFloat).Ok?
    ensures r.Ok? ==> forall c :: c in r.value <==> c in m || c in Keys(entries)
    ensures r.Ok? ==> forall c :: c in m && c !in Keys(entries) ==> r.value[c] == m[c]
    ensures r.Ok? && |entries| > 0 ==>
      entries[|entries| - 1].key in r.value && r.value[entries[|entries| - 1].key] == ToFloat(entries[|entries| - 1].val, parseFloat).value
    decreases |entries|
  {
    if |entries| == 0 then Ok(m)
    else
      var front := entries[..|entries| - 1];
      var last := entries[|entries| - 1];
      assert forall k :: 0 <= k < |front| ==> front[k] == entries[k];
      var before :- SetLuminosities(m, front, parseFloat);
      var lumi :- ToFloat(last.val, parseFloat);
      assert Keys(entries) == Keys(front) + [last.key];
      Settings.AddLuminosity(before, last.key, lumi, true)
  }

  /** In a mapping (no key twice) each configured campaign ends up with its
      configured value, and every other campaign keeps the value it had. */
  lemma {:induction false} LuminosityOfCampaign(m: Settings.LuminosityMap, entries: Block, parseFloat: string -> Option<real>,
                                                j: nat, other: string)
    requires WellFormed(entries) && j < |entries|
    requires SetLuminosities(m, entries, parseFloat).Ok?
    ensures ToFloat(entries[j].val, parseFloat).Ok?
    ensures SetLuminosities(m, entries, parseFloat).value[entries[j].key] == ToFloat(entries[j].val, parseFloat).value
    ensures other in m && other !in Keys(entries) ==> SetLuminosities(m, entries, parseFloat).value[other] == m[other]
    decreases |entries|
  {
    var front := entries[..|entries| - 1];
    var last := entries[|entries| - 1];
    var before := SetLuminosities(m, front, parseFloat);
    assert before.Ok? && ToFloat(last.val, parseFloat).Ok?;
    assert SetLuminosities(m, entries, parseFloat)
      == Settings.AddLuminosity(before.value, last.key, ToFloat(last.val, parseFloat).value, true);
    if j < |entries| - 1 {
      FrontWellFormed(entries, j);
      LuminosityOfCampaign(m, front, parseFloat, j, other);
    }
  }

  /** Dropping the last entry of a mapping keeps it a mapping, and the
      earlier entries have keys other than the last one's. */
  lemma FrontWellFormed(entries: Block, j: nat)
    requires WellFormed(entries) && j < |entries| - 1
    ensures WellFormed(entries[..|entries| - 1])
    ensures entries[j] == entries[..|entries| - 1][j] && entries[j].key != entries[|entries| - 1].key
  {
    assert Keys(entries[..|entries| - 1]) == Keys(entries)[..|entries| - 1];
    assert Keys(entries)[j] != Keys(entries)[|entries| - 1];
  }

  // ---------------------------------------------------------------------
  // Run settings

  /** min_event and max_event: the command-line value wins when it is
      non-zero, then the configured one when non-zero; zero counts as not
      given, and nothing is set when neither is non-zero. */
  function EventBound(cli: Option<int>, config: Option<int>): (r: Option<int>)
    ensures r.Some? ==> r.value != 0 && (r == cli || r == config)
    ensures cli.Some? && cli.value != 0 ==> r == cli
    ensures r.None? <==> (cli.None? || cli.value == 0) && (config.None? || config.value == 0)
  {
    if cli.Some? && cli.value != 0 then cli
    else if config.Some? && config.value != 0 then config
    else None
  }

  /** The frame class and the vector settings. */
  function ReadFrame(l: Ledger): (r: Result<(string, seq<string>, bool, Ledger)>)
    ensures r.Ok? ==> ReadsWithin(l, r.value.3, FrameOptions)
    ensures r.Ok? ==> r.value.0 == StrOr(l.block, "custom_frame_name", "")
  {
    var (frame, l1) :- GetStrOr(l, "custom_frame_name", "");
    var (vectors, l2) :- GetStrListOr(l1, "create_tlorentz_vectors_for", []);
    var (rvec, l3) :- GetBool(l2, "use_rvec", false);
    Ok((frame, vectors, rvec, l3))
  }

  /** The number of threads and the cross-section files. */
  function ReadJob(l: Ledger): (r: Result<(int, seq<string>, Ledger)>)
    ensures r.Ok? ==> ReadsWithin(l, r.value.2, JobOptions)
    ensures r.Ok? ==> r.value.0 == IntOr(l.block, "number_of_cpus", 1)
    ensures r.Ok? && !HasKey(l.block, "xsection_files") ==> r.value.1 == ["data/XSection-MC16-13TeV.data"]
  {
    var (cpus, l1) :- GetInt(l, "number_of_cpus", 1);
    var (files, l2) :- GetStrListOr(l1, "xsection_files", ["data/XSection-MC16-13TeV.data"]);
    Ok((cpus, files, l2))
  }

  /** Which events and which luminosity: the luminosity values converted
      with float() and set with force over the built-in campaigns, the
      event range with the command line first. */
  function ReadRange(l: Ledger, cli: CommandLine.Options, parseFloat: string -> Option<real>)
    : (r: Result<(Settings.LuminosityMap, Option<int>, Option<int>, bool, Ledger)>)
    ensures r.Ok? ==> ReadsWithin(l, r.value.4, RangeOptions)
    ensures r.Ok? ==> forall c :: c in Settings.DefaultLuminosity() ==> c in r.value.0
    ensures r.Ok? && !HasKey(l.block, "luminosity") ==> r.value.0 == Settings.DefaultLuminosity()
    ensures r.Ok? && cli.minEvent.Some? && cli.minEvent.value != 0 ==> r.value.1 == cli.minEvent
    ensures r.Ok? && cli.maxEvent.Some? && cli.maxEvent.value != 0 ==> r.value.2 == cli.maxEvent
  {
    var (lumiBlock, l1) :- GetBlock(l, "luminosity");
    var (minEvent, l2) :- GetOptInt(l1, "min_event");
    var (maxEvent, l3) :- GetOptInt(l2, "max_event");
    var (cap, l4) :- GetBool(l3, "cap_acceptance_selection", true);
    var luminosity :- SetLuminosities(Settings.DefaultLuminosity(), lumiBlock.GetOr([]), parseFloat);
    Ok((luminosity, EventBound(cli.minEvent, minEvent), EventBound(cli.maxEvent, maxEvent), cap, l4))
  }

  /** Custom options and histogram layout. */
  function ReadLayout(l: Ledger): (r: Result<(Block, bool, Option<string>, Option<int>, Ledger)>)
    ensures r.Ok? ==> ReadsWithin(l, r.value.4, LayoutOptions)
    ensures r.Ok? ==> r.value.1 == BoolOr(l.block, "use_region_subfolders", false)
  {
    var (custom, l1) :- GetBlock(l, "custom_options");
    var (subfolders, l2) :- GetBool(l1, "use_region_subfolders", false);
    var (listName, l3) :- GetStr(l2, "list_of_systematics_name");
    var (compression, l4) :- GetOptInt(l3, "ntuple_compression_level");
    Ok((custom.GetOr([]), subfolders, listName, compression, l4))
  }

  /** Ntuple flushing and processing switches. */
  function ReadSwitches(l: Ledger): (r: Result<(Option<int>, bool, bool, bool, Ledger)>)
    ensures r.Ok? ==> ReadsWithin(l, r.value.4, NtupleOptions)
    ensures r.Ok? ==> r.value.3 == BoolOr(l.block, "config_define_after_custom_class", false)
  {
    var (flush, l1) :- GetOptInt(l, "ntuple_auto_flush");
    var (split, l2) :- GetBool(l1, "split_processing_per_unique_samples", false);
    var (convert, l3) :- GetBool(l2, "convert_vector_to_rvec", false);
    var (after, l4) :- GetBool(l3, "config_define_after_custom_class", false);
    Ok((flush, split, convert, after, l4))
  }

  /** The named defaults: sums of weights "NOSYS" unless configured; event
      weights and reco tree name only when configured. */
  function ReadNameDefaults(l: Ledger)
    : (r: Result<(string, Option<string>, Option<string>, seq<Block>, seq<Block>, Ledger)>)
    ensures r.Ok? ==> ReadsWithin(l, r.value.5, NameDefaultOptions)
    ensures r.Ok? ==> r.value.0 == StrOr(l.block, "default_sumweights", "NOSYS")
    ensures r.Ok? ==> (r.value.1.Some? <==> HasKey(l.block, "default_event_weights"))
    ensures r.Ok? && r.value.1.Some? ==> Lookup(l.block, "default_event_weights") == Some(Str(r.value.1.value))
    ensures r.Ok? ==> (r.value.2.Some? <==> HasKey(l.block, "default_reco_tree_name"))
  {
    var (sumWeights, weights, tree, l3) :- ReadDefaultNames(l);
    var (columns, truthColumns, l5) :- ReadCustomColumns(l3);
    assert NameDefaultOptions == DefaultNameOptions + CustomColumnOptions;
    Ok((sumWeights, weights, tree, columns, truthColumns, l5))
  }

  const DefaultNameOptions: set<string> := {"default_sumweights", "default_event_weights", "default_reco_tree_name"}
  const CustomColumnOptions: set<string> := {"define_custom_columns", "define_custom_columns_truth"}

  /** The default sums of weights, event weights and reco tree name. */
  function ReadDefaultNames(l: Ledger): (r: Result<(string, Option<string>, Option<string>, Ledger)>)
    ensures r.Ok? ==> ReadsWithin(l, r.value.3, DefaultNameOptions)
    ensures r.Ok? ==> r.value.0 == StrOr(l.block, "default_sumweights", "NOSYS")
    ensures r.Ok? ==> (r.value.1.Some? <==> HasKey(l.block, "default_event_weights"))
    ensures r.Ok? && r.value.1.Some? ==> Lookup(l.block, "default_event_weights") == Some(Str(r.value.1.value))
    ensures r.Ok? ==> (r.value.2.Some? <==> HasKey(l.block, "default_reco_tree_name"))
  {
    var (sumWeights, l1) :- GetStrOr(l, "default_sumweights", "NOSYS");
    var (weights, l2) :- GetStr(l1, "default_event_weights");
    var (tree, l3) :- GetStr(l2, "default_reco_tree_name");
    Ok((sumWeights, weights, tree, l3))
  }

  /** The custom column definitions, reco and truth, empty when absent. */
  function ReadCustomColumns(l: Ledger): (r: Result<(seq<Block>, seq<Block>, Ledger)>)
    ensures r.Ok? ==> ReadsWithin(l, r.value.2, CustomColumnOptions)
  {
    var (columns, l1) :- GetBlockList(l, "define_custom_columns");
    var (truthColumns, l2) :- GetBlockList(l1, "define_custom_columns_truth");
    Ok((columns.GetOr([]), truthColumns.GetOr([]), l2))
  }

  /** The systematic defaults: pairing on run and event number, nothing
      excluded, neither automatic systematics nor nominal only, unless
      configured. */
  function ReadSystematicDefaults(l: Ledger): (r: Result<(seq<string>, seq<string>, bool, bool, Ledger)>)
    ensures r.Ok? ==> ReadsWithin(l, r.value.4, SystematicDefaultOptions)
    ensures r.Ok? && !HasKey(l.block, "reco_to_truth_pairing_indices") ==> r.value.0 == ["runNumber", "eventNumber"]
    ensures r.Ok? ==> r.value.2 == BoolOr(l.block, "automatic_systematics", false)
    ensures r.Ok? ==> r.value.3 == BoolOr(l.block, "nominal_only", false)
  {
    var (pairing, exclude, l2) :- ReadSystematicLists(l);
    var (automatic, nominalOnly, l4) :- ReadSystematicSwitches(l2);
    assert SystematicDefaultOptions == SystematicListOptions + SystematicSwitchOptions;
    Ok((pairing, exclude, automatic, nominalOnly, l4))
  }

  const SystematicListOptions: set<string> := {"reco_to_truth_pairing_indices", "exclude_systematics"}
  const SystematicSwitchOptions: set<string> := {"automatic_systematics", "nominal_only"}

  /** The pairing indices and the excluded systematics. */
  function ReadSystematicLists(l: Ledger): (r: Result<(seq<string>, seq<string>, Ledger)>)
    ensures r.Ok? ==> ReadsWithin(l, r.value.2, SystematicListOptions)
    ensures r.Ok? && !HasKey(l.block, "reco_to_truth_pairing_indices") ==> r.value.0 == ["runNumber", "eventNumber"]
  {
    var (pairing, l1) :- GetStrListOr(l, "reco_to_truth_pairing_indices", ["runNumber", "eventNumber"]);
    var (exclude, l2) :- GetStrListOr(l1, "exclude_systematics", []);
    Ok((pairing, exclude, l2))
  }

  /** The automatic-systematics and nominal-only switches. */
  function ReadSystematicSwitches(l: Ledger): (r: Result<(bool, bool, Ledger)>)
    ensures r.Ok? ==> ReadsWithin(l, r.value.2, SystematicSwitchOptions)
    ensures r.Ok? ==> r.value.0 == BoolOr(l.block, "automatic_systematics", false)
    ensures r.Ok? ==> r.value.1 == BoolOr(l.block, "nominal_only", false)
  {
    var (automatic, l1) :- GetBool(l, "automatic_systematics", false);
    var (nominalOnly, l2) :- GetBool(l1, "nominal_only", false);
    Ok((automatic, nominalOnly, l2))
  }

  /** The paths and run settings, in the order the constructor reads them. */
  function ReadSettings(l: Ledger, cli: CommandLine.Options, parseFloat: string -> Option<real>): (r: Result<(Paths, Run, Ledger)>)
    ensures r.Ok? ==> ReadsWithin(l, r.value.2, OutputPathOptions + InputPathOptions + FrameOptions + JobOptions + RangeOptions)
    ensures r.Ok? ==> r.value.0.outputHistograms == cli.outputPathHistograms.GetOr(StrOr(l.block, "output_path_histograms", ""))
    ensures r.Ok? ==> r.value.0.outputNtuples == cli.outputPathNtuples.GetOr(StrOr(l.block, "output_path_ntuples", ""))
    ensures r.Ok? && cli.inputPath.Some? ==>
      r.value.0.inputFilelist == cli.inputPath.value + "/filelist.txt" &&
      r.value.0.inputSumWeights == cli.inputPath.value + "/sum_of_weights.txt"
    ensures r.Ok? ==> forall c :: c in Settings.DefaultLuminosity() ==> c in r.value.1.luminosity
  {
    var (histograms, ntuples, l1) :- ReadOutputPaths(l, cli);
    var (filelist, sumWeights, l2) :- ReadInputPaths(l1, cli);
    var (frame, vectors, rvec, l3) :- ReadFrame(l2);
    var (cpus, files, l4) :- ReadJob(l3);
    var (luminosity, minEvent, maxEvent, cap, l5) :- ReadRange(l4, cli, parseFloat);
    Ok((Paths(histograms, ntuples, filelist, sumWeights),
        Run(frame, vectors, rvec, cpus, files, luminosity, minEvent, maxEvent, cap), l5))
  }

  /** The output organisation and the defaults. */
  function ReadOutputAndDefaults(l: Ledger): (r: Result<(Output, Defaults, Ledger)>)
    ensures r.Ok? ==> ReadsWithin(l, r.value.2, LayoutOptions + NtupleOptions + NameDefaultOptions + SystematicDefaultOptions)
    ensures r.Ok? ==> r.value.1.sumWeights == StrOr(l.block, "default_sumweights", "NOSYS")
    ensures r.Ok? && !HasKey(l.block, "reco_to_truth_pairing_indices") ==>
      r.value.1.pairingIndices == ["runNumber", "eventNumber"]
    ensures r.Ok? ==> r.value.1.automaticSystematics == BoolOr(l.block, "automatic_systematics", false)
    ensures r.Ok? ==> r.value.1.nominalOnly == BoolOr(l.block, "nominal_only", false)
  {
    var (custom, subfolders, listName, compression, l1) :- ReadLayout(l);
    var (flush, split, convert, after, l2) :- ReadSwitches(l1);
    var (sumWeights, weights, tree, columns, truthColumns, l3) :- ReadNameDefaults(l2);
    var (pairing, exclude, automatic, nominalOnly, l4) :- ReadSystematicDefaults(l3);
    Ok((Output(custom, subfolders, listName, compression, flush, split, convert, after),
        Defaults(sumWeights, weights, tree, columns, truthColumns, pairing, exclude, automatic, nominalOnly), l4))
  }

  /** BlockReaderGeneral: the four groups read, the job split taken from
      the command line, and no option left unread. */
  function ReadGeneral(b: Block, cli: CommandLine.Options, parseFloat: string -> Option<real>): (r: Result<General>)
    ensures r.Ok? ==> forall k :: k in Keys(b) ==> k in GeneralOptions
    ensures r.Ok? ==> r.value.paths.outputHistograms == cli.outputPathHistograms.GetOr(StrOr(b, "output_path_histograms", ""))
    ensures r.Ok? ==> r.value.paths.outputNtuples == cli.outputPathNtuples.GetOr(StrOr(b, "output_path_ntuples", ""))
    ensures r.Ok? && cli.inputPath.Some? ==>
      r.value.paths.inputFilelist == cli.inputPath.value + "/filelist.txt" &&
      r.value.paths.inputSumWeights == cli.inputPath.value + "/sum_of_weights.txt"
    ensures r.Ok? ==> r.value.defaults.sumWeights == StrOr(b, "default_sumweights", "NOSYS")
    ensures r.Ok? ==> r.value.totalJobSplits == cli.splitNJobs && r.value.currentJobIndex == cli.jobIndex
  {
    var (paths, run, l1) :- ReadSettings(Fresh(b), cli, parseFloat);
    var (output, defaults, l2) :- ReadOutputAndDefaults(l1);
    var unused := Unused(l2);
    :- Need(|unused| == 0, UnusedOptions(unused));
    NothingUnused(l2);
    Ok(General(paths, run, output, defaults, cli.splitNJobs, cli.jobIndex))
  }
}

=== FILE: ledger.dfy ===
/** The option ledgers every reader uses (BlockOptionsGetter and
    VariationsOptionsGetter): a block plus the set of options read from it,
    so that options nobody asked for can be reported. */
module OptionLedger {
  import opened Wrappers
  import opened Values
  import Seqs
  import StringOps

  // ---------------------------------------------------------------------
  // BlockOptionsGetter

  /** A block and the options read from it so far. */
  datatype Ledger = Ledger(block: Block, used: set<string>)

  /** A ledger over `b` with nothing read yet. */
  function Fresh(b: Block): (l: Ledger)
    ensures l.block == b && l.used == {}
  {
    Ledger(b, {})
  }

  /** get_unused_options: the keys of the block never read, in block order. */
  function Unused(l: Ledger): (r: seq<string>)
    ensures forall k :: k in r <==> k in Keys(l.block) && k !in l.used
    ensures Seqs.IsSubsequence(r, Keys(l.block))
  {
    Seqs.Filter(Keys(l.block), k => k !in l.used)
  }

  /** `type(value) in allowed_types`, when a list of allowed types is given. */
  predicate TypeAllowed(v: Value, types: Option<set<Tag>>) {
    types.None? || TagOf(v) in types.value
  }

  /** Every element of an iterable value has an allowed type, when a list of
      allowed element types is given. */
  predicate ElementsAllowed(v: Value, elements: Option<set<Tag>>) {
    elements.None? || ElementTags(v).None? ||
    forall k :: 0 <= k < |ElementTags(v).value| ==> ElementTags(v).value[k] in elements.value
  }

  /** get(option, default, allowed_types, allowed_elements). An absent option
      yields the default and marks nothing; a present one is marked as read
      and must pass the type checks. */
  function Get(l: Ledger, option: string, default: Value,
               types: Option<set<Tag>>, elements: Option<set<Tag>>): (r: Result<(Value, Ledger)>)
    ensures !HasKey(l.block, option) ==> r == Ok((default, l))
    ensures HasKey(l.block, option) ==>
      (r.Ok? <==> TypeAllowed(Lookup(l.block, option).value, types)
                  && ElementsAllowed(Lookup(l.block, option).value, elements))
    ensures HasKey(l.block, option) && r.Ok? ==>
      r.value.0 == Lookup(l.block, option).value && r.value.1 == Ledger(l.block, l.used + {option})
    ensures r.Fail? ==> r.error == WrongType(option)
  {
    match Lookup(l.block, option)
    case None => Ok((default, l))
    case Some(v) =>
      if !TypeAllowed(v, types) || !ElementsAllowed(v, elements) then Fail(WrongType(option))
      else Ok((v, Ledger(l.block, l.used + {option})))
  }

  /** `l2` is `l` after reading at most `option`: same block, and only that
      option possibly newly marked. */
  predicate ReadsAtMost(l: Ledger, l2: Ledger, option: string) {
    l2.block == l.block && l.used <= l2.used <= l.used + {option}
  }

  /** `l2` is `l` after reading some of `options` and nothing else. */
  predicate ReadsWithin(l: Ledger, l2: Ledger, options: set<string>) {
    l2.block == l.block && l.used <= l2.used <= l.used + options
  }

  /** get(option, None, [str]): the string if present, None if absent. */
  function GetStr(l: Ledger, option: string): (r: Result<(Option<string>, Ledger)>)
    ensures r.Fail? <==> HasKey(l.block, option) && !Lookup(l.block, option).value.Str?
    ensures r.Ok? ==> ReadsAtMost(l, r.value.1, option)
    ensures r.Ok? ==> (r.value.0.Some? <==> HasKey(l.block, option))
    ensures r.Ok? && r.value.0.Some? ==> Lookup(l.block, option) == Some(Str(r.value.0.value))
  {
    var (v, l') :- Get(l, option, Null, Some({StrTag}), None);
    Ok((if v.Str? then Some(v.s) else None, l'))
  }

  /** get(option, default, [str]). */
  function GetStrOr(l: Ledger, option: string, default: string): (r: Result<(string, Ledger)>)
    ensures r.Fail? <==> HasKey(l.block, option) && !Lookup(l.block, option).value.Str?
    ensures r.Ok? ==> ReadsAtMost(l, r.value.1, option)
    ensures r.Ok? ==> r.value.0 == StrOr(l.block, option, default)
  {
    var (v, l') :- Get(l, option, Str(default), Some({StrTag}), None);
    Ok((if v.Str? then v.s else default, l'))
  }

  /** get(option, default, [bool]). */
  function GetBool(l: Ledger, option: string, default: bool): (r: Result<(bool, Ledger)>)
    ensures r.Fail? <==> HasKey(l.block, option) && !Lookup(l.block, option).value.Bool?
    ensures r.Ok? ==> ReadsAtMost(l, r.value.1, option)
    ensures r.Ok? ==> r.value.0 == BoolOr(l.block, option, default)
  {
    var (v, l') :- Get(l, option, Bool(default), Some({BoolTag}), None);
    Ok((if v.Bool? then v.b else default, l'))
  }

  /** get(option, default, [int]). */
  function GetInt(l: Ledger, option: string, default: int): (r: Result<(int, Ledger)>)
    ensures r.Fail? <==> HasKey(l.block, option) && !Lookup(l.block, option).value.Int?
    ensures r.Ok? ==> ReadsAtMost(l, r.value.1, option)
    ensures r.Ok? ==> r.value.0 == IntOr(l.block, option, default)
  {
    var (v, l') :- Get(l, option, Int(default), Some({IntTag}), None);
    Ok((if v.Int? then v.i else default, l'))
  }

  /** get(option, None, [int]). */
  function GetOptInt(l: Ledger, option: string): (r: Result<(Option<int>, Ledger)>)
    ensures r.Fail? <==> HasKey(l.block, option) && !Lookup(l.block, option).value.Int?
    ensures r.Ok? ==> ReadsAtMost(l, r.value.1, option)
    ensures r.Ok? ==> (r.value.0.Some? <==> HasKey(l.block, option))
    ensures r.Ok? && r.value.0.Some? ==> Lookup(l.block, option) == Some(Int(r.value.0.value))
  {
    var (v, l') :- Get(l, option, Null, Some({IntTag}), None);
    Ok((if v.Int? then Some(v.i) else None, l'))
  }

  /** get(option, default, [int, float]), as a number. */
  function GetNumber(l: Ledger, option: string, default: real): (r: Result<(real, Ledger)>)
    ensures r.Fail? <==> (HasKey(l.block, option) &&
      !(Lookup(l.block, option).value.Int? || Lookup(l.block, option).value.Float?))
    ensures r.Ok? ==> ReadsAtMost(l, r.value.1, option)
    ensures r.Ok? ==> r.value.0 == NumberOr(l.block, option, default)
  {
    var (v, l') :- Get(l, option, Float(default), Some({IntTag, FloatTag}), None);
    Ok((if v.Int? then v.i as real else if v.Float? then v.f else default, l'))
  }

  /** get(option, None, [list], [str]). */
  function GetStrList(l: Ledger, option: string): (r: Result<(Option<seq<string>>, Ledger)>)
    ensures r.Ok? ==> ReadsAtMost(l, r.value.1, option)
    ensures r.Ok? ==> (r.value.0.Some? <==> HasKey(l.block, option))
    ensures r.Ok? && r.value.0.Some? ==> Lookup(l.block, option) == Some(StrList(r.value.0.value))
    ensures !HasKey(l.block, option) ==> r.Ok?
    ensures HasKey(l.block, option) && !Lookup(l.block, option).value.List? ==> r.Fail?
    ensures r.Ok? ==> r.value.0 == StringsAt(l.block, option)
  {
    var (v, l') :- Get(l, option, Null, Some({ListTag}), Some({StrTag}));
    if v.List? then
      var strs := Strings(v.items);
      assert strs.Some? by {
        assert forall k :: 0 <= k < |v.items| ==> ElementTags(v).value[k] == TagOf(v.items[k]);
      }
      StrListOfStrings(v.items);
      Ok((strs, l'))
    else Ok((None, l'))
  }

  /** A list of strings is the list display of its strings. */
  lemma StrListOfStrings(items: seq<Value>)
    requires Strings(items).Some?
    ensures StrList(Strings(items).value) == List(items)
  {
    var vs := StrList(Strings(items).value).items;
    assert |vs| == |items|;
    forall k | 0 <= k < |items| ensures vs[k] == items[k] {
      assert Strings(vs).value[k] == Strings(items).value[k];
    }
  }

  /** `b[key]` when it is a list of strings. */
  function StringsAt(b: Block, key: string): (r: Option<seq<string>>)
    ensures r.Some? ==> Lookup(b, key) == Some(StrList(r.value))
  {
    match Lookup(b, key)
    case Some(List(items)) =>
      var strs := Strings(items);
      if strs.Some? then StrListOfStrings(items); strs else None
    case _ => None
  }

  /** get(option, default, [list], [str]). */
  function GetStrListOr(l: Ledger, option: string, default: seq<string>): (r: Result<(seq<string>, Ledger)>)
    ensures r.Ok? ==> ReadsAtMost(l, r.value.1, option)
    ensures r.Ok? && !HasKey(l.block, option) ==> r.value.0 == default
    ensures r.Ok? && HasKey(l.block, option) ==> Lookup(l.block, option) == Some(StrList(r.value.0))
    ensures !HasKey(l.block, option) ==> r.Ok?
  {
    var (v, l') :- GetStrList(l, option);
    Ok((v.GetOr(default), l'))
  }

  /** get(option, None, [list]) with no element check. */
  function GetList(l: Ledger, option: string): (r: Result<(Option<seq<Value>>, Ledger)>)
    ensures r.Fail? <==> HasKey(l.block, option) && !Lookup(l.block, option).value.List?
    ensures r.Ok? ==> ReadsAtMost(l, r.value.1, option)
    ensures r.Ok? ==> (r.value.0.Some? <==> HasKey(l.block, option))
    ensures r.Ok? && r.value.0.Some? ==> Lookup(l.block, option) == Some(List(r.value.0.value))
  {
    var (v, l') :- Get(l, option, Null, Some({ListTag}), None);
    Ok((if v.List? then Some(v.items) else None, l'))
  }

  /** get(option, None, [list], [dict]). */
  function GetBlockList(l: Ledger, option: string): (r: Result<(Option<seq<Block>>, Ledger)>)
    ensures r.Ok? ==> ReadsAtMost(l, r.value.1, option)
    ensures r.Ok? ==> (r.value.0.Some? <==> HasKey(l.block, option))
    ensures r.Ok? && r.value.0.Some? ==>
      Lookup(l.block, option).value.List? && Blocks(Lookup(l.block, option).value.items) == r.value.0
    ensures !HasKey(l.block, option) ==> r.Ok?
  {
    var (v, l') :- Get(l, option, Null, Some({ListTag}), Some({DictTag}));
    if v.List? then
      assert Blocks(v.items).Some? by {
        assert forall k :: 0 <= k < |v.items| ==> ElementTags(v).value[k] == TagOf(v.items[k]);
      }
      Ok((Blocks(v.items), l'))
    else Ok((None, l'))
  }

  /** get(option, None, [dict]). */
  function GetBlock(l: Ledger, option: string): (r: Result<(Option<Block>, Ledger)>)
    ensures r.Fail? <==> HasKey(l.block, option) && !Lookup(l.block, option).value.Dict?
    ensures r.Ok? ==> ReadsAtMost(l, r.value.1, option)
    ensures r.Ok? ==> (r.value.0.Some? <==> HasKey(l.block, option))
    ensures r.Ok? && r.value.0.Some? ==> Lookup(l.block, option) == Some(Dict(r.value.0.value))
  {
    var (v, l') :- Get(l, option, Null, Some({DictTag}), None);
    Ok((if v.Dict? then Some(v.entries) else None, l'))
  }

  /** get(option) with no type check; a present null reads as None, which is
      what the callers test for. */
  function GetAny(l: Ledger, option: string): (r: (Option<Value>, Ledger))
    ensures ReadsAtMost(l, r.1, option)
    ensures r.0.Some? <==> HasKey(l.block, option) && !Lookup(l.block, option).value.Null?
    ensures r.0.Some? ==> Lookup(l.block, option) == r.0
    ensures HasKey(l.block, option) ==> option in r.1.used
  {
    match Lookup(l.block, option)
    case None => (None, l)
    case Some(v) => (if v.Null? then None else Some(v), Ledger(l.block, l.used + {option}))
  }

  /** get_unused_options is empty exactly when every key of the block was read. */
  lemma NothingUnused(l: Ledger)
    ensures |Unused(l)| == 0 <==> forall k :: k in Keys(l.block) ==> k in l.used
  {
    if exists k :: k in Keys(l.block) && k !in l.used {
      var k :| k in Keys(l.block) && k !in l.used;
      assert k in Unused(l);
    }
    if |Unused(l)| > 0 {
      assert Unused(l)[0] in Unused(l);
    }
  }

  /** Reads `options` one after the other without type checks. */
  function ReadAll(l: Ledger, options: seq<string>): (r: Ledger)
    decreases |options|
  {
    if |options| == 0 then l
    else
      var next := Get(l, options[0], Null, None, None);
      ReadAll(if next.Ok? then next.value.1 else l, options[1..])
  }

  /** A fresh ledger reports every key of the block as unused. */
  lemma FreshReportsEverything(b: Block)
    ensures Unused(Fresh(b)) == Keys(b)
  {
    Seqs.FilterAll(Keys(b), k => k !in Fresh(b).used);
  }

  /** Reading the same option twice is the same as reading it once. */
  lemma GetIdempotent(l: Ledger, option: string, default: Value,
                      types: Option<set<Tag>>, elements: Option<set<Tag>>)
    requires Get(l, option, default, types, elements).Ok?
    ensures var (v, l1) := Get(l, option, default, types, elements).value;
            Get(l1, option, default, types, elements) == Ok((v, l1))
  {
    var (v, l1) := Get(l, option, default, types, elements).value;
    if HasKey(l.block, option) {
      assert l1.used + {option} == l1.used;
    }
  }

  /** After reading a list of options, the unused ones are exactly the keys
      that are not in the list. */
  lemma {:induction false} UsedAfterReading(l: Ledger, options: seq<string>)
    ensures ReadAll(l, options).block == l.block
    ensures ReadAll(l, options).used == l.used + (set k | k in options && HasKey(l.block, k))
    decreases |options|
  {
    if |options| > 0 {
      var l1 := Get(l, options[0], Null, None, None).value.1;
      UsedAfterReading(l1, options[1..]);
      assert (set k | k in options && HasKey(l.block, k)) ==
             (set k | k == options[0] && HasKey(l.block, k)) + (set k | k in options[1..] && HasKey(l.block, k));
    } else {
      assert (set k | k in options && HasKey(l.block, k)) == {};
    }
  }

  /** After reading some options, the unused ones are the keys neither read
      before nor among them. */
  lemma UnusedAfterReading(l: Ledger, options: seq<string>)
    ensures forall k :: k in Unused(ReadAll(l, options)) <==>
              k in Keys(l.block) && k !in l.used && k !in options
  {
    UsedAfterReading(l, options);
    forall k | k in Keys(l.block)
      ensures HasKey(l.block, k)
    {
      HasKeyIffInKeys(l.block, k);
    }
  }

  // ---------------------------------------------------------------------
  // VariationsOptionsGetter

  /** A variation block, the options it defines (suffixes stripped) and the
      options read so far. */
  datatype VariationLedger = VariationLedger(block: Block, tracked: seq<string>, used: set<string>)

  /** The option a key of a variation block belongs to: "_up" and "_down"
      stripped, bare "up"/"down" belong to the option "", anything else is
      only warned about. */
  function TrackedName(key: string): (r: Option<string>)
    ensures r.Some? ==> |r.value| <= |key|
    ensures r.None? <==> !StringOps.EndsWith(key, "_up") && !StringOps.EndsWith(key, "_down") &&
                         key != "up" && key != "down"
    ensures r.Some? ==> key == r.value + "_up" || key == r.value + "_down" ||
                        (r.value == "" && (key == "up" || key == "down"))
  {
    if StringOps.EndsWith(key, "_up") then Some(key[..|key| - 3])
    else if StringOps.EndsWith(key, "_down") then Some(key[..|key| - 5])
    else if key == "up" || key == "down" then Some("")
    else None
  }

  /** A key belongs to an option exactly when it is the option followed by
      "_up" or "_down", or it is a bare "up" or "down" and the option is
      empty. */
  lemma TrackedNameIff(key: string, option: string)
    ensures TrackedName(key) == Some(option) <==>
      key == option + "_up" || key == option + "_down" || (option == "" && (key == "up" || key == "down"))
  {
    if key == option + "_up" {
      assert StringOps.EndsWith(key, "_up") by {
        assert key[|key| - 3..] == "_up";
      }
      assert key[..|key| - 3] == option;
    } else if key == option + "_down" {
      assert !StringOps.EndsWith(key, "_up") by {
        assert key[|key| - 1] == 'n';
      }
      assert StringOps.EndsWith(key, "_down") by {
        assert key[|key| - 5..] == "_down";
      }
      assert key[..|key| - 5] == option;
    }
  }

  /** The tracked options of a list of keys, in order, repeats included. */
  function TrackedNames(keys: seq<string>): seq<string>
    decreases |keys|
  {
    if |keys| == 0 then []
    else
      var here := TrackedName(keys[0]);
      (if here.Some? then [here.value] else []) + TrackedNames(keys[1..])
  }

  /** An option is tracked iff some key belongs to it. */
  lemma {:induction false} TrackedNamesMembership(keys: seq<string>, option: string)
    ensures option in TrackedNames(keys) <==>
      exists j :: 0 <= j < |keys| && TrackedName(keys[j]) == Some(option)
    decreases |keys|
  {
    if |keys| > 0 {
      TrackedNamesMembership(keys[1..], option);
      if exists j :: 0 <= j < |keys[1..]| && TrackedName(keys[1..][j]) == Some(option) {
        var j :| 0 <= j < |keys[1..]| && TrackedName(keys[1..][j]) == Some(option);
        assert TrackedName(keys[j + 1]) == Some(option);
      }
      if exists j :: 0 <= j < |keys| && TrackedName(keys[j]) == Some(option) {
        var j :| 0 <= j < |keys| && TrackedName(keys[j]) == Some(option);
        if j > 0 {
          assert keys[1..][j - 1] == keys[j];
        }
      }
    }
  }

  /** The ledger the constructor builds. */
  function FreshVariations(b: Block): (l: VariationLedger)
    ensures l.block == b && l.used == {}
    ensures Seqs.Distinct(l.tracked)
  {
    VariationLedger(b, Seqs.Dedup(TrackedNames(Keys(b))), {})
  }

  /** The key a variation of an option is stored under. */
  function VariationKey(option: string, variation: string): string {
    if option == "" then variation else option + "_" + variation
  }

  /** get(option, variation, default, allowed_types). */
  function GetVariation(l: VariationLedger, option: string, variation: string, default: Value,
                        types: Option<set<Tag>>): (r: Result<(Value, VariationLedger)>)
    ensures !HasKey(l.block, VariationKey(option, variation)) ==> r == Ok((default, l))
    ensures HasKey(l.block, VariationKey(option, variation)) ==>
      (r.Ok? <==> TypeAllowed(Lookup(l.block, VariationKey(option, variation)).value, types))
    ensures r.Ok? && HasKey(l.block, VariationKey(option, variation)) ==>
      r.value.1 == l.(used := l.used + {option})
  {
    var key := VariationKey(option, variation);
    match Lookup(l.block, key)
    case None => Ok((default, l))
    case Some(v) =>
      if !TypeAllowed(v, types) then Fail(WrongType(option))
      else Ok((v, l.(used := l.used + {option})))
  }

  /** get(option, variation, None, [str]). */
  function GetVariationStr(l: VariationLedger, option: string, variation: string)
    : (r: Result<(Option<string>, VariationLedger)>)
    ensures !HasKey(l.block, VariationKey(option, variation)) ==> r == Ok((None, l))
    ensures HasKey(l.block, VariationKey(option, variation)) ==>
      (r.Ok? <==> Lookup(l.block, VariationKey(option, variation)).value.Str?)
    ensures r.Ok? && HasKey(l.block, VariationKey(option, variation)) ==>
      r.value == (Some(Lookup(l.block, VariationKey(option, variation)).value.s), l.(used := l.used + {option}))
  {
    var (v, l') :- GetVariation(l, option, variation, Null, Some({StrTag}));
    Ok((if v.Str? then Some(v.s) else None, l'))
  }

  /** use_option: mark an option as read without reading it. */
  function UseOption(l: VariationLedger, option: string): (r: VariationLedger)
    ensures r.block == l.block && r.tracked == l.tracked && r.used == l.used + {option}
  {
    l.(used := l.used + {option})
  }

  /** get_unused_options: tracked options never read. */
  function UnusedVariations(l: VariationLedger): (r: seq<string>)
    ensures forall o :: o in r <==> o in l.tracked && o !in l.used
  {
    Seqs.Filter(l.tracked, o => o !in l.used)
  }

  /** get_unused_options is empty exactly when every tracked option was
      read. */
  lemma NothingUnusedVariations(l: VariationLedger)
    ensures |UnusedVariations(l)| == 0 <==> forall o :: o in l.tracked ==> o in l.used
  {
    if exists o :: o in l.tracked && o !in l.used {
      var o :| o in l.tracked && o !in l.used;
      assert o in UnusedVariations(l);
    }
    if |UnusedVariations(l)| > 0 {
      assert UnusedVariations(l)[0] in UnusedVariations(l);
    }
  }

  /** After use_option, the option is no longer reported as unused and every
      other option is reported exactly as before. */
  lemma UseOptionMarksRead(l: VariationLedger, option: string)
    ensures option !in UnusedVariations(UseOption(l, option))
    ensures forall o :: o != option ==>
              (o in UnusedVariations(UseOption(l, option)) <==> o in UnusedVariations(l))
  {
    var r := UnusedVariations(UseOption(l, option));
    forall o | o != option
      ensures o in r <==> o in UnusedVariations(l)
    {
      assert o in l.used + {option} <==> o in l.used;
    }
  }

  /** The key `get` reads belongs to exactly the option it marks, so reading
      every option of a variation block leaves nothing unused. */
  lemma VariationKeyTracksOption(option: string, variation: string)
    requires variation == "up" || variation == "down"
    ensures TrackedName(VariationKey(option, variation)) == Some(option)
  {
    var key := VariationKey(option, variation);
    if option != "" {
      if variation == "up" {
        assert key[|key| - 3..] == "_up";
        assert key[..|key| - 3] == option;
      } else {
        assert key[|key| - 3..] != "_up" by {
          assert key[|key| - 1] == 'n';
        }
        assert key[|key| - 5..] == "_down";
        assert key[..|key| - 5] == option;
      }
    }
  }

  /** A fresh variation ledger reports as unused exactly the options that
      some key of the block belongs to. */
  lemma FreshVariationsReportsTracked(b: Block, option: string)
    ensures option in UnusedVariations(FreshVariations(b)) <==>
      exists j :: 0 <= j < |b| && TrackedName(b[j].key) == Some(option)
  {
    var keys := Keys(b);
    TrackedNamesMembership(keys, option);
    if exists j :: 0 <= j < |b| && TrackedName(b[j].key) == Some(option) {
      var j :| 0 <= j < |b| && TrackedName(b[j].key) == Some(option);
      assert TrackedName(keys[j]) == Some(option);
    }
  }
}

=== FILE: merge_jobs.dfy ===
/** The bookkeeping half of the job-merging script (merge_jobs.py): which
    output files belong to a sample that was split into several jobs, and
    whether the set of job outputs is complete. The merge itself runs an
    external program and is not part of this model.

    A job output is named "<sample>_Njobs_<njobs>_<tag>_<index>.root". */
module MergeJobs {
  import opened Wrappers
  import opened StringOps
  import Seqs

  /** Python's int() on a string: white space around it, an optional sign,
      then decimal digits. */
  function PyInt(s: string): (r: Option<int>)
  {
    var t := Strip(s, Whitespace);
    if IsInt(t) then Some(DigitsValue(t))
    else if |t| > 0 && (t[0] == '+' || t[0] == '-') && IsInt(t[1..]) then
      var v: int := DigitsValue(t[1..]);
      Some(if t[0] == '-' then -v else v)
    else None
  }

  /** The decimal form of a number reads back as that number. */
  lemma PyIntOfDecimal(n: nat)
    ensures PyInt(NatToString(n)) == Some(n)
  {
    var s := NatToString(n);
    assert s[0] !in Whitespace && s[|s| - 1] !in Whitespace;
    assert StripLeft(s, Whitespace) == s;
    assert StripRight(s, Whitespace) == s;
    NatToStringRoundTrip(n);
  }

  /** What a job's file name starts with. */
  function JobPrefix(sample: string): string {
    sample + "_Njobs_"
  }

  /** get_njobs_and_job_index_from_file_name: after the prefix, the first
      "_"-separated field is the number of jobs and the third, with ".root"
      removed, the job index; anything else is fatal. */
  function JobFields(fileName: string, sample: string): (r: Result<(int, int)>)
  {
    var prefix := JobPrefix(sample);
    var skimmed := if |prefix| <= |fileName| then fileName[|prefix|..] else "";
    var parts := PySplit(skimmed, '_');
    match PyInt(parts[0])
    case None => Fail(InvalidValue("Could not parse the file name: " + fileName))
    case Some(njobs) =>
      if |parts| < 3 then Fail(InvalidValue("Could not parse the file name: " + fileName))
      else
        match PyInt(ReplaceAll(parts[2], ".root", ""))
        case None => Fail(InvalidValue("Could not parse the file name: " + fileName))
        case Some(index) => Ok((njobs, index))
  }

  /** Removing ".root" from an integer followed by ".root" leaves the
      integer. */
  lemma ReplaceRootSuffix(digits: string)
    requires IsInt(digits)
    ensures ReplaceAll(digits + ".root", ".root", "") == digits
  {
    var s := digits + ".root";
    assert OccursAt(s, ".root", |digits|);
    forall j | 0 <= j < |digits| ensures !OccursAt(s, ".root", j) {
      assert s[j] == digits[j] && IsDigit(s[j]);
    }
    assert Find(s, ".root") == Some(|digits|);
    assert s[..|digits|] == digits && s[|digits| + 5..] == "";
  }

  lemma RootNameHasNoSeparator(index: string)
    requires IsInt(index)
    ensures !Contains(index + ".root", "_")
  {
    var last := index + ".root";
    forall j | 0 <= j < |last| ensures last[j] != '_' {
      if j >= |index| {
        assert last[j] == ".root"[j - |index|];
      }
    }
    NoSeparatorChar(last, "_");
  }

  /** The fields after the prefix of a job output name. */
  lemma JobNamePieces(njobs: string, tag: string, index: string)
    requires IsInt(njobs) && IsInt(index) && !Contains(tag, "_")
    ensures PySplit(njobs + "_" + tag + "_" + index + ".root", '_') == [njobs, tag, index + ".root"]
  {
    var last := index + ".root";
    RootNameHasNoSeparator(index);
    IntHasNoSeparator(njobs, "_");
    NoUnderscore(last);
    NoUnderscore(tag);
    NoUnderscore(njobs);
    PySplitWhole(last, '_');
    PySplitCons(tag, '_', last);
    PySplitCons(njobs, '_', tag + "_" + last);
    assert njobs + "_" + tag + "_" + index + ".root" == njobs + ['_'] + (tag + ['_'] + last);
  }

  /** A string in which "_" does not occur has no '_' character. */
  lemma NoUnderscore(s: string)
    requires !Contains(s, "_")
    ensures '_' !in s
  {
    forall j | 0 <= j < |s| ensures s[j] != '_' {
      assert !OccursAt(s, "_", j) && s[j..j + 1] == [s[j]];
    }
  }

  /** The fields of a job output name read back as the number of jobs and
      the index it was written with. */
  lemma JobFieldsRoundTrip(sample: string, njobs: nat, tag: string, index: nat)
    requires !Contains(tag, "_")
    ensures JobFields(JobPrefix(sample) + NatToString(njobs) + "_" + tag + "_" + NatToString(index) + ".root", sample) ==
            Ok((njobs, index))
  {
    var n := NatToString(njobs);
    var i := NatToString(index);
    var prefix := JobPrefix(sample);
    var name := prefix + n + "_" + tag + "_" + i + ".root";
    assert name[|prefix|..] == n + "_" + tag + "_" + i + ".root";
    JobNamePieces(n, tag, i);
    ReplaceRootSuffix(i);
    PyIntOfDecimal(njobs);
    PyIntOfDecimal(index);
    JobFieldsOfPieces(name, sample, n, tag, i, njobs, index);
  }

  /** The fields read from a name whose pieces after the prefix are known. */
  lemma JobFieldsOfPieces(name: string, sample: string, n: string, tag: string, i: string, njobs: int, index: int)
    requires |JobPrefix(sample)| <= |name|
    requires PySplit(name[|JobPrefix(sample)|..], '_') == [n, tag, i + ".root"]
    requires PyInt(n) == Some(njobs) && PyInt(ReplaceAll(i + ".root", ".root", "")) == Some(index)
    ensures JobFields(name, sample) == Ok((njobs, index))
  {
  }

  function PrefixTest(sample: string): string -> bool {
    f => StartsWith(f, JobPrefix(sample))
  }

  /** The files of one sample's jobs, in input order. */
  function Collected(files: seq<string>, sample: string): seq<string> {
    Seqs.Filter(files, PrefixTest(sample))
  }

  /** The parsed fields of every name. */
  function ParsedFields(outs: seq<string>, sample: string): (r: seq<Result<(int, int)>>)
    ensures |r| == |outs|
    decreases |outs|
  {
    if |outs| == 0 then [] else ParsedFields(outs[..|outs| - 1], sample) + [JobFields(outs[|outs| - 1], sample)]
  }

  /** Field k is the parse of name k. */
  lemma {:induction false} ParsedFieldsAt(outs: seq<string>, sample: string, k: nat)
    requires k < |outs|
    ensures ParsedFields(outs, sample)[k] == JobFields(outs[k], sample)
    decreases |outs|
  {
    if k < |outs| - 1 {
      ParsedFieldsAt(outs[..|outs| - 1], sample, k);
    }
  }

  /** A complete set of job fields: at least one, every name parsed, all
      agreeing on the number of jobs, and each index below it present. */
  ghost predicate CompleteFields(fs: seq<Result<(int, int)>>) {
    |fs| > 0 &&
    (forall k :: 0 <= k < |fs| ==> fs[k].Ok?) &&
    (forall k :: 0 <= k < |fs| ==> fs[k].value.0 == fs[0].value.0) &&
    (forall i :: 0 <= i < fs[0].value.0 ==> HasIndex(fs, i))
  }

  /** Some parsed name carries job index `i`. */
  predicate HasIndex(fs: seq<Result<(int, int)>>, i: int) {
    exists k :: 0 <= k < |fs| && fs[k].Ok? && fs[k].value.1 == i
  }

  /** The two consistency loops of the script over the parsed names. */
  method CheckJobs(fs: seq<Result<(int, int)>>, sample: string) returns (r: Outcome)
    ensures r.Pass? <==> CompleteFields(fs)
  {
    var njobs: Option<int> := None;
    for k := 0 to |fs|
      invariant njobs.None? <==> k == 0
      invariant forall j :: 0 <= j < k ==> fs[j].Ok?
      invariant njobs.Some? ==> njobs.value == fs[0].value.0
      invariant njobs.Some? ==> forall j :: 0 <= j < k ==> fs[j].value.0 == njobs.value
    {
      if fs[k].Fail? {
        return Stop(fs[k].error);
      }
      if njobs.None? {
        njobs := Some(fs[k].value.0);
      } else if njobs.value != fs[k].value.0 {
        return Stop(Runtime("Inconsistent number of jobs for sample " + sample));
      }
    }
    if njobs.None? {
      return Stop(Runtime("No job outputs for sample " + sample));
    }
    var n := njobs.value;
    var i := 0;
    while i < n
      invariant 0 <= i
      invariant forall i' :: 0 <= i' < i ==> HasIndex(fs, i')
    {
      var found := false;
      for k := 0 to |fs|
        invariant !found ==> forall j :: 0 <= j < k ==> fs[j].value.1 != i
        invariant found ==> HasIndex(fs, i)
      {
        if fs[k].value.1 == i {
          found := true;
        }
      }
      if !found {
        assert !HasIndex(fs, i);
        return Stop(Runtime("Missing job index " + IntToString(i) + " for sample " + sample));
      }
      i := i + 1;
    }
    return Pass;
  }

  /** The job outputs of a sample among the files are complete. */
  ghost predicate SampleComplete(files: seq<string>, sample: string) {
    CompleteFields(ParsedFields(Collected(files, sample), sample))
  }

  /** One sample of get_sample_name_to_list_of_subjob_outputs: the sample's
      files, when their set is complete. With no file at all the script
      stops on range(None). */
  method SubjobOutputs(files: seq<string>, sample: string) returns (r: Result<seq<string>>)
    ensures r.Ok? <==> SampleComplete(files, sample)
    ensures r.Ok? ==> r.value == Collected(files, sample)
  {
    var outs := Collected(files, sample);
    var check := CheckJobs(ParsedFields(outs, sample), sample);
    if check.Stop? {
      return Fail(check.error);
    }
    return Ok(outs);
  }

  /** get_sample_name_to_list_of_subjob_outputs: every sample's job
      outputs, each set complete. */
  method SampleOutputs(files: seq<string>, samples: seq<string>) returns (r: Result<map<string, seq<string>>>)
    ensures r.Ok? <==> forall k :: 0 <= k < |samples| ==> SampleComplete(files, samples[k])
    ensures r.Ok? ==> forall s :: s in r.value <==> s in samples
    ensures r.Ok? ==> forall s :: s in r.value ==> r.value[s] == Collected(files, s)
  {
    var result: map<string, seq<string>> := map[];
    for k := 0 to |samples|
      invariant forall j :: 0 <= j < k ==> SampleComplete(files, samples[j])
      invariant Gathered(files, samples[..k], result)
    {
      var outs := SubjobOutputs(files, samples[k]);
      if outs.Fail? {
        return Fail(outs.error);
      }
      CollectedSnoc(files, samples, k, result, outs.value);
      result := result[samples[k] := outs.value];
    }
    assert samples[..|samples|] == samples;
    return Ok(result);
  }

  /** The map holds exactly the given samples, each with its outputs. */
  ghost predicate Gathered(files: seq<string>, samples: seq<string>, result: map<string, seq<string>>) {
    (forall s :: s in result <==> s in samples) &&
    (forall s :: s in result ==> result[s] == Collected(files, s))
  }

  /** The outputs of one sample more, added to the map of those before. */
  lemma CollectedSnoc(files: seq<string>, samples: seq<string>, k: nat, result: map<string, seq<string>>,
                      outs: seq<string>)
    requires k < |samples| && outs == Collected(files, samples[k])
    requires Gathered(files, samples[..k], result)
    ensures Gathered(files, samples[..k + 1], result[samples[k] := outs])
  {
    Seqs.PrefixSnoc(samples, k);
  }

}

=== FILE: metadata.dfy ===
/** The metadata of one unique sample (Metadata): its cross-section, its
    sums of weights by name, and its input files. Sums of weights keep the
    first value given for a name; file paths are kept once each, in the
    order first added. */
module MetadataModel {
  import opened Wrappers
  import Seqs

  datatype Metadata = Metadata(crossSection: real, crossSectionSet: bool,
                               sumWeights: map<string, real>, filePaths: seq<string>)

  /** A new record: cross-section -1, flagged as not set, nothing else. */
  function NewMetadata(): (m: Metadata)
    ensures m.crossSection == -1.0 && !m.crossSectionSet
    ensures m.sumWeights == map[] && m.filePaths == []
  {
    Metadata(-1.0, false, map[], [])
  }

  /** addSumWeights: a name already present keeps its value (a warning is
      all the second call produces). */
  function AddSumWeights(m: Metadata, name: string, value: real): (r: Metadata)
    ensures name in r.sumWeights
    ensures name in m.sumWeights ==> r.sumWeights[name] == m.sumWeights[name]
    ensures name !in m.sumWeights ==> r.sumWeights[name] == value
    ensures r.sumWeights.Keys == m.sumWeights.Keys + {name}
    ensures forall n :: n in m.sumWeights ==> r.sumWeights[n] == m.sumWeights[n]
    ensures r.filePaths == m.filePaths && r.crossSection == m.crossSection
  {
    if name in m.sumWeights then m else m.(sumWeights := m.sumWeights[name := value])
  }

  /** sumWeightExist. */
  predicate SumWeightExist(m: Metadata, name: string) {
    name in m.sumWeights
  }

  /** sumWeight: a name never added is fatal. */
  function SumWeight(m: Metadata, name: string): (r: Result<real>)
    ensures r.Ok? <==> SumWeightExist(m, name)
    ensures r.Ok? ==> r.value == m.sumWeights[name]
  {
    if name in m.sumWeights then Ok(m.sumWeights[name])
    else Fail(InvalidValue("Cannot find name: " + name + ", in the list of the sumweights"))
  }

  /** The first value given for a name is the one read back, whatever is
      added after it. */
  lemma FirstSumWeightWins(m: Metadata, name: string, first: real, second: real)
    requires !SumWeightExist(m, name)
    ensures SumWeight(AddSumWeights(AddSumWeights(m, name, first), name, second), name) == Ok(first)
  {
  }

  /** addFilePath: appended unless already present. */
  function AddFilePath(m: Metadata, path: string): (r: Metadata)
    ensures path in r.filePaths
    ensures path in m.filePaths ==> r.filePaths == m.filePaths
    ensures path !in m.filePaths ==> r.filePaths == m.filePaths + [path]
    ensures r.sumWeights == m.sumWeights
  {
    if path in m.filePaths then m else m.(filePaths := m.filePaths + [path])
  }

  /** Adding paths one after the other. */
  function AddFilePaths(m: Metadata, paths: seq<string>): (r: Metadata)
    decreases |paths|
  {
    if |paths| == 0 then m else AddFilePath(AddFilePaths(m, paths[..|paths| - 1]), paths[|paths| - 1])
  }

  /** Starting from a new record, the stored paths are the given ones
      without repetitions, in the order of their first occurrence. */
  lemma {:induction false} AddFilePathsIsDedup(paths: seq<string>)
    ensures AddFilePaths(NewMetadata(), paths).filePaths == Seqs.Dedup(paths)
    decreases |paths|
  {
    if |paths| > 0 {
      var front := paths[..|paths| - 1];
      var last := paths[|paths| - 1];
      AddFilePathsIsDedup(front);
      assert paths == front + [last];
      Seqs.DedupSnoc(front, last);
    }
  }
}

=== FILE: native_sample.dfy ===
/** The native sample (Sample): its unique sample identities, truth trees,
    systematics and automatic-systematic exclusions, and the queries the
    event loop asks of them. Regions, systematics and truth blocks are
    reduced to the fields those queries read. */
module NativeSample {
  import opened Wrappers
  import Seqs
  import Regex
  import SampleIds

  /** A systematic variation: it is the nominal one exactly when it is named
      NOSYS. Its regions are kept by name. */
  datatype Systematic = Systematic(name: string, sumWeights: string, weightSuffix: string, regions: seq<string>) {
    predicate IsNominal() { name == "NOSYS" }
  }

  /** The fields of a truth block the sample reads. */
  datatype TruthTree = TruthTree(treeName: string, matchRecoTruth: bool, produceUnfolding: bool)

  datatype Sample = Sample(name: string, recoTreeName: string, pairingIndices: seq<string>,
                           nominalSumWeights: string, ids: seq<SampleIds.UniqueSampleId>,
                           truths: seq<TruthTree>, systematics: seq<Systematic>,
                           excludeAutomaticSystematics: seq<string>,
                           automaticSystematics: bool, nominalOnly: bool)

  /** A new sample: reco tree "reco", pairing on eventNumber alone, nominal
      sum of weights "NOSYS", and nothing attached yet. */
  function NewSample(name: string): (s: Sample)
    ensures s.name == name && s.recoTreeName == "reco"
    ensures s.pairingIndices == ["eventNumber"] && s.nominalSumWeights == "NOSYS"
    ensures s.ids == [] && s.truths == [] && s.systematics == [] && s.excludeAutomaticSystematics == []
    ensures !s.automaticSystematics && !s.nominalOnly
  {
    Sample(name, "reco", ["eventNumber"], "NOSYS", [], [], [], [], false, false)
  }

  /** skipSystematicRegionCombination: the systematic is not defined in
      the region, i.e. no region of the systematic has the region's name. */
  method SkipSystematicRegionCombination(syst: Systematic, region: string) returns (skip: bool)
    ensures skip <==> region !in syst.regions
  {
    var i := 0;
    while i < |syst.regions|
      invariant 0 <= i <= |syst.regions|
      invariant region !in syst.regions[..i]
    {
      if syst.regions[i] == region {
        return false;
      }
      i := i + 1;
    }
    assert syst.regions[..i] == syst.regions;
    return true;
  }

  /** The tree names of the truth blocks, in order. */
  function TreeNames(truths: seq<TruthTree>): (r: seq<string>)
    ensures |r| == |truths| && forall k :: 0 <= k < |truths| ==> r[k] == truths[k].treeName
  {
    seq(|truths|, k requires 0 <= k < |truths| => truths[k].treeName)
  }

  /** uniqueTruthTreeNames: each tree name once, at its first occurrence. */
  method UniqueTruthTreeNames(s: Sample) returns (r: seq<string>)
    ensures r == Seqs.Dedup(TreeNames(s.truths))
  {
    var names := TreeNames(s.truths);
    r := Seqs.AppendUnseen([], [], names);
    assert [] + names == names;
  }

  /** matchTruthTree: some truth block on this tree matches reco to truth. */
  method MatchTruthTree(s: Sample, tree: string) returns (r: bool)
    ensures r <==> exists k :: 0 <= k < |s.truths| && s.truths[k].treeName == tree && s.truths[k].matchRecoTruth
  {
    var i := 0;
    while i < |s.truths|
      invariant 0 <= i <= |s.truths|
      invariant forall k :: 0 <= k < i ==> !(s.truths[k].treeName == tree && s.truths[k].matchRecoTruth)
    {
      if s.truths[i].treeName == tree && s.truths[i].matchRecoTruth {
        return true;
      }
      i := i + 1;
    }
    return false;
  }

  /** The reference for matchTruthTree. */
  predicate Matches(s: Sample, tree: string) {
    exists k :: 0 <= k < |s.truths| && s.truths[k].treeName == tree && s.truths[k].matchRecoTruth
  }

  /** uniqueTruthTreeNamesForMatching: the unique tree names some matching
      truth block uses, in first-occurrence order. */
  method UniqueTruthTreeNamesForMatching(s: Sample) returns (r: seq<string>)
    ensures r == Seqs.Filter(Seqs.Dedup(TreeNames(s.truths)), t => Matches(s, t))
    ensures Seqs.IsSubsequence(r, Seqs.Dedup(TreeNames(s.truths)))
  {
    var unique := UniqueTruthTreeNames(s);
    ghost var p := t => Matches(s, t);
    r := [];
    var i := 0;
    while i < |unique|
      invariant 0 <= i <= |unique|
      invariant r == Seqs.Filter(unique[..i], p)
    {
      var tree := unique[i];
      var keep := MatchTruthTree(s, tree);
      Seqs.PrefixSnoc(unique, i);
      Seqs.FilterAppend(unique[..i], [tree], p);
      assert Seqs.Filter([tree], p) == if keep then [tree] else [];
      if keep {
        r := r + [tree];
      }
      i := i + 1;
    }
    assert unique[..i] == unique;
  }

  /** nominalSystematic: the first nominal systematic; none is fatal. */
  method NominalSystematic(s: Sample) returns (r: Result<Systematic>)
    ensures r.Fail? <==> forall k :: 0 <= k < |s.systematics| ==> !s.systematics[k].IsNominal()
    ensures r.Ok? ==> r.value.IsNominal() &&
                      exists k :: 0 <= k < |s.systematics| && s.systematics[k] == r.value &&
                                  forall j :: 0 <= j < k ==> !s.systematics[j].IsNominal()
  {
    var i := 0;
    while i < |s.systematics|
      invariant 0 <= i <= |s.systematics|
      invariant forall j :: 0 <= j < i ==> !s.systematics[j].IsNominal()
    {
      if s.systematics[i].IsNominal() {
        return Ok(s.systematics[i]);
      }
      i := i + 1;
    }
    return Fail(Runtime("Cannot find nominal systematic in the list of systematics for sample: " + s.name));
  }

  /** hasSystematic: some systematic has this name. */
  method HasSystematic(s: Sample, name: string) returns (r: bool)
    ensures r <==> exists k :: 0 <= k < |s.systematics| && s.systematics[k].name == name
  {
    var i := 0;
    while i < |s.systematics|
      invariant 0 <= i <= |s.systematics|
      invariant forall j :: 0 <= j < i ==> s.systematics[j].name != name
    {
      if s.systematics[i].name == name {
        return true;
      }
      i := i + 1;
    }
    return false;
  }

  /** skipExcludedSystematic: some exclusion pattern matches the whole
      systematic name. */
  method SkipExcludedSystematic(e: Regex.Engine, s: Sample, name: string) returns (skip: bool)
    ensures skip <==> Regex.FullMatchesAny(e, s.excludeAutomaticSystematics, name)
  {
    skip := false;
    var i := 0;
    while i < |s.excludeAutomaticSystematics|
      invariant 0 <= i <= |s.excludeAutomaticSystematics|
      invariant forall j :: 0 <= j < i ==> !Regex.FullMatch(e, s.excludeAutomaticSystematics[j], name)
    {
      if Regex.FullMatch(e, s.excludeAutomaticSystematics[i], name) {
        return true;
      }
      i := i + 1;
    }
  }

  /** hasUnfolding: some truth block produces an unfolding. */
  method HasUnfolding(s: Sample) returns (r: bool)
    ensures r <==> exists k :: 0 <= k < |s.truths| && s.truths[k].produceUnfolding
  {
    var i := 0;
    while i < |s.truths|
      invariant 0 <= i <= |s.truths|
      invariant forall j :: 0 <= j < i ==> !s.truths[j].produceUnfolding
    {
      if s.truths[i].produceUnfolding {
        return true;
      }
      i := i + 1;
    }
    return false;
  }

  /** isData: ANY identity of the sample is data. */
  method IsData(s: Sample) returns (r: bool)
    ensures r <==> exists k :: 0 <= k < |s.ids| && SampleIds.IsData(s.ids[k])
  {
    var i := 0;
    while i < |s.ids|
      invariant 0 <= i <= |s.ids|
      invariant forall j :: 0 <= j < i ==> !SampleIds.IsData(s.ids[j])
    {
      if SampleIds.IsData(s.ids[i]) {
        return true;
      }
      i := i + 1;
    }
    return false;
  }
}

=== FILE: native_utils.dfy ===
/** Two selection helpers of the native utilities (Utils): splitting a file
    list between jobs, and keeping the branch names some pattern selects and
    no pattern excludes. */
module NativeUtils {
  import opened Wrappers
  import Seqs
  import Regex

  // ---------------------------------------------------------------------
  // selectedFileList

  /** The files a job keeps when the running file counter starts at
      `start`: file k is kept when (start + k) mod split equals the index. */
  function KeptFiles(files: seq<string>, split: int, index: int, start: nat): (r: seq<string>)
    requires split != 0
    decreases |files|
  {
    if |files| == 0 then []
    else
      var front := KeptFiles(files[..|files| - 1], split, index, start);
      if (start + |files| - 1) % split == index then front + [files[|files| - 1]] else front
  }

  /** selectedFileList. The counter is a function-local static in the
      native code, so it is passed in and handed back: it keeps counting
      across calls. A negative index is fatal. */
  method SelectedFileList(files: seq<string>, split: int, index: int, counter: nat)
    returns (r: Result<seq<string>>, counterAfter: nat)
    requires split != 0
    ensures r.Fail? <==> index < 0
    ensures r.Ok? ==> r.value == KeptFiles(files, split, index, counter)
    ensures r.Ok? ==> counterAfter == counter + |files|
    ensures r.Fail? ==> counterAfter == counter
  {
    counterAfter := counter;
    if index < 0 {
      return Fail(InvalidValue("Index < 0, cannot proceed")), counterAfter;
    }
    var result := [];
    var i := 0;
    while i < |files|
      invariant 0 <= i <= |files|
      invariant counterAfter == counter + i
      invariant result == KeptFiles(files[..i], split, index, counter)
    {
      assert files[..i + 1][..i] == files[..i];
      if counterAfter % split == index {
        result := result + [files[i]];
      }
      counterAfter := counterAfter + 1;
      i := i + 1;
    }
    assert files[..i] == files;
    return Ok(result), counterAfter;
  }

  /** Splitting a list into two calls gives the same files as one call,
      because the counter carries over. */
  lemma {:induction false} KeptFilesAppend(a: seq<string>, b: seq<string>, split: int, index: int, start: nat)
    requires split != 0
    ensures KeptFiles(a + b, split, index, start) ==
            KeptFiles(a, split, index, start) + KeptFiles(b, split, index, start + |a|)
    decreases |b|
  {
    if |b| == 0 {
      assert a + b == a;
    } else {
      var ab := a + b;
      assert ab[..|ab| - 1] == a + b[..|b| - 1];
      assert ab[|ab| - 1] == b[|b| - 1];
      KeptFilesAppend(a, b[..|b| - 1], split, index, start);
    }
  }

  /** Kept file k is the one at a position whose counter value leaves the
      index as remainder: with the counter at 0 and index below split, a job
      keeps one file in every `split`, so the jobs together keep each file
      exactly once. */
  lemma {:induction false} KeptFilesMembership(files: seq<string>, split: int, index: int, start: nat, f: string)
    requires split != 0
    ensures f in KeptFiles(files, split, index, start) <==>
            exists k :: 0 <= k < |files| && files[k] == f && (start + k) % split == index
    decreases |files|
  {
    if |files| > 0 {
      var front := files[..|files| - 1];
      KeptFilesMembership(front, split, index, start, f);
      assert forall k :: 0 <= k < |front| ==> files[k] == front[k];
    }
  }

  // ---------------------------------------------------------------------
  // selectedNotExcludedElements

  /** Some pattern matches the whole element, by a loop over the patterns
      that stops at the first match. */
  method AnyFullMatch(e: Regex.Engine, patterns: seq<string>, element: string) returns (r: bool)
    ensures r <==> Regex.FullMatchesAny(e, patterns, element)
  {
    var i := 0;
    while i < |patterns|
      invariant 0 <= i <= |patterns|
      invariant forall j :: 0 <= j < i ==> !Regex.FullMatch(e, patterns[j], element)
    {
      if Regex.FullMatch(e, patterns[i], element) {
        return true;
      }
      i := i + 1;
    }
    return false;
  }

  /** The reference: selected by a pattern and excluded by none. */
  predicate Chosen(e: Regex.Engine, selected: seq<string>, excluded: seq<string>, element: string) {
    Regex.FullMatchesAny(e, selected, element) && !Regex.FullMatchesAny(e, excluded, element)
  }

  /** selectedNotExcludedElements: with no pattern at all, everything;
      otherwise the elements a selection pattern matches and no exclusion
      pattern matches, in input order. An empty selection with some
      exclusions therefore keeps nothing. */
  method SelectedNotExcludedElements(e: Regex.Engine, all: seq<string>, selected: seq<string>, excluded: seq<string>)
    returns (r: seq<string>)
    ensures |selected| == 0 && |excluded| == 0 ==> r == all
    ensures |selected| > 0 || |excluded| > 0 ==> r == Seqs.Filter(all, x => Chosen(e, selected, excluded, x))
    ensures |selected| == 0 && |excluded| > 0 ==> r == []
    ensures Seqs.IsSubsequence(r, all)
  {
    if |selected| == 0 && |excluded| == 0 {
      Seqs.FilterAll(all, x => true);
      return all;
    }
    ghost var p := x => Chosen(e, selected, excluded, x);
    r := [];
    var i := 0;
    while i < |all|
      invariant 0 <= i <= |all|
      invariant r == Seqs.Filter(all[..i], p)
      invariant |selected| == 0 ==> r == []
    {
      var element := all[i];
      var isSelected := AnyFullMatch(e, selected, element);
      if isSelected {
        var isExcluded := AnyFullMatch(e, excluded, element);
        isSelected := !isExcluded;
      }
      assert all[..i + 1] == all[..i] + [element];
      Seqs.FilterAppend(all[..i], [element], p);
      assert Seqs.Filter([element], p) == if isSelected then [element] else [];
      if isSelected {
        r := r + [element];
      }
      i := i + 1;
    }
    assert all[..i] == all;
  }
}

=== FILE: ntuple_reader.dfy ===
/** The ntuple block (BlockReaderNtuple): which samples get an output
    ntuple, which events are kept (a selection, or the OR of some regions'
    selections) and which branches and trees are written. */
module NtupleReader {
  import opened Wrappers
  import opened Values
  import opened OptionLedger
  import Seqs
  import StringOps
  import CommandLine

  /** A read ntuple block. `selection` is absent exactly when the events
      are chosen by regions. */
  datatype Ntuple = Ntuple(samples: Option<seq<string>>, excludeSamples: Option<seq<string>>,
                           selection: Option<string>, regions: Option<seq<string>>,
                           branches: seq<string>, excludeBranches: seq<string>, copyTrees: seq<string>)

  const NtupleOptions: set<string> :=
    {"samples", "exclude_samples", "selection", "regions", "branches", "exclude_branches", "copy_trees"}

  /** The sample lists, narrowed to the command line; they exclude each
      other. */
  function ReadSampleChoice(l: Ledger, cli: CommandLine.Options)
    : (r: Result<(Option<seq<string>>, Option<seq<string>>, Ledger)>)
    ensures r.Ok? ==> ReadsWithin(l, r.value.2, {"samples", "exclude_samples"})
    ensures r.Ok? ==> r.value.0 == CommandLine.KeepSelectedSamples(StringsAt(l.block, "samples"), cli)
                      && r.value.1 == CommandLine.KeepSelectedSamples(StringsAt(l.block, "exclude_samples"), cli)
    ensures r.Ok? ==> !(r.value.0.Some? && r.value.1.Some?)
    ensures HasKey(l.block, "samples") && HasKey(l.block, "exclude_samples") ==> r.Fail?
  {
    var (samples, l1) :- GetStrList(l, "samples");
    var (exclude, l2) :- GetStrList(l1, "exclude_samples");
    var kept := CommandLine.KeepSelectedSamples(samples, cli);
    var keptExclude := CommandLine.KeepSelectedSamples(exclude, cli);
    :- Need(!(kept.Some? && keptExclude.Some?), ConflictingOptions("samples", "exclude_samples"));
    Ok((kept, keptExclude, l2))
  }

  /** A selection or a list of regions, not both; with neither, every
      event is kept ("true"). */
  function ReadSelectionChoice(l: Ledger): (r: Result<(Option<string>, Option<seq<string>>, Ledger)>)
    ensures r.Ok? ==> ReadsWithin(l, r.value.2, {"selection", "regions"})
    ensures r.Ok? ==> (r.value.0.Some? <==> r.value.1.None?)
    ensures r.Ok? && !HasKey(l.block, "selection") && !HasKey(l.block, "regions") ==> r.value.0 == Some("true")
    ensures r.Ok? && HasKey(l.block, "selection") ==>
      r.value.0.Some? && Lookup(l.block, "selection") == Some(Str(r.value.0.value))
    ensures r.Ok? ==> r.value.1 == StringsAt(l.block, "regions")
    ensures HasKey(l.block, "selection") && HasKey(l.block, "regions") ==> r.Fail?
  {
    var (selection, l1) :- GetStr(l, "selection");
    var (regions, l2) :- GetStrList(l1, "regions");
    :- Need(!(regions.Some? && selection.Some?), ConflictingOptions("regions", "selection"));
    Ok((if regions.None? && selection.None? then Some("true") else selection, regions, l2))
  }

  /** The branches to keep, the branches to drop and the trees to copy;
      each defaults to the empty list. */
  function ReadOutputs(l: Ledger): (r: Result<(seq<string>, seq<string>, seq<string>, Ledger)>)
    ensures r.Ok? ==> ReadsWithin(l, r.value.3, {"branches", "exclude_branches", "copy_trees"})
    ensures r.Ok? ==> StringsAt(l.block, "branches").GetOr([]) == r.value.0
                      && StringsAt(l.block, "exclude_branches").GetOr([]) == r.value.1
                      && StringsAt(l.block, "copy_trees").GetOr([]) == r.value.2
  {
    var (branches, l1) :- GetStrList(l, "branches");
    var (exclude, l2) :- GetStrList(l1, "exclude_branches");
    var (trees, l3) :- GetStrList(l2, "copy_trees");
    Ok((branches.GetOr([]), exclude.GetOr([]), trees.GetOr([]), l3))
  }

  /** BlockReaderNtuple's constructor. */
  function ReadNtuple(b: Block, cli: CommandLine.Options): (r: Result<Ntuple>)
    ensures r.Ok? ==> forall k :: k in Keys(b) ==> k in NtupleOptions
    ensures HasKey(b, "samples") && HasKey(b, "exclude_samples") ==> r.Fail?
    ensures HasKey(b, "selection") && HasKey(b, "regions") ==> r.Fail?
    ensures r.Ok? ==> !(r.value.samples.Some? && r.value.excludeSamples.Some?)
    ensures r.Ok? ==> (r.value.selection.Some? <==> r.value.regions.None?)
    ensures r.Ok? && !HasKey(b, "selection") && !HasKey(b, "regions") ==> r.value.selection == Some("true")
    ensures r.Ok? ==> r.value.regions == StringsAt(b, "regions")
    ensures r.Ok? ==> r.value.samples == CommandLine.KeepSelectedSamples(StringsAt(b, "samples"), cli)
    ensures r.Ok? ==> r.value.branches == StringsAt(b, "branches").GetOr([])
  {
    var (samples, exclude, l1) :- ReadSampleChoice(Fresh(b), cli);
    var (selection, regions, l2) :- ReadSelectionChoice(l1);
    var (branches, excludeBranches, trees, l3) :- ReadOutputs(l2);
    var unused := Unused(l3);
    :- Need(|unused| == 0, UnusedOptions(unused));
    NothingUnused(l3);
    Ok(Ntuple(samples, exclude, selection, regions, branches, excludeBranches, trees))
  }

  /** The non-empty selections of the listed regions, each in parentheses;
      an unknown region stops the program. */
  function RegionSelections(names: seq<string>, selections: map<string, string>): (r: Result<seq<string>>)
    ensures r.Ok? <==> forall k :: 0 <= k < |names| ==> names[k] in selections
    ensures r.Fail? ==> r.error.UnknownReference? && r.error.name in names && r.error.name !in selections
    ensures r.Ok? ==> forall x :: x in r.value <==>
      exists k :: 0 <= k < |names| && selections[names[k]] != "" && x == "(" + selections[names[k]] + ")"
    decreases |names|
  {
    if |names| == 0 then Ok([])
    else if names[0] !in selections then Fail(UnknownReference(names[0]))
    else
      assert forall k :: 1 <= k < |names| ==> names[k] == names[1..][k - 1];
      var rest :- RegionSelections(names[1..], selections);
      var here := selections[names[0]];
      Ok(if here != "" then ["(" + here + ")"] + rest else rest)
  }

  /** adjust_regions: the selection the ntuple step uses. With a non-empty
      region list it is the OR of the regions' parenthesised non-empty
      selections, in parentheses; otherwise the block's own selection. An
      empty region list leaves no selection, which the native setter
      rejects. */
  function AdjustRegions(n: Ntuple, selections: map<string, string>): (r: Result<string>)
    ensures n.regions.Some? && |n.regions.value| > 0 ==>
      (r.Ok? <==> forall k :: 0 <= k < |n.regions.value| ==> n.regions.value[k] in selections)
    ensures n.regions.Some? && |n.regions.value| > 0 && r.Ok? ==>
      r.value == "(" + StringOps.Intercalate(" || ", RegionSelections(n.regions.value, selections).value) + ")"
    ensures (n.regions.None? || |n.regions.value| == 0) ==> (r.Ok? <==> n.selection.Some?)
    ensures (n.regions.None? || |n.regions.value| == 0) && r.Ok? ==> r.value == n.selection.value
  {
    if n.regions.Some? && |n.regions.value| > 0 then
      var parts :- RegionSelections(n.regions.value, selections);
      Ok("(" + StringOps.Intercalate(" || ", parts) + ")")
    else if n.selection.Some? then Ok(n.selection.value)
    else Fail(WrongType("selection"))
  }

  /** A block read without regions keeps its own selection, and one with
      neither a selection nor regions keeps every event. */
  lemma SelectionWithoutRegions(b: Block, cli: CommandLine.Options, selections: map<string, string>)
    requires ReadNtuple(b, cli).Ok? && !HasKey(b, "regions")
    ensures AdjustRegions(ReadNtuple(b, cli).value, selections).Ok?
    ensures !HasKey(b, "selection") ==> AdjustRegions(ReadNtuple(b, cli).value, selections) == Ok("true")
  {
    assert StringsAt(b, "regions").None?;
  }

  /** One region with a non-empty selection `s` gives "((s))". */
  lemma SingleRegionSelection(n: Ntuple, name: string, selections: map<string, string>)
    requires n.regions == Some([name]) && name in selections && selections[name] != ""
    ensures AdjustRegions(n, selections) == Ok("((" + selections[name] + "))")
  {
    var names := [name];
    assert names[0] == name && names[1..] == [];
    assert RegionSelections(names[1..], selections) == Ok([]);
    var part := "(" + selections[name] + ")";
    assert [part] + [] == [part];
    assert RegionSelections(names, selections) == Ok([part]);
    assert StringOps.Intercalate(" || ", [part]) == part;
    assert "(" + part + ")" == "((" + selections[name] + "))";
  }

  /** adjust_samples: the samples that get an ntuple. Every excluded
      sample must exist; without a sample list it is every existing sample
      not excluded, in sample order; with one, every listed sample must
      exist and the list is taken as it is. */
  function AdjustSamples(n: Ntuple, sampleNames: seq<string>): (r: Result<seq<string>>)
    ensures r.Ok? <==>
      (n.excludeSamples.None? || forall k :: 0 <= k < |n.excludeSamples.value| ==> n.excludeSamples.value[k] in sampleNames)
      && (n.samples.None? || forall k :: 0 <= k < |n.samples.value| ==> n.samples.value[k] in sampleNames)
    ensures r.Ok? ==> forall x :: x in r.value <==>
      x in sampleNames && (n.samples.None? || x in n.samples.value)
      && (n.excludeSamples.None? || n.samples.Some? || x !in n.excludeSamples.value)
    ensures r.Ok? && n.samples.Some? ==> r.value == n.samples.value
    ensures r.Ok? && n.samples.None? ==> Seqs.IsSubsequence(r.value, sampleNames)
  {
    var excludedKnown := if n.excludeSamples.Some? then CheckKnown(n.excludeSamples.value, sampleNames) else Pass;
    :- excludedKnown;
    if n.samples.None? then
      Ok(Seqs.Filter(sampleNames, x => n.excludeSamples.None? || x !in n.excludeSamples.value))
    else
      :- CheckKnown(n.samples.value, sampleNames);
      Ok(n.samples.value)
  }

  /** Every name is one of `known`; the first that is not stops the
      program. */
  function CheckKnown(names: seq<string>, known: seq<string>): (r: Outcome)
    ensures r.Pass? <==> forall k :: 0 <= k < |names| ==> names[k] in known
    ensures r.Stop? ==> r.error.UnknownReference? && r.error.name in names && r.error.name !in known
  {
    match Seqs.FirstMissing(names, known)
    case None => Pass
    case Some(missing) => Stop(UnknownReference(missing))
  }

  /** Without a sample list, the excluded samples and the ntuple's samples
      split the existing samples between them. */
  lemma ExcludedAndKeptSplitSamples(n: Ntuple, sampleNames: seq<string>)
    requires n.samples.None? && n.excludeSamples.Some?
    requires AdjustSamples(n, sampleNames).Ok?
    ensures forall x :: x in sampleNames ==>
      (x in AdjustSamples(n, sampleNames).value <==> x !in n.excludeSamples.value)
  {
  }
}

=== FILE: numbering.dfy ===
/** The numbering-sequence expander (AutomaticRangeGenerator).

    A block carrying a `numbering_sequence` list stands for several blocks:
    each sequence ("axis") names a replacement token and the values it takes,
    either the integers min..max or an explicit list of strings. The block is
    copied once per combination of values, first axis outermost, and in every
    copy the token is replaced in the string values found at the given key
    paths. */
module Numbering {
  import opened Wrappers
  import opened Values
  import opened OptionLedger
  import StringOps

  /** A key path into nested mappings: all but the last key select
      sub-mappings, the last names the string value to rewrite. */
  type Path = seq<string>

  /** An explicitly given key: a bare key or a path. */
  datatype KeySpec = Key(key: string) | KeyPath(path: Path)

  /** One parsed numbering sequence. */
  datatype Axis = Axis(token: string, values: seq<string>)

  /** A bare key becomes a one-element path; a path is kept (generate_range). */
  function ToPath(k: KeySpec): (p: Path)
    ensures k.Key? ==> p == [k.key]
    ensures k.KeyPath? ==> p == k.path
  {
    match k
    case Key(key) => [key]
    case KeyPath(path) => path
  }

  /** The decimal strings of the integers lo..hi, empty when lo > hi. */
  function Range(lo: int, hi: int): (r: seq<string>)
    ensures |r| == if lo <= hi then hi - lo + 1 else 0
    ensures forall k :: 0 <= k < |r| ==> r[k] == StringOps.IntToString(lo + k)
    decreases hi - lo
  {
    if lo > hi then [] else [StringOps.IntToString(lo)] + Range(lo + 1, hi)
  }

  /** Python's str.replace: for a non-empty token, the pieces of Python's
      split joined with the value; an empty token is inserted before every
      character and at the end. */
  function PyReplace(s: string, token: string, value: string): (r: string)
    ensures |token| > 0 ==> r == StringOps.Intercalate(value, StringOps.PySplitOn(s, token))
    ensures |token| == 0 ==> r == StringOps.Intercalate(value, [""] + Chars(s) + [""])
  {
    if |token| > 0 then StringOps.ReplaceAll(s, token, value) else Interleave(s, value)
  }

  /** The one-character strings of `s`, in order. */
  function Chars(s: string): (r: seq<string>)
    ensures |r| == |s| && forall k :: 0 <= k < |s| ==> r[k] == [s[k]]
  {
    seq(|s|, k requires 0 <= k < |s| => [s[k]])
  }

  /** The value before, between and after the characters of `s`. */
  function Interleave(s: string, value: string): (r: string)
    ensures r == StringOps.Intercalate(value, [""] + Chars(s) + [""])
    decreases |s|
  {
    if |s| == 0 then
      assert [""] + Chars(s) + [""] == ["", ""];
      value
    else
      var rest := Interleave(s[1..], value);
      InterleaveStep(s, value, rest);
      value + [s[0]] + rest
  }

  lemma InterleaveStep(s: string, value: string, rest: string)
    requires |s| > 0 && rest == StringOps.Intercalate(value, [""] + Chars(s[1..]) + [""])
    ensures value + [s[0]] + rest == StringOps.Intercalate(value, [""] + Chars(s) + [""])
  {
    var w1 := Chars(s[1..]) + [""];
    var w := Chars(s) + [""];
    assert w == [[s[0]]] + w1;
    assert [""] + Chars(s[1..]) + [""] == [""] + w1;
    assert [""] + Chars(s) + [""] == [""] + w;
    StringOps.IntercalateCons(value, "", w1);
    StringOps.IntercalateCons(value, [s[0]], w1);
    StringOps.IntercalateCons(value, "", w);
  }

  /** The options of a sequence mapping. */
  const AxisOptions: set<string> := {"replacement_string", "min", "max", "values"}

  /** The four options of a sequence mapping as read. */
  datatype RawAxis = RawAxis(token: Option<string>, lo: Option<int>, hi: Option<int>, values: Option<seq<string>>)

  /** The four `get` calls, in order. */
  function ReadAxis(b: Block): (r: Result<(RawAxis, Ledger)>)
    ensures r.Ok? ==> r.value.1.block == b && r.value.1.used <= AxisOptions
    ensures r.Ok? ==> (r.value.0.token.Some? <==> HasKey(b, "replacement_string"))
    ensures r.Ok? && r.value.0.token.Some? ==> Lookup(b, "replacement_string") == Some(Str(r.value.0.token.value))
    ensures r.Ok? ==> (r.value.0.lo.Some? <==> HasKey(b, "min")) && (r.value.0.hi.Some? <==> HasKey(b, "max"))
    ensures r.Ok? && r.value.0.lo.Some? ==> Lookup(b, "min") == Some(Int(r.value.0.lo.value))
    ensures r.Ok? && r.value.0.hi.Some? ==> Lookup(b, "max") == Some(Int(r.value.0.hi.value))
    ensures r.Ok? ==> (r.value.0.values.Some? <==> HasKey(b, "values"))
    ensures r.Ok? && r.value.0.values.Some? ==> Lookup(b, "values") == Some(StrList(r.value.0.values.value))
  {
    var l := Fresh(b);
    var (token, l1) :- GetStr(l, "replacement_string");
    var (lo, l2) :- GetOptInt(l1, "min");
    var (hi, l3) :- GetOptInt(l2, "max");
    var (values, l4) :- GetStrList(l3, "values");
    Ok((RawAxis(token, lo, hi, values), l4))
  }

  /** The token is required, and exactly one of the min/max pair and the
      values list must be given. */
  function CheckAxis(raw: RawAxis): (r: Result<Axis>)
    ensures r.Ok? <==> raw.token.Some? && ((raw.lo.Some? && raw.hi.Some?) != raw.values.Some?)
    ensures r.Ok? ==> r.value.token == raw.token.value
    ensures r.Ok? && raw.values.Some? ==> r.value.values == raw.values.value
    ensures r.Ok? && raw.values.None? ==> r.value.values == Range(raw.lo.value, raw.hi.value)
  {
    var rangeBased := raw.lo.Some? && raw.hi.Some?;
    var valueBased := raw.values.Some?;
    :- Need(raw.token.Some?, MissingOption("replacement_string"));
    if rangeBased == valueBased then Fail(ConflictingOptions("min/max", "values"))
    else if rangeBased then Ok(Axis(raw.token.value, Range(raw.lo.value, raw.hi.value)))
    else Ok(Axis(raw.token.value, raw.values.value))
  }

  /** _get_replacement_string_and_values: a sequence is a mapping with
      replacement_string and either min and max or values; nothing else. */
  function ParseAxis(v: Value): (r: Result<Axis>)
    ensures !v.Dict? ==> r.Fail?
    ensures v.Dict? && !HasKey(v.entries, "replacement_string") ==> r.Fail?
    ensures r.Ok? ==> Lookup(v.entries, "replacement_string") == Some(Str(r.value.token))
    ensures r.Ok? ==> forall k :: k in Keys(v.entries) ==> k in AxisOptions
    ensures r.Ok? ==> (HasKey(v.entries, "min") && HasKey(v.entries, "max") <==> !HasKey(v.entries, "values"))
    ensures r.Ok? && HasKey(v.entries, "values") ==> Lookup(v.entries, "values") == Some(StrList(r.value.values))
    ensures r.Ok? && !HasKey(v.entries, "values") ==>
      r.value.values == Range(IntOr(v.entries, "min", 0), IntOr(v.entries, "max", 0))
  {
    if !v.Dict? then Fail(WrongType("numbering_sequence"))
    else
      var (raw, l) :- ReadAxis(v.entries);
      var unused := Unused(l);
      :- Need(|unused| == 0, UnusedOptions(unused));
      NothingUnused(l);
      CheckAxis(raw)
  }

  /** Python's `key in v` for a value met while walking a path. A number,
      boolean or null cannot be searched, which is a TypeError. */
  function PyContains(v: Value, key: string): Result<bool> {
    match v
    case Dict(es) => Ok(HasKey(es, key))
    case Str(s) => Ok(StringOps.Contains(s, key))
    case List(items) => Ok(Str(key) in items)
    case Tuple(items) => Ok(Str(key) in items)
    case _ => Fail(WrongType(key))
  }

  /** Rewrites the string at `path` inside `v`, replacing `token` by `value`.
      A missing key skips the path; a key "found" in a string or list cannot
      be indexed by a string, and a non-string value has no replace: both
      are fatal. */
  function ReplaceAt(v: Value, path: Path, token: string, value: string): (r: Result<Value>)
    requires |path| > 0
    ensures r.Ok? && v.Dict? ==>
      r.value.Dict? && forall k :: HasKey(r.value.entries, k) <==> HasKey(v.entries, k)
    ensures r.Ok? && !v.Dict? ==> r.value == v
    ensures v.Dict? && !HasKey(v.entries, path[0]) ==> r == Ok(v)
    ensures |path| == 1 && v.Dict? && HasKey(v.entries, path[0]) && Lookup(v.entries, path[0]).value.Str? ==>
      r == Ok(Dict(Put(v.entries, path[0], Str(PyReplace(Lookup(v.entries, path[0]).value.s, token, value)))))
    decreases |path|
  {
    var key := path[0];
    if v.Dict? then
      var es := v.entries;
      match Lookup(es, key)
      case None => Ok(v)
      case Some(child) =>
        if |path| == 1 then
          if child.Str? then Ok(Dict(Put(es, key, Str(PyReplace(child.s, token, value)))))
          else Fail(WrongType(key))
        else
          var child' :- ReplaceAt(child, path[1..], token, value);
          Ok(Dict(Put(es, key, child')))
    else
      var found :- PyContains(v, key);
      if found then Fail(WrongType(key)) else Ok(v)
  }

  /** The value reached from `v` by following `path` through mappings;
      None when a key is missing or a value on the way is not a mapping. */
  function At(v: Value, path: Path): Option<Value>
    decreases |path|
  {
    if |path| == 0 then Some(v)
    else if v.Dict? && HasKey(v.entries, path[0]) then At(Lookup(v.entries, path[0]).value, path[1..])
    else None
  }

  /** Two paths part at some key: neither is a prefix of the other. */
  predicate Diverge(p: Path, q: Path)
    decreases |p|
  {
    |p| > 0 && |q| > 0 && (p[0] != q[0] || Diverge(p[1..], q[1..]))
  }

  /** The path reaches a string. */
  predicate StringLeaf(v: Value, p: Path) {
    At(v, p).Some? && At(v, p).value.Str?
  }

  /** Rewriting a string reached through mappings succeeds, replaces the
      token in that string, and leaves every value at a path that parts
      from it as it was. */
  lemma {:induction false} ReplaceAtString(v: Value, path: Path, token: string, value: string, s: string)
    requires |path| > 0 && At(v, path) == Some(Str(s))
    ensures ReplaceAt(v, path, token, value).Ok?
    ensures At(ReplaceAt(v, path, token, value).value, path) == Some(Str(PyReplace(s, token, value)))
    ensures forall q :: Diverge(path, q) ==> At(ReplaceAt(v, path, token, value).value, q) == At(v, q)
    decreases |path|
  {
    var es := v.entries;
    var key := path[0];
    var child := Lookup(es, key).value;
    if |path| == 1 {
      var r := Dict(Put(es, key, Str(PyReplace(s, token, value))));
      assert ReplaceAt(v, path, token, value) == Ok(r);
      forall q | Diverge(path, q) ensures At(r, q) == At(v, q) {
        assert !Diverge(path[1..], q[1..]);
      }
    } else {
      ReplaceAtString(child, path[1..], token, value, s);
      var r := Dict(Put(es, key, ReplaceAt(child, path[1..], token, value).value));
      assert ReplaceAt(v, path, token, value) == Ok(r);
      forall q | Diverge(path, q) ensures At(r, q) == At(v, q) {
        if q[0] == key {
          assert Diverge(path[1..], q[1..]);
        }
      }
    }
  }

  /** A path that reaches something other than a string is fatal: the
      value has no replace. */
  lemma {:induction false} ReplaceAtNonString(v: Value, path: Path, token: string, value: string, x: Value)
    requires |path| > 0 && At(v, path) == Some(x) && !x.Str?
    ensures ReplaceAt(v, path, token, value).Fail?
    decreases |path|
  {
    if |path| > 1 {
      ReplaceAtNonString(Lookup(v.entries, path[0]).value, path[1..], token, value, x);
    }
  }

  /** A path that leaves the mappings at a missing key is skipped: the
      value is returned as it was. */
  lemma {:induction false} ReplaceAtMissing(v: Value, path: Path, token: string, value: string, j: nat, es: Block)
    requires j < |path| && At(v, path[..j]) == Some(Dict(es)) && !HasKey(es, path[j])
    ensures ReplaceAt(v, path, token, value) == Ok(v)
    decreases j
  {
    if j > 0 {
      var child := Lookup(v.entries, path[0]).value;
      assert path[..j][1..] == path[1..][..j - 1];
      ReplaceAtMissing(child, path[1..], token, value, j - 1, es);
      PutExisting(v.entries, path[0], child);
    }
  }

  /** All paths rewritten in order in one copy of the block. */
  function ApplyPaths(b: Block, paths: seq<Path>, token: string, value: string): (r: Result<Block>)
    ensures r.Ok? ==> forall k :: HasKey(r.value, k) <==> HasKey(b, k)
    decreases |paths|
  {
    if |paths| == 0 then Ok(b)
    else if |paths[0]| == 0 then Fail(InvalidValue("numbering_sequence"))
    else
      var v :- ReplaceAt(Dict(b), paths[0], token, value);
      ApplyPaths(v.entries, paths[1..], token, value)
  }

  /** Paths that part pairwise and each reach a string: every one of these
      strings has the token replaced, and every value at a path parting
      from all of them is kept. */
  lemma {:induction false} ApplyPathsEffect(b: Block, paths: seq<Path>, token: string, value: string)
    requires forall i :: 0 <= i < |paths| ==> |paths[i]| > 0 && StringLeaf(Dict(b), paths[i])
    requires forall i, j :: 0 <= i < |paths| && 0 <= j < |paths| && i != j ==> Diverge(paths[i], paths[j])
    ensures ApplyPaths(b, paths, token, value).Ok?
    ensures forall i :: 0 <= i < |paths| && StringLeaf(Dict(b), paths[i]) ==>
              At(Dict(ApplyPaths(b, paths, token, value).value), paths[i]) ==
              Some(Str(PyReplace(At(Dict(b), paths[i]).value.s, token, value)))
    ensures forall q :: (forall i :: 0 <= i < |paths| ==> Diverge(paths[i], q)) ==>
              At(Dict(ApplyPaths(b, paths, token, value).value), q) == At(Dict(b), q)
    decreases |paths|
  {
    if |paths| > 0 {
      var p := paths[0];
      ReplaceAtString(Dict(b), p, token, value, At(Dict(b), p).value.s);
      var b1 := ReplaceAt(Dict(b), p, token, value).value.entries;
      var rest := paths[1..];
      forall i | 0 <= i < |rest|
        ensures |rest[i]| > 0 && At(Dict(b1), rest[i]) == At(Dict(b), rest[i])
      {
        assert rest[i] == paths[i + 1];
        assert Diverge(p, paths[i + 1]);
      }
      forall i, j | 0 <= i < |rest| && 0 <= j < |rest| && i != j ensures Diverge(rest[i], rest[j]) {
        assert rest[i] == paths[i + 1] && rest[j] == paths[j + 1];
      }
      ApplyPathsEffect(b1, rest, token, value);
      var r := ApplyPaths(b1, rest, token, value).value;
      assert ApplyPaths(b, paths, token, value) == Ok(r);
      forall i | 0 <= i < |paths|
        ensures At(Dict(r), paths[i]) == Some(Str(PyReplace(At(Dict(b), paths[i]).value.s, token, value)))
      {
        if i == 0 {
          forall i' | 0 <= i' < |rest| ensures Diverge(rest[i'], p) {
            assert rest[i'] == paths[i' + 1];
          }
        } else {
          assert paths[i] == rest[i - 1];
        }
      }
      forall q | forall i :: 0 <= i < |paths| ==> Diverge(paths[i], q)
        ensures At(Dict(r), q) == At(Dict(b), q)
      {
        assert Diverge(paths[0], q);
        forall i | 0 <= i < |rest| ensures Diverge(rest[i], q) {
          assert rest[i] == paths[i + 1];
        }
      }
    }
  }

  /** _generate_range: one block per combination of axis values. Each axis is
      parsed only when it is reached, so a later axis behind an empty one is
      never checked. */
  function GenerateRange(b: Block, paths: seq<Path>, axes: seq<Value>): (r: Result<seq<Block>>)
    ensures |axes| == 0 ==> r == Ok([b])
    ensures r.Ok? ==> forall i, k :: 0 <= i < |r.value| ==> (HasKey(r.value[i], k) <==> HasKey(b, k))
    decreases |axes|, 1, 0
  {
    if |axes| == 0 then Ok([b])
    else
      var axis :- ParseAxis(axes[0]);
      ExpandValues(b, paths, axis.token, axis.values, axes[1..])
  }

  /** The copies for the remaining values of one axis, each expanded over the
      later axes. */
  function ExpandValues(b: Block, paths: seq<Path>, token: string, values: seq<string>,
                        rest: seq<Value>): (r: Result<seq<Block>>)
    ensures r.Ok? ==> forall i, k :: 0 <= i < |r.value| ==> (HasKey(r.value[i], k) <==> HasKey(b, k))
    decreases |rest| + 1, 0, |values|
  {
    if |values| == 0 then Ok([])
    else
      var updated :- ApplyPaths(b, paths, token, values[0]);
      var first :- GenerateRange(updated, paths, rest);
      var others :- ExpandValues(b, paths, token, values[1..], rest);
      Ok(first + others)
  }

  /** The paths of the string values (in nested mappings, not lists) that
      contain a token, once per token contained. */
  function LeafPaths(v: Value, tokens: seq<string>, address: Path): (r: seq<Path>)
    ensures forall k :: 0 <= k < |r| ==> |r[k]| > |address| && r[k][..|address|] == address
    decreases v, 1, 0
  {
    match v
    case Dict(es) => EntryPaths(es, 0, tokens, address, v)
    case _ => []
  }

  function EntryPaths(es: seq<Entry>, i: nat, tokens: seq<string>, address: Path,
                      ghost parent: Value): (r: seq<Path>)
    requires parent == Dict(es) && i <= |es|
    ensures forall k :: 0 <= k < |r| ==> |r[k]| > |address| && r[k][..|address|] == address
    decreases parent, 0, |es| - i
  {
    if i == |es| then []
    else
      var e := es[i];
      assert e.val < parent by {
        assert e < parent;
      }
      var here := address + [e.key];
      var own := OwnPaths(e, tokens, here);
      assert forall k :: 0 <= k < |own| ==> own[k][..|address|] == address by {
        forall k | 0 <= k < |own|
          ensures own[k][..|address|] == address
        {
          assert own[k][..|here|] == here;
          assert own[k][..|address|] == here[..|address|];
        }
      }
      own + EntryPaths(es, i + 1, tokens, address, parent)
  }

  /** The paths contributed by one entry: its own path once per token its
      string contains, or the paths inside its mapping. */
  function OwnPaths(e: Entry, tokens: seq<string>, here: Path): (r: seq<Path>)
    ensures forall k :: 0 <= k < |r| ==> |r[k]| >= |here| && r[k][..|here|] == here
    decreases e.val, 2, 0
  {
    match e.val
    case Str(s) => TokenPaths(s, tokens, here)
    case Dict(_) => LeafPaths(e.val, tokens, here)
    case _ => []
  }

  /** `path` once for every token contained in `s`. */
  function TokenPaths(s: string, tokens: seq<string>, path: Path): (r: seq<Path>)
    ensures |r| <= |tokens|
    ensures forall k :: 0 <= k < |r| ==> r[k] == path
    ensures |r| > 0 <==> exists k :: 0 <= k < |tokens| && StringOps.Contains(s, tokens[k])
    decreases |tokens|
  {
    if |tokens| == 0 then []
    else
      var rest := TokenPaths(s, tokens[1..], path);
      assert (exists k :: 0 <= k < |tokens[1..]| && StringOps.Contains(s, tokens[1..][k])) ==>
             (exists k :: 0 <= k < |tokens| && StringOps.Contains(s, tokens[k])) by {
        if exists k :: 0 <= k < |tokens[1..]| && StringOps.Contains(s, tokens[1..][k]) {
          var k :| 0 <= k < |tokens[1..]| && StringOps.Contains(s, tokens[1..][k]);
          assert tokens[1..][k] == tokens[k + 1];
        }
      }
      assert (exists k :: 0 <= k < |tokens| && StringOps.Contains(s, tokens[k])) && !StringOps.Contains(s, tokens[0]) ==>
             (exists k :: 0 <= k < |tokens[1..]| && StringOps.Contains(s, tokens[1..][k])) by {
        if (exists k :: 0 <= k < |tokens| && StringOps.Contains(s, tokens[k])) && !StringOps.Contains(s, tokens[0]) {
          var k :| 0 <= k < |tokens| && StringOps.Contains(s, tokens[k]);
          assert k > 0 && tokens[1..][k - 1] == tokens[k];
        }
      }
      (if StringOps.Contains(s, tokens[0]) then [path] else []) + rest
  }

  /** Python dicts: no mapping, at any depth, has a key twice. */
  predicate DistinctKeys(v: Value)
    decreases v
  {
    v.Dict? ==> WellFormed(v.entries) && forall e :: e in v.entries ==> DistinctKeys(e.val)
  }

  /** In a mapping without repeated keys, each entry's key finds it. */
  lemma LookupDistinct(es: seq<Entry>, i: nat)
    requires WellFormed(es) && i < |es|
    ensures Lookup(es, es[i].key) == Some(es[i].val)
  {
    var key := es[i].key;
    assert es[i].key == key;
    var r := Lookup(es, key);
    var k :| 0 <= k < |es| && es[k] == Entry(key, r.value);
    assert Keys(es)[k] == Keys(es)[i];
  }

  /** The string reached by `p` contains one of the tokens. */
  predicate Hit(v: Value, p: Path, tokens: seq<string>) {
    At(v, p).Some? && At(v, p).value.Str? &&
    exists k :: 0 <= k < |tokens| && StringOps.Contains(At(v, p).value.s, tokens[k])
  }

  /** Every collected path, past the address, reaches a string containing
      a token. */
  lemma {:induction false} LeafPathsSound(v: Value, tokens: seq<string>, address: Path)
    requires DistinctKeys(v)
    ensures forall p :: p in LeafPaths(v, tokens, address) ==> Hit(v, p[|address|..], tokens)
    decreases v, 1, 0
  {
    if v.Dict? {
      EntryPathsSound(v.entries, 0, tokens, address, v);
    }
  }

  lemma {:induction false} EntryPathsSound(es: seq<Entry>, i: nat, tokens: seq<string>, address: Path, parent: Value)
    requires parent == Dict(es) && i <= |es| && DistinctKeys(parent)
    ensures forall p :: p in EntryPaths(es, i, tokens, address, parent) ==> Hit(parent, p[|address|..], tokens)
    decreases parent, 0, |es| - i
  {
    if i < |es| {
      var e := es[i];
      assert e.val < parent by {
        assert e < parent;
      }
      var here := address + [e.key];
      assert e in es;
      LookupDistinct(es, i);
      OwnPathsSound(e, tokens, here);
      EntryPathsSound(es, i + 1, tokens, address, parent);
      forall p | p in OwnPaths(e, tokens, here) ensures Hit(parent, p[|address|..], tokens) {
        assert p[..|here|] == here;
        assert p[|address|..] == [e.key] + p[|here|..];
        assert p[|address|..][1..] == p[|here|..];
      }
    }
  }

  lemma {:induction false} OwnPathsSound(e: Entry, tokens: seq<string>, here: Path)
    requires DistinctKeys(e.val)
    ensures forall p :: p in OwnPaths(e, tokens, here) ==> Hit(e.val, p[|here|..], tokens)
    decreases e.val, 2, 0
  {
    match e.val
    case Str(s) =>
      forall p | p in OwnPaths(e, tokens, here) ensures Hit(e.val, p[|here|..], tokens) {
        assert p == here && p[|here|..] == [];
      }
    case Dict(_) => LeafPathsSound(e.val, tokens, here);
    case _ =>
  }

  /** Every string reached through mappings that contains a token is found,
      under its path. */
  lemma {:induction false} LeafPathsComplete(v: Value, tokens: seq<string>, address: Path, p: Path)
    requires |p| > 0 && Hit(v, p, tokens)
    ensures address + p in LeafPaths(v, tokens, address)
    decreases v, 1, 0
  {
    var es := v.entries;
    var x := Lookup(es, p[0]).value;
    var i :| 0 <= i < |es| && es[i] == Entry(p[0], x);
    var here := address + [p[0]];
    assert address + p == here + p[1..];
    assert es[i] in es;
    assert x < v by {
      assert es[i] < v;
    }
    OwnPathsComplete(es[i], tokens, here, p[1..]);
    EntryPathsReach(es, 0, i, tokens, address, v, address + p);
  }

  lemma {:induction false} OwnPathsComplete(e: Entry, tokens: seq<string>, here: Path, q: Path)
    requires Hit(e.val, q, tokens)
    ensures here + q in OwnPaths(e, tokens, here)
    decreases e.val, 2, 0
  {
    if |q| == 0 {
      assert here + q == here;
      var r := OwnPaths(e, tokens, here);
      assert |r| > 0 && r[0] == here;
    } else {
      LeafPathsComplete(e.val, tokens, here, q);
    }
  }

  /** A path contributed by entry k is among the paths from entry i on,
      for i <= k. */
  lemma {:induction false} EntryPathsReach(es: seq<Entry>, i: nat, k: nat, tokens: seq<string>, address: Path,
                                           parent: Value, p: Path)
    requires parent == Dict(es) && i <= k < |es|
    requires p in OwnPaths(es[k], tokens, address + [es[k].key])
    ensures p in EntryPaths(es, i, tokens, address, parent)
    decreases k - i
  {
    if i < k {
      EntryPathsReach(es, i + 1, k, tokens, address, parent, p);
    }
  }

  /** Each sequence mapping names its replacement string. */
  predicate NamesTokens(items: seq<Value>) {
    forall k :: 0 <= k < |items| ==> items[k].Dict? && HasKey(items[k].entries, "replacement_string")
  }

  /** _get_list_of_keys_to_update: every sequence must name its token; the
      paths are those of the string values containing some token. A token
      that is not a string cannot be searched for in a string value. */
  function AutoPaths(b: Block, sequences: Value): (r: Result<seq<Path>>)
    ensures !sequences.List? ==> r.Fail?
    ensures sequences.List? && !NamesTokens(sequences.items) ==> r.Fail?
  {
    if !sequences.List? then Fail(WrongType("numbering_sequence"))
    else
      var items := sequences.items;
      if !NamesTokens(items) then
        Fail(MissingOption("replacement_string"))
      else
        var tokens := seq(|items|, k requires 0 <= k < |items| => Lookup(items[k].entries, "replacement_string").value);
        // the empty string occurs in every string, so this is "b has a string value"
        var hasStringValue := |LeafPaths(Dict(b), [""], [])| > 0;
        if hasStringValue && exists k :: 0 <= k < |tokens| && !tokens[k].Str? then
          Fail(WrongType("replacement_string"))
        else if !hasStringValue then Ok([])
        else Ok(LeafPaths(Dict(b), seq(|tokens|, k requires 0 <= k < |tokens| => tokens[k].s), []))
  }

  /** With string tokens, the paths worked out for a block are exactly
      those of its strings, reached through mappings, that contain a
      token. */
  lemma AutoPathsLeaves(b: Block, sequences: Value, tokens: seq<string>)
    requires DistinctKeys(Dict(b)) && sequences.List? && NamesTokens(sequences.items)
    requires |tokens| == |sequences.items|
    requires forall k :: 0 <= k < |tokens| ==> Lookup(sequences.items[k].entries, "replacement_string") == Some(Str(tokens[k]))
    ensures AutoPaths(b, sequences).Ok?
    ensures forall p :: p in AutoPaths(b, sequences).value ==> |p| > 0 && Hit(Dict(b), p, tokens)
    ensures forall p :: |p| > 0 && Hit(Dict(b), p, tokens) ==> p in AutoPaths(b, sequences).value
  {
    AutoPathsAreLeafPaths(b, sequences, tokens);
    LeafPathsSound(Dict(b), tokens, []);
    forall p | p in AutoPaths(b, sequences).value ensures |p| > 0 && Hit(Dict(b), p, tokens) {
      assert p[0..] == p;
    }
    forall p | |p| > 0 && Hit(Dict(b), p, tokens) ensures p in AutoPaths(b, sequences).value {
      LeafPathsComplete(Dict(b), tokens, [], p);
      assert [] + p == p;
    }
  }

  /** With string tokens, the worked-out paths are the leaf paths of the
      block for those tokens. */
  lemma AutoPathsAreLeafPaths(b: Block, sequences: Value, tokens: seq<string>)
    requires DistinctKeys(Dict(b)) && sequences.List? && NamesTokens(sequences.items)
    requires |tokens| == |sequences.items|
    requires forall k :: 0 <= k < |tokens| ==> Lookup(sequences.items[k].entries, "replacement_string") == Some(Str(tokens[k]))
    ensures AutoPaths(b, sequences) == Ok(LeafPaths(Dict(b), tokens, []))
  {
    var items := sequences.items;
    var vs := seq(|items|, k requires 0 <= k < |items| => Lookup(items[k].entries, "replacement_string").value);
    assert forall k :: 0 <= k < |vs| ==> vs[k] == Str(tokens[k]);
    assert seq(|vs|, k requires 0 <= k < |vs| => vs[k].s) == tokens;
    if |LeafPaths(Dict(b), [""], [])| == 0 {
      LeafPathsSound(Dict(b), tokens, []);
      if |LeafPaths(Dict(b), tokens, [])| > 0 {
        var p := LeafPaths(Dict(b), tokens, [])[0];
        assert p[0..] == p;
        EmptyTokenHits(Dict(b), p, tokens);
        LeafPathsComplete(Dict(b), [""], [], p);
        assert false;
      }
    }
  }

  /** The empty string is in every string. */
  lemma EmptyTokenHits(v: Value, p: Path, tokens: seq<string>)
    requires Hit(v, p, tokens)
    ensures Hit(v, p, [""])
  {
    var s := At(v, p).value.s;
    assert StringOps.OccursAt(s, "", 0);
    assert [""][0] == "";
  }

  /** unroll_sequence for one block that has a numbering_sequence. */
  function UnrollOne(b: Block, keys: Option<seq<KeySpec>>): (r: Result<seq<Block>>)
    requires HasKey(b, "numbering_sequence")
    ensures !Lookup(b, "numbering_sequence").value.List? ==> r.Fail?
    ensures r.Ok? ==> forall i :: 0 <= i < |r.value| ==> !HasKey(r.value[i], "numbering_sequence")
  {
    var sequences := Lookup(b, "numbering_sequence").value;
    var paths :- if keys.None? then AutoPaths(b, sequences)
                 else Ok(seq(|keys.value|, k requires 0 <= k < |keys.value| => ToPath(keys.value[k])));
    if !sequences.List? then Fail(WrongType("numbering_sequence"))
    else GenerateRange(Remove(b, "numbering_sequence"), paths, sequences.items)
  }

  /** unroll_sequence: blocks without a numbering_sequence pass through,
      the others are expanded and lose that key. With no explicit keys, the
      paths are worked out per block. */
  function Unroll(blocks: seq<Block>, keys: Option<seq<KeySpec>>): (r: Result<seq<Block>>)
    ensures r.Ok? ==> forall i :: 0 <= i < |r.value| ==> !HasKey(r.value[i], "numbering_sequence")
    ensures (forall i :: 0 <= i < |blocks| ==> !HasKey(blocks[i], "numbering_sequence")) ==> r == Ok(blocks)
    decreases |blocks|
  {
    if |blocks| == 0 then Ok([])
    else
      var b := blocks[0];
      var here :- if HasKey(b, "numbering_sequence") then UnrollOne(b, keys) else Ok([b]);
      var rest :- Unroll(blocks[1..], keys);
      assert (forall i :: 0 <= i < |blocks| ==> !HasKey(blocks[i], "numbering_sequence")) ==>
        here + rest == [b] + blocks[1..] == blocks;
      Ok(here + rest)
  }

  // ---------------------------------------------------------------------
  // Properties

  /** The number of values of a sequence mapping; 0 when it is invalid. */
  function AxisSize(v: Value): nat {
    match ParseAxis(v)
    case Ok(axis) => |axis.values|
    case Fail(_) => 0
  }

  /** The product of the axis sizes. */
  function SizeProduct(axes: seq<Value>): nat
    decreases |axes|
  {
    if |axes| == 0 then 1
    else
      var here: nat := AxisSize(axes[0]);
      var later: nat := SizeProduct(axes[1..]);
      MultiplyNat(here, later);
      here * later
  }

  /** A successful expansion yields as many blocks as the product of the
      axis sizes. (An invalid axis behind an empty one is never parsed, and
      the product is 0 then as well.) */
  lemma {:induction false} GenerateRangeCount(b: Block, paths: seq<Path>, axes: seq<Value>)
    requires GenerateRange(b, paths, axes).Ok?
    ensures |GenerateRange(b, paths, axes).value| == SizeProduct(axes)
    decreases |axes|, 1, 0
  {
    if |axes| > 0 {
      var axis := ParseAxis(axes[0]).value;
      ExpandValuesCount(b, paths, axis.token, axis.values, axes[1..]);
    }
  }

  lemma {:induction false} ExpandValuesCount(b: Block, paths: seq<Path>, token: string,
                                             values: seq<string>, rest: seq<Value>)
    requires ExpandValues(b, paths, token, values, rest).Ok?
    ensures |ExpandValues(b, paths, token, values, rest).value| == |values| * SizeProduct(rest)
    decreases |rest| + 1, 0, 1
  {
    var f := Chunk(b, paths, token, rest);
    ExpandValuesIsConcat(b, paths, token, values, rest);
    ChunkSizes(b, paths, token, values, rest);
    ConcatCount(f, values, SizeProduct(rest));
    OffsetIsProduct(|values|, SizeProduct(rest));
  }

  lemma MultiplyNat(n: nat, p: nat)
    ensures n * p >= 0
  {
  }

  /** The start of the copies for value i when each value yields p
      blocks: p added i times. */
  function Offset(i: nat, p: nat): nat {
    if i == 0 then 0 else p + Offset(i - 1, p)
  }

  lemma {:induction false} OffsetIsProduct(i: nat, p: nat)
    ensures Offset(i, p) == i * p
  {
    if i > 0 {
      OffsetIsProduct(i - 1, p);
      MultiplyStep(i, p);
    }
  }

  /** The blocks for one value of an axis: the value substituted, then
      the later axes expanded. */
  function Chunk(b: Block, paths: seq<Path>, token: string, rest: seq<Value>): string -> Result<seq<Block>> {
    v => match ApplyPaths(b, paths, token, v)
         case Fail(e) => Fail(e)
         case Ok(u) => GenerateRange(u, paths, rest)
  }

  /** The blocks of `f` for every value, in order; the first failure is
      the result. */
  function Concat(f: string -> Result<seq<Block>>, values: seq<string>): Result<seq<Block>>
    decreases |values|
  {
    if |values| == 0 then Ok([])
    else
      var first :- f(values[0]);
      var others :- Concat(f, values[1..]);
      Ok(first + others)
  }

  /** When every value yields p blocks, block j of value i sits at
      Offset(i, p) + j. */
  lemma {:induction false} ConcatOrder(f: string -> Result<seq<Block>>, values: seq<string>, p: nat, i: nat, j: nat)
    requires Concat(f, values).Ok?
    requires forall k :: 0 <= k < |values| && f(values[k]).Ok? ==> |f(values[k]).value| == p
    requires i < |values| && j < p
    ensures f(values[i]).Ok? && Offset(i, p) + j < |Concat(f, values).value|
    ensures Concat(f, values).value[Offset(i, p) + j] == f(values[i]).value[j]
    decreases |values|
  {
    var first := f(values[0]).value;
    var others := Concat(f, values[1..]).value;
    if i == 0 {
      IndexConcat(first, others, j);
    } else {
      forall k | 0 <= k < |values[1..]| && f(values[1..][k]).Ok? ensures |f(values[1..][k]).value| == p {
        assert values[1..][k] == values[k + 1];
      }
      ConcatOrder(f, values[1..], p, i - 1, j);
      assert values[1..][i - 1] == values[i];
      IndexConcat(first, others, p + Offset(i - 1, p) + j);
    }
  }

  /** When every value yields p blocks, there are p blocks per value. */
  lemma {:induction false} ConcatCount(f: string -> Result<seq<Block>>, values: seq<string>, p: nat)
    requires Concat(f, values).Ok?
    requires forall k :: 0 <= k < |values| && f(values[k]).Ok? ==> |f(values[k]).value| == p
    ensures |Concat(f, values).value| == Offset(|values|, p)
    decreases |values|
  {
    if |values| > 0 {
      forall k | 0 <= k < |values[1..]| && f(values[1..][k]).Ok? ensures |f(values[1..][k]).value| == p {
        assert values[1..][k] == values[k + 1];
      }
      ConcatCount(f, values[1..], p);
    }
  }

  /** The copies for the values of one axis are the blocks of each value
      in turn. */
  lemma {:induction false} ExpandValuesIsConcat(b: Block, paths: seq<Path>, token: string, values: seq<string>,
                                                rest: seq<Value>)
    ensures ExpandValues(b, paths, token, values, rest) == Concat(Chunk(b, paths, token, rest), values)
    decreases |values|
  {
    if |values| > 0 {
      ExpandValuesIsConcat(b, paths, token, values[1..], rest);
    }
  }

  /** Every value that expands yields as many blocks as the product of
      the later axes' sizes. */
  lemma ChunkSizes(b: Block, paths: seq<Path>, token: string, values: seq<string>, rest: seq<Value>)
    ensures forall k :: 0 <= k < |values| && Chunk(b, paths, token, rest)(values[k]).Ok? ==>
              |Chunk(b, paths, token, rest)(values[k]).value| == SizeProduct(rest)
    decreases |rest| + 1, 0, 0
  {
    forall k | 0 <= k < |values| && Chunk(b, paths, token, rest)(values[k]).Ok?
      ensures |Chunk(b, paths, token, rest)(values[k]).value| == SizeProduct(rest)
    {
      GenerateRangeCount(ApplyPaths(b, paths, token, values[k]).value, paths, rest);
    }
  }

  /** The copies come value by value: block j of the expansion for value
      i over the later axes sits at position Offset(i, P) + j, P being the
      number of blocks per value. */
  lemma ExpandValuesOrder(b: Block, paths: seq<Path>, token: string, values: seq<string>,
                          rest: seq<Value>, i: nat, j: nat)
    requires ExpandValues(b, paths, token, values, rest).Ok?
    requires i < |values| && j < SizeProduct(rest)
    ensures ApplyPaths(b, paths, token, values[i]).Ok?
    ensures GenerateRange(ApplyPaths(b, paths, token, values[i]).value, paths, rest).Ok?
    ensures |GenerateRange(ApplyPaths(b, paths, token, values[i]).value, paths, rest).value| == SizeProduct(rest)
    ensures Offset(i, SizeProduct(rest)) + j < |ExpandValues(b, paths, token, values, rest).value|
    ensures ExpandValues(b, paths, token, values, rest).value[Offset(i, SizeProduct(rest)) + j] ==
            GenerateRange(ApplyPaths(b, paths, token, values[i]).value, paths, rest).value[j]
  {
    var f := Chunk(b, paths, token, rest);
    ExpandValuesIsConcat(b, paths, token, values, rest);
    ChunkSizes(b, paths, token, values, rest);
    ConcatOrder(f, values, SizeProduct(rest), i, j);
  }

  /** The first value's blocks, then those of the other values. */
  lemma ExpandValuesCons(b: Block, paths: seq<Path>, token: string, values: seq<string>, rest: seq<Value>)
    requires ExpandValues(b, paths, token, values, rest).Ok? && |values| > 0
    ensures ApplyPaths(b, paths, token, values[0]).Ok?
    ensures GenerateRange(ApplyPaths(b, paths, token, values[0]).value, paths, rest).Ok?
    ensures ExpandValues(b, paths, token, values[1..], rest).Ok?
    ensures ExpandValues(b, paths, token, values, rest).value ==
            GenerateRange(ApplyPaths(b, paths, token, values[0]).value, paths, rest).value +
            ExpandValues(b, paths, token, values[1..], rest).value
  {
  }

  lemma IndexConcat<T>(a: seq<T>, c: seq<T>, k: nat)
    requires k < |a| + |c|
    ensures (a + c)[k] == if k < |a| then a[k] else c[k - |a|]
  {
  }

  /** With a single axis, copy i is the block with value i substituted. */
  lemma ExpandValuesSingle(b: Block, paths: seq<Path>, token: string, values: seq<string>, i: nat)
    requires ExpandValues(b, paths, token, values, []).Ok? && i < |values|
    ensures ApplyPaths(b, paths, token, values[i]).Ok?
    ensures i < |ExpandValues(b, paths, token, values, []).value|
    ensures ExpandValues(b, paths, token, values, []).value[i] == ApplyPaths(b, paths, token, values[i]).value
  {
    ExpandValuesOrder(b, paths, token, values, [], i, 0);
    OffsetOne(i);
  }

  /** With a single axis, there is one copy per value. */
  lemma ExpandValuesSingleCount(b: Block, paths: seq<Path>, token: string, values: seq<string>)
    requires ExpandValues(b, paths, token, values, []).Ok?
    ensures |ExpandValues(b, paths, token, values, []).value| == |values|
  {
    ExpandValuesIsConcat(b, paths, token, values, []);
    ChunkSizes(b, paths, token, values, []);
    ConcatCount(Chunk(b, paths, token, []), values, 1);
    OffsetOne(|values|);
  }

  lemma {:induction false} OffsetOne(i: nat)
    ensures Offset(i, 1) == i
  {
    if i > 0 {
      OffsetOne(i - 1);
    }
  }

  /** The first axis is the outermost loop: block j of the expansion of
      the later axes for value i of the first axis sits at Offset(i, P) + j,
      which is i * P + j. */
  lemma GenerateRangeOrder(b: Block, paths: seq<Path>, axes: seq<Value>, i: nat, j: nat)
    requires GenerateRange(b, paths, axes).Ok? && |axes| > 0 && ParseAxis(axes[0]).Ok?
    requires i < |ParseAxis(axes[0]).value.values| && j < SizeProduct(axes[1..])
    ensures var axis := ParseAxis(axes[0]).value;
            ApplyPaths(b, paths, axis.token, axis.values[i]).Ok? &&
            var later := GenerateRange(ApplyPaths(b, paths, axis.token, axis.values[i]).value, paths, axes[1..]);
            later.Ok? && |later.value| == SizeProduct(axes[1..]) &&
            Offset(i, SizeProduct(axes[1..])) + j < |GenerateRange(b, paths, axes).value| &&
            GenerateRange(b, paths, axes).value[Offset(i, SizeProduct(axes[1..])) + j] == later.value[j]
  {
    var axis := ParseAxis(axes[0]).value;
    ExpandValuesOrder(b, paths, axis.token, axis.values, axes[1..], i, j);
  }

  lemma MultiplyStep(n: nat, p: nat)
    requires n > 0
    ensures n * p == p + (n - 1) * p
  {
  }
}

=== FILE: regex.dfy ===
/** Regular-expression matching, kept abstract.

    The program uses two different matching operations, and the difference
    matters: Python's `re.fullmatch` (and C++ std::regex_match) succeed only
    when the pattern matches the WHOLE string, while Python's `re.match`
    succeeds when the pattern matches some PREFIX of the string. Which strings
    a pattern matches is not modelled; an `Engine` carries that relation as
    an uninterpreted function and both operations are defined from it. */
module Regex {

  /** `Whole(pattern, s)` says that `pattern` matches all of `s`. */
  datatype Engine = Engine(Whole: (string, string) -> bool)

  /** re.fullmatch / std::regex_match. */
  predicate FullMatch(e: Engine, pattern: string, s: string) {
    e.Whole(pattern, s)
  }

  /** re.match: the pattern matches the string up to some position. */
  predicate PrefixMatch(e: Engine, pattern: string, s: string) {
    exists n :: 0 <= n <= |s| && e.Whole(pattern, s[..n])
  }

  /** Some pattern in the list matches the whole string. */
  predicate FullMatchesAny(e: Engine, patterns: seq<string>, s: string) {
    exists k :: 0 <= k < |patterns| && FullMatch(e, patterns[k], s)
  }

  /** Some pattern in the list matches a prefix of the string. */
  predicate PrefixMatchesAny(e: Engine, patterns: seq<string>, s: string) {
    exists k :: 0 <= k < |patterns| && PrefixMatch(e, patterns[k], s)
  }

  /** An engine in which a pattern matches exactly the string spelling it. */
  function LiteralEngine(): (e: Engine)
    ensures forall p, s :: e.Whole(p, s) <==> p == s
  {
    Engine((p: string, s: string) => p == s)
  }

  /** A full match is also a prefix match. */
  lemma FullMatchIsPrefixMatch(e: Engine, pattern: string, s: string)
    requires FullMatch(e, pattern, s)
    ensures PrefixMatch(e, pattern, s)
  {
    assert s[..|s|] == s;
  }

  /** The converse fails: with literal patterns "a" matches a prefix of "ab"
      but not all of it. */
  lemma PrefixMatchIsNotFullMatch()
    ensures PrefixMatch(LiteralEngine(), "a", "ab")
    ensures !FullMatch(LiteralEngine(), "a", "ab")
  {
    assert "ab"[..1] == "a";
  }

  /** A list of patterns matches whole when its first pattern does or the
      rest does. */
  lemma FullMatchesAnyCons(e: Engine, patterns: seq<string>, s: string)
    requires |patterns| > 0
    ensures FullMatchesAny(e, patterns, s) <==> FullMatch(e, patterns[0], s) || FullMatchesAny(e, patterns[1..], s)
  {
    if FullMatchesAny(e, patterns[1..], s) {
      var k :| 0 <= k < |patterns[1..]| && FullMatch(e, patterns[1..][k], s);
      assert patterns[k + 1] == patterns[1..][k];
    }
    if FullMatchesAny(e, patterns, s) && !FullMatch(e, patterns[0], s) {
      var k :| 0 <= k < |patterns| && FullMatch(e, patterns[k], s);
      assert patterns[1..][k - 1] == patterns[k];
    }
  }
}

=== FILE: region_reader.dfy ===
/** The reader of one region block (BlockReaderRegion): name, selection,
    variables (possibly nested through YAML anchors, possibly numbered
    sequences), and the 2D and 3D histogram combinations, which may only
    name variables of the region. */
module RegionReader {
  import opened Wrappers
  import opened Values
  import opened OptionLedger
  import VariableModel
  import VariableReader
  import Numbering

  /** flat_to_list_of_dicts: the mappings of a list, nested lists flattened
      in place, anything else dropped. */
  function Flatten(items: seq<Value>): (r: seq<Block>)
    decreases items
  {
    if |items| == 0 then []
    else
      var here := match items[0]
        case Dict(es) => [es]
        case List(sub) => Flatten(sub)
        case _ => [];
      here + Flatten(items[1..])
  }

  /** Flattening distributes over concatenation. */
  lemma {:induction false} FlattenAppend(a: seq<Value>, b: seq<Value>)
    ensures Flatten(a + b) == Flatten(a) + Flatten(b)
    decreases |a|
  {
    if |a| > 0 {
      assert (a + b)[0] == a[0] && (a + b)[1..] == a[1..] + b;
      FlattenAppend(a[1..], b);
    } else {
      assert a + b == b;
    }
  }

  /** A list of mappings flattens to its mappings, in order. */
  lemma {:induction false} FlattenOfBlocks(items: seq<Value>)
    requires Blocks(items).Some?
    ensures Flatten(items) == Blocks(items).value
    decreases |items|
  {
    if |items| > 0 {
      FlattenOfBlocks(items[1..]);
      assert Blocks(items).value == [items[0].entries] + Blocks(items[1..]).value;
    }
  }

  /** Nesting a list one level deeper does not change the result, and
      scalars vanish. */
  lemma FlattenNested(items: seq<Value>, x: Value)
    requires !x.Dict? && !x.List?
    ensures Flatten([List(items)]) == Flatten(items)
    ensures Flatten([x] + items) == Flatten(items)
  {
    assert [List(items)][1..] == [];
    assert ([x] + items)[1..] == items;
  }

  /** flatten_container_of_variables: flattened only when some element is a
      list, otherwise returned as it is. */
  function FlattenContainer(items: seq<Value>): (r: seq<Value>)
    ensures (forall k :: 0 <= k < |items| ==> !items[k].List?) ==> r == items
    ensures Blocks(r).Some? || r == items
  {
    if exists k :: 0 <= k < |items| && items[k].List? then
      var flat := Flatten(items);
      var r := seq(|flat|, k requires 0 <= k < |flat| => Dict(flat[k]));
      assert Blocks(r).Some?;
      r
    else items
  }

  /** With a list inside, the container becomes exactly the flattened
      mappings. */
  lemma FlattenContainerWithList(items: seq<Value>)
    requires exists k :: 0 <= k < |items| && items[k].List?
    ensures Blocks(FlattenContainer(items)) == Some(Flatten(items))
  {
    var flat := Flatten(items);
    var r := FlattenContainer(items);
    assert r == seq(|flat|, k requires 0 <= k < |flat| => Dict(flat[k]));
    assert Blocks(r).value == flat;
  }

  /** A region as the native side stores it. */
  datatype Region = Region(name: string, selection: string, variables: seq<VariableModel.Variable>,
                           combinations2D: seq<(string, string)>,
                           combinations3D: seq<(string, string, string)>)

  const RegionOptions: set<string> := {"name", "selection", "variables", "histograms_2d", "histograms_3d"}

  /** The names of some variables, in order. */
  function VariableNames(vs: seq<VariableModel.Variable>): (r: seq<string>)
    ensures |r| == |vs| && forall k :: 0 <= k < |vs| ==> r[k] == vs[k].name
  {
    seq(|vs|, k requires 0 <= k < |vs| => vs[k].name)
  }

  /** One 2D histogram: x and y given and both variables of the region.
      Other keys are not checked. */
  function ReadCombination2D(h: Block, names: seq<string>): (r: Result<(string, string)>)
    ensures r.Ok? ==> Lookup(h, "x") == Some(Str(r.value.0)) && Lookup(h, "y") == Some(Str(r.value.1))
    ensures r.Ok? ==> r.value.0 in names && r.value.1 in names
    ensures !HasKey(h, "x") || !HasKey(h, "y") ==> r.Fail?
  {
    var l := Fresh(h);
    var (x, l1) :- GetStr(l, "x");
    var (y, l2) :- GetStr(l1, "y");
    :- Need(x.Some? && y.Some?, MissingOption("x/y"));
    :- Need(x.value in names, UnknownReference(x.value));
    :- Need(y.value in names, UnknownReference(y.value));
    Ok((x.value, y.value))
  }

  /** The three axes of a 3D histogram as read, and what was left unread. */
  function ReadAxes3D(h: Block): (r: Result<(Option<string>, Option<string>, Option<string>, seq<string>)>)
    ensures r.Ok? ==> (r.value.0.Some? <==> HasKey(h, "x")) && (r.value.1.Some? <==> HasKey(h, "y"))
                      && (r.value.2.Some? <==> HasKey(h, "z"))
    ensures r.Ok? && r.value.0.Some? ==> Lookup(h, "x") == Some(Str(r.value.0.value))
    ensures r.Ok? && r.value.1.Some? ==> Lookup(h, "y") == Some(Str(r.value.1.value))
    ensures r.Ok? && r.value.2.Some? ==> Lookup(h, "z") == Some(Str(r.value.2.value))
    ensures r.Ok? && |r.value.3| == 0 ==> forall k :: k in Keys(h) ==> k in {"x", "y", "z"}
  {
    var l := Fresh(h);
    var (x, l1) :- GetStr(l, "x");
    var (y, l2) :- GetStr(l1, "y");
    var (z, l3) :- GetStr(l2, "z");
    NothingUnused(l3);
    Ok((x, y, z, Unused(l3)))
  }

  /** One 3D histogram: x, y and z given and variables of the region, and
      no other key. */
  function ReadCombination3D(h: Block, names: seq<string>): (r: Result<(string, string, string)>)
    ensures r.Ok? ==> Lookup(h, "x") == Some(Str(r.value.0)) && Lookup(h, "y") == Some(Str(r.value.1))
                      && Lookup(h, "z") == Some(Str(r.value.2))
    ensures r.Ok? ==> r.value.0 in names && r.value.1 in names && r.value.2 in names
    ensures r.Ok? ==> forall k :: k in Keys(h) ==> k in {"x", "y", "z"}
    ensures !HasKey(h, "x") || !HasKey(h, "y") || !HasKey(h, "z") ==> r.Fail?
  {
    var (x, y, z, unused) :- ReadAxes3D(h);
    :- Need(x.Some? && y.Some? && z.Some?, MissingOption("x/y/z"));
    :- Need(x.value in names, UnknownReference(x.value));
    :- Need(y.value in names, UnknownReference(y.value));
    :- Need(z.value in names, UnknownReference(z.value));
    :- Need(|unused| == 0, UnusedOptions(unused));
    Ok((x.value, y.value, z.value))
  }

  /** Every 2D histogram of a region checked in order. */
  function ReadCombinations2D(hs: seq<Block>, names: seq<string>): (r: Result<seq<(string, string)>>)
    ensures r.Ok? ==> |r.value| == |hs|
    ensures r.Ok? ==> forall c :: c in r.value ==> c.0 in names && c.1 in names
  {
    var cs :- MapAll(hs, h => ReadCombination2D(h, names));
    assert forall c :: c in cs ==> c.0 in names && c.1 in names by {
      forall c | c in cs ensures c.0 in names && c.1 in names {
        var k :| 0 <= k < |cs| && cs[k] == c;
        assert ReadCombination2D(hs[k], names) == Ok(c);
      }
    }
    Ok(cs)
  }

  /** Every 3D histogram of a region checked in order. */
  function ReadCombinations3D(hs: seq<Block>, names: seq<string>): (r: Result<seq<(string, string, string)>>)
    ensures r.Ok? ==> |r.value| == |hs|
    ensures r.Ok? ==> forall c :: c in r.value ==> c.0 in names && c.1 in names && c.2 in names
  {
    var cs :- MapAll(hs, h => ReadCombination3D(h, names));
    assert forall c :: c in cs ==> c.0 in names && c.1 in names && c.2 in names by {
      forall c | c in cs ensures c.0 in names && c.1 in names && c.2 in names {
        var k :| 0 <= k < |cs| && cs[k] == c;
        assert ReadCombination3D(hs[k], names) == Ok(c);
      }
    }
    Ok(cs)
  }

  /** The raw options of a region block. */
  datatype RawRegion = RawRegion(name: Option<string>, selection: Option<string>, variables: seq<Value>,
                                 histograms2D: seq<Block>, histograms3D: seq<Block>)

  /** The five `get` calls of the constructor. */
  function ReadRawRegion(b: Block): (r: Result<(RawRegion, Ledger)>)
    ensures r.Ok? ==> r.value.1.block == b && r.value.1.used <= RegionOptions
    ensures r.Ok? ==> (r.value.0.name.Some? <==> HasKey(b, "name"))
    ensures r.Ok? && r.value.0.name.Some? ==> Lookup(b, "name") == Some(Str(r.value.0.name.value))
    ensures r.Ok? ==> (r.value.0.selection.Some? <==> HasKey(b, "selection"))
    ensures r.Ok? && r.value.0.selection.Some? ==> Lookup(b, "selection") == Some(Str(r.value.0.selection.value))
  {
    var l := Fresh(b);
    var (name, l1) :- GetStr(l, "name");
    var (selection, l2) :- GetStr(l1, "selection");
    var (variables, l3) :- Get(l2, "variables", List([]), Some({ListTag}), Some({DictTag, ListTag}));
    var (h2, l4) :- GetBlockList(l3, "histograms_2d");
    var (h3, l5) :- GetBlockList(l4, "histograms_3d");
    Ok((RawRegion(name, selection, if variables.List? then variables.items else [],
                  h2.GetOr([]), h3.GetOr([])), l5))
  }

  /** The variables of a region: the container flattened, its numbered
      sequences unrolled, and every mapping read as a variable. */
  function ReadRegionVariables(items: seq<Value>): (r: Result<seq<VariableModel.Variable>>)
    ensures r.Ok? && Blocks(items).Some? && (forall k :: 0 <= k < |items| ==> !HasKey(items[k].entries, "numbering_sequence")) ==>
      |r.value| == |items| && forall k :: 0 <= k < |items| ==> VariableReader.ReadVariable(items[k].entries) == Ok(r.value[k])
  {
    var container := FlattenContainer(items);
    var blocks :- if Blocks(container).Some? then Ok(Blocks(container).value)
                  else Fail(WrongType("variables"));
    var unrolled :- Numbering.Unroll(blocks, None);
    if Blocks(items).Some? && (forall k :: 0 <= k < |items| ==> !HasKey(items[k].entries, "numbering_sequence")) then
      assert container == items;
      assert unrolled == blocks;
      MapAll(unrolled, VariableReader.ReadVariable)
    else
      MapAll(unrolled, VariableReader.ReadVariable)
  }

  /** BlockReaderRegion: the variables read; the histogram lists unrolled;
      name and selection required (the native setters cannot take None);
      the combinations checked; no option left unread. */
  function ReadRegion(b: Block): (r: Result<Region>)
    ensures !HasKey(b, "name") || !HasKey(b, "selection") ==> r.Fail?
    ensures r.Ok? ==> Lookup(b, "name") == Some(Str(r.value.name))
    ensures r.Ok? ==> Lookup(b, "selection") == Some(Str(r.value.selection))
    ensures r.Ok? ==> forall k :: k in Keys(b) ==> k in RegionOptions
    ensures r.Ok? ==> forall c :: c in r.value.combinations2D ==>
      c.0 in VariableNames(r.value.variables) && c.1 in VariableNames(r.value.variables)
    ensures r.Ok? ==> forall c :: c in r.value.combinations3D ==>
      c.0 in VariableNames(r.value.variables) && c.1 in VariableNames(r.value.variables)
      && c.2 in VariableNames(r.value.variables)
  {
    var (raw, l) :- ReadRawRegion(b);
    var variables :- ReadRegionVariables(raw.variables);
    var h2 :- Numbering.Unroll(raw.histograms2D, None);
    var h3 :- Numbering.Unroll(raw.histograms3D, None);
    :- Need(raw.name.Some?, MissingOption("name"));
    :- Need(raw.selection.Some?, MissingOption("selection"));
    var names := VariableNames(variables);
    var c2 :- ReadCombinations2D(h2, names);
    var c3 :- ReadCombinations3D(h3, names);
    var unused := Unused(l);
    :- Need(|unused| == 0, UnusedOptions(unused));
    NothingUnused(l);
    Ok(Region(raw.name.value, raw.selection.value, variables, c2, c3))
  }
}

=== FILE: sample_ids.dfy ===
/** The identity of one unique sample (UniqueSampleID): a dataset number, a
    campaign and a simulation type. Identities are ordered lexicographically
    over the three fields, printed as "dsid campaign simulation", and a
    sample is data when its simulation type reads "data" in any case. */
module SampleIds {
  import opened StringOps

  datatype UniqueSampleId = UniqueSampleId(dsid: int, campaign: string, simulation: string)

  // ---------------------------------------------------------------------
  // Ordering

  /** operator<: by dsid, then campaign, then simulation. */
  predicate Less(x: UniqueSampleId, y: UniqueSampleId) {
    if x.dsid != y.dsid then x.dsid < y.dsid
    else if x.campaign != y.campaign then StringLess(x.campaign, y.campaign)
    else StringLess(x.simulation, y.simulation)
  }

  /** operator<, used as the key order of std::map, is a strict total order
      whose equivalence is equality of all three fields. */
  lemma LessIsStrictTotalOrder(x: UniqueSampleId, y: UniqueSampleId, z: UniqueSampleId)
    ensures !Less(x, x)
    ensures x == y || Less(x, y) || Less(y, x)
    ensures !(Less(x, y) && Less(y, x))
    ensures Less(x, y) && Less(y, z) ==> Less(x, z)
  {
    StringLessIrreflexive(x.simulation);
    StringLessTotal(x.campaign, y.campaign);
    StringLessTotal(x.simulation, y.simulation);
    if Less(x, y) && Less(y, z) {
      if x.dsid == y.dsid == z.dsid {
        if x.campaign != y.campaign && y.campaign != z.campaign {
          StringLessTransitive(x.campaign, y.campaign, z.campaign);
          if x.campaign == z.campaign {
            StringLessTotal(x.campaign, y.campaign);
          }
        } else if x.campaign == y.campaign && y.campaign == z.campaign {
          StringLessTransitive(x.simulation, y.simulation, z.simulation);
        }
      }
    }
  }

  /** operator==: the three fields agree. */
  function SameId(x: UniqueSampleId, y: UniqueSampleId): (r: bool)
    ensures r <==> x == y
    ensures r ==> !Less(x, y) && !Less(y, x)
  {
    StringLessIrreflexive(x.campaign);
    StringLessIrreflexive(x.simulation);
    x.dsid == y.dsid && x.campaign == y.campaign && x.simulation == y.simulation
  }

  // ---------------------------------------------------------------------
  // Data

  /** isData: the simulation type is "data", compared case-insensitively. */
  predicate IsData(id: UniqueSampleId) {
    EqualsIgnoreCase(id.simulation, "data")
  }

  /** Upper-casing reads "DATA" exactly for the spellings of data. */
  lemma IsDataSpellings(id: UniqueSampleId)
    ensures IsData(id) <==> (|id.simulation| == 4 &&
                             id.simulation[0] in {'d', 'D'} && id.simulation[1] in {'a', 'A'} &&
                             id.simulation[2] in {'t', 'T'} && id.simulation[3] in {'a', 'A'})
  {
    EqualsIgnoreCaseCharwise(id.simulation, "data");
  }

  // ---------------------------------------------------------------------
  // Printing

  /** operator<<: "dsid campaign simulation". */
  function Print(id: UniqueSampleId): string {
    IntToString(id.dsid) + " " + id.campaign + " " + id.simulation
  }

  /** A decimal rendering has no spaces. */
  lemma NoSpaceInNumber(i: int)
    ensures ' ' !in IntToString(i)
  {
    var r := IntToString(i);
    if i < 0 {
      assert r[1..] == NatToString(-i);
      forall k | 0 <= k < |r| ensures r[k] != ' ' {
        if k > 0 { assert r[k] == r[1..][k - 1]; }
      }
    }
  }

  lemma IntToStringInjective(i: int, j: int)
    requires IntToString(i) == IntToString(j)
    ensures i == j
  {
    if i < 0 && j < 0 {
      assert IntToString(i)[1..] == NatToString(-i);
      assert IntToString(j)[1..] == NatToString(-j);
      NatToStringInjective(-i, -j);
    } else if i >= 0 && j >= 0 {
      NatToStringInjective(i, j);
    }
  }

  /** In `x + " " + y` with no space in x, the first space follows x. */
  lemma FirstSpace(x: string, y: string)
    requires ' ' !in x
    ensures (x + " " + y)[|x|] == ' '
    ensures forall k :: 0 <= k < |x| ==> (x + " " + y)[k] != ' '
  {
    forall k | 0 <= k < |x| ensures (x + " " + y)[k] != ' ' {
      assert (x + " " + y)[k] == x[k];
    }
  }

  /** The first space of `x + " " + y` is the one after x, so both halves
      are recovered. */
  lemma SplitAtFirstSpace(x1: string, y1: string, x2: string, y2: string)
    requires ' ' !in x1 && ' ' !in x2
    requires x1 + " " + y1 == x2 + " " + y2
    ensures x1 == x2 && y1 == y2
  {
    var s := x1 + " " + y1;
    FirstSpace(x1, y1);
    FirstSpace(x2, y2);
    assert |x1| == |x2|;
    assert x1 == s[..|x1|] == x2;
    assert y1 == s[|x1| + 1..] == y2;
  }

  /** The printed form identifies the sample when the campaign has no
      space in it. */
  lemma PrintInjective(x: UniqueSampleId, y: UniqueSampleId)
    requires ' ' !in x.campaign && ' ' !in y.campaign
    requires Print(x) == Print(y)
    ensures x == y
  {
    NoSpaceInNumber(x.dsid);
    NoSpaceInNumber(y.dsid);
    assert Print(x) == IntToString(x.dsid) + " " + (x.campaign + " " + x.simulation);
    assert Print(y) == IntToString(y.dsid) + " " + (y.campaign + " " + y.simulation);
    SplitAtFirstSpace(IntToString(x.dsid), x.campaign + " " + x.simulation,
                      IntToString(y.dsid), y.campaign + " " + y.simulation);
    IntToStringInjective(x.dsid, y.dsid);
    SplitAtFirstSpace(x.campaign, x.simulation, y.campaign, y.simulation);
  }
}

=== FILE: sample_reader.dfy ===
/** BlockReaderSample: one `samples` entry of the configuration, already
    given its unique sample identities, read into a sample; then the
    cross-references the document reader resolves for it: its regions, its
    cutflow regions, its systematics and its variables. */
module SampleReader {
  import opened Wrappers
  import opened Values
  import opened OptionLedger
  import Seqs
  import StringOps
  import Regex
  import Settings
  import SampleIds
  import UniqueSamples
  import GeneralReader
  import TruthReader
  import SystematicReader

  type Id = SampleIds.UniqueSampleId

  /** A column defined for the reco tree. */
  datatype CustomColumn = CustomColumn(name: string, definition: string)

  /** A column defined for one truth tree. */
  datatype TruthColumn = TruthColumn(name: string, definition: string, truthTree: string)

  datatype Sample = Sample(name: string, isData: bool, ids: seq<Id>,
                           regions: Option<seq<string>>, excludeRegions: Option<seq<string>>,
                           eventWeight: string, recoTreeName: string, selectionSuffix: string, sumWeights: string,
                           pairingIndices: seq<string>, customColumns: seq<CustomColumn>, truthColumns: seq<TruthColumn>,
                           excludeSystematics: seq<string>, automaticSystematics: bool, nominalOnly: bool,
                           truths: seq<TruthReader.Truth>,
                           variables: Option<seq<string>>, excludeVariables: Option<seq<string>>)

  const IdentityOptions: set<string> := {"name", "_is_data", "_internal_unique_samples", "selection"}
  const RegionChoiceOptions: set<string> := {"regions", "exclude_regions"}
  const PairingOptions: set<string> := {"reco_to_truth_pairing_indices", "exclude_systematics"}
  const ColumnBlockOptions: set<string> := {"define_custom_columns", "define_custom_columns_truth"}
  const SwitchOptions: set<string> := {"automatic_systematics", "nominal_only"}
  const TruthVariableOptions: set<string> := {"truth", "variables", "exclude_variables"}

  /** Every option a sample block may give. */
  const SampleOptions: set<string> :=
    IdentityOptions + RegionChoiceOptions + EventWeightOptions + TreeOptions + PairingOptions + ColumnBlockOptions + SwitchOptions + TruthVariableOptions

  /** The only reco-to-truth pairing the native side supports. */
  const SupportedPairing: seq<string> := ["runNumber", "eventNumber"]

  /** The string at `key`, if there is one. */
  function OptStr(b: Block, key: string): (r: Option<string>)
    ensures r.Some? <==> Lookup(b, key).Some? && Lookup(b, key).value.Str?
    ensures r.Some? ==> Lookup(b, key) == Some(Str(r.value))
  {
    match Lookup(b, key)
    case Some(Str(s)) => Some(s)
    case _ => None
  }

  // ---------------------------------------------------------------------
  // Unique sample identities

  /** A stored identity tuple read back. */
  function ToId(v: Value): (r: Result<Id>)
    ensures r.Ok? ==> UniqueSamples.IdValue(r.value) == v
  {
    match v
    case Tuple(items) =>
      if |items| == 3 && items[0].Int? && items[1].Str? && items[2].Str? then
        assert items == [items[0], items[1], items[2]];
        Ok(SampleIds.UniqueSampleId(items[0].i, items[1].s, items[2].s))
      else Fail(WrongType("_internal_unique_samples"))
    case _ => Fail(WrongType("_internal_unique_samples"))
  }

  /** Reading back a stored identity gives the identity. */
  lemma ToIdRoundTrip(id: Id)
    ensures ToId(UniqueSamples.IdValue(id)) == Ok(id)
  {
  }

  /** The stored identity list read back. */
  function ToIds(items: seq<Value>): (r: Result<seq<Id>>)
    ensures r.Ok? <==> forall k :: 0 <= k < |items| ==> ToId(items[k]).Ok?
    ensures r.Ok? ==> List(items) == UniqueSamples.IdList(r.value)
    ensures r.Ok? ==> |r.value| == |items| && forall k :: 0 <= k < |items| ==> ToId(items[k]) == Ok(r.value[k])
  {
    var ids :- MapAll(items, ToId);
    assert List(items) == UniqueSamples.IdList(ids) by {
      assert UniqueSamples.IdList(ids).items == items;
    }
    Ok(ids)
  }

  /** What the resolution step stores is read back unchanged. */
  lemma {:induction false} ToIdsOfIdList(ids: seq<Id>)
    ensures ToIds(UniqueSamples.IdList(ids).items) == Ok(ids)
  {
    var items := UniqueSamples.IdList(ids).items;
    forall k | 0 <= k < |items| ensures ToId(items[k]) == Ok(ids[k]) {
      ToIdRoundTrip(ids[k]);
    }
    var r := ToIds(items);
    assert r.Ok?;
    forall k | 0 <= k < |ids| ensures r.value[k] == ids[k] {
      assert UniqueSamples.IdValue(r.value[k]) == UniqueSamples.IdValue(ids[k]);
      UniqueSamples.IdValueInjective(r.value[k], ids[k]);
    }
    assert r.value == ids;
  }

  /** name (required), _is_data (default false) and the identity list
      (required), and `selection`, which is read and then overridden by
      selection_suffix. */
  function ReadIdentity(l: Ledger): (r: Result<(string, bool, seq<Value>, Ledger)>)
    ensures !HasKey(l.block, "name") || !HasKey(l.block, "_internal_unique_samples") ==> r.Fail?
    ensures r.Ok? ==> ReadsWithin(l, r.value.3, IdentityOptions)
    ensures r.Ok? ==> Lookup(l.block, "name") == Some(Str(r.value.0))
    ensures r.Ok? ==> r.value.1 == BoolOr(l.block, "_is_data", false)
    ensures r.Ok? ==> Lookup(l.block, "_internal_unique_samples") == Some(List(r.value.2))
  {
    var (name, l1) :- GetStr(l, "name");
    :- Need(name.Some?, MissingOption("name"));
    var (isData, l2) :- GetBool(l1, "_is_data", false);
    var (ids, l3) :- Get(l2, "_internal_unique_samples", Null, Some({ListTag}), Some({TupleTag}));
    :- Need(ids.List?, MissingOption("_internal_unique_samples"));
    var (_, l4) :- GetStrOr(l3, "selection", "true");
    Ok((name.value, isData, ids.items, l4))
  }

  /** The first campaign without a luminosity. */
  function UnknownCampaign(ids: seq<Id>, luminosity: Settings.LuminosityMap): (r: Option<string>)
    ensures r.None? <==> forall k :: 0 <= k < |ids| ==> Settings.CampaignIsDefined(luminosity, ids[k].campaign)
    ensures r.Some? ==> !Settings.CampaignIsDefined(luminosity, r.value)
    decreases |ids|
  {
    if |ids| == 0 then None
    else if ids[0].campaign !in luminosity then Some(ids[0].campaign)
    else
      assert forall k :: 1 <= k < |ids| ==> ids[k] == ids[1..][k - 1];
      UnknownCampaign(ids[1..], luminosity)
  }

  /** Every campaign of a simulated sample has a luminosity. */
  function CheckCampaigns(ids: seq<Id>, luminosity: Settings.LuminosityMap, isData: bool): (r: Outcome)
    ensures r.Pass? <==> isData || forall k :: 0 <= k < |ids| ==> Settings.CampaignIsDefined(luminosity, ids[k].campaign)
  {
    if isData then Pass
    else
      match UnknownCampaign(ids, luminosity)
      case None => Pass
      case Some(c) => Stop(UnknownReference(c))
  }

  // ---------------------------------------------------------------------
  // The options of a sample block

  /** regions and exclude_regions: lists of region patterns, not both. */
  function ReadRegionChoice(l: Ledger): (r: Result<(Option<seq<string>>, Option<seq<string>>, Ledger)>)
    ensures HasKey(l.block, "regions") && HasKey(l.block, "exclude_regions") ==> r.Fail?
    ensures r.Ok? ==> ReadsWithin(l, r.value.2, RegionChoiceOptions)
    ensures r.Ok? ==> r.value.0 == StringsAt(l.block, "regions") && r.value.1 == StringsAt(l.block, "exclude_regions")
  {
    var (regions, l1) :- GetStrList(l, "regions");
    var (excluded, l2) :- GetStrList(l1, "exclude_regions");
    :- Need(regions.None? || excluded.None?, ConflictingOptions("regions", "exclude_regions"));
    Ok((regions, excluded, l2))
  }

  /** The event weight a sample starts from: its own, else "1." for data
      and the general default for simulation. */
  function DefaultEventWeight(d: GeneralReader.Defaults, isData: bool): Option<string> {
    if isData then Some("1.") else d.eventWeights
  }

  /** The weight applied to every event: the event weights, multiplied by
      the weight suffix when there is one. */
  function TotalWeight(weights: string, suffix: Option<string>): string {
    match suffix
    case None => weights
    case Some(s) => "(" + weights + ")*(" + s + ")"
  }

  /** A weight suffix can be told apart from the weights it multiplies:
      equal totals with one suffix come from equal weights. */
  lemma TotalWeightKeepsWeights(w1: string, w2: string, suffix: Option<string>)
    requires TotalWeight(w1, suffix) == TotalWeight(w2, suffix)
    ensures w1 == w2
  {
    if suffix.Some? {
      var t1 := TotalWeight(w1, suffix);
      var tail := ")*(" + suffix.value + ")";
      assert t1 == "(" + w1 + tail;
      assert TotalWeight(w2, suffix) == "(" + w2 + tail;
      assert |w1| == |w2|;
      assert w1 == t1[1..1 + |w1|];
      assert w2 == TotalWeight(w2, suffix)[1..1 + |w2|];
    }
  }

  /** The value given in the block, else the default; neither is fatal. */
  function Given(value: Option<string>, default: Option<string>, option: string): (r: Result<string>)
    ensures r.Ok? <==> value.Some? || default.Some?
    ensures r.Ok? ==> r.value == value.GetOr(default.GetOr(""))
  {
    if value.Some? then Ok(value.value)
    else if default.Some? then Ok(default.value)
    else Fail(MissingOption(option))
  }

  const EventWeightOptions: set<string> := {"event_weights", "weight_suffix"}
  const TreeOptions: set<string> := {"reco_tree_name", "selection_suffix", "sum_weights"}

  /** event_weights, defaulting as DefaultEventWeight says (none at all is
      fatal), times weight_suffix when given. */
  function ReadEventWeight(l: Ledger, d: GeneralReader.Defaults, isData: bool): (r: Result<(string, Ledger)>)
    ensures !HasKey(l.block, "event_weights") && DefaultEventWeight(d, isData).None? ==> r.Fail?
    ensures r.Ok? ==> ReadsWithin(l, r.value.1, EventWeightOptions)
    ensures r.Ok? ==> (HasKey(l.block, "weight_suffix") <==> OptStr(l.block, "weight_suffix").Some?)
    ensures r.Ok? ==> r.value.0 == TotalWeight(StrOr(l.block, "event_weights", DefaultEventWeight(d, isData).GetOr("")),
                                                OptStr(l.block, "weight_suffix"))
  {
    var (weights, l1) :- GetStr(l, "event_weights");
    var base :- Given(weights, DefaultEventWeight(d, isData), "event_weights");
    var (suffix, l2) :- GetStr(l1, "weight_suffix");
    Ok((TotalWeight(base, suffix), l2))
  }

  /** reco_tree_name (default from the general block; none at all is
      fatal), selection_suffix (default "") and sum_weights (default from
      the general block). */
  function ReadTrees(l: Ledger, d: GeneralReader.Defaults): (r: Result<(string, string, string, Ledger)>)
    ensures !HasKey(l.block, "reco_tree_name") && d.recoTreeName.None? ==> r.Fail?
    ensures r.Ok? ==> ReadsWithin(l, r.value.3, TreeOptions)
    ensures r.Ok? ==> r.value.0 == StrOr(l.block, "reco_tree_name", d.recoTreeName.GetOr(""))
    ensures r.Ok? ==> r.value.1 == StrOr(l.block, "selection_suffix", "")
    ensures r.Ok? ==> r.value.2 == StrOr(l.block, "sum_weights", d.sumWeights)
  {
    var (tree, l1) :- GetStr(l, "reco_tree_name");
    var treeName :- Given(tree, d.recoTreeName, "reco_tree_name");
    var (selectionSuffix, l2) :- GetStrOr(l1, "selection_suffix", "");
    var (sumWeights, l3) :- GetStrOr(l2, "sum_weights", d.sumWeights);
    Ok((treeName, selectionSuffix, sumWeights, l3))
  }

  /** reco_to_truth_pairing_indices and exclude_systematics, each
      defaulting to the general block's value. */
  function ReadPairing(l: Ledger, d: GeneralReader.Defaults): (r: Result<(seq<string>, seq<string>, Ledger)>)
    ensures r.Ok? ==> ReadsWithin(l, r.value.2, PairingOptions)
    ensures r.Ok? && !HasKey(l.block, "reco_to_truth_pairing_indices") ==> r.value.0 == d.pairingIndices
    ensures r.Ok? && HasKey(l.block, "reco_to_truth_pairing_indices") ==>
      Lookup(l.block, "reco_to_truth_pairing_indices") == Some(StrList(r.value.0))
    ensures r.Ok? && !HasKey(l.block, "exclude_systematics") ==> r.value.1 == d.excludeSystematics
  {
    var (pairing, l1) :- GetStrListOr(l, "reco_to_truth_pairing_indices", d.pairingIndices);
    var (exclude, l2) :- GetStrListOr(l1, "exclude_systematics", d.excludeSystematics);
    Ok((pairing, exclude, l2))
  }

  /** define_custom_columns and define_custom_columns_truth, lists of
      blocks defaulting to the general block's. */
  function ReadColumnBlocks(l: Ledger, d: GeneralReader.Defaults): (r: Result<(seq<Block>, seq<Block>, Ledger)>)
    ensures r.Ok? ==> ReadsWithin(l, r.value.2, ColumnBlockOptions)
    ensures r.Ok? && !HasKey(l.block, "define_custom_columns") ==> r.value.0 == d.customColumns
    ensures r.Ok? && !HasKey(l.block, "define_custom_columns_truth") ==> r.value.1 == d.customColumnsTruth
  {
    var (columns, l1) :- GetBlockList(l, "define_custom_columns");
    var (truthColumns, l2) :- GetBlockList(l1, "define_custom_columns_truth");
    Ok((columns.GetOr(d.customColumns), truthColumns.GetOr(d.customColumnsTruth), l2))
  }

  /** automatic_systematics and nominal_only, defaulting to the general
      block's; both true is fatal. */
  function ReadSwitches(l: Ledger, d: GeneralReader.Defaults): (r: Result<(bool, bool, Ledger)>)
    ensures r.Ok? ==> ReadsWithin(l, r.value.2, SwitchOptions)
    ensures r.Ok? ==> r.value.0 == BoolOr(l.block, "automatic_systematics", d.automaticSystematics)
    ensures r.Ok? ==> r.value.1 == BoolOr(l.block, "nominal_only", d.nominalOnly)
    ensures r.Ok? ==> !(r.value.0 && r.value.1)
    ensures (Lookup(l.block, "automatic_systematics").None? || Lookup(l.block, "automatic_systematics").value.Bool?) &&
            (Lookup(l.block, "nominal_only").None? || Lookup(l.block, "nominal_only").value.Bool?) ==>
      (r.Ok? <==> !(BoolOr(l.block, "automatic_systematics", d.automaticSystematics) &&
                    BoolOr(l.block, "nominal_only", d.nominalOnly)))
  {
    var (automatic, l1) :- GetBool(l, "automatic_systematics", d.automaticSystematics);
    var (nominalOnly, l2) :- GetBool(l1, "nominal_only", d.nominalOnly);
    :- Need(!(automatic && nominalOnly), ConflictingOptions("automatic_systematics", "nominal_only"));
    Ok((automatic, nominalOnly, l2))
  }

  /** truth (a list of truth blocks), variables and exclude_variables; the
      last two not both. */
  function ReadTruthAndVariables(l: Ledger)
    : (r: Result<(seq<Block>, Option<seq<string>>, Option<seq<string>>, Ledger)>)
    ensures HasKey(l.block, "variables") && HasKey(l.block, "exclude_variables") ==> r.Fail?
    ensures r.Ok? ==> ReadsWithin(l, r.value.3, TruthVariableOptions)
    ensures r.Ok? ==> r.value.1 == StringsAt(l.block, "variables") && r.value.2 == StringsAt(l.block, "exclude_variables")
  {
    var (truths, l1) :- GetBlockList(l, "truth");
    var (variables, l2) :- GetStrList(l1, "variables");
    var (excluded, l3) :- GetStrList(l2, "exclude_variables");
    :- Need(variables.None? || excluded.None?, ConflictingOptions("variables", "exclude_variables"));
    Ok((truths.GetOr([]), variables, excluded, l3))
  }

  // ---------------------------------------------------------------------
  // Custom columns and truth blocks

  /** One reco custom column: name and definition required, nothing else
      allowed. */
  function ReadCustomColumn(b: Block): (r: Result<CustomColumn>)
    ensures r.Ok? ==> Lookup(b, "name") == Some(Str(r.value.name)) && Lookup(b, "definition") == Some(Str(r.value.definition))
    ensures r.Ok? ==> forall k :: k in Keys(b) ==> k in {"name", "definition"}
    ensures !HasKey(b, "name") || !HasKey(b, "definition") ==> r.Fail?
  {
    var (name, l1) :- GetStr(Fresh(b), "name");
    var (definition, l2) :- GetStr(l1, "definition");
    :- Need(name.Some? && definition.Some?, MissingOption("name"));
    var unused := Unused(l2);
    :- Need(|unused| == 0, UnusedOptions(unused));
    NothingUnused(l2);
    Ok(CustomColumn(name.value, definition.value))
  }

  /** One truth custom column: name, definition and truth_tree required,
      nothing else allowed. */
  function ReadTruthColumn(b: Block): (r: Result<TruthColumn>)
    ensures r.Ok? ==> Lookup(b, "name") == Some(Str(r.value.name)) && Lookup(b, "definition") == Some(Str(r.value.definition))
    ensures r.Ok? ==> Lookup(b, "truth_tree") == Some(Str(r.value.truthTree))
    ensures r.Ok? ==> forall k :: k in Keys(b) ==> k in {"name", "definition", "truth_tree"}
    ensures !HasKey(b, "name") || !HasKey(b, "definition") || !HasKey(b, "truth_tree") ==> r.Fail?
  {
    var (name, l1) :- GetStr(Fresh(b), "name");
    var (definition, l2) :- GetStr(l1, "definition");
    var (tree, l3) :- GetStr(l2, "truth_tree");
    :- Need(name.Some? && definition.Some? && tree.Some?, MissingOption("name"));
    var unused := Unused(l3);
    :- Need(|unused| == 0, UnusedOptions(unused));
    NothingUnused(l3);
    Ok(TruthColumn(name.value, definition.value, tree.value))
  }

  /** The truth columns are only read when the sample has truth blocks; they
      are ignored otherwise. */
  function ReadTruthColumns(blocks: seq<Block>, truths: seq<TruthReader.Truth>): (r: Result<seq<TruthColumn>>)
    ensures |truths| == 0 ==> r == Ok([])
    ensures |truths| > 0 ==> (r.Ok? <==> forall k :: 0 <= k < |blocks| ==> ReadTruthColumn(blocks[k]).Ok?)
    ensures |truths| > 0 && r.Ok? ==>
      |r.value| == |blocks| && forall k :: 0 <= k < |blocks| ==> ReadTruthColumn(blocks[k]) == Ok(r.value[k])
  {
    if |blocks| > 0 && |truths| > 0 then MapAll(blocks, ReadTruthColumn) else Ok([])
  }

  /** Every truth block's reco match variables are variables of the
      configured regions. */
  function CheckTruths(truths: seq<TruthReader.Truth>, recoVariables: seq<string>): (r: Outcome)
    ensures r.Pass? <==> forall k :: 0 <= k < |truths| ==> TruthReader.CheckRecoVariables(truths[k], recoVariables).Pass?
    decreases |truths|
  {
    if |truths| == 0 then Pass
    else
      var first := TruthReader.CheckRecoVariables(truths[0], recoVariables);
      if first.Stop? then first
      else
        assert forall k :: 1 <= k < |truths| ==> truths[k] == truths[1..][k - 1];
        CheckTruths(truths[1..], recoVariables)
  }

  // ---------------------------------------------------------------------
  // The whole sample block

  /** The options of the first half of a sample block, as given. */
  datatype Head = Head(name: string, isData: bool, idItems: seq<Value>,
                       regions: Option<seq<string>>, excludeRegions: Option<seq<string>>,
                       eventWeight: string, recoTreeName: string, selectionSuffix: string, sumWeights: string)

  /** The options of the second half of a sample block, as given (the
      custom columns and truth blocks still unread). */
  datatype Tail = Tail(pairing: seq<string>, excludeSystematics: seq<string>,
                       columnBlocks: seq<Block>, truthColumnBlocks: seq<Block>,
                       automaticSystematics: bool, nominalOnly: bool,
                       truthBlocks: seq<Block>, variables: Option<seq<string>>, excludeVariables: Option<seq<string>>)

  const HeadOptions: set<string> := IdentityOptions + RegionChoiceOptions + EventWeightOptions + TreeOptions
  const TailOptions: set<string> := PairingOptions + ColumnBlockOptions + SwitchOptions + TruthVariableOptions

  function ReadHead(l: Ledger, d: GeneralReader.Defaults): (r: Result<(Head, Ledger)>)
    ensures r.Ok? ==> ReadsWithin(l, r.value.1, HeadOptions)
    ensures !HasKey(l.block, "name") || !HasKey(l.block, "_internal_unique_samples") ==> r.Fail?
    ensures HasKey(l.block, "regions") && HasKey(l.block, "exclude_regions") ==> r.Fail?
    ensures r.Ok? ==> Lookup(l.block, "name") == Some(Str(r.value.0.name))
    ensures r.Ok? ==> r.value.0.isData == BoolOr(l.block, "_is_data", false)
    ensures r.Ok? ==> Lookup(l.block, "_internal_unique_samples") == Some(List(r.value.0.idItems))
    ensures r.Ok? ==> r.value.0.regions == StringsAt(l.block, "regions")
    ensures r.Ok? ==> r.value.0.excludeRegions == StringsAt(l.block, "exclude_regions")
    ensures r.Ok? ==> r.value.0.recoTreeName == StrOr(l.block, "reco_tree_name", d.recoTreeName.GetOr(""))
    ensures r.Ok? ==> r.value.0.sumWeights == StrOr(l.block, "sum_weights", d.sumWeights)
  {
    var (name, isData, items, l1) :- ReadIdentity(l);
    var (regions, excluded, l2) :- ReadRegionChoice(l1);
    var (weight, l3) :- ReadEventWeight(l2, d, isData);
    var (tree, selectionSuffix, sumWeights, l4) :- ReadTrees(l3, d);
    Ok((Head(name, isData, items, regions, excluded, weight, tree, selectionSuffix, sumWeights), l4))
  }

  function ReadTail(l: Ledger, d: GeneralReader.Defaults): (r: Result<(Tail, Ledger)>)
    ensures r.Ok? ==> ReadsWithin(l, r.value.1, TailOptions)
    ensures HasKey(l.block, "variables") && HasKey(l.block, "exclude_variables") ==> r.Fail?
    ensures r.Ok? && !HasKey(l.block, "reco_to_truth_pairing_indices") ==> r.value.0.pairing == d.pairingIndices
    ensures r.Ok? && HasKey(l.block, "reco_to_truth_pairing_indices") ==>
      Lookup(l.block, "reco_to_truth_pairing_indices") == Some(StrList(r.value.0.pairing))
    ensures r.Ok? ==> !(r.value.0.automaticSystematics && r.value.0.nominalOnly)
    ensures r.Ok? ==> r.value.0.automaticSystematics == BoolOr(l.block, "automatic_systematics", d.automaticSystematics)
    ensures r.Ok? ==> r.value.0.nominalOnly == BoolOr(l.block, "nominal_only", d.nominalOnly)
    ensures r.Ok? ==> r.value.0.variables == StringsAt(l.block, "variables")
    ensures r.Ok? ==> r.value.0.excludeVariables == StringsAt(l.block, "exclude_variables")
  {
    var (pairing, exclude, l1) :- ReadPairing(l, d);
    var (columns, truthColumns, l2) :- ReadColumnBlocks(l1, d);
    var (automatic, nominalOnly, l3) :- ReadSwitches(l2, d);
    var (truths, variables, excluded, l4) :- ReadTruthAndVariables(l3);
    Ok((Tail(pairing, exclude, columns, truthColumns, automatic, nominalOnly, truths, variables, excluded), l4))
  }

  /** Every option of the block is one of SampleOptions. */
  function ReadOptions(b: Block, d: GeneralReader.Defaults): (r: Result<(Head, Tail)>)
    ensures r.Ok? ==> forall k :: k in Keys(b) ==> k in SampleOptions
    ensures !HasKey(b, "name") || !HasKey(b, "_internal_unique_samples") ==> r.Fail?
    ensures HasKey(b, "regions") && HasKey(b, "exclude_regions") ==> r.Fail?
    ensures HasKey(b, "variables") && HasKey(b, "exclude_variables") ==> r.Fail?
    ensures r.Ok? ==> Lookup(b, "name") == Some(Str(r.value.0.name))
    ensures r.Ok? ==> r.value.0.isData == BoolOr(b, "_is_data", false)
    ensures r.Ok? ==> Lookup(b, "_internal_unique_samples") == Some(List(r.value.0.idItems))
    ensures r.Ok? ==> !(r.value.1.automaticSystematics && r.value.1.nominalOnly)
  {
    var (head, l1) :- ReadHead(Fresh(b), d);
    var (tail, l2) :- ReadTail(l1, d);
    var unused := Unused(l2);
    :- Need(|unused| == 0, UnusedOptions(unused));
    NothingUnused(l2);
    Ok((head, tail))
  }

  /** The sample built from its options: the identities read back, every
      campaign of a simulated sample known, the truth blocks read and their
      reco variables known, the pairing the supported one, and the custom
      columns read (the truth ones only when there are truth blocks). */
  function Assemble(head: Head, tail: Tail, luminosity: Settings.LuminosityMap, recoVariables: seq<string>)
    : (r: Result<Sample>)
    ensures tail.pairing != SupportedPairing ==> r.Fail?
    ensures r.Ok? ==> r.value.name == head.name && r.value.isData == head.isData
    ensures r.Ok? ==> List(head.idItems) == UniqueSamples.IdList(r.value.ids)
    ensures r.Ok? && !r.value.isData ==>
      forall k :: 0 <= k < |r.value.ids| ==> Settings.CampaignIsDefined(luminosity, r.value.ids[k].campaign)
    ensures r.Ok? ==> r.value.pairingIndices == SupportedPairing
    ensures r.Ok? ==> (|r.value.truths| == |tail.truthBlocks| &&
      forall k :: 0 <= k < |tail.truthBlocks| ==> TruthReader.ReadTruth(tail.truthBlocks[k]) == Ok(r.value.truths[k]))
    ensures r.Ok? ==> forall k :: 0 <= k < |r.value.truths| ==>
      TruthReader.CheckRecoVariables(r.value.truths[k], recoVariables).Pass?
    ensures r.Ok? ==> (|r.value.customColumns| == |tail.columnBlocks| &&
      forall k :: 0 <= k < |tail.columnBlocks| ==> ReadCustomColumn(tail.columnBlocks[k]) == Ok(r.value.customColumns[k]))
    ensures r.Ok? && |tail.truthBlocks| == 0 ==> r.value.truthColumns == []
    ensures r.Ok? ==> r.value.automaticSystematics == tail.automaticSystematics && r.value.nominalOnly == tail.nominalOnly
  {
    var ids :- ToIds(head.idItems);
    :- CheckCampaigns(ids, luminosity, head.isData);
    var truths :- MapAll(tail.truthBlocks, TruthReader.ReadTruth);
    :- CheckTruths(truths, recoVariables);
    :- Need(tail.pairing == SupportedPairing, InvalidValue("reco_to_truth_pairing_indices"));
    var columns :- MapAll(tail.columnBlocks, ReadCustomColumn);
    var truthColumns :- ReadTruthColumns(tail.truthColumnBlocks, truths);
    Ok(Sample(head.name, head.isData, ids, head.regions, head.excludeRegions,
              head.eventWeight, head.recoTreeName, head.selectionSuffix, head.sumWeights,
              tail.pairing, columns, truthColumns, tail.excludeSystematics, tail.automaticSystematics, tail.nominalOnly,
              truths, tail.variables, tail.excludeVariables))
  }

  /** BlockReaderSample: a sample block, its unique samples already
      resolved, read against the general block and the variable names of
      all regions. */
  function ReadSample(b: Block, general: GeneralReader.General, recoVariables: seq<string>): (r: Result<Sample>)
    ensures r.Ok? ==> forall k :: k in Keys(b) ==> k in SampleOptions
    ensures !HasKey(b, "name") || !HasKey(b, "_internal_unique_samples") ==> r.Fail?
    ensures HasKey(b, "regions") && HasKey(b, "exclude_regions") ==> r.Fail?
    ensures HasKey(b, "variables") && HasKey(b, "exclude_variables") ==> r.Fail?
    ensures r.Ok? ==> Lookup(b, "name") == Some(Str(r.value.name))
    ensures r.Ok? ==> r.value.isData == BoolOr(b, "_is_data", false)
    ensures r.Ok? ==> Lookup(b, "_internal_unique_samples") == Some(UniqueSamples.IdList(r.value.ids))
    ensures r.Ok? && !r.value.isData ==>
      forall k :: 0 <= k < |r.value.ids| ==> Settings.CampaignIsDefined(general.run.luminosity, r.value.ids[k].campaign)
    ensures r.Ok? ==> r.value.pairingIndices == SupportedPairing
    ensures r.Ok? ==> !(r.value.automaticSystematics && r.value.nominalOnly)
  {
    var (head, tail) :- ReadOptions(b, general.defaults);
    Assemble(head, tail, general.run.luminosity, recoVariables)
  }

  // ---------------------------------------------------------------------
  // Regions

  /** regex_in_string_list: the pattern matches some region whole. */
  predicate MatchesSomeRegion(e: Regex.Engine, pattern: string, regionNames: seq<string>) {
    exists k :: 0 <= k < |regionNames| && Regex.FullMatch(e, pattern, regionNames[k])
  }

  /** get_matched_regions: the regions the pattern matches whole, in region
      order. */
  function MatchedRegions(e: Regex.Engine, pattern: string, regionNames: seq<string>): (r: seq<string>)
    ensures forall x :: x in r <==> x in regionNames && Regex.FullMatch(e, pattern, x)
    ensures |r| > 0 <==> MatchesSomeRegion(e, pattern, regionNames)
  {
    var r := Seqs.Filter(regionNames, x => Regex.FullMatch(e, pattern, x));
    assert MatchesSomeRegion(e, pattern, regionNames) ==> |r| > 0 by {
      if MatchesSomeRegion(e, pattern, regionNames) {
        var k :| 0 <= k < |regionNames| && Regex.FullMatch(e, pattern, regionNames[k]);
        assert regionNames[k] in r;
      }
    }
    assert |r| > 0 ==> MatchesSomeRegion(e, pattern, regionNames) by {
      if |r| > 0 {
        assert r[0] in regionNames;
        var k :| 0 <= k < |regionNames| && regionNames[k] == r[0];
      }
    }
    r
  }

  /** Every exclude pattern names some region. */
  function CheckExcludedRegions(e: Regex.Engine, patterns: seq<string>, regionNames: seq<string>): (r: Outcome)
    ensures r.Pass? <==> forall k :: 0 <= k < |patterns| ==> MatchesSomeRegion(e, patterns[k], regionNames)
    decreases |patterns|
  {
    if |patterns| == 0 then Pass
    else if |MatchedRegions(e, patterns[0], regionNames)| == 0 then Stop(UnknownReference(patterns[0]))
    else
      assert forall k :: 1 <= k < |patterns| ==> patterns[k] == patterns[1..][k - 1];
      CheckExcludedRegions(e, patterns[1..], regionNames)
  }

  /** The regions an explicit list selects: for each pattern in turn the
      regions it matches whole, of which there must be at least one. A
      region two patterns match appears twice. */
  function SelectRegions(e: Regex.Engine, patterns: seq<string>, regionNames: seq<string>): (r: Result<seq<string>>)
    ensures r.Ok? <==> forall k :: 0 <= k < |patterns| ==> MatchesSomeRegion(e, patterns[k], regionNames)
    ensures r.Ok? ==> forall x :: x in r.value <==> x in regionNames && Regex.FullMatchesAny(e, patterns, x)
    decreases |patterns|
  {
    if |patterns| == 0 then Ok([])
    else
      var first := MatchedRegions(e, patterns[0], regionNames);
      assert forall k :: 1 <= k < |patterns| ==> patterns[k] == patterns[1..][k - 1];
      if |first| == 0 then Fail(UnknownReference(patterns[0]))
      else
        var rest :- SelectRegions(e, patterns[1..], regionNames);
        assert forall x :: x in first + rest <==> x in regionNames && Regex.FullMatchesAny(e, patterns, x) by {
          forall x ensures Regex.FullMatchesAny(e, patterns, x) <==>
                           Regex.FullMatch(e, patterns[0], x) || Regex.FullMatchesAny(e, patterns[1..], x) {
            Regex.FullMatchesAnyCons(e, patterns, x);
          }
        }
        Ok(first + rest)
  }

  /** Whether a region survives the exclude list: no exclude pattern matches
      a prefix of its name. */
  predicate NotExcluded(e: Regex.Engine, excludeRegions: Option<seq<string>>, region: string) {
    excludeRegions.None? || !Regex.PrefixMatchesAny(e, excludeRegions.value, region)
  }

  /** adjust_regions: every exclude pattern must match some region whole;
      then, without a region list, every region not excluded (by prefix
      match), in region order; with one, the regions SelectRegions gives. */
  function AdjustRegions(e: Regex.Engine, regions: Option<seq<string>>, excludeRegions: Option<seq<string>>,
                         regionNames: seq<string>): (r: Result<seq<string>>)
    ensures r.Ok? <==>
      (excludeRegions.None? || forall k :: 0 <= k < |excludeRegions.value| ==> MatchesSomeRegion(e, excludeRegions.value[k], regionNames)) &&
      (regions.None? || forall k :: 0 <= k < |regions.value| ==> MatchesSomeRegion(e, regions.value[k], regionNames))
    ensures r.Ok? && regions.None? ==>
      (forall x :: x in r.value <==> x in regionNames && NotExcluded(e, excludeRegions, x)) && Seqs.IsSubsequence(r.value, regionNames)
    ensures r.Ok? && regions.Some? ==>
      forall x :: x in r.value <==> x in regionNames && Regex.FullMatchesAny(e, regions.value, x)
  {
    var excludesKnown := if excludeRegions.Some? then CheckExcludedRegions(e, excludeRegions.value, regionNames) else Pass;
    :- excludesKnown;
    if regions.None? then Ok(Seqs.Filter(regionNames, x => NotExcluded(e, excludeRegions, x)))
    else SelectRegions(e, regions.value, regionNames)
  }

  /** An exclude pattern removes every region it matches a prefix of, not
      only the one it names: excluding "a" from "a" and "ab" leaves nothing. */
  lemma ExcludeRemovesByPrefix()
    ensures AdjustRegions(Regex.LiteralEngine(), None, Some(["a"]), ["a", "ab"]) == Ok([])
  {
    var e := Regex.LiteralEngine();
    assert Regex.FullMatch(e, "a", ["a", "ab"][0]);
    assert Regex.PrefixMatch(e, "a", "a") by { assert "a"[..1] == "a"; }
    assert Regex.PrefixMatch(e, "a", "ab") by { assert "ab"[..1] == "a"; }
    var kept := Seqs.Filter(["a", "ab"], x => NotExcluded(e, Some(["a"]), x));
    assert "a" !in kept && "ab" !in kept;
    assert |kept| == 0;
  }

  /** A region two include patterns match is listed twice. */
  lemma IncludedRegionsMayRepeat()
    ensures AdjustRegions(Regex.LiteralEngine(), Some(["a", "a"]), None, ["a", "b"]) == Ok(["a", "a"])
  {
    var e := Regex.LiteralEngine();
    var m := MatchedRegions(e, "a", ["a", "b"]);
    assert "a" in m && "b" !in m;
    assert m == ["a"];
    assert SelectRegions(e, ["a"], ["a", "b"]) == Ok(["a"]) by {
      assert ["a"][1..] == [];
    }
    var twice: seq<string> := ["a", "a"];
    assert twice[0] == "a" && twice[1..] == ["a"];
    assert SelectRegions(e, twice, ["a", "b"]) == Ok(m + ["a"]);
    assert m + ["a"] == ["a", "a"];
  }

  /** An exclude pattern naming no region is fatal, even without a region
      list. */
  lemma UnknownExcludedRegionFails()
    ensures AdjustRegions(Regex.LiteralEngine(), None, Some(["b"]), ["a"]).Fail?
  {
    assert !MatchesSomeRegion(Regex.LiteralEngine(), "b", ["a"]);
  }

  /** adjust_cutflow_regions: a sample takes every cutflow region when the
      cutflow names no samples or names this one; otherwise its regions are
      left as they are. */
  function AdjustCutflowRegions(sampleName: string, regions: seq<string>, cutflowRegions: seq<string>,
                                cutflowSamples: Option<seq<string>>): (r: seq<string>)
    ensures |r| >= |regions| && r[..|regions|] == regions
    ensures cutflowSamples.None? || sampleName in cutflowSamples.value ==> r[|regions|..] == cutflowRegions
    ensures cutflowSamples.Some? && sampleName !in cutflowSamples.value ==> r == regions
  {
    if cutflowSamples.None? || sampleName in cutflowSamples.value then regions + cutflowRegions else regions
  }

  // ---------------------------------------------------------------------
  // Systematics

  type Systematic = SystematicReader.Systematic

  /** Whether a systematic is run on a sample: an explicit samples list must
      name it, an exclude list must not, and a data or nominal-only sample
      takes from the systematics without a samples list only the nominal. */
  predicate Applies(s: Sample, syst: Systematic) {
    && (syst.samples.None? || s.name in syst.samples.value)
    && (syst.excludeSamples.None? || s.name !in syst.excludeSamples.value)
    && !(syst.samples.None? && (s.isData || s.nominalOnly) && !syst.IsNominal())
  }

  /** adjust_systematics: the systematics that apply to the sample, in the
      order they were defined. */
  method AdjustSystematics(s: Sample, systematics: seq<Systematic>) returns (kept: seq<Systematic>)
    ensures kept == Seqs.Filter(systematics, syst => Applies(s, syst))
    ensures forall syst :: syst in kept <==> syst in systematics && Applies(s, syst)
  {
    kept := [];
    var i := 0;
    while i < |systematics|
      invariant 0 <= i <= |systematics|
      invariant kept == Seqs.Filter(systematics[..i], syst => Applies(s, syst))
    {
      Seqs.FilterSnoc(systematics, i, syst => Applies(s, syst));
      var syst := systematics[i];
      if (syst.samples.None? || s.name in syst.samples.value)
         && (syst.excludeSamples.None? || s.name !in syst.excludeSamples.value)
         && !(syst.samples.None? && (s.isData || s.nominalOnly) && !syst.IsNominal()) {
        kept := kept + [syst];
      }
      i := i + 1;
    }
    assert systematics[..i] == systematics;
  }

  /** A data or nominal-only sample gets, from the systematics that do not
      list their samples, only the nominal one. */
  lemma DataSamplesSkipUnlistedVariations(s: Sample, systematics: seq<Systematic>, syst: Systematic)
    requires s.isData || s.nominalOnly
    requires syst in Seqs.Filter(systematics, x => Applies(s, x))
    requires syst.samples.None?
    ensures syst.IsNominal()
  {
  }

  /** A systematic that names the sample in its samples list reaches it,
      data or not, unless it also excludes it. */
  lemma ListedSystematicReachesSample(s: Sample, systematics: seq<Systematic>, syst: Systematic)
    requires syst in systematics
    requires syst.samples.Some? && s.name in syst.samples.value
    requires syst.excludeSamples.None? || s.name !in syst.excludeSamples.value
    ensures syst in Seqs.Filter(systematics, x => Applies(s, x))
  {
  }

  // ---------------------------------------------------------------------
  // Variables

  /** The variables the sample's regions define, each once, in the order
      they first appear. */
  function Candidates(regionVariables: seq<seq<string>>): (r: seq<string>)
    ensures Seqs.Distinct(r)
    ensures forall v :: v in r <==> exists k :: 0 <= k < |regionVariables| && v in regionVariables[k]
  {
    Seqs.Dedup(Seqs.Flatten(regionVariables))
  }

  /** Whether a variable is kept: with a variables list, when it is listed
      or some entry matches a prefix of it; with an exclude list, when
      neither; with no list, always. */
  predicate KeepsVariable(e: Regex.Engine, variables: Option<seq<string>>, excludeVariables: Option<seq<string>>,
                          v: string) {
    if variables.Some? then v in variables.value || Regex.PrefixMatchesAny(e, variables.value, v)
    else if excludeVariables.Some? then !(v in excludeVariables.value || Regex.PrefixMatchesAny(e, excludeVariables.value, v))
    else true
  }

  /** resolve_variables: the candidates of the sample's regions that are
      kept, in candidate order. */
  method ResolveVariables(e: Regex.Engine, regionVariables: seq<seq<string>>,
                          variables: Option<seq<string>>, excludeVariables: Option<seq<string>>)
    returns (kept: seq<string>)
    ensures kept == Seqs.Filter(Candidates(regionVariables), v => KeepsVariable(e, variables, excludeVariables, v))
    ensures Seqs.Distinct(kept)
    ensures forall v :: v in kept <==>
      (exists k :: 0 <= k < |regionVariables| && v in regionVariables[k]) && KeepsVariable(e, variables, excludeVariables, v)
  {
    var candidates := CollectCandidates(regionVariables);
    kept := Seqs.KeepAll(candidates, v => KeepsVariable(e, variables, excludeVariables, v));
    Seqs.FilterDistinct(candidates, v => KeepsVariable(e, variables, excludeVariables, v));
  }

  /** The variables of the regions, in order, each once. */
  method CollectCandidates(regionVariables: seq<seq<string>>) returns (candidates: seq<string>)
    ensures candidates == Seqs.Dedup(Seqs.Flatten(regionVariables))
  {
    candidates := [];
    var i := 0;
    while i < |regionVariables|
      invariant 0 <= i <= |regionVariables|
      invariant candidates == Seqs.Dedup(Seqs.Flatten(regionVariables[..i]))
    {
      assert regionVariables[..i + 1][..i] == regionVariables[..i];
      candidates := Seqs.AppendUnseen(candidates, Seqs.Flatten(regionVariables[..i]), regionVariables[i]);
      i := i + 1;
    }
    assert regionVariables[..i] == regionVariables;
  }

  /** The same list given as variables and as exclude_variables splits the
      candidates in two: every candidate is kept by exactly one of them. */
  lemma {:induction false} IncludeAndExcludeSplitCandidates(e: Regex.Engine, candidates: seq<string>, names: seq<string>)
    ensures multiset(Seqs.Filter(candidates, v => KeepsVariable(e, Some(names), None, v)))
          + multiset(Seqs.Filter(candidates, v => KeepsVariable(e, None, Some(names), v)))
         == multiset(candidates)
    decreases |candidates|
  {
    if |candidates| > 0 {
      var keep := v => KeepsVariable(e, Some(names), None, v);
      var drop := v => KeepsVariable(e, None, Some(names), v);
      var x, tail := candidates[0], candidates[1..];
      IncludeAndExcludeSplitCandidates(e, tail, names);
      assert keep(x) != drop(x);
      assert multiset(Seqs.Filter(candidates, keep)) == multiset(if keep(x) then [x] else []) + multiset(Seqs.Filter(tail, keep));
      assert multiset(Seqs.Filter(candidates, drop)) == multiset(if drop(x) then [x] else []) + multiset(Seqs.Filter(tail, drop));
      assert candidates == [x] + tail;
    }
  }

  // ---------------------------------------------------------------------
  // Telling data samples apart from their identity strings

  /** uniqueSampleIDstring: "(dsid,campaign,simulation)". */
  function IdString(id: Id): (r: string)
    ensures |r| >= 2 && r[0] == '(' && r[|r| - 1] == ')'
  {
    "(" + StringOps.IntToString(id.dsid) + "," + id.campaign + "," + id.simulation + ")"
  }

  /** A decimal rendering has no commas. */
  lemma NoCommaInNumber(i: int)
    ensures ',' !in StringOps.IntToString(i)
  {
    var r := StringOps.IntToString(i);
    if i < 0 {
      var digits := StringOps.NatToString(-i);
      assert r == "-" + digits;
      forall k | 0 <= k < |r| ensures r[k] != ',' {
        if k > 0 { assert r[k] == digits[k - 1]; }
      }
    }
  }

  /** The identity string without its parentheses. */
  function Inner(id: Id): (r: string)
    ensures r == StringOps.IntToString(id.dsid) + [','] + (id.campaign + [','] + id.simulation)
  {
    var s := IdString(id);
    s[1..|s| - 1]
  }

  /** `idstring[1:-1].split(",")`: at least three fields, since the
      identity string has at least two commas. */
  function Fields(id: Id): (r: seq<string>)
    ensures |r| >= 3
  {
    var inner := Inner(id);
    assert multiset(inner)[','] >= 2;
    StringOps.PySplitCount(inner, ',');
    StringOps.PySplit(inner, ',')
  }

  /** The fields are the dsid, the campaign and the simulation's own fields,
      when the campaign has no comma. */
  lemma FieldsOfId(id: Id)
    requires ',' !in id.campaign
    ensures Fields(id) == [StringOps.IntToString(id.dsid), id.campaign] + StringOps.PySplit(id.simulation, ',')
  {
    NoCommaInNumber(id.dsid);
    StringOps.PySplitCons(StringOps.IntToString(id.dsid), ',', id.campaign + [','] + id.simulation);
    StringOps.PySplitCons(id.campaign, ',', id.simulation);
  }

  /** Whether the identity string says "data": its third comma-separated
      field, white space stripped and lower-cased, is "data". */
  predicate IdStringSaysData(id: Id) {
    StringOps.ToLower(StringOps.Strip(Fields(id)[2], StringOps.Whitespace)) == "data"
  }

  /** is_data_sample: every identity of the sample says "data" (so a
      sample with no identities is data). */
  function IsDataSample(ids: seq<Id>): (r: bool)
    ensures r <==> forall k :: 0 <= k < |ids| ==> IdStringSaysData(ids[k])
    decreases |ids|
  {
    if |ids| == 0 then true
    else
      assert forall k :: 1 <= k < |ids| ==> ids[1..][k - 1] == ids[k];
      IdStringSaysData(ids[0]) && IsDataSample(ids[1..])
  }

  /** Lower-casing reads "data" exactly for the spellings of data. */
  lemma LowerIsData(s: string)
    ensures StringOps.ToLower(s) == "data" <==>
      (|s| == 4 && s[0] in {'d', 'D'} && s[1] in {'a', 'A'} && s[2] in {'t', 'T'} && s[3] in {'a', 'A'})
  {
    if |s| == 4 {
      var l := StringOps.ToLower(s);
      assert l == "data" <==> l[0] == 'd' && l[1] == 'a' && l[2] == 't' && l[3] == 'a';
    }
  }

  /** The field "data" reads as data. */
  lemma PlainDataReadsAsData(field: string)
    requires field == "data"
    ensures StringOps.ToLower(StringOps.Strip(field, StringOps.Whitespace)) == "data"
  {
    assert 'd' !in StringOps.Whitespace && 'a' !in StringOps.Whitespace;
    StringOps.StripNothing(field, StringOps.Whitespace);
    var stripped := StringOps.Strip(field, StringOps.Whitespace);
    assert stripped == "data";
    LowerIsData(stripped);
  }

  /** For identities written plainly (no comma in campaign or simulation, no
      white space around the simulation) the identity string says data
      exactly when the identity is data. */
  lemma IdStringSaysDataIsData(id: Id)
    requires ',' !in id.campaign && ',' !in id.simulation
    requires StringOps.Strip(id.simulation, StringOps.Whitespace) == id.simulation
    ensures IdStringSaysData(id) <==> SampleIds.IsData(id)
  {
    FieldsOfId(id);
    StringOps.PySplitWhole(id.simulation, ',');
    LowerIsData(id.simulation);
    SampleIds.IsDataSpellings(id);
  }

  /** The Python check asks that EVERY identity be data, the native one
      that SOME identity is: a sample mixing data and simulation is data to
      the native side and not to the Python side. */
  lemma MixedSampleIsDataOnlyNatively()
    ensures var ids := [SampleIds.UniqueSampleId(0, "2018", "data"), SampleIds.UniqueSampleId(410470, "mc20e", "mc")];
            (exists k :: 0 <= k < |ids| && SampleIds.IsData(ids[k])) &&
            !(forall k :: 0 <= k < |ids| ==> IdStringSaysData(ids[k]))
  {
    var ids := [SampleIds.UniqueSampleId(0, "2018", "data"), SampleIds.UniqueSampleId(410470, "mc20e", "mc")];
    SampleIds.IsDataSpellings(ids[0]);
    assert SampleIds.IsData(ids[0]);
    assert StringOps.Strip("mc", StringOps.Whitespace) == "mc";
    IdStringSaysDataIsData(ids[1]);
    SampleIds.IsDataSpellings(ids[1]);
  }

  /** A comma inside a campaign shifts the fields: the part after the
      comma is read as the simulation. */
  lemma CommaInCampaignShiftsFields(id: Id, before: string, after: string)
    requires id.campaign == before + [','] + after
    requires ',' !in before && ',' !in after
    ensures Fields(id)[1] == before && Fields(id)[2] == after
  {
    var dsid := StringOps.IntToString(id.dsid);
    NoCommaInNumber(id.dsid);
    assert id.campaign + [','] + id.simulation == before + [','] + (after + [','] + id.simulation);
    StringOps.PySplitCons(dsid, ',', before + [','] + (after + [','] + id.simulation));
    StringOps.PySplitCons(before, ',', after + [','] + id.simulation);
    StringOps.PySplitCons(after, ',', id.simulation);
  }

  /** So a simulated sample whose campaign ends in ",data" (say
      "mc20a,data") reads as data. */
  lemma ShiftedCampaignReadsAsData(id: Id, before: string)
    requires id.campaign == before + [','] + "data" && ',' !in before
    requires id.simulation == "mc"
    ensures IdStringSaysData(id) && !SampleIds.IsData(id)
  {
    CommaInCampaignShiftsFields(id, before, "data");
    PlainDataReadsAsData(Fields(id)[2]);
    SampleIds.IsDataSpellings(id);
  }

  /** An identity written plainly: no comma in its campaign or simulation,
      and no white space around its simulation. */
  predicate PlainId(id: Id) {
    ',' !in id.campaign && ',' !in id.simulation &&
    StringOps.Strip(id.simulation, StringOps.Whitespace) == id.simulation
  }

  /** is_data_sample as intended: every identity's own simulation type is
      data, read from the identity rather than from its printed string. */
  function IsDataByFields(ids: seq<Id>): (r: bool)
    ensures r <==> forall k :: 0 <= k < |ids| ==> SampleIds.IsData(ids[k])
    decreases |ids|
  {
    if |ids| == 0 then true
    else
      assert forall k :: 1 <= k < |ids| ==> ids[1..][k - 1] == ids[k];
      SampleIds.IsData(ids[0]) && IsDataByFields(ids[1..])
  }

  /** On plainly written identities the string-reading check and the
      field-reading one agree. */
  lemma PlainIdsReadTheSameData(ids: seq<Id>)
    requires forall k :: 0 <= k < |ids| ==> PlainId(ids[k])
    ensures IsDataSample(ids) <==> IsDataByFields(ids)
  {
    forall k | 0 <= k < |ids|
      ensures IdStringSaysData(ids[k]) <==> SampleIds.IsData(ids[k])
    {
      IdStringSaysDataIsData(ids[k]);
    }
  }

  /** The shifted campaign of ShiftedCampaignReadsAsData is simulation to
      the field-reading check. */
  lemma ShiftedCampaignIsNotDataByFields(id: Id, before: string)
    requires id.campaign == before + [','] + "data" && ',' !in before
    requires id.simulation == "mc"
    ensures IsDataSample([id]) && !IsDataByFields([id])
  {
    ShiftedCampaignReadsAsData(id, before);
  }

  /** When the identities of a sample are all data or all simulation (and
      there is at least one), the Python check (every identity) and the
      native one (some identity) agree. */
  lemma DataChecksAgreeOnUniformSamples(ids: seq<Id>)
    requires |ids| > 0
    requires forall k :: 0 <= k < |ids| ==> PlainId(ids[k])
    requires forall k :: 0 <= k < |ids| ==> (SampleIds.IsData(ids[k]) <==> SampleIds.IsData(ids[0]))
    ensures IsDataSample(ids) <==> exists k :: 0 <= k < |ids| && SampleIds.IsData(ids[k])
  {
    PlainIdsReadTheSameData(ids);
  }
}

=== FILE: seqs.dfy ===
/** Sequence helpers used across the model: order-preserving filtering,
    first-occurrence de-duplication and the subsequence relation. */
module Seqs {
  import opened Wrappers

  /** No element occurs twice. */
  predicate Distinct<T(==)>(s: seq<T>) {
    forall i, j :: 0 <= i < j < |s| ==> s[i] != s[j]
  }

  /** `sub` is `s` with some elements deleted, the order of the rest kept. */
  predicate IsSubsequence<T(==)>(sub: seq<T>, s: seq<T>)
    decreases |s|
  {
    if |sub| == 0 then true
    else if |s| == 0 then false
    else if sub[0] == s[0] then IsSubsequence(sub[1..], s[1..])
    else IsSubsequence(sub, s[1..])
  }

  /** The elements of `s` satisfying `p`, in their order in `s`. */
  function Filter<T(==,!new)>(s: seq<T>, p: T -> bool): (r: seq<T>)
    ensures |r| <= |s|
    ensures forall x :: x in r <==> x in s && p(x)
    ensures IsSubsequence(r, s)
  {
    if |s| == 0 then []
    else if p(s[0]) then [s[0]] + Filter(s[1..], p)
    else Filter(s[1..], p)
  }

  /** The sequences of `ss` one after the other. */
  function Flatten<T(!new)>(ss: seq<seq<T>>): (r: seq<T>)
    ensures forall x :: x in r <==> exists k :: 0 <= k < |ss| && x in ss[k]
  {
    if |ss| == 0 then []
    else
      var init := ss[..|ss| - 1];
      assert forall k :: 0 <= k < |init| ==> init[k] == ss[k];
      Flatten(init) + ss[|ss| - 1]
  }

  /** Filtering a sequence without repetitions leaves none. */
  lemma {:induction false} FilterDistinct<T(!new)>(s: seq<T>, p: T -> bool)
    requires Distinct(s)
    ensures Distinct(Filter(s, p))
    decreases |s|
  {
    if |s| > 0 {
      assert Distinct(s[1..]);
      FilterDistinct(s[1..], p);
      assert s[0] !in s[1..];
    }
  }

  /** Filtering keeps the `p`-elements and their multiplicities. */
  lemma {:induction false} FilterAppend<T(!new)>(a: seq<T>, b: seq<T>, p: T -> bool)
    ensures Filter(a + b, p) == Filter(a, p) + Filter(b, p)
    decreases |a|
  {
    if |a| == 0 {
      assert a + b == b;
    } else {
      assert (a + b)[1..] == a[1..] + b;
      FilterAppend(a[1..], b, p);
    }
  }

  /** Putting an element in front of the larger sequence keeps the relation. */
  lemma {:induction false} SubsequenceOfTail<T>(sub: seq<T>, s: seq<T>, x: T)
    requires IsSubsequence(sub, s)
    ensures IsSubsequence(sub, [x] + s)
    decreases |s|, 1
  {
    assert ([x] + s)[1..] == s;
    if |sub| != 0 && sub[0] == x {
      SubsequenceDropHead(sub, s);
    }
  }

  lemma {:induction false} SubsequenceDropHead<T>(sub: seq<T>, s: seq<T>)
    requires |sub| > 0 && IsSubsequence(sub, s)
    ensures IsSubsequence(sub[1..], s)
    decreases |s|, 0
  {
    assert [s[0]] + s[1..] == s;
    if sub[0] == s[0] {
      SubsequenceOfTail(sub[1..], s[1..], s[0]);
    } else {
      SubsequenceDropHead(sub, s[1..]);
      SubsequenceOfTail(sub[1..], s[1..], s[0]);
    }
  }

  lemma {:induction false} SubsequenceOfPrefix<T>(sub: seq<T>, s: seq<T>, front: seq<T>)
    requires IsSubsequence(sub, s)
    ensures IsSubsequence(sub, front + s)
    decreases |front|
  {
    if |front| == 0 {
      assert front + s == s;
    } else {
      SubsequenceOfPrefix(sub, s, front[1..]);
      SubsequenceOfTail(sub, front[1..] + s, front[0]);
      assert [front[0]] + (front[1..] + s) == front + s;
    }
  }

  /** Appending the same element to both sides keeps the relation. */
  lemma {:induction false} SubsequenceAppend<T>(sub: seq<T>, s: seq<T>, x: T)
    requires IsSubsequence(sub, s)
    ensures IsSubsequence(sub + [x], s + [x])
    ensures IsSubsequence(sub, s + [x])
    decreases |s|
  {
    if |sub| == 0 {
      assert sub + [x] == [x];
      assert [x][1..] == [];
      assert IsSubsequence([x], [x]);
      SubsequenceOfPrefix([x], [x], s);
    } else {
      assert (s + [x])[1..] == s[1..] + [x];
      assert (sub + [x])[1..] == sub[1..] + [x];
      if sub[0] == s[0] {
        SubsequenceAppend(sub[1..], s[1..], x);
      } else {
        SubsequenceAppend(sub, s[1..], x);
      }
    }
  }

  /** `s` with every element after its first occurrence removed. */
  function Dedup<T(==,!new)>(s: seq<T>): (r: seq<T>)
    ensures Distinct(r)
    ensures forall x :: x in r <==> x in s
    ensures IsSubsequence(r, s)
    ensures |r| <= |s|
    decreases |s|
  {
    if |s| == 0 then []
    else
      var front := Dedup(s[..|s| - 1]);
      var last := s[|s| - 1];
      assert s == s[..|s| - 1] + [last];
      SubsequenceAppend(front, s[..|s| - 1], last);
      if last in front then front else front + [last]
  }

  /** De-duplication only ever appends: the result on a prefix is a prefix. */
  lemma {:induction false} DedupSnoc<T(!new)>(s: seq<T>, x: T)
    ensures Dedup(s + [x]) == if x in s then Dedup(s) else Dedup(s) + [x]
  {
    assert (s + [x])[..|s + [x]| - 1] == s;
  }

  /** On a sequence without repetitions de-duplication changes nothing. */
  lemma {:induction false} DedupOfDistinct<T(!new)>(s: seq<T>)
    requires Distinct(s)
    ensures Dedup(s) == s
    decreases |s|
  {
    if |s| > 0 {
      var front := s[..|s| - 1];
      assert Distinct(front);
      DedupOfDistinct(front);
      assert s[|s| - 1] !in front;
      assert front + [s[|s| - 1]] == s;
    }
  }

  /** Filtering with a predicate that holds everywhere changes nothing. */
  lemma {:induction false} FilterAll<T(!new)>(s: seq<T>, p: T -> bool)
    requires forall k :: 0 <= k < |s| ==> p(s[k])
    ensures Filter(s, p) == s
    decreases |s|
  {
    if |s| > 0 {
      FilterAll(s[1..], p);
    }
  }

  /** Filtering with two predicates that agree on the elements gives the same. */
  lemma {:induction false} FilterCongruent<T(!new)>(s: seq<T>, p: T -> bool, q: T -> bool)
    requires forall k :: 0 <= k < |s| ==> p(s[k]) == q(s[k])
    ensures Filter(s, p) == Filter(s, q)
    decreases |s|
  {
    if |s| > 0 {
      FilterCongruent(s[1..], p, q);
    }
  }

  /** Appending the items not seen yet, one at a time, extends the
      first-occurrence list of `before` by the new items: the loop the
      native code writes with std::find before each push_back. */
  method AppendUnseen<T(==,!new)>(r: seq<T>, ghost before: seq<T>, items: seq<T>) returns (r2: seq<T>)
    requires r == Dedup(before)
    ensures r2 == Dedup(before + items)
  {
    r2 := r;
    var j := 0;
    assert before + items[..0] == before;
    while j < |items|
      invariant 0 <= j <= |items|
      invariant r2 == Dedup(before + items[..j])
    {
      assert before + items[..j + 1] == (before + items[..j]) + [items[j]];
      DedupSnoc(before + items[..j], items[j]);
      if items[j] !in r2 {
        r2 := r2 + [items[j]];
      }
      j := j + 1;
    }
    assert items[..j] == items;
  }

  /** The elements `keep` accepts, collected by a loop in order. */
  method KeepAll<T(==,!new)>(s: seq<T>, keep: T -> bool) returns (kept: seq<T>)
    ensures kept == Filter(s, keep)
  {
    kept := [];
    for j := 0 to |s|
      invariant kept == Filter(s[..j], keep)
    {
      FilterSnoc(s, j, keep);
      if keep(s[j]) {
        kept := kept + [s[j]];
      }
    }
    assert s[..|s|] == s;
  }

  /** A non-empty sequence is its front followed by its last element. */
  lemma InitLast<T>(s: seq<T>)
    requires |s| > 0
    ensures s[..|s| - 1] + [s[|s| - 1]] == s
  {
  }

  /** One element more of a prefix. */
  lemma PrefixSnoc<T>(s: seq<T>, i: nat)
    requires i < |s|
    ensures s[..i + 1] == s[..i] + [s[i]]
  {
  }

  /** Filtering one more element of a prefix: the step of a filtering loop. */
  lemma FilterSnoc<T(!new)>(s: seq<T>, i: nat, p: T -> bool)
    requires i < |s|
    ensures Filter(s[..i + 1], p) == Filter(s[..i], p) + (if p(s[i]) then [s[i]] else [])
  {
    assert s[..i + 1] == s[..i] + [s[i]];
    FilterAppend(s[..i], [s[i]], p);
    assert Filter([s[i]], p) == if p(s[i]) then [s[i]] else [];
  }

  /** The elements a filter keeps and those it drops together make up the
      sequence, as multisets. */
  lemma {:induction false} FilterPartition<T(!new)>(s: seq<T>, p: T -> bool)
    ensures multiset(Filter(s, p)) + multiset(Filter(s, x => !p(x))) == multiset(s)
    decreases |s|
  {
    if |s| > 0 {
      FilterPartition(s[1..], p);
      assert s == [s[0]] + s[1..];
    }
  }

  /** The elements a test accepts, then the ones it rejects, each group in
      input order. */
  function Partition<T(==,!new)>(s: seq<T>, p: T -> bool): seq<T> {
    Filter(s, p) + Filter(s, x => !p(x))
  }

  /** A partition holds the same elements, and no accepted element comes
      after a rejected one. */
  lemma PartitionOrder<T(!new)>(s: seq<T>, p: T -> bool)
    ensures multiset(Partition(s, p)) == multiset(s)
    ensures forall i, j :: 0 <= i < j < |Partition(s, p)| && p(Partition(s, p)[j]) ==> p(Partition(s, p)[i])
  {
    FilterPartition(s, p);
    var a := Filter(s, p);
    var b := Filter(s, x => !p(x));
    var r := a + b;
    forall i, j | 0 <= i < j < |r| && p(r[j]) ensures p(r[i]) {
      assert r[i] == a[i];
      assert a[i] in a;
    }
  }

  /** The first element of `xs` that is not in `ys`: what a loop that
      stops at the first unknown name reports. */
  function FirstMissing<T(==)>(xs: seq<T>, ys: seq<T>): (r: Option<T>)
    ensures r.None? <==> forall k :: 0 <= k < |xs| ==> xs[k] in ys
    ensures r.Some? ==> r.value in xs && r.value !in ys
    decreases |xs|
  {
    if |xs| == 0 then None
    else if xs[0] !in ys then Some(xs[0])
    else
      assert forall k :: 1 <= k < |xs| ==> xs[k] == xs[1..][k - 1];
      FirstMissing(xs[1..], ys)
  }
}

=== FILE: std_map.dfy ===
/** std::map with string keys, as the native code uses it: a list of
    entries kept in ascending key order with no key twice, so that iterating
    it visits the keys in that order. `Insert` is std::map::insert (a
    present key keeps its value) and `Assign` is `m[key] = value`. */
module StdMap {
  import opened Wrappers
  import opened StringOps

  /** The native maps here all map a string to a list of strings. */
  type Entries = seq<(string, seq<string>)>

  /** Keys strictly ascending. */
  predicate Sorted(m: Entries) {
    forall i, j :: 0 <= i < j < |m| ==> StringLess(m[i].0, m[j].0)
  }

  function Keys(m: Entries): (r: seq<string>)
    ensures |r| == |m| && forall k :: 0 <= k < |m| ==> r[k] == m[k].0
  {
    seq(|m|, k requires 0 <= k < |m| => m[k].0)
  }

  /** `m.find(key)`. */
  function Get(m: Entries, key: string): (r: Option<seq<string>>)
    ensures r.None? <==> key !in Keys(m)
    ensures r.Some? ==> exists k :: 0 <= k < |m| && m[k] == (key, r.value)
    decreases |m|
  {
    if |m| == 0 then None
    else if m[0].0 == key then Some(m[0].1)
    else
      assert Keys(m) == [m[0].0] + Keys(m[1..]);
      var r := Get(m[1..], key);
      if r.Some? then
        var k :| 0 <= k < |m[1..]| && m[1..][k] == (key, r.value);
        assert m[k + 1] == (key, r.value);
        r
      else r
  }

  /** Looking up in a list with one more entry in front. */
  lemma GetCons(e: (string, seq<string>), rest: Entries, key: string)
    ensures Get([e] + rest, key) == if e.0 == key then Some(e.1) else Get(rest, key)
  {
    assert ([e] + rest)[1..] == rest;
  }

  /** In a sorted list a key occurs once, so any entry with that key is the
      one Get finds. */
  lemma GetFindsEntry(m: Entries, k: nat)
    requires Sorted(m) && k < |m|
    ensures Get(m, m[k].0) == Some(m[k].1)
  {
    var r := Get(m, m[k].0);
    var j :| 0 <= j < |m| && m[j] == (m[k].0, r.value);
    if j != k {
      StringLessIrreflexive(m[k].0);
    }
  }

  /** Every key of the tail lies above the head. */
  lemma HeadBelowTail(m: Entries, key: string)
    requires Sorted(m) && |m| > 0 && key in Keys(m[1..])
    ensures StringLess(m[0].0, key)
  {
    var k :| 0 <= k < |m[1..]| && Keys(m[1..])[k] == key;
    assert m[k + 1].0 == key;
  }

  /** A key below the first key is not in a sorted list. */
  lemma BelowHeadAbsent(m: Entries, key: string)
    requires Sorted(m) && |m| > 0 && StringLess(key, m[0].0)
    ensures key !in Keys(m)
  {
    StringLessIrreflexive(key);
    forall k | 0 < k < |m| ensures m[k].0 != key {
      StringLessTransitive(key, m[0].0, m[k].0);
    }
  }

  /** std::map::insert: a new key goes to its place in the order; a key
      already present keeps its value. */
  function Insert(m: Entries, key: string, value: seq<string>): (r: Entries)
    requires Sorted(m)
    ensures Sorted(r)
    ensures forall x :: x in Keys(r) <==> x in Keys(m) || x == key
    decreases |m|
  {
    if |m| == 0 then
      assert Keys([(key, value)]) == [key];
      [(key, value)]
    else if m[0].0 == key then m
    else if StringLess(key, m[0].0) then
      var r := [(key, value)] + m;
      assert Keys(r) == [key] + Keys(m);
      forall i, j | 0 <= i < j < |r| ensures StringLess(r[i].0, r[j].0) {
        if i == 0 && j > 1 {
          StringLessTransitive(key, m[0].0, m[j - 1].0);
        }
      }
      r
    else
      StringLessTotal(key, m[0].0);
      var rest := Insert(m[1..], key, value);
      var r := [m[0]] + rest;
      forall j | 0 < j < |r| ensures StringLess(m[0].0, r[j].0) {
        assert r[j].0 == Keys(rest)[j - 1];
        if r[j].0 != key {
          HeadBelowTail(m, r[j].0);
        }
      }
      assert Keys(r) == [m[0].0] + Keys(rest);
      assert Keys(m) == [m[0].0] + Keys(m[1..]);
      r
  }

  /** After an insert, the key is found with its old value if it had one,
      with the new value otherwise. */
  lemma {:induction false} GetAfterInsert(m: Entries, key: string, value: seq<string>)
    requires Sorted(m)
    ensures Get(Insert(m, key, value), key) == (if Get(m, key).Some? then Get(m, key) else Some(value))
    decreases |m|
  {
    if |m| == 0 {
      assert Insert(m, key, value) == [(key, value)] + m;
      GetCons((key, value), m, key);
    } else if m[0].0 == key {
      assert Insert(m, key, value) == m;
    } else {
      GetCons(m[0], m[1..], key);
      assert m == [m[0]] + m[1..];
      if StringLess(key, m[0].0) {
        assert Insert(m, key, value) == [(key, value)] + m;
        GetCons((key, value), m, key);
        BelowHeadAbsent(m, key);
      } else {
        var rest := Insert(m[1..], key, value);
        assert Insert(m, key, value) == [m[0]] + rest;
        GetAfterInsert(m[1..], key, value);
        GetCons(m[0], rest, key);
      }
    }
  }

  /** An insert leaves every other key as it was. */
  lemma {:induction false} GetAfterInsertOther(m: Entries, key: string, value: seq<string>, other: string)
    requires Sorted(m) && other != key
    ensures Get(Insert(m, key, value), other) == Get(m, other)
    decreases |m|
  {
    if |m| == 0 {
      GetCons((key, value), m, other);
    } else if m[0].0 != key {
      GetCons(m[0], m[1..], other);
      assert m == [m[0]] + m[1..];
      if StringLess(key, m[0].0) {
        assert Insert(m, key, value) == [(key, value)] + m;
        GetCons((key, value), m, other);
      } else {
        var rest := Insert(m[1..], key, value);
        assert Insert(m, key, value) == [m[0]] + rest;
        GetAfterInsertOther(m[1..], key, value, other);
        GetCons(m[0], rest, other);
      }
    }
  }

  /** `m[key] = value`: the value of a present key is replaced, a new key is
      inserted in order. */
  function Assign(m: Entries, key: string, value: seq<string>): (r: Entries)
    requires Sorted(m)
    ensures Sorted(r)
    ensures forall x :: x in Keys(r) <==> x in Keys(m) || x == key
    decreases |m|
  {
    if |m| == 0 then
      assert Keys([(key, value)]) == [key];
      [(key, value)]
    else if m[0].0 == key then
      var r := [(key, value)] + m[1..];
      assert Keys(r) == Keys(m);
      r
    else if StringLess(key, m[0].0) then Insert(m, key, value)
    else
      StringLessTotal(key, m[0].0);
      var rest := Assign(m[1..], key, value);
      var r := [m[0]] + rest;
      forall j | 0 < j < |r| ensures StringLess(m[0].0, r[j].0) {
        assert r[j].0 == Keys(rest)[j - 1];
        if r[j].0 != key {
          HeadBelowTail(m, r[j].0);
        }
      }
      assert Keys(r) == [m[0].0] + Keys(rest);
      assert Keys(m) == [m[0].0] + Keys(m[1..]);
      r
  }

  /** After an assignment the key holds the new value and every other key
      is unaffected. */
  lemma {:induction false} GetAfterAssign(m: Entries, key: string, value: seq<string>, other: string)
    requires Sorted(m)
    ensures Get(Assign(m, key, value), key) == Some(value)
    ensures other != key ==> Get(Assign(m, key, value), other) == Get(m, other)
    decreases |m|
  {
    if |m| > 0 {
      GetCons(m[0], m[1..], key);
      GetCons(m[0], m[1..], other);
      assert m == [m[0]] + m[1..];
      if m[0].0 == key {
        GetCons((key, value), m[1..], key);
        GetCons((key, value), m[1..], other);
      } else if StringLess(key, m[0].0) {
        GetAfterInsert(m, key, value);
        if other != key {
          GetAfterInsertOther(m, key, value, other);
        }
      } else {
        GetAfterAssign(m[1..], key, value, other);
        GetCons(m[0], Assign(m[1..], key, value), key);
        GetCons(m[0], Assign(m[1..], key, value), other);
      }
    }
  }

  // ---------------------------------------------------------------------
  // Maps of lists

  /** The list stored under a key, the empty list when there is none: what
      `m[key]` reads without counting the entry it may create. */
  function GetOr(m: Entries, key: string): (r: seq<string>)
    ensures key !in Keys(m) ==> r == []
  {
    Get(m, key).GetOr([])
  }

  /** `x` is in the list stored under `key`. */
  predicate Holds(m: Entries, key: string, x: string) {
    x in GetOr(m, key)
  }

  /** `m[key].push_back(x)`: operator[] creates the entry when it is
      missing, then the value is appended. */
  function PushBack(m: Entries, key: string, x: string): (r: Entries)
    requires Sorted(m)
    ensures Sorted(r)
  {
    Assign(m, key, GetOr(m, key) + [x])
  }

  lemma HoldsAfterAssign(m: Entries, key: string, value: seq<string>, k: string, x: string)
    requires Sorted(m)
    ensures Holds(Assign(m, key, value), k, x) <==> if k == key then x in value else Holds(m, k, x)
  {
    GetAfterAssign(m, key, value, k);
  }

  lemma HoldsAfterInsert(m: Entries, key: string, value: seq<string>, k: string, x: string)
    requires Sorted(m)
    ensures Holds(Insert(m, key, value), k, x) <==>
            if k == key && key !in Keys(m) then x in value else Holds(m, k, x)
  {
    GetAfterInsert(m, key, value);
    if k != key {
      GetAfterInsertOther(m, key, value, k);
    }
  }

  /** After a push_back the pair is there, and only that pair is new. */
  lemma HoldsAfterPushBack(m: Entries, key: string, x: string, k: string, y: string)
    requires Sorted(m)
    ensures Holds(PushBack(m, key, x), k, y) <==> Holds(m, k, y) || (k == key && y == x)
  {
    HoldsAfterAssign(m, key, GetOr(m, key) + [x], k, y);
  }

  /** In a sorted list, being in the value of a key means being in the
      value of some entry with that key. */
  lemma HoldsIffEntry(m: Entries, key: string, x: string)
    requires Sorted(m)
    ensures Holds(m, key, x) <==> exists j :: 0 <= j < |m| && m[j].0 == key && x in m[j].1
  {
    if j :| 0 <= j < |m| && m[j].0 == key && x in m[j].1 {
      GetFindsEntry(m, j);
    }
  }
}

=== FILE: strings.dfy ===
/** The string helpers of the native engine (the StringOperations namespace)
    and the decimal formatting both languages use for integers.

    Strings are sequences of characters; the byte-wise behaviour of
    std::string is the same as long as only ASCII matters, which it does for
    every separator and marker the program uses. */
module StringOps {
  import opened Wrappers

  /** `sub` occurs in `s` starting at position `i`. */
  predicate OccursAt(s: string, sub: string, i: int) {
    0 <= i && i + |sub| <= |s| && s[i..i + |sub|] == sub
  }

  /** `sub` occurs somewhere in `s` (std::string::find succeeds, Python's `in`). */
  predicate Contains(s: string, sub: string) {
    exists i :: 0 <= i <= |s| && OccursAt(s, sub, i)
  }

  /** stringStartsWith: false when the prefix is longer than the string,
      otherwise the comparison with the leading characters. */
  predicate StartsWith(s: string, prefix: string) {
    |prefix| <= |s| && s[..|prefix|] == prefix
  }

  /** stringEndsWith, symmetric to StartsWith. */
  predicate EndsWith(s: string, suffix: string) {
    |suffix| <= |s| && s[|s| - |suffix|..] == suffix
  }

  /** StartsWith means "is the prefix plus some rest", and the rest is unique. */
  lemma StartsWithMeansConcatenation(s: string, prefix: string)
    ensures StartsWith(s, prefix) <==> exists rest :: s == prefix + rest
    ensures StartsWith(s, prefix) ==> s == prefix + s[|prefix|..]
  {
    if StartsWith(s, prefix) {
      assert s == prefix + s[|prefix|..];
    }
  }

  /** EndsWith means "is some front plus the suffix". */
  lemma EndsWithMeansConcatenation(s: string, suffix: string)
    ensures EndsWith(s, suffix) <==> exists front :: s == front + suffix
  {
    if EndsWith(s, suffix) {
      assert s == s[..|s| - |suffix|] + suffix;
    }
    forall front | s == front + suffix
      ensures EndsWith(s, suffix)
    {
      assert s[|s| - |suffix|..] == suffix;
    }
  }

  /** The first position at or after `from` where `sub` occurs
      (std::string::find with a start position). */
  function FindFrom(s: string, sub: string, from: nat): (r: Option<nat>)
    ensures r.Some? ==> from <= r.value && OccursAt(s, sub, r.value)
    ensures r.Some? ==> forall j :: from <= j < r.value ==> !OccursAt(s, sub, j)
    ensures r.None? ==> forall j :: from <= j ==> !OccursAt(s, sub, j)
    decreases |s| - from
  {
    if from + |sub| > |s| then None
    else if s[from..from + |sub|] == sub then Some(from)
    else FindFrom(s, sub, from + 1)
  }

  /** The first occurrence of `sub` in `s`. */
  function Find(s: string, sub: string): (r: Option<nat>)
    ensures r.None? <==> !Contains(s, sub)
    ensures r.Some? ==> OccursAt(s, sub, r.value)
    ensures r.Some? ==> forall j :: 0 <= j < r.value ==> !OccursAt(s, sub, j)
  {
    FindFrom(s, sub, 0)
  }

  /** An occurrence inside a prefix is an occurrence in the whole string. */
  lemma OccursInPrefix(s: string, sub: string, n: nat, j: int)
    requires n <= |s| && OccursAt(s[..n], sub, j)
    ensures OccursAt(s, sub, j) && j + |sub| <= n
  {
    assert s[..n][j..j + |sub|] == s[j..j + |sub|];
  }

  /** An occurrence inside a suffix is an occurrence in the whole string. */
  lemma OccursInSuffix(s: string, sub: string, n: nat, j: int)
    requires n <= |s| && OccursAt(s[n..], sub, j)
    ensures OccursAt(s, sub, n + j)
  {
    assert s[n..][j..j + |sub|] == s[n + j..n + j + |sub|];
  }

  /** A string holds at least as many characters as anything it contains. */
  lemma ContainsLength(s: string, sub: string)
    requires Contains(s, sub)
    ensures |sub| <= |s|
  {
    var i :| 0 <= i <= |s| && OccursAt(s, sub, i);
  }

  /** A suffix is contained in the string. */
  lemma EndsWithContains(s: string, suffix: string)
    requires EndsWith(s, suffix)
    ensures Contains(s, suffix)
  {
    assert OccursAt(s, suffix, |s| - |suffix|);
  }

  /** replaceString: every occurrence of `from`, found left to right, is
      replaced by `to`; the search resumes after the inserted text, so
      inserted text is never searched again. An empty `from` makes the
      original loop never terminate, hence the precondition. */
  function ReplaceAll(s: string, from: string, to: string): (r: string)
    requires |from| > 0
    ensures !Contains(s, from) ==> r == s
    ensures Contains(s, from) ==> Contains(r, to)
    ensures |from| == |to| ==> |r| == |s|
    ensures !EndsWith(s, from) ==> r == Intercalate(to, Split(s, from))
    ensures r == Intercalate(to, PySplitOn(s, from))
    decreases |s|
  {
    match Find(s, from)
    case None => s
    case Some(i) =>
      var tail := s[i + |from|..];
      var rest := ReplaceAll(tail, from, to);
      assert OccursAt(s[..i] + to + rest, to, i);
      IntercalateCons(to, s[..i], PySplitOn(tail, from));
      if EndsWith(s, from) then s[..i] + to + rest
      else
        SplitAtFirst(s, from, i);
        IntercalateCons(to, s[..i], Split(tail, from));
        s[..i] + to + rest
  }

  /** A string that does not end with the separator splits into the piece
      before the first occurrence and the pieces of a non-empty rest that
      does not end with it either. */
  lemma SplitAtFirst(s: string, sep: string, i: nat)
    requires |sep| > 0 && Find(s, sep) == Some(i) && !EndsWith(s, sep)
    ensures |s[i + |sep|..]| > 0 && !EndsWith(s[i + |sep|..], sep)
    ensures Split(s, sep) == [s[..i]] + Split(s[i + |sep|..], sep)
  {
  }

  /** With a one-character `from` and `to`, every occurrence of the
      character is replaced and every other character kept. */
  lemma {:induction false} ReplaceCharwise(s: string, from: string, to: string)
    requires |from| == 1 && |to| == 1
    ensures |ReplaceAll(s, from, to)| == |s|
    ensures forall k :: 0 <= k < |s| ==>
      ReplaceAll(s, from, to)[k] == if s[k] == from[0] then to[0] else s[k]
    decreases |s|
  {
    var r := ReplaceAll(s, from, to);
    match Find(s, from)
    case None =>
      forall k | 0 <= k < |s| ensures s[k] != from[0] {
        assert !OccursAt(s, from, k);
        assert s[k..k + 1] == [s[k]];
      }
    case Some(i) =>
      var tail := s[i + 1..];
      ReplaceCharwise(tail, from, to);
      assert r == s[..i] + to + ReplaceAll(tail, from, to);
      forall k | 0 <= k < |s|
        ensures r[k] == if s[k] == from[0] then to[0] else s[k]
      {
        if k < i {
          assert !OccursAt(s, from, k);
          assert s[k..k + 1] == [s[k]];
        } else if k == i {
          assert s[i..i + 1] == from;
        } else {
          assert r[k] == ReplaceAll(tail, from, to)[k - i - 1];
        }
      }
  }

  /** replaceVector: ReplaceAll on every element. */
  function ReplaceEach(items: seq<string>, from: string, to: string): (r: seq<string>)
    requires |from| > 0
    ensures |r| == |items|
    ensures forall k :: 0 <= k < |items| ==> r[k] == ReplaceAll(items[k], from, to)
  {
    seq(|items|, k requires 0 <= k < |items| => ReplaceAll(items[k], from, to))
  }

  /** Replacing a string by itself changes nothing. */
  lemma {:induction false} ReplaceAllSelf(s: string, from: string)
    requires |from| > 0
    ensures ReplaceAll(s, from, from) == s
    decreases |s|
  {
    match Find(s, from)
    case None =>
    case Some(i) =>
      ReplaceAllSelf(s[i + |from|..], from);
      assert s[..i] + from + s[i + |from|..] == s;
  }

  /** Because the search never goes back, a replacement can leave an
      occurrence behind: in "aabb" removing "ab" once leaves "ab". */
  lemma ReplaceAllIsSinglePass()
    ensures ReplaceAll("aabb", "ab", "") == "ab"
    ensures Contains(ReplaceAll("aabb", "ab", ""), "ab")
  {
    var s := "aabb";
    assert s[0..2] == "aa";
    assert !OccursAt(s, "ab", 0);
    assert OccursAt(s, "ab", 1);
    assert Find(s, "ab") == Some(1);
    assert s[3..] == "b";
    assert !OccursAt("b", "ab", 0);
    assert Find("b", "ab") == None;
    assert OccursAt("ab", "ab", 0);
  }

  // ---------------------------------------------------------------------
  // Digits and decimal formatting

  predicate IsDigit(c: char) {
    '0' <= c <= '9'
  }

  /** stringIsInt: non-empty and made of the characters "0123456789" only
      (no sign). */
  predicate IsInt(s: string) {
    |s| > 0 && forall k :: 0 <= k < |s| ==> IsDigit(s[k])
  }

  function DigitChar(d: nat): (c: char)
    requires d < 10
    ensures IsDigit(c)
  {
    ['0', '1', '2', '3', '4', '5', '6', '7', '8', '9'][d]
  }

  function DigitValue(c: char): (d: nat)
    requires IsDigit(c)
    ensures d < 10 && DigitChar(d) == c
  {
    (c as int - '0' as int) as nat
  }

  /** The number a string of digits denotes (what std::stoi and Python's int()
      give for such a string). */
  function DigitsValue(s: string): nat
    requires forall k :: 0 <= k < |s| ==> IsDigit(s[k])
    decreases |s|
  {
    if |s| == 0 then 0 else DigitsValue(s[..|s| - 1]) * 10 + DigitValue(s[|s| - 1])
  }

  /** The decimal rendering of a natural number, without leading zeros. */
  function NatToString(n: nat): (r: string)
    ensures IsInt(r)
    ensures |r| > 1 ==> r[0] != '0'
    decreases n
  {
    if n < 10 then [DigitChar(n)] else NatToString(n / 10) + [DigitChar(n % 10)]
  }

  /** Python's str() of an int and std::to_string of an integer. */
  function IntToString(i: int): (r: string)
    ensures |r| > 0
    ensures i < 0 <==> r[0] == '-'
  {
    if i < 0 then "-" + NatToString(-i) else NatToString(i)
  }

  /** Reading back a rendered number gives the number. */
  lemma {:induction false} NatToStringRoundTrip(n: nat)
    ensures DigitsValue(NatToString(n)) == n
    decreases n
  {
    if n >= 10 {
      var r := NatToString(n);
      NatToStringRoundTrip(n / 10);
      assert r[..|r| - 1] == NatToString(n / 10);
    }
  }

  /** Different numbers render differently. */
  lemma NatToStringInjective(m: nat, n: nat)
    requires NatToString(m) == NatToString(n)
    ensures m == n
  {
    NatToStringRoundTrip(m);
    NatToStringRoundTrip(n);
  }

  // ---------------------------------------------------------------------
  // Splitting and joining

  /** splitString: the pieces between successive separators. Interior empty
      pieces are kept, a trailing empty piece is dropped. The separator must
      be non-empty, otherwise the original loop never ends. */
  function Split(s: string, sep: string): (parts: seq<string>)
    requires |sep| > 0
    ensures forall k :: 0 <= k < |parts| ==> !Contains(parts[k], sep)
    ensures |s| > 0 <==> |parts| > 0
    decreases |s|
  {
    match Find(s, sep)
    case None => if |s| > 0 then [s] else []
    case Some(i) =>
      var piece := s[..i];
      assert !Contains(piece, sep) by {
        forall j | OccursAt(piece, sep, j)
          ensures false
        {
          OccursInPrefix(s, sep, i, j);
        }
      }
      [piece] + Split(s[i + |sep|..], sep)
  }

  /** Nothing before the first occurrence is an occurrence. */
  lemma FreeBeforeFirst(s: string, sep: string, i: nat)
    requires |sep| > 0 && Find(s, sep) == Some(i)
    ensures i + |sep| <= |s| && s == s[..i] + sep + s[i + |sep|..]
    ensures !Contains(s[..i], sep)
  {
    forall j | OccursAt(s[..i], sep, j)
      ensures false
    {
      OccursInPrefix(s, sep, i, j);
    }
    assert s == s[..i] + s[i..i + |sep|] + s[i + |sep|..];
  }

  /** Python's str.split with a string separator: the pieces around the
      occurrences found from left to right, where a search resumes after
      the occurrence just found. Unlike splitString, a trailing empty piece
      is kept, so there is always one piece more than there are
      occurrences. */
  function PySplitOn(s: string, sep: string): (parts: seq<string>)
    requires |sep| > 0
    ensures |parts| >= 1
    ensures forall k :: 0 <= k < |parts| ==> !Contains(parts[k], sep)
    decreases |s|
  {
    match Find(s, sep)
    case None => [s]
    case Some(i) =>
      FreeBeforeFirst(s, sep, i);
      [s[..i]] + PySplitOn(s[i + |sep|..], sep)
  }

  /** Joining the pieces of Python's split with the separator gives the
      string back. */
  lemma {:induction false} PySplitOnJoin(s: string, sep: string)
    requires |sep| > 0
    ensures Intercalate(sep, PySplitOn(s, sep)) == s
    decreases |s|
  {
    match Find(s, sep)
    case None =>
    case Some(i) =>
      var tail := s[i + |sep|..];
      FreeBeforeFirst(s, sep, i);
      PySplitOnJoin(tail, sep);
      IntercalateCons(sep, s[..i], PySplitOn(tail, sep));
  }

  /** A piece free of a one-character separator, the separator and a rest
      split into that piece and the pieces of the rest. */
  lemma SplitCons(piece: string, sep: string, rest: string)
    requires |sep| == 1 && !Contains(piece, sep)
    ensures Split(piece + sep + rest, sep) == [piece] + Split(rest, sep)
  {
    var s := piece + sep + rest;
    assert OccursAt(s, sep, |piece|);
    forall j | 0 <= j < |piece| ensures !OccursAt(s, sep, j) {
      assert s[j] == piece[j];
      assert OccursAt(s, sep, j) <==> s[j] == sep[0] by {
        assert OccursAt(s, sep, j) <==> s[j..j + 1] == [sep[0]];
      }
      assert OccursAt(piece, sep, j) <==> piece[j] == sep[0] by {
        assert OccursAt(piece, sep, j) <==> piece[j..j + 1] == [sep[0]];
      }
    }
    assert Find(s, sep) == Some(|piece|);
    assert s[..|piece|] == piece && s[|piece| + |sep|..] == rest;
  }

  /** A string none of whose characters is a one-character separator does
      not contain it. */
  lemma NoSeparatorChar(s: string, sep: string)
    requires |sep| == 1 && forall k :: 0 <= k < |s| ==> s[k] != sep[0]
    ensures !Contains(s, sep)
  {
    forall j | 0 <= j <= |s| ensures !OccursAt(s, sep, j) {
      if j < |s| {
        assert s[j..j + 1] == [s[j]] && sep == [sep[0]];
      }
    }
  }

  /** An integer has no character other than digits, so no separator that
      is not a digit. */
  lemma IntHasNoSeparator(s: string, sep: string)
    requires IsInt(s) && |sep| == 1 && !IsDigit(sep[0])
    ensures !Contains(s, sep)
  {
    NoSeparatorChar(s, sep);
  }

  /** Python's str.split with a one-character separator: every piece
      between separators, leading, interior and trailing empty pieces
      included, so always one more piece than separators. */
  function PySplit(s: string, sep: char): (parts: seq<string>)
    ensures |parts| >= 1
    decreases |s|
  {
    if |s| == 0 then [""]
    else
      var rest := PySplit(s[1..], sep);
      assert s == [s[0]] + s[1..];
      if s[0] == sep then [""] + rest
      else [[s[0]] + rest[0]] + rest[1..]
  }

  /** One piece more than separators. */
  lemma {:induction false} PySplitCount(s: string, sep: char)
    ensures |PySplit(s, sep)| == multiset(s)[sep] + 1
    decreases |s|
  {
    if |s| > 0 {
      PySplitCount(s[1..], sep);
      assert s == [s[0]] + s[1..];
    }
  }

  /** A piece free of the separator, the separator and a rest split into
      that piece and the pieces of the rest. */
  lemma {:induction false} PySplitCons(piece: string, sep: char, rest: string)
    requires sep !in piece
    ensures PySplit(piece + [sep] + rest, sep) == [piece] + PySplit(rest, sep)
    decreases |piece|
  {
    var s := piece + [sep] + rest;
    if |piece| > 0 {
      assert s[1..] == piece[1..] + [sep] + rest;
      PySplitCons(piece[1..], sep, rest);
      assert piece == [piece[0]] + piece[1..];
    } else {
      assert s[1..] == rest;
    }
  }

  /** A string free of the separator is one piece. */
  lemma {:induction false} PySplitWhole(s: string, sep: char)
    requires sep !in s
    ensures PySplit(s, sep) == [s]
    decreases |s|
  {
    if |s| > 0 {
      PySplitWhole(s[1..], sep);
      assert s == [s[0]] + s[1..];
    }
  }

  /** No piece contains the separator. */
  lemma {:induction false} PySplitPiecesFree(s: string, sep: char)
    ensures forall p :: p in PySplit(s, sep) ==> sep !in p
    decreases |s|
  {
    if |s| > 0 {
      PySplitPiecesFree(s[1..], sep);
      var rest := PySplit(s[1..], sep);
      assert forall p :: p in rest[1..] ==> p in rest;
      assert rest[0] in rest;
    }
  }

  /** Splitting two strings joined by the separator splits each. */
  lemma {:induction false} PySplitAppend(a: string, sep: char, b: string)
    ensures PySplit(a + [sep] + b, sep) == PySplit(a, sep) + PySplit(b, sep)
    decreases |a|
  {
    var s := a + [sep] + b;
    if |a| == 0 {
      assert s == [sep] + b && s[1..] == b;
    } else {
      assert s[0] == a[0] && s[1..] == a[1..] + [sep] + b;
      PySplitAppend(a[1..], sep, b);
      var front := PySplit(a[1..], sep);
      assert PySplit(s[1..], sep) == front + PySplit(b, sep);
      if a[0] != sep {
        assert (front + PySplit(b, sep))[1..] == front[1..] + PySplit(b, sep);
      }
    }
  }

  /** Joining pieces free of the separator and splitting again gives the
      pieces back. */
  lemma {:induction false} PySplitIntercalate(parts: seq<string>, sep: char)
    requires |parts| > 0
    requires forall p :: p in parts ==> sep !in p
    ensures PySplit(Intercalate([sep], parts), sep) == parts
    decreases |parts|
  {
    if |parts| == 1 {
      PySplitWhole(parts[0], sep);
    } else {
      assert forall p :: p in parts[1..] ==> p in parts;
      PySplitIntercalate(parts[1..], sep);
      PySplitAppend(parts[0], sep, Intercalate([sep], parts[1..]));
      PySplitWhole(parts[0], sep);
      assert parts == [parts[0]] + parts[1..];
    }
  }

  /** The conventional join: the pieces with one separator between
      neighbours. */
  function Intercalate(sep: string, parts: seq<string>): string
    decreases |parts|
  {
    if |parts| == 0 then ""
    else if |parts| == 1 then parts[0]
    else parts[0] + sep + Intercalate(sep, parts[1..])
  }

  /** Every piece followed by the separator. */
  function WithSeparators(sep: string, parts: seq<string>): (r: string)
    ensures |parts| > 0 ==> EndsWith(r, sep)
    decreases |parts|
  {
    if |parts| == 0 then "" else parts[0] + sep + WithSeparators(sep, parts[1..])
  }

  /** Appending one more piece to the pieces appends it and a separator. */
  lemma {:induction false} WithSeparatorsSnoc(sep: string, parts: seq<string>, last: string)
    ensures WithSeparators(sep, parts + [last]) == WithSeparators(sep, parts) + last + sep
    decreases |parts|
  {
    if |parts| == 0 {
      assert WithSeparators(sep, [last][1..]) == "";
    } else {
      var longer := parts + [last];
      assert longer[0] == parts[0] && longer[1..] == parts[1..] + [last];
      WithSeparatorsSnoc(sep, parts[1..], last);
      var rest := WithSeparators(sep, parts[1..]);
      assert WithSeparators(sep, longer) == parts[0] + sep + (rest + last + sep);
    }
  }

  /** joinStrings: append "piece + separator" for every piece, then cut the
      final separator off if the result is non-empty. */
  function Join(sep: string, parts: seq<string>): (r: string)
  {
    var acc := WithSeparators(sep, parts);
    if |acc| > 0 then
      assert |parts| > 0;
      acc[..|acc| - |sep|]
    else acc
  }

  lemma {:induction false} WithSeparatorsIsIntercalate(sep: string, parts: seq<string>)
    requires |parts| > 0
    ensures WithSeparators(sep, parts) == Intercalate(sep, parts) + sep
    decreases |parts|
  {
    if |parts| > 1 {
      WithSeparatorsIsIntercalate(sep, parts[1..]);
    }
  }

  /** joinStrings is the conventional join, also for a single empty piece
      (where the erase removes exactly the separator it appended). */
  lemma JoinIsIntercalate(sep: string, parts: seq<string>)
    ensures Join(sep, parts) == Intercalate(sep, parts)
  {
    if |parts| > 0 {
      WithSeparatorsIsIntercalate(sep, parts);
      var i := Intercalate(sep, parts);
      assert (i + sep)[..|i + sep| - |sep|] == i;
    }
  }

  /** Every piece followed by the separator, then one more piece, is the
      conventional join of all of them. */
  lemma {:induction false} WithSeparatorsThenLast(sep: string, parts: seq<string>, last: string)
    ensures WithSeparators(sep, parts) + last == Intercalate(sep, parts + [last])
    decreases |parts|
  {
    if |parts| == 0 {
      assert parts + [last] == [last];
    } else {
      var longer := parts + [last];
      assert longer[0] == parts[0] && longer[1..] == parts[1..] + [last];
      WithSeparatorsThenLast(sep, parts[1..], last);
    }
  }

  lemma IntercalateCons(sep: string, a: string, rest: seq<string>)
    requires |rest| > 0
    ensures Intercalate(sep, [a] + rest) == a + sep + Intercalate(sep, rest)
  {
    assert ([a] + rest)[1..] == rest;
  }

  /** Splitting and joining back gives the original string, unless it ends
      with the separator (that trailing empty piece is dropped by Split). */
  lemma {:induction false} SplitJoinRoundTrip(s: string, sep: string)
    requires |sep| > 0 && !EndsWith(s, sep)
    ensures Intercalate(sep, Split(s, sep)) == s
    ensures Join(sep, Split(s, sep)) == s
    decreases |s|
  {
    JoinIsIntercalate(sep, Split(s, sep));
    var found := Find(s, sep);
    if found.Some? {
      var i := found.value;
      var rest := s[i + |sep|..];
      assert s == s[..i] + sep + rest by {
        assert s[i..i + |sep|] == sep;
      }
      SplitJoinRoundTrip(rest, sep);
      assert Split(s, sep) == [s[..i]] + Split(rest, sep);
      IntercalateCons(sep, s[..i], Split(rest, sep));
    }
  }

  // ---------------------------------------------------------------------
  // Stripping and white space

  /** The characters splitByWhitespaces and the default stripString remove. */
  const Whitespace: set<char> := {' ', '\t', '\r', '\n'}

  /** The leading characters from `chars` removed. */
  function StripLeft(s: string, chars: set<char>): (r: string)
    ensures |r| <= |s| && r == s[|s| - |r|..]
    ensures forall k :: 0 <= k < |s| - |r| ==> s[k] in chars
    ensures |r| > 0 ==> r[0] !in chars
    decreases |s|
  {
    if |s| > 0 && s[0] in chars then StripLeft(s[1..], chars) else s
  }

  /** The trailing characters from `chars` removed. */
  function StripRight(s: string, chars: set<char>): (r: string)
    ensures |r| <= |s| && r == s[..|r|]
    ensures forall k :: |r| <= k < |s| ==> s[k] in chars
    ensures |r| > 0 ==> r[|r| - 1] !in chars
    decreases |s|
  {
    if |s| > 0 && s[|s| - 1] in chars then StripRight(s[..|s| - 1], chars) else s
  }

  /** find_first_not_of: the first position whose character is not in
      `chars`, or the length when there is none. */
  function FirstNotOf(s: string, chars: set<char>): (i: nat)
    ensures i <= |s|
    ensures forall k :: 0 <= k < i ==> s[k] in chars
    ensures i < |s| ==> s[i] !in chars
  {
    var left := StripLeft(s, chars);
    assert |left| > 0 ==> s[|s| - |left|] == left[0];
    |s| - |left|
  }

  /** stripString: leading, then trailing characters from `chars` removed.
      The result is the infix that starts at the first character not in
      `chars` and stops after the last one. */
  function Strip(s: string, chars: set<char>): (r: string)
    ensures |r| > 0 ==> r[0] !in chars && r[|r| - 1] !in chars
    ensures FirstNotOf(s, chars) + |r| <= |s| && r == s[FirstNotOf(s, chars)..FirstNotOf(s, chars) + |r|]
    ensures forall k :: FirstNotOf(s, chars) + |r| <= k < |s| ==> s[k] in chars
  {
    var left := StripLeft(s, chars);
    var r := StripRight(left, chars);
    InfixAfterStrips(s, chars, |s| - |left|, left, r);
    assert |r| > 0 ==> r[0] == left[0];
    r
  }

  /** Stripping keeps every character that is not to be stripped. */
  lemma StripKeeps(s: string, chars: set<char>)
    ensures forall c :: c in s && c !in chars ==> c in Strip(s, chars)
  {
    forall c | c in s && c !in chars
      ensures c in Strip(s, chars)
    {
      StripLeftKeeps(s, chars, c);
      StripRightKeeps(StripLeft(s, chars), chars, c);
    }
  }

  /** A prefix of the suffix from `i`, after which only characters from
      `chars` follow, is the infix from `i`, after which only characters
      from `chars` follow. */
  lemma InfixAfterStrips(s: string, chars: set<char>, i: nat, left: string, r: string)
    requires i <= |s| && left == s[i..] && |r| <= |left| && r == left[..|r|]
    requires forall k :: |r| <= k < |left| ==> left[k] in chars
    ensures i + |r| <= |s| && r == s[i..i + |r|]
    ensures forall k :: i + |r| <= k < |s| ==> s[k] in chars
  {
    forall k | i + |r| <= k < |s| ensures s[k] in chars {
      assert left[k - i] in chars;
    }
  }

  /** Stripping on the left keeps every character not in `chars`. */
  lemma StripLeftKeeps(s: string, chars: set<char>, c: char)
    requires c in s && c !in chars
    ensures c in StripLeft(s, chars)
  {
    var left := StripLeft(s, chars);
    var k :| 0 <= k < |s| && s[k] == c;
    assert left[k - (|s| - |left|)] == c;
  }

  /** Stripping on the right keeps every character not in `chars`. */
  lemma StripRightKeeps(s: string, chars: set<char>, c: char)
    requires c in s && c !in chars
    ensures c in StripRight(s, chars)
  {
    var right := StripRight(s, chars);
    var k :| 0 <= k < |s| && s[k] == c;
    assert right[k] == c;
  }

  /** A string that neither starts nor ends with a character from `chars`
      is left as it is. */
  lemma StripNothing(s: string, chars: set<char>)
    requires |s| > 0 ==> s[0] !in chars && s[|s| - 1] !in chars
    ensures Strip(s, chars) == s
  {
  }

  /** splitAndStripString: Split, then strip white space off every piece. */
  function SplitAndStrip(s: string, sep: string): (r: seq<string>)
    requires |sep| > 0
    ensures |r| == |Split(s, sep)|
    ensures forall k :: 0 <= k < |r| ==> r[k] == Strip(Split(s, sep)[k], Whitespace)
    ensures forall k :: 0 <= k < |r| ==> |r[k]| == 0 || (r[k][0] !in Whitespace && r[k][|r[k]| - 1] !in Whitespace)
  {
    var parts := Split(s, sep);
    seq(|parts|, k requires 0 <= k < |parts| => Strip(parts[k], Whitespace))
  }

  /** The position of the first white-space character. */
  function FirstWhitespace(s: string): (r: Option<nat>)
    ensures r.Some? ==> r.value < |s| && s[r.value] in Whitespace
    ensures r.Some? ==> forall k :: 0 <= k < r.value ==> s[k] !in Whitespace
    ensures r.None? ==> forall k :: 0 <= k < |s| ==> s[k] !in Whitespace
    decreases |s|
  {
    if |s| == 0 then None
    else if s[0] in Whitespace then Some(0)
    else match FirstWhitespace(s[1..])
      case None => None
      case Some(i) => Some(i + 1)
  }

  /** A non-empty word without white space. */
  predicate IsWord(w: string) {
    |w| > 0 && forall k :: 0 <= k < |w| ==> w[k] !in Whitespace
  }

  /** `line` is made of `words` and white space only: after the leading
      white space comes the first word, then white space or the end of the
      line, then the rest in the same way. So the words are the maximal
      runs of characters that are not white space, in order. */
  predicate Spaced(line: string, words: seq<string>)
    decreases |words|
  {
    var t := StripLeft(line, Whitespace);
    if |words| == 0 then |t| == 0
    else
      IsWord(words[0]) && StartsWith(t, words[0]) &&
      (|t| == |words[0]| || t[|words[0]|] in Whitespace) &&
      Spaced(t[|words[0]|..], words[1..])
  }

  /** splitByWhitespaces: strip, then repeatedly cut off the text up to the
      next white space and strip again. The pieces are the words of the
      line. */
  function SplitByWhitespace(line: string): (r: seq<string>)
    ensures forall k :: 0 <= k < |r| ==> IsWord(r[k])
    ensures Spaced(line, r)
    decreases |line|
  {
    var t := Strip(line, Whitespace);
    if |t| == 0 then
      SpacedNothing(line);
      []
    else match FirstWhitespace(t)
      case None =>
        SpacedOneWord(line);
        [t]
      case Some(i) =>
        assert i > 0;
        var rest := SplitByWhitespace(t[i..]);
        SpacedAfterWord(line, i, rest);
        WordsCons(t[..i], rest);
        [t[..i]] + rest
  }

  lemma WordsCons(w: string, rest: seq<string>)
    requires forall k :: 0 <= k < |w| ==> w[k] !in Whitespace
    requires |w| > 0 && forall k :: 0 <= k < |rest| ==> IsWord(rest[k])
    ensures forall k :: 0 <= k < |[w] + rest| ==> IsWord(([w] + rest)[k])
  {
  }

  /** A line whose stripped form is empty has no words. */
  lemma SpacedNothing(line: string)
    requires |Strip(line, Whitespace)| == 0
    ensures Spaced(line, [])
  {
  }

  /** The first word of a line is the stripped line up to position `i`,
      when white space or the end of the stripped line follows it. */
  lemma SpacedAfterWord(line: string, i: nat, rest: seq<string>)
    requires var t := Strip(line, Whitespace);
      0 < i <= |t| && (i < |t| ==> t[i] in Whitespace) &&
      (forall k :: 0 <= k < i ==> t[k] !in Whitespace) && Spaced(t[i..], rest)
    ensures Spaced(line, [Strip(line, Whitespace)[..i]] + rest)
  {
    var t := Strip(line, Whitespace);
    var trail := StripDecompose(line);
    SpacedAppend(t[i..], trail, rest);
    WordThenSpaced(line, t, trail, i, rest);
  }

  /** The same, for the left-stripped line given as the stripped line and
      the white space after it. */
  lemma WordThenSpaced(line: string, t: string, trail: string, i: nat, rest: seq<string>)
    requires StripLeft(line, Whitespace) == t + trail
    requires |trail| > 0 ==> trail[0] in Whitespace
    requires 0 < i <= |t| && (i < |t| ==> t[i] in Whitespace)
    requires forall k :: 0 <= k < i ==> t[k] !in Whitespace
    requires Spaced(t[i..] + trail, rest)
    ensures Spaced(line, [t[..i]] + rest)
  {
    ConcatParts(t, trail, i);
    SpacedCons(line, t + trail, t[..i], rest);
  }

  /** One step of Spaced, for a line whose left strip is `l`. */
  lemma SpacedCons(line: string, l: string, w: string, rest: seq<string>)
    requires StripLeft(line, Whitespace) == l
    requires IsWord(w) && StartsWith(l, w) && (|l| == |w| || l[|w|] in Whitespace)
    requires Spaced(l[|w|..], rest)
    ensures Spaced(line, [w] + rest)
  {
    var words := [w] + rest;
    assert words[0] == w && words[1..] == rest;
  }

  /** A stripped line without white space is the line's only word. */
  lemma SpacedOneWord(line: string)
    requires var t := Strip(line, Whitespace);
      |t| > 0 && forall k :: 0 <= k < |t| ==> t[k] !in Whitespace
    ensures Spaced(line, [Strip(line, Whitespace)])
  {
    var t := Strip(line, Whitespace);
    SpacedAfterWord(line, |t|, []);
    assert [t[..|t|]] + [] == [t];
  }

  /** The left-stripped line is the stripped line followed by white space. */
  lemma StripDecompose(line: string) returns (trail: string)
    ensures StripLeft(line, Whitespace) == Strip(line, Whitespace) + trail
    ensures forall k :: 0 <= k < |trail| ==> trail[k] in Whitespace
  {
    var n := FirstNotOf(line, Whitespace);
    var t := Strip(line, Whitespace);
    trail := line[n + |t|..];
    InfixParts(line, n, t, trail, Whitespace);
  }

  /** An infix followed only by characters from `chars`. */
  lemma InfixParts(s: string, n: nat, t: string, u: string, chars: set<char>)
    requires n + |t| <= |s| && t == s[n..n + |t|] && u == s[n + |t|..]
    requires forall k :: n + |t| <= k < |s| ==> s[k] in chars
    ensures s[n..] == t + u
    ensures forall k :: 0 <= k < |u| ==> u[k] in chars
  {
    assert s[n..] == s[n..n + |t|] + s[n + |t|..];
    forall k | 0 <= k < |u| ensures u[k] in chars {
      assert u[k] == s[n + |t| + k];
    }
  }

  /** Cutting a concatenation inside its first part. */
  lemma ConcatParts(t: string, trail: string, i: nat)
    requires i <= |t|
    ensures (t + trail)[i..] == t[i..] + trail
    ensures (t + trail)[..i] == t[..i]
    ensures i < |t| ==> (t + trail)[i] == t[i]
  {
  }

  /** White space after the words changes nothing. */
  lemma {:induction false} SpacedAppend(x: string, y: string, words: seq<string>)
    requires Spaced(x, words)
    requires forall k :: 0 <= k < |y| ==> y[k] in Whitespace
    ensures Spaced(x + y, words)
    decreases |words|
  {
    if |words| == 0 {
      StripLeftAllOf(x + y, Whitespace);
    } else {
      var w := words[0];
      var l := StripLeft(x, Whitespace);
      SpacedAppend(l[|w|..], y, words[1..]);
      StripLeftAppend(x, y, Whitespace);
      ConcatParts(l, y, |w|);
      assert |w| == |l| && |y| > 0 ==> (l + y)[|w|] == y[0];
    }
  }

  /** A string made only of characters from `chars` strips to nothing. */
  lemma StripLeftAllOf(s: string, chars: set<char>)
    requires forall k :: 0 <= k < |s| ==> s[k] in chars
    ensures |StripLeft(s, chars)| == 0
  {
  }

  /** Stripping the left of a string whose left strip is non-empty ignores
      what comes after it. */
  lemma {:induction false} StripLeftAppend(x: string, y: string, chars: set<char>)
    requires |StripLeft(x, chars)| > 0
    ensures StripLeft(x + y, chars) == StripLeft(x, chars) + y
    decreases |x|
  {
    if x[0] in chars {
      assert (x + y)[1..] == x[1..] + y;
      StripLeftAppend(x[1..], y, chars);
    }
  }

  /** The words of a line are determined by it. */
  lemma {:induction false} SpacedUnique(line: string, a: seq<string>, b: seq<string>)
    requires Spaced(line, a) && Spaced(line, b)
    ensures a == b
    decreases |a|
  {
    var l := StripLeft(line, Whitespace);
    if |a| > 0 && |b| > 0 {
      var x, y := a[0], b[0];
      SameFirstWord(l, x, y);
      SpacedUnique(l[|x|..], a[1..], b[1..]);
      SameHeadAndTail(a, b);
    }
  }

  lemma SameHeadAndTail<T>(a: seq<T>, b: seq<T>)
    requires |a| > 0 && |b| > 0 && a[0] == b[0] && a[1..] == b[1..]
    ensures a == b
  {
    assert a == [a[0]] + a[1..] && b == [b[0]] + b[1..];
  }

  /** Two words that both start a string and are both followed by white
      space or its end are the same word. */
  lemma SameFirstWord(l: string, x: string, y: string)
    requires IsWord(x) && StartsWith(l, x) && (|l| == |x| || l[|x|] in Whitespace)
    requires IsWord(y) && StartsWith(l, y) && (|l| == |y| || l[|y|] in Whitespace)
    ensures x == y
  {
    assert |x| == |y|;
    assert x == l[..|x|];
  }

  // ---------------------------------------------------------------------
  // Case

  /** ::toupper in the C locale. */
  function UpperChar(c: char): char {
    if 'a' <= c <= 'z' then (c as int - 32) as char else c
  }

  /** toUpperCopy. */
  function ToUpper(s: string): (r: string)
    ensures |r| == |s|
    ensures forall k :: 0 <= k < |s| ==> r[k] == UpperChar(s[k])
  {
    seq(|s|, k requires 0 <= k < |s| => UpperChar(s[k]))
  }

  /** Python's str.lower on the ASCII letters. */
  function LowerChar(c: char): char {
    if 'A' <= c <= 'Z' then (c as int + 32) as char else c
  }

  function ToLower(s: string): (r: string)
    ensures |r| == |s|
    ensures forall k :: 0 <= k < |s| ==> r[k] == LowerChar(s[k])
  {
    seq(|s|, k requires 0 <= k < |s| => LowerChar(s[k]))
  }

  /** The two variation types are already lower case. */
  lemma LowerVariationTypes()
    ensures ToLower("up") == "up" && ToLower("down") == "down"
  {
    assert ToLower("up")[0] == 'u' && ToLower("up")[1] == 'p';
    assert ToLower("down")[0] == 'd' && ToLower("down")[1] == 'o';
    assert ToLower("down")[2] == 'w' && ToLower("down")[3] == 'n';
  }

  /** compare_case_insensitive: equality after upper-casing both sides. */
  predicate EqualsIgnoreCase(x: string, y: string) {
    ToUpper(x) == ToUpper(y)
  }

  /** Case-insensitive equality compares character by character, and it is
      an equivalence that includes plain equality. */
  lemma EqualsIgnoreCaseCharwise(x: string, y: string)
    ensures EqualsIgnoreCase(x, y) <==>
      |x| == |y| && forall k :: 0 <= k < |x| ==> UpperChar(x[k]) == UpperChar(y[k])
    ensures x == y ==> EqualsIgnoreCase(x, y)
    ensures EqualsIgnoreCase(x, y) ==> EqualsIgnoreCase(y, x)
  {
    if |x| == |y| && forall k :: 0 <= k < |x| ==> UpperChar(x[k]) == UpperChar(y[k]) {
      assert ToUpper(x) == ToUpper(y);
    }
  }

  /** "data", "Data" and "DATA" are all the same word. */
  lemma DataSpellings()
    ensures EqualsIgnoreCase("data", "DATA")
    ensures EqualsIgnoreCase("Data", "DATA")
    ensures !EqualsIgnoreCase("mc", "DATA")
  {
    assert ToUpper("data") == "DATA";
    assert ToUpper("Data") == "DATA";
    assert ToUpper("DATA") == "DATA";
    assert |ToUpper("mc")| != |ToUpper("DATA")|;
  }

  // ---------------------------------------------------------------------
  // Ordering

  /** std::string's operator<: lexicographic over the characters, a proper
      prefix coming first. */
  predicate StringLess(a: string, b: string)
    decreases |a|
  {
    if |a| == 0 then |b| > 0
    else if |b| == 0 then false
    else if a[0] != b[0] then a[0] < b[0]
    else StringLess(a[1..], b[1..])
  }

  lemma {:induction false} StringLessIrreflexive(a: string)
    ensures !StringLess(a, a)
    decreases |a|
  {
    if |a| > 0 {
      StringLessIrreflexive(a[1..]);
    }
  }

  /** Two different strings are ordered one way, never both ways. */
  lemma {:induction false} StringLessTotal(a: string, b: string)
    ensures a == b || StringLess(a, b) || StringLess(b, a)
    ensures !(StringLess(a, b) && StringLess(b, a))
    decreases |a|
  {
    if |a| > 0 && |b| > 0 && a[0] == b[0] {
      StringLessTotal(a[1..], b[1..]);
      if a[1..] == b[1..] {
        assert a == [a[0]] + a[1..] && b == [b[0]] + b[1..];
      }
    }
  }

  lemma {:induction false} StringLessTransitive(a: string, b: string, c: string)
    requires StringLess(a, b) && StringLess(b, c)
    ensures StringLess(a, c)
    decreases |a|
  {
    if |a| > 0 && a[0] == b[0] && b[0] == c[0] {
      StringLessTransitive(a[1..], b[1..], c[1..]);
    }
  }
}

=== FILE: sum_weights.dfy ===
/** The naming rule of the sum-of-weights reader (SumWeightsGetter): which
    variation a cutflow histogram belongs to, read off the histogram's name.
    Reading the histograms themselves is I/O and not part of this model. */
module SumWeightNames {
  import opened StringOps

  const BookkeeperPrefix: string := "CutBookkeeper_"

  /** get_variation_name_default: "CutBookkeeper_<int>_<int>_<variation>";
      any other shape gives the empty name. */
  function DefaultVariationName(histogram: string): (r: string)
    ensures !StartsWith(histogram, BookkeeperPrefix) ==> r == ""
  {
    if !StartsWith(histogram, BookkeeperPrefix) then ""
    else
      var elements := Split(histogram, "_");
      if |elements| < 4 then ""
      else if !IsInt(elements[1]) || !IsInt(elements[2]) then ""
      else Join("_", elements[3..])
  }

  /** get_variation_name_custom: what follows "<histo_name>_", or the empty
      name when the histogram does not start with it. */
  function CustomVariationName(histoName: string, histogram: string): (r: string)
    ensures StartsWith(histogram, histoName + "_") ==> histogram == histoName + "_" + r
    ensures !StartsWith(histogram, histoName + "_") ==> r == ""
  {
    var prefix := histoName + "_";
    if !StartsWith(histogram, prefix) then "" else histogram[|prefix|..]
  }

  /** get_variation_name: the default rule unless a histogram name is
      configured. */
  function VariationName(histoName: string, histogram: string): (r: string)
    ensures histoName == "" ==> r == DefaultVariationName(histogram)
    ensures histoName != "" ==> r == CustomVariationName(histoName, histogram)
  {
    if histoName == "" then DefaultVariationName(histogram) else CustomVariationName(histoName, histogram)
  }

  /** The pieces of a bookkeeping histogram's name: the marker, the two
      integers, then the pieces of the variation. */
  lemma BookkeeperPieces(a: string, b: string, variation: string)
    requires IsInt(a) && IsInt(b)
    ensures Split(BookkeeperPrefix + a + "_" + b + "_" + variation, "_") ==
            ["CutBookkeeper", a, b] + Split(variation, "_")
  {
    assert BookkeeperPrefix + a + "_" + b + "_" + variation ==
           "CutBookkeeper" + "_" + (a + "_" + (b + "_" + variation));
    MarkerHasNoSeparator();
    var u := b + "_" + variation;
    var t := a + "_" + u;
    IntegersPieces(a, b, variation);
    SplitCons("CutBookkeeper", "_", t);
  }

  lemma MarkerHasNoSeparator()
    ensures !Contains("CutBookkeeper", "_")
  {
    forall j | 0 <= j < 13 ensures !OccursAt("CutBookkeeper", "_", j) {
      assert "CutBookkeeper"[j] != '_';
    }
  }

  lemma IntegersPieces(a: string, b: string, variation: string)
    requires IsInt(a) && IsInt(b)
    ensures Split(a + "_" + (b + "_" + variation), "_") == [a, b] + Split(variation, "_")
  {
    IntHasNoSeparator(a, "_");
    IntHasNoSeparator(b, "_");
    SplitCons(b, "_", variation);
    SplitCons(a, "_", b + "_" + variation);
  }

  /** The default rule reads back the variation a bookkeeping histogram was
      named after, as long as the variation does not end in "_" (splitting
      drops a trailing empty piece). */
  lemma DefaultVariationNameRoundTrip(a: string, b: string, variation: string)
    requires IsInt(a) && IsInt(b) && !EndsWith(variation, "_")
    ensures DefaultVariationName(BookkeeperPrefix + a + "_" + b + "_" + variation) == variation
  {
    var name := BookkeeperPrefix + a + "_" + b + "_" + variation;
    assert StartsWith(name, BookkeeperPrefix) by {
      assert name[..|BookkeeperPrefix|] == BookkeeperPrefix;
    }
    BookkeeperPieces(a, b, variation);
    var elements := Split(name, "_");
    if |variation| > 0 {
      assert elements[3..] == Split(variation, "_");
      SplitJoinRoundTrip(variation, "_");
    }
  }

  /** The custom rule reads back what follows the configured name. */
  lemma CustomVariationNameRoundTrip(histoName: string, variation: string)
    ensures CustomVariationName(histoName, histoName + "_" + variation) == variation
  {
    var h := histoName + "_" + variation;
    assert h[..|histoName + "_"|] == histoName + "_";
  }
}

=== FILE: systematic_reader.dfy ===
/** The reader of a systematic block (BlockReaderSystematic): one native
    systematic per variation ("up", "down") the block defines, with the
    samples and regions it applies to. */
module SystematicReader {
  import opened Wrappers
  import opened Values
  import opened OptionLedger
  import Seqs
  import StringOps
  import CommandLine

  /** One variation of a systematic block, as the native systematic stores
      it, with the lists the block restricts it by. The systematic named
      NOSYS is the nominal one. */
  datatype Systematic = Systematic(name: string, weightSuffix: string, sumWeights: string,
                                   samples: Option<seq<string>>, excludeSamples: Option<seq<string>>,
                                   campaigns: Option<seq<string>>,
                                   regions: Option<seq<string>>, excludeRegions: Option<seq<string>>) {
    predicate IsNominal() { name == "NOSYS" }
  }

  /** The options a variation block may define for each variation: the
      name (the bare key "up" or "down"), the weight suffix and the sums of
      weights. */
  const VariationOptions: set<string> := {"", "weight_suffix", "sum_weights"}

  const SampleListOptions: set<string> := {"samples", "exclude_samples", "campaigns"}
  const RegionListOptions: set<string> := {"regions", "exclude_regions"}

  /** Every option a systematic block may hold. */
  const SystematicOptions: set<string> := {"variation"} + SampleListOptions + RegionListOptions

  /** Every option some key of the variation block belongs to is one the
      reader knows and is given for `variation` too. */
  ghost predicate GivenFor(v: Block, variation: string) {
    forall j :: 0 <= j < |v| && TrackedName(v[j].key).Some? ==>
      TrackedName(v[j].key).value in VariationOptions &&
      HasKey(v, VariationKey(TrackedName(v[j].key).value, variation))
  }

  /** `l` is a ledger over `v` that has read only options of the reader,
      each given for `variation`. */
  ghost predicate ReadGiven(l: VariationLedger, v: Block, variation: string) {
    l.block == v && l.tracked == FreshVariations(v).tracked &&
    forall o :: o in l.used ==> o in VariationOptions && HasKey(v, VariationKey(o, variation))
  }

  /** The name of one variation, read from a fresh variation ledger; it
      must be given. */
  function ReadVariationName(v: Block, variation: string): (r: Result<(string, VariationLedger)>)
    ensures !HasKey(v, VariationKey("", variation)) ==> r.Fail?
    ensures r.Ok? ==> Lookup(v, VariationKey("", variation)) == Some(Str(r.value.0))
    ensures r.Ok? ==> ReadGiven(r.value.1, v, variation)
  {
    var (name, l) :- GetVariationStr(FreshVariations(v), "", variation);
    :- Need(name.Some?, MissingOption(variation));
    Ok((name.value, l))
  }

  /** The weight suffix and the sums of weights of one variation. */
  function ReadVariationWeights(l: VariationLedger, v: Block, variation: string)
    : (r: Result<(string, Option<string>, VariationLedger)>)
    requires ReadGiven(l, v, variation)
    ensures r.Ok? ==> r.value.0 == StrOr(v, VariationKey("weight_suffix", variation), "")
    ensures r.Ok? ==> (r.value.1.Some? <==> HasKey(v, VariationKey("sum_weights", variation)))
    ensures r.Ok? && r.value.1.Some? ==> Lookup(v, VariationKey("sum_weights", variation)) == Some(Str(r.value.1.value))
    ensures r.Ok? ==> ReadGiven(r.value.2, v, variation)
  {
    var (suffix, l1) :- GetVariation(l, "weight_suffix", variation, Str(""), Some({StrTag}));
    var (sumWeights, l2) :- GetVariationStr(l1, "sum_weights", variation);
    Ok((if suffix.Str? then suffix.s else "", sumWeights, l2))
  }

  /** The name, weight suffix and sums of weights of one variation. The
      variation type is lower-cased and must be up or down; the name must be
      given; the weight suffix defaults to "" and the sums of weights to the
      general default. Every option the variation block defines must be read
      for this variation. */
  function ReadVariation(v: Block, variationType: string, defaultSumWeights: string): (r: Result<(string, string, string)>)
    ensures StringOps.ToLower(variationType) !in {"up", "down"} ==> r.Fail?
    ensures !HasKey(v, StringOps.ToLower(variationType)) ==> r.Fail?
    ensures r.Ok? ==> Lookup(v, StringOps.ToLower(variationType)) == Some(Str(r.value.0))
    ensures r.Ok? ==> r.value.1 == StrOr(v, VariationKey("weight_suffix", StringOps.ToLower(variationType)), "")
    ensures r.Ok? ==> r.value.2 == StrOr(v, VariationKey("sum_weights", StringOps.ToLower(variationType)), defaultSumWeights)
    ensures r.Ok? && HasKey(v, VariationKey("sum_weights", StringOps.ToLower(variationType))) ==>
      Lookup(v, VariationKey("sum_weights", StringOps.ToLower(variationType))) == Some(Str(r.value.2))
    ensures r.Ok? ==> GivenFor(v, StringOps.ToLower(variationType))
  {
    var variation := StringOps.ToLower(variationType);
    :- Need(variation == "up" || variation == "down", InvalidValue("variation_type"));
    var (name, l1) :- ReadVariationName(v, variation);
    var (suffix, sumWeights, l) :- ReadVariationWeights(l1, v, variation);
    var unused := UnusedVariations(l);
    :- Need(|unused| == 0, UnusedOptions(unused));
    UsedOptionsGiven(v, variation, l);
    Ok((name, suffix, sumWeights.GetOr(defaultSumWeights)))
  }

  /** After reading the three options of one variation with nothing left
      unused, every option the block defines was among those read. */
  lemma UsedOptionsGiven(v: Block, variation: string, l: VariationLedger)
    requires ReadGiven(l, v, variation)
    requires |UnusedVariations(l)| == 0
    ensures GivenFor(v, variation)
  {
    forall j | 0 <= j < |v| && TrackedName(v[j].key).Some?
      ensures TrackedName(v[j].key).value in l.used
    {
      FreshVariationsReportsTracked(v, TrackedName(v[j].key).value);
    }
  }

  /** An option given for one variation only makes reading the other
      variation fatal, even though that variation does not need it. */
  lemma OneSidedOptionFails(v: Block, option: string, given: string, missing: string, defaultSumWeights: string)
    requires {given, missing} == {"up", "down"}
    requires HasKey(v, VariationKey(option, given)) && !HasKey(v, VariationKey(option, missing))
    ensures ReadVariation(v, missing, defaultSumWeights).Fail?
  {
    VariationKeyTracksOption(option, given);
    var key := VariationKey(option, given);
    HasKeyIffInKeys(v, key);
    var j :| 0 <= j < |v| && Keys(v)[j] == key;
    assert TrackedName(v[j].key) == Some(option);
    assert !HasKey(v, VariationKey(TrackedName(v[j].key).value, missing));
    assert !GivenFor(v, missing);
    assert missing in {given, missing};
    assert missing == "up" || missing == "down";
    StringOps.LowerVariationTypes();
    assert StringOps.ToLower(missing) == missing;
  }

  /** The sample lists, narrowed to the samples the command line selects;
      samples and exclude_samples exclude each other. The campaigns are
      read and not used. */
  function ReadSampleLists(l: Ledger, cli: CommandLine.Options)
    : (r: Result<(Option<seq<string>>, Option<seq<string>>, Option<seq<string>>, Ledger)>)
    ensures r.Ok? ==> ReadsWithin(l, r.value.3, SampleListOptions)
    ensures r.Ok? ==> r.value.0 == CommandLine.KeepSelectedSamples(StringsAt(l.block, "samples"), cli)
    ensures r.Ok? ==> r.value.1 == CommandLine.KeepSelectedSamples(StringsAt(l.block, "exclude_samples"), cli)
    ensures HasKey(l.block, "samples") && HasKey(l.block, "exclude_samples") ==> r.Fail?
  {
    var (samples, l1) :- GetStrList(l, "samples");
    var (exclude, l2) :- GetStrList(l1, "exclude_samples");
    var (campaigns, l3) :- GetStrList(l2, "campaigns");
    :- Need(samples.None? || exclude.None?, ConflictingOptions("samples", "exclude_samples"));
    Ok((CommandLine.KeepSelectedSamples(samples, cli), CommandLine.KeepSelectedSamples(exclude, cli), campaigns, l3))
  }

  /** The region lists; regions and exclude_regions exclude each other. */
  function ReadRegionLists(l: Ledger): (r: Result<(Option<seq<string>>, Option<seq<string>>, Ledger)>)
    ensures r.Ok? ==> ReadsWithin(l, r.value.2, RegionListOptions)
    ensures r.Ok? ==> r.value.0 == StringsAt(l.block, "regions") && r.value.1 == StringsAt(l.block, "exclude_regions")
    ensures r.Ok? ==> r.value.0.None? || r.value.1.None?
    ensures HasKey(l.block, "regions") && HasKey(l.block, "exclude_regions") ==> r.Fail?
  {
    var (regions, l1) :- GetStrList(l, "regions");
    var (exclude, l2) :- GetStrList(l1, "exclude_regions");
    :- Need(regions.None? || exclude.None?, ConflictingOptions("regions", "exclude_regions"));
    Ok((regions, exclude, l2))
  }

  /** BlockReaderSystematic for one variation: the variation block is
      required, and no option of the systematic block may be left unread. */
  function ReadSystematic(b: Block, variationType: string, defaultSumWeights: string,
                          cli: CommandLine.Options): (r: Result<Systematic>)
    ensures !HasKey(b, "variation") ==> r.Fail?
    ensures r.Ok? ==> forall k :: k in Keys(b) ==> k in SystematicOptions
    ensures r.Ok? ==> exists v :: Lookup(b, "variation") == Some(Dict(v)) &&
                                  ReadVariation(v, variationType, defaultSumWeights)
                                    == Ok((r.value.name, r.value.weightSuffix, r.value.sumWeights))
    ensures r.Ok? ==> r.value.samples.None? || r.value.excludeSamples.None?
    ensures r.Ok? ==> r.value.regions.None? || r.value.excludeRegions.None?
    ensures r.Ok? ==> r.value.regions == StringsAt(b, "regions")
    ensures r.Ok? ==> r.value.samples == CommandLine.KeepSelectedSamples(StringsAt(b, "samples"), cli)
  {
    var (variation, l1) :- GetBlock(Fresh(b), "variation");
    :- Need(variation.Some?, MissingOption("variation"));
    var (name, suffix, sumWeights) :- ReadVariation(variation.value, variationType, defaultSumWeights);
    var (samples, exclude, campaigns, l2) :- ReadSampleLists(l1, cli);
    var (regions, excludeRegions, l3) :- ReadRegionLists(l2);
    var unused := Unused(l3);
    :- Need(|unused| == 0, UnusedOptions(unused));
    NothingUnused(l3);
    Ok(Systematic(name, suffix, sumWeights, samples, exclude, campaigns, regions, excludeRegions))
  }

  /** The variations a block defines, "up" before "down". The variation
      value must be a mapping. */
  function Variations(b: Block): (r: Result<seq<string>>)
    ensures r.Ok? ==> exists v :: Lookup(b, "variation") == Some(Dict(v)) &&
                                  r.value == (if HasKey(v, "up") then ["up"] else []) +
                                             (if HasKey(v, "down") then ["down"] else [])
    ensures r.Ok? ==> |r.value| > 0
    ensures r.Fail? <==> match Lookup(b, "variation")
                         case Some(Dict(v)) => !HasKey(v, "up") && !HasKey(v, "down")
                         case _ => true
  {
    match Lookup(b, "variation")
    case Some(Dict(v)) =>
      var names := (if HasKey(v, "up") then ["up"] else []) + (if HasKey(v, "down") then ["down"] else []);
      if |names| == 0 then Fail(MissingOption("variation")) else Ok(names)
    case _ => Fail(WrongType("variation"))
  }

  /** The up and down systematics of one block. */
  datatype Pair = Pair(up: Option<Systematic>, down: Option<Systematic>)

  /** read_systematics_variations: one systematic per variation, in the
      order "up", "down", and the pair of them by variation. */
  function ReadSystematicsVariations(b: Block, defaultSumWeights: string, cli: CommandLine.Options)
    : (r: Result<(seq<Systematic>, Pair)>)
    ensures r.Ok? ==> 1 <= |r.value.0| <= 2
    ensures r.Ok? ==> Variations(b).Ok? && |r.value.0| == |Variations(b).value|
    ensures r.Ok? ==> forall k :: 0 <= k < |r.value.0| ==>
      ReadSystematic(b, Variations(b).value[k], defaultSumWeights, cli) == Ok(r.value.0[k])
    ensures r.Ok? ==> (r.value.1.up.Some? <==> Variations(b).value[0] == "up")
    ensures r.Ok? ==> (r.value.1.down.Some? <==> Variations(b).value[|Variations(b).value| - 1] == "down")
  {
    var names :- Variations(b);
    var systs :- MapAll(names, (variation: string) => ReadSystematic(b, variation, defaultSumWeights, cli));
    var up := if names[0] == "up" then Some(systs[0]) else None;
    var down := if names[|names| - 1] == "down" then Some(systs[|names| - 1]) else None;
    Ok((systs, Pair(up, down)))
  }

  // ---------------------------------------------------------------------
  // Cross-references

  /** adjust_regions: without a region list, every region whose name is not
      excluded (compared exactly), in region order; with one, the listed
      regions, each of which must exist. */
  function AdjustRegions(s: Systematic, regionNames: seq<string>): (r: Result<seq<string>>)
    ensures s.regions.None? ==> r.Ok? && Seqs.IsSubsequence(r.value, regionNames)
    ensures s.regions.None? ==> forall x :: x in r.value <==>
      x in regionNames && (s.excludeRegions.None? || x !in s.excludeRegions.value)
    ensures s.regions.Some? ==> (r.Ok? <==> forall k :: 0 <= k < |s.regions.value| ==> s.regions.value[k] in regionNames)
    ensures s.regions.Some? && r.Ok? ==> r.value == s.regions.value
  {
    if s.regions.None? then
      Ok(Seqs.Filter(regionNames, (x: string) => s.excludeRegions.None? || x !in s.excludeRegions.value))
    else
      match Seqs.FirstMissing(s.regions.value, regionNames)
      case None => Ok(s.regions.value)
      case Some(name) => Fail(UnknownReference(name))
  }

  /** Every name of an optional list is among `names`. */
  function AllKnown(list: Option<seq<string>>, names: seq<string>): (r: Outcome)
    ensures r.Pass? <==> list.None? || forall k :: 0 <= k < |list.value| ==> list.value[k] in names
  {
    if list.None? then Pass
    else match Seqs.FirstMissing(list.value, names)
      case None => Pass
      case Some(name) => Stop(UnknownReference(name))
  }

  /** check_samples_existence: every listed and every excluded sample
      exists. */
  function CheckSamplesExist(s: Systematic, sampleNames: seq<string>): (r: Outcome)
    ensures r.Pass? <==> (s.samples.None? || forall x :: x in s.samples.value ==> x in sampleNames) &&
                         (s.excludeSamples.None? || forall x :: x in s.excludeSamples.value ==> x in sampleNames)
  {
    var first := AllKnown(s.samples, sampleNames);
    if first.Stop? then first else AllKnown(s.excludeSamples, sampleNames)
  }

  /** check_regions_existence: every listed and every excluded region
      exists. */
  function CheckRegionsExist(s: Systematic, regionNames: seq<string>): (r: Outcome)
    ensures r.Pass? <==> (s.regions.None? || forall x :: x in s.regions.value ==> x in regionNames) &&
                         (s.excludeRegions.None? || forall x :: x in s.excludeRegions.value ==> x in regionNames)
  {
    var first := AllKnown(s.regions, regionNames);
    if first.Stop? then first else AllKnown(s.excludeRegions, regionNames)
  }

  /** Whatever list a systematic gives, the regions it is attached to are
      regions that exist, and an excluded region is never among them. */
  lemma AdjustedRegionsExist(s: Systematic, regionNames: seq<string>)
    requires s.regions.None? || s.excludeRegions.None?
    requires AdjustRegions(s, regionNames).Ok?
    ensures forall x :: x in AdjustRegions(s, regionNames).value ==> x in regionNames
    ensures s.excludeRegions.Some? ==> forall x :: x in s.excludeRegions.value ==> x !in AdjustRegions(s, regionNames).value
  {
    var r := AdjustRegions(s, regionNames).value;
    if s.regions.Some? {
      forall x | x in r ensures x in regionNames {
        var k :| 0 <= k < |r| && r[k] == x;
      }
    }
  }
}

=== FILE: systematic_replacer.dfy ===
/** The systematic replacer (SystematicReplacer): for each systematic
    variation the nominal branches it affects, the inverse map from a
    nominal branch to the variations affecting it, and the substitution that
    turns an expression over nominal branches into the same expression for
    one variation. Nominal branch names carry the marker NOSYS; the branch
    of a variation has the variation's name in its place.

    Systematics are given by name. Both maps are std::maps, modelled in
    StdMap so that the second pass of the matching visits the systematics
    in key order, as the native code does. */
module SystReplacer {
  import opened Wrappers
  import opened StringOps
  import Seqs
  import StdMap

  /** The marker in the name of every nominal branch. */
  const Nominal: string := "NOSYS"

  /** `impacts` is the map from a systematic to the nominal branches it
      affects, `affectedBy` the map from a nominal branch to the
      systematics that affect it, `allBranches` every branch known and
      `systematics` the names set by setSystematicNames. */
  datatype Replacer = Replacer(allBranches: seq<string>, impacts: StdMap.Entries,
                               affectedBy: StdMap.Entries, systematics: seq<string>)

  /** The systematic lists the branch among those it affects. */
  predicate Impacts(r: Replacer, syst: string, branch: string) {
    StdMap.Holds(r.impacts, syst, branch)
  }

  /** The branch lists the systematic among those affecting it. */
  predicate Affects(r: Replacer, branch: string, syst: string) {
    StdMap.Holds(r.affectedBy, branch, syst)
  }

  /** Every branch the systematic map lists is a nominal name (so in
      particular not empty). */
  ghost predicate NominalLists(impacts: StdMap.Entries) {
    forall s, b :: StdMap.Holds(impacts, s, b) ==> Contains(b, Nominal)
  }

  /** Both maps in key order, and only nominal names listed. */
  ghost predicate Valid(r: Replacer) {
    StdMap.Sorted(r.impacts) && StdMap.Sorted(r.affectedBy) && NominalLists(r.impacts)
  }

  /** Each map is the inverse of the other. */
  ghost predicate Inverse(impacts: StdMap.Entries, affectedBy: StdMap.Entries) {
    forall s, b :: StdMap.Holds(impacts, s, b) <==> StdMap.Holds(affectedBy, b, s)
  }

  ghost predicate Consistent(r: Replacer) {
    Inverse(r.impacts, r.affectedBy)
  }

  /** A new replacer knows nothing; its empty maps are trivially inverse. */
  function NewReplacer(): (r: Replacer)
    ensures Valid(r) && Consistent(r)
    ensures forall s, b :: !Impacts(r, s, b) && !Affects(r, b, s)
  {
    Replacer([], [], [], [])
  }

  // ---------------------------------------------------------------------
  // matchSystematicVariables

  /** The branches ending in the systematic's name, with that name replaced
      by NOSYS, in branch order. */
  function AffectedBranches(variables: seq<string>, syst: string): (r: seq<string>)
    requires |syst| > 0
    ensures forall b :: b in r ==> Contains(b, Nominal)
    ensures forall b :: b in r <==>
      exists v :: v in variables && EndsWith(v, syst) && b == ReplaceAll(v, syst, Nominal)
    decreases |variables|
  {
    if |variables| == 0 then []
    else
      var front := variables[..|variables| - 1];
      var v := variables[|variables| - 1];
      assert variables == front + [v];
      var rest := AffectedBranches(front, syst);
      if EndsWith(v, syst) then
        EndsWithContains(v, syst);
        rest + [ReplaceAll(v, syst, Nominal)]
      else rest
  }

  /** The first pass: each systematic inserted with its branches, a name
      already in the map keeping its list. */
  function InsertSystematics(impacts: StdMap.Entries, variables: seq<string>, systs: seq<string>): (r: StdMap.Entries)
    requires StdMap.Sorted(impacts)
    requires forall s :: s in systs ==> |s| > 0
    ensures StdMap.Sorted(r)
    decreases |systs|
  {
    if |systs| == 0 then impacts
    else
      var s := systs[|systs| - 1];
      StdMap.Insert(InsertSystematics(impacts, variables, systs[..|systs| - 1]), s, AffectedBranches(variables, s))
  }

  /** After the first pass a systematic that was new maps to its branches
      and every other entry is as before. */
  lemma {:induction false} InsertSystematicsGet(impacts: StdMap.Entries, variables: seq<string>, systs: seq<string>, s: string)
    requires StdMap.Sorted(impacts)
    requires forall x :: x in systs ==> |x| > 0
    ensures StdMap.Get(InsertSystematics(impacts, variables, systs), s) ==
            if s in StdMap.Keys(impacts) then StdMap.Get(impacts, s)
            else if s in systs then Some(AffectedBranches(variables, s))
            else None
    decreases |systs|
  {
    if |systs| > 0 {
      var front := systs[..|systs| - 1];
      var last := systs[|systs| - 1];
      assert systs == front + [last];
      InsertSystematicsGet(impacts, variables, front, s);
      var m := InsertSystematics(impacts, variables, front);
      StdMap.GetAfterInsert(m, last, AffectedBranches(variables, last));
      if s != last {
        StdMap.GetAfterInsertOther(m, last, AffectedBranches(variables, last), s);
      }
    }
  }

  /** The inner loop of the second pass: the systematic appended to the
      list of each of its branches, the entry created when missing. */
  function AddInverse(a: StdMap.Entries, syst: string, branches: seq<string>): (r: StdMap.Entries)
    requires StdMap.Sorted(a)
    ensures StdMap.Sorted(r)
    decreases |branches|
  {
    if |branches| == 0 then a
    else StdMap.PushBack(AddInverse(a, syst, branches[..|branches| - 1]), branches[|branches| - 1], syst)
  }

  lemma {:induction false} AddInverseHolds(a: StdMap.Entries, syst: string, branches: seq<string>, b: string, t: string)
    requires StdMap.Sorted(a)
    ensures StdMap.Holds(AddInverse(a, syst, branches), b, t) <==> StdMap.Holds(a, b, t) || (t == syst && b in branches)
    decreases |branches|
  {
    if |branches| > 0 {
      var front := branches[..|branches| - 1];
      var last := branches[|branches| - 1];
      assert branches == front + [last];
      AddInverseHolds(a, syst, front, b, t);
      StdMap.HoldsAfterPushBack(AddInverse(a, syst, front), last, syst, b, t);
    }
  }

  /** The second pass: the entries of the first map visited in key order. */
  function Invert(a: StdMap.Entries, es: StdMap.Entries): (r: StdMap.Entries)
    requires StdMap.Sorted(a)
    ensures StdMap.Sorted(r)
    decreases |es|
  {
    if |es| == 0 then a
    else
      var e := es[|es| - 1];
      AddInverse(Invert(a, es[..|es| - 1]), e.0, e.1)
  }

  lemma {:induction false} InvertHolds(a: StdMap.Entries, es: StdMap.Entries, b: string, t: string)
    requires StdMap.Sorted(a)
    ensures StdMap.Holds(Invert(a, es), b, t) <==>
            StdMap.Holds(a, b, t) || exists j :: 0 <= j < |es| && es[j].0 == t && b in es[j].1
    decreases |es|
  {
    if |es| > 0 {
      var front := es[..|es| - 1];
      var e := es[|es| - 1];
      InvertHolds(a, front, b, t);
      AddInverseHolds(Invert(a, front), e.0, e.1, b, t);
      ListsSnoc(es, b, t);
    }
  }

  /** Some entry for `t` lists `b`. */
  predicate Lists(es: StdMap.Entries, b: string, t: string) {
    exists j :: 0 <= j < |es| && es[j].0 == t && b in es[j].1
  }

  /** An entry listing `b` is in the front or is the last one. */
  lemma ListsSnoc(es: StdMap.Entries, b: string, t: string)
    requires |es| > 0
    ensures Lists(es, b, t) <==>
            Lists(es[..|es| - 1], b, t) || (es[|es| - 1].0 == t && b in es[|es| - 1].1)
  {
    var front := es[..|es| - 1];
    if j :| 0 <= j < |front| && front[j].0 == t && b in front[j].1 {
      assert es[j] == front[j];
    }
    if j :| 0 <= j < |es| && es[j].0 == t && b in es[j].1 {
      if j < |front| {
        assert front[j] == es[j];
      }
    }
  }

  /** matchSystematicVariables: systematic names must not be empty (an
      empty name ends every branch, and replacing it never terminates). */
  function MatchSystematicVariables(r: Replacer, variables: seq<string>, systs: seq<string>): (r2: Replacer)
    requires Valid(r)
    requires forall s :: s in systs ==> |s| > 0
    ensures StdMap.Sorted(r2.impacts) && StdMap.Sorted(r2.affectedBy)
    ensures r2.allBranches == r.allBranches && r2.systematics == r.systematics
  {
    var impacts := InsertSystematics(r.impacts, variables, systs);
    r.(impacts := impacts, affectedBy := Invert(r.affectedBy, impacts))
  }

  /** After the matching, each systematic that was new lists exactly the
      nominal names of the branches ending in its name, the other entries
      are as before, the branch map is the inverse of the systematic map
      whenever it was before (in particular starting from a new replacer),
      and every listed branch is a nominal name. */
  lemma MatchSystematicVariablesSpec(r: Replacer, variables: seq<string>, systs: seq<string>)
    requires Valid(r) && Consistent(r)
    requires forall s :: s in systs ==> |s| > 0
    ensures Valid(MatchSystematicVariables(r, variables, systs))
    ensures Consistent(MatchSystematicVariables(r, variables, systs))
    ensures forall s :: s in systs && s !in StdMap.Keys(r.impacts) ==>
      StdMap.Get(MatchSystematicVariables(r, variables, systs).impacts, s) == Some(AffectedBranches(variables, s))
    ensures forall s :: s in StdMap.Keys(r.impacts) ==>
      StdMap.Get(MatchSystematicVariables(r, variables, systs).impacts, s) == StdMap.Get(r.impacts, s)
  {
    var r2 := MatchSystematicVariables(r, variables, systs);
    forall s | true
      ensures StdMap.Get(r2.impacts, s) ==
              if s in StdMap.Keys(r.impacts) then StdMap.Get(r.impacts, s)
              else if s in systs then Some(AffectedBranches(variables, s))
              else None
    {
      InsertSystematicsGet(r.impacts, variables, systs, s);
    }
    forall s, b | StdMap.Holds(r2.impacts, s, b) ensures Contains(b, Nominal) {
      if s !in StdMap.Keys(r.impacts) {
        assert b in AffectedBranches(variables, s);
      } else {
        assert StdMap.Holds(r.impacts, s, b);
      }
    }
    forall s, b ensures StdMap.Holds(r2.impacts, s, b) <==> StdMap.Holds(r2.affectedBy, b, s) {
      InvertHolds(r.affectedBy, r2.impacts, b, s);
      StdMap.HoldsIffEntry(r2.impacts, s, b);
      assert StdMap.Holds(r.affectedBy, b, s) <==> StdMap.Holds(r.impacts, s, b);
    }
  }

  // ---------------------------------------------------------------------
  // replaceString, replaceVector

  /** The replacement loop: each affected branch, in list order, replaced
      by its variant, the NOSYS in its name replaced by the systematic. */
  function SwapBranches(s: string, branches: seq<string>, syst: string): (r: string)
    requires forall b :: b in branches ==> Contains(b, Nominal)
    ensures syst == Nominal ==> r == s
    ensures (forall b :: b in branches ==> !Contains(s, b)) ==> r == s
    decreases |branches|
  {
    if |branches| == 0 then s
    else
      var b := branches[0];
      ContainsLength(b, Nominal);
      ReplaceAllSelf(b, Nominal);
      ReplaceAllSelf(s, b);
      SwapBranches(ReplaceAll(s, b, ReplaceAll(b, Nominal, syst)), branches[1..], syst)
  }

  /** One turn of the replacement loop: every non-overlapping occurrence
      of the first branch, from the left, becomes its variant, and the
      loop goes on with the rest of the list on that string. */
  lemma SwapBranchesStep(s: string, branches: seq<string>, syst: string)
    requires |branches| > 0 && forall b :: b in branches ==> Contains(b, Nominal)
    ensures SwapBranches(s, branches, syst) ==
            SwapBranches(Intercalate(ReplaceAll(branches[0], Nominal, syst), PySplitOn(s, branches[0])), branches[1..], syst)
  {
    ContainsLength(branches[0], Nominal);
  }

  /** With one affected branch, the string is cut at each occurrence of
      the branch and the variant goes between the pieces; a string that
      holds the branch then holds its variant. */
  lemma SwapBranchesSingle(s: string, b: string, syst: string)
    requires Contains(b, Nominal)
    ensures SwapBranches(s, [b], syst) == Intercalate(ReplaceAll(b, Nominal, syst), PySplitOn(s, b))
    ensures Contains(s, b) ==> Contains(SwapBranches(s, [b], syst), ReplaceAll(b, Nominal, syst))
  {
    ContainsLength(b, Nominal);
    assert [b][1..] == [];
  }

  /** replaceString: an unknown systematic is fatal. The nominal
      "variation" changes nothing, and neither does a systematic none of
      whose branches occurs in the string. */
  function ReplaceString(r: Replacer, original: string, syst: string): (res: Result<string>)
    requires Valid(r)
    ensures res.Fail? <==> syst !in StdMap.Keys(r.impacts)
    ensures res.Ok? && syst == Nominal ==> res.value == original
    ensures res.Ok? && (forall b :: Impacts(r, syst, b) ==> !Contains(original, b)) ==> res.value == original
  {
    match StdMap.Get(r.impacts, syst)
    case None => Fail(UnknownReference("Cannot find systematic: " + syst + " in the systematic map"))
    case Some(branches) =>
      assert forall b :: b in branches ==> Impacts(r, syst, b);
      Ok(SwapBranches(original, branches, syst))
  }

  /** replaceString runs the replacement loop over the systematic's
      branches in their list order, starting with the first. */
  lemma ReplaceStringFirstBranch(r: Replacer, s: string, syst: string, branches: seq<string>)
    requires Valid(r) && StdMap.Get(r.impacts, syst) == Some(branches) && |branches| > 0
    ensures |branches[0]| > 0 && forall b :: b in branches ==> Contains(b, Nominal)
    ensures ReplaceString(r, s, syst) ==
            Ok(SwapBranches(Intercalate(ReplaceAll(branches[0], Nominal, syst), PySplitOn(s, branches[0])),
                            branches[1..], syst))
  {
    assert forall b :: b in branches ==> Impacts(r, syst, b);
    assert branches[0] in branches;
    ContainsLength(branches[0], Nominal);
    SwapBranchesStep(s, branches, syst);
  }

  /** A systematic affecting one branch swaps exactly that branch for its
      variant. */
  lemma ReplaceStringSingle(r: Replacer, s: string, syst: string, b: string)
    requires Valid(r) && StdMap.Get(r.impacts, syst) == Some([b])
    ensures |b| > 0 && Contains(b, Nominal)
    ensures ReplaceString(r, s, syst) == Ok(Intercalate(ReplaceAll(b, Nominal, syst), PySplitOn(s, b)))
    ensures Contains(s, b) ==> Contains(ReplaceString(r, s, syst).value, ReplaceAll(b, Nominal, syst))
  {
    assert Impacts(r, syst, b);
    ContainsLength(b, Nominal);
    SwapBranchesSingle(s, b, syst);
  }

  /** replaceVector: replaceString on every element; an empty list never
      asks for the systematic. */
  function ReplaceVector(r: Replacer, originals: seq<string>, syst: string): (res: Result<seq<string>>)
    requires Valid(r)
    ensures res.Fail? <==> |originals| > 0 && syst !in StdMap.Keys(r.impacts)
    ensures res.Ok? ==> |res.value| == |originals|
    ensures res.Ok? ==> forall k :: 0 <= k < |originals| ==> ReplaceString(r, originals[k], syst) == Ok(res.value[k])
    decreases |originals|
  {
    if |originals| == 0 then Ok([])
    else
      match ReplaceString(r, originals[0], syst)
      case Fail(e) => Fail(e)
      case Ok(first) =>
        match ReplaceVector(r, originals[1..], syst)
        case Fail(e) => Fail(e)
        case Ok(rest) => Ok([first] + rest)
  }

  /** branchExists. */
  predicate BranchExists(r: Replacer, name: string) {
    name in r.allBranches
  }

  // ---------------------------------------------------------------------
  // getListOfEffectiveSystematics

  /** A column naming a nominal branch the branch map does not know. */
  predicate UnknownColumn(r: Replacer, column: string) {
    Contains(column, Nominal) && column !in StdMap.Keys(r.affectedBy)
  }

  /** The reference: the systematic lists of the nominal columns, one after
      the other in column order. */
  function AffectingAll(r: Replacer, columns: seq<string>): seq<string>
    decreases |columns|
  {
    if |columns| == 0 then []
    else
      var c := columns[|columns| - 1];
      AffectingAll(r, columns[..|columns| - 1]) + (if Contains(c, Nominal) then StdMap.GetOr(r.affectedBy, c) else [])
  }

  /** One column of getListOfEffectiveSystematics: `known` is false for
      an unknown nominal column, and otherwise the column's systematics not
      seen yet are appended. */
  method AddColumn(r: Replacer, result: seq<string>, ghost before: seq<string>, c: string)
    returns (known: bool, result2: seq<string>)
    requires result == Seqs.Dedup(AffectingAll(r, before))
    ensures known <==> !UnknownColumn(r, c)
    ensures known ==> result2 == Seqs.Dedup(AffectingAll(r, before + [c]))
  {
    assert (before + [c])[..|before|] == before;
    assert AffectingAll(r, before + [c]) ==
           AffectingAll(r, before) + (if Contains(c, Nominal) then StdMap.GetOr(r.affectedBy, c) else []);
    if !Contains(c, Nominal) {
      assert AffectingAll(r, before) + [] == AffectingAll(r, before);
      return true, result;
    }
    match StdMap.Get(r.affectedBy, c)
    case None =>
      return false, result;
    case Some(systs) =>
      result2 := Seqs.AppendUnseen(result, AffectingAll(r, before), systs);
      return true, result2;
  }

  /** getListOfEffectiveSystematics: columns without NOSYS are skipped, an
      unknown nominal column is fatal, and the systematics come out once
      each in the order first met. */
  method EffectiveSystematics(r: Replacer, columns: seq<string>) returns (res: Result<seq<string>>)
    ensures res.Fail? <==> exists k :: 0 <= k < |columns| && UnknownColumn(r, columns[k])
    ensures res.Ok? ==> res.value == Seqs.Dedup(AffectingAll(r, columns))
  {
    var result := [];
    var i := 0;
    while i < |columns|
      invariant 0 <= i <= |columns|
      invariant forall k :: 0 <= k < i ==> !UnknownColumn(r, columns[k])
      invariant result == Seqs.Dedup(AffectingAll(r, columns[..i]))
    {
      var known, next := AddColumn(r, result, columns[..i], columns[i]);
      if !known {
        return Fail(UnknownReference("Cannot find branch: " + columns[i] + ", in the branch map"));
      }
      Seqs.PrefixSnoc(columns, i);
      result := next;
      i := i + 1;
    }
    assert columns[..i] == columns;
    return Ok(result);
  }

  /** A systematic is in the reference list exactly when it affects one of
      the nominal columns; with consistent maps, when it lists one of them
      among its branches. */
  lemma {:induction false} AffectingAllMembership(r: Replacer, columns: seq<string>, syst: string)
    requires Consistent(r)
    ensures syst in AffectingAll(r, columns) <==>
            exists k :: 0 <= k < |columns| && Contains(columns[k], Nominal) && Impacts(r, syst, columns[k])
    decreases |columns|
  {
    if |columns| > 0 {
      var front := columns[..|columns| - 1];
      var c := columns[|columns| - 1];
      AffectingAllMembership(r, front, syst);
      assert Affects(r, c, syst) <==> Impacts(r, syst, c);
      ImpactedSnoc(r, columns, syst);
    }
  }

  /** Some nominal column is impacted by `syst`. */
  predicate Impacted(r: Replacer, columns: seq<string>, syst: string) {
    exists k :: 0 <= k < |columns| && Contains(columns[k], Nominal) && Impacts(r, syst, columns[k])
  }

  /** An impacted column is in the front or is the last one. */
  lemma ImpactedSnoc(r: Replacer, columns: seq<string>, syst: string)
    requires |columns| > 0
    ensures Impacted(r, columns, syst) <==>
            Impacted(r, columns[..|columns| - 1], syst) ||
            (Contains(columns[|columns| - 1], Nominal) && Impacts(r, syst, columns[|columns| - 1]))
  {
    var front := columns[..|columns| - 1];
    if k :| 0 <= k < |front| && Contains(front[k], Nominal) && Impacts(r, syst, front[k]) {
      assert columns[k] == front[k];
    }
    if k :| 0 <= k < |columns| && Contains(columns[k], Nominal) && Impacts(r, syst, columns[k]) {
      if k < |front| {
        assert front[k] == columns[k];
      }
    }
  }

  // ---------------------------------------------------------------------
  // addVariableAndEffectiveSystematics

  /** The loop over the systematics: each must already be in the systematic
      map; the variable is appended to its list, and the variable's variant
      for it joins the branches when it differs from the variable. */
  function AttachSystematics(r: Replacer, variable: string, systs: seq<string>): (res: Result<Replacer>)
    requires Valid(r) && Contains(variable, Nominal)
    ensures res.Fail? <==> exists k :: 0 <= k < |systs| && systs[k] !in StdMap.Keys(r.impacts)
    ensures res.Ok? ==> Valid(res.value) && res.value.affectedBy == r.affectedBy
    ensures res.Ok? ==> forall x :: x in StdMap.Keys(res.value.impacts) <==> x in StdMap.Keys(r.impacts)
    ensures res.Ok? ==> forall b :: b in r.allBranches ==> b in res.value.allBranches
    decreases |systs|
  {
    if |systs| == 0 then Ok(r)
    else
      var s := systs[0];
      if s !in StdMap.Keys(r.impacts) then Fail(UnknownReference("Unknown systematic: " + s))
      else
        var r1 := r.(impacts := StdMap.PushBack(r.impacts, s, variable));
        PushBackKeepsNominal(r.impacts, s, variable);
        var variant := ReplaceString(r1, variable, s).value;
        var r2 := if variant == variable then r1 else r1.(allBranches := r1.allBranches + [variant]);
        var res := AttachSystematics(r2, variable, systs[1..]);
        UnknownAfterKnown(r.impacts, r2.impacts, systs);
        res
  }

  /** When the first systematic is known and the map keeps its keys, an
      unknown systematic is among the rest. */
  lemma UnknownAfterKnown(impacts: StdMap.Entries, impacts2: StdMap.Entries, systs: seq<string>)
    requires |systs| > 0 && systs[0] in StdMap.Keys(impacts)
    requires forall x :: x in StdMap.Keys(impacts2) <==> x in StdMap.Keys(impacts)
    ensures (exists k :: 0 <= k < |systs| && systs[k] !in StdMap.Keys(impacts)) <==>
            (exists k :: 0 <= k < |systs[1..]| && systs[1..][k] !in StdMap.Keys(impacts2))
  {
    if k :| 0 <= k < |systs| && systs[k] !in StdMap.Keys(impacts) {
      assert systs[1..][k - 1] == systs[k];
    }
    if k :| 0 <= k < |systs[1..]| && systs[1..][k] !in StdMap.Keys(impacts2) {
      assert systs[k + 1] == systs[1..][k];
    }
  }

  /** Appending a nominal name keeps the systematic map's lists nominal. */
  lemma PushBackKeepsNominal(impacts: StdMap.Entries, s: string, variable: string)
    requires StdMap.Sorted(impacts) && NominalLists(impacts) && Contains(variable, Nominal)
    ensures NominalLists(StdMap.PushBack(impacts, s, variable))
  {
    forall t, b | StdMap.Holds(StdMap.PushBack(impacts, s, variable), t, b) ensures Contains(b, Nominal) {
      StdMap.HoldsAfterPushBack(impacts, s, variable, t, b);
    }
  }

  /** Over the loop, the systematic map gains exactly the pairs of the
      variable with each listed systematic. */
  lemma {:induction false} AttachSystematicsHolds(r: Replacer, variable: string, systs: seq<string>, s: string, b: string)
    requires Valid(r) && Contains(variable, Nominal)
    requires AttachSystematics(r, variable, systs).Ok?
    ensures StdMap.Holds(AttachSystematics(r, variable, systs).value.impacts, s, b) <==>
            StdMap.Holds(r.impacts, s, b) || (b == variable && s in systs)
    decreases |systs|
  {
    if |systs| > 0 {
      var t := systs[0];
      var r1 := r.(impacts := StdMap.PushBack(r.impacts, t, variable));
      PushBackKeepsNominal(r.impacts, t, variable);
      var variant := ReplaceString(r1, variable, t).value;
      var r2 := if variant == variable then r1 else r1.(allBranches := r1.allBranches + [variant]);
      assert AttachSystematics(r, variable, systs) == AttachSystematics(r2, variable, systs[1..]);
      AttachSystematicsHolds(r2, variable, systs[1..], s, b);
      StdMap.HoldsAfterPushBack(r.impacts, t, variable, s, b);
      assert s in systs <==> s == t || s in systs[1..];
    }
  }

  /** addVariableAndEffectiveSystematics: nothing happens for a known
      branch; otherwise the variable must be a nominal name and every
      systematic must be known. A new variable is listed with the given
      systematics (std::map::insert: a key the branch map already has keeps
      its list). */
  function AddVariable(r: Replacer, variable: string, systs: seq<string>): (res: Result<Replacer>)
    requires Valid(r)
    ensures BranchExists(r, variable) ==> res == Ok(r)
    ensures res.Fail? <==> (!BranchExists(r, variable) &&
      (!Contains(variable, Nominal) || exists k :: 0 <= k < |systs| && systs[k] !in StdMap.Keys(r.impacts)))
    ensures res.Ok? ==> Valid(res.value) && BranchExists(res.value, variable)
    ensures res.Ok? && !BranchExists(r, variable) && variable !in StdMap.Keys(r.affectedBy) ==>
      StdMap.Get(res.value.affectedBy, variable) == Some(systs)
  {
    if variable in r.allBranches then Ok(r)
    else if !Contains(variable, Nominal) then Fail(InvalidValue("Variable " + variable + " does not contain NOSYS"))
    else
      var r1 := r.(allBranches := r.allBranches + [variable],
                   affectedBy := StdMap.Insert(r.affectedBy, variable, systs));
      StdMap.GetAfterInsert(r.affectedBy, variable, systs);
      AttachSystematics(r1, variable, systs)
  }

  /** Adding a new variable keeps the maps inverse to each other, provided
      the branch map does not hold the variable already (its list would not
      be replaced, while the systematic map gains the new pairs). */
  lemma AddVariableKeepsConsistent(r: Replacer, variable: string, systs: seq<string>)
    requires Valid(r) && Consistent(r)
    requires AddVariable(r, variable, systs).Ok?
    requires BranchExists(r, variable) || variable !in StdMap.Keys(r.affectedBy)
    ensures Consistent(AddVariable(r, variable, systs).value)
    ensures !BranchExists(r, variable) ==>
      forall s :: s in systs ==> Impacts(AddVariable(r, variable, systs).value, s, variable)
  {
    if !BranchExists(r, variable) {
      var r1 := r.(allBranches := r.allBranches + [variable],
                   affectedBy := StdMap.Insert(r.affectedBy, variable, systs));
      var r2 := AddVariable(r, variable, systs).value;
      assert r2 == AttachSystematics(r1, variable, systs).value;
      forall s, b ensures StdMap.Holds(r2.impacts, s, b) <==> StdMap.Holds(r2.affectedBy, b, s) {
        AttachSystematicsHolds(r1, variable, systs, s, b);
        StdMap.HoldsAfterInsert(r.affectedBy, variable, systs, b, s);
        assert StdMap.Holds(r.affectedBy, b, s) <==> StdMap.Holds(r.impacts, s, b);
      }
      forall s | s in systs ensures Impacts(r2, s, variable) {
        AttachSystematicsHolds(r1, variable, systs, s, variable);
      }
    }
  }

  // ---------------------------------------------------------------------
  // addSingleSystematic

  /** One map update of addSingleSystematic: a missing key gets a
      one-element list; a present key gets the value appended unless its
      list has it. */
  function AddOnce(m: StdMap.Entries, key: string, x: string): (r: StdMap.Entries)
    requires StdMap.Sorted(m)
    ensures StdMap.Sorted(r)
  {
    match StdMap.Get(m, key)
    case None => StdMap.Insert(m, key, [x])
    case Some(l) => if x in l then m else StdMap.Assign(m, key, l + [x])
  }

  /** The list under the key grows by the value when it lacks it; every
      other list is unchanged. */
  lemma AddOnceGetOr(m: StdMap.Entries, key: string, x: string, k: string)
    requires StdMap.Sorted(m)
    ensures StdMap.GetOr(AddOnce(m, key, x), k) ==
            if k == key && !StdMap.Holds(m, key, x) then StdMap.GetOr(m, key) + [x] else StdMap.GetOr(m, k)
  {
    StdMap.GetAfterInsert(m, key, [x]);
    StdMap.GetAfterAssign(m, key, StdMap.GetOr(m, key) + [x], k);
    if k != key {
      StdMap.GetAfterInsertOther(m, key, [x], k);
    }
  }

  /** Appending a value the list lacks keeps it free of repetitions. */
  lemma DistinctSnoc(l: seq<string>, x: string)
    requires Seqs.Distinct(l) && x !in l
    ensures Seqs.Distinct(l + [x])
  {
    forall i, j | 0 <= i < j < |l + [x]| ensures (l + [x])[i] != (l + [x])[j] {
      assert (l + [x])[i] == l[i];
      if j == |l| {
        assert (l + [x])[j] == x;
      } else {
        assert (l + [x])[j] == l[j];
      }
    }
  }

  /** No list of the map holds a value twice. */
  ghost predicate NoRepeats(m: StdMap.Entries) {
    forall k :: Seqs.Distinct(StdMap.GetOr(m, k))
  }

  /** AddOnce never creates a repetition. */
  lemma AddOnceKeepsNoRepeats(m: StdMap.Entries, key: string, x: string)
    requires StdMap.Sorted(m) && NoRepeats(m)
    ensures NoRepeats(AddOnce(m, key, x))
  {
    forall k ensures Seqs.Distinct(StdMap.GetOr(AddOnce(m, key, x), k)) {
      AddOnceGetOr(m, key, x, k);
      var l := StdMap.GetOr(m, k);
      assert Seqs.Distinct(l);
      if k == key && !StdMap.Holds(m, key, x) {
        DistinctSnoc(l, x);
      }
    }
  }

  /** addSingleSystematic: the variable must be a nominal name; each map
      gets the pair once, and the variable joins the branches when new. */
  function AddSingleSystematic(r: Replacer, variable: string, syst: string): (res: Result<Replacer>)
    requires Valid(r)
    ensures res.Fail? <==> !Contains(variable, Nominal)
    ensures res.Ok? ==> Valid(res.value) && BranchExists(res.value, variable)
    ensures res.Ok? ==> Impacts(res.value, syst, variable) && Affects(res.value, variable, syst)
    ensures res.Ok? ==> forall b :: BranchExists(r, b) ==> BranchExists(res.value, b)
  {
    if !Contains(variable, Nominal) then Fail(InvalidValue("Variable " + variable + " does not contain NOSYS"))
    else
      var affectedBy := AddOnce(r.affectedBy, variable, syst);
      var impacts := AddOnce(r.impacts, syst, variable);
      AddOnceGetOr(r.affectedBy, variable, syst, variable);
      AddOnceGetOr(r.impacts, syst, variable, syst);
      AddOnceKeepsNominal(r.impacts, syst, variable);
      var branches := if variable in r.allBranches then r.allBranches else r.allBranches + [variable];
      Ok(Replacer(branches, impacts, affectedBy, r.systematics))
  }

  lemma AddOnceKeepsNominal(impacts: StdMap.Entries, s: string, variable: string)
    requires StdMap.Sorted(impacts) && NominalLists(impacts) && Contains(variable, Nominal)
    ensures NominalLists(AddOnce(impacts, s, variable))
  {
    forall t, b | StdMap.Holds(AddOnce(impacts, s, variable), t, b) ensures Contains(b, Nominal) {
      AddOnceGetOr(impacts, s, variable, t);
      if b != variable {
        assert StdMap.Holds(impacts, t, b);
      }
    }
  }

  /** addSingleSystematic never puts a value twice in a list, and keeps the
      maps inverse to each other. */
  lemma AddSingleSystematicSpec(r: Replacer, variable: string, syst: string)
    requires Valid(r) && AddSingleSystematic(r, variable, syst).Ok?
    ensures NoRepeats(r.impacts) && NoRepeats(r.affectedBy) ==>
      NoRepeats(AddSingleSystematic(r, variable, syst).value.impacts) &&
      NoRepeats(AddSingleSystematic(r, variable, syst).value.affectedBy)
    ensures Consistent(r) ==> Consistent(AddSingleSystematic(r, variable, syst).value)
  {
    var r2 := AddSingleSystematic(r, variable, syst).value;
    if NoRepeats(r.impacts) && NoRepeats(r.affectedBy) {
      AddOnceKeepsNoRepeats(r.impacts, syst, variable);
      AddOnceKeepsNoRepeats(r.affectedBy, variable, syst);
    }
    if Consistent(r) {
      forall s, b ensures StdMap.Holds(r2.impacts, s, b) <==> StdMap.Holds(r2.affectedBy, b, s) {
        AddOnceGetOr(r.impacts, syst, variable, s);
        AddOnceGetOr(r.affectedBy, variable, syst, b);
        assert StdMap.Holds(r.affectedBy, b, s) <==> StdMap.Holds(r.impacts, s, b);
      }
    }
  }

  // ---------------------------------------------------------------------
  // updateVariableAndEffectiveSystematics

  /** The first loop of the update: the variable removed from the list of
      every old systematic that is no longer given. */
  function Detach(m: StdMap.Entries, variable: string, olds: seq<string>, systs: seq<string>): (r: StdMap.Entries)
    requires StdMap.Sorted(m)
    ensures StdMap.Sorted(r)
    decreases |olds|
  {
    if |olds| == 0 then m
    else
      var m1 := Detach(m, variable, olds[..|olds| - 1], systs);
      var s := olds[|olds| - 1];
      if s in systs then m1 else StdMap.Assign(m1, s, Seqs.Filter(StdMap.GetOr(m1, s), b => b != variable))
  }

  lemma {:induction false} DetachHolds(m: StdMap.Entries, variable: string, olds: seq<string>, systs: seq<string>, k: string, y: string)
    requires StdMap.Sorted(m)
    ensures StdMap.Holds(Detach(m, variable, olds, systs), k, y) <==>
            StdMap.Holds(m, k, y) && !(y == variable && k in olds && k !in systs)
    decreases |olds|
  {
    if |olds| > 0 {
      var front := olds[..|olds| - 1];
      var s := olds[|olds| - 1];
      assert olds == front + [s];
      DetachHolds(m, variable, front, systs, k, y);
      var m1 := Detach(m, variable, front, systs);
      if s !in systs {
        StdMap.HoldsAfterAssign(m1, s, Seqs.Filter(StdMap.GetOr(m1, s), b => b != variable), k, y);
      }
    }
  }

  /** The second loop of the update: the variable appended to the list of
      every given systematic that was not an old one. */
  function AttachNew(m: StdMap.Entries, variable: string, systs: seq<string>, olds: seq<string>): (r: StdMap.Entries)
    requires StdMap.Sorted(m)
    ensures StdMap.Sorted(r)
    decreases |systs|
  {
    if |systs| == 0 then m
    else
      var m1 := AttachNew(m, variable, systs[..|systs| - 1], olds);
      var s := systs[|systs| - 1];
      if s in olds then m1 else StdMap.PushBack(m1, s, variable)
  }

  lemma {:induction false} AttachNewHolds(m: StdMap.Entries, variable: string, systs: seq<string>, olds: seq<string>, k: string, y: string)
    requires StdMap.Sorted(m)
    ensures StdMap.Holds(AttachNew(m, variable, systs, olds), k, y) <==>
            StdMap.Holds(m, k, y) || (y == variable && k in systs && k !in olds)
    decreases |systs|
  {
    if |systs| > 0 {
      var front := systs[..|systs| - 1];
      var s := systs[|systs| - 1];
      assert systs == front + [s];
      AttachNewHolds(m, variable, front, olds, k, y);
      if s !in olds {
        StdMap.HoldsAfterPushBack(AttachNew(m, variable, front, olds), s, variable, k, y);
      }
    }
  }

  /** The systematic map after both loops of the update. */
  function Reattach(impacts: StdMap.Entries, variable: string, olds: seq<string>, systs: seq<string>): (r: StdMap.Entries)
    requires StdMap.Sorted(impacts)
    ensures StdMap.Sorted(r)
  {
    AttachNew(Detach(impacts, variable, olds, systs), variable, systs, olds)
  }

  lemma ReattachHolds(impacts: StdMap.Entries, variable: string, olds: seq<string>, systs: seq<string>, k: string, y: string)
    requires StdMap.Sorted(impacts)
    ensures StdMap.Holds(Reattach(impacts, variable, olds, systs), k, y) <==>
            if y == variable then
              (StdMap.Holds(impacts, k, y) && (k !in olds || k in systs)) || (k in systs && k !in olds)
            else StdMap.Holds(impacts, k, y)
  {
    DetachHolds(impacts, variable, olds, systs, k, y);
    AttachNewHolds(Detach(impacts, variable, olds, systs), variable, systs, olds, k, y);
  }

  lemma ReattachKeepsNominal(impacts: StdMap.Entries, variable: string, olds: seq<string>, systs: seq<string>)
    requires StdMap.Sorted(impacts) && NominalLists(impacts) && Contains(variable, Nominal)
    ensures NominalLists(Reattach(impacts, variable, olds, systs))
  {
    forall t, b | StdMap.Holds(Reattach(impacts, variable, olds, systs), t, b) ensures Contains(b, Nominal) {
      ReattachHolds(impacts, variable, olds, systs, t, b);
      if b != variable {
        assert StdMap.Holds(impacts, t, b);
      }
    }
  }

  /** updateVariableAndEffectiveSystematics: an unknown variable is added
      as by addVariableAndEffectiveSystematics; a known one must be a
      nominal name, and its list becomes the given systematics. */
  function UpdateVariable(r: Replacer, variable: string, systs: seq<string>): (res: Result<Replacer>)
    requires Valid(r)
    ensures !BranchExists(r, variable) ==> res == AddVariable(r, variable, systs)
    ensures BranchExists(r, variable) ==> (res.Fail? <==> !Contains(variable, Nominal))
    ensures res.Ok? ==> Valid(res.value) && BranchExists(res.value, variable)
    ensures res.Ok? && (BranchExists(r, variable) || variable !in StdMap.Keys(r.affectedBy)) ==>
      StdMap.Get(res.value.affectedBy, variable) == Some(systs)
  {
    if variable !in r.allBranches then AddVariable(r, variable, systs)
    else if !Contains(variable, Nominal) then Fail(InvalidValue("Variable " + variable + " does not contain NOSYS"))
    else
      var olds := StdMap.GetOr(r.affectedBy, variable);
      ReattachKeepsNominal(r.impacts, variable, olds, systs);
      StdMap.GetAfterAssign(r.affectedBy, variable, systs, variable);
      Ok(r.(impacts := Reattach(r.impacts, variable, olds, systs),
            affectedBy := StdMap.Assign(r.affectedBy, variable, systs)))
  }

  /** The update keeps the maps inverse to each other: afterwards the
      systematics listing the variable are exactly the given ones. */
  lemma UpdateVariableKeepsConsistent(r: Replacer, variable: string, systs: seq<string>)
    requires Valid(r) && Consistent(r)
    requires UpdateVariable(r, variable, systs).Ok?
    requires BranchExists(r, variable) || variable !in StdMap.Keys(r.affectedBy)
    ensures Consistent(UpdateVariable(r, variable, systs).value)
    ensures forall s :: Impacts(UpdateVariable(r, variable, systs).value, s, variable) <==> s in systs
  {
    var r2 := UpdateVariable(r, variable, systs).value;
    if !BranchExists(r, variable) {
      AddVariableKeepsConsistent(r, variable, systs);
      forall s ensures Impacts(r2, s, variable) <==> s in systs {
        StdMap.GetAfterInsert(r.affectedBy, variable, systs);
        assert Impacts(r2, s, variable) <==> Affects(r2, variable, s);
      }
    } else {
      var olds := StdMap.GetOr(r.affectedBy, variable);
      forall s, b ensures StdMap.Holds(r2.impacts, s, b) <==> StdMap.Holds(r2.affectedBy, b, s) {
        ReattachHolds(r.impacts, variable, olds, systs, s, b);
        StdMap.HoldsAfterAssign(r.affectedBy, variable, systs, b, s);
        assert StdMap.Holds(r.affectedBy, b, s) <==> StdMap.Holds(r.impacts, s, b);
      }
      forall s ensures Impacts(r2, s, variable) <==> s in systs {
        StdMap.HoldsAfterAssign(r.affectedBy, variable, systs, variable, s);
        assert Impacts(r2, s, variable) <==> Affects(r2, variable, s);
      }
    }
  }

  // ---------------------------------------------------------------------
  // isNominalBranch, nominalBranches, listOfVariablesAffected

  /** The reference: a branch is nominal when it carries NOSYS or contains
      none of the systematic names. */
  predicate NominalBranch(r: Replacer, branch: string) {
    Contains(branch, Nominal) || forall k :: 0 <= k < |r.systematics| ==> !Contains(branch, r.systematics[k])
  }

  /** isSystematicVariation: some systematic name occurs in the branch. */
  method IsSystematicVariation(r: Replacer, branch: string) returns (b: bool)
    ensures b <==> exists k :: 0 <= k < |r.systematics| && Contains(branch, r.systematics[k])
  {
    var i := 0;
    while i < |r.systematics|
      invariant 0 <= i <= |r.systematics|
      invariant forall k :: 0 <= k < i ==> !Contains(branch, r.systematics[k])
    {
      if Contains(branch, r.systematics[i]) {
        return true;
      }
      i := i + 1;
    }
    return false;
  }

  /** isNominalBranch. */
  method IsNominalBranch(r: Replacer, branch: string) returns (b: bool)
    ensures b <==> NominalBranch(r, branch)
  {
    if Contains(branch, Nominal) {
      return true;
    }
    var variation := IsSystematicVariation(r, branch);
    return !variation;
  }

  /** nominalBranches: the nominal ones among the branches, in order. */
  method NominalBranches(r: Replacer, branches: seq<string>) returns (res: seq<string>)
    ensures res == Seqs.Filter(branches, b => NominalBranch(r, b))
  {
    ghost var p := b => NominalBranch(r, b);
    res := [];
    var i := 0;
    while i < |branches|
      invariant 0 <= i <= |branches|
      invariant res == Seqs.Filter(branches[..i], p)
    {
      var branch := branches[i];
      var keep := IsNominalBranch(r, branch);
      Seqs.FilterSnoc(branches, i, p);
      if keep {
        res := res + [branch];
      }
      i := i + 1;
    }
    assert branches[..i] == branches;
  }

  /** listOfVariablesAffected: the branches of the branch map, in key
      order, that occur in the input. */
  method VariablesAffected(r: Replacer, input: string) returns (res: seq<string>)
    ensures res == Seqs.Filter(StdMap.Keys(r.affectedBy), k => Contains(input, k))
  {
    var keys := StdMap.Keys(r.affectedBy);
    ghost var p := k => Contains(input, k);
    res := [];
    var i := 0;
    while i < |r.affectedBy|
      invariant 0 <= i <= |r.affectedBy|
      invariant res == Seqs.Filter(keys[..i], p)
    {
      var key := r.affectedBy[i].0;
      Seqs.FilterSnoc(keys, i, p);
      if Contains(input, key) {
        res := res + [key];
      }
      i := i + 1;
    }
    assert keys[..i] == keys;
  }
}

=== FILE: trex_names.dfy ===
/** The systematic blocks the TRExFitter export writes (TrexSettingsGetter):
    the name of a systematic declared in the configuration, derived from
    its up and down variations, and the systematics found automatically
    from the histogram folders of the output files. A block is an ordered
    TRExFitter option mapping, modelled like a Python dict. */
module TrexNames {
  import opened Wrappers
  import opened Values
  import Seqs
  import StringOps

  // ---------------------------------------------------------------------
  // Names of configured systematics

  /** get_strings_common_part: the characters the two strings share up to
      their first difference. When no difference is found within the
      shorter string (one is a prefix of the other, equal strings
      included) the loop ends without a return and the result is None. */
  function CommonPart(a: string, b: string): (r: Option<string>)
    ensures r.Some? ==>
      |r.value| < |a| && |r.value| < |b| && r.value == a[..|r.value|] && r.value == b[..|r.value|]
      && a[|r.value|] != b[|r.value|]
    decreases |a|
  {
    if |a| == 0 || |b| == 0 then None
    else if a[0] != b[0] then Some("")
    else
      match CommonPart(a[1..], b[1..])
      case None => None
      case Some(p) => Some([a[0]] + p)
  }

  /** One string is a prefix of the other. */
  predicate PrefixRelated(a: string, b: string) {
    (|a| <= |b| && a == b[..|a|]) || (|b| <= |a| && b == a[..|b|])
  }

  /** The common part is missing exactly when one string is a prefix of the
      other. */
  lemma {:induction false} CommonPartNone(a: string, b: string)
    ensures CommonPart(a, b).None? <==> PrefixRelated(a, b)
    decreases |a|
  {
    if |a| > 0 && |b| > 0 {
      if a[0] == b[0] {
        CommonPartNone(a[1..], b[1..]);
        assert a == [a[0]] + a[1..] && b == [b[0]] + b[1..];
        if PrefixRelated(a[1..], b[1..]) {
          assert PrefixRelated(a, b);
        }
        if PrefixRelated(a, b) {
          if |a| <= |b| {
            assert a[1..] == b[1..][..|a[1..]|];
          } else {
            assert b[1..] == a[1..][..|b[1..]|];
          }
        }
      } else {
        assert a[..1] != b[..1];
      }
    }
  }

  /** Any common prefix is at most as long as the common part: it is the
      longest one. */
  lemma CommonPartIsLongest(a: string, b: string, p: string)
    requires CommonPart(a, b).Some?
    requires |p| <= |a| && |p| <= |b| && p == a[..|p|] && p == b[..|p|]
    ensures |p| <= |CommonPart(a, b).value|
  {
    var c := CommonPart(a, b).value;
    assert forall i :: 0 <= i < |p| ==> a[i] == p[i] == b[i];
  }

  /** Two variations that share a stem and then differ have the stem as
      their common part. */
  lemma {:induction false} CommonPartOfStem(stem: string, x: string, y: string)
    requires |x| > 0 && |y| > 0 && x[0] != y[0]
    ensures CommonPart(stem + x, stem + y) == Some(stem)
    decreases |stem|
  {
    if |stem| == 0 {
      assert stem + x == x && stem + y == y;
    } else {
      assert (stem + x)[1..] == stem[1..] + x && (stem + y)[1..] == stem[1..] + y;
      CommonPartOfStem(stem[1..], x, y);
      assert [stem[0]] + stem[1..] == stem;
    }
  }

  /** The name a configured systematic gets in the export: the name of its
      non-empty variation, or, with both variations, their common part when
      it is non-empty; then underscores stripped off both ends. */
  function ConfigSystematicName(up: string, down: string): (r: string)
    ensures |r| > 0 ==> r[0] != '_' && r[|r| - 1] != '_'
  {
    StringOps.Strip(UnstrippedName(up, down), {'_'})
  }

  /** The name before the underscores are stripped. */
  function UnstrippedName(up: string, down: string): string {
    var nonEmpty := if up != "" then up else down;
    var common := if up != "" && down != "" then CommonPart(up, down) else None;
    if common.Some? && common.value != "" then common.value else nonEmpty
  }

  /** "X_up" and "X_down" give the systematic name "X" (for an X that
      neither starts nor ends with an underscore). */
  lemma UpDownName(stem: string)
    requires |stem| > 0 && stem[0] != '_' && stem[|stem| - 1] != '_'
    ensures ConfigSystematicName(stem + "_up", stem + "_down") == stem
  {
    var s := stem + "_";
    CommonPartOfStem(s, "up", "down");
    assert s + "up" == stem + "_up" && s + "down" == stem + "_down";
    NamedAfterCommonPart(stem + "_up", stem + "_down", s);
    StripOneUnderscore(stem);
  }

  /** Two variations with a non-empty common part are named after it. */
  lemma NamedAfterCommonPart(up: string, down: string, common: string)
    requires up != "" && down != "" && common != "" && CommonPart(up, down) == Some(common)
    ensures ConfigSystematicName(up, down) == StringOps.Strip(common, {'_'})
  {
  }

  /** One trailing underscore stripped off a stem that has none at its
      ends. */
  lemma StripOneUnderscore(stem: string)
    requires |stem| > 0 && stem[0] != '_' && stem[|stem| - 1] != '_'
    ensures StringOps.Strip(stem + "_", {'_'}) == stem
  {
    var s := stem + "_";
    assert StringOps.StripLeft(s, {'_'}) == s;
    assert s[..|s| - 1] == stem;
    assert StringOps.StripRight(stem, {'_'}) == stem;
  }

  /** A one-sided systematic is named after its variation. */
  lemma OneSidedName(up: string)
    requires |up| > 0 && up[0] != '_' && up[|up| - 1] != '_'
    ensures ConfigSystematicName(up, "") == up
    ensures ConfigSystematicName("", up) == up
  {
    assert UnstrippedName(up, "") == up && UnstrippedName("", up) == up;
    StringOps.StripNothing(up, {'_'});
  }

  /** The region or sample choice of an export block: the selected names when
      they are at most half of all names, otherwise the names left out,
      and nothing when every name is selected. */
  datatype Choice = Everything | Only(names: seq<string>) | Except(names: seq<string>)

  /** The half rule of the export (regions of a configured systematic,
      samples of every systematic): as many selected names as there are
      names selects everything; more than half gives the complement; half
      or fewer keeps the list. */
  function ChooseNames(selected: seq<string>, all: seq<string>): (r: Choice)
    ensures |selected| == |all| <==> r.Everything?
    ensures r.Only? ==> r.names == selected && 2 * |selected| <= |all|
    ensures r.Except? ==> 2 * |selected| > |all| && Seqs.IsSubsequence(r.names, all)
                          && forall x :: x in r.names <==> x in all && x !in selected
  {
    if |selected| == |all| then Everything
    else if 2 * |selected| > |all| then Except(Seqs.Filter(all, x => x !in selected))
    else Only(selected)
  }

  /** Python's ",".join. */
  function CommaList(names: seq<string>): string {
    StringOps.Intercalate(",", names)
  }

  /** The TRExFitter title of a systematic: its name with every underscore
      replaced by a space. */
  function Title(name: string): (r: string)
    ensures |r| == |name|
    ensures forall k :: 0 <= k < |name| ==> r[k] == if name[k] == '_' then ' ' else name[k]
  {
    StringOps.ReplaceCharwise(name, "_", " ");
    StringOps.ReplaceAll(name, "_", " ")
  }

  /** A sample as the export sees it: its name, whether its systematics are
      found automatically, and the names of its systematics. */
  datatype ExportSample = ExportSample(name: string, automatic: bool, systematics: seq<string>)

  /** The samples a configured systematic is written for: those that list
      the variation and whose systematics are not automatic. */
  function VariationSamples(samples: seq<ExportSample>, variation: string): (r: seq<string>)
    ensures forall x :: x in r <==>
      exists k :: 0 <= k < |samples| && samples[k].name == x && !samples[k].automatic
                  && variation in samples[k].systematics
    decreases |samples|
  {
    if |samples| == 0 then []
    else
      var rest := VariationSamples(samples[1..], variation);
      assert forall k :: 1 <= k < |samples| ==> samples[k] == samples[1..][k - 1];
      if !samples[0].automatic && variation in samples[0].systematics then [samples[0].name] + rest else rest
  }

  /** The region options of a configured systematic: none when it is in
      every selected region, an exclusion list when it is in more than half
      (left out when nothing is excluded), the region list otherwise. */
  function RegionOptions(selected: seq<string>, all: seq<string>): (r: Block)
    ensures HasKey(r, "Regions") <==> 2 * |selected| <= |all| && |selected| != |all|
    ensures HasKey(r, "Regions") ==> Lookup(r, "Regions") == Some(Str(CommaList(selected)))
    ensures HasKey(r, "Exclude") ==> (2 * |selected| > |all| &&
      exists names :: Lookup(r, "Exclude") == Some(Str(CommaList(names)))
                      && forall x :: x in names <==> x in all && x !in selected)
    ensures forall k :: k != "Regions" && k != "Exclude" ==> !HasKey(r, k)
  {
    match ChooseNames(selected, all)
    case Everything => []
    case Except(names) => if |names| > 0 then [Entry("Exclude", Str(CommaList(names)))] else []
    case Only(names) => [Entry("Regions", Str(CommaList(names)))]
  }

  /** The block written for a configured systematic with variations `up`
      and `down` (either may be "", not both): its folders, title, type,
      symmetrisation and smoothing, its regions and its sample list (still
      a list; it is resolved later). */
  function ConfigSystematicBlock(up: string, down: string, regionsSelected: seq<string>, allRegions: seq<string>,
                                 samples: seq<ExportSample>): (string, Block)
  {
    var name := ConfigSystematicName(up, down);
    (name, Assemble(up, down, Title(name), if up != "" && down != "" then "TWOSIDED" else "ONESIDED",
                    RegionOptions(regionsSelected, allRegions),
                    StrList(VariationSamples(samples, if up != "" then up else down))))
  }

  /** The folders, the settings, the region options `o` and the sample
      list `v`, in this order. */
  function Assemble(up: string, down: string, title: string, symmetrisation: string, o: Block, v: Value): Block {
    Put(PutAll(Settings(Folders(up, down), title, symmetrisation), o), "Samples", v)
  }

  /** What a configured systematic's block holds: a folder for each
      non-empty variation, a histogram systematic titled after its name and
      two-sided exactly when both variations are given, the region options
      and the non-automatic samples that know its variation. */
  lemma ConfigSystematicBlockContents(up: string, down: string, regionsSelected: seq<string>, allRegions: seq<string>,
                                      samples: seq<ExportSample>)
    ensures var r := ConfigSystematicBlock(up, down, regionsSelected, allRegions, samples);
      && r.0 == ConfigSystematicName(up, down)
      && (HasKey(r.1, "HistoFolderNameUp") <==> up != "")
      && (up != "" ==> Lookup(r.1, "HistoFolderNameUp") == Some(Str(up)))
      && (HasKey(r.1, "HistoFolderNameDown") <==> down != "")
      && (down != "" ==> Lookup(r.1, "HistoFolderNameDown") == Some(Str(down)))
      && Lookup(r.1, "Symmetrisation") == Some(Str(if up != "" && down != "" then "TWOSIDED" else "ONESIDED"))
      && Lookup(r.1, "Title") == Some(Str(Title(r.0))) && Lookup(r.1, "Type") == Some(Str("HISTO"))
      && Lookup(r.1, "Samples") == Some(StrList(VariationSamples(samples, if up != "" then up else down)))
      && Lookup(r.1, "Regions") == Lookup(RegionOptions(regionsSelected, allRegions), "Regions")
      && Lookup(r.1, "Exclude") == Lookup(RegionOptions(regionsSelected, allRegions), "Exclude")
  {
    var o := RegionOptions(regionsSelected, allRegions);
    assert !HasKey(o, "HistoFolderNameUp") && !HasKey(o, "HistoFolderNameDown") && !HasKey(o, "Samples");
    assert !HasKey(o, "Title") && !HasKey(o, "Type") && !HasKey(o, "Symmetrisation");
    var title := Title(ConfigSystematicName(up, down));
    var sym := if up != "" && down != "" then "TWOSIDED" else "ONESIDED";
    var v := StrList(VariationSamples(samples, if up != "" then up else down));
    AssembledFolders(up, down, title, sym, o, v);
    AssembledSettings(up, down, title, sym, o, v);
    AssembledRegions(up, down, title, sym, o, v);
  }

  /** An assembled block keeps its folders. */
  lemma AssembledFolders(up: string, down: string, title: string, sym: string, o: Block, v: Value)
    requires !HasKey(o, "HistoFolderNameUp") && !HasKey(o, "HistoFolderNameDown")
    ensures var r := Assemble(up, down, title, sym, o, v);
      && (HasKey(r, "HistoFolderNameUp") <==> up != "")
      && (up != "" ==> Lookup(r, "HistoFolderNameUp") == Some(Str(up)))
      && (HasKey(r, "HistoFolderNameDown") <==> down != "")
      && (down != "" ==> Lookup(r, "HistoFolderNameDown") == Some(Str(down)))
  {
    var folders := Folders(up, down);
    AssembledKeeps(folders, title, sym, o, v, "HistoFolderNameUp");
    AssembledKeeps(folders, title, sym, o, v, "HistoFolderNameDown");
  }

  /** A key that only the folders may hold passes through the assembly. */
  lemma AssembledKeeps(folders: Block, title: string, sym: string, o: Block, v: Value, k: string)
    requires !HasKey(o, k) && k != "Samples"
    requires k != "Title" && k != "Type" && k != "Symmetrisation" && k != "Smoothing"
    ensures Lookup(Put(PutAll(Settings(folders, title, sym), o), "Samples", v), k) == Lookup(folders, k)
  {
  }

  /** An assembled block keeps its settings. */
  lemma AssembledSettings(up: string, down: string, title: string, sym: string, o: Block, v: Value)
    requires !HasKey(o, "Title") && !HasKey(o, "Type") && !HasKey(o, "Symmetrisation")
    ensures var r := Assemble(up, down, title, sym, o, v);
      && Lookup(r, "Symmetrisation") == Some(Str(sym))
      && Lookup(r, "Title") == Some(Str(title)) && Lookup(r, "Type") == Some(Str("HISTO"))
  {
    var s := Settings(Folders(up, down), title, sym);
    assert |"Symmetrisation"| != |"Samples"| && |"Title"| != |"Samples"| && |"Type"| != |"Samples"|;
    SettingPassesThrough(s, o, v, "Symmetrisation");
    SettingPassesThrough(s, o, v, "Title");
    SettingPassesThrough(s, o, v, "Type");
  }

  /** A key the region options and the sample list leave alone keeps the
      value the settings give it. */
  lemma SettingPassesThrough(s: Block, o: Block, v: Value, k: string)
    requires !HasKey(o, k) && k != "Samples"
    ensures Lookup(Put(PutAll(s, o), "Samples", v), k) == Lookup(s, k)
  {
  }

  /** An assembled block takes its region options over. */
  lemma AssembledRegions(up: string, down: string, title: string, sym: string, o: Block, v: Value)
    requires |o| <= 1
    ensures var r := Assemble(up, down, title, sym, o, v);
      && Lookup(r, "Regions") == Lookup(o, "Regions")
      && Lookup(r, "Exclude") == Lookup(o, "Exclude")
  {
    var folders := Folders(up, down);
    assert !HasKey(folders, "Regions") && !HasKey(folders, "Exclude");
    AssembledOption(folders, title, sym, o, v, "Regions");
    AssembledOption(folders, title, sym, o, v, "Exclude");
  }

  /** A key that the folders and settings lack comes from the region
      options. */
  lemma AssembledOption(folders: Block, title: string, sym: string, o: Block, v: Value, k: string)
    requires |o| <= 1 && !HasKey(folders, k) && k != "Samples"
    requires k != "Title" && k != "Type" && k != "Symmetrisation" && k != "Smoothing"
    ensures Lookup(Put(PutAll(Settings(folders, title, sym), o), "Samples", v), k) == Lookup(o, k)
  {
    PutAllKnown(Settings(folders, title, sym), o, k);
  }

  /** A block of at most one entry put into `b`. */
  lemma PutAllKnown(b: Block, o: Block, k: string)
    requires |o| <= 1 && !HasKey(b, k)
    ensures Lookup(PutAll(b, o), k) == Lookup(o, k)
  {
    if HasKey(o, k) {
      PutAllLookup(b, o, k);
    }
  }

  /** The folders of a configured systematic: the non-empty variations. */
  function Folders(up: string, down: string): (r: Block)
    ensures HasKey(r, "HistoFolderNameUp") <==> up != ""
    ensures up != "" ==> Lookup(r, "HistoFolderNameUp") == Some(Str(up))
    ensures HasKey(r, "HistoFolderNameDown") <==> down != ""
    ensures down != "" ==> Lookup(r, "HistoFolderNameDown") == Some(Str(down))
    ensures forall k :: k != "HistoFolderNameUp" && k != "HistoFolderNameDown" ==> !HasKey(r, k)
  {
    var withUp := if up != "" then Put([], "HistoFolderNameUp", Str(up)) else [];
    if down != "" then Put(withUp, "HistoFolderNameDown", Str(down)) else withUp
  }

  /** The settings every configured systematic gets after its folders. */
  function Settings(b: Block, title: string, symmetrisation: string): (r: Block)
    ensures Lookup(r, "Title") == Some(Str(title)) && Lookup(r, "Type") == Some(Str("HISTO"))
    ensures Lookup(r, "Symmetrisation") == Some(Str(symmetrisation)) && Lookup(r, "Smoothing") == Some(Int(40))
    ensures forall k :: k != "Title" && k != "Type" && k != "Symmetrisation" && k != "Smoothing" ==>
      Lookup(r, k) == Lookup(b, k)
  {
    var titled := Put(Put(b, "Title", Str(title)), "Type", Str("HISTO"));
    Put(Put(titled, "Symmetrisation", Str(symmetrisation)), "Smoothing", Int(40))
  }

  /** `b.update(more)`: every entry of `more` put in order. */
  function PutAll(b: Block, more: Block): (r: Block)
    ensures forall k :: !HasKey(more, k) ==> Lookup(r, k) == Lookup(b, k)
    decreases |more|
  {
    if |more| == 0 then b else PutAll(Put(b, more[0].key, more[0].val), more[1..])
  }

  /** With no key twice in `more`, its entries win. */
  lemma {:induction false} PutAllLookup(b: Block, more: Block, k: string)
    requires WellFormed(more) && HasKey(more, k)
    ensures Lookup(PutAll(b, more), k) == Lookup(more, k)
    decreases |more|
  {
    if more[0].key != k {
      assert WellFormed(more[1..]) by {
        assert forall i :: 0 <= i < |more| - 1 ==> Keys(more[1..])[i] == Keys(more)[i + 1];
      }
      PutAllLookup(Put(b, more[0].key, more[0].val), more[1..], k);
    } else {
      assert forall i :: 1 <= i < |more| ==> Keys(more)[i] != k by {
        assert Keys(more)[0] == k;
      }
      assert !HasKey(more[1..], k);
    }
  }

  // ---------------------------------------------------------------------
  // Automatic systematics

  /** The four folders of an automatic systematic. */
  datatype Folder = Up | Down | SubtractUp | SubtractDown

  /** The block option naming a folder. */
  function FolderKey(f: Folder): string {
    match f
    case Up => "HistoFolderNameUp"
    case Down => "HistoFolderNameDown"
    case SubtractUp => "HistoFolderSubtractNameUp"
    case SubtractDown => "HistoFolderSubtractNameDown"
  }

  /** The ending of a histogram folder that holds a folder of a systematic. */
  function Suffix(f: Folder): string {
    match f
    case Up => "__1up"
    case Down => "__1down"
    case SubtractUp => "_PseudoData__1up"
    case SubtractDown => "_PseudoData__1down"
  }

  /** What a histogram folder name says: a generator systematic (skipped),
      one folder of the systematic `base`, or a systematic of its own. */
  datatype HistoKind = Generator | Variation(base: string, folder: Folder) | Plain

  /** The classification of _get_automatic_systematics_dict_systname_to_dict. */
  function Classify(h: string): (r: HistoKind)
    ensures r.Generator? <==> StringOps.StartsWith(h, "GEN_")
    ensures r.Variation? ==> h == r.base + Suffix(r.folder)
  {
    if StringOps.StartsWith(h, "GEN_") then Generator
    else if StringOps.EndsWith(h, "__1up") then
      if StringOps.EndsWith(h, "_PseudoData__1up") then Variation(h[..|h| - 16], SubtractUp)
      else Variation(h[..|h| - 5], Up)
    else if StringOps.EndsWith(h, "__1down") then
      if StringOps.EndsWith(h, "_PseudoData__1down") then Variation(h[..|h| - 18], SubtractDown)
      else Variation(h[..|h| - 7], Down)
    else Plain
  }

  /** The systematic a histogram folder belongs to, if any. */
  function BaseOf(h: string): (r: Option<string>)
    ensures r.None? <==> StringOps.StartsWith(h, "GEN_")
  {
    match Classify(h)
    case Generator => None
    case Variation(base, _) => Some(base)
    case Plain => Some(h)
  }

  /** A string ends with whatever was appended to it. */
  lemma EndsWithAppended(a: string, t: string)
    ensures StringOps.EndsWith(a + t, t)
  {
    assert (a + t)[|a|..] == t;
  }

  /** Appending the same tail keeps "ends with" as it was. */
  lemma EndsWithSharedTail(a: string, s: string, t: string)
    ensures StringOps.EndsWith(a + t, s + t) <==> StringOps.EndsWith(a, s)
  {
    if |s| <= |a| {
      assert (a + t)[|a + t| - |s + t|..] == a[|a| - |s|..] + t;
      if (a + t)[|a + t| - |s + t|..] == s + t {
        assert a[|a| - |s|..] == (a[|a| - |s|..] + t)[..|s|] == (s + t)[..|s|] == s;
      }
    }
  }

  /** Classification undoes the naming: a systematic's folder name is
      classified as that folder of that systematic. */
  lemma ClassifySuffixed(base: string, f: Folder)
    requires !StringOps.StartsWith(base + Suffix(f), "GEN_")
    requires f.Up? || f.Down? ==> !StringOps.EndsWith(base, "_PseudoData")
    ensures Classify(base + Suffix(f)) == Variation(base, f)
  {
    match f
    case Up => ClassifiedUp(base);
    case Down => ClassifiedDown(base);
    case SubtractUp => ClassifiedSubtractUp(base);
    case SubtractDown => ClassifiedSubtractDown(base);
  }

  /** An up folder whose systematic is not a pseudo-data subtraction. */
  lemma ClassifiedUp(base: string)
    requires !StringOps.StartsWith(base + "__1up", "GEN_")
    requires !StringOps.EndsWith(base, "_PseudoData")
    ensures Classify(base + "__1up") == Variation(base, Up)
  {
    var h := base + "__1up";
    EndsWithAppended(base, "__1up");
    EndsWithSharedTail(base, "_PseudoData", "__1up");
    assert "_PseudoData" + "__1up" == "_PseudoData__1up";
    assert h[..|h| - 5] == base;
  }

  /** A down folder whose systematic is not a pseudo-data subtraction. */
  lemma ClassifiedDown(base: string)
    requires !StringOps.StartsWith(base + "__1down", "GEN_")
    requires !StringOps.EndsWith(base, "_PseudoData")
    ensures Classify(base + "__1down") == Variation(base, Down)
  {
    var h := base + "__1down";
    assert !StringOps.EndsWith(h, "__1up") by { assert h[|h| - 1] == 'n'; }
    EndsWithAppended(base, "__1down");
    EndsWithSharedTail(base, "_PseudoData", "__1down");
    assert "_PseudoData" + "__1down" == "_PseudoData__1down";
    assert h[..|h| - 7] == base;
  }

  /** The up folder of a pseudo-data subtraction. */
  lemma ClassifiedSubtractUp(base: string)
    requires !StringOps.StartsWith(base + "_PseudoData__1up", "GEN_")
    ensures Classify(base + "_PseudoData__1up") == Variation(base, SubtractUp)
  {
    var h := base + "_PseudoData__1up";
    EndsWithAppended(base, "_PseudoData__1up");
    EndsWithSharedTail(base + "_PseudoData", "", "__1up");
    assert base + "_PseudoData" + "__1up" == h;
    assert h[..|h| - 16] == base;
  }

  /** The down folder of a pseudo-data subtraction. */
  lemma ClassifiedSubtractDown(base: string)
    requires !StringOps.StartsWith(base + "_PseudoData__1down", "GEN_")
    ensures Classify(base + "_PseudoData__1down") == Variation(base, SubtractDown)
  {
    var h := base + "_PseudoData__1down";
    assert !StringOps.EndsWith(h, "__1up") by { assert h[|h| - 1] == 'n'; }
    EndsWithAppended(base, "_PseudoData__1down");
    EndsWithSharedTail(base + "_PseudoData", "", "__1down");
    assert base + "_PseudoData" + "__1down" == h;
    assert h[..|h| - 18] == base;
  }

  /** A histogram folder and the samples in which it was found. */
  datatype Histo = Histo(name: string, samples: seq<string>)

  /** The folder a histogram fills in its systematic's block: its own
      folder, or the up folder for a systematic of its own. */
  function FolderOf(h: string): Folder
    requires BaseOf(h).Some?
  {
    match Classify(h)
    case Variation(_, f) => f
    case _ => Up
  }

  /** One histogram folder added: a folder of a known systematic sets that
      folder; a folder of a new systematic starts its block with the
      folder and the samples; a systematic of its own replaces any block of
      that name. */
  function AddHisto(result: Block, h: Histo): (r: Block)
  {
    match Classify(h.name)
    case Generator => result
    case Plain => Put(result, h.name, Dict([Entry("HistoFolderNameUp", Str(h.name)), Entry("Samples", StrList(h.samples))]))
    case Variation(base, f) =>
      match Lookup(result, base)
      case Some(Dict(d)) => Put(result, base, Dict(Put(d, FolderKey(f), Str(h.name))))
      case _ => Put(result, base, Dict([Entry(FolderKey(f), Str(h.name)), Entry("Samples", StrList(h.samples))]))
  }

  /** The automatic systematics, by name, from the histogram folders in
      the order the files list them. */
  function AutomaticSystematics(histos: seq<Histo>): (r: Block)
    decreases |histos|
  {
    if |histos| == 0 then []
    else AddHisto(AutomaticSystematics(histos[..|histos| - 1]), histos[|histos| - 1])
  }

  /** The block of systematic `x` is one the histograms account for: every
      folder it names is a histogram of `x` that fills that folder, and its
      samples are those of a histogram of `x`. */
  ghost predicate Accounted(histos: seq<Histo>, x: string, d: Block) {
    (exists k :: 0 <= k < |histos| && BaseOf(histos[k].name) == Some(x)
                 && Lookup(d, "Samples") == Some(StrList(histos[k].samples)))
    && forall f: Folder :: HasKey(d, FolderKey(f)) ==>
         exists k :: 0 <= k < |histos| && BaseOf(histos[k].name) == Some(x) && FolderOf(histos[k].name) == f
                     && Lookup(d, FolderKey(f)) == Some(Str(histos[k].name))
  }

  /** What the automatic systematics hold: one block per systematic some
      histogram belongs to, each accounted for by the histograms. */
  ghost predicate Sound(histos: seq<Histo>, r: Block) {
    (forall x :: HasKey(r, x) <==> exists k :: 0 <= k < |histos| && BaseOf(histos[k].name) == Some(x))
    && forall x :: HasKey(r, x) ==> Lookup(r, x).value.Dict? && Accounted(histos, x, Lookup(r, x).value.entries)
  }

  /** A block accounted for by some histograms is accounted for by more. */
  lemma AccountedSnoc(histos: seq<Histo>, h: Histo, x: string, d: Block)
    requires Accounted(histos, x, d)
    ensures Accounted(histos + [h], x, d)
  {
    var longer := histos + [h];
    var k :| 0 <= k < |histos| && BaseOf(histos[k].name) == Some(x) && Lookup(d, "Samples") == Some(StrList(histos[k].samples));
    assert longer[k] == histos[k];
    forall f: Folder | HasKey(d, FolderKey(f))
      ensures exists j :: 0 <= j < |longer| && BaseOf(longer[j].name) == Some(x) && FolderOf(longer[j].name) == f
                          && Lookup(d, FolderKey(f)) == Some(Str(longer[j].name))
    {
      var j :| 0 <= j < |histos| && BaseOf(histos[j].name) == Some(x) && FolderOf(histos[j].name) == f
               && Lookup(d, FolderKey(f)) == Some(Str(histos[j].name));
      assert longer[j] == histos[j];
    }
  }

  /** The keys of the folders differ from "Samples" and from each other. */
  lemma FolderKeys()
    ensures forall f: Folder :: FolderKey(f) != "Samples"
    ensures forall f: Folder, g: Folder :: FolderKey(f) == FolderKey(g) ==> f == g
  {
  }

  /** One histogram more keeps the automatic systematics sound. */
  lemma AddHistoSound(histos: seq<Histo>, r: Block, h: Histo)
    requires Sound(histos, r)
    ensures Sound(histos + [h], AddHisto(r, h))
  {
    var longer := histos + [h];
    var r' := AddHisto(r, h);
    AddHistoKeys(histos, r, h);
    forall x | HasKey(r', x) ensures Lookup(r', x).value.Dict? && Accounted(longer, x, Lookup(r', x).value.entries) {
      if BaseOf(h.name) == Some(x) {
        NewBlockAccounted(histos, r, h, x);
      } else {
        FolderKeys();
        assert Lookup(r', x) == Lookup(r, x);
        AccountedSnoc(histos, h, x, Lookup(r, x).value.entries);
      }
    }
  }

  /** Adding a histogram adds its systematic, if any, to the names. */
  lemma AddHistoKeys(histos: seq<Histo>, r: Block, h: Histo)
    requires forall x :: HasKey(r, x) <==> exists k :: 0 <= k < |histos| && BaseOf(histos[k].name) == Some(x)
    ensures forall x :: HasKey(AddHisto(r, h), x) <==>
      exists k :: 0 <= k < |histos + [h]| && BaseOf((histos + [h])[k].name) == Some(x)
  {
    forall x ensures HasKey(AddHisto(r, h), x) <==>
      exists k :: 0 <= k < |histos + [h]| && BaseOf((histos + [h])[k].name) == Some(x)
    {
      AddHistoHasKey(r, h, x);
      SnocBases(histos, h, x);
    }
  }

  /** Adding a histogram adds the name of its systematic, if any. */
  lemma AddHistoHasKey(r: Block, h: Histo, x: string)
    ensures HasKey(AddHisto(r, h), x) <==> HasKey(r, x) || BaseOf(h.name) == Some(x)
  {
  }

  /** Some histogram of `histos + [h]` belongs to `x` exactly when some
      histogram of `histos` or `h` does. */
  lemma SnocBases(histos: seq<Histo>, h: Histo, x: string)
    ensures (exists k :: 0 <= k < |histos + [h]| && BaseOf((histos + [h])[k].name) == Some(x)) <==>
      (exists k :: 0 <= k < |histos| && BaseOf(histos[k].name) == Some(x)) || BaseOf(h.name) == Some(x)
  {
    var longer := histos + [h];
    assert longer[|histos|] == h;
    if exists k :: 0 <= k < |histos| && BaseOf(histos[k].name) == Some(x) {
      var k :| 0 <= k < |histos| && BaseOf(histos[k].name) == Some(x);
      assert longer[k] == histos[k];
    }
    if exists k :: 0 <= k < |longer| && BaseOf(longer[k].name) == Some(x) {
      var k :| 0 <= k < |longer| && BaseOf(longer[k].name) == Some(x);
      if k < |histos| {
        assert longer[k] == histos[k];
      }
    }
  }

  /** A block started by a histogram is accounted for. */
  lemma FreshBlockAccounted(histos: seq<Histo>, h: Histo, x: string)
    requires BaseOf(h.name) == Some(x)
    ensures Accounted(histos + [h], x, [Entry(FolderKey(FolderOf(h.name)), Str(h.name)), Entry("Samples", StrList(h.samples))])
  {
    var longer := histos + [h];
    var n := |histos|;
    var d := [Entry(FolderKey(FolderOf(h.name)), Str(h.name)), Entry("Samples", StrList(h.samples))];
    FolderKeys();
    assert longer[n] == h;
    assert Lookup(d, "Samples") == Some(StrList(h.samples));
    forall f: Folder | HasKey(d, FolderKey(f))
      ensures exists j :: 0 <= j < |longer| && BaseOf(longer[j].name) == Some(x) && FolderOf(longer[j].name) == f
                          && Lookup(d, FolderKey(f)) == Some(Str(longer[j].name))
    {
      assert f == FolderOf(h.name);
    }
  }

  /** A block a histogram of its systematic updates stays accounted for. */
  lemma UpdatedBlockAccounted(histos: seq<Histo>, h: Histo, x: string, d: Block)
    requires BaseOf(h.name) == Some(x) && Accounted(histos, x, d)
    ensures Accounted(histos + [h], x, Put(d, FolderKey(FolderOf(h.name)), Str(h.name)))
  {
    var longer := histos + [h];
    var n := |histos|;
    var d' := Put(d, FolderKey(FolderOf(h.name)), Str(h.name));
    FolderKeys();
    assert longer[n] == h;
    AccountedSnoc(histos, h, x, d);
    assert Lookup(d', "Samples") == Lookup(d, "Samples");
    forall f: Folder | HasKey(d', FolderKey(f))
      ensures exists j :: 0 <= j < |longer| && BaseOf(longer[j].name) == Some(x) && FolderOf(longer[j].name) == f
                          && Lookup(d', FolderKey(f)) == Some(Str(longer[j].name))
    {
      if f != FolderOf(h.name) {
        assert Lookup(d', FolderKey(f)) == Lookup(d, FolderKey(f));
      }
    }
  }

  /** The block of the histogram's own systematic after adding it. */
  lemma NewBlockAccounted(histos: seq<Histo>, r: Block, h: Histo, x: string)
    requires Sound(histos, r)
    requires BaseOf(h.name) == Some(x)
    ensures Lookup(AddHisto(r, h), x).Some? && Lookup(AddHisto(r, h), x).value.Dict?
    ensures Accounted(histos + [h], x, Lookup(AddHisto(r, h), x).value.entries)
  {
    match Classify(h.name)
    case Plain =>
      FreshBlockAccounted(histos, h, x);
    case Variation(base, f0) =>
      match Lookup(r, base)
      case Some(Dict(d)) =>
        UpdatedBlockAccounted(histos, h, x, d);
      case _ =>
        FreshBlockAccounted(histos, h, x);
  }

  /** The automatic systematics are sound: a block for exactly the
      systematics the histograms belong to, every folder and sample list
      taken from a histogram of that systematic. */
  lemma {:induction false} AutomaticSystematicsSound(histos: seq<Histo>)
    ensures Sound(histos, AutomaticSystematics(histos))
    decreases |histos|
  {
    if |histos| > 0 {
      var init := histos[..|histos| - 1];
      AutomaticSystematicsSound(init);
      AddHistoSound(init, AutomaticSystematics(init), histos[|histos| - 1]);
      Seqs.InitLast(histos);
    }
  }

  /** The last histogram of a systematic fills its folder: no later
      histogram of another systematic touches the block. */
  lemma {:induction false} LastHistoRecorded(histos: seq<Histo>, k: nat)
    requires k < |histos| && BaseOf(histos[k].name).Some?
    requires forall j :: k < j < |histos| ==> BaseOf(histos[j].name) != BaseOf(histos[k].name)
    ensures var x := BaseOf(histos[k].name).value;
      Lookup(AutomaticSystematics(histos), x).Some? && Lookup(AutomaticSystematics(histos), x).value.Dict?
      && Lookup(Lookup(AutomaticSystematics(histos), x).value.entries, FolderKey(FolderOf(histos[k].name)))
         == Some(Str(histos[k].name))
    decreases |histos|
  {
    var x := BaseOf(histos[k].name).value;
    var init := histos[..|histos| - 1];
    var last := histos[|histos| - 1];
    if k == |histos| - 1 {
      match Classify(last.name)
      case Plain =>
      case Variation(base, f) =>
        match Lookup(AutomaticSystematics(init), base)
        case Some(Dict(d)) =>
        case _ =>
    } else {
      assert init[k] == histos[k];
      forall j | k < j < |init| ensures BaseOf(init[j].name) != BaseOf(init[k].name) {
        assert init[j] == histos[j];
      }
      LastHistoRecorded(init, k);
      assert BaseOf(last.name) != Some(x);
      assert Lookup(AutomaticSystematics(histos), x) == Lookup(AutomaticSystematics(init), x);
    }
  }

  /** get_automatic_systematics_blocks for one systematic: the title, the
      type HISTO, the symmetrisation (TWOSIDED exactly when both the up and
      the down folder are known) and smoothing 40 added. */
  function Decorate(name: string, d: Block): (r: Block)
    ensures Lookup(r, "Symmetrisation") ==
      Some(Str(if HasKey(d, "HistoFolderNameDown") && HasKey(d, "HistoFolderNameUp") then "TWOSIDED" else "ONESIDED"))
    ensures Lookup(r, "Title") == Some(Str(Title(name))) && Lookup(r, "Type") == Some(Str("HISTO"))
    ensures Lookup(r, "Smoothing") == Some(Int(40))
    ensures forall k :: k != "Title" && k != "Type" && k != "Symmetrisation" && k != "Smoothing" ==>
      Lookup(r, k) == Lookup(d, k)
  {
    var twoSided := HasKey(d, "HistoFolderNameDown") && HasKey(d, "HistoFolderNameUp");
    Settings(d, Title(name), if twoSided then "TWOSIDED" else "ONESIDED")
  }

  /** An automatic systematic's entry, decorated when it is a block. */
  function DecorateEntry(e: Entry): (r: Entry)
    ensures r.key == e.key
  {
    Entry(e.key, if e.val.Dict? then Dict(Decorate(e.key, e.val.entries)) else e.val)
  }

  /** Every automatic systematic decorated, in order. */
  function AutomaticBlocks(auto: Block): (r: Block)
    ensures |r| == |auto| && forall k :: 0 <= k < |r| ==> r[k] == DecorateEntry(auto[k])
  {
    seq(|auto|, k requires 0 <= k < |auto| => DecorateEntry(auto[k]))
  }

  /** Decoration keeps the automatic systematics' names and order. */
  lemma AutomaticBlocksKeys(auto: Block)
    ensures Keys(AutomaticBlocks(auto)) == Keys(auto)
  {
  }

  /** Each automatic systematic's block is its decorated block. */
  lemma {:induction false} AutomaticBlocksLookup(auto: Block, x: string, d: Block)
    requires Lookup(auto, x) == Some(Dict(d))
    ensures Lookup(AutomaticBlocks(auto), x) == Some(Dict(Decorate(x, d)))
    decreases |auto|
  {
    if auto[0].key != x {
      AutomaticBlocksLookup(auto[1..], x, d);
      AutomaticBlocksTail(auto);
    }
  }

  /** Decorating the tail is decorating the tail. */
  lemma AutomaticBlocksTail(auto: Block)
    requires |auto| > 0
    ensures AutomaticBlocks(auto)[1..] == AutomaticBlocks(auto[1..])
  {
  }
}

=== FILE: trex_settings.dfy ===
/** The systematics of the TRExFitter export once their blocks exist
    (TrexSettingsGetter): trimming comma lists, choosing between a sample
    list and its complement, selecting systematics by pattern, merging the
    automatic systematics into the configured ones, merging the
    TRExFitter-only blocks, and splitting a systematic between the inclusive
    and the unfolding samples. */
module TrexSettings {
  import opened Wrappers
  import opened Values
  import Seqs
  import StringOps
  import Regex
  import TrexNames

  /** A block of the export: its kind ("Systematic",
      "UnfoldingSystematic"), its name and its settings. */
  datatype Syst = Syst(kind: string, name: string, settings: Block)

  /** The names of some blocks, in order. */
  function Names(s: seq<Syst>): (r: seq<string>)
    ensures |r| == |s| && forall k :: 0 <= k < |s| ==> r[k] == s[k].name
  {
    seq(|s|, k requires 0 <= k < |s| => s[k].name)
  }

  // ---------------------------------------------------------------------
  // remove_items

  /** list.remove, tolerating absence: the first occurrence of `x` is
      dropped, and nothing when there is none. */
  function RemoveFirst(s: seq<string>, x: string): (r: seq<string>)
    ensures multiset(r) == multiset(s) - multiset{x}
    ensures x !in s ==> r == s
    decreases |s|
  {
    if |s| == 0 then []
    else if s[0] == x then
      assert s == [s[0]] + s[1..];
      s[1..]
    else
      assert s == [s[0]] + s[1..];
      [s[0]] + RemoveFirst(s[1..], x)
  }

  /** Every item removed in turn, each taking one occurrence with it. */
  function RemoveEach(s: seq<string>, items: seq<string>): (r: seq<string>)
    ensures multiset(r) == multiset(s) - multiset(items)
    decreases |items|
  {
    if |items| == 0 then s
    else
      assert items == [items[0]] + items[1..];
      RemoveEach(RemoveFirst(s, items[0]), items[1..])
  }

  /** In a sequence without repetitions every element counts once. */
  lemma {:induction false} DistinctCount(s: seq<string>, x: string)
    requires Seqs.Distinct(s)
    ensures multiset(s)[x] == if x in s then 1 else 0
    decreases |s|
  {
    if |s| > 0 {
      assert s == [s[0]] + s[1..];
      assert Seqs.Distinct(s[1..]);
      DistinctCount(s[1..], x);
      assert s[0] !in s[1..];
    }
  }

  /** From a sequence without repetitions, removing leaves exactly the
      elements that are not removed. */
  lemma RemoveEachDistinct(s: seq<string>, items: seq<string>, x: string)
    requires Seqs.Distinct(s)
    ensures x in RemoveEach(s, items) <==> x in s && x !in items
  {
    DistinctCount(s, x);
    assert x in RemoveEach(s, items) <==> multiset(RemoveEach(s, items))[x] > 0;
  }

  /** The items of a comma list as remove_items reads it: quotes stripped
      off both ends, then split at every comma. */
  function ListedItems(v: string): seq<string> {
    StringOps.PySplit(StringOps.Strip(v, {'\'', '"'}), ',')
  }

  /** remove_items: the items of `items` removed from the comma list under
      `key`, and the key deleted when nothing is left. An absent key, a
      null value or no items change nothing; any other value that is not a
      string stops the program (it has no strip). */
  function RemoveItems(d: Block, key: string, items: Option<seq<string>>): (r: Result<Block>)
    ensures !HasKey(d, key) || items.None? || Lookup(d, key) == Some(Null) ==> r == Ok(d)
    ensures r.Fail? <==> HasKey(d, key) && items.Some? && !Lookup(d, key).value.Str? && !Lookup(d, key).value.Null?
    ensures r.Ok? ==> forall k :: k != key ==> Lookup(r.value, k) == Lookup(d, k)
  {
    if !HasKey(d, key) then Ok(d)
    else
      match Lookup(d, key).value
      case Null => Ok(d)
      case Str(v) =>
        if items.None? then Ok(d)
        else
          var left := RemoveEach(ListedItems(v), items.value);
          if |left| > 0 then Ok(Put(d, key, Str(StringOps.Intercalate(",", left))))
          else Ok(Remove(d, key))
      case _ => if items.None? then Ok(d) else Fail(WrongType(key))
  }

  /** What remove_items leaves under a comma list: split again, the listed
      items minus the removed ones, counted with multiplicity; the key is
      deleted exactly when every listed item was removed. */
  lemma RemoveItemsLeaves(d: Block, key: string, v: string, items: seq<string>)
    requires Lookup(d, key) == Some(Str(v))
    ensures RemoveItems(d, key, Some(items)).Ok?
    ensures var r := RemoveItems(d, key, Some(items)).value;
      && (!HasKey(r, key) <==> multiset(ListedItems(v)) <= multiset(items))
      && (HasKey(r, key) ==>
            (exists s :: Lookup(r, key) == Some(Str(s))
                         && multiset(StringOps.PySplit(s, ',')) == multiset(ListedItems(v)) - multiset(items)))
  {
    var listed := ListedItems(v);
    var left := RemoveEach(listed, items);
    RemoveItemsOfList(d, key, v, items);
    if |left| > 0 {
      StringOps.PySplitPiecesFree(StringOps.Strip(v, {'\'', '"'}), ',');
      SomethingLeft(d, key, listed, items, left);
    } else {
      NothingLeft(d, key, listed, items, left);
    }
  }

  /** remove_items on a comma list: the items left joined again, or the
      key deleted when none is left. */
  lemma RemoveItemsOfList(d: Block, key: string, v: string, items: seq<string>)
    requires Lookup(d, key) == Some(Str(v))
    ensures var left := RemoveEach(ListedItems(v), items);
      RemoveItems(d, key, Some(items))
        == Ok(if |left| > 0 then Put(d, key, Str(StringOps.Intercalate(",", left))) else Remove(d, key))
  {
  }

  /** Items left over, joined by commas, split back into themselves. */
  lemma SomethingLeft(d: Block, key: string, listed: seq<string>, items: seq<string>, left: seq<string>)
    requires multiset(left) == multiset(listed) - multiset(items) && |left| > 0
    requires forall p :: p in listed ==> ',' !in p
    ensures var r := Put(d, key, Str(StringOps.Intercalate(",", left)));
      HasKey(r, key) && !(multiset(listed) <= multiset(items))
      && exists s :: Lookup(r, key) == Some(Str(s))
                     && multiset(StringOps.PySplit(s, ',')) == multiset(listed) - multiset(items)
  {
    forall p | p in left ensures ',' !in p {
      assert multiset(left)[p] > 0;
    }
    StringOps.PySplitIntercalate(left, ',');
    assert [','] == ",";
    assert multiset(left) != multiset{};
    var s := StringOps.Intercalate(",", left);
    assert Lookup(Put(d, key, Str(s)), key) == Some(Str(s));
  }

  /** No item left: the key is gone and every listed item was removed. */
  lemma NothingLeft(d: Block, key: string, listed: seq<string>, items: seq<string>, left: seq<string>)
    requires multiset(left) == multiset(listed) - multiset(items) && |left| == 0
    ensures !HasKey(Remove(d, key), key) && multiset(listed) <= multiset(items)
  {
    forall x | x in multiset(listed) ensures multiset(listed)[x] <= multiset(items)[x] {
      assert (multiset(listed) - multiset(items))[x] == 0;
    }
  }

  // ---------------------------------------------------------------------
  // Sample lists and exclusions

  /** The sample list of a systematic while the export merges them: a
      list of names, which must be there. */
  function SampleList(d: Block): (r: Result<seq<string>>)
    ensures r.Ok? <==> Lookup(d, "Samples").Some? && Lookup(d, "Samples").value.List?
                       && Strings(Lookup(d, "Samples").value.items).Some?
    ensures r.Ok? ==> Strings(Lookup(d, "Samples").value.items) == Some(r.value)
    ensures r.Fail? && !HasKey(d, "Samples") ==> r.error == MissingOption("Samples")
  {
    match Lookup(d, "Samples")
    case None => Fail(MissingOption("Samples"))
    case Some(v) =>
      if v.List? && Strings(v.items).Some? then Ok(Strings(v.items).value) else Fail(WrongType("Samples"))
  }

  /** _resolve_samples_list_and_excludes_for_systematics: a list of every
      MC sample is dropped; a list of more than half of them is replaced by
      the samples it leaves out, added to the Exclude list; a shorter list
      is written out joined by commas. */
  function ResolveSamples(d: Block, mc: seq<string>): (r: Result<Block>)
    ensures SampleList(d).Fail? ==> r == Fail(SampleList(d).error)
    ensures r.Ok? ==> SampleList(d).Ok?
    ensures r.Ok? ==> forall k :: k != "Samples" && k != "Exclude" ==> Lookup(r.value, k) == Lookup(d, k)
    ensures r.Ok? ==> (HasKey(r.value, "Samples") <==> 2 * |SampleList(d).value| <= |mc| && |SampleList(d).value| != |mc|)
    ensures r.Ok? && HasKey(r.value, "Samples") ==>
      Lookup(r.value, "Samples") == Some(Str(StringOps.Intercalate(",", SampleList(d).value)))
  {
    var samples :- SampleList(d);
    if |samples| == |mc| then Ok(Remove(d, "Samples"))
    else if 2 * |samples| > |mc| then
      var d1 :- AppendExcludes(d, Seqs.Filter(mc, x => x !in samples));
      Ok(Remove(d1, "Samples"))
    else Ok(Put(d, "Samples", Str(StringOps.Intercalate(",", samples))))
  }

  /** The excluded samples added to the Exclude list, after a comma when
      there is one already; nothing changes when none is excluded. */
  function AppendExcludes(d: Block, excluded: seq<string>): (r: Result<Block>)
    ensures r.Ok? ==> forall k :: k != "Exclude" ==> Lookup(r.value, k) == Lookup(d, k)
    ensures r.Fail? <==> |excluded| > 0 && HasKey(d, "Exclude") && !Lookup(d, "Exclude").value.Str?
  {
    if |excluded| == 0 then Ok(d)
    else
      match Lookup(d, "Exclude")
      case None => Ok(Put(d, "Exclude", Str(StringOps.Intercalate(",", excluded))))
      case Some(Str(e)) => Ok(Put(d, "Exclude", Str(e + "," + StringOps.Intercalate(",", excluded))))
      case Some(_) => Fail(WrongType("Exclude"))
  }

  /** A comma list under `key` split into its items; `default` when the
      value is absent or false, and a stop when it is some other true
      value (which has no split). */
  function CommaItems(d: Block, key: string, default: seq<string>): (r: Result<seq<string>>)
    ensures !HasKey(d, key) ==> r == Ok(default)
    ensures r.Fail? <==> HasKey(d, key) && Truthy(Lookup(d, key).value) && !Lookup(d, key).value.Str?
  {
    match Lookup(d, key)
    case None => Ok(default)
    case Some(v) =>
      if !Truthy(v) then Ok(default)
      else if v.Str? then Ok(StringOps.PySplit(v.s, ','))
      else Fail(WrongType(key))
  }

  /** The samples a systematic applies to, as the split reads its block:
      the Samples list (every MC sample when it is absent or empty), each
      item of the Exclude list taking one occurrence out. */
  function EffectiveSamples(d: Block, allMC: seq<string>): (r: Result<seq<string>>)
    ensures r.Ok? <==> CommaItems(d, "Samples", allMC).Ok? && CommaItems(d, "Exclude", []).Ok?
    ensures r.Ok? ==>
      multiset(r.value) == multiset(CommaItems(d, "Samples", allMC).value) - multiset(CommaItems(d, "Exclude", []).value)
  {
    var samples :- CommaItems(d, "Samples", allMC);
    var excludes :- CommaItems(d, "Exclude", []);
    Ok(RemoveEach(samples, excludes))
  }

  /** MC sample names as the export writes them: none twice, none empty,
      none with a comma. */
  predicate PlainNames(mc: seq<string>) {
    Seqs.Distinct(mc) && forall x :: x in mc ==> x != "" && ',' !in x
  }

  /** An Exclude list that names no MC sample (before the samples are
      resolved it lists regions), or none at all. */
  predicate ExcludesNoSample(d: Block, mc: seq<string>) {
    match Lookup(d, "Exclude")
    case None => true
    case Some(Str(e)) => forall x :: x in mc ==> x !in StringOps.PySplit(e, ',')
    case Some(_) => false
  }

  /** Resolving keeps the samples a systematic applies to: read back as the
      split reads it, the resolved block applies to exactly the listed
      samples, whichever of the three forms it takes. */
  lemma ResolveKeepsSamples(d: Block, mc: seq<string>, samples: seq<string>)
    requires SampleList(d) == Ok(samples) && |samples| > 0 && Seqs.Distinct(samples)
    requires PlainNames(mc) && forall x :: x in samples ==> x in mc
    requires ExcludesNoSample(d, mc)
    ensures ResolveSamples(d, mc).Ok?
    ensures EffectiveSamples(ResolveSamples(d, mc).value, mc).Ok?
    ensures forall x :: x in EffectiveSamples(ResolveSamples(d, mc).value, mc).value <==> x in samples
  {
    ExcludeItemsNoSample(d, mc);
    if |samples| == |mc| {
      AllListed(samples, mc);
      DroppedListKeepsSamples(d, mc, samples);
    } else if 2 * |samples| > |mc| {
      var excluded := Seqs.Filter(mc, x => x !in samples);
      if |excluded| == 0 {
        assert forall x :: x in mc ==> x in samples;
        DroppedListKeepsSamples(d, mc, samples);
      } else {
        ComplementKeepsSamples(d, mc, samples);
      }
    } else {
      JoinedListKeepsSamples(d, mc, samples);
    }
  }

  /** The items of an Exclude list that names no MC sample. */
  lemma ExcludeItemsNoSample(d: Block, mc: seq<string>)
    requires ExcludesNoSample(d, mc)
    ensures CommaItems(d, "Exclude", []).Ok?
    ensures forall x :: x in mc ==> x !in CommaItems(d, "Exclude", []).value
  {
  }

  /** A list without repetitions, inside `mc` and as long as it, lists every
      element of `mc`. */
  lemma AllListed(samples: seq<string>, mc: seq<string>)
    requires Seqs.Distinct(samples) && |samples| == |mc| && forall x :: x in samples ==> x in mc
    ensures forall x :: x in mc ==> x in samples
  {
    var listed := set x | x in samples;
    var all := set x | x in mc;
    SetCard(samples);
    SetCard(mc);
    forall y | y in mc ensures y in samples {
      if y !in samples {
        assert listed <= all - {y};
        SubsetCard(listed, all - {y});
        assert false;
      }
    }
  }

  /** The elements of a sequence are at most as many as its positions, and
      as many when none repeats. */
  lemma {:induction false} SetCard(s: seq<string>)
    ensures |set x | x in s| <= |s|
    ensures Seqs.Distinct(s) ==> |set x | x in s| == |s|
    decreases |s|
  {
    if |s| > 0 {
      SetCard(s[1..]);
      assert (set x | x in s) == {s[0]} + (set x | x in s[1..]);
      if Seqs.Distinct(s) {
        assert Seqs.Distinct(s[1..]);
        assert s[0] !in s[1..];
      }
    }
  }

  /** A subset is no larger. */
  lemma SubsetCard(a: set<string>, b: set<string>)
    requires a <= b
    ensures |a| <= |b|
  {
    assert b == a + (b - a);
  }

  /** Without its Samples list a block applies to every MC sample not
      excluded. */
  lemma DroppedListKeepsSamples(d: Block, mc: seq<string>, samples: seq<string>)
    requires PlainNames(mc) && ExcludesNoSample(d, mc) && forall x :: x in samples ==> x in mc
    requires forall x :: x in mc ==> x in samples
    ensures EffectiveSamples(Remove(d, "Samples"), mc).Ok?
    ensures forall x :: x in EffectiveSamples(Remove(d, "Samples"), mc).value <==> x in samples
  {
    var r := Remove(d, "Samples");
    assert Lookup(r, "Exclude") == Lookup(d, "Exclude");
    ExcludeItemsNoSample(d, mc);
    assert CommaItems(r, "Exclude", []) == CommaItems(d, "Exclude", []);
    forall x ensures x in EffectiveSamples(r, mc).value <==> x in samples {
      RemoveEachDistinct(mc, CommaItems(d, "Exclude", []).value, x);
    }
  }

  /** A Samples list joined by commas applies to the listed samples. */
  lemma JoinedListKeepsSamples(d: Block, mc: seq<string>, samples: seq<string>)
    requires PlainNames(mc) && ExcludesNoSample(d, mc) && forall x :: x in samples ==> x in mc
    requires |samples| > 0 && Seqs.Distinct(samples)
    ensures var r := Put(d, "Samples", Str(StringOps.Intercalate(",", samples)));
      EffectiveSamples(r, mc).Ok? && forall x :: x in EffectiveSamples(r, mc).value <==> x in samples
  {
    var joined := StringOps.Intercalate(",", samples);
    var r := Put(d, "Samples", Str(joined));
    assert [','] == ",";
    StringOps.PySplitIntercalate(samples, ',');
    assert samples[0] in mc && StringOps.PySplit("", ',') == [""];
    assert CommaItems(r, "Samples", mc) == Ok(samples);
    ExcludeItemsNoSample(d, mc);
    assert CommaItems(r, "Exclude", []) == CommaItems(d, "Exclude", []);
    forall x ensures x in EffectiveSamples(r, mc).value <==> x in samples {
      RemoveEachDistinct(samples, CommaItems(d, "Exclude", []).value, x);
    }
  }

  /** The MC samples left out, added to the Exclude list, exclude exactly
      the samples not listed. */
  lemma ComplementKeepsSamples(d: Block, mc: seq<string>, samples: seq<string>)
    requires PlainNames(mc) && ExcludesNoSample(d, mc) && forall x :: x in samples ==> x in mc
    requires |Seqs.Filter(mc, x => x !in samples)| > 0
    ensures AppendExcludes(d, Seqs.Filter(mc, x => x !in samples)).Ok?
    ensures var r := Remove(AppendExcludes(d, Seqs.Filter(mc, x => x !in samples)).value, "Samples");
      EffectiveSamples(r, mc).Ok? && forall x :: x in EffectiveSamples(r, mc).value <==> x in samples
  {
    var excluded := Seqs.Filter(mc, x => x !in samples);
    ComplementItems(d, mc, excluded);
    var r := Remove(AppendExcludes(d, excluded).value, "Samples");
    assert Lookup(r, "Exclude") == Lookup(AppendExcludes(d, excluded).value, "Exclude");
    var items := CommaItems(r, "Exclude", []).value;
    forall x ensures x in EffectiveSamples(r, mc).value <==> x in samples {
      RemoveEachDistinct(mc, items, x);
    }
  }

  /** The Exclude list with the excluded MC samples added names exactly
      those among the MC samples. */
  lemma ComplementItems(d: Block, mc: seq<string>, excluded: seq<string>)
    requires PlainNames(mc) && ExcludesNoSample(d, mc)
    requires |excluded| > 0 && forall x :: x in excluded ==> x in mc
    ensures AppendExcludes(d, excluded).Ok?
    ensures var items := CommaItems(AppendExcludes(d, excluded).value, "Exclude", []);
      items.Ok? && forall x :: x in mc ==> (x in items.value <==> x in excluded)
  {
    var joined := StringOps.Intercalate(",", excluded);
    assert [','] == ",";
    StringOps.PySplitIntercalate(excluded, ',');
    match Lookup(d, "Exclude")
    case None =>
      assert excluded[0] in mc && StringOps.PySplit("", ',') == [""];
      assert Lookup(AppendExcludes(d, excluded).value, "Exclude") == Some(Str(joined));
    case Some(Str(e)) =>
      StringOps.PySplitAppend(e, ',', joined);
      assert e + "," + joined == e + [','] + joined;
      assert Lookup(AppendExcludes(d, excluded).value, "Exclude") == Some(Str(e + "," + joined));
  }

  // ---------------------------------------------------------------------
  // is_excluded_syst

  /** The loop over patterns: does any of them match the whole name? */
  function AnyFullMatch(e: Regex.Engine, patterns: seq<string>, name: string): (r: bool)
    ensures r <==> Regex.FullMatchesAny(e, patterns, name)
    decreases |patterns|
  {
    if |patterns| == 0 then false
    else
      Regex.FullMatchesAnyCons(e, patterns, name);
      Regex.FullMatch(e, patterns[0], name) || AnyFullMatch(e, patterns[1..], name)
  }

  /** is_excluded_syst: with a non-empty selection a systematic is left out
      unless some selected pattern matches its whole name, and the
      exclusion patterns are not consulted; without one it is left out when
      some exclusion pattern matches its whole name. */
  function IsExcludedSyst(e: Regex.Engine, selected: seq<string>, excluded: seq<string>, name: string): (r: bool)
    ensures |selected| > 0 ==> (r <==> !Regex.FullMatchesAny(e, selected, name))
    ensures |selected| == 0 ==> (r <==> Regex.FullMatchesAny(e, excluded, name))
  {
    if |selected| > 0 then !AnyFullMatch(e, selected, name) else AnyFullMatch(e, excluded, name)
  }

  /** A selected systematic is kept whatever the exclusion patterns say. */
  lemma SelectionWins(e: Regex.Engine, selected: seq<string>, excluded: seq<string>, name: string, k: nat)
    requires k < |selected| && Regex.FullMatch(e, selected[k], name)
    ensures !IsExcludedSyst(e, selected, excluded, name)
  {
    assert Regex.FullMatchesAny(e, selected, name);
  }

  // ---------------------------------------------------------------------
  // Sorting by name

  /** No block comes after one with a greater name. */
  predicate SortedByName(s: seq<Syst>) {
    forall i, j :: 0 <= i < j < |s| ==> !StringOps.StringLess(s[j].name, s[i].name)
  }

  /** `s` put after every block whose name is not greater than its own, so
      that blocks of equal names keep their order. */
  function InsertByName(sorted: seq<Syst>, s: Syst): (r: seq<Syst>)
    ensures multiset(r) == multiset(sorted) + multiset{s}
    decreases |sorted|
  {
    if |sorted| == 0 then [s]
    else
      var last := sorted[|sorted| - 1];
      var init := sorted[..|sorted| - 1];
      assert sorted == init + [last];
      if StringOps.StringLess(s.name, last.name) then InsertByName(init, s) + [last]
      else sorted + [s]
  }

  /** Inserting into a sorted sequence keeps it sorted. */
  lemma {:induction false} InsertByNameSorted(sorted: seq<Syst>, s: Syst)
    requires SortedByName(sorted)
    ensures SortedByName(InsertByName(sorted, s))
    decreases |sorted|
  {
    if |sorted| > 0 {
      var last := sorted[|sorted| - 1];
      var init := sorted[..|sorted| - 1];
      var r := InsertByName(sorted, s);
      if StringOps.StringLess(s.name, last.name) {
        InsertByNameSorted(init, s);
        var front := InsertByName(init, s);
        StringOps.StringLessTotal(s.name, last.name);
        forall i | 0 <= i < |front| ensures !StringOps.StringLess(last.name, front[i].name) {
          assert front[i] in multiset(front);
          if front[i] != s {
            assert front[i] in init;
          }
        }
      } else {
        StringOps.StringLessIrreflexive(last.name);
        forall i | 0 <= i < |sorted| ensures !StringOps.StringLess(s.name, sorted[i].name) {
          NotLessTransitive(sorted[i].name, last.name, s.name);
        }
      }
    }
  }

  /** The order "not less" is transitive. */
  lemma NotLessTransitive(a: string, b: string, c: string)
    requires !StringOps.StringLess(b, a) && !StringOps.StringLess(c, b)
    ensures !StringOps.StringLess(c, a)
  {
    if StringOps.StringLess(c, a) {
      StringOps.StringLessTotal(a, b);
      StringOps.StringLessTotal(b, c);
      if a == b {
      } else if b == c {
      } else {
        StringOps.StringLessTransitive(a, b, c);
        StringOps.StringLessTotal(a, c);
      }
    }
  }

  /** list.sort by name: stable insertion of each block in turn. */
  function SortByName(s: seq<Syst>): (r: seq<Syst>)
    ensures multiset(r) == multiset(s)
    decreases |s|
  {
    if |s| == 0 then []
    else
      assert s == s[..|s| - 1] + [s[|s| - 1]];
      InsertByName(SortByName(s[..|s| - 1]), s[|s| - 1])
  }

  /** The sorted blocks are sorted. */
  lemma {:induction false} SortByNameSorted(s: seq<Syst>)
    ensures SortedByName(SortByName(s))
    decreases |s|
  {
    if |s| > 0 {
      SortByNameSorted(s[..|s| - 1]);
      InsertByNameSorted(SortByName(s[..|s| - 1]), s[|s| - 1]);
    }
  }

  /** The blocks named `x`, in order. */
  function OfName(s: seq<Syst>, x: string): (r: seq<Syst>)
    decreases |s|
  {
    if |s| == 0 then [] else (if s[0].name == x then [s[0]] else []) + OfName(s[1..], x)
  }

  lemma {:induction false} OfNameAppend(a: seq<Syst>, b: seq<Syst>, x: string)
    ensures OfName(a + b, x) == OfName(a, x) + OfName(b, x)
    decreases |a|
  {
    if |a| > 0 {
      assert (a + b)[1..] == a[1..] + b;
      OfNameAppend(a[1..], b, x);
    } else {
      assert a + b == b;
    }
  }

  /** Inserting a block puts it after the blocks of its name. */
  lemma {:induction false} InsertByNameStable(sorted: seq<Syst>, s: Syst, x: string)
    ensures OfName(InsertByName(sorted, s), x) == OfName(sorted, x) + OfName([s], x)
    decreases |sorted|
  {
    if |sorted| == 0 {
      assert OfName([], x) == [];
    } else {
      var last := sorted[|sorted| - 1];
      var init := sorted[..|sorted| - 1];
      assert sorted == init + [last];
      OfNameAppend(init, [last], x);
      if StringOps.StringLess(s.name, last.name) {
        InsertByNameStable(init, s, x);
        OfNameAppend(InsertByName(init, s), [last], x);
        StringOps.StringLessIrreflexive(s.name);
        assert s.name == x ==> last.name != x;
      } else {
        OfNameAppend(sorted, [s], x);
      }
    }
  }

  /** The sort is stable: the blocks of any one name keep their order. */
  lemma {:induction false} SortByNameStable(s: seq<Syst>, x: string)
    ensures OfName(SortByName(s), x) == OfName(s, x)
    decreases |s|
  {
    if |s| > 0 {
      var init := s[..|s| - 1];
      SortByNameStable(init, x);
      InsertByNameStable(SortByName(init), s[|s| - 1], x);
      assert s == init + [s[|s| - 1]];
      OfNameAppend(init, [s[|s| - 1]], x);
    }
  }

  // ---------------------------------------------------------------------
  // Merging the automatic systematics into the configured ones

  /** The systematic selection of the export: the pattern engine, the
      selected and the excluded patterns. */
  datatype Selection = Selection(engine: Regex.Engine, selected: seq<string>, excluded: seq<string>)

  predicate Excluded(sel: Selection, name: string) {
    IsExcludedSyst(sel.engine, sel.selected, sel.excluded, name)
  }

  /** The sample list of a configured systematic, extended by the samples
      of the automatic systematic of the same name when there is one. */
  function ConfiguredSamples(auto: Block, c: Syst): (r: Result<seq<string>>)
    ensures r.Ok? <==> SampleList(c.settings).Ok?
                       && (HasKey(auto, c.name) ==>
                             Lookup(auto, c.name).value.Dict? && SampleList(Lookup(auto, c.name).value.entries).Ok?)
    ensures r.Ok? && !HasKey(auto, c.name) ==> r.value == SampleList(c.settings).value
    ensures r.Ok? && HasKey(auto, c.name) ==>
      r.value == SampleList(c.settings).value + SampleList(Lookup(auto, c.name).value.entries).value
  {
    var own :- SampleList(c.settings);
    match Lookup(auto, c.name)
    case None => Ok(own)
    case Some(v) =>
      if v.Dict? then
        var extra :- SampleList(v.entries);
        Ok(own + extra)
      else Fail(WrongType(c.name))
  }

  /** A configured systematic survives the merge: it has samples once the
      automatic ones are added and the selection keeps it. */
  predicate KeptConfigured(auto: Block, c: Syst, sel: Selection) {
    ConfiguredSamples(auto, c).Ok? && |ConfiguredSamples(auto, c).value| > 0 && !Excluded(sel, c.name)
  }

  /** The block a surviving configured systematic contributes: its
      extended sample list resolved. */
  function ResolvedConfigured(auto: Block, c: Syst, mc: seq<string>): Result<Block>
    requires ConfiguredSamples(auto, c).Ok?
  {
    ResolveSamples(Put(c.settings, "Samples", StrList(ConfiguredSamples(auto, c).value)), mc)
  }

  /** What one configured systematic contributes to the merge: nothing
      when it has no samples or is not selected, else its resolved block. */
  function ConfiguredBlock(auto: Block, c: Syst, mc: seq<string>, sel: Selection): (r: Result<seq<Syst>>)
    requires ConfiguredSamples(auto, c).Ok?
    ensures r.Ok? <==> (KeptConfigured(auto, c, sel) ==> ResolvedConfigured(auto, c, mc).Ok?)
    ensures r.Ok? ==> |r.value| <= 1 && (|r.value| == 1 <==> KeptConfigured(auto, c, sel))
    ensures r.Ok? && |r.value| == 1 ==>
      r.value[0] == Syst("Systematic", c.name, ResolvedConfigured(auto, c, mc).value)
  {
    if !KeptConfigured(auto, c, sel) then Ok([])
    else
      var d :- ResolvedConfigured(auto, c, mc);
      Ok([Syst("Systematic", c.name, d)])
  }

  /** `b` is the block some surviving configured systematic contributes. */
  predicate FromConfigured(auto: Block, config: seq<Syst>, mc: seq<string>, sel: Selection, b: Syst) {
    exists k :: 0 <= k < |config| && KeptConfigured(auto, config[k], sel)
                && b.kind == "Systematic" && b.name == config[k].name
                && ResolvedConfigured(auto, config[k], mc) == Ok(b.settings)
  }

  /** Some configured systematic named `x` survives the merge. */
  predicate ConfiguredSurvivor(auto: Block, config: seq<Syst>, sel: Selection, x: string) {
    exists k :: 0 <= k < |config| && config[k].name == x && KeptConfigured(auto, config[k], sel)
  }

  /** The first loop of the merge, over the configured systematics in
      order: the first failure stops it. */
  function MergeConfigured(auto: Block, config: seq<Syst>, mc: seq<string>, sel: Selection): (r: Result<seq<Syst>>)
    ensures r.Ok? <==> forall k :: 0 <= k < |config| ==>
      ConfiguredSamples(auto, config[k]).Ok? && ConfiguredBlock(auto, config[k], mc, sel).Ok?
    ensures r.Ok? ==> forall i :: 0 <= i < |r.value| ==> FromConfigured(auto, config, mc, sel, r.value[i])
    ensures r.Ok? ==> forall x :: ConfiguredSurvivor(auto, config, sel, x) ==> x in Names(r.value)
    decreases |config|
  {
    if |config| == 0 then Ok([])
    else
      var c := config[0];
      var samples := ConfiguredSamples(auto, c);
      if samples.Fail? then Fail(samples.error)
      else
        var here := ConfiguredBlock(auto, c, mc, sel);
        if here.Fail? then Fail(here.error)
        else
          var rest := MergeConfigured(auto, config[1..], mc, sel);
          if rest.Fail? then Fail(rest.error)
          else
            MergeConfiguredStep(auto, config, mc, sel, here.value, rest.value);
            MergeConfiguredStepNames(auto, config, mc, sel, here.value, rest.value);
            Ok(here.value + rest.value)
  }

  /** One configured systematic in front of the merge of the others:
      every block still comes from a surviving configured systematic. */
  lemma MergeConfiguredStep(auto: Block, config: seq<Syst>, mc: seq<string>, sel: Selection,
                            here: seq<Syst>, rest: seq<Syst>)
    requires |config| > 0 && ConfiguredSamples(auto, config[0]).Ok?
    requires ConfiguredBlock(auto, config[0], mc, sel) == Ok(here)
    requires forall i :: 0 <= i < |rest| ==> FromConfigured(auto, config[1..], mc, sel, rest[i])
    ensures forall i :: 0 <= i < |here + rest| ==> FromConfigured(auto, config, mc, sel, (here + rest)[i])
  {
    forall i | 0 <= i < |here + rest|
      ensures FromConfigured(auto, config, mc, sel, (here + rest)[i])
    {
      if i < |here| {
        assert (here + rest)[i] == here[0];
        FromConfiguredHead(auto, config, mc, sel, here[0]);
      } else {
        assert (here + rest)[i] == rest[i - |here|];
        FromConfiguredTail(auto, config, mc, sel, rest[i - |here|]);
      }
    }
  }

  /** The same step: every surviving configured systematic still has a
      block. */
  lemma MergeConfiguredStepNames(auto: Block, config: seq<Syst>, mc: seq<string>, sel: Selection,
                                 here: seq<Syst>, rest: seq<Syst>)
    requires |config| > 0 && ConfiguredSamples(auto, config[0]).Ok?
    requires ConfiguredBlock(auto, config[0], mc, sel) == Ok(here)
    requires forall x :: ConfiguredSurvivor(auto, config[1..], sel, x) ==> x in Names(rest)
    ensures forall x :: ConfiguredSurvivor(auto, config, sel, x) ==> x in Names(here + rest)
  {
    forall x | ConfiguredSurvivor(auto, config, sel, x)
      ensures x in Names(here + rest)
    {
      if config[0].name == x && KeptConfigured(auto, config[0], sel) {
        assert (here + rest)[0] == here[0];
      } else {
        ConfiguredSurvivorTail(auto, config, sel, x);
        var j :| 0 <= j < |rest| && Names(rest)[j] == x;
        assert (here + rest)[|here| + j] == rest[j];
      }
    }
  }

  lemma FromConfiguredHead(auto: Block, config: seq<Syst>, mc: seq<string>, sel: Selection, b: Syst)
    requires |config| > 0 && KeptConfigured(auto, config[0], sel)
    requires b.kind == "Systematic" && b.name == config[0].name
    requires ResolvedConfigured(auto, config[0], mc) == Ok(b.settings)
    ensures FromConfigured(auto, config, mc, sel, b)
  {
  }

  lemma FromConfiguredTail(auto: Block, config: seq<Syst>, mc: seq<string>, sel: Selection, b: Syst)
    requires |config| > 0 && FromConfigured(auto, config[1..], mc, sel, b)
    ensures FromConfigured(auto, config, mc, sel, b)
  {
    var k :| 0 <= k < |config[1..]| && KeptConfigured(auto, config[1..][k], sel)
             && b.kind == "Systematic" && b.name == config[1..][k].name
             && ResolvedConfigured(auto, config[1..][k], mc) == Ok(b.settings);
    assert config[1..][k] == config[k + 1];
  }

  lemma ConfiguredSurvivorTail(auto: Block, config: seq<Syst>, sel: Selection, x: string)
    requires |config| > 0 && ConfiguredSurvivor(auto, config, sel, x)
    requires !(config[0].name == x && KeptConfigured(auto, config[0], sel))
    ensures ConfiguredSurvivor(auto, config[1..], sel, x)
  {
    var k :| 0 <= k < |config| && config[k].name == x && KeptConfigured(auto, config[k], sel);
    assert config[1..][k - 1] == config[k];
  }

  /** An automatic systematic survives the merge: it is selected, is not
      configured, and has samples. */
  predicate KeptAutomatic(e: Entry, configNames: seq<string>, sel: Selection) {
    !Excluded(sel, e.key) && e.key !in configNames && e.val.Dict?
    && SampleList(e.val.entries).Ok? && |SampleList(e.val.entries).value| > 0
  }

  /** What one automatic systematic contributes to the merge. A value that
      is not a mapping has no sample list and stops the program. */
  function AutomaticBlock(e: Entry, configNames: seq<string>, mc: seq<string>, sel: Selection): (r: Result<seq<Syst>>)
    ensures r.Ok? ==> |r.value| <= 1 && (|r.value| == 1 <==> KeptAutomatic(e, configNames, sel))
    ensures r.Ok? && |r.value| == 1 ==>
      r.value[0].kind == "Systematic" && r.value[0].name == e.key
      && ResolveSamples(e.val.entries, mc) == Ok(r.value[0].settings)
    ensures KeptAutomatic(e, configNames, sel) ==> (r.Ok? <==> ResolveSamples(e.val.entries, mc).Ok?)
    ensures Excluded(sel, e.key) || e.key in configNames ==> r == Ok([])
  {
    if Excluded(sel, e.key) || e.key in configNames then Ok([])
    else if !e.val.Dict? then Fail(WrongType(e.key))
    else
      var samples :- SampleList(e.val.entries);
      if |samples| == 0 then Ok([])
      else
        var d :- ResolveSamples(e.val.entries, mc);
        Ok([Syst("Systematic", e.key, d)])
  }

  /** `b` is the block some surviving automatic systematic contributes. */
  predicate FromAutomatic(auto: Block, configNames: seq<string>, mc: seq<string>, sel: Selection, b: Syst) {
    exists k :: 0 <= k < |auto| && KeptAutomatic(auto[k], configNames, sel)
                && b.kind == "Systematic" && b.name == auto[k].key
                && ResolveSamples(auto[k].val.entries, mc) == Ok(b.settings)
  }

  /** Some automatic systematic named `x` survives the merge. */
  predicate AutomaticSurvivor(auto: Block, configNames: seq<string>, sel: Selection, x: string) {
    exists k :: 0 <= k < |auto| && auto[k].key == x && KeptAutomatic(auto[k], configNames, sel)
  }

  /** The second loop of the merge, over the automatic systematics in
      their order, skipping the configured names. */
  function MergeAutomatic(auto: Block, configNames: seq<string>, mc: seq<string>, sel: Selection): (r: Result<seq<Syst>>)
    ensures r.Ok? <==> forall k :: 0 <= k < |auto| ==> AutomaticBlock(auto[k], configNames, mc, sel).Ok?
    ensures r.Ok? ==> forall i :: 0 <= i < |r.value| ==> FromAutomatic(auto, configNames, mc, sel, r.value[i])
    ensures r.Ok? ==> forall x :: AutomaticSurvivor(auto, configNames, sel, x) ==> x in Names(r.value)
    decreases |auto|
  {
    if |auto| == 0 then Ok([])
    else
      var here :- AutomaticBlock(auto[0], configNames, mc, sel);
      var rest :- MergeAutomatic(auto[1..], configNames, mc, sel);
      assert forall k :: 1 <= k < |auto| ==> auto[k] == auto[1..][k - 1];
      MergeAutomaticStep(auto, configNames, mc, sel, here, rest);
      MergeAutomaticStepNames(auto, configNames, mc, sel, here, rest);
      Ok(here + rest)
  }

  lemma MergeAutomaticStep(auto: Block, configNames: seq<string>, mc: seq<string>, sel: Selection,
                           here: seq<Syst>, rest: seq<Syst>)
    requires |auto| > 0 && AutomaticBlock(auto[0], configNames, mc, sel) == Ok(here)
    requires forall i :: 0 <= i < |rest| ==> FromAutomatic(auto[1..], configNames, mc, sel, rest[i])
    ensures forall i :: 0 <= i < |here + rest| ==> FromAutomatic(auto, configNames, mc, sel, (here + rest)[i])
  {
    forall i | 0 <= i < |here + rest|
      ensures FromAutomatic(auto, configNames, mc, sel, (here + rest)[i])
    {
      if i < |here| {
        assert (here + rest)[i] == here[0];
        assert KeptAutomatic(auto[0], configNames, sel);
      } else {
        assert (here + rest)[i] == rest[i - |here|];
        FromAutomaticTail(auto, configNames, mc, sel, rest[i - |here|]);
      }
    }
  }

  lemma FromAutomaticTail(auto: Block, configNames: seq<string>, mc: seq<string>, sel: Selection, b: Syst)
    requires |auto| > 0 && FromAutomatic(auto[1..], configNames, mc, sel, b)
    ensures FromAutomatic(auto, configNames, mc, sel, b)
  {
    var k :| 0 <= k < |auto[1..]| && KeptAutomatic(auto[1..][k], configNames, sel)
             && b.kind == "Systematic" && b.name == auto[1..][k].key
             && ResolveSamples(auto[1..][k].val.entries, mc) == Ok(b.settings);
    assert auto[1..][k] == auto[k + 1];
  }

  lemma MergeAutomaticStepNames(auto: Block, configNames: seq<string>, mc: seq<string>, sel: Selection,
                                here: seq<Syst>, rest: seq<Syst>)
    requires |auto| > 0 && AutomaticBlock(auto[0], configNames, mc, sel) == Ok(here)
    requires forall x :: AutomaticSurvivor(auto[1..], configNames, sel, x) ==> x in Names(rest)
    ensures forall x :: AutomaticSurvivor(auto, configNames, sel, x) ==> x in Names(here + rest)
  {
    forall x | AutomaticSurvivor(auto, configNames, sel, x)
      ensures x in Names(here + rest)
    {
      if auto[0].key == x && KeptAutomatic(auto[0], configNames, sel) {
        assert (here + rest)[0] == here[0];
      } else {
        var k :| 0 <= k < |auto| && auto[k].key == x && KeptAutomatic(auto[k], configNames, sel);
        assert auto[1..][k - 1] == auto[k];
        assert AutomaticSurvivor(auto[1..], configNames, sel, x);
        var j :| 0 <= j < |rest| && Names(rest)[j] == x;
        assert (here + rest)[|here| + j] == rest[j];
      }
    }
  }

  /** _merge_automatic_and_config_based_systematics_and_resolve_samples_list_and_excludes:
      the surviving configured systematics, then the surviving automatic
      ones whose names are not configured, sorted by name. */
  function MergeSystematics(auto: Block, config: seq<Syst>, mc: seq<string>, sel: Selection): (r: Result<seq<Syst>>)
    ensures r.Ok? <==> MergeConfigured(auto, config, mc, sel).Ok? && MergeAutomatic(auto, Names(config), mc, sel).Ok?
    ensures r.Ok? ==> SortedByName(r.value)
    ensures r.Ok? ==> forall i :: 0 <= i < |r.value| ==>
      FromConfigured(auto, config, mc, sel, r.value[i]) || FromAutomatic(auto, Names(config), mc, sel, r.value[i])
    ensures r.Ok? ==> forall x :: x in Names(r.value) <==>
      ConfiguredSurvivor(auto, config, sel, x) || AutomaticSurvivor(auto, Names(config), sel, x)
  {
    var configured :- MergeConfigured(auto, config, mc, sel);
    var automatic :- MergeAutomatic(auto, Names(config), mc, sel);
    var all := configured + automatic;
    SortByNameSorted(all);
    MergedBlocks(auto, config, mc, sel, configured, automatic);
    MergedNames(auto, config, mc, sel, configured, automatic);
    Ok(SortByName(all))
  }

  lemma MergedBlocks(auto: Block, config: seq<Syst>, mc: seq<string>, sel: Selection,
                     configured: seq<Syst>, automatic: seq<Syst>)
    requires forall i :: 0 <= i < |configured| ==> FromConfigured(auto, config, mc, sel, configured[i])
    requires forall i :: 0 <= i < |automatic| ==> FromAutomatic(auto, Names(config), mc, sel, automatic[i])
    ensures forall i :: 0 <= i < |SortByName(configured + automatic)| ==>
      FromConfigured(auto, config, mc, sel, SortByName(configured + automatic)[i])
      || FromAutomatic(auto, Names(config), mc, sel, SortByName(configured + automatic)[i])
  {
    var all := configured + automatic;
    var sorted := SortByName(all);
    forall i | 0 <= i < |sorted|
      ensures FromConfigured(auto, config, mc, sel, sorted[i]) || FromAutomatic(auto, Names(config), mc, sel, sorted[i])
    {
      assert sorted[i] in multiset(all);
      var j :| 0 <= j < |all| && all[j] == sorted[i];
      if j >= |configured| {
        assert all[j] == automatic[j - |configured|];
      }
    }
  }

  lemma MergedNames(auto: Block, config: seq<Syst>, mc: seq<string>, sel: Selection,
                    configured: seq<Syst>, automatic: seq<Syst>)
    requires forall i :: 0 <= i < |configured| ==> FromConfigured(auto, config, mc, sel, configured[i])
    requires forall i :: 0 <= i < |automatic| ==> FromAutomatic(auto, Names(config), mc, sel, automatic[i])
    requires forall x :: ConfiguredSurvivor(auto, config, sel, x) ==> x in Names(configured)
    requires forall x :: AutomaticSurvivor(auto, Names(config), sel, x) ==> x in Names(automatic)
    ensures forall x :: x in Names(SortByName(configured + automatic)) <==>
      ConfiguredSurvivor(auto, config, sel, x) || AutomaticSurvivor(auto, Names(config), sel, x)
  {
    var all := configured + automatic;
    var sorted := SortByName(all);
    forall x ensures x in Names(sorted) <==> x in Names(configured) || x in Names(automatic) {
      SameNames(all, sorted, x);
      NamesAppend(configured, automatic, x);
    }
    ConfiguredNamesSurvive(auto, config, mc, sel, configured);
    AutomaticNamesSurvive(auto, Names(config), mc, sel, automatic);
  }

  lemma ConfiguredNamesSurvive(auto: Block, config: seq<Syst>, mc: seq<string>, sel: Selection, configured: seq<Syst>)
    requires forall i :: 0 <= i < |configured| ==> FromConfigured(auto, config, mc, sel, configured[i])
    ensures forall x :: x in Names(configured) ==> ConfiguredSurvivor(auto, config, sel, x)
  {
    forall x | x in Names(configured) ensures ConfiguredSurvivor(auto, config, sel, x) {
      var i :| 0 <= i < |configured| && Names(configured)[i] == x;
      assert FromConfigured(auto, config, mc, sel, configured[i]);
    }
  }

  lemma AutomaticNamesSurvive(auto: Block, configNames: seq<string>, mc: seq<string>, sel: Selection, automatic: seq<Syst>)
    requires forall i :: 0 <= i < |automatic| ==> FromAutomatic(auto, configNames, mc, sel, automatic[i])
    ensures forall x :: x in Names(automatic) ==> AutomaticSurvivor(auto, configNames, sel, x)
  {
    forall x | x in Names(automatic) ensures AutomaticSurvivor(auto, configNames, sel, x) {
      var i :| 0 <= i < |automatic| && Names(automatic)[i] == x;
      assert FromAutomatic(auto, configNames, mc, sel, automatic[i]);
    }
  }

  /** Reordering keeps the names. */
  lemma SameNames(a: seq<Syst>, b: seq<Syst>, x: string)
    requires multiset(a) == multiset(b)
    ensures x in Names(a) <==> x in Names(b)
  {
    if x in Names(a) {
      var i :| 0 <= i < |a| && Names(a)[i] == x;
      assert a[i] in multiset(b);
      var j :| 0 <= j < |b| && b[j] == a[i];
      assert Names(b)[j] == x;
    }
    if x in Names(b) {
      var i :| 0 <= i < |b| && Names(b)[i] == x;
      assert b[i] in multiset(a);
      var j :| 0 <= j < |a| && a[j] == b[i];
      assert Names(a)[j] == x;
    }
  }

  lemma NamesAppend(a: seq<Syst>, b: seq<Syst>, x: string)
    ensures x in Names(a + b) <==> x in Names(a) || x in Names(b)
  {
    if x in Names(a + b) {
      var i :| 0 <= i < |a + b| && Names(a + b)[i] == x;
      if i < |a| { assert Names(a)[i] == x; } else { assert Names(b)[i - |a|] == x; }
    }
    if x in Names(a) {
      var i :| 0 <= i < |a| && Names(a)[i] == x;
      assert Names(a + b)[i] == x;
    }
    if x in Names(b) {
      var i :| 0 <= i < |b| && Names(b)[i] == x;
      assert Names(a + b)[|a| + i] == x;
    }
  }

  /** A configured name never takes an automatic block: every block of
      that name comes from the configuration. */
  lemma ConfiguredNamesWin(auto: Block, config: seq<Syst>, mc: seq<string>, sel: Selection, i: nat)
    requires MergeSystematics(auto, config, mc, sel).Ok?
    requires i < |MergeSystematics(auto, config, mc, sel).value|
    requires MergeSystematics(auto, config, mc, sel).value[i].name in Names(config)
    ensures FromConfigured(auto, config, mc, sel, MergeSystematics(auto, config, mc, sel).value[i])
  {
    NotFromAutomatic(auto, Names(config), mc, sel, MergeSystematics(auto, config, mc, sel).value[i]);
  }

  lemma NotFromAutomatic(auto: Block, configNames: seq<string>, mc: seq<string>, sel: Selection, b: Syst)
    requires b.name in configNames
    ensures !FromAutomatic(auto, configNames, mc, sel, b)
  {
  }

  /** A surviving configured systematic applies, once resolved, to exactly
      its own samples and those of the automatic systematic of its name,
      provided the two lists share no sample. */
  lemma MergedSamples(auto: Block, c: Syst, mc: seq<string>, samples: seq<string>)
    requires ConfiguredSamples(auto, c) == Ok(samples) && |samples| > 0 && Seqs.Distinct(samples)
    requires PlainNames(mc) && forall x :: x in samples ==> x in mc
    requires ExcludesNoSample(c.settings, mc)
    ensures ResolvedConfigured(auto, c, mc).Ok?
    ensures EffectiveSamples(ResolvedConfigured(auto, c, mc).value, mc).Ok?
    ensures forall x :: x in EffectiveSamples(ResolvedConfigured(auto, c, mc).value, mc).value <==> x in samples
  {
    var d := Put(c.settings, "Samples", StrList(samples));
    assert Lookup(d, "Exclude") == Lookup(c.settings, "Exclude");
    assert SampleList(d) == Ok(samples);
    ResolveKeepsSamples(d, mc, samples);
  }

  /** Two lists naming the same sample are not told apart from the full
      list: with MC samples a and b, a configured list [a] merged with an
      automatic list [a] drops the sample list, so the systematic applies
      to b as well. */
  lemma OverlappingSamplesWiden()
    ensures var mc := ["a", "b"];
            var c := Syst("Systematic", "s", [Entry("Samples", StrList(["a"]))]);
            var auto := [Entry("s", Dict([Entry("Samples", StrList(["a"]))]))];
            && ResolvedConfigured(auto, c, mc).Ok?
            && EffectiveSamples(ResolvedConfigured(auto, c, mc).value, mc) == Ok(["a", "b"])
  {
    var mc := ["a", "b"];
    var c := Syst("Systematic", "s", [Entry("Samples", StrList(["a"]))]);
    var auto := [Entry("s", Dict([Entry("Samples", StrList(["a"]))]))];
    assert SampleList(c.settings) == Ok(["a"]);
    assert Lookup(auto, "s") == Some(Dict([Entry("Samples", StrList(["a"]))]));
    assert SampleList([Entry("Samples", StrList(["a"]))]) == Ok(["a"]);
    assert ["a"] + ["a"] == ["a", "a"];
    assert ConfiguredSamples(auto, c) == Ok(["a", "a"]);
    var d := Put(c.settings, "Samples", StrList(["a", "a"]));
    assert SampleList(d) == Ok(["a", "a"]);
    assert ResolvedConfigured(auto, c, mc) == Ok(Remove(d, "Samples"));
    var r := Remove(d, "Samples");
    assert !HasKey(r, "Exclude");
    assert CommaItems(r, "Samples", mc) == Ok(mc);
    assert CommaItems(r, "Exclude", []) == Ok([]);
  }

  // ---------------------------------------------------------------------
  // Merging the FastFrames and the TRExFitter-only systematics

  /** The option by which a TRExFitter-only block opts out of merging. */
  const MergeOption := "MergeWithAutomaticSyst"

  /** Whether a TRExFitter-only block merges (the option's truth, true when
      it is absent), and the block with the option deleted. */
  function MergeFlag(t: Syst): (r: (bool, Syst))
    ensures !HasKey(r.1.settings, MergeOption) && r.1.name == t.name && r.1.kind == t.kind
    ensures forall k :: k != MergeOption ==> Lookup(r.1.settings, k) == Lookup(t.settings, k)
    ensures !HasKey(t.settings, MergeOption) ==> r == (true, t)
    ensures HasKey(t.settings, MergeOption) ==> r.0 == Truthy(Lookup(t.settings, MergeOption).value)
  {
    if HasKey(t.settings, MergeOption) then
      (Truthy(Lookup(t.settings, MergeOption).value), Syst(t.kind, t.name, Remove(t.settings, MergeOption)))
    else (true, t)
  }

  /** The option is deleted once: a second look finds the block merging. */
  lemma MergeFlagOnce(t: Syst)
    ensures MergeFlag(MergeFlag(t).1) == (true, MergeFlag(t).1)
  {
  }

  /** `{**ff, **ts}`: the FastFrames block with the TRExFitter block's
      settings laid over it. */
  function Merged(f: Syst, t: Syst): Syst {
    Syst("Systematic", f.name, TrexNames.PutAll(f.settings, MergeFlag(t).1.settings))
  }

  /** In a merged block the TRExFitter settings win and the FastFrames
      ones fill the rest; the opt-out option itself is not carried over. */
  lemma MergedLookup(f: Syst, t: Syst, k: string)
    requires WellFormed(MergeFlag(t).1.settings)
    ensures k != MergeOption && HasKey(t.settings, k) ==> Lookup(Merged(f, t).settings, k) == Lookup(t.settings, k)
    ensures !HasKey(t.settings, k) || k == MergeOption ==> Lookup(Merged(f, t).settings, k) == Lookup(f.settings, k)
  {
    if HasKey(MergeFlag(t).1.settings, k) {
      TrexNames.PutAllLookup(f.settings, MergeFlag(t).1.settings, k);
    }
  }

  /** The inner loop for one FastFrames block: each TRExFitter-only block
      of its name, in order, is merged into it or kept beside it; the
      blocks come back with their opt-out option consumed. */
  function MatchTrex(trex: seq<Syst>, f: Syst): (r: (seq<Syst>, seq<Syst>))
    ensures |r.1| == |trex|
    ensures forall i :: 0 <= i < |trex| ==> r.1[i] == if trex[i].name == f.name then MergeFlag(trex[i]).1 else trex[i]
    ensures forall i :: 0 <= i < |r.0| ==> r.0[i].kind == "Systematic" && r.0[i].name == f.name
    ensures |r.0| > 0 <==> f.name in Names(trex)
  {
    (Matched(trex, f), Consumed(trex, f))
  }

  /** The blocks the inner loop emits: the outcome of every TRExFitter-only
      block of the FastFrames block's name, in order. */
  function Matched(trex: seq<Syst>, f: Syst): (r: seq<Syst>)
    ensures forall i :: 0 <= i < |r| ==> r[i].kind == "Systematic" && r[i].name == f.name
    ensures |r| > 0 <==> f.name in Names(trex)
    decreases |trex|
  {
    if |trex| == 0 then []
    else
      assert Names(trex) == [trex[0].name] + Names(trex[1..]);
      if trex[0].name != f.name then Matched(trex[1..], f)
      else Outcome(f, trex[0]) + Matched(trex[1..], f)
  }

  /** The TRExFitter-only blocks after the inner loop: those of the
      FastFrames block's name lose their opt-out option. */
  function Consumed(trex: seq<Syst>, f: Syst): (r: seq<Syst>)
    ensures |r| == |trex|
  {
    seq(|trex|, i requires 0 <= i < |trex| => if trex[i].name == f.name then MergeFlag(trex[i]).1 else trex[i])
  }

  /** What one FastFrames block and one TRExFitter-only block of its name
      give: the merged block, or both side by side when the TRExFitter
      block opts out. */
  function Outcome(f: Syst, t: Syst): (r: seq<Syst>)
    ensures t.name == f.name ==> forall i :: 0 <= i < |r| ==> r[i].kind == "Systematic" && r[i].name == f.name
    ensures MergeFlag(t).0 ==> r == [Merged(f, t)]
    ensures !MergeFlag(t).0 ==>
      r == [Syst("Systematic", f.name, f.settings), Syst("Systematic", t.name, MergeFlag(t).1.settings)]
  {
    var (merge, t1) := MergeFlag(t);
    if merge then [Merged(f, t)]
    else [Syst("Systematic", f.name, f.settings), Syst("Systematic", t1.name, t1.settings)]
  }

  /** Every TRExFitter-only block of the FastFrames block's name leaves its
      outcome in the inner loop's output. */
  lemma {:induction false} MatchTrexOutcome(trex: seq<Syst>, f: Syst, i: nat)
    requires i < |trex| && trex[i].name == f.name
    ensures forall b :: b in Outcome(f, trex[i]) ==> b in MatchTrex(trex, f).0
    decreases |trex|
  {
    if i > 0 {
      assert trex[1..][i - 1] == trex[i];
      MatchTrexOutcome(trex[1..], f, i - 1);
    }
  }

  /** One FastFrames block against the TRExFitter-only blocks: passed
      through when none has its name, else the inner loop. */
  function MeetTrex(trex: seq<Syst>, f: Syst): (r: (seq<Syst>, seq<Syst>))
    ensures |r.0| > 0 && |r.1| == |trex|
    ensures forall i :: 0 <= i < |trex| ==> r.1[i] == if trex[i].name == f.name then MergeFlag(trex[i]).1 else trex[i]
    ensures forall i :: 0 <= i < |r.0| ==> r.0[i].kind == "Systematic" && r.0[i].name == f.name
    ensures f.name in Names(trex) ==> r == MatchTrex(trex, f)
    ensures f.name !in Names(trex) ==> r.0 == [Syst("Systematic", f.name, f.settings)]
  {
    if f.name !in Names(trex) then
      assert forall i :: 0 <= i < |trex| ==> trex[i].name != f.name by {
        assert forall i :: 0 <= i < |trex| ==> Names(trex)[i] == trex[i].name;
      }
      ([Syst("Systematic", f.name, f.settings)], trex)
    else MatchTrex(trex, f)
  }

  /** The outer loop over the FastFrames blocks, threading the
      TRExFitter-only blocks whose options it consumes. */
  function MergeFfLoop(trex: seq<Syst>, ff: seq<Syst>): (r: (seq<Syst>, seq<Syst>))
    ensures |r.1| == |trex|
    ensures forall i :: 0 <= i < |trex| ==>
      r.1[i] == if trex[i].name in Names(ff) then MergeFlag(trex[i]).1 else trex[i]
    ensures forall i :: 0 <= i < |r.0| ==> r.0[i].kind == "Systematic"
    ensures forall x :: x in Names(r.0) <==> x in Names(ff)
    decreases |ff|
  {
    if |ff| == 0 then ([], trex)
    else
      var (here, t1) := MeetTrex(trex, ff[0]);
      var rest := MergeFfLoop(t1, ff[1..]);
      MergeFfLoopStep(trex, ff, here, t1, rest);
      (here + rest.0, rest.1)
  }

  lemma MergeFfLoopStep(trex: seq<Syst>, ff: seq<Syst>, here: seq<Syst>, t1: seq<Syst>, rest: (seq<Syst>, seq<Syst>))
    requires |ff| > 0 && |here| > 0
    requires |t1| == |trex| && forall i :: 0 <= i < |trex| ==>
      t1[i] == if trex[i].name == ff[0].name then MergeFlag(trex[i]).1 else trex[i]
    requires forall i :: 0 <= i < |here| ==> here[i].kind == "Systematic" && here[i].name == ff[0].name
    requires |rest.1| == |t1| && forall i :: 0 <= i < |t1| ==>
      rest.1[i] == if t1[i].name in Names(ff[1..]) then MergeFlag(t1[i]).1 else t1[i]
    requires forall i :: 0 <= i < |rest.0| ==> rest.0[i].kind == "Systematic"
    requires forall x :: x in Names(rest.0) <==> x in Names(ff[1..])
    ensures forall i :: 0 <= i < |trex| ==>
      rest.1[i] == if trex[i].name in Names(ff) then MergeFlag(trex[i]).1 else trex[i]
    ensures forall i :: 0 <= i < |here + rest.0| ==> (here + rest.0)[i].kind == "Systematic"
    ensures forall x :: x in Names(here + rest.0) <==> x in Names(ff)
  {
    assert Names(ff) == [ff[0].name] + Names(ff[1..]);
    forall i | 0 <= i < |trex|
      ensures rest.1[i] == if trex[i].name in Names(ff) then MergeFlag(trex[i]).1 else trex[i]
    {
      MergeFlagOnce(trex[i]);
    }
    forall x ensures x in Names(here + rest.0) <==> x in Names(ff) {
      NamesAppend(here, rest.0, x);
      assert Names(here)[0] == ff[0].name;
    }
  }

  /** Both loops leave the names of the TRExFitter-only blocks alone. */
  lemma SameNamesAfterMatch(trex: seq<Syst>, t1: seq<Syst>)
    requires |t1| == |trex| && forall i :: 0 <= i < |trex| ==> t1[i].name == trex[i].name
    ensures Names(t1) == Names(trex)
  {
  }

  /** Each FastFrames block meets every TRExFitter-only block of its name:
      the first block of a name gets the outcome the option asks for; a
      later one finds the option consumed and always merges. */
  lemma {:induction false} MergeFfLoopOutcome(trex: seq<Syst>, ff: seq<Syst>, j: nat, i: nat)
    requires j < |ff| && i < |trex| && ff[j].name == trex[i].name
    ensures ff[j].name !in Names(ff[..j]) ==>
      forall b :: b in Outcome(ff[j], trex[i]) ==> b in MergeFfLoop(trex, ff).0
    ensures ff[j].name in Names(ff[..j]) ==> Merged(ff[j], trex[i]) in MergeFfLoop(trex, ff).0
    decreases |ff|
  {
    var (here, t1) := MeetTrex(trex, ff[0]);
    var rest := MergeFfLoop(t1, ff[1..]);
    assert MergeFfLoop(trex, ff).0 == here + rest.0;
    if j == 0 {
      assert Names(ff[..0]) == [];
      assert Names(trex)[i] == trex[i].name;
      MatchTrexOutcome(trex, ff[0], i);
    } else {
      LaterMeeting(trex, ff, j, i, t1, rest.0);
    }
  }

  lemma {:induction false} LaterMeeting(trex: seq<Syst>, ff: seq<Syst>, j: nat, i: nat, t1: seq<Syst>, rest: seq<Syst>)
    requires 0 < j < |ff| && i < |trex| && ff[j].name == trex[i].name
    requires t1 == MeetTrex(trex, ff[0]).1 && rest == MergeFfLoop(t1, ff[1..]).0
    ensures ff[j].name !in Names(ff[..j]) ==> forall b :: b in Outcome(ff[j], trex[i]) ==> b in rest
    ensures ff[j].name in Names(ff[..j]) ==> Merged(ff[j], trex[i]) in rest
    decreases |ff|, 0
  {
    var f := ff[j];
    assert ff[1..][j - 1] == f;
    NamesOfPrefix(ff, j);
    MergeFfLoopOutcome(t1, ff[1..], j - 1, i);
    var seen := f.name in Names(ff[1..][..j - 1]);
    assert seen ==> Merged(f, t1[i]) in rest;
    assert !seen ==> forall b :: b in Outcome(f, t1[i]) ==> b in rest;
    if f.name == ff[0].name {
      SameNameAgain(trex, ff, j, i, t1);
      assert f.name in Names(ff[..j]);
      assert Merged(f, trex[i]) in rest;
    } else {
      assert t1[i] == trex[i];
      assert f.name in Names(ff[..j]) <==> seen;
    }
  }

  /** A second FastFrames block of a name merges, since the first one
      consumed the option. */
  lemma SameNameAgain(trex: seq<Syst>, ff: seq<Syst>, j: nat, i: nat, t1: seq<Syst>)
    requires 0 < j < |ff| && i < |trex| && ff[j].name == trex[i].name && ff[j].name == ff[0].name
    requires t1 == MeetTrex(trex, ff[0]).1
    ensures Merged(ff[j], t1[i]) == Merged(ff[j], trex[i])
    ensures Outcome(ff[j], t1[i]) == [Merged(ff[j], trex[i])]
  {
    MergeFlagOnce(trex[i]);
    assert t1[i] == MergeFlag(trex[i]).1;
  }

  lemma NamesOfPrefix(ff: seq<Syst>, j: nat)
    requires 0 < j <= |ff|
    ensures Names(ff[..j]) == [ff[0].name] + Names(ff[1..][..j - 1])
  {
    assert forall k :: 1 <= k < j ==> ff[..j][k] == ff[1..][..j - 1][k - 1];
  }

  /** A FastFrames block with no TRExFitter-only block of its name is
      passed through. */
  lemma {:induction false} MergeFfLoopPassThrough(trex: seq<Syst>, ff: seq<Syst>, j: nat)
    requires j < |ff| && ff[j].name !in Names(trex)
    ensures Syst("Systematic", ff[j].name, ff[j].settings) in MergeFfLoop(trex, ff).0
    decreases |ff|
  {
    var (here, t1) := MeetTrex(trex, ff[0]);
    var rest := MergeFfLoop(t1, ff[1..]);
    assert MergeFfLoop(trex, ff).0 == here + rest.0;
    if j > 0 {
      assert ff[1..][j - 1] == ff[j];
      SameNamesAfterMatch(trex, t1);
      MergeFfLoopPassThrough(t1, ff[1..], j - 1);
    }
  }

  /** The TRExFitter-only blocks no FastFrames block is named after. */
  function Unmatched(ts: seq<Syst>, ffNames: seq<string>): (r: seq<Syst>)
    ensures forall i :: 0 <= i < |r| ==> r[i].kind == "Systematic" && r[i].name !in ffNames
    ensures forall x :: x in Names(r) <==> x in Names(ts) && x !in ffNames
    ensures forall i :: 0 <= i < |ts| && ts[i].name !in ffNames ==> Syst("Systematic", ts[i].name, ts[i].settings) in r
    decreases |ts|
  {
    if |ts| == 0 then []
    else
      var rest := Unmatched(ts[1..], ffNames);
      assert forall i :: 1 <= i < |ts| ==> ts[i] == ts[1..][i - 1];
      assert Names(ts) == [ts[0].name] + Names(ts[1..]);
      if ts[0].name in ffNames then rest
      else
        var here := [Syst("Systematic", ts[0].name, ts[0].settings)];
        assert forall x :: x in Names(here + rest) <==> x == ts[0].name || x in Names(rest) by {
          forall x ensures x in Names(here + rest) <==> x == ts[0].name || x in Names(rest) {
            NamesAppend(here, rest, x);
            assert Names(here) == [ts[0].name];
          }
        }
        here + rest
  }

  /** _merge_ff_and_trex_only_systematics: the FastFrames blocks, each
      merged with or followed by the TRExFitter-only blocks of its name,
      then the TRExFitter-only blocks of other names. */
  function MergeFf(trex: seq<Syst>, ff: seq<Syst>): (r: seq<Syst>)
    ensures forall i :: 0 <= i < |r| ==> r[i].kind == "Systematic"
    ensures forall x :: x in Names(r) <==> x in Names(ff) || x in Names(trex)
    ensures forall i :: 0 <= i < |trex| && trex[i].name !in Names(ff) ==>
      Syst("Systematic", trex[i].name, trex[i].settings) in r
  {
    var (out, t1) := MergeFfLoop(trex, ff);
    var rest := Unmatched(t1, Names(ff));
    SameNamesAfterMatch(trex, t1);
    forall x ensures x in Names(out + rest) <==> x in Names(ff) || x in Names(trex) {
      NamesAppend(out, rest, x);
    }
    out + rest
  }

  /** The properties of the merge block by block: a FastFrames block
      without a TRExFitter-only counterpart passes through, and one with
      counterparts gets their outcomes (merged, or side by side on the
      first meeting when the option says so). */
  lemma MergeFfBlocks(trex: seq<Syst>, ff: seq<Syst>, j: nat)
    requires j < |ff|
    ensures ff[j].name !in Names(trex) ==> Syst("Systematic", ff[j].name, ff[j].settings) in MergeFf(trex, ff)
    ensures forall i :: 0 <= i < |trex| && trex[i].name == ff[j].name && ff[j].name !in Names(ff[..j]) ==>
      forall b :: b in Outcome(ff[j], trex[i]) ==> b in MergeFf(trex, ff)
    ensures forall i :: 0 <= i < |trex| && trex[i].name == ff[j].name && ff[j].name in Names(ff[..j]) ==>
      Merged(ff[j], trex[i]) in MergeFf(trex, ff)
  {
    var (out, t1) := MergeFfLoop(trex, ff);
    assert MergeFf(trex, ff) == out + Unmatched(t1, Names(ff));
    if ff[j].name !in Names(trex) {
      MergeFfLoopPassThrough(trex, ff, j);
    }
    forall i | 0 <= i < |trex| && trex[i].name == ff[j].name
      ensures ff[j].name !in Names(ff[..j]) ==> forall b :: b in Outcome(ff[j], trex[i]) ==> b in MergeFf(trex, ff)
      ensures ff[j].name in Names(ff[..j]) ==> Merged(ff[j], trex[i]) in MergeFf(trex, ff)
    {
      MergeFfLoopOutcome(trex, ff, j, i);
    }
  }

  // ---------------------------------------------------------------------
  // Splitting a systematic between the inclusive and the unfolding samples

  /** The loop over a systematic's samples: those not among the unfolding
      samples, then those among them, each in order. */
  function SplitSamples(samples: seq<string>, unfolding: seq<string>): (r: (seq<string>, seq<string>))
    ensures multiset(r.0) + multiset(r.1) == multiset(samples)
    ensures forall x :: x in r.0 <==> x in samples && x !in unfolding
    ensures forall x :: x in r.1 <==> x in samples && x in unfolding
    decreases |samples|
  {
    if |samples| == 0 then ([], [])
    else
      var rest := SplitSamples(samples[1..], unfolding);
      assert samples == [samples[0]] + samples[1..];
      if samples[0] in unfolding then (rest.0, [samples[0]] + rest.1)
      else ([samples[0]] + rest.0, rest.1)
  }

  /** The keys of the folders the unfolding blocks name for one direction. */
  function UnfoldingFolderKeys(up: bool): seq<string> {
    if up then ["MigrationFolderNameUp", "AcceptanceFolderNameUp", "SelectionEffFolderNameUp"]
    else ["MigrationFolderNameDown", "AcceptanceFolderNameDown", "SelectionEffFolderNameDown"]
  }

  /** Every key of `keys` set to `v`, in order. */
  function PutEach(b: Block, keys: seq<string>, v: Value): (r: Block)
    ensures forall k :: k in keys ==> Lookup(r, k) == Some(v)
    ensures forall k :: k !in keys ==> Lookup(r, k) == Lookup(b, k)
    decreases |keys|
  {
    if |keys| == 0 then b
    else
      var r := PutEach(Put(b, keys[0], v), keys[1..], v);
      assert forall k :: k in keys <==> k == keys[0] || k in keys[1..];
      r
  }

  /** The value under `key` when it is there and true. */
  function TrueValue(b: Block, key: string): (r: Option<Value>)
    ensures r.Some? <==> HasKey(b, key) && Truthy(Lookup(b, key).value)
    ensures r.Some? ==> Lookup(b, key) == r
  {
    match Lookup(b, key)
    case Some(v) => if Truthy(v) then Some(v) else None
    case None => None
  }

  /** A key deleted when its value is true. */
  function RemoveIfTrue(b: Block, key: string): (r: Block)
    ensures TrueValue(b, key).Some? ==> !HasKey(r, key)
    ensures TrueValue(b, key).None? ==> r == b
    ensures forall k :: k != key ==> Lookup(r, k) == Lookup(b, k)
  {
    if TrueValue(b, key).Some? then Remove(b, key) else b
  }

  /** A folder's value put under the unfolding keys of its direction when
      it is true. */
  function PutIfTrue(b: Block, v: Option<Value>, up: bool): Block {
    if v.Some? then PutEach(b, UnfoldingFolderKeys(up), v.value) else b
  }

  /** The folder part of the unfolding block: the histogram folders, when
      true, deleted and given as the migration, acceptance and selection
      efficiency folders; the Type option deleted. */
  function UnfoldingFolders(d: Block): Block {
    FoldersRenamed(Cleared(d), TrueValue(d, "HistoFolderNameUp"), TrueValue(d, "HistoFolderNameDown"))
  }

  /** The block with its true histogram folders and its Type deleted. */
  function Cleared(d: Block): (r: Block)
    ensures !HasKey(r, "Type")
    ensures TrueValue(d, "HistoFolderNameUp").Some? ==> !HasKey(r, "HistoFolderNameUp")
    ensures TrueValue(d, "HistoFolderNameDown").Some? ==> !HasKey(r, "HistoFolderNameDown")
    ensures forall k :: k != "Type" && k != "HistoFolderNameUp" && k != "HistoFolderNameDown" ==>
      Lookup(r, k) == Lookup(d, k)
    ensures TrueValue(d, "HistoFolderNameUp").None? ==> Lookup(r, "HistoFolderNameUp") == Lookup(d, "HistoFolderNameUp")
    ensures TrueValue(d, "HistoFolderNameDown").None? ==>
      Lookup(r, "HistoFolderNameDown") == Lookup(d, "HistoFolderNameDown")
  {
    var d1 := RemoveIfTrue(RemoveIfTrue(d, "HistoFolderNameUp"), "HistoFolderNameDown");
    if HasKey(d1, "Type") then Remove(d1, "Type") else d1
  }

  /** The folders put under the unfolding keys, up then down. */
  function FoldersRenamed(c: Block, up: Option<Value>, down: Option<Value>): (r: Block)
    ensures forall k :: k in UnfoldingFolderKeys(true) && up.Some? ==> Lookup(r, k) == up
    ensures forall k :: k in UnfoldingFolderKeys(false) && down.Some? ==> Lookup(r, k) == down
    ensures forall k :: (up.None? || k !in UnfoldingFolderKeys(true)) && (down.None? || k !in UnfoldingFolderKeys(false)) ==>
      Lookup(r, k) == Lookup(c, k)
  {
    var keysUp := UnfoldingFolderKeys(true);
    var keysDown := UnfoldingFolderKeys(false);
    assert forall k :: k in keysDown ==> k !in keysUp;
    PutIfTrue(PutIfTrue(c, up, true), down, false)
  }

  /** UnfoldingFolders key by key: Type is gone; a true histogram folder is
      gone and renamed to the three unfolding folders of its direction;
      every other key keeps its value. */
  lemma UnfoldingFoldersLookup(d: Block, k: string)
    ensures !HasKey(UnfoldingFolders(d), "Type")
    ensures k in UnfoldingFolderKeys(true) && TrueValue(d, "HistoFolderNameUp").Some? ==>
      Lookup(UnfoldingFolders(d), k) == Lookup(d, "HistoFolderNameUp")
    ensures k in UnfoldingFolderKeys(false) && TrueValue(d, "HistoFolderNameDown").Some? ==>
      Lookup(UnfoldingFolders(d), k) == Lookup(d, "HistoFolderNameDown")
    ensures (k == "HistoFolderNameUp" || k == "HistoFolderNameDown") ==>
      Lookup(UnfoldingFolders(d), k) == if TrueValue(d, k).Some? then None else Lookup(d, k)
    ensures k != "Type" && k !in UnfoldingFolderKeys(true) && k !in UnfoldingFolderKeys(false)
            && k != "HistoFolderNameUp" && k != "HistoFolderNameDown" ==>
      Lookup(UnfoldingFolders(d), k) == Lookup(d, k)
  {
    var c := Cleared(d);
    assert "Type" !in UnfoldingFolderKeys(true) && "Type" !in UnfoldingFolderKeys(false);
    assert "HistoFolderNameUp" !in UnfoldingFolderKeys(true) && "HistoFolderNameUp" !in UnfoldingFolderKeys(false);
    assert "HistoFolderNameDown" !in UnfoldingFolderKeys(true) && "HistoFolderNameDown" !in UnfoldingFolderKeys(false);
  }

  /** A copy of a systematic for one side of the split: the other side's
      samples taken out of its Exclude and Samples lists. */
  function Trimmed(d: Block, others: seq<string>): (r: Result<Block>)
    ensures r.Ok? ==> forall k :: k != "Exclude" && k != "Samples" ==> Lookup(r.value, k) == Lookup(d, k)
  {
    var d1 :- RemoveItems(d, "Exclude", Some(others));
    RemoveItems(d1, "Samples", Some(others))
  }

  /** The unfolding side additionally has its folders renamed. */
  function UnfoldingBlock(d: Block, inclusive: seq<string>): (r: Result<Block>)
    ensures r.Ok? <==> Trimmed(d, inclusive).Ok?
  {
    var d1 :- Trimmed(d, inclusive);
    Ok(UnfoldingFolders(d1))
  }

  /** A block that the export writes only when it has settings. */
  function Written(kind: string, name: string, b: Block): (r: Option<Syst>)
    ensures r.Some? <==> |b| > 0
    ensures r.Some? ==> r.value == Syst(kind, name, b)
  {
    if |b| > 0 then Some(Syst(kind, name, b)) else None
  }

  /** split_systematics_into_inclusive_and_unfolding: without unfolding
      samples the systematic is kept whole; otherwise its samples are
      split, and each side that has samples gets a copy of the block with
      the other side's samples taken out, written when it has settings. */
  function SplitSystematic(t: Syst, allMC: seq<string>, unfolding: Option<seq<string>>, inclusive: seq<string>)
    : (r: Result<(Option<Syst>, Option<Syst>)>)
    ensures unfolding.None? ==> r == Ok((Some(t), None))
    ensures unfolding.Some? && r.Ok? ==> EffectiveSamples(t.settings, allMC).Ok?
    ensures unfolding.Some? && r.Ok? && r.value.0.Some? ==>
      r.value.0.value.kind == "Systematic" && r.value.0.value.name == t.name
      && (exists x :: x in EffectiveSamples(t.settings, allMC).value && x !in unfolding.value)
      && Trimmed(t.settings, unfolding.value) == Ok(r.value.0.value.settings)
    ensures unfolding.Some? && r.Ok? && r.value.1.Some? ==>
      r.value.1.value.kind == "UnfoldingSystematic" && r.value.1.value.name == t.name
      && (exists x :: x in EffectiveSamples(t.settings, allMC).value && x in unfolding.value)
      && UnfoldingBlock(t.settings, inclusive) == Ok(r.value.1.value.settings)
  {
    if unfolding.None? then Ok((Some(t), None))
    else
      var samples :- EffectiveSamples(t.settings, allMC);
      var (incl, unf) := SplitSamples(samples, unfolding.value);
      var i :- if |incl| > 0 then
                 var b :- Trimmed(t.settings, unfolding.value);
                 Ok(Written("Systematic", t.name, b))
               else Ok(None);
      var u :- if |unf| > 0 then
                 var b :- UnfoldingBlock(t.settings, inclusive);
                 Ok(Written("UnfoldingSystematic", t.name, b))
               else Ok(None);
      assert i.Some? ==> incl[0] in incl;
      assert u.Some? ==> unf[0] in unf;
      Ok((i, u))
  }

  /** remove_items on a comma list without repetitions: the key is deleted
      exactly when every listed item is removed, and otherwise what is left
      lists exactly the items that were not removed. */
  lemma RemoveItemsDistinct(d: Block, key: string, v: string, items: seq<string>)
    requires Lookup(d, key) == Some(Str(v)) && Seqs.Distinct(ListedItems(v))
    ensures RemoveItems(d, key, Some(items)).Ok?
    ensures var r := RemoveItems(d, key, Some(items)).value;
      && (!HasKey(r, key) <==> forall x :: x in ListedItems(v) ==> x in items)
      && (HasKey(r, key) ==>
            (exists s :: Lookup(r, key) == Some(Str(s))
                         && forall x :: x in StringOps.PySplit(s, ',') <==> x in ListedItems(v) && x !in items))
  {
    RemoveItemsLeaves(d, key, v, items);
    RemainingItems(RemoveItems(d, key, Some(items)).value, key, ListedItems(v), items);
  }

  /** The multiset reading of a removal, for a list without repetitions,
      read as membership. */
  lemma RemainingItems(r: Block, key: string, listed: seq<string>, items: seq<string>)
    requires Seqs.Distinct(listed)
    requires !HasKey(r, key) <==> multiset(listed) <= multiset(items)
    requires HasKey(r, key) ==>
      (exists s :: Lookup(r, key) == Some(Str(s))
                   && multiset(StringOps.PySplit(s, ',')) == multiset(listed) - multiset(items))
    ensures !HasKey(r, key) <==> forall x :: x in listed ==> x in items
    ensures HasKey(r, key) ==>
      (exists s :: Lookup(r, key) == Some(Str(s))
                   && forall x :: x in StringOps.PySplit(s, ',') <==> x in listed && x !in items)
  {
    DistinctCovered(listed, items);
    if HasKey(r, key) {
      var s :| Lookup(r, key) == Some(Str(s))
               && multiset(StringOps.PySplit(s, ',')) == multiset(listed) - multiset(items);
      DistinctLeft(listed, items, StringOps.PySplit(s, ','));
    }
  }

  /** Every item of a sequence without repetitions is removed exactly when
      the removal covers it as a multiset. */
  lemma DistinctCovered(listed: seq<string>, items: seq<string>)
    requires Seqs.Distinct(listed)
    ensures multiset(listed) <= multiset(items) <==> forall x :: x in listed ==> x in items
  {
    forall x ensures multiset(listed)[x] <= multiset(items)[x] <==> (x in listed ==> x in items) {
      DistinctCount(listed, x);
    }
  }

  /** What removal leaves of a sequence without repetitions: the items not
      removed. */
  lemma DistinctLeft(listed: seq<string>, items: seq<string>, left: seq<string>)
    requires Seqs.Distinct(listed) && multiset(left) == multiset(listed) - multiset(items)
    ensures forall x :: x in left <==> x in listed && x !in items
  {
    forall x ensures x in left <==> x in listed && x !in items {
      DistinctCount(listed, x);
      assert x in left <==> multiset(left)[x] > 0;
    }
  }

  /** Each side's copy keeps none of the other side's samples in its
      sample list, when that list names each sample once. */
  lemma TrimmedSamples(d: Block, others: seq<string>, v: string)
    requires Lookup(d, "Samples") == Some(Str(v)) && Seqs.Distinct(ListedItems(v))
    requires Trimmed(d, others).Ok?
    ensures var b := Trimmed(d, others).value;
      && (!HasKey(b, "Samples") <==> forall x :: x in ListedItems(v) ==> x in others)
      && (HasKey(b, "Samples") ==>
            (exists s :: Lookup(b, "Samples") == Some(Str(s))
                         && forall x :: x in StringOps.PySplit(s, ',') <==> x in ListedItems(v) && x !in others))
  {
    var d1 := RemoveItems(d, "Exclude", Some(others)).value;
    assert Lookup(d1, "Samples") == Some(Str(v));
    RemoveItemsDistinct(d1, "Samples", v, others);
  }

  /** The unfolding block renames the histogram folders of the systematic
      and drops its Type. */
  lemma UnfoldingBlockFolders(d: Block, inclusive: seq<string>, k: string)
    requires UnfoldingBlock(d, inclusive).Ok?
    ensures !HasKey(UnfoldingBlock(d, inclusive).value, "Type")
    ensures k in UnfoldingFolderKeys(true) && TrueValue(d, "HistoFolderNameUp").Some? ==>
      Lookup(UnfoldingBlock(d, inclusive).value, k) == Lookup(d, "HistoFolderNameUp")
    ensures k in UnfoldingFolderKeys(false) && TrueValue(d, "HistoFolderNameDown").Some? ==>
      Lookup(UnfoldingBlock(d, inclusive).value, k) == Lookup(d, "HistoFolderNameDown")
  {
    TrimmedFolders(d, inclusive);
    UnfoldedFolders(d, Trimmed(d, inclusive).value, UnfoldingBlock(d, inclusive).value, k);
  }

  /** The unfolding block is the trimmed copy with its folders unfolded,
      and trimming keeps the histogram folders. */
  lemma TrimmedFolders(d: Block, inclusive: seq<string>)
    requires UnfoldingBlock(d, inclusive).Ok?
    ensures Trimmed(d, inclusive).Ok?
    ensures UnfoldingBlock(d, inclusive).value == UnfoldingFolders(Trimmed(d, inclusive).value)
    ensures Lookup(Trimmed(d, inclusive).value, "HistoFolderNameUp") == Lookup(d, "HistoFolderNameUp")
    ensures Lookup(Trimmed(d, inclusive).value, "HistoFolderNameDown") == Lookup(d, "HistoFolderNameDown")
  {
    FoldersOutsideTrim(d, Trimmed(d, inclusive).value);
  }

  /** A copy that differs at most in Exclude and Samples has the same
      histogram folders. */
  lemma FoldersOutsideTrim(d: Block, d1: Block)
    requires forall k :: k != "Exclude" && k != "Samples" ==> Lookup(d1, k) == Lookup(d, k)
    ensures Lookup(d1, "HistoFolderNameUp") == Lookup(d, "HistoFolderNameUp")
    ensures Lookup(d1, "HistoFolderNameDown") == Lookup(d, "HistoFolderNameDown")
  {
    assert |"HistoFolderNameUp"| != |"Exclude"| && |"HistoFolderNameUp"| != |"Samples"|;
    assert |"HistoFolderNameDown"| != |"Exclude"| && |"HistoFolderNameDown"| != |"Samples"|;
  }

  /** The unfolding folders of a copy that keeps the histogram folders
      of `d` are those of `d`. */
  lemma UnfoldedFolders(d: Block, d1: Block, u: Block, k: string)
    requires Lookup(d1, "HistoFolderNameUp") == Lookup(d, "HistoFolderNameUp")
    requires Lookup(d1, "HistoFolderNameDown") == Lookup(d, "HistoFolderNameDown")
    requires u == UnfoldingFolders(d1)
    ensures !HasKey(u, "Type")
    ensures k in UnfoldingFolderKeys(true) && TrueValue(d, "HistoFolderNameUp").Some? ==>
      Lookup(u, k) == Lookup(d, "HistoFolderNameUp")
    ensures k in UnfoldingFolderKeys(false) && TrueValue(d, "HistoFolderNameDown").Some? ==>
      Lookup(u, k) == Lookup(d, "HistoFolderNameDown")
  {
    SameTrueValue(d, d1, "HistoFolderNameUp");
    SameTrueValue(d, d1, "HistoFolderNameDown");
    UnfoldingFoldersLookup(d1, k);
  }

  /** The unfolding block keeps a histogram folder only when it is false. */
  lemma UnfoldingBlockHistoFolders(d: Block, inclusive: seq<string>, k: string)
    requires UnfoldingBlock(d, inclusive).Ok?
    requires k == "HistoFolderNameUp" || k == "HistoFolderNameDown"
    ensures Lookup(UnfoldingBlock(d, inclusive).value, k) == if TrueValue(d, k).Some? then None else Lookup(d, k)
  {
    var d1 := Trimmed(d, inclusive).value;
    SameTrueValue(d, d1, k);
    UnfoldingFoldersLookup(d1, k);
  }

  /** The settings the unfolding block shares with the systematic. */
  lemma UnfoldingBlockKeeps(d: Block, inclusive: seq<string>, k: string)
    requires UnfoldingBlock(d, inclusive).Ok?
    requires k != "Type" && k !in UnfoldingFolderKeys(true) && k !in UnfoldingFolderKeys(false)
    requires k != "HistoFolderNameUp" && k != "HistoFolderNameDown" && k != "Samples" && k != "Exclude"
    ensures Lookup(UnfoldingBlock(d, inclusive).value, k) == Lookup(d, k)
  {
    UnfoldingFoldersLookup(Trimmed(d, inclusive).value, k);
  }

  lemma SameTrueValue(a: Block, b: Block, key: string)
    requires Lookup(a, key) == Lookup(b, key)
    ensures TrueValue(a, key) == TrueValue(b, key)
  {
  }
}

=== FILE: truth_reader.dfy ===
/** The reader of a truth block inside a sample (BlockReaderSampleTruth):
    the truth tree, its selection and weight, the variables to histogram,
    and the pairs of reco and truth variables used to match events. */
module TruthReader {
  import opened Wrappers
  import opened Values
  import opened OptionLedger
  import VariableModel
  import VariableReader
  import Numbering

  /** A truth block as the native side stores it. */
  datatype Truth = Truth(name: string, treeName: string, selection: string, eventWeight: string,
                         matchVariables: seq<(string, string)>, pairRecoAndTruth: bool,
                         variables: seq<VariableModel.Variable>, branches: seq<string>,
                         excludedBranches: seq<string>, produceUnfolding: bool)

  const TruthOptions: set<string> := {"name", "truth_tree_name", "selection", "event_weight", "match_variables",
                                      "pair_reco_and_truth_trees", "variables", "branches", "excluded_branches",
                                      "produce_unfolding"}

  /** The required strings of a truth block, read in order. */
  datatype Names = Names(name: string, treeName: string, selection: string, eventWeight: string)

  /** name, truth_tree_name and event_weight are required; selection
      defaults to "true" and, being handed to a native setter, must be a
      string. */
  function ReadNames(l: Ledger): (r: Result<(Names, Ledger)>)
    ensures !HasKey(l.block, "name") || !HasKey(l.block, "truth_tree_name") || !HasKey(l.block, "event_weight") ==> r.Fail?
    ensures r.Ok? ==> r.value.1.block == l.block && l.used <= r.value.1.used
    ensures r.Ok? ==> r.value.1.used <= l.used + {"name", "truth_tree_name", "selection", "event_weight"}
    ensures r.Ok? ==> Lookup(l.block, "name") == Some(Str(r.value.0.name))
    ensures r.Ok? ==> Lookup(l.block, "truth_tree_name") == Some(Str(r.value.0.treeName))
    ensures r.Ok? ==> Lookup(l.block, "event_weight") == Some(Str(r.value.0.eventWeight))
    ensures r.Ok? ==> r.value.0.selection == StrOr(l.block, "selection", "true")
  {
    var (name, l1) :- GetStr(l, "name");
    :- Need(name.Some?, MissingOption("name"));
    var (tree, l2) :- GetStr(l1, "truth_tree_name");
    :- Need(tree.Some?, MissingOption("truth_tree_name"));
    var (selection, l3) := GetAny(l2, "selection");
    :- Need(selection.None? || selection.value.Str?, WrongType("selection"));
    :- Need(!HasKey(l.block, "selection") || selection.Some?, WrongType("selection"));
    var (weight, l4) :- GetStr(l3, "event_weight");
    :- Need(weight.Some?, MissingOption("event_weight"));
    var sel := if selection.Some? then selection.value.s else "true";
    Ok((Names(name.value, tree.value, sel, weight.value), l4))
  }

  /** One entry of match_variables: reco and truth are both required; other
      keys are not checked. */
  function ReadMatch(m: Block): (r: Result<(string, string)>)
    ensures r.Ok? <==> Lookup(m, "reco").Some? && Lookup(m, "reco").value.Str?
                       && Lookup(m, "truth").Some? && Lookup(m, "truth").value.Str?
    ensures r.Ok? ==> Lookup(m, "reco") == Some(Str(r.value.0)) && Lookup(m, "truth") == Some(Str(r.value.1))
  {
    var (reco, l1) :- GetStr(Fresh(m), "reco");
    var (truth, l2) :- GetStr(l1, "truth");
    :- Need(reco.Some? && truth.Some?, MissingOption("reco/truth"));
    Ok((reco.value, truth.value))
  }

  /** The remaining options of a truth block as read. */
  datatype RawRest = RawRest(matches: seq<Block>, pair: bool, variables: seq<Block>, branches: seq<string>,
                             excluded: seq<string>, produceUnfolding: bool)

  /** match_variables, pair_reco_and_truth_trees (defaulting to whether any
      match variable is given), variables, branches (default [".*"]),
      excluded_branches and produce_unfolding. */
  function ReadRest(l: Ledger): (r: Result<(RawRest, Ledger)>)
    ensures r.Ok? ==> r.value.1.block == l.block && l.used <= r.value.1.used
    ensures r.Ok? ==> r.value.1.used <= l.used + TruthOptions
    ensures r.Ok? ==> r.value.0.pair == BoolOr(l.block, "pair_reco_and_truth_trees", |r.value.0.matches| > 0)
    ensures r.Ok? && !HasKey(l.block, "branches") ==> r.value.0.branches == [".*"]
  {
    var (matches, l1) :- GetBlockList(l, "match_variables");
    var ms := matches.GetOr([]);
    var (pair, l2) :- GetBool(l1, "pair_reco_and_truth_trees", |ms| > 0);
    var (variables, l3) :- GetBlockList(l2, "variables");
    var (branches, l4) :- GetStrListOr(l3, "branches", [".*"]);
    var (excluded, l5) :- GetStrListOr(l4, "excluded_branches", []);
    var (unfolding, l6) :- GetBool(l5, "produce_unfolding", false);
    Ok((RawRest(ms, pair, variables.GetOr([]), branches, excluded, unfolding), l6))
  }

  /** BlockReaderSampleTruth. Match variables demand pairing; no option may
      be left unread; the variables and the match variables are unrolled
      and read. */
  function ReadTruth(b: Block): (r: Result<Truth>)
    ensures !HasKey(b, "name") || !HasKey(b, "truth_tree_name") || !HasKey(b, "event_weight") ==> r.Fail?
    ensures r.Ok? ==> Lookup(b, "name") == Some(Str(r.value.name))
    ensures r.Ok? ==> Lookup(b, "truth_tree_name") == Some(Str(r.value.treeName))
    ensures r.Ok? ==> Lookup(b, "event_weight") == Some(Str(r.value.eventWeight))
    ensures r.Ok? ==> r.value.selection == StrOr(b, "selection", "true")
    ensures r.Ok? && |r.value.matchVariables| > 0 ==> r.value.pairRecoAndTruth
    ensures r.Ok? ==> forall k :: k in Keys(b) ==> k in TruthOptions
  {
    var (names, l1) :- ReadNames(Fresh(b));
    var (rest, l2) :- ReadRest(l1);
    :- Need(|rest.matches| == 0 || rest.pair, ConflictingOptions("match_variables", "pair_reco_and_truth_trees"));
    var variableBlocks :- Numbering.Unroll(rest.variables, None);
    var unused := Unused(l2);
    :- Need(|unused| == 0, UnusedOptions(unused));
    NothingUnused(l2);
    var variables :- MapAll(variableBlocks, VariableReader.ReadVariable);
    var matchBlocks :- Numbering.Unroll(rest.matches, None);
    assert |matchBlocks| > 0 ==> |rest.matches| > 0;
    var matches :- MapAll(matchBlocks, ReadMatch);
    Ok(Truth(names.name, names.treeName, names.selection, names.eventWeight, matches, rest.pair,
             variables, rest.branches, rest.excluded, rest.produceUnfolding))
  }

  /** The first reco variable of the matches that is not among `known`. */
  function MissingReco(matches: seq<(string, string)>, known: seq<string>): (r: Option<string>)
    ensures r.None? <==> forall k :: 0 <= k < |matches| ==> matches[k].0 in known
    ensures r.Some? ==> r.value !in known && exists k :: 0 <= k < |matches| && matches[k].0 == r.value
    decreases |matches|
  {
    if |matches| == 0 then None
    else if matches[0].0 !in known then Some(matches[0].0)
    else
      var r := MissingReco(matches[1..], known);
      assert forall k :: 1 <= k < |matches| ==> matches[k] == matches[1..][k - 1];
      r
  }

  /** check_reco_variables_existence: every reco side of a match must be a
      variable of some region. */
  function CheckRecoVariables(t: Truth, recoVariables: seq<string>): (r: Outcome)
    ensures r.Pass? <==> forall k :: 0 <= k < |t.matchVariables| ==> t.matchVariables[k].0 in recoVariables
  {
    match MissingReco(t.matchVariables, recoVariables)
    case None => Pass
    case Some(reco) => Stop(UnknownReference(reco))
  }
}

=== FILE: unique_samples.dfy ===
/** resolve_unique_samples: before the sample blocks are read, every
    sample block is given the list of its unique sample identities
    (`_internal_unique_samples`, tuples (dsid, campaign, simulation type))
    and its data flag (`_is_data`). A plain sample takes the cross product
    of its selected campaigns and its dataset numbers; a composed sample
    (`included_samples`) concatenates the lists of the samples it names. */
module UniqueSamples {
  import opened Wrappers
  import opened Values
  import Seqs
  import StringOps
  import CommandLine
  import SampleIds

  type Id = SampleIds.UniqueSampleId

  /** The tuple (dsid, campaign, simulation_type) stored for an identity. */
  function IdValue(id: Id): Value {
    Tuple([Int(id.dsid), Str(id.campaign), Str(id.simulation)])
  }

  /** The stored list of identities. */
  function IdList(ids: seq<Id>): (r: Value)
    ensures r.List? && |r.items| == |ids| && forall k :: 0 <= k < |ids| ==> r.items[k] == IdValue(ids[k])
  {
    List(seq(|ids|, k requires 0 <= k < |ids| => IdValue(ids[k])))
  }

  /** Storing identities loses nothing: different identities are
      different tuples. */
  lemma IdValueInjective(x: Id, y: Id)
    ensures IdValue(x) == IdValue(y) ==> x == y
  {
    if IdValue(x) == IdValue(y) {
      assert IdValue(x).items[0] == IdValue(y).items[0];
      assert IdValue(x).items[1] == IdValue(y).items[1];
      assert IdValue(x).items[2] == IdValue(y).items[2];
    }
  }

  // ---------------------------------------------------------------------
  // Plain samples

  /** The identities of one campaign, one per dataset number, in order. */
  function Row(campaign: string, dsids: seq<int>, simulation: string): (r: seq<Id>)
    ensures |r| == |dsids|
    ensures forall j :: 0 <= j < |dsids| ==> r[j] == SampleIds.UniqueSampleId(dsids[j], campaign, simulation)
  {
    seq(|dsids|, j requires 0 <= j < |dsids| => SampleIds.UniqueSampleId(dsids[j], campaign, simulation))
  }

  /** The identities of a plain sample, campaign-major: for each campaign
      in order, every dataset number in order. */
  function CrossProduct(campaigns: seq<string>, dsids: seq<int>, simulation: string): (r: seq<Id>)
    ensures |r| == |campaigns| * |dsids|
    ensures forall id :: id in r <==> id.campaign in campaigns && id.dsid in dsids && id.simulation == simulation
    decreases |campaigns|
  {
    if |campaigns| == 0 then []
    else
      var row := Row(campaigns[0], dsids, simulation);
      var rest := CrossProduct(campaigns[1..], dsids, simulation);
      assert forall id :: id in row <==> id.campaign == campaigns[0] && id.dsid in dsids && id.simulation == simulation by {
        forall id: Id | id.campaign == campaigns[0] && id.dsid in dsids && id.simulation == simulation
          ensures id in row
        {
          var j :| 0 <= j < |dsids| && dsids[j] == id.dsid;
          assert row[j] == id;
        }
      }
      assert forall c :: c in campaigns <==> c == campaigns[0] || c in campaigns[1..];
      row + rest
  }

  /** Campaign-major order: the identities of a list of campaigns are
      those of its first part followed by those of the rest, and a single
      campaign contributes one row. */
  lemma {:induction false} CrossProductAppend(first: seq<string>, more: seq<string>, dsids: seq<int>, simulation: string)
    ensures CrossProduct(first + more, dsids, simulation)
            == CrossProduct(first, dsids, simulation) + CrossProduct(more, dsids, simulation)
    decreases |first|
  {
    if |first| > 0 {
      assert (first + more)[1..] == first[1..] + more;
      CrossProductAppend(first[1..], more, dsids, simulation);
    } else {
      assert first + more == more;
    }
  }

  /** A single campaign gives one identity per dataset number, in order. */
  lemma CrossProductSingle(campaign: string, dsids: seq<int>, simulation: string)
    ensures CrossProduct([campaign], dsids, simulation) == Row(campaign, dsids, simulation)
  {
    assert [campaign][1..] == [];
  }

  /** Different campaigns and different dataset numbers give different
      identities. */
  lemma {:induction false} CrossProductDistinct(campaigns: seq<string>, dsids: seq<int>, simulation: string)
    requires Seqs.Distinct(campaigns) && Seqs.Distinct(dsids)
    ensures Seqs.Distinct(CrossProduct(campaigns, dsids, simulation))
    decreases |campaigns|
  {
    if |campaigns| > 0 {
      var row := Row(campaigns[0], dsids, simulation);
      var rest := CrossProduct(campaigns[1..], dsids, simulation);
      assert Seqs.Distinct(campaigns[1..]);
      CrossProductDistinct(campaigns[1..], dsids, simulation);
      assert campaigns[0] !in campaigns[1..];
      var r := row + rest;
      forall a, b | 0 <= a < b < |r| ensures r[a] != r[b] {
        if b < |row| {
          assert row[a] != row[b];
        } else if a < |row| {
          assert r[a].campaign == campaigns[0];
          assert r[b] in rest;
        } else {
          assert r[a] == rest[a - |row|] && r[b] == rest[b - |row|];
        }
      }
    }
  }

  /** A value read as a string; anything else is fatal. */
  function AsStr(v: Value, option: string): (r: Result<string>)
    ensures r.Ok? <==> v.Str?
    ensures r.Ok? ==> v == Str(r.value)
  {
    if v.Str? then Ok(v.s) else Fail(WrongType(option))
  }

  /** A value read as a list of strings; anything else is fatal. */
  function AsStrList(v: Value, option: string): (r: Result<seq<string>>)
    ensures r.Ok? <==> v.List? && Strings(v.items).Some?
    ensures r.Ok? ==> v == StrList(r.value)
  {
    if v.List? && Strings(v.items).Some? then
      var strs := Strings(v.items).value;
      assert StrList(strs).items == v.items;
      Ok(strs)
    else Fail(WrongType(option))
  }

  /** A value read as a list of integers; anything else is fatal. */
  function AsIntList(v: Value, option: string): (r: Result<seq<int>>)
    ensures r.Ok? <==> v.List? && forall k :: 0 <= k < |v.items| ==> v.items[k].Int?
    ensures r.Ok? ==> |r.value| == |v.items| && forall k :: 0 <= k < |v.items| ==> v.items[k] == Int(r.value[k])
  {
    if v.List? && forall k :: 0 <= k < |v.items| ==> v.items[k].Int? then
      Ok(seq(|v.items|, k requires 0 <= k < |v.items| => v.items[k].i))
    else Fail(WrongType(option))
  }

  /** The simulation type reads "DATA" once upper-cased. */
  predicate IsDataType(simulation: string) {
    StringOps.ToUpper(simulation) == "DATA"
  }

  /** What a plain sample gives: its simulation type, campaigns and
      dataset numbers, and whether it is data. */
  datatype Leaf = Leaf(simulation: string, campaigns: seq<string>, dsids: seq<int>, isData: bool)

  /** The dataset numbers of a plain sample and whether it is data: a data
      sample has the single dataset number 0; any other needs its dsids,
      with no number twice. */
  function LeafDsids(b: Block, simulation: string): (r: Result<(seq<int>, bool)>)
    ensures IsDataType(simulation) ==> r == Ok(([0], true))
    ensures !IsDataType(simulation) && !HasKey(b, "dsids") ==> r.Fail?
    ensures !IsDataType(simulation) && r.Ok? ==>
      !r.value.1 && Seqs.Distinct(r.value.0) && AsIntList(Lookup(b, "dsids").value, "dsids") == Ok(r.value.0)
    ensures !IsDataType(simulation) && HasKey(b, "dsids") && AsIntList(Lookup(b, "dsids").value, "dsids").Ok? ==>
      (r.Ok? <==> Seqs.Distinct(AsIntList(Lookup(b, "dsids").value, "dsids").value))
  {
    if IsDataType(simulation) then Ok(([0], true))
    else
      :- Need(HasKey(b, "dsids"), MissingOption("dsids"));
      var dsids :- AsIntList(Lookup(b, "dsids").value, "dsids");
      :- Need(Seqs.Distinct(dsids), DuplicateName("dsids"));
      Ok((dsids, false))
  }

  /** The options of a plain sample: simulation_type and campaigns are
      required. */
  function ReadLeaf(b: Block): (r: Result<Leaf>)
    ensures !HasKey(b, "simulation_type") || !HasKey(b, "campaigns") ==> r.Fail?
    ensures r.Ok? ==> Lookup(b, "simulation_type") == Some(Str(r.value.simulation))
    ensures r.Ok? ==> Lookup(b, "campaigns") == Some(StrList(r.value.campaigns))
    ensures r.Ok? ==> LeafDsids(b, r.value.simulation) == Ok((r.value.dsids, r.value.isData))
    ensures r.Ok? ==> (r.value.isData <==> IsDataType(r.value.simulation))
  {
    var simulationGiven := Need(HasKey(b, "simulation_type"), MissingOption("simulation_type"));
    :- simulationGiven;
    :- Need(HasKey(b, "campaigns"), MissingOption("campaigns"));
    var simulation :- AsStr(Lookup(b, "simulation_type").value, "simulation_type");
    var campaigns :- AsStrList(Lookup(b, "campaigns").value, "campaigns");
    var (dsids, isData) :- LeafDsids(b, simulation);
    Ok(Leaf(simulation, campaigns, dsids, isData))
  }

  /** A block carrying its identities and data flag. */
  function Marked(b: Block, ids: seq<Value>, isData: bool): (r: Block)
    ensures Lookup(r, "_internal_unique_samples") == Some(List(ids)) && Lookup(r, "_is_data") == Some(Bool(isData))
    ensures forall k :: k !in {"_internal_unique_samples", "_is_data"} ==> Lookup(r, k) == Lookup(b, k)
  {
    Put(Put(b, "_is_data", Bool(isData)), "_internal_unique_samples", List(ids))
  }

  /** The plain sample once resolved: the identities are the cross product
      of the campaigns selected on the command line with the dataset
      numbers, and the three options that produced them are gone. */
  function LeafBlock(b: Block, leaf: Leaf, selectedCampaigns: Option<seq<string>>): (r: Block)
    ensures !HasKey(r, "simulation_type") && !HasKey(r, "campaigns") && !HasKey(r, "dsids")
    ensures Lookup(r, "_internal_unique_samples")
            == Some(IdList(CrossProduct(CommandLine.KeepSelected(leaf.campaigns, selectedCampaigns), leaf.dsids, leaf.simulation)))
    ensures Lookup(r, "_is_data") == Some(Bool(leaf.isData))
    ensures forall k :: k !in {"simulation_type", "campaigns", "dsids"} && k !in {"_internal_unique_samples", "_is_data"} ==> Lookup(r, k) == Lookup(b, k)
  {
    var ids := CrossProduct(CommandLine.KeepSelected(leaf.campaigns, selectedCampaigns), leaf.dsids, leaf.simulation);
    Stripped(Marked(b, IdList(ids).items, leaf.isData))
  }

  /** A block without the three options of a plain sample. */
  function Stripped(b: Block): (r: Block)
    ensures !HasKey(r, "simulation_type") && !HasKey(r, "campaigns") && !HasKey(r, "dsids")
    ensures forall k :: k !in {"simulation_type", "campaigns", "dsids"} ==> Lookup(r, k) == Lookup(b, k)
  {
    Remove(Remove(Remove(b, "simulation_type"), "campaigns"), "dsids")
  }


  /** A plain sample resolved. */
  function ResolveLeaf(b: Block, selectedCampaigns: Option<seq<string>>): (r: Result<Block>)
    ensures r.Ok? <==> ReadLeaf(b).Ok?
    ensures r.Ok? ==> r.value == LeafBlock(b, ReadLeaf(b).value, selectedCampaigns)
  {
    var leaf :- ReadLeaf(b);
    Ok(LeafBlock(b, leaf, selectedCampaigns))
  }

  /** With distinct campaigns and dataset numbers no identity of a plain
      sample occurs twice. */
  lemma LeafIdsDistinct(b: Block, selectedCampaigns: Option<seq<string>>)
    requires ReadLeaf(b).Ok? && Seqs.Distinct(ReadLeaf(b).value.campaigns)
    ensures Seqs.Distinct(CrossProduct(CommandLine.KeepSelected(ReadLeaf(b).value.campaigns, selectedCampaigns),
                                       ReadLeaf(b).value.dsids, ReadLeaf(b).value.simulation))
  {
    var leaf := ReadLeaf(b).value;
    if selectedCampaigns.Some? {
      Seqs.FilterDistinct(leaf.campaigns, x => x in selectedCampaigns.value);
    }
    CrossProductDistinct(CommandLine.KeepSelected(leaf.campaigns, selectedCampaigns), leaf.dsids, leaf.simulation);
  }

  // ---------------------------------------------------------------------
  // Composed samples

  /** The block a name refers to: the last sample of that name, as a
      dictionary keyed by name keeps it. */
  function Named(samples: seq<Block>, name: string): (r: Option<Block>)
    ensures r.Some? ==> exists k :: 0 <= k < |samples| && samples[k] == r.value && Lookup(samples[k], "name") == Some(Str(name))
    ensures r.None? ==> forall k :: 0 <= k < |samples| ==> Lookup(samples[k], "name") != Some(Str(name))
    decreases |samples|
  {
    if |samples| == 0 then None
    else
      var last := samples[|samples| - 1];
      if Lookup(last, "name") == Some(Str(name)) then Some(last)
      else
        var r := Named(samples[..|samples| - 1], name);
        assert forall k :: 0 <= k < |samples| - 1 ==> samples[..|samples| - 1][k] == samples[k];
        r
  }

  /** What one member contributes: its identities and its data flag. */
  datatype Part = Part(ids: seq<Value>, isData: bool)

  /** The contribution of the member called `name`. A member that has not
      been resolved yet (a composed sample later in the list, or the sample
      itself) has neither option, which is fatal. */
  function MemberPart(samples: seq<Block>, name: string): (r: Result<Part>)
    ensures Named(samples, name).None? ==> r.Fail?
    ensures r.Ok? ==> Named(samples, name).Some? &&
                      Lookup(Named(samples, name).value, "_internal_unique_samples") == Some(List(r.value.ids)) &&
                      HasKey(Named(samples, name).value, "_is_data") &&
                      r.value.isData == Truthy(Lookup(Named(samples, name).value, "_is_data").value)
  {
    var member :- match Named(samples, name)
                  case None => Fail(UnknownReference(name))
                  case Some(m) => Ok(m);
    :- Need(HasKey(member, "_internal_unique_samples"), MissingOption("_internal_unique_samples"));
    :- Need(HasKey(member, "_is_data"), MissingOption("_is_data"));
    match Lookup(member, "_internal_unique_samples").value
    case List(items) => Ok(Part(items, Truthy(Lookup(member, "_is_data").value)))
    case _ => Fail(WrongType("_internal_unique_samples"))
  }

  /** The identities of all parts, in part order. */
  function Concat(parts: seq<Part>): (r: seq<Value>)
    ensures forall x :: x in r <==> exists k :: 0 <= k < |parts| && x in parts[k].ids
    decreases |parts|
  {
    if |parts| == 0 then []
    else
      var rest := Concat(parts[1..]);
      assert forall k :: 1 <= k < |parts| ==> parts[k] == parts[1..][k - 1];
      parts[0].ids + rest
  }

  /** How many parts are data. */
  function DataCount(parts: seq<Part>): (r: nat)
    ensures r <= |parts|
    ensures r == 0 <==> forall k :: 0 <= k < |parts| ==> !parts[k].isData
    ensures r == |parts| <==> forall k :: 0 <= k < |parts| ==> parts[k].isData
    decreases |parts|
  {
    if |parts| == 0 then 0
    else
      var rest := DataCount(parts[1..]);
      assert forall k :: 1 <= k < |parts| ==> parts[k] == parts[1..][k - 1];
      (if parts[0].isData then 1 else 0) + rest
  }

  /** The list of member names. */
  function MemberNames(b: Block): (r: Result<seq<string>>)
    ensures !HasKey(b, "included_samples") ==> r.Fail?
    ensures r.Ok? ==> Lookup(b, "included_samples") == Some(StrList(r.value))
  {
    var membersGiven := Need(HasKey(b, "included_samples"), MissingOption("included_samples"));
    :- membersGiven;
    AsStrList(Lookup(b, "included_samples").value, "included_samples")
  }

  /** The parts of a composed sample, one per member name in order; an
      unknown or unresolved member is fatal. */
  function Parts(samples: seq<Block>, b: Block): (r: Result<seq<Part>>)
    ensures !HasKey(b, "included_samples") ==> r.Fail?
    ensures r.Ok? ==> MemberNames(b).Ok? && |r.value| == |MemberNames(b).value|
    ensures r.Ok? ==> forall k :: 0 <= k < |r.value| ==> MemberPart(samples, MemberNames(b).value[k]) == Ok(r.value[k])
    ensures MemberNames(b).Ok? ==>
      (r.Ok? <==> forall k :: 0 <= k < |MemberNames(b).value| ==> MemberPart(samples, MemberNames(b).value[k]).Ok?)
  {
    var members :- MemberNames(b);
    MapAll(members, name => MemberPart(samples, name))
  }

  /** The composed block once its members are merged. */
  function Composed(b: Block, ids: seq<Value>, isData: bool): (r: Block)
    ensures !HasKey(r, "included_samples")
    ensures Lookup(r, "_internal_unique_samples") == Some(List(ids)) && Lookup(r, "_is_data") == Some(Bool(isData))
    ensures forall k :: k !in {"_internal_unique_samples", "_is_data"} && k != "included_samples" ==> Lookup(r, k) == Lookup(b, k)
  {
    Marked(Remove(b, "included_samples"), ids, isData)
  }

  /** The parts are all data or none of them is. */
  predicate Homogeneous(parts: seq<Part>) {
    (forall k :: 0 <= k < |parts| ==> parts[k].isData) || (forall k :: 0 <= k < |parts| ==> !parts[k].isData)
  }

  /** The merge of a composed sample's parts as written: `included_samples`
      is deleted before the mixing check reads its length, so the check
      raises as soon as any member is data, whether or not all are. */
  function MergeAsWritten(b: Block, parts: seq<Part>): (r: Result<Block>)
    ensures r.Ok? ==> forall k :: 0 <= k < |parts| ==> !parts[k].isData
  {
    var nData := DataCount(parts);
    :- Need(nData == 0, MissingOption("included_samples"));
    var ids := Concat(parts);
    :- Need(Seqs.Distinct(ids), DuplicateName("_internal_unique_samples"));
    Ok(Composed(b, ids, nData != 0))
  }

  /** The merge as intended: data and simulation may not be mixed, the
      sample is data when its members are, and no identity may occur
      twice. */
  function Merge(b: Block, parts: seq<Part>): (r: Result<Block>)
    ensures r.Ok? <==> Homogeneous(parts) && Seqs.Distinct(Concat(parts))
    ensures r.Ok? ==> !HasKey(r.value, "included_samples")
    ensures r.Ok? ==> Lookup(r.value, "_internal_unique_samples") == Some(List(Concat(parts)))
    ensures r.Ok? ==> Lookup(r.value, "_is_data") == Some(Bool(exists k :: 0 <= k < |parts| && parts[k].isData))
    ensures r.Ok? ==> forall k :: k !in {"_internal_unique_samples", "_is_data"} && k != "included_samples" ==> Lookup(r.value, k) == Lookup(b, k)
  {
    var nData := DataCount(parts);
    :- Need(nData == 0 || nData == |parts|, ConflictingOptions("data", "simulation"));
    var ids := Concat(parts);
    :- Need(Seqs.Distinct(ids), DuplicateName("_internal_unique_samples"));
    Ok(Composed(b, ids, nData != 0))
  }

  /** A composed sample resolved as written. */
  function ComposeAsWritten(samples: seq<Block>, b: Block): (r: Result<Block>)
    ensures r.Ok? <==> Parts(samples, b).Ok? && MergeAsWritten(b, Parts(samples, b).value).Ok?
    ensures r.Ok? ==> r == MergeAsWritten(b, Parts(samples, b).value)
  {
    var parts :- Parts(samples, b);
    MergeAsWritten(b, parts)
  }

  /** A composed sample resolved as intended: its members' parts merged. */
  function Compose(samples: seq<Block>, b: Block): (r: Result<Block>)
    ensures !HasKey(b, "included_samples") ==> r.Fail?
    ensures r.Ok? <==> Parts(samples, b).Ok? && Merge(b, Parts(samples, b).value).Ok?
    ensures r.Ok? ==> r == Merge(b, Parts(samples, b).value)
  {
    var parts :- Parts(samples, b);
    Merge(b, parts)
  }

  /** Whenever the intended step accepts a sample with a data member, the
      step as written rejects it. */
  lemma AsWrittenRejectsDataMembers(samples: seq<Block>, b: Block, k: nat)
    requires Compose(samples, b).Ok?
    requires k < |Parts(samples, b).value| && Parts(samples, b).value[k].isData
    ensures ComposeAsWritten(samples, b).Fail?
  {
  }

  /** Without data members the two steps agree. */
  lemma AsWrittenAgreesWithoutData(samples: seq<Block>, b: Block)
    requires Parts(samples, b).Ok?
    requires forall k :: 0 <= k < |Parts(samples, b).value| ==> !Parts(samples, b).value[k].isData
    ensures ComposeAsWritten(samples, b) == Compose(samples, b)
  {
  }

  /** A resolved data sample "data15" with the single identity
      (0, "2015", "data"). */
  function DataWorld(): (r: seq<Block>)
    ensures |r| == 1
  {
    [[Entry("name", Str("data15")), Entry("_is_data", Bool(true)),
      Entry("_internal_unique_samples", List([IdValue(SampleIds.UniqueSampleId(0, "2015", "data"))]))]]
  }

  /** The composed sample "all" whose only member is "data15". */
  function ComposedOfData(): (r: Block)
    ensures HasKey(r, "included_samples")
  {
    [Entry("name", Str("all")), Entry("included_samples", List([Str("data15")]))]
  }

  /** A concrete case: a composed sample made of the data sample alone.
      The intended step makes it a data sample; the step as written fails
      on it. */
  lemma AllDataComposedSample()
    ensures Compose(DataWorld(), ComposedOfData()).Ok?
    ensures Lookup(Compose(DataWorld(), ComposedOfData()).value, "_is_data") == Some(Bool(true))
    ensures ComposeAsWritten(DataWorld(), ComposedOfData()).Fail?
  {
    var world := DataWorld();
    var part := Part([IdValue(SampleIds.UniqueSampleId(0, "2015", "data"))], true);
    assert Named(world, "data15") == Some(world[0]);
    assert MemberPart(world, "data15") == Ok(part);
    assert Lookup(ComposedOfData(), "included_samples") == Some(List([Str("data15")]));
    var names := Strings([Str("data15")]);
    assert names.Some? && |names.value| == 1 && names.value[0] == "data15";
    assert names.value == ["data15"];
    assert MemberNames(ComposedOfData()) == Ok(["data15"]);
    var parts := Parts(world, ComposedOfData());
    assert parts.Ok? && |parts.value| == 1 && parts.value[0] == part;
    assert parts.value == [part];
    assert Concat([part]) == part.ids;
    assert DataCount([part]) == 1;
  }

  // ---------------------------------------------------------------------
  // The whole list

  /** Every sample has a name, and a composed sample gives none of the
      options of a plain one. */
  predicate WellNamed(b: Block) {
    HasKey(b, "name") &&
    (HasKey(b, "included_samples") ==> !HasKey(b, "simulation_type") && !HasKey(b, "campaigns") && !HasKey(b, "dsids"))
  }

  /** The first pass over the samples. */
  function CheckNames(samples: seq<Block>): (r: Outcome)
    ensures r.Pass? <==> forall k :: 0 <= k < |samples| ==> WellNamed(samples[k])
    decreases |samples|
  {
    if |samples| == 0 then Pass
    else if !HasKey(samples[0], "name") then Stop(MissingOption("name"))
    else if !WellNamed(samples[0]) then Stop(ConflictingOptions("included_samples", "simulation_type"))
    else
      assert forall k :: 1 <= k < |samples| ==> samples[k] == samples[1..][k - 1];
      CheckNames(samples[1..])
  }

  /** One sample in the second pass: plain samples are resolved, composed
      ones wait for the third. */
  function ResolvePlain(b: Block, selectedCampaigns: Option<seq<string>>): (r: Result<Block>)
    ensures HasKey(b, "included_samples") ==> r == Ok(b)
    ensures !HasKey(b, "included_samples") ==> r == ResolveLeaf(b, selectedCampaigns)
  {
    if HasKey(b, "included_samples") then Ok(b) else ResolveLeaf(b, selectedCampaigns)
  }

  /** The state seen while the composed sample at `k` is merged: the
      samples before it as already processed, itself and those after it as
      they came out of the second pass. */
  function StateAt(done: seq<Block>, pending: seq<Block>, k: nat): (r: seq<Block>)
    requires k <= |done| == |pending|
    ensures |r| == |pending|
  {
    done[..k] + pending[k..]
  }

  /** Replacing the sample at `i` changes none of the states seen after
      it, and the state seen at `i` is the list before the replacement. */
  lemma StateAtStep(done: seq<Block>, pending: seq<Block>, here: Block, i: nat)
    requires i < |done| == |pending|
    requires forall k :: 0 <= k <= i ==> done[k] == pending[i := here][k]
    ensures StateAt(done, pending, i) == pending
    ensures forall k :: i < k <= |pending| ==> StateAt(done, pending[i := here], k) == StateAt(done, pending, k)
  {
    assert done[..i] == pending[..i];
    forall k | i < k <= |pending| ensures StateAt(done, pending[i := here], k) == StateAt(done, pending, k) {
      assert pending[i := here][k..] == pending[k..];
    }
  }

  /** The composed sample at `k` came out of merging its members in the
      state seen at that point. */
  ghost predicate MergedAt(done: seq<Block>, pending: seq<Block>, k: nat)
    requires k < |done| == |pending|
  {
    Compose(StateAt(done, pending, k), pending[k]) == Ok(done[k])
  }

  /** The third pass, from position `i` on: each composed sample merged in
      list order, seeing the composed samples before it already merged. */
  function ComposeFrom(samples: seq<Block>, i: nat): (r: Result<seq<Block>>)
    requires i <= |samples|
    ensures r.Ok? ==> |r.value| == |samples|
    ensures r.Ok? ==> forall k :: 0 <= k < |samples| && (k < i || !HasKey(samples[k], "included_samples")) ==>
      r.value[k] == samples[k]
    ensures r.Ok? ==> forall k :: i <= k < |samples| && HasKey(samples[k], "included_samples") ==>
      MergedAt(r.value, samples, k)
    decreases |samples| - i
  {
    if i == |samples| then Ok(samples)
    else if !HasKey(samples[i], "included_samples") then ComposeFrom(samples, i + 1)
    else
      var composed := Compose(samples, samples[i]);
      if composed.Fail? then Fail(composed.error)
      else
        var next := samples[i := composed.value];
        var rest := ComposeFrom(next, i + 1);
        if rest.Fail? then rest
        else
          ComposeFromStep(samples, i, composed.value, next, rest.value);
          rest
  }

  /** The third pass's step at a composed sample: merging it and then the
      rest keeps the pass's contract. */
  lemma ComposeFromStep(samples: seq<Block>, i: nat, here: Block, next: seq<Block>, r: seq<Block>)
    requires i < |samples| && HasKey(samples[i], "included_samples")
    requires Compose(samples, samples[i]) == Ok(here) && next == samples[i := here]
    requires |r| == |samples|
    requires forall k :: 0 <= k < |samples| && (k < i + 1 || !HasKey(next[k], "included_samples")) ==>
      r[k] == next[k]
    requires forall k :: i + 1 <= k < |samples| && HasKey(next[k], "included_samples") ==>
      MergedAt(r, next, k)
    ensures forall k :: 0 <= k < |samples| && (k < i || !HasKey(samples[k], "included_samples")) ==>
      r[k] == samples[k]
    ensures forall k :: i <= k < |samples| && HasKey(samples[k], "included_samples") ==>
      MergedAt(r, samples, k)
  {
    StateAtStep(r, samples, here, i);
    forall k | i <= k < |samples| && HasKey(samples[k], "included_samples") ensures MergedAt(r, samples, k) {
      if k > i {
        assert next[k] == samples[k];
      }
    }
  }

  /** A sample fully resolved from `before`: identities and data flag
      present, no member list, and the same name. */
  ghost predicate Finished(before: Block, after: Block) {
    !HasKey(after, "included_samples") && HasKey(after, "_internal_unique_samples") && HasKey(after, "_is_data") &&
    Lookup(after, "name") == Lookup(before, "name")
  }

  lemma LeafFinished(b: Block, leaf: Leaf, selectedCampaigns: Option<seq<string>>)
    requires !HasKey(b, "included_samples")
    ensures Finished(b, LeafBlock(b, leaf, selectedCampaigns))
  {
    LeafBlockKeeps(b, leaf, selectedCampaigns, "name");
    LeafBlockKeeps(b, leaf, selectedCampaigns, "included_samples");
  }

  lemma LeafBlockKeeps(b: Block, leaf: Leaf, selectedCampaigns: Option<seq<string>>, key: string)
    requires key !in {"simulation_type", "campaigns", "dsids", "_internal_unique_samples", "_is_data"}
    ensures Lookup(LeafBlock(b, leaf, selectedCampaigns), key) == Lookup(b, key)
  {
  }

  lemma MergedFinished(done: seq<Block>, pending: seq<Block>, k: nat)
    requires k < |done| == |pending| && MergedAt(done, pending, k)
    ensures Finished(pending[k], done[k])
  {
    var parts := Parts(StateAt(done, pending, k), pending[k]).value;
    MergeKeeps(pending[k], parts, "name");
  }

  lemma MergeKeeps(b: Block, parts: seq<Part>, key: string)
    requires Merge(b, parts).Ok?
    requires key !in {"included_samples", "_internal_unique_samples", "_is_data"}
    ensures Lookup(Merge(b, parts).value, key) == Lookup(b, key)
  {
  }

  /** What the third pass leaves at position `k`. */
  lemma ResolvedAt(samples: seq<Block>, leaves: seq<Block>, r: seq<Block>, selectedCampaigns: Option<seq<string>>, k: nat)
    requires k < |samples| == |leaves|
    requires forall j :: 0 <= j < |samples| ==> ResolvePlain(samples[j], selectedCampaigns) == Ok(leaves[j])
    requires ComposeFrom(leaves, 0) == Ok(r)
    ensures Finished(samples[k], r[k])
    ensures !HasKey(samples[k], "included_samples") ==> ResolveLeaf(samples[k], selectedCampaigns) == Ok(r[k])
  {
    if HasKey(samples[k], "included_samples") {
      MergedFinished(r, leaves, k);
    } else {
      LeafFinished(samples[k], ReadLeaf(samples[k]).value, selectedCampaigns);
    }
  }

  /** BlockReaderSample.resolve_unique_samples, with the intended mixing
      check. */
  function ResolveUniqueSamples(samples: seq<Block>, selectedCampaigns: Option<seq<string>>): (r: Result<seq<Block>>)
    ensures r.Ok? ==> forall k :: 0 <= k < |samples| ==> WellNamed(samples[k])
    ensures r.Ok? ==> |r.value| == |samples|
    ensures r.Ok? ==> forall k :: 0 <= k < |samples| && !HasKey(samples[k], "included_samples") ==>
      ResolveLeaf(samples[k], selectedCampaigns) == Ok(r.value[k])
    ensures r.Ok? ==> forall k :: 0 <= k < |samples| ==> Finished(samples[k], r.value[k])
  {
    var namesChecked := CheckNames(samples);
    :- namesChecked;
    var leaves :- MapAll(samples, b => ResolvePlain(b, selectedCampaigns));
    var r :- ComposeFrom(leaves, 0);
    assert forall k :: 0 <= k < |samples| ==> Finished(samples[k], r[k]) &&
      (!HasKey(samples[k], "included_samples") ==> ResolveLeaf(samples[k], selectedCampaigns) == Ok(r[k])) by {
      forall k | 0 <= k < |samples|
        ensures Finished(samples[k], r[k])
        ensures !HasKey(samples[k], "included_samples") ==> ResolveLeaf(samples[k], selectedCampaigns) == Ok(r[k])
      {
        ResolvedAt(samples, leaves, r, selectedCampaigns, k);
      }
    }
    Ok(r)
  }
}

=== FILE: values.dfy ===
/** The values a YAML configuration file decodes to, as the Python readers
    see them: strings, integers, floats, booleans, lists, tuples, mappings
    and null. A mapping keeps its keys in document order, like a Python dict;
    looking a key up finds its first entry. */
module Values {
  import opened Wrappers
  import Seqs

  datatype Value =
    | Str(s: string)
    | Int(i: int)
    | Float(f: real)
    | Bool(b: bool)
    | List(items: seq<Value>)
    | Tuple(items: seq<Value>)
    | Dict(entries: seq<Entry>)
    | Null

  datatype Entry = Entry(key: string, val: Value)

  /** A mapping: one block of the configuration file. */
  type Block = seq<Entry>

  /** Python's `type(...)` of a value, as compared with allowed_types. */
  datatype Tag = StrTag | IntTag | FloatTag | BoolTag | ListTag | TupleTag | DictTag | NullTag

  function TagOf(v: Value): Tag {
    match v
    case Str(_) => StrTag
    case Int(_) => IntTag
    case Float(_) => FloatTag
    case Bool(_) => BoolTag
    case List(_) => ListTag
    case Tuple(_) => TupleTag
    case Dict(_) => DictTag
    case Null => NullTag
  }

  /** The types of what `for element in value` yields, for the iterable
      values: a string yields one-character strings, a mapping its keys. */
  function ElementTags(v: Value): (r: Option<seq<Tag>>)
    ensures r.Some? <==> v.Str? || v.List? || v.Tuple? || v.Dict?
  {
    match v
    case Str(s) => Some(seq(|s|, _ => StrTag))
    case List(items) => Some(seq(|items|, k requires 0 <= k < |items| => TagOf(items[k])))
    case Tuple(items) => Some(seq(|items|, k requires 0 <= k < |items| => TagOf(items[k])))
    case Dict(entries) => Some(seq(|entries|, _ => StrTag))
    case _ => None
  }

  /** The keys of a block, in order. */
  function Keys(b: Block): (r: seq<string>)
    ensures |r| == |b|
    ensures forall k :: 0 <= k < |b| ==> r[k] == b[k].key
  {
    seq(|b|, k requires 0 <= k < |b| => b[k].key)
  }

  /** A well-formed block, as a Python dict: no key twice. */
  predicate WellFormed(b: Block) {
    Seqs.Distinct(Keys(b))
  }

  /** `b[key]` if present. */
  function Lookup(b: Block, key: string): (r: Option<Value>)
    ensures r.Some? ==> exists k :: 0 <= k < |b| && b[k] == Entry(key, r.value)
    ensures r.None? ==> forall k :: 0 <= k < |b| ==> b[k].key != key
    decreases |b|
  {
    if |b| == 0 then None
    else if b[0].key == key then Some(b[0].val)
    else
      var r := Lookup(b[1..], key);
      if r.Some? then
        var k :| 0 <= k < |b[1..]| && b[1..][k] == Entry(key, r.value);
        assert b[k + 1] == Entry(key, r.value);
        r
      else r
  }

  /** `key in b`. */
  predicate HasKey(b: Block, key: string) {
    Lookup(b, key).Some?
  }

  /** Membership agrees with the key list. */
  lemma HasKeyIffInKeys(b: Block, key: string)
    ensures HasKey(b, key) <==> key in Keys(b)
  {
    if key in Keys(b) {
      var k :| 0 <= k < |b| && Keys(b)[k] == key;
      assert b[k].key == key;
    }
  }

  /** `b[key] = v`: replaces the value in place, or appends a new entry. */
  function Put(b: Block, key: string, v: Value): (r: Block)
    ensures Lookup(r, key) == Some(v)
    ensures forall k :: k != key ==> Lookup(r, k) == Lookup(b, k)
    decreases |b|
  {
    if |b| == 0 then [Entry(key, v)]
    else if b[0].key == key then [Entry(key, v)] + b[1..]
    else [b[0]] + Put(b[1..], key, v)
  }

  /** Putting back the value a key already has changes nothing. */
  lemma {:induction false} PutExisting(b: Block, key: string, v: Value)
    requires Lookup(b, key) == Some(v)
    ensures Put(b, key, v) == b
    decreases |b|
  {
    if b[0].key != key {
      PutExisting(b[1..], key, v);
      assert b == [b[0]] + b[1..];
    }
  }

  /** Looking up in two blocks one after the other: the first block wins. */
  lemma {:induction false} LookupAppend(a: Block, b: Block, key: string)
    ensures Lookup(a + b, key) == if HasKey(a, key) then Lookup(a, key) else Lookup(b, key)
    decreases |a|
  {
    if |a| > 0 {
      assert (a + b)[1..] == a[1..] + b;
      LookupAppend(a[1..], b, key);
    } else {
      assert a + b == b;
    }
  }

  /** `del b[key]`: every entry with that key removed. */
  function Remove(b: Block, key: string): (r: Block)
    ensures !HasKey(r, key)
    ensures forall k :: k != key ==> Lookup(r, k) == Lookup(b, k)
    ensures |r| <= |b|
    decreases |b|
  {
    if |b| == 0 then []
    else if b[0].key == key then Remove(b[1..], key)
    else [b[0]] + Remove(b[1..], key)
  }

  /** Python truthiness of a value. */
  predicate Truthy(v: Value) {
    match v
    case Str(s) => |s| > 0
    case Int(i) => i != 0
    case Float(f) => f != 0.0
    case Bool(b) => b
    case List(items) => |items| > 0
    case Tuple(items) => |items| > 0
    case Dict(entries) => |entries| > 0
    case Null => false
  }

  /** The strings of a list of strings. */
  function Strings(items: seq<Value>): (r: Option<seq<string>>)
    ensures r.Some? <==> forall k :: 0 <= k < |items| ==> items[k].Str?
    ensures r.Some? ==> |r.value| == |items| && forall k :: 0 <= k < |items| ==> r.value[k] == items[k].s
  {
    if forall k :: 0 <= k < |items| ==> items[k].Str? then
      Some(seq(|items|, k requires 0 <= k < |items| => items[k].s))
    else None
  }

  /** The mappings of a list of mappings. */
  function Blocks(items: seq<Value>): (r: Option<seq<Block>>)
    ensures r.Some? <==> forall k :: 0 <= k < |items| ==> items[k].Dict?
    ensures r.Some? ==> |r.value| == |items| && forall k :: 0 <= k < |items| ==> r.value[k] == items[k].entries
  {
    if forall k :: 0 <= k < |items| ==> items[k].Dict? then
      Some(seq(|items|, k requires 0 <= k < |items| => items[k].entries))
    else None
  }

  /** A number as Python compares it: an int or a float. */
  function AsReal(v: Value): real
    requires v.Int? || v.Float?
  {
    if v.Int? then v.i as real else v.f
  }

  /** The numbers of a list of ints and floats. */
  function Numbers(items: seq<Value>): (r: Option<seq<real>>)
    ensures r.Some? <==> forall k :: 0 <= k < |items| ==> items[k].Int? || items[k].Float?
    ensures r.Some? ==> |r.value| == |items| && forall k :: 0 <= k < |items| ==> r.value[k] == AsReal(items[k])
  {
    if forall k :: 0 <= k < |items| ==> items[k].Int? || items[k].Float? then
      Some(seq(|items|, k requires 0 <= k < |items| => AsReal(items[k])))
    else None
  }

  /** `b.get(key)` as a string, `default` when absent or not a string. */
  function StrOr(b: Block, key: string, default: string): string {
    match Lookup(b, key)
    case Some(Str(s)) => s
    case _ => default
  }

  /** `b.get(key)` as an integer, `default` when absent or not an integer. */
  function IntOr(b: Block, key: string, default: int): int {
    match Lookup(b, key)
    case Some(Int(i)) => i
    case _ => default
  }

  /** `b.get(key)` as a boolean, `default` when absent or not a boolean. */
  function BoolOr(b: Block, key: string, default: bool): bool {
    match Lookup(b, key)
    case Some(Bool(x)) => x
    case _ => default
  }

  /** `b.get(key)` as a number, `default` when absent or not a number. */
  function NumberOr(b: Block, key: string, default: real): real {
    match Lookup(b, key)
    case Some(Int(i)) => i as real
    case Some(Float(f)) => f
    case _ => default
  }

  function StrList(items: seq<string>): (r: Value)
    ensures r.List? && Strings(r.items) == Some(items)
  {
    var vs := seq(|items|, k requires 0 <= k < |items| => Str(items[k]));
    assert Strings(vs).Some?;
    assert Strings(vs).value == items;
    List(vs)
  }
}

=== FILE: variable_reader.dfy ===
/** The reader of one variable block (BlockReaderVariable): name, title,
    definition, type and a binning block that must describe either a
    regular range or explicit bin edges. */
module VariableReader {
  import opened Wrappers
  import opened Values
  import opened OptionLedger
  import opened VariableModel
  import StringOps

  /** What a binning block says, before it is checked. */
  datatype BinningSpec = BinningSpec(min: real, max: real, nbins: int, edges: seq<real>)

  /** A range with at least one bin. */
  predicate RangeGiven(s: BinningSpec) {
    s.min < s.max && s.nbins > 0
  }

  /** The binnings the reader accepts: two or more edges and no usable
      range, or a usable range and no edges. Edges together with a bin
      count but no range are therefore accepted as edges. */
  predicate Accepted(s: BinningSpec) {
    (|s.edges| >= 2 && !RangeGiven(s)) || (|s.edges| == 0 && RangeGiven(s))
  }

  /** The options of a variable block. */
  const VariableOptions: set<string> := {"name", "title", "definition", "is_nominal_only", "type", "binning"}

  /** The four options of a binning block, with their defaults: min and max
      0, no bins, no edges. Options it does not know are only warned about. */
  function ReadBinningSpec(bb: Block): (r: Result<BinningSpec>)
    ensures r.Ok? ==> r.value.nbins == IntOr(bb, "number_of_bins", 0)
    ensures r.Ok? ==> r.value.min == NumberOr(bb, "min", 0.0) && r.value.max == NumberOr(bb, "max", 0.0)
    ensures r.Ok? && !HasKey(bb, "bin_edges") ==> r.value.edges == []
    ensures r.Ok? && HasKey(bb, "bin_edges") ==>
      Lookup(bb, "bin_edges").value.List? && Numbers(Lookup(bb, "bin_edges").value.items) == Some(r.value.edges)
    ensures HasKey(bb, "bin_edges") && !Lookup(bb, "bin_edges").value.List? ==> r.Fail?
  {
    var l := Fresh(bb);
    var (min, l1) :- GetNumber(l, "min", 0.0);
    var (max, l2) :- GetNumber(l1, "max", 0.0);
    var (nbins, l3) :- GetInt(l2, "number_of_bins", 0);
    var (edges, l4) :- Get(l3, "bin_edges", List([]), Some({ListTag}), Some({IntTag, FloatTag}));
    assert forall k :: 0 <= k < |edges.items| ==> ElementTags(edges).value[k] == TagOf(edges.items[k]);
    var numbers := Numbers(edges.items);
    Ok(BinningSpec(min, max, nbins, numbers.value))
  }

  /** _read_binning after the options are read: exactly one of edges and
      range, at least two edges, at least one bin and min below max; the
      chosen setter is applied to the variable's binning. */
  function ApplyBinning(b: Binning, s: BinningSpec): (r: Result<Binning>)
    ensures r.Ok? <==> Accepted(s)
    ensures r.Ok? && |s.edges| > 0 ==> r.value == SetEdges(b, s.edges)
    ensures r.Ok? && |s.edges| == 0 ==> r.value == SetRange(b, s.min, s.max, s.nbins)
    ensures r.Ok? ==> AxisNbins(r.value) == if |s.edges| > 0 then |s.edges| - 1 else s.nbins
  {
    var regular := s.min < s.max && s.nbins > 0;
    if (|s.edges| != 0) == regular then Fail(ConflictingOptions("bin_edges", "min/max/number_of_bins"))
    else if |s.edges| != 0 then
      if |s.edges| < 2 then Fail(InvalidValue("bin_edges"))
      else Ok(SetEdges(b, s.edges))
    else if s.nbins < 1 then Fail(InvalidValue("number_of_bins"))
    else if s.min >= s.max then Fail(InvalidValue("min"))
    else Ok(SetRange(b, s.min, s.max, s.nbins))
  }

  /** The plain options of a variable block, as the native setters store them. */
  datatype Header = Header(name: string, title: string, definition: string, nominalOnly: bool, vtype: VariableType)

  const HeaderOptions: set<string> := {"name", "title", "definition", "is_nominal_only", "type"}

  /** The five plain options as read, before any check. */
  datatype RawHeader = RawHeader(name: Option<string>, title: string, definition: Option<string>,
                                 nominalOnly: bool, typeName: string)

  /** The five `get` calls of the constructor, in order. */
  function ReadRawHeader(l: Ledger): (r: Result<(RawHeader, Ledger)>)
    ensures r.Ok? ==> r.value.1.block == l.block && l.used <= r.value.1.used <= l.used + HeaderOptions
    ensures r.Ok? ==> (r.value.0.name.Some? <==> HasKey(l.block, "name"))
    ensures r.Ok? && r.value.0.name.Some? ==> Lookup(l.block, "name") == Some(Str(r.value.0.name.value))
    ensures r.Ok? ==> (r.value.0.definition.Some? <==> HasKey(l.block, "definition"))
    ensures r.Ok? && r.value.0.definition.Some? ==> Lookup(l.block, "definition") == Some(Str(r.value.0.definition.value))
    ensures r.Ok? ==> r.value.0.title == StrOr(l.block, "title", "")
    ensures r.Ok? ==> r.value.0.nominalOnly == BoolOr(l.block, "is_nominal_only", false)
    ensures r.Ok? ==> r.value.0.typeName == StrOr(l.block, "type", "undefined")
  {
    var (name, l1) :- GetStr(l, "name");
    var (title, l2) :- GetStrOr(l1, "title", "");
    var (definition, l3) :- GetStr(l2, "definition");
    var (nominalOnly, l4) :- GetBool(l3, "is_nominal_only", false);
    var (typeName, l5) :- GetStrOr(l4, "type", "undefined");
    Ok((RawHeader(name, title, definition, nominalOnly, typeName), l5))
  }

  /** The constructor's checks: the name present and free of "NOSYS", the
      definition present (the native setter cannot take None), and the
      lower-cased type one the table knows. */
  function CheckHeader(raw: RawHeader): (r: Result<Header>)
    ensures raw.name.None? || raw.definition.None? ==> r.Fail?
    ensures raw.name.Some? && StringOps.Contains(raw.name.value, "NOSYS") ==> r.Fail?
    ensures r.Ok? ==> raw.name == Some(r.value.name) && raw.definition == Some(r.value.definition)
    ensures r.Ok? ==> r.value.title == raw.title && r.value.nominalOnly == raw.nominalOnly
    ensures r.Ok? ==> NameOfType(r.value.vtype) == StringOps.ToLower(raw.typeName)
  {
    var lowered := StringOps.ToLower(raw.typeName);
    :- Need(raw.name.Some?, MissingOption("name"));
    :- Need(!StringOps.Contains(raw.name.value, "NOSYS"), InvalidValue("name"));
    :- Need(raw.definition.Some?, MissingOption("definition"));
    var vtype :- TypeNamed(lowered);
    TypeNamedPrintsBack(lowered);
    Ok(Header(raw.name.value, raw.title, raw.definition.value, raw.nominalOnly, vtype))
  }

  /** The constructor up to the binning. */
  function ReadHeader(l: Ledger): (r: Result<(Header, Ledger)>)
    ensures !HasKey(l.block, "name") || !HasKey(l.block, "definition") ==> r.Fail?
    ensures r.Ok? ==> r.value.1.block == l.block && l.used <= r.value.1.used <= l.used + HeaderOptions
    ensures r.Ok? ==> Lookup(l.block, "name") == Some(Str(r.value.0.name))
    ensures r.Ok? ==> !StringOps.Contains(r.value.0.name, "NOSYS")
    ensures r.Ok? ==> Lookup(l.block, "definition") == Some(Str(r.value.0.definition))
    ensures r.Ok? ==> r.value.0.title == StrOr(l.block, "title", "")
    ensures r.Ok? ==> NameOfType(r.value.0.vtype) == StringOps.ToLower(StrOr(l.block, "type", "undefined"))
  {
    var (raw, l1) :- ReadRawHeader(l);
    var header :- CheckHeader(raw);
    Ok((header, l1))
  }

  /** BlockReaderVariable: the header, then the binning, then no option
      left unread. */
  function ReadVariable(b: Block): (r: Result<Variable>)
    ensures !HasKey(b, "name") || !HasKey(b, "definition") || !HasKey(b, "binning") ==> r.Fail?
    ensures r.Ok? ==> Lookup(b, "name") == Some(Str(r.value.name)) && !StringOps.Contains(r.value.name, "NOSYS")
    ensures r.Ok? ==> Lookup(b, "definition") == Some(Str(r.value.definition))
    ensures r.Ok? ==> r.value.title == StrOr(b, "title", "")
    ensures r.Ok? ==> NameOfType(r.value.vtype) == StringOps.ToLower(StrOr(b, "type", "undefined"))
    ensures r.Ok? ==> forall k :: k in Keys(b) ==> k in VariableOptions
    ensures r.Ok? ==> BinningAccepted(b, r.value.binning)
  {
    var (header, l1) :- ReadHeader(Fresh(b));
    var (binning, l2) :- GetBlock(l1, "binning");
    :- Need(binning.Some?, MissingOption("binning"));
    var spec :- ReadBinningSpec(binning.value);
    var axis :- ApplyBinning(DefaultBinning(), spec);
    var unused := Unused(l2);
    :- Need(|unused| == 0, UnusedOptions(unused));
    NothingUnused(l2);
    Ok(NewVariable(header.name).(definition := header.definition, title := header.title,
                                 nominalOnly := header.nominalOnly, vtype := header.vtype, binning := axis))
  }

  /** The block's binning block reads to an accepted binning, and setting it
      on a fresh variable gives `axis`. */
  predicate BinningAccepted(b: Block, axis: Binning) {
    match Lookup(b, "binning")
    case Some(Dict(bb)) =>
      var spec := ReadBinningSpec(bb);
      spec.Ok? && Accepted(spec.value) && ApplyBinning(DefaultBinning(), spec.value) == Ok(axis)
    case _ => false
  }

  /** Bin edges together with a bin count, the range left at its default,
      are read as an edges binning: the count is silently kept aside. */
  lemma EdgesWithBinCountAccepted()
    ensures Accepted(BinningSpec(0.0, 0.0, 5, [0.0, 1.0, 2.0]))
    ensures ApplyBinning(DefaultBinning(), BinningSpec(0.0, 0.0, 5, [0.0, 1.0, 2.0])).Ok?
    ensures !Accepted(BinningSpec(0.0, 1.0, 5, [0.0, 1.0, 2.0]))
    ensures !Accepted(BinningSpec(0.0, 1.0, 5, [0.0]))
  {
  }
}

=== FILE: wrappers.dfy ===
/** Outcome types shared by the whole model.

    Every failure of the configuration front end and of the native helpers is
    fatal: the Python readers log an error and exit, the C++ helpers throw.
    `Result` carries either a value or the `Error` that stops the program. */
module Wrappers {

  /** The conventional optional value. */
  datatype Option<+T> = None | Some(value: T) {
    predicate IsFailure() { None? }

    function PropagateFailure<U>(): Option<U>
      requires None?
    {
      None
    }

    function Extract(): T
      requires Some?
    {
      value
    }

    /** The value, or `default` when there is none. */
    function GetOr(default: T): (r: T)
      ensures Some? ==> r == value
      ensures None? ==> r == default
    {
      if Some? then value else default
    }
  }

  /** Why the program stops. The payload names the option, entity or file
      the message in the source is about. */
  datatype Error =
    | MissingOption(option: string)              // a required option is absent
    | WrongType(option: string)                  // a value of a type that is not allowed
    | UnusedOptions(options: seq<string>)        // options that nobody read
    | ConflictingOptions(first: string, second: string)
    | UnknownReference(name: string)             // a name that refers to no entity
    | DuplicateName(name: string)
    | InvalidValue(option: string)               // a value of the right type but a wrong form
    | Runtime(what: string)                      // a native std::runtime_error / invalid_argument

  /** Either a value or the fatal error. Usable with `:-`. */
  datatype Result<+T> = Ok(value: T) | Fail(error: Error) {
    predicate IsFailure() { Fail? }

    function PropagateFailure<U>(): Result<U>
      requires Fail?
    {
      Fail(error)
    }

    function Extract(): T
      requires Ok?
    {
      value
    }
  }

  /** `f` applied to every element in order, stopping at the first failure. */
  function MapAll<A, B>(xs: seq<A>, f: A -> Result<B>): (r: Result<seq<B>>)
    ensures r.Ok? <==> forall k :: 0 <= k < |xs| ==> f(xs[k]).Ok?
    ensures r.Ok? ==> |r.value| == |xs| && forall k :: 0 <= k < |xs| ==> f(xs[k]) == Ok(r.value[k])
    ensures r.Fail? ==> exists k :: 0 <= k < |xs| && f(xs[k]) == Fail(r.error)
    decreases |xs|
  {
    if |xs| == 0 then Ok([])
    else
      var first := f(xs[0]);
      var rest := MapAll(xs[1..], f);
      assert forall k :: 1 <= k < |xs| ==> xs[k] == xs[1..][k - 1];
      if first.Fail? then Fail(first.error)
      else if rest.Fail? then Fail(rest.error)
      else Ok([first.value] + rest.value)
  }

  /** `f` applied to every element in order and the pieces joined,
      stopping at the first failure. */
  function ConcatAll<A, B>(xs: seq<A>, f: A -> Result<seq<B>>): (r: Result<seq<B>>)
    ensures r.Ok? <==> forall k :: 0 <= k < |xs| ==> f(xs[k]).Ok?
    ensures r.Ok? ==> forall i :: 0 <= i < |r.value| ==>
      exists k :: 0 <= k < |xs| && f(xs[k]).Ok? && r.value[i] in f(xs[k]).value
    ensures r.Fail? ==> exists k :: 0 <= k < |xs| && f(xs[k]) == Fail(r.error)
    decreases |xs|
  {
    if |xs| == 0 then Ok([])
    else
      var first := f(xs[0]);
      var rest := ConcatAll(xs[1..], f);
      assert forall k :: 1 <= k < |xs| ==> xs[k] == xs[1..][k - 1];
      if first.Fail? then Fail(first.error)
      else if rest.Fail? then Fail(rest.error)
      else
        var all := first.value + rest.value;
        assert forall i :: |first.value| <= i < |all| ==> all[i] == rest.value[i - |first.value|];
        Ok(all)
  }

  /** A successful join is the first piece followed by the join of the
      rest. */
  lemma ConcatAllCons<A, B>(xs: seq<A>, f: A -> Result<seq<B>>)
    requires |xs| > 0 && ConcatAll(xs, f).Ok?
    ensures f(xs[0]).Ok? && ConcatAll(xs[1..], f).Ok?
    ensures ConcatAll(xs, f).value == f(xs[0]).value + ConcatAll(xs[1..], f).value
  {
  }

  /** Pieces of `lo` to `hi` elements each join into `lo` to `hi` elements
      per input. */
  lemma {:induction false} ConcatAllLength<A, B>(xs: seq<A>, f: A -> Result<seq<B>>, lo: nat, hi: nat)
    requires ConcatAll(xs, f).Ok?
    requires forall k :: 0 <= k < |xs| ==> f(xs[k]).Ok? && lo <= |f(xs[k]).value| <= hi
    ensures lo * |xs| <= |ConcatAll(xs, f).value| <= hi * |xs|
    decreases |xs|
  {
    if |xs| > 0 {
      var tail := xs[1..];
      ConcatAllCons(xs, f);
      forall k | 0 <= k < |tail|
        ensures f(tail[k]).Ok? && lo <= |f(tail[k]).value| <= hi
      {
        assert tail[k] == xs[k + 1];
      }
      ConcatAllLength(tail, f, lo, hi);
      MulStep(lo, |tail|);
      MulStep(hi, |tail|);
    }
  }

  /** Multiplication by one more. */
  lemma MulStep(c: nat, n: nat)
    ensures c * (n + 1) == c + c * n
  {
  }

  /** A check that either passes or stops the program. Usable with a bare
      `:-`. */
  datatype Outcome = Pass | Stop(error: Error) {
    predicate IsFailure() { Stop? }

    function PropagateFailure<U>(): Result<U>
      requires Stop?
    {
      Fail(error)
    }
  }

  /** `Pass` when `condition` holds, otherwise the failure `e`. */
  function Need(condition: bool, e: Error): (r: Outcome)
    ensures r.Pass? <==> condition
    ensures r.Stop? ==> r.error == e
  {
    if condition then Pass else Stop(e)
  }
}

=== FILE: xsection_manager.dfy ===
/** The cross-section manager (XSectionManager): cross-section text files
    in the TopDataPreparation or the PMG format are read line by line into a
    map from dataset number to cross-section and e-tag.

    Reading a file is I/O, so a file is given by its lines. Parsing a
    floating-point number, testing that a string is one, and comparing two
    cross-sections within the manager's tolerance (1e-3) are the
    parameters in `Numerics`. */
module XSections {
  import opened Wrappers
  import opened StringOps
  import Seqs

  /** stringIsDouble, std::stod and compareDoubles at the tolerance. */
  datatype Numerics = Numerics(isDouble: string -> bool, toDouble: string -> real,
                               compatible: (real, real) -> bool)

  datatype XSectionData = XSectionData(xSection: real, eTag: int)

  /** Dataset number to cross-section and e-tag. */
  type XSectionMap = map<int, XSectionData>

  datatype FileType = TopDataPreparation | Pmg | Unknown

  datatype XFile = XFile(name: string, lines: seq<string>)

  /** The column header of a PMG file. */
  const PmgHeader: string :=
    "dataset_number/I:physics_short/C:crossSection_pb/D:genFiltEff/D:kFactor/D:relUncertUP/D:relUncertDOWN/D:generator_name/C:etag/C"

  // ---------------------------------------------------------------------
  // Lines and columns

  /** validLine: something is left after stripping white space, and it does
      not start with '#'. */
  predicate ValidLine(line: string) {
    var t := Strip(line, Whitespace);
    |t| > 0 && t[0] != '#'
  }

  /** Position k holds the first character of the line that is not white
      space. */
  predicate FirstNonBlankAt(line: string, k: int) {
    0 <= k < |line| && line[k] !in Whitespace && forall j :: 0 <= j < k ==> line[j] in Whitespace
  }

  /** A line is valid exactly when it has a character other than white
      space and the first such character is not '#'. */
  lemma ValidLineMeansFirstNonBlank(line: string)
    ensures ValidLine(line) <==> exists k :: FirstNonBlankAt(line, k) && line[k] != '#'
  {
    var left := StripLeft(line, Whitespace);
    var t := Strip(line, Whitespace);
    var k := |line| - |left|;
    assert t == StripRight(left, Whitespace);
    if |left| > 0 {
      assert FirstNonBlankAt(line, k);
      assert left[0] in line && left[0] !in Whitespace;
      assert |t| > 0 && t[0] == left[0];
      forall k' | FirstNonBlankAt(line, k') ensures k' == k {
      }
    } else {
      forall k' | 0 <= k' < |line| ensures line[k'] in Whitespace {
      }
    }
  }

  /** validTopDataPreparationFileColumns: at least three columns, an integer
      and two floating-point numbers. */
  predicate ValidTopColumns(nums: Numerics, cols: seq<string>) {
    |cols| >= 3 && IsInt(cols[0]) && nums.isDouble(cols[1]) && nums.isDouble(cols[2])
  }

  /** validPMGFileColumns: at least nine columns; the dataset number, three
      floating-point numbers in columns 2 to 4, and an e-tag "e" followed by
      an integer in column 8. */
  predicate ValidPmgColumns(nums: Numerics, cols: seq<string>) {
    |cols| >= 9 && IsInt(cols[0]) && nums.isDouble(cols[2]) && nums.isDouble(cols[3]) &&
    nums.isDouble(cols[4]) && StartsWith(cols[8], "e") && IsInt(cols[8][1..])
  }

  /** getFileType: the first valid line decides. */
  function FileTypeOf(nums: Numerics, lines: seq<string>): (t: FileType)
    ensures (forall k :: 0 <= k < |lines| ==> !ValidLine(lines[k])) ==> t == Unknown
    decreases |lines|
  {
    if |lines| == 0 then Unknown
    else if !ValidLine(lines[0]) then FileTypeOf(nums, lines[1..])
    else
      var cols := SplitByWhitespace(lines[0]);
      if ValidTopColumns(nums, cols) then TopDataPreparation
      else if ValidPmgColumns(nums, cols) || StartsWith(lines[0], PmgHeader) then Pmg
      else Unknown
  }

  /** Comment and blank lines in front do not change the type. */
  lemma {:induction false} FileTypeSkipsInvalidLines(nums: Numerics, front: seq<string>, rest: seq<string>)
    requires forall k :: 0 <= k < |front| ==> !ValidLine(front[k])
    ensures FileTypeOf(nums, front + rest) == FileTypeOf(nums, rest)
    decreases |front|
  {
    if |front| > 0 {
      var lines := front + rest;
      assert lines[0] == front[0];
      assert !ValidLine(lines[0]);
      assert lines[1..] == front[1..] + rest;
      assert FileTypeOf(nums, lines) == FileTypeOf(nums, lines[1..]);
      FileTypeSkipsInvalidLines(nums, front[1..], rest);
    } else {
      assert front + rest == rest;
    }
  }

  // ---------------------------------------------------------------------
  // The two update policies

  /** The dataset is read: the list of used dataset numbers is empty or
      holds it. */
  predicate Used(used: seq<int>, dsid: int) {
    |used| == 0 || dsid in used
  }

  /** The map update of a TopDataPreparation line: unused datasets are
      ignored; a dataset already there must have a compatible value, and
      keeps the value it had; a new one is stored with e-tag 0. */
  function MergeTop(nums: Numerics, used: seq<int>, m: XSectionMap, dsid: int, xsec: real): (r: Result<XSectionMap>)
    ensures r.Fail? <==> Used(used, dsid) && dsid in m && !nums.compatible(m[dsid].xSection, xsec)
    ensures r.Ok? && (!Used(used, dsid) || dsid in m) ==> r.value == m
    ensures r.Ok? && Used(used, dsid) && dsid !in m ==> r.value == m[dsid := XSectionData(xsec, 0)]
    ensures r.Ok? ==> TopStep(used, m, r.value) && (Used(used, dsid) ==> dsid in r.value)
  {
    if !Used(used, dsid) then Ok(m)
    else if dsid in m && !nums.compatible(m[dsid].xSection, xsec) then
      Fail(Runtime("The following dsid was found multiple times in the x-section text files"))
    else if dsid in m then Ok(m)
    else Ok(m[dsid := XSectionData(xsec, 0)])
  }

  /** The map update of a PMG line: unused datasets are ignored; a new
      dataset is stored; a stored e-tag that is not positive or equal to the
      new one needs a compatible value and keeps the entry; a newer e-tag
      replaces the entry and an older one is ignored. */
  function MergePmg(nums: Numerics, used: seq<int>, m: XSectionMap, dsid: int, xsec: real, etag: int): (r: Result<XSectionMap>)
    ensures r.Fail? <==> Used(used, dsid) && dsid in m && (m[dsid].eTag <= 0 || m[dsid].eTag == etag) &&
                         !nums.compatible(m[dsid].xSection, xsec)
    ensures r.Ok? && Used(used, dsid) && (dsid !in m || 0 < m[dsid].eTag < etag) ==>
              r.value == m[dsid := XSectionData(xsec, etag)]
    ensures r.Ok? && !(Used(used, dsid) && (dsid !in m || 0 < m[dsid].eTag < etag)) ==> r.value == m
    ensures r.Ok? ==> PmgStep(used, m, r.value) && (Used(used, dsid) ==> dsid in r.value)
  {
    if !Used(used, dsid) then Ok(m)
    else if dsid in m then
      var prev := m[dsid];
      if prev.eTag <= 0 || prev.eTag == etag then
        if !nums.compatible(prev.xSection, xsec) then
          Fail(Runtime("The cross section for this DSID is defined multiple times with incompatible cross-sections"))
        else Ok(m)
      else if prev.eTag < etag then Ok(m[dsid := XSectionData(xsec, etag)])
      else Ok(m)
    else Ok(m[dsid := XSectionData(xsec, etag)])
  }

  /** Two PMG lines for one dataset with different positive e-tags leave
      the entry of the newer e-tag, whichever line comes first. */
  lemma LatestETagWins(nums: Numerics, used: seq<int>, m: XSectionMap, dsid: int,
                       x1: real, e1: int, x2: real, e2: int)
    requires Used(used, dsid) && dsid !in m && 0 < e1 < e2
    ensures MergePmg(nums, used, m, dsid, x1, e1).Ok? && MergePmg(nums, used, m, dsid, x2, e2).Ok?
    ensures MergePmg(nums, used, MergePmg(nums, used, m, dsid, x1, e1).value, dsid, x2, e2) ==
            Ok(m[dsid := XSectionData(x2, e2)])
    ensures MergePmg(nums, used, MergePmg(nums, used, m, dsid, x2, e2).value, dsid, x1, e1) ==
            Ok(m[dsid := XSectionData(x2, e2)])
  {
    var first := m[dsid := XSectionData(x1, e1)];
    assert first[dsid := XSectionData(x2, e2)] == m[dsid := XSectionData(x2, e2)];
  }

  /** A TopDataPreparation line never changes a stored value: after a PMG
      value, a compatible one is accepted and the PMG entry stays. */
  lemma TopKeepsPmgValue(nums: Numerics, used: seq<int>, m: XSectionMap, dsid: int, xsec: real)
    requires dsid in m && Used(used, dsid) && nums.compatible(m[dsid].xSection, xsec)
    ensures MergeTop(nums, used, m, dsid, xsec) == Ok(m)
  {
  }

  // ---------------------------------------------------------------------
  // Lines and files

  /** A line that names a cross-section: valid, with valid
      TopDataPreparation columns. */
  predicate TopEntry(nums: Numerics, line: string) {
    ValidLine(line) && ValidTopColumns(nums, SplitByWhitespace(line))
  }

  /** A line that names a cross-section in the PMG format: valid, not the
      header, with valid PMG columns. */
  predicate PmgEntry(nums: Numerics, line: string) {
    ValidLine(line) && !StartsWith(line, "dataset_number/I") && ValidPmgColumns(nums, SplitByWhitespace(line))
  }

  /** The dataset number in the first column. */
  function LineDsid(line: string): int
    requires |SplitByWhitespace(line)| > 0 && IsInt(SplitByWhitespace(line)[0])
  {
    DigitsValue(SplitByWhitespace(line)[0])
  }

  /** The cross-section of a TopDataPreparation line: the value times the
      k-factor. */
  function TopValue(nums: Numerics, cols: seq<string>): real
    requires |cols| >= 3
  {
    nums.toDouble(cols[1]) * nums.toDouble(cols[2])
  }

  /** processTopDataPreparationLine: invalid lines are skipped, a valid line
      with bad columns is fatal; the cross-section is the product of the
      value and the k-factor. */
  function ProcessTopLine(nums: Numerics, used: seq<int>, m: XSectionMap, line: string): (r: Result<XSectionMap>)
    ensures !ValidLine(line) ==> r == Ok(m)
    ensures ValidLine(line) && !ValidTopColumns(nums, SplitByWhitespace(line)) ==> r.Fail?
    ensures TopEntry(nums, line) ==> r == MergeTop(nums, used, m, LineDsid(line), TopValue(nums, SplitByWhitespace(line)))
    ensures r.Ok? ==> TopStep(used, m, r.value)
    ensures r.Ok? && TopEntry(nums, line) && Used(used, LineDsid(line)) ==> LineDsid(line) in r.value
  {
    if !ValidLine(line) then Ok(m)
    else
      var cols := SplitByWhitespace(line);
      if !ValidTopColumns(nums, cols) then Fail(InvalidValue("Invalid line in x-section text file: " + line))
      else MergeTop(nums, used, m, DigitsValue(cols[0]), TopValue(nums, cols))
  }

  /** The cross-section of a PMG line: the value times the k-factor times
      the filter efficiency. */
  function PmgValue(nums: Numerics, cols: seq<string>): real
    requires |cols| >= 5
  {
    nums.toDouble(cols[2]) * nums.toDouble(cols[4]) * nums.toDouble(cols[3])
  }

  /** The e-tag of a PMG line: the number after the "e" in column 8. */
  function PmgETag(cols: seq<string>): int
    requires |cols| >= 9 && |cols[8]| > 0 && IsInt(cols[8][1..])
  {
    DigitsValue(cols[8][1..])
  }

  /** processPMGLine: invalid lines and the header are skipped, a valid
      line with bad columns is fatal; the cross-section is the product of
      the value, the k-factor and the filter efficiency, and the e-tag is the
      number after the "e". */
  function ProcessPmgLine(nums: Numerics, used: seq<int>, m: XSectionMap, line: string): (r: Result<XSectionMap>)
    ensures !ValidLine(line) || StartsWith(line, "dataset_number/I") ==> r == Ok(m)
    ensures ValidLine(line) && !StartsWith(line, "dataset_number/I") && !ValidPmgColumns(nums, SplitByWhitespace(line)) ==> r.Fail?
    ensures PmgEntry(nums, line) ==>
              r == MergePmg(nums, used, m, LineDsid(line), PmgValue(nums, SplitByWhitespace(line)), PmgETag(SplitByWhitespace(line)))
    ensures r.Ok? ==> PmgStep(used, m, r.value)
    ensures r.Ok? && PmgEntry(nums, line) && Used(used, LineDsid(line)) ==> LineDsid(line) in r.value
  {
    if !ValidLine(line) || StartsWith(line, "dataset_number/I") then Ok(m)
    else
      var cols := SplitByWhitespace(line);
      if !ValidPmgColumns(nums, cols) then Fail(InvalidValue("Invalid line in x-section text file: " + line))
      else
        MergePmg(nums, used, m, DigitsValue(cols[0]), PmgValue(nums, cols), PmgETag(cols))
  }

  /** The map only grows, each new dataset number is a used one, and the
      entries already there are kept. */
  predicate KeptAndUsed(used: seq<int>, m: XSectionMap, r: XSectionMap) {
    (forall d :: d in m ==> d in r) && (forall d :: d in r && d !in m ==> Used(used, d))
  }

  /** A TopDataPreparation step: the map grows by used datasets only and
      every stored value is kept. */
  predicate TopStep(used: seq<int>, m: XSectionMap, r: XSectionMap) {
    KeptAndUsed(used, m, r) && forall d :: d in m ==> r[d] == m[d]
  }

  /** A PMG step: the map grows by used datasets only and no stored e-tag
      decreases. */
  predicate PmgStep(used: seq<int>, m: XSectionMap, r: XSectionMap) {
    KeptAndUsed(used, m, r) && forall d :: d in m ==> r[d].eTag >= m[d].eTag
  }

  lemma TopStepTrans(used: seq<int>, a: XSectionMap, b: XSectionMap, c: XSectionMap)
    requires TopStep(used, a, b) && TopStep(used, b, c)
    ensures TopStep(used, a, c)
  {
  }

  lemma PmgStepTrans(used: seq<int>, a: XSectionMap, b: XSectionMap, c: XSectionMap)
    requires PmgStep(used, a, b) && PmgStep(used, b, c)
    ensures PmgStep(used, a, c)
  {
  }

  /** The lines of a TopDataPreparation file, in order; every entry there
      before keeps its value. */
  function ReadTopLines(nums: Numerics, used: seq<int>, m: XSectionMap, lines: seq<string>): (r: Result<XSectionMap>)
    ensures r.Ok? ==> TopStep(used, m, r.value)
    decreases |lines|
  {
    if |lines| == 0 then Ok(m)
    else
      match ProcessTopLine(nums, used, m, lines[0])
      case Fail(e) => Fail(e)
      case Ok(m1) =>
        var r := ReadTopLines(nums, used, m1, lines[1..]);
        if r.Ok? then TopStepTrans(used, m, m1, r.value); r else r
  }

  /** The lines of a PMG file, in order; no stored e-tag ever decreases. */
  function ReadPmgLines(nums: Numerics, used: seq<int>, m: XSectionMap, lines: seq<string>): (r: Result<XSectionMap>)
    ensures r.Ok? ==> PmgStep(used, m, r.value)
    decreases |lines|
  {
    if |lines| == 0 then Ok(m)
    else
      match ProcessPmgLine(nums, used, m, lines[0])
      case Fail(e) => Fail(e)
      case Ok(m1) =>
        var r := ReadPmgLines(nums, used, m1, lines[1..]);
        if r.Ok? then PmgStepTrans(used, m, m1, r.value); r else r
  }

  /** Once the lines of a TopDataPreparation file are read, every used
      dataset named on one of them has a cross-section. */
  lemma {:induction false} ReadTopLinesStores(nums: Numerics, used: seq<int>, m: XSectionMap, lines: seq<string>)
    requires ReadTopLines(nums, used, m, lines).Ok?
    ensures forall k :: 0 <= k < |lines| && TopEntry(nums, lines[k]) && Used(used, LineDsid(lines[k])) ==>
              LineDsid(lines[k]) in ReadTopLines(nums, used, m, lines).value
    decreases |lines|
  {
    if |lines| > 0 {
      var m1 := ProcessTopLine(nums, used, m, lines[0]).value;
      var r := ReadTopLines(nums, used, m1, lines[1..]);
      ReadTopLinesStores(nums, used, m1, lines[1..]);
      forall k | 0 <= k < |lines| && TopEntry(nums, lines[k]) && Used(used, LineDsid(lines[k]))
        ensures LineDsid(lines[k]) in r.value
      {
        if k > 0 {
          assert lines[k] == lines[1..][k - 1];
        }
      }
    }
  }

  /** Once the lines of a PMG file are read, every used dataset named on
      one of them has a cross-section. */
  lemma {:induction false} ReadPmgLinesStores(nums: Numerics, used: seq<int>, m: XSectionMap, lines: seq<string>)
    requires ReadPmgLines(nums, used, m, lines).Ok?
    ensures forall k :: 0 <= k < |lines| && PmgEntry(nums, lines[k]) && Used(used, LineDsid(lines[k])) ==>
              LineDsid(lines[k]) in ReadPmgLines(nums, used, m, lines).value
    decreases |lines|
  {
    if |lines| > 0 {
      var m1 := ProcessPmgLine(nums, used, m, lines[0]).value;
      var r := ReadPmgLines(nums, used, m1, lines[1..]);
      ReadPmgLinesStores(nums, used, m1, lines[1..]);
      forall k | 0 <= k < |lines| && PmgEntry(nums, lines[k]) && Used(used, LineDsid(lines[k]))
        ensures LineDsid(lines[k]) in r.value
      {
        if k > 0 {
          assert lines[k] == lines[1..][k - 1];
        }
      }
    }
  }

  /** readXSectionFile: a file of unknown type is fatal. */
  function ReadFile(nums: Numerics, used: seq<int>, m: XSectionMap, f: XFile): (r: Result<XSectionMap>)
    ensures FileTypeOf(nums, f.lines) == Unknown ==> r.Fail?
    ensures r.Ok? ==> KeptAndUsed(used, m, r.value)
  {
    match FileTypeOf(nums, f.lines)
    case TopDataPreparation => ReadTopLines(nums, used, m, f.lines)
    case Pmg => ReadPmgLines(nums, used, m, f.lines)
    case Unknown => Fail(Runtime("Unsupported x-section file type: " + f.name))
  }

  function ReadFiles(nums: Numerics, used: seq<int>, m: XSectionMap, files: seq<XFile>): (r: Result<XSectionMap>)
    ensures r.Ok? ==> KeptAndUsed(used, m, r.value)
    decreases |files|
  {
    if |files| == 0 then Ok(m)
    else
      match ReadFile(nums, used, m, files[0])
      case Fail(e) => Fail(e)
      case Ok(m1) => ReadFiles(nums, used, m1, files[1..])
  }

  predicate IsPmgFile(nums: Numerics, f: XFile) {
    FileTypeOf(nums, f.lines) == Pmg
  }

  function PmgTest(nums: Numerics): XFile -> bool {
    f => IsPmgFile(nums, f)
  }

  /** The reading order: PMG files first, so that a TopDataPreparation value
      is checked against the PMG value of the latest e-tag. */
  function PmgFirst(nums: Numerics, files: seq<XFile>): seq<XFile> {
    Seqs.Partition(files, PmgTest(nums))
  }

  /** The reading order holds the same files, and no PMG file comes after a
      file of another type. */
  lemma PmgFirstOrder(nums: Numerics, files: seq<XFile>)
    ensures multiset(PmgFirst(nums, files)) == multiset(files)
    ensures forall i, j :: 0 <= i < j < |PmgFirst(nums, files)| && IsPmgFile(nums, PmgFirst(nums, files)[j]) ==>
              IsPmgFile(nums, PmgFirst(nums, files)[i])
  {
    Seqs.PartitionOrder(files, PmgTest(nums));
  }

  /** The XSectionManager constructor: every file read, PMG files first. */
  function NewManager(nums: Numerics, files: seq<XFile>, used: seq<int>): (r: Result<XSectionMap>)
    ensures r.Ok? ==> forall d :: d in r.value ==> Used(used, d)
  {
    ReadFiles(nums, used, map[], PmgFirst(nums, files))
  }

  /** A line of the file that names a cross-section in the file's format. */
  predicate FileEntry(nums: Numerics, f: XFile, line: string) {
    match FileTypeOf(nums, f.lines)
    case TopDataPreparation => TopEntry(nums, line)
    case Pmg => PmgEntry(nums, line)
    case Unknown => false
  }

  /** Once a file is read, every used dataset named on one of its lines has
      a cross-section. */
  lemma ReadFileStores(nums: Numerics, used: seq<int>, m: XSectionMap, f: XFile)
    requires ReadFile(nums, used, m, f).Ok?
    ensures forall k :: 0 <= k < |f.lines| && FileEntry(nums, f, f.lines[k]) && Used(used, LineDsid(f.lines[k])) ==>
              LineDsid(f.lines[k]) in ReadFile(nums, used, m, f).value
  {
    match FileTypeOf(nums, f.lines)
    case TopDataPreparation => ReadTopLinesStores(nums, used, m, f.lines);
    case Pmg => ReadPmgLinesStores(nums, used, m, f.lines);
    case Unknown =>
  }

  /** Once files are read, every used dataset named on a line of any of
      them has a cross-section. */
  lemma {:induction false} ReadFilesStores(nums: Numerics, used: seq<int>, m: XSectionMap, files: seq<XFile>)
    requires ReadFiles(nums, used, m, files).Ok?
    ensures forall f, k :: f in files && 0 <= k < |f.lines| && FileEntry(nums, f, f.lines[k]) && Used(used, LineDsid(f.lines[k])) ==>
              LineDsid(f.lines[k]) in ReadFiles(nums, used, m, files).value
    decreases |files|
  {
    if |files| > 0 {
      var m1 := ReadFile(nums, used, m, files[0]).value;
      var r := ReadFiles(nums, used, m1, files[1..]).value;
      ReadFileStores(nums, used, m, files[0]);
      ReadFilesStores(nums, used, m1, files[1..]);
      forall f, k | f in files && 0 <= k < |f.lines| && FileEntry(nums, f, f.lines[k]) && Used(used, LineDsid(f.lines[k]))
        ensures LineDsid(f.lines[k]) in r
      {
        if f != files[0] {
          assert f in files[1..];
        }
      }
    }
  }

  /** The manager knows every used dataset named on a line of any file. */
  lemma NewManagerStores(nums: Numerics, files: seq<XFile>, used: seq<int>)
    requires NewManager(nums, files, used).Ok?
    ensures forall f, k :: f in files && 0 <= k < |f.lines| && FileEntry(nums, f, f.lines[k]) && Used(used, LineDsid(f.lines[k])) ==>
              LineDsid(f.lines[k]) in NewManager(nums, files, used).value
  {
    PmgFirstOrder(nums, files);
    ReadFilesStores(nums, used, map[], PmgFirst(nums, files));
    forall f | f in files ensures f in PmgFirst(nums, files) {
      assert f in multiset(files);
    }
  }

  /** xSection: an unknown dataset number is fatal. */
  function XSection(m: XSectionMap, dsid: int): (r: Result<real>)
    ensures r.Fail? <==> dsid !in m
    ensures r.Ok? ==> r.value == m[dsid].xSection
  {
    if dsid in m then Ok(m[dsid].xSection)
    else Fail(Runtime("Cannot find cross section for DSID, please update your x-section file"))
  }
}
